=== FILE: README.md ===
# Live-ops event review and config-change analysis, modelled in Dafny

This project models the computing core of a set of tools for game live-ops teams:

- **Seven-dimension event review (v2).** The review data of one event is checked block by block, then analysed along seven dimensions:
  - funnel reach and bottlenecks;
  - in-event behaviour;
  - the payment overview against the other events of the series;
  - R-tier (paying tier) structure;
  - payment conversion by price interval;
  - core-reward deviations;
  - gift-package health.

  Each analysis grades the event on the severity scale 正常 < 关注 < 异常 < 严重. The report assembler turns the results into the overall verdict, three key findings, module sections in a fixed order, and P0/P1/P2 suggestion buckets. The workbook reader's value rules are modelled too: benchmark tags and names, numbers in cells, the ARPU/ARPPU back-fill, funnel and conversion rows, and the R-tier order.
- **First-generation event review (v1).** Covered parts:
  - the input check, with its module alias correction;
  - the choice of current, previous and benchmark events;
  - year-on-year and period-on-period changes, the V-shape test and module revenue shares;
  - workbook cell rules and the classification-based filling of sub-activity types;
  - per-module revenue;
  - the percentage formats, summary bands, tier rows and action items of the review page.
- **Exchange-shop analysis.** The pasted-table parser, keyword categorisation, the derived fields, item validation, and the analyzer. The analyzer covers:
  - the normal/high-price split;
  - the overview;
  - saturation buckets;
  - consumption per category;
  - two median-based quadrant placements;
  - the high-price item review;
  - purchase-limit suggestions.
- **Git config-change tools.** Covered parts:
  - parsing of `git log`, `--name-status` and branch listings, and of unified diff bodies;
  - table names from file names;
  - the config agent's per-table merge (change-type priority D > A > M), grouping and report lists;
  - the AI analyzer's prompt limits, reply reading and no-model fallbacks;
  - the AI report's counts and its category and priority buckets.

Pure logic is written as datatypes, functions and lemmas. Code that builds lists and dicts in loops or rewrites records in place is written as methods with loop invariants, and each method is proved against a specification function. Amounts and rates are exact `real`s. Python's `round(x, k)` is a half-up decimal rounding (`Numeric.Round`); the proofs use only its monotonicity, `Round(0) = 0` and its distance to `x`. Square-root comparisons become comparisons of squares. The modules `Wrappers`, `Numeric`, `Strings`, `Sorting`, `Dicts`, `Json` and `Cells` hold the Python semantics the models share: optional values, sums, string operations, a stable sort, insertion-ordered dicts, decoded JSON values, and worksheet cells.

## Model

| member | source | states |
|---|---|---|
| BaseAnalyzer.ChangeRate | skills/generate_event_review_v2/scripts/analyzers/base_analyzer.py:31-35 | with a zero baseline the rate is 0 exactly when the current value is 0 and 100 otherwise; with a non-zero baseline it is the raw percentage change to within the two-decimal rounding; equal values give 0; a rise over a positive baseline is never negative |
| BaseAnalyzer.RawChangeSign | skills/generate_event_review_v2/scripts/analyzers/base_analyzer.py:35 | before rounding, the change over a positive baseline has the sign of current minus previous, and is 0 for equal values |
| BaseAnalyzer.ChangeSign | skills/generate_event_review_v2/scripts/analyzers/base_analyzer.py:73-76 | a formatted change carries "+" exactly when the rate is positive |
| BaseAnalyzer.SeverityFromChange | skills/generate_event_review_v2/scripts/analyzers/base_analyzer.py:78-88 | the band of the effective rate (negated when a fall is good): at least 5 gives 正常, at least -5 关注, at least -20 异常, else 严重 |
| BaseAnalyzer.SeverityMonotone | skills/generate_event_review_v2/scripts/analyzers/base_analyzer.py:78-88 | a better effective rate never yields a worse band, in both directions of goodness |
| BaseAnalyzer.SeverityNegate | skills/generate_event_review_v2/scripts/analyzers/base_analyzer.py:80 | the band of r when a fall is good equals the band of -r when a rise is good |
| BaseAnalyzer.DetectAnomaly | skills/generate_event_review_v2/scripts/analyzers/base_analyzer.py:37-63 | no indices for fewer than 3 values or a constant series; otherwise the indices are in range, strictly increasing, and are exactly those whose distance from the mean exceeds threshold times the population standard deviation |
| BaseAnalyzer.BoundaryIsNotAnOutlier | skills/generate_event_review_v2/scripts/analyzers/base_analyzer.py:61 | on [10,10,10,10,100] the mean is 28 and the variance 1296, and the strict comparison flags nothing at threshold 2 |
| BaseAnalyzer.EmptyEventMatches | skills/generate_event_review_v2/scripts/analyzers/payment_overview_analyzer.py:50 | an entry with an empty event name matches any event name |
| BaseAnalyzer.FirstMatch | skills/generate_event_review_v2/scripts/analyzers/payment_overview_analyzer.py:48-53 | the first of the first n entries whose event contains, or is contained in, the name; None when none of them matches |
| BaseAnalyzer.CurrentIndex | skills/generate_event_review_v2/scripts/analyzers/payment_overview_analyzer.py:44-56 | the current entry is the first matching one when the name is non-empty and something matches, and the last entry otherwise; always in range |
| BaseAnalyzer.FindCurrent | skills/generate_event_review_v2/scripts/analyzers/payment_overview_analyzer.py:44-56 | the search loop with its early break returns CurrentIndex |
| ReachAnalyzer.StepRateBounds | skills/generate_event_review_v2/scripts/analyzers/reach_analyzer.py:38-40 | with non-negative, non-increasing user counts a stage rate lies in [0, 100] |
| ReachAnalyzer.StageRates | skills/generate_event_review_v2/scripts/analyzers/reach_analyzer.py:35-47 | one entry per adjacent stage pair (none for fewer than 2 stages); entry i links stage i to stage i+1 with rate users[i+1]/users[i]×100, or 0 when users[i] is 0 |
| ReachAnalyzer.Bottleneck | skills/generate_event_review_v2/scripts/analyzers/reach_analyzer.py:49-51 | the bottleneck is the first pair of minimum rate: no rate is lower and every earlier rate is higher |
| ReachAnalyzer.Judge | skills/generate_event_review_v2/scripts/analyzers/reach_analyzer.py:95-115 | 严重 iff some rate is more than 15 points below the primary benchmark's same-index rate; else 异常 iff some rate is under its threshold (5 for a stage naming 付费, else 30); never 关注; the critical flag is set iff the verdict is not 正常; one suggestion per low pair, then one per drop |
| ReachAnalyzer.CompareAll | skills/generate_event_review_v2/scripts/analyzers/reach_analyzer.py:61-93 | the primary rates are those of the first comparison when it has at least 2 stages, else none; the recorded benchmarks are Recorded(comparisons) and the comparison lines CompareLines, one per current rate the benchmark also has, for each recorded benchmark in order |
| ReachAnalyzer.VersusPass | skills/generate_event_review_v2/scripts/analyzers/reach_analyzer.py:86-93 | one comparison line per current rate that the benchmark also has, in order |
| ReachAnalyzer.VersusLines | skills/generate_event_review_v2/scripts/analyzers/reach_analyzer.py:86-93 | as many lines as the shorter of the current and benchmark rate lists |
| ReachAnalyzer.RecordedMeaning | skills/generate_event_review_v2/scripts/analyzers/reach_analyzer.py:65-81 | each recorded benchmark is a comparison with at least 2 stages and its own rates; every such comparison is recorded; records keep the comparisons' order |
| ReachAnalyzer.RecordedSound | skills/generate_event_review_v2/scripts/analyzers/reach_analyzer.py:70-81 | each recorded benchmark is a comparison with at least 2 stages and its own rates |
| ReachAnalyzer.RecordedAt | skills/generate_event_review_v2/scripts/analyzers/reach_analyzer.py:70-81 | the k-th record is a comparison with at least 2 stages and its own rates |
| ReachAnalyzer.RecordedComplete | skills/generate_event_review_v2/scripts/analyzers/reach_analyzer.py:70-81 | every comparison with at least 2 stages is recorded |
| ReachAnalyzer.RecordedOrdered | skills/generate_event_review_v2/scripts/analyzers/reach_analyzer.py:65-81 | records keep the comparisons' order |
| ReachAnalyzer.RecordedIncreasing | skills/generate_event_review_v2/scripts/analyzers/reach_analyzer.py:65-81 | an earlier record comes from an earlier comparison |
| ReachAnalyzer.ProblemConclusion | skills/generate_event_review_v2/scripts/analyzers/reach_analyzer.py:119-121 | the problem conclusion never reads as the normal one |
| ReachAnalyzer.FunnelPass | skills/generate_event_review_v2/scripts/analyzers/reach_analyzer.py:35-59 | the stage rates, then with at least 2 stages the bottleneck line and the overall rate last/first×100 (0 for an empty first stage); nothing for fewer than 2 stages |
| ReachAnalyzer.Analyze | skills/generate_event_review_v2/scripts/analyzers/reach_analyzer.py:20-125 | the whole analysis: the stage rates, bottleneck and overall lines, primary rates from the first benchmark only, the severity cascade of Judge, the normal conclusion exactly when the severity is 正常, and the suggestions of the low and drop rules |
| ReachAnalyzer.PrimaryRatesBounds | skills/generate_event_review_v2/scripts/analyzers/reach_analyzer.py:70-75 | a benchmark funnel has one rate per adjacent stage pair, and when its user counts are non-negative and never grow, every rate lies in [0, 100] |
| BehaviorAnalyzer.FirstParticipation | skills/generate_event_review_v2/scripts/analyzers/behavior_analyzer.py:34-38 | the first funnel stage whose name contains 参与, None when no stage does |
| BehaviorAnalyzer.BaseUsers | skills/generate_event_review_v2/scripts/analyzers/behavior_analyzer.py:32-40 | the loop yields BaseOf(stages): the users of the first 参与 stage, falling back to the first stage when there is none or its count is 0, and 0 without stages |
| BehaviorAnalyzer.UsageList | skills/generate_event_review_v2/scripts/analyzers/behavior_analyzer.py:51-55 | at most one usage entry per metric |
| BehaviorAnalyzer.MetricSeverityMeaning | skills/generate_event_review_v2/scripts/analyzers/behavior_analyzer.py:66-72 | the metric severity is 异常 iff some metric with a positive benchmark falls more than 20%; 关注 iff none does and some falls between 10% and 20%; never 严重 |
| BehaviorAnalyzer.MetricStep | skills/generate_event_review_v2/scripts/analyzers/behavior_analyzer.py:45-80 | one metric: its change record (change only against a positive benchmark, usage rate only for units 人/次 with a positive base), its usage entry, a tip on a sharp drop, and the escalated severity |
| BehaviorAnalyzer.MetricPass | skills/generate_event_review_v2/scripts/analyzers/behavior_analyzer.py:42-80 | one change record and one detail line per metric, in input order; the usage list, the sharp-drop tips and the severity of MetricSeverity |
| BehaviorAnalyzer.Filter | skills/generate_event_review_v2/scripts/analyzers/behavior_analyzer.py:87-89 | a bucket keeps only items of the usage list that pass its test |
| BehaviorAnalyzer.FilterPartition | skills/generate_event_review_v2/scripts/analyzers/behavior_analyzer.py:87-89 | three exclusive, exhaustive tests split a list into buckets whose sizes add up to its length |
| BehaviorAnalyzer.Buckets | skills/generate_event_review_v2/scripts/analyzers/behavior_analyzer.py:86-89 | each bucket is the usage list sorted by descending rate, filtered by its test (>80, [5,80], <5); together they hold every rated item, each sorted |
| BehaviorAnalyzer.BucketedPartition | skills/generate_event_review_v2/scripts/analyzers/behavior_analyzer.py:83-89 | buckets that are Bucketed hold every rated item exactly once (none without rated items or base), each item passing its bucket's test, each bucket sorted by descending rate |
| BehaviorAnalyzer.FilterSorted | skills/generate_event_review_v2/scripts/analyzers/behavior_analyzer.py:86-89 | filtering a list sorted by descending rate keeps it sorted |
| BehaviorAnalyzer.UsagePass | skills/generate_event_review_v2/scripts/analyzers/behavior_analyzer.py:82-100 | buckets as in Buckets only with rated items and a positive base, else empty; the lines of UsageLines (base line, then high and low notes); the low-usage tip exactly when low usage is more than len(rated)//2 |
| BehaviorAnalyzer.UsageNotes | skills/generate_event_review_v2/scripts/analyzers/behavior_analyzer.py:84-98 | the base line, the high note naming at most three, the low note naming at most five, and the low-usage tip exactly when low usage is more than len(rated)//2 |
| BehaviorAnalyzer.DailyPass | skills/generate_event_review_v2/scripts/analyzers/behavior_analyzer.py:102-113 | no detection below 3 days; the indices are exactly the DAU outliers at threshold 2, strictly increasing; one date label and one detail line per index, in order |
| BehaviorAnalyzer.DauOutliersUnique | skills/generate_event_review_v2/scripts/analyzers/behavior_analyzer.py:104-108 | the anomalous-day list is determined by the days: two increasing index lists of exactly the outliers are equal |
| Numeric.IncreasingUnique | skills/generate_event_review_v2/scripts/analyzers/behavior_analyzer.py:104-108 | two strictly increasing index lists with the same members are equal |
| BehaviorAnalyzer.AnalysisSeverity | skills/generate_event_review_v2/scripts/analyzers/behavior_analyzer.py:66-118 | the final severity is 异常 iff some metric drops sharply (so 异常 is never overwritten); 关注 iff none does and a mild drop, the low-usage rule or an anomalous day applies |
| BehaviorAnalyzer.CountChange | skills/generate_event_review_v2/scripts/analyzers/behavior_analyzer.py:121-122 | a count of metrics whose change passes a test never exceeds the number of metrics |
| BehaviorAnalyzer.CountChangeZero | skills/generate_event_review_v2/scripts/analyzers/behavior_analyzer.py:121-122 | the count is 0 exactly when no metric with a change passes the test |
| BehaviorAnalyzer.VerdictMeaning | skills/generate_event_review_v2/scripts/analyzers/behavior_analyzer.py:123-138 | the usage-only verdict exactly when there are rated items and no metric has a change (with its low and total counts); the all-good verdict exactly when not usage-only, the severity is 正常 or 关注 and no change is negative; the mostly-up verdict exactly when neither applies and rises outnumber falls; otherwise the declining verdict counts the falls |
| BehaviorAnalyzer.DecliningHasFall | skills/generate_event_review_v2/scripts/analyzers/behavior_analyzer.py:133-138 | the declining conclusion names at least one falling metric |
| BehaviorAnalyzer.AbnormalHasFall | skills/generate_event_review_v2/scripts/analyzers/behavior_analyzer.py:66-68 | a severity of 异常 implies some metric's change is negative |
| BehaviorAnalyzer.Analyze | skills/generate_event_review_v2/scripts/analyzers/behavior_analyzer.py:19-157 | the base of BaseOf; one change per metric in input order; the usage list and its buckets; the anomalous days exactly the DAU outliers, with their dates; the severity of the escalation rules; the verdict of ChooseVerdict and its conclusion; details as metric lines, usage lines, then day lines; suggestions as sharp-drop tips, the low-usage tip, then the daily tip |
| PaymentOverview.Others | skills/generate_event_review_v2/scripts/analyzers/payment_overview_analyzer.py:59 | every entry except exactly the current one, in order |
| PaymentOverview.VsAverage | skills/generate_event_review_v2/scripts/analyzers/payment_overview_analyzer.py:75-78 | against a positive average, the change is within 0.005 of (current − average) / average × 100, not negative when current is at least the average and not positive when it is at most; without a positive average it is 0 |
| PaymentOverview.RankOf | skills/generate_event_review_v2/scripts/analyzers/payment_overview_analyzer.py:87-97 | the rank is one plus the first position holding the current event's name after a stable descending sort, so it lies in [1, len(ts)] |
| PaymentOverview.RankOfTop | skills/generate_event_review_v2/scripts/analyzers/payment_overview_analyzer.py:88-90 | an event strictly above all others ranks first |
| PaymentOverview.YearOnYear | skills/generate_event_review_v2/scripts/analyzers/payment_overview_analyzer.py:99-115 | one change record per benchmark against the current entry, named by its event or 对标k, and the detail lines VersusLines, one per benchmark in order; the first benchmark's changes are the primary year-on-year changes, None without benchmarks |
| PaymentOverview.VersusLines | skills/generate_event_review_v2/scripts/analyzers/payment_overview_analyzer.py:110-115 | one versus line per benchmark |
| PaymentOverview.Recent | skills/generate_event_review_v2/scripts/analyzers/payment_overview_analyzer.py:212 | the trend window is the last six values, or all when fewer |
| PaymentOverview.TrendPattern | skills/generate_event_review_v2/scripts/analyzers/payment_overview_analyzer.py:202-245 | 数据不足 exactly for fewer than 3 values; V型反转 only when the window's first half falls, its second half rises by more than half that fall, and each half has at least 2 points |
| PaymentOverview.RecentTrend | skills/generate_event_review_v2/scripts/analyzers/payment_overview_analyzer.py:214-245 | a window of at least 3 values always has a pattern, and V型反转 only for a V shape |
| PaymentOverview.TrendLastSix | skills/generate_event_review_v2/scripts/analyzers/payment_overview_analyzer.py:212 | values before the last six never change the pattern |
| PaymentOverview.RecentMonotone | skills/generate_event_review_v2/scripts/analyzers/payment_overview_analyzer.py:212 | the window of a strictly rising (falling) series is strictly rising (falling) |
| PaymentOverview.StrictlyRising | skills/generate_event_review_v2/scripts/analyzers/payment_overview_analyzer.py:231-241 | a strictly rising series of at least 3 values reads as 上升通道, or as 横盘震荡 when it barely varies |
| PaymentOverview.StrictlyFalling | skills/generate_event_review_v2/scripts/analyzers/payment_overview_analyzer.py:231-243 | a strictly falling series of at least 3 values reads as 下降通道, or as 横盘震荡 when it barely varies |
| PaymentOverview.PaymentSeverity | skills/generate_event_review_v2/scripts/analyzers/payment_overview_analyzer.py:143-167 | 异常 iff the reference revenue change is below -20; 关注 iff it is not and either it is negative or ARPPU is more than 15% under the average; 正常 otherwise |
| PaymentOverview.ConclusionOf | skills/generate_event_review_v2/scripts/analyzers/payment_overview_analyzer.py:169 | the steady sentence appears exactly when there are no conclusion parts |
| PaymentOverview.PartsMeaning | skills/generate_event_review_v2/scripts/analyzers/payment_overview_analyzer.py:142-169 | at most three conclusion parts; a revenue part leads for a non-zero reference change (fall, surge above 20, or rise); none for a zero reference change; the low-ARPPU part comes last; the steady sentence exactly when the reference change is 0, the pay rate is not above average and ARPPU is not below it |
| PaymentOverview.JoinPartsThird | skills/generate_event_review_v2/scripts/analyzers/payment_overview_analyzer.py:169 | joined parts never coincide with the steady sentence |
| PaymentOverview.Analyze | skills/generate_event_review_v2/scripts/analyzers/payment_overview_analyzer.py:21-200 | fewer than 2 entries degrade to 关注 with no metrics, details or suggestions; otherwise the current entry of CurrentIndex, averages over all other entries, ranks in [1, len(ts)], one year-on-year record per benchmark with the first as primary, the conclusion parts of Parts for the reference change, the details in source order (current, average, ranks, versus lines, trend, warnings), and the severity, conclusion and suggestions of the reference change |
| RTier.CompareList | skills/generate_event_review_v2/scripts/analyzers/r_tier_analyzer.py:51-61 | the comparison list is `benchmarks` when non-empty; otherwise it is empty exactly when there is no current event or the series has only one entry, and else it is the single entry next to the current one (after it when there is one, else before it), never the current entry itself |
| RTier.Share | skills/generate_event_review_v2/scripts/analyzers/r_tier_analyzer.py:78 | a tier's share is its revenue over the total ×100 to within the one-decimal rounding, and 0 without a positive total |
| RTier.SumRawShares | skills/generate_event_review_v2/scripts/analyzers/r_tier_analyzer.py:70-79 | the unrounded shares add up to the summed revenues over the total ×100 |
| RTier.SharesSumTo100 | skills/generate_event_review_v2/scripts/analyzers/r_tier_analyzer.py:70-79 | with a positive total, the unrounded shares of the listed tiers add up to 100 |
| RTier.TierPass | skills/generate_event_review_v2/scripts/analyzers/r_tier_analyzer.py:74-90 | the shares of Shares (each tier's rounded share of the total), the change records against the primary comparison, and one detail line per tier |
| RTier.TierLines | skills/generate_event_review_v2/scripts/analyzers/r_tier_analyzer.py:86-90 | one detail line per tier |
| RTier.AllBenchKeys | skills/generate_event_review_v2/scripts/analyzers/r_tier_analyzer.py:93-112 | `all_bench_changes` has a key for every comparison entry (its event, or 对标k) and no other key |
| RTier.AllBenchEntry | skills/generate_event_review_v2/scripts/analyzers/r_tier_analyzer.py:93-112 | under each comparison's key sit the changes against the last comparison carrying that key; the first comparison's entry is `tier_changes` |
| RTier.BenchPass | skills/generate_event_review_v2/scripts/analyzers/r_tier_analyzer.py:92-112 | the loop builds AllBench, and the detail lines BenchLines: one per tier for every comparison after the first, in order |
| RTier.BenchTiers | skills/generate_event_review_v2/scripts/analyzers/r_tier_analyzer.py:98-111 | for one comparison, the changes of every tier against it and its row of detail lines |
| RTier.BenchLines | skills/generate_event_review_v2/scripts/analyzers/r_tier_analyzer.py:94-112 | one line per tier for every comparison after the first |
| RTier.Position | skills/generate_event_review_v2/scripts/analyzers/r_tier_analyzer.py:114-137 | 高R向 iff the first tier's share is above 50, and then it names that tier and its share; else 普惠型 iff some tier from the third on has a pay-rate change above 10; else 全面提升型 iff every tier's revenue rose; else 结构性变化 |
| RTier.SeverityPass | skills/generate_event_review_v2/scripts/analyzers/r_tier_analyzer.py:141-150 | 异常 iff some tier's revenue fell more than 20% (one suggestion per such tier); 关注 iff none did and some fell more than 10%; never 严重 |
| RTier.Evaluate | skills/generate_event_review_v2/scripts/analyzers/r_tier_analyzer.py:66-157 | Evaluated: the total, the shares, the primary changes, the benchmark dictionary, the positioning, the severity and tips of the revenue-fall rules, the crossing suggestion exactly when the first tier fell more than 10% and the last rose more than 10%, and the details as tier lines, benchmark lines, the positioning line, then the crossing line |
| RTier.Analyze | skills/generate_event_review_v2/scripts/analyzers/r_tier_analyzer.py:19-178 | degraded to 关注 with no details or suggestions exactly when there are fewer than 2 entries and no benchmarks; otherwise the current entry of CurrentIndex, the comparison list, and Evaluated over them; the crossing never changes the severity |
| Conversion.ByPrice | skills/generate_event_review_v2/scripts/analyzers/conversion_analyzer.py:47 | the tiers sorted by ascending price: a permutation of the input, in non-decreasing price order |
| Conversion.Breakpoints | skills/generate_event_review_v2/scripts/analyzers/conversion_analyzer.py:236-241 | strictly increasing positions from 0 to the number of tiers; an inner position is a breakpoint exactly when more than 40% of the previous tier's payers fall away there |
| Conversion.LabelRank | skills/generate_event_review_v2/scripts/analyzers/conversion_analyzer.py:255 | the label index is capped at the last of the six labels |
| Conversion.FallbackGroups | skills/generate_event_review_v2/scripts/analyzers/conversion_analyzer.py:222-223 | the log-equal fallback uses 3 groups for at most 3 tiers, else n//2 clamped to [3, 5] |
| Conversion.CliffRuns | skills/generate_event_review_v2/scripts/analyzers/conversion_analyzer.py:250-252 | every tier lies in some run between consecutive breakpoints |
| Conversion.CliffRunsUnique | skills/generate_event_review_v2/scripts/analyzers/conversion_analyzer.py:250-252 | no tier lies in two runs, so the runs cover the tiers exactly once and in order |
| Conversion.CliffLowHigh | skills/generate_event_review_v2/scripts/analyzers/conversion_analyzer.py:253-254 | over price-sorted tiers every cliff interval has low ≤ high |
| Conversion.DecayList | skills/generate_event_review_v2/scripts/analyzers/conversion_analyzer.py:225-234 | one decay per adjacent tier pair: the relative fall in payers, 0 after a tier without payers |
| Conversion.BreakpointList | skills/generate_event_review_v2/scripts/analyzers/conversion_analyzer.py:236-241 | the loop yields exactly Breakpoints |
| Conversion.AutoSegment | skills/generate_event_review_v2/scripts/analyzers/conversion_analyzer.py:213-264 | at most 3 tiers use the log-equal split with 3 groups; otherwise the cliff intervals when they number 2 to 6, else the log-equal split with FallbackGroups groups |
| Conversion.RunList | skills/generate_event_review_v2/scripts/analyzers/conversion_analyzer.py:248-262 | the loop yields exactly the cliff intervals |
| Conversion.PayersInAll | skills/generate_event_review_v2/scripts/analyzers/conversion_analyzer.py:79-84 | an interval spanning every price holds all the payers |
| Conversion.PercentRange | skills/generate_event_review_v2/scripts/analyzers/conversion_analyzer.py:83-84 | a part between 0 and a positive total is between 0 and 100 percent after rounding, exactly 100 for the whole total and 0 for none of it |
| Conversion.CompStatOf | skills/generate_event_review_v2/scripts/analyzers/conversion_analyzer.py:95-109 | a comparison's payers priced in [low, high], its share of that comparison's payers, and the shift current share minus comparison share |
| Conversion.StatOf | skills/generate_event_review_v2/scripts/analyzers/conversion_analyzer.py:72-118 | an interval's payers, payer share (2 places) and revenue share (1 place), with one comparison record per comparison in order |
| Conversion.BuildStats | skills/generate_event_review_v2/scripts/analyzers/conversion_analyzer.py:72-118 | one statistic per interval, in order |
| Conversion.CountWorsened | skills/generate_event_review_v2/scripts/analyzers/conversion_analyzer.py:170-179 | the number of transitions whose current payer ratio is under 0.8 times the primary comparison's, counted only where both earlier counts are positive |
| Conversion.TwoIntervalsAlwaysAlarm | skills/generate_event_review_v2/scripts/analyzers/conversion_analyzer.py:181 | as written, two intervals and no worsened transition still raise the decay alarm |
| Conversion.DecayAlarmMeaning | skills/generate_event_review_v2/scripts/analyzers/conversion_analyzer.py:181 | the corrected alarm needs at least one worsened transition and agrees with the written rule from 3 intervals up |
| Conversion.ConclusionOneToOne | skills/generate_event_review_v2/scripts/analyzers/conversion_analyzer.py:186-191 | the conclusion text corresponds one-to-one with the severity |
| Conversion.SortedComparisons | skills/generate_event_review_v2/scripts/analyzers/conversion_analyzer.py:50-58 | only comparisons with price tiers are kept, each then sorted by price |
| Conversion.Analyze | skills/generate_event_review_v2/scripts/analyzers/conversion_analyzer.py:25-211 | fewer than 3 tiers degrade to 关注 with no details and no suggestions; otherwise the segmentation, one statistic per interval, the total revenue of the tiers, the worsened count, 异常 iff there are 2 or more intervals, a comparison and the decay alarm, else 关注 iff some interval beyond the first loses more than 3 points, the conclusion of the severity, the details (segment count, one line per interval, the decay lines, the notable shifts) and the suggestions (a concentration or depth tip when an interval drops, then a decay tip exactly when 异常) |
| Conversion.Suggestions | skills/generate_event_review_v2/scripts/analyzers/conversion_analyzer.py:159-184 | a decay tip exactly when the alarm rings, and last; a concentration or depth tip exactly when an interval drops, the concentration tip only when the gain sits low |
| Reward.Deviation | skills/generate_event_review_v2/scripts/analyzers/reward_analyzer.py:46-50 | against a non-zero expected value the deviation is within 0.005 of (actual − expected) / expected × 100, and for a positive expected value its sign follows actual − expected; with nothing expected it is 0 exactly when nothing was produced and 100 otherwise |
| Reward.LevelOf | skills/generate_event_review_v2/scripts/analyzers/reward_analyzer.py:52-58 | 符合预期 iff the absolute deviation is at most 10, 轻微偏差 iff it is in (10, 30], 显著偏差 iff it exceeds 30 |
| Reward.LevelMonotone | skills/generate_event_review_v2/scripts/analyzers/reward_analyzer.py:52-58 | a larger absolute deviation never gets a milder grade |
| Reward.CostDeviation | skills/generate_event_review_v2/scripts/analyzers/reward_analyzer.py:64-71 | a cost deviation exists exactly when both costs are present and non-zero (Python truthiness), and is the change rate of the actual cost |
| Reward.WithLevelSpec | skills/generate_event_review_v2/scripts/analyzers/reward_analyzer.py:73-79 | each grade list holds exactly the positions of the items with that grade, in increasing order |
| Reward.LevelsPartition | skills/generate_event_review_v2/scripts/analyzers/reward_analyzer.py:60 | every item has exactly one grade, so the three counts add up to the number of items |
| Reward.TipsPerSignificant | skills/generate_event_review_v2/scripts/analyzers/reward_analyzer.py:93-95 | one suggestion per significant item, in order, worded 高于 or 低于 by the sign of its deviation |
| Reward.DetailsBound | skills/generate_event_review_v2/scripts/analyzers/reward_analyzer.py:97-107 | the details start with one line per significant item and add at most ten minor lines and two summary lines |
| Reward.RewardSeverity | skills/generate_event_review_v2/scripts/analyzers/reward_analyzer.py:109-118 | 异常 iff some item deviates significantly; 关注 iff none does and more than len(items)//2 deviate mildly; 正常 otherwise |
| Reward.Grade | skills/generate_event_review_v2/scripts/analyzers/reward_analyzer.py:40-95 | the item loop yields the results, the significant and minor position lists, the count of items as expected, the three counts and the suggestions |
| Reward.DetailLines | skills/generate_event_review_v2/scripts/analyzers/reward_analyzer.py:97-107 | the detail lines as built: significant lines, the first ten minor lines, a line for the minor items left out, a count of the rest |
| Reward.Analyze | skills/generate_event_review_v2/scripts/analyzers/reward_analyzer.py:20-133 | no items degrade to 关注; otherwise the results, counts adding up to the number of items, the bounded details, and the severity, conclusion and suggestions of the counts |
| Package.AvgSpend | skills/generate_event_review_v2/scripts/analyzers/package_analyzer.py:49 | revenue per payer to within the one-decimal rounding, and 0 without payers |
| Package.PerPayer | skills/generate_event_review_v2/scripts/analyzers/package_analyzer.py:51 | purchases per payer, revenue/(price×payers) to within rounding, and 0 unless price and payers are both positive |
| Package.ShareOf | skills/generate_event_review_v2/scripts/analyzers/package_analyzer.py:50 | a package's revenue share ×100 to within rounding, and 0 without positive total revenue |
| Package.BuildStats | skills/generate_event_review_v2/scripts/analyzers/package_analyzer.py:44-63 | one statistic per package, in input order |
| Package.ByRevenue | skills/generate_event_review_v2/scripts/analyzers/package_analyzer.py:66 | the statistics re-ordered by descending revenue: a permutation, non-increasing in revenue |
| Package.Top3Leads | skills/generate_event_review_v2/scripts/analyzers/package_analyzer.py:66-67 | the top three are min(3, n) of the statistics, and no statistic left out of them has more revenue than any statistic in them |
| Package.MatchByPrice | skills/generate_event_review_v2/scripts/analyzers/package_analyzer.py:85-90 | the first dictionary entry with an equal price (no earlier entry has that price), None exactly when no entry has that price; names are never compared |
| Package.BenchFor | skills/generate_event_review_v2/scripts/analyzers/package_analyzer.py:78-99 | a comparison event without packages adds no change record |
| Package.MatchEvent | skills/generate_event_review_v2/scripts/analyzers/package_analyzer.py:84-106 | one comparison event appends its change record to every package it has a price match for, and one detail line per match, in package order |
| Package.Compare | skills/generate_event_review_v2/scripts/analyzers/package_analyzer.py:77-106 | after all comparisons each package carries one change record per comparison event with a price match, in event order |
| Package.CompareStep | skills/generate_event_review_v2/scripts/analyzers/package_analyzer.py:78-106 | one pass of the comparison loop extends the records by event k |
| Package.FilterStats | skills/generate_event_review_v2/scripts/analyzers/package_analyzer.py:110-111 | the filtered list holds exactly the statistics passing the test |
| Package.HealthTips | skills/generate_event_review_v2/scripts/analyzers/package_analyzer.py:108-136 | the cheap-package tip iff cheap packages (≤30) exist and draw at most half of the payers; the expensive-package tip iff packages ≥300 exist and bring at most 30% of revenue; the dead-weight tip iff some package has share <5 and fewer than 5% of payers |
| Package.PackageSeverity | skills/generate_event_review_v2/scripts/analyzers/package_analyzer.py:131-147 | 关注 iff there is dead weight or at least two suggestions |
| Package.VersusOneNone | skills/generate_event_review_v2/scripts/analyzers/package_analyzer.py:81-82 | an event without packages contributes no comparison line |
| Package.BenchForPrice | skills/generate_event_review_v2/scripts/analyzers/package_analyzer.py:84-92 | a change record exists iff some package of the comparison event has the same price |
| Package.BenchAllEmpty | skills/generate_event_review_v2/scripts/analyzers/package_analyzer.py:95 | a package gets no change records iff no event matches its price, and never more records than events |
| Package.LowShareBound | skills/generate_event_review_v2/scripts/analyzers/package_analyzer.py:115 | with non-negative payers the cheap packages' payer share lies in [0, 100] |
| Package.HighShareBound | skills/generate_event_review_v2/scripts/analyzers/package_analyzer.py:124 | with non-negative revenue the expensive packages' revenue share lies in [0, 100] |
| Package.SeverityOfRules | skills/generate_event_review_v2/scripts/analyzers/package_analyzer.py:137-147 | 关注 iff there is dead weight or both price rules are weak; the "reasonable" conclusion iff no rule fired |
| Package.Analyze | skills/generate_event_review_v2/scripts/analyzers/package_analyzer.py:20-165 | no packages degrade to 关注; otherwise the totals, statistics in revenue order with their change records, the total, top-3, comparison and health lines, the health suggestions, and the severity and conclusion of the rules |
| DataValidator.AppendEach | skills/generate_event_review_v2/scripts/data_validator.py:92-104 | the row loop appends exactly the issues of every row, in row order |
| DataValidator.EachExact | skills/generate_event_review_v2/scripts/data_validator.py:92-99 | an issue naming row i+1 is reported iff row i reports it |
| DataValidator.MissingFields | skills/generate_event_review_v2/scripts/data_validator.py:131-136 | one issue per listed field whose value is None or missing, and only for those |
| DataValidator.InvalidFields | skills/generate_event_review_v2/scripts/data_validator.py:183-188 | one issue per listed field that is not a number at least 0, and only for those |
| DataValidator.StageIssues | skills/generate_event_review_v2/scripts/data_validator.py:92-98 | a stage's issues name its 1-based row in reach_conversion |
| DataValidator.RiseReported | skills/generate_event_review_v2/scripts/data_validator.py:100-104 | a stage is reported as rising iff it has more users than the stage before |
| DataValidator.RiseBound | skills/generate_event_review_v2/scripts/data_validator.py:100-104 | rising-stage errors name a row within the funnel |
| DataValidator.ValidateReach | skills/generate_event_review_v2/scripts/data_validator.py:85-105 | fewer than 3 stages are one error and stop the check; otherwise the per-stage errors and then one error per rising stage |
| DataValidator.RisePass | skills/generate_event_review_v2/scripts/data_validator.py:100-104 | the loop yields one error per stage with more users than the stage before |
| DataValidator.MetricIssues | skills/generate_event_review_v2/scripts/data_validator.py:115-121 | a metric's issues name its 1-based row in behavior_data |
| DataValidator.EachNoBlockIssue | skills/generate_event_review_v2/scripts/data_validator.py:108-121 | row issues never look like the block-level too-few error |
| DataValidator.EachMember | skills/generate_event_review_v2/scripts/data_validator.py:92-99 | every row issue names a row that exists |
| DataValidator.ValidateBehavior | skills/generate_event_review_v2/scripts/data_validator.py:108-121 | no metrics is one error; otherwise the per-metric errors |
| DataValidator.OverviewRowIssues | skills/generate_event_review_v2/scripts/data_validator.py:132-142 | a row reports a negative revenue iff its revenue is a number below 0, and a pay-rate error iff its pay rate is a number outside [0, 100] |
| DataValidator.OverviewValueChecks | skills/generate_event_review_v2/scripts/data_validator.py:124-142 | with at least 6 rows, row i is reported for a negative revenue or an out-of-range pay rate exactly when it has one |
| DataValidator.ValidateOverview | skills/generate_event_review_v2/scripts/data_validator.py:124-142 | fewer than 6 rows are one error; otherwise the per-row errors |
| DataValidator.TierFieldIssues | skills/generate_event_review_v2/scripts/data_validator.py:163-167 | one tier's missing fields name the row it is in |
| DataValidator.TierDataIssues | skills/generate_event_review_v2/scripts/data_validator.py:160-167 | every tier of a row, in dict order, checked for its four fields |
| DataValidator.TierRowIssues | skills/generate_event_review_v2/scripts/data_validator.py:156-167 | a row's issues name its 1-based row in r_tier_payment |
| DataValidator.ValidateTiers | skills/generate_event_review_v2/scripts/data_validator.py:145-167 | an empty tier list is an error; fewer than 6 rows add one error and stop; otherwise the per-row errors |
| DataValidator.PriceTierIssues | skills/generate_event_review_v2/scripts/data_validator.py:183-188 | a price tier reports price, purchases or payers exactly when it is not a number at least 0 |
| DataValidator.PriceTierChecks | skills/generate_event_review_v2/scripts/data_validator.py:169-188 | with at least 3 price tiers, tier i's field is reported exactly when it is not a number at least 0 |
| DataValidator.ValidateConversion | skills/generate_event_review_v2/scripts/data_validator.py:169-188 | a falsy current block is one error; fewer than 3 price tiers are one error; otherwise the per-tier errors |
| DataValidator.RewardRowIssues | skills/generate_event_review_v2/scripts/data_validator.py:197-206 | a reward's issues name its 1-based row in core_reward |
| DataValidator.ValidateReward | skills/generate_event_review_v2/scripts/data_validator.py:190-206 | no items is one error; otherwise the per-item errors |
| DataValidator.PackageRowIssues | skills/generate_event_review_v2/scripts/data_validator.py:215-221 | a package reports price, revenue or payers exactly when it is not a number at least 0 |
| DataValidator.PackageChecks | skills/generate_event_review_v2/scripts/data_validator.py:208-221 | every package's field is reported exactly when it is not a number at least 0 |
| DataValidator.ValidatePackages | skills/generate_event_review_v2/scripts/data_validator.py:208-221 | no packages is one error; otherwise the per-package errors |
| DataValidator.MissingBlocksSpec | skills/generate_event_review_v2/scripts/data_validator.py:32-34 | one missing-block error per absent required block, and nothing else |
| DataValidator.Filled | skills/generate_event_review_v2/scripts/data_validator.py:35-38 | filling in the optional block adds behavior_data with empty metrics and leaves every other key as it was; a present block is untouched |
| DataValidator.CheckBlocks | skills/generate_event_review_v2/scripts/data_validator.py:42-70 | the per-block checks in order, with the behaviour warning when it has no metrics |
| DataValidator.CheckFront | skills/generate_event_review_v2/scripts/data_validator.py:42-57 | meta, the funnel and the optional behaviour block |
| DataValidator.CheckPresence | skills/generate_event_review_v2/scripts/data_validator.py:32-34 | the loop over the required blocks yields MissingBlocks |
| DataValidator.ValidateInput | skills/generate_event_review_v2/scripts/data_validator.py:11-74 | the data with the behaviour block filled in place, the warnings, and validity exactly when there are no errors; a missing required block stops the checks |
| DataValidator.MetaRequired | skills/generate_event_review_v2/scripts/data_validator.py:77-82 | meta is reported for a missing or empty event name and change description, and for nothing else |
| DataValidator.ShortListsStop | skills/generate_event_review_v2/scripts/data_validator.py:85-213 | a list below its minimum length is a single error and its rows are not checked; r_tier_payment reports an empty tier list first |
| DataValidator.BehaviorShort | skills/generate_event_review_v2/scripts/data_validator.py:108-113 | the behaviour check reports its single too-few error exactly when there are no metrics |
| DataValidator.MissingBlocksOnly | skills/generate_event_review_v2/scripts/data_validator.py:40-41 | a missing required block yields only missing-block errors, including one for it |
| DataValidator.BehaviorOptional | skills/generate_event_review_v2/scripts/data_validator.py:35-55 | a missing behaviour block never makes the input invalid and always adds the filled-in warning |
| DataValidator.BlockErrorsBlocks | skills/generate_event_review_v2/scripts/data_validator.py:42-70 | every block-check error names one of the required blocks |
| ReportV2.ResultsSpec | skills/generate_event_review_v2/scripts/report_generator.py:47 | the results dictionary keeps one result per module name, the last one the list gives for it, and nothing that was not in the list |
| ReportV2.SectionOrder | skills/generate_event_review_v2/scripts/report_generator.py:66-67 | the sections written are exactly the modules of the fixed order that have a result, in that order |
| ReportV2.PresentInOrder | skills/generate_event_review_v2/scripts/report_generator.py:92-93 | the module loop over any repeat-free order keeps exactly the present modules, in the order's sequence |
| ReportV2.CountsTotal | skills/generate_event_review_v2/scripts/report_generator.py:114-116 | the four severity counts add up to the number of results |
| ReportV2.SeverityCounts | skills/generate_event_review_v2/scripts/report_generator.py:114-116 | the count dictionary has a key exactly for each severity that occurs, holding how many results carry it |
| ReportV2.KeyFindings | skills/generate_event_review_v2/scripts/report_generator.py:131 | there are min(3, number of results) key findings |
| ReportV2.ExecutiveSummary | skills/generate_event_review_v2/scripts/report_generator.py:107-137 | the overall verdict is critical iff some result is 严重, abnormal iff none is 严重 and one is 异常, watch iff neither and at least three are 关注, good otherwise; counts as above |
| ReportV2.RankedSpec | skills/generate_event_review_v2/scripts/report_generator.py:129-130 | the ranking is ordered by priority, is a permutation of the results, and keeps each severity's results in their original order (a stable sort) |
| ReportV2.CriticalFirst | skills/generate_event_review_v2/scripts/report_generator.py:129-130 | the ranking begins with all the 严重 results in input order |
| ReportV2.CriticalLevel | skills/generate_event_review_v2/scripts/report_generator.py:129 | priority 0 is held by exactly the 严重 results |
| ReportV2.CriticalFindings | skills/generate_event_review_v2/scripts/report_generator.py:129-131 | the first key findings are the conclusions of the first 严重 results, as many as there are, up to three |
| ReportV2.ChartNames | skills/generate_event_review_v2/scripts/report_generator.py:174-191 | every name taken from a result's chart data is truthy |
| ReportV2.Candidates | skills/generate_event_review_v2/scripts/report_generator.py:166-191 | every candidate name, from meta and from each result, is truthy |
| ReportV2.BenchmarkNames | skills/generate_event_review_v2/scripts/report_generator.py:192 | fails iff some collected name is not a string; otherwise the sorted distinct names joined with 、, or the meta fallback when none was collected |
| ReportV2.BenchmarkNamesSpec | skills/generate_event_review_v2/scripts/report_generator.py:192 | the names joined are exactly the collected names, each once, in sorted order |
| ReportV2.FallbackFalsy | skills/generate_event_review_v2/scripts/report_generator.py:192 | with nothing collected the result is the meta fallback and it is falsy |
| ReportV2.MetaOnly | skills/generate_event_review_v2/scripts/report_generator.py:170-171 | when nothing is collected the meta benchmark event was not truthy |
| ReportV2.Tagged | skills/generate_event_review_v2/scripts/report_generator.py:301-307 | one tagged line per suggestion of the result |
| ReportV2.AggregateSuggestions | skills/generate_event_review_v2/scripts/report_generator.py:297-308 | the loop builds exactly the P0, P1 and P2 buckets: 严重 results to P0, 异常 to P1, all others to P2 |
| ReportV2.AddSuggestions | skills/generate_event_review_v2/scripts/report_generator.py:301-307 | one result's tagged suggestions are appended to its band's bucket and the other buckets are unchanged |
| ReportV2.BucketsPartition | skills/generate_event_review_v2/scripts/report_generator.py:297-308 | together the three buckets hold every tagged suggestion exactly once |
| ReportV2.BucketMembers | skills/generate_event_review_v2/scripts/report_generator.py:301-307 | a bucket holds exactly the tagged suggestions of the results whose severity maps to its band |
| ReportV2.Item | skills/generate_event_review_v2/scripts/report_generator.py:318 | each suggestion line is a bullet |
| ReportV2.BandBlock | skills/generate_event_review_v2/scripts/report_generator.py:315-319 | an empty band writes nothing |
| ReportV2.ItemInBlock | skills/generate_event_review_v2/scripts/report_generator.py:315-330 | every suggestion of a band is written as one of the band's lines |
| ReportV2.NoPlaceholderInBlock | skills/generate_event_review_v2/scripts/report_generator.py:315-330 | a band's lines never include the no-suggestions placeholder |
| ReportV2.SuggestionPlaceholder | skills/generate_event_review_v2/scripts/report_generator.py:332-333 | the placeholder line appears iff all three buckets are empty |
| ReportV2.SuggestionItems | skills/generate_event_review_v2/scripts/report_generator.py:337-362 | in both the Notion and the wiki style every suggestion appears as an item of its band |
| ExcelV2.ToNumberDigits | skills/generate_event_review_v2/scripts/excel_handler.py:717-724 | a cell whose text is a decimal numeral reads as that number |
| ExcelV2.ToNumberSeparator | skills/generate_event_review_v2/scripts/excel_handler.py:724 | commas and spaces anywhere inside a text cell do not change the number it reads as |
| ExcelV2.TagByWord | skills/generate_event_review_v2/scripts/excel_handler.py:681-686 | any non-None value whose lower-cased text contains 对标 or benchmark is a benchmark tag |
| ExcelV2.TagByYes | skills/generate_event_review_v2/scripts/excel_handler.py:685-686 | a value whose stripped, lower-cased text is 是, yes, true or 1 is a benchmark tag |
| ExcelV2.NotTag | skills/generate_event_review_v2/scripts/excel_handler.py:681-686 | a value that is neither yes-like nor contains one of the two words is not a tag |
| ExcelV2.BlankNotTag | skills/generate_event_review_v2/scripts/excel_handler.py:683-684 | None is never a benchmark tag |
| ExcelV2.TrueTag | skills/generate_event_review_v2/scripts/excel_handler.py:685-686 | the boolean True is a tag (its text is true) |
| ExcelV2.FalseNotTag | skills/generate_event_review_v2/scripts/excel_handler.py:685-686 | the boolean False is not a tag |
| ExcelV2.OneTag | skills/generate_event_review_v2/scripts/excel_handler.py:685-686 | the number 1 is a tag |
| ExcelV2.YesTag | skills/generate_event_review_v2/scripts/excel_handler.py:685-686 | the text Yes is a tag (the test lower-cases) |
| ExcelV2.OrElse | skills/generate_event_review_v2/scripts/excel_handler.py:701 | Python's `a or b` on strings is non-empty iff one of them is |
| ExcelV2.FirstPrefix | skills/generate_event_review_v2/scripts/excel_handler.py:709-710 | the prefix chosen is the first in list order that the tag starts with, and none is chosen only when the tag starts with none |
| ExcelV2.ExtractName | skills/generate_event_review_v2/scripts/excel_handler.py:689-714 | the name is empty only when the fallback is empty and the cell's stripped text is empty |
| ExcelV2.ExtractPrefixed | skills/generate_event_review_v2/scripts/excel_handler.py:709-712 | a tag whose first matching prefix is followed by a clean non-empty name yields that name |
| ExcelV2.ExtractAfterEventDash | skills/generate_event_review_v2/scripts/excel_handler.py:697 | 对标活动-X yields X |
| ExcelV2.ExtractAfterEvent | skills/generate_event_review_v2/scripts/excel_handler.py:698 | 对标活动X yields X |
| ExcelV2.ExtractAfterDash | skills/generate_event_review_v2/scripts/excel_handler.py:696 | 对标-X yields X |
| ExcelV2.ExtractAfterBare | skills/generate_event_review_v2/scripts/excel_handler.py:709-712 | 对标X yields X when X starts with neither 活动 nor - |
| ExcelV2.ExtractBarePrefix | skills/generate_event_review_v2/scripts/excel_handler.py:695 | the bare tag 对标 yields the fallback, or 对标 when the fallback is empty |
| ExcelV2.ExtractUntagged | skills/generate_event_review_v2/scripts/excel_handler.py:714 | text that is not yes-like and does not start with 对 yields the fallback, or its own stripped text when there is none |
| ExcelV2.LastUsersIsLast | skills/generate_event_review_v2/scripts/excel_handler.py:265-272 | the user count taken for a key is that of the last stage whose name contains it |
| ExcelV2.LastUsersNone | skills/generate_event_review_v2/scripts/excel_handler.py:265-272 | with no stage naming the key the count stays 0 |
| ExcelV2.FixEntrySpec | skills/generate_event_review_v2/scripts/excel_handler.py:277-283 | only entries with revenue > 0 and ARPU = ARPPU = 0 change, and only ARPU and ARPPU, each to round(revenue / users, 3) when that user count is positive; with neither count positive nothing changes |
| ExcelV2.AutoFix | skills/generate_event_review_v2/scripts/excel_handler.py:253-283 | in place, every time-series entry becomes its back-filled value from the last 参与 and last 付费 stages, and every other field stays |
| ExcelV2.RowStage | skills/generate_event_review_v2/scripts/excel_handler.py:353-362 | a row gives a funnel stage only with a positive user count |
| ExcelV2.FunnelStages | skills/generate_event_review_v2/scripts/excel_handler.py:346-362 | the funnel has at most one stage per row, each with users > 0 |
| ExcelV2.PairStage | skills/generate_event_review_v2/scripts/excel_handler.py:383-391 | a comparison column pair adds a stage only under a non-empty benchmark name and with users > 0 |
| ExcelV2.FindColumnName | skills/generate_event_review_v2/scripts/excel_handler.py:377-381 | the benchmark name of a column is the stripped text of the first row with a truthy cell in that column |
| ExcelV2.PairsStep | skills/generate_event_review_v2/scripts/excel_handler.py:365-366 | the column-pair loop visits pairs (3,4), (5,6), … and stops after the last complete pair |
| ExcelV2.ComparisonPair | skills/generate_event_review_v2/scripts/excel_handler.py:367-391 | one column pair registers its name cell's benchmark and appends its stage to the column's benchmark |
| ExcelV2.RowComparisons | skills/generate_event_review_v2/scripts/excel_handler.py:364-393 | one row's column pairs add exactly their stages, in column order |
| ExcelV2.WithStages | skills/generate_event_review_v2/scripts/excel_handler.py:397-402 | the comparisons listed are exactly the registered benchmarks that received at least one stage |
| ExcelV2.ReachRow | skills/generate_event_review_v2/scripts/excel_handler.py:346-393 | one row adds its own stage, when it has one, and its comparison stages |
| ExcelV2.KeptBenchmarks | skills/generate_event_review_v2/scripts/excel_handler.py:395-402 | each benchmark is listed once, with the stages its columns give it in row order, and every benchmark with stages is listed |
| ExcelV2.ParseReach | skills/generate_event_review_v2/scripts/excel_handler.py:337-406 | the stages are the funnel of the rows; the comparisons list each benchmark once with its stages in row order, none empty and none missing, in the order their names first appear in the sheet, so `comparisons[0]` is the first benchmark met |
| ExcelV2.KeptInOrder | skills/generate_event_review_v2/scripts/excel_handler.py:395-404 | dropping the benchmarks without stages keeps the others in registration order |
| ExcelV2.PayersDefault | skills/generate_event_review_v2/scripts/excel_handler.py:570 | in three-column rows, and rows whose payers cell is None, payers equal purchases |
| ExcelV2.BenchName | skills/generate_event_review_v2/scripts/excel_handler.py:579 | a comparison row's benchmark name is never empty (the fallback is 对标) |
| ExcelV2.RowKind | skills/generate_event_review_v2/scripts/excel_handler.py:565-580 | only rows with at least three cells and a non-None first cell are filed |
| ExcelV2.CurrentTiersStep | skills/generate_event_review_v2/scripts/excel_handler.py:576-577 | reading one more row appends its tier to the current list exactly when it is a 当期/current row |
| ExcelV2.GroupTiersHas | skills/generate_event_review_v2/scripts/excel_handler.py:578-580 | every comparison row's tier is listed under its benchmark name |
| ExcelV2.ConversionRow | skills/generate_event_review_v2/scripts/excel_handler.py:564-580 | one row is filed under current, under its benchmark, or dropped |
| ExcelV2.ParseConversion | skills/generate_event_review_v2/scripts/excel_handler.py:558-597 | the current tiers in row order, and one non-empty group per benchmark with its tiers in row order, no benchmark twice, the groups in first-seen row order, so the first group is the first benchmark in the rows |
| ExcelV2.ComparisonListed | skills/generate_event_review_v2/scripts/excel_handler.py:589-593 | every comparison row's benchmark appears among the parsed groups |
| ExcelV2.KnownTiers | skills/generate_event_review_v2/scripts/excel_handler.py:537-538 | the canonical tiers kept are exactly those seen, no more than the canonical five |
| ExcelV2.KnownTiersOrdered | skills/generate_event_review_v2/scripts/excel_handler.py:537-538 | the canonical tiers come out in canonical order |
| ExcelV2.OrderTiers | skills/generate_event_review_v2/scripts/excel_handler.py:536-539 | the tier list holds exactly the tiers seen |
| ExcelV2.OrderTiersSpec | skills/generate_event_review_v2/scripts/excel_handler.py:536-539 | canonical tiers come before the others and in the order 超R, 大R, 中R, 小R, 非R; no tier is listed twice |
| ExcelV1.ModuleKeys | skills/generate_event_review/scripts/excel_handler.py:207-212 | a module name has a JSON key exactly when it is 外显, 小游戏, 养成 or 混合, and 养成 and 混合 both map to hybrid |
| ExcelV1.AliasNormalises | skills/generate_event_review/scripts/excel_handler.py:215-221 | every alias is corrected to a known module, every other name is kept, and correcting twice changes nothing |
| ExcelV1.CellRules | skills/generate_event_review/scripts/excel_handler.py:534-558 | a blank numeric cell records an error and 0.0, a blank text cell an error and ""; a numeric cell records an error exactly when it does not parse, then holding 0.0; other text is kept stripped and non-empty |
| ExcelV1.RowFields | skills/generate_event_review/scripts/excel_handler.py:532-558 | a record has one field per header column |
| ExcelV1.RowFieldsSpec | skills/generate_event_review/scripts/excel_handler.py:533-558 | each field of a record comes from its own column's cell, in column order |
| ExcelV1.RowErrorsSpec | skills/generate_event_review/scripts/excel_handler.py:533-558 | a row has an error at a column exactly when that column's cell records a problem, and every error names its row |
| ExcelV1.Records | skills/generate_event_review/scripts/excel_handler.py:525-560 | a sheet gives at most one record per data row |
| ExcelV1.RecordsSpec | skills/generate_event_review/scripts/excel_handler.py:525-560 | every record has one field per column and comes from a row that is not entirely blank, in row order |
| ExcelV1.BlankSheet | skills/generate_event_review/scripts/excel_handler.py:528-530 | a sheet whose data rows are all blank gives no record and no error |
| ExcelV1.ReadRow | skills/generate_event_review/scripts/excel_handler.py:532-560 | the column loop builds exactly the row's record and its errors |
| ExcelV1.ParseTableSheet | skills/generate_event_review/scripts/excel_handler.py:499-562 | a missing sheet records one error and no record; otherwise the records and errors of the non-blank data rows |
| ExcelV1.EntriesSpec | skills/generate_event_review/scripts/excel_handler.py:581-612 | every entry has a non-empty name and an alias-corrected module; no error is recorded exactly when every entry's module is known |
| ExcelV1.ParseClassifySheet | skills/generate_event_review/scripts/excel_handler.py:565-620 | a missing sheet records one error and no entry; otherwise the entries of the named rows, their errors, and one more error when there is no entry |
| ExcelV1.MapUsable | skills/generate_event_review/scripts/excel_handler.py:636-642 | the classification map holds only entries with a name and a module, and is empty when the table has none |
| ExcelV1.NoEmptyName | skills/generate_event_review/scripts/excel_handler.py:638 | no name of the classification map is empty |
| ExcelV1.FirstRelated | skills/generate_event_review/scripts/excel_handler.py:656-659 | the containment match is the first map entry, in map order, whose name contains or is contained in the activity's name |
| ExcelV1.EnrichSpec | skills/generate_event_review/scripts/excel_handler.py:623-659 | enrichment changes only the type, never a non-empty type, and only to the module of a usable entry; with no usable entry, and (corrected) for an activity without a name, nothing changes |
| ExcelV1.ExactWins | skills/generate_event_review/scripts/excel_handler.py:650-653 | an exact name match wins and gives the module of the last usable entry of that name |
| ExcelV1.RelatedWins | skills/generate_event_review/scripts/excel_handler.py:655-659 | without an exact match, a named activity takes the module of the first related entry in map order |
| ExcelV1.BuildClassifyMap | skills/generate_event_review/scripts/excel_handler.py:636-639 | the map loop builds the name-to-module dictionary of the usable entries, the last module per name |
| ExcelV1.FindRelated | skills/generate_event_review/scripts/excel_handler.py:656-659 | the containment loop stops at the first related entry |
| ExcelV1.EnrichOne | skills/generate_event_review/scripts/excel_handler.py:644-659 | the loop body turns one activity into its enriched value |
| ExcelV1.EnrichTypes | skills/generate_event_review/scripts/excel_handler.py:623-659 | in place, every activity becomes its enriched value |
| ExcelV1.AggregateByKey | skills/generate_event_review/scripts/excel_handler.py:682-689 | each of appearance, minigame and hybrid holds the revenue of exactly the activities whose type maps to it |
| ExcelV1.AggregateTotal | skills/generate_event_review/scripts/excel_handler.py:684-695 | the three totals add up to the revenue of the activities whose type maps to a module; the others are left out |
| ExcelV1.ComputeModule | skills/generate_event_review/scripts/excel_handler.py:662-696 | activities are enriched in place when a table is given, and the result is the aggregate of the enriched activities |
| ExcelV1.EmptyNameTakesFirst | skills/generate_event_review/scripts/excel_handler.py:656-659 | as written, an activity without a name takes the module of the first map entry, since "" is contained in every name |
| ChartGenerator.MissingKeys | skills/generate_event_review/scripts/chart_generator.py:70-73 | one error for each required block the data lacks, and none for a block it has |
| ChartGenerator.RowsEmpty | skills/generate_event_review/scripts/chart_generator.py:97-121 | a per-record check reports nothing exactly when no record reports anything |
| ChartGenerator.AbsentFields | skills/generate_event_review/scripts/chart_generator.py:99-101 | one error for each listed field a record lacks, naming the list, the record's index and the field |
| ChartGenerator.OnlyMissingKeys | skills/generate_event_review/scripts/chart_generator.py:69-76 | when a required block is missing, the errors are exactly the missing-block errors and nothing else is checked |
| ChartGenerator.MissingKeysEmpty | skills/generate_event_review/scripts/chart_generator.py:71-73 | no missing-block error exactly when every required block is present |
| ChartGenerator.AbsentFieldsEmpty | skills/generate_event_review/scripts/chart_generator.py:99-101 | no field error for a record exactly when it has every listed field |
| ChartGenerator.FieldRowsEmpty | skills/generate_event_review/scripts/chart_generator.py:98-113 | a trend list reports nothing exactly when every record has its fields |
| ChartGenerator.ActivityRowsEmpty | skills/generate_event_review/scripts/chart_generator.py:116-121 | the sub-activity list reports nothing exactly when every record has its five fields and a status of Keep, Optimize or none |
| ChartGenerator.ClassRowsEmpty | skills/generate_event_review/scripts/chart_generator.py:126-144 | the classification reports nothing exactly when it is non-empty and every entry has a name and a known or alias module |
| ChartGenerator.ValidateAccepts | skills/generate_event_review/scripts/chart_generator.py:62-146 | validation reports nothing exactly when the data meets every demand: the blocks, a named event and benchmark, at least 6/6/2 trend points, every record's fields, the statuses and the classification |
| ChartGenerator.FixItemSpec | skills/generate_event_review/scripts/chart_generator.py:136-139 | the alias correction turns an alias module into its standard name and leaves every other field alone |
| ChartGenerator.CheckClassRow | skills/generate_event_review/scripts/chart_generator.py:131-144 | one classification entry gives its errors and its corrected form |
| ChartGenerator.CheckClassification | skills/generate_event_review/scripts/chart_generator.py:127-144 | the classification loop gives every entry's errors in order and corrects every entry |
| ChartGenerator.AppendRows | skills/generate_event_review/scripts/chart_generator.py:98-101 | a per-record loop appends each record's errors in record order |
| ChartGenerator.CheckKeys | skills/generate_event_review/scripts/chart_generator.py:71-73 | the required-block loop gives exactly the missing-block errors |
| ChartGenerator.ValidateInput | skills/generate_event_review/scripts/chart_generator.py:62-146 | the errors are the validation's, and the data comes back with its classification aliases corrected |
| ChartGenerator.LastWhere | skills/generate_event_review/scripts/chart_generator.py:168-175 | the index a selection loop keeps is below the list's length and satisfies its test |
| ChartGenerator.CurrentIndex | skills/generate_event_review/scripts/chart_generator.py:168-179 | the current row is always a row of the list |
| ChartGenerator.CurrentForm | skills/generate_event_review/scripts/chart_generator.py:168-173 | the loop's last match for the current event is the last row when it carries the event name, else the second-to-last |
| ChartGenerator.BenchmarkForm | skills/generate_event_review/scripts/chart_generator.py:174-175 | the loop's benchmark is always the last row, whatever the benchmark name |
| ChartGenerator.SelectRows | skills/generate_event_review/scripts/chart_generator.py:164-183 | fails (IndexError) exactly on an empty list; otherwise current, previous and benchmark are those rows |
| ChartGenerator.PctChangeSign | skills/generate_event_review/scripts/chart_generator.py:193 | over a positive reference, a percentage change is positive exactly when the value grew and 0 exactly when it stayed |
| ChartGenerator.ChangeSpec | skills/generate_event_review/scripts/chart_generator.py:191-205 | changes are absent exactly when there is no reference or its revenue is at most 0; the revenue change has the sign of the growth; the only failure is division by a zero reference ARPU |
| ChartGenerator.ArgMin | skills/generate_event_review/scripts/chart_generator.py:215 | the minimum position holds the smallest value and is the first such position |
| ChartGenerator.DropAbove | skills/generate_event_review/scripts/chart_generator.py:225-227 | the drop from the start exceeds 30% exactly when the start is positive and the low is below 70% of it |
| ChartGenerator.RiseAbove | skills/generate_event_review/scripts/chart_generator.py:226-227 | the rise from the bottom exceeds 30% exactly when the bottom is positive and the end is above 130% of it |
| ChartGenerator.VShapeMeaning | skills/generate_event_review/scripts/chart_generator.py:214-228 | a V shape is exactly an interior minimum that is positive, below 70% of the start, with the end above 130% of it |
| ChartGenerator.TrendPatterns | skills/generate_event_review/scripts/chart_generator.py:207-258 | too few points exactly below three; otherwise the V shape is checked first and the other patterns follow the sign of the recent slope |
| ChartGenerator.FirstNamed | skills/generate_event_review/scripts/chart_generator.py:263-266 | the module search finds the first row carrying the event name, and none only when no row does |
| ChartGenerator.ModuleIndex | skills/generate_event_review/scripts/chart_generator.py:261-270 | the module row is always a row of the list |
| ChartGenerator.FindModuleRow | skills/generate_event_review/scripts/chart_generator.py:261-270 | fails (IndexError) exactly on an empty list; otherwise the first named row, else the second-to-last, else the only one |
| ChartGenerator.SharesSpec | skills/generate_event_review/scripts/chart_generator.py:272-280 | with a positive total the three shares add up to 100 and lie within 0..100 when no module is negative; otherwise all are 0 |
| ChartGenerator.ComputeMetrics | skills/generate_event_review/scripts/chart_generator.py:153-282 | fails exactly on an empty list or a zero reference ARPU under positive revenue; otherwise the selected rows, their YoY and MoM changes, the trend of every row but the benchmark, and the shares of the module row |
| NotionPublisher.ColorPctSpec | skills/generate_event_review/scripts/notion_publisher.py:29-47 | red exactly for a positive change, blue exactly for a negative one, plain for 0 and for None (shown as N/A); the text is the formatted percentage, with + only on a positive value when the sign is asked for |
| NotionPublisher.SummaryBands | skills/generate_event_review/scripts/notion_publisher.py:50-76 | the summary is strong above +20%, growing in (0, 20], steady in (-20, 0], weak at -20% or below; the four intervals cover every change |
| NotionPublisher.SummaryMonotone | skills/generate_event_review/scripts/notion_publisher.py:57-76 | a larger year-on-year change never gets a worse summary |
| NotionPublisher.PageModuleIndex | skills/generate_event_review/scripts/notion_publisher.py:127-133 | the page's module row is always a row of the trend |
| NotionPublisher.CurrentModuleRow | skills/generate_event_review/scripts/notion_publisher.py:127-133 | fails (IndexError) exactly on an empty module trend; otherwise the first row named after the event, else the last row |
| NotionPublisher.ModuleRowAgreement | skills/generate_event_review/scripts/notion_publisher.py:127-133 | the page and the metrics pick the same module row when the event is named in the trend; when it is not and there are two or more rows, the page takes the last row and the metrics the one before it |
| NotionPublisher.TierRows | skills/generate_event_review/scripts/notion_publisher.py:143-159 | one row each for super_r, big_r and mid_r, in that order, each computed from the same three reference points |
| NotionPublisher.TierRowSpec | skills/generate_event_review/scripts/notion_publisher.py:136-148 | current is the first point, benchmark the last of two or more, previous the second of three or more (with exactly two, the benchmark, so both changes agree); a change is present exactly when its reference is positive, and positive exactly when the current value is larger |
| NotionPublisher.ActionItems | skills/generate_event_review/scripts/notion_publisher.py:178-211 | P0 is the mini-game item when a kept item warrants it, then the schedule item; P1 is one item per first three items to optimise, P2 one per later item |
| NotionPublisher.MiniGameAction | skills/generate_event_review/scripts/notion_publisher.py:184-190 | the mini-game item appears exactly when some kept item's name contains 小游戏 or 挖孔 |
| NotionPublisher.PrioritySplit | skills/generate_event_review/scripts/notion_publisher.py:162-209 | P1 and P2 together are exactly the items marked Optimize, in order, split after the third; the kept and optimised lists hold exactly the items with that status |
| ShopParser.Trunc | skills/shop_exchange_analysis/scripts/data_parser.py:246 | Python's int() on a float truncates toward zero: within 1 of the value, never past it away from 0 |
| ShopParser.IntValueDigits | skills/shop_exchange_analysis/scripts/data_parser.py:246 | a whole number written in digits reads back as itself, with or without leading thousands separators |
| ShopParser.NonNumberIsZero | skills/shop_exchange_analysis/scripts/data_parser.py:244-253 | text that is no number makes an integer field 0 and a float field 0.0 |
| ShopParser.RealValueClose | skills/shop_exchange_analysis/scripts/data_parser.py:250-251 | a float field lies within half a hundredth of the number written |
| ShopParser.NonEmpty | skills/shop_exchange_analysis/scripts/data_parser.py:43 | the kept strings are the non-empty ones of the list |
| ShopParser.LinesStripped | skills/shop_exchange_analysis/scripts/data_parser.py:43 | every line kept is non-empty and has no surrounding white space |
| ShopParser.SepOf | skills/shop_exchange_analysis/scripts/data_parser.py:48-54 | the separator is \| exactly when the first line has a bar and no tab; otherwise a tab |
| ShopParser.CellText | skills/shop_exchange_analysis/scripts/data_parser.py:57 | a cell's text neither starts nor ends with a bar |
| ShopParser.CellsTrimmed | skills/shop_exchange_analysis/scripts/data_parser.py:70 | every cell of a line is non-empty and neither starts nor ends with a bar |
| ShopParser.Header | skills/shop_exchange_analysis/scripts/data_parser.py:57-61 | one field name per header cell |
| ShopParser.Padded | skills/shop_exchange_analysis/scripts/data_parser.py:71-73 | the cells are extended with empty strings up to the header's length and keep their own values |
| ShopParser.Pairs | skills/shop_exchange_analysis/scripts/data_parser.py:75-81 | one column-value pair per header column, in header order |
| ShopParser.RowColumn | skills/shop_exchange_analysis/scripts/data_parser.py:75-81 | every column is a key of the row; a column not repeated later holds its own cell, or "" when the line is short |
| ShopParser.Entries | skills/shop_exchange_analysis/scripts/data_parser.py:66-85 | every item kept from the data lines has a name |
| ShopParser.Named | skills/shop_exchange_analysis/scripts/data_parser.py:86-94 | renaming keeps one item per entry |
| ShopParser.NamedAt | skills/shop_exchange_analysis/scripts/data_parser.py:86-94 | the i-th item is renamed by how often its name has occurred up to and including it |
| ShopParser.OccFirst | skills/shop_exchange_analysis/scripts/data_parser.py:92-93 | the first item of a name keeps its name |
| ShopParser.SuffixInjective | skills/shop_exchange_analysis/scripts/data_parser.py:90-91 | different occurrence counts give different suffixes |
| ShopParser.RepeatsDistinct | skills/shop_exchange_analysis/scripts/data_parser.py:86-94 | two items with the same original name never end up with the same name |
| ShopParser.FillKeeps | skills/shop_exchange_analysis/scripts/data_parser.py:260-283 | filling never overwrites a value the data gave and touches only the derived fields; the total is count times price |
| ShopParser.FillAverage | skills/shop_exchange_analysis/scripts/data_parser.py:269-270 | a missing average is count over users to two decimals whenever users are positive |
| ShopParser.FillIdempotent | skills/shop_exchange_analysis/scripts/data_parser.py:260-283 | filling twice fills nothing more than filling once |
| ShopParser.FillComputed | skills/shop_exchange_analysis/scripts/data_parser.py:260-285 | in place, every item becomes its filled value |
| ShopParser.ParseLine | skills/shop_exchange_analysis/scripts/data_parser.py:66-94 | a data line is skipped when it is a rule line, dropped without a name, or renamed and kept |
| ShopParser.ParseRows | skills/shop_exchange_analysis/scripts/data_parser.py:64-94 | the data-line loop yields the named entries, each renamed by its count |
| ShopParser.ParseText | skills/shop_exchange_analysis/scripts/data_parser.py:38-101 | the text parse returns the table or the error its spec function gives |
| ShopParser.TextTableFails | skills/shop_exchange_analysis/scripts/data_parser.py:43-97 | the empty-text error exactly when no line is non-blank; the no-items error exactly when there are lines but no data line has a name |
| ShopParser.TextTableItems | skills/shop_exchange_analysis/scripts/data_parser.py:38-101 | every parsed item has a name and a total of count times price, and is its entry renamed by its occurrence count and filled |
| ShopParser.CustomRuleWins | skills/shop_exchange_analysis/scripts/data_parser.py:207-209 | a custom rule, the last for its category, replaces that category's rule |
| ShopParser.DefaultRuleKept | skills/shop_exchange_analysis/scripts/data_parser.py:207-209 | a default category that no custom rule names keeps its keywords |
| ShopParser.FirstMatchSpec | skills/shop_exchange_analysis/scripts/data_parser.py:216-223 | the rule chosen is the first in rule order with a keyword in the name, and none only when no rule has one |
| ShopParser.CategorizeSpec | skills/shop_exchange_analysis/scripts/data_parser.py:211-225 | an item with a category keeps it; otherwise it gets the category of the first matching rule, or 其他; nothing else changes |
| ShopParser.MatchRule | skills/shop_exchange_analysis/scripts/data_parser.py:215-225 | the rule loop of one item gives the first matching rule's category, or 其他 |
| ShopParser.AutoCategorize | skills/shop_exchange_analysis/scripts/data_parser.py:202-227 | in place, every item becomes its categorised value |
| ShopParser.CheckItem | skills/shop_exchange_analysis/scripts/data_parser.py:300-314 | one item appends exactly its failed checks as errors, in the order the checks run, and an excessive saturation as a warning |
| ShopParser.ValidateItems | skills/shop_exchange_analysis/scripts/data_parser.py:288-320 | an empty list is one error; otherwise each failed check of each item is an error and a saturation above 200 only a warning, item by item in list order; valid exactly when there is no error |
| ShopParser.ItemErrors | skills/shop_exchange_analysis/scripts/data_parser.py:303-312 | the errors of one item are exactly its failed checks |
| ShopParser.FailedOrdered | skills/shop_exchange_analysis/scripts/data_parser.py:303-312 | the errors of one item come in the order the checks run |
| ShopParser.AllErrors | skills/shop_exchange_analysis/scripts/data_parser.py:300-312 | the errors of the first n items are exactly their failed checks |
| ShopParser.AllErrorsOrdered | skills/shop_exchange_analysis/scripts/data_parser.py:300-312 | the errors come item by item and, within an item, in check order, so none repeats |
| ShopParser.AllWarnings | skills/shop_exchange_analysis/scripts/data_parser.py:300-314 | the warnings of the first n items are exactly their saturations above 200 |
| ShopAnalyzer.SplitIgnoresThreshold | skills/shop_exchange_analysis/scripts/analyzer.py:19-30 | as written, the normal/special split is the same whatever skin_price_threshold is given, because it runs before the threshold is read |
| ShopAnalyzer.SplitIgnoresThresholdExample | skills/shop_exchange_analysis/scripts/analyzer.py:23-30 | as written, an item priced 60000 under a threshold of 100000 is special although its price is below the threshold in force |
| ShopAnalyzer.SplitPartition | skills/shop_exchange_analysis/scripts/analyzer.py:19-30 | (corrected) normal items are exactly those priced below the threshold in force and special items exactly the others; together they are all items |
| ShopAnalyzer.FirstMax | skills/shop_exchange_analysis/scripts/analyzer.py:51-52 | `max` with a key picks a position of the list |
| ShopAnalyzer.FirstMaxSpec | skills/shop_exchange_analysis/scripts/analyzer.py:51-58 | the pick has the largest key and no earlier item has a key as large |
| ShopAnalyzer.OverviewSpec | skills/shop_exchange_analysis/scripts/analyzer.py:48-70 | fails (max of an empty list) exactly when there are no items; otherwise the first item with the most users, the first with the most exchanges and the first pool item with the highest saturation, with their values, and the token total |
| ShopAnalyzer.SaturationSorted | skills/shop_exchange_analysis/scripts/analyzer.py:76-77 | the pool sorted by saturation, highest first, as a permutation of the pool |
| ShopAnalyzer.SaturationBuckets | skills/shop_exchange_analysis/scripts/analyzer.py:79-81 | the high bucket holds the pool items at HIGH or more, the medium bucket those from MED up to HIGH, the low bucket those below LOW |
| ShopAnalyzer.SaturationBucketsSorted | skills/shop_exchange_analysis/scripts/analyzer.py:79-81 | each bucket keeps the descending saturation order |
| ShopAnalyzer.SaturationNotes | skills/shop_exchange_analysis/scripts/analyzer.py:83-88 | a high-saturation note exactly when that bucket is non-empty, naming at most its first three items; a low-saturation note exactly when that bucket is non-empty |
| ShopAnalyzer.AccumulateDistinct | skills/shop_exchange_analysis/scripts/analyzer.py:105-112 | each category has at most one entry |
| ShopAnalyzer.AccumulateAt | skills/shop_exchange_analysis/scripts/analyzer.py:105-112 | a category has an entry exactly when some item is of that category, and its entry holds the sums over exactly those items |
| ShopAnalyzer.AccumulateSums | skills/shop_exchange_analysis/scripts/analyzer.py:114-115 | the categories' tokens and users add up to those of all items |
| ShopAnalyzer.Rows | skills/shop_exchange_analysis/scripts/analyzer.py:117-130 | one row per category entry |
| ShopAnalyzer.RowsOrdered | skills/shop_exchange_analysis/scripts/analyzer.py:118-120 | rows come most tokens first; with a zero total every share is 0 |
| ShopAnalyzer.RowsTotals | skills/shop_exchange_analysis/scripts/analyzer.py:118-130 | each row holds the sums over its category's items |
| ShopAnalyzer.RowsCover | skills/shop_exchange_analysis/scripts/analyzer.py:107-130 | every item's category has a row |
| ShopAnalyzer.ConsumptionTotals | skills/shop_exchange_analysis/scripts/analyzer.py:132-142 | the totals are those of all items and the top two categories are the first two rows |
| ShopAnalyzer.ConsumptionOrder | skills/shop_exchange_analysis/scripts/analyzer.py:117-130 | the categories come most tokens first, with zero shares when the total is zero |
| ShopAnalyzer.ConsumptionRows | skills/shop_exchange_analysis/scripts/analyzer.py:104-142 | one row per category present, each holding the sums over that category's items |
| ShopAnalyzer.ConsumptionStructure | skills/shop_exchange_analysis/scripts/analyzer.py:104-142 | the accumulation loop yields the consumption structure of the items |
| ShopAnalyzer.Place | skills/shop_exchange_analysis/scripts/analyzer.py:165-175 | the placement loop puts each item's name in the list of its quadrant, in item order |
| ShopAnalyzer.QuadrantSizes | skills/shop_exchange_analysis/scripts/analyzer.py:165-175 | every item is placed exactly once: the four lists together are as long as the pool |
| ShopAnalyzer.QuadrantMembers | skills/shop_exchange_analysis/scripts/analyzer.py:165-175 | an item is in a quadrant exactly when its two values fall there (at or above a median counts as high) |
| ShopAnalyzer.AnalyzeCross | skills/shop_exchange_analysis/scripts/analyzer.py:147-181 | PlacedBy with users against total tokens: no placement for an empty pool; otherwise the two medians and each quadrant's names, in pool order |
| ShopAnalyzer.AnalyzeQuadrant | skills/shop_exchange_analysis/scripts/analyzer.py:186-220 | PlacedBy with average token cost against saturation: no placement for an empty pool; otherwise the two medians and each quadrant's names, in pool order |
| ShopAnalyzer.SpecialSpec | skills/shop_exchange_analysis/scripts/analyzer.py:225-249 | no view exactly without special items; the full-saturation count is the number at 99.9 or more, its note appears exactly when it is positive, the few-buyers note exactly below 20 users, and the token total always ends the notes |
| ShopAnalyzer.LimitAdviceSpec | skills/shop_exchange_analysis/scripts/analyzer.py:263-284 | an increase is advised at saturation 15 or more and never lowers a non-negative limit; a decrease is advised below 0.5 with a limit of 5000 or more, lowering it to no less than 500 |
| ShopAnalyzer.PlanLimits | skills/shop_exchange_analysis/scripts/analyzer.py:258-284 | the P1 loop gives one piece of advice per normal item that warrants it, in item order |
| ShopAnalyzer.LowSatGroups | skills/shop_exchange_analysis/scripts/analyzer.py:294-297 | the low-saturation names are grouped by category, each group non-empty and the groups in the order their categories are first seen |
| Dicts.GroupsUnique | skills/shop_exchange_analysis/scripts/analyzer.py:294-297 | two groupings holding the grouped rows, non-empty and in first-seen order, are the same grouping |
| ShopAnalyzer.SlowNotes | skills/shop_exchange_analysis/scripts/analyzer.py:298-302 | one note per category with two or more low-saturation items |
| ShopAnalyzer.PlanPricing | skills/shop_exchange_analysis/scripts/analyzer.py:286-302 | the cheap-and-hot note exactly when some normal item has saturation 10 or more and a price below 200, and then first; a slow-category note exactly for each category with two or more items below 1%, once each, in first-seen order |
| ShopAnalyzer.NotesInFirstSeenOrder | skills/shop_exchange_analysis/scripts/analyzer.py:298-302 | slow-category notes that follow the grouping's order follow the order in which their categories are first seen |
| ShopAnalyzer.CountGrowth | skills/shop_exchange_analysis/scripts/analyzer.py:305-311 | the growth count is the number of items in the three growth categories |
| ShopAnalyzer.GenerateOptimization | skills/shop_exchange_analysis/scripts/analyzer.py:254-325 | fails (division by zero) exactly without items; otherwise Optimized: P1 is the limit plan, the cheap-and-hot and slow-category notes exactly when they apply, the growth note (with its share) exactly when growth items are more than half, and the single-price-band note exactly when special items have at most two prices |
| ShopAnalyzer.GrowthShare | skills/shop_exchange_analysis/scripts/analyzer.py:311-312 | the growth share exceeds 50% exactly when twice the growth count exceeds the total |
| ShopAnalyzer.RunAll | skills/shop_exchange_analysis/scripts/analyzer.py:32-43 | fails exactly without items; otherwise the overview, saturation, special and consumption views of their specifications, both placements of PlacedBy, and the optimization of Optimized |
| GitRepo.GetCommits | git-ai-config-analyzer/src/git_repo_manager.py:90-120 | the log loop yields exactly the commits its spec function reads from the output |
| GitRepo.CommitOfIff | git-ai-config-analyzer/src/git_repo_manager.py:107-118 | a line gives a commit exactly when it is that commit's hash\|time\|author\|message line with no bar in the first three fields; the message may hold bars |
| GitRepo.LogLineFields | git-ai-config-analyzer/src/git_repo_manager.py:111 | splitting a log line at its first three bars gives the four fields back |
| GitRepo.LogLines | git-ai-config-analyzer/src/git_repo_manager.py:100 | one log line per commit, in order |
| GitRepo.CommitsOfLogLines | git-ai-config-analyzer/src/git_repo_manager.py:107-118 | the lines of a list of commits parse back to that list |
| GitRepo.CommitsAnyOutput | git-ai-config-analyzer/src/git_repo_manager.py:104-105 | the empty-output early return agrees with the general loop |
| GitRepo.LogRoundTrip | git-ai-config-analyzer/src/git_repo_manager.py:90-120 | parsing the log git prints for a list of commits gives the list back, in order |
| GitRepo.LogLineOneLine | git-ai-config-analyzer/src/git_repo_manager.py:100 | a commit's log line holds no line break |
| GitRepo.ParseStatusLine | git-ai-config-analyzer/src/git_repo_manager.py:148-166 | one status line gives its change, a skip, or the IndexError |
| GitRepo.ParseNameStatus | git-ai-config-analyzer/src/git_repo_manager.py:122-168 | the status loop yields exactly the changes its spec function reads, or the IndexError |
| GitRepo.ChangesNoneSticks | git-ai-config-analyzer/src/git_repo_manager.py:148-166 | once a line raises, the whole parse raises |
| GitRepo.StatusRoundTrip | git-ai-config-analyzer/src/git_repo_manager.py:152-160 | a status line gives its change back: the type is the status field's first character whatever score follows, and a rename with three fields takes the second as old path and the third as path |
| GitRepo.NoTabSkipped | git-ai-config-analyzer/src/git_repo_manager.py:152-153 | a line with no tab is skipped |
| GitRepo.ThirdFieldIgnored | git-ai-config-analyzer/src/git_repo_manager.py:152-160 | a non-rename line with a third field keeps the second as its path and drops the third |
| GitRepo.EmptyStatusRaises | git-ai-config-analyzer/src/git_repo_manager.py:154 | an empty status field before the tab makes parts[0][0] raise |
| GitRepo.ChangesOfEntries | git-ai-config-analyzer/src/git_repo_manager.py:148-166 | lines that each yield a change yield all of them, in order |
| GitRepo.NameStatusRoundTrip | git-ai-config-analyzer/src/git_repo_manager.py:187-228 | parsing the status listing git prints for a list of changes gives the list back, in order |
| GitRepo.ChangesAnyOutput | git-ai-config-analyzer/src/git_repo_manager.py:145-146 | the empty-output early return agrees with the general loop |
| GitRepo.GetAllBranches | git-ai-config-analyzer/src/git_repo_manager.py:79-88 | the branch loop yields exactly the names its spec function reads |
| GitRepo.BranchLineName | git-ai-config-analyzer/src/git_repo_manager.py:84-87 | a branch line, marked current or not, gives its branch name |
| GitRepo.BranchesRoundTrip | git-ai-config-analyzer/src/git_repo_manager.py:79-88 | the branch listing gives back the listed names, in order, whichever one is current |
| DiffExtractor.ParseDiff | git-ai-config-analyzer/src/diff_extractor.py:66-128 | the parse loop yields exactly the added, removed and context lines and raw text of its spec function |
| DiffExtractor.ParseBound | git-ai-config-analyzer/src/diff_extractor.py:108-110 | no more than max_diff_lines lines are kept, none when it is negative |
| DiffExtractor.ParseRaw | git-ai-config-analyzer/src/diff_extractor.py:127 | the raw text kept is the diff cut to its first 5000 characters |
| DiffExtractor.StepSound | git-ai-config-analyzer/src/diff_extractor.py:94-120 | a line kept as added, removed or context is a body line with that marker, never a header |
| DiffExtractor.ParseSound | git-ai-config-analyzer/src/diff_extractor.py:94-120 | every kept line comes from a diff line that carries its marker and is not a header |
| DiffExtractor.PreambleIgnored | git-ai-config-analyzer/src/diff_extractor.py:105-106 | before the body, a line that does not open it changes nothing |
| DiffExtractor.HunkParsed | git-ai-config-analyzer/src/diff_extractor.py:94-120 | after a header, body lines without header prefixes are sorted by their first character into added, removed and context, marker removed, up to max_diff_lines |
| DiffExtractor.DoubleDashRemovalDropped | git-ai-config-analyzer/src/diff_extractor.py:98-100 | a removed line whose text starts with -- shows as ---… and is taken for a file header: it is dropped and not counted |
| DiffExtractor.BaseName | git-ai-config-analyzer/src/diff_extractor.py:214 | the file name is the whole path without a slash, and otherwise the suffix after the last slash |
| DiffExtractor.LastDot | git-ai-config-analyzer/src/diff_extractor.py:215 | the suffix starts at the last dot of the name |
| DiffExtractor.Stem | git-ai-config-analyzer/src/diff_extractor.py:215 | the stem is a prefix of the name |
| DiffExtractor.TableName | git-ai-config-analyzer/src/diff_extractor.py:204-216 | the table name has no slash |
| DiffExtractor.TableNameOf | git-ai-config-analyzer/src/diff_extractor.py:204-216 | a file dir/stem.ext, or stem.ext at the top, names the table stem |
| DiffExtractor.NoSuffixKept | git-ai-config-analyzer/src/diff_extractor.py:215 | a name with no dot, or whose only dot is first or last, is its own table name |
| DiffExtractor.BuildFileCommitMap | git-ai-config-analyzer/src/diff_extractor.py:177-202 | the map loop builds exactly the file-to-commits map of its spec function |
| DiffExtractor.FileMapLookup | git-ai-config-analyzer/src/diff_extractor.py:192-202 | a file's entry lists, in order, the commits that touched it; files outside the target directory have none |
| DiffExtractor.RelatedSound | git-ai-config-analyzer/src/diff_extractor.py:194-200 | a file's related commits are commits of the range that changed that file, which lies under the target directory |
| DiffExtractor.ExtractOne | git-ai-config-analyzer/src/diff_extractor.py:154-173 | one changed file gives its record |
| DiffExtractor.ConfigDiffOfMeaning | git-ai-config-analyzer/src/diff_extractor.py:156-172 | deleted files carry no diff, and a file's related commits are the ones that touched it |
| DiffExtractor.ExtractAllDiffs | git-ai-config-analyzer/src/diff_extractor.py:130-175 | one record per changed file, in order; deleted files carry no diff, a diff git fails to give reads as empty, related commits are those that touched the file under the target directory |
| ChangeAnalyzer.UnseenMembers | config-agent/src/change_analyzer.py:80-83 | the commits appended are exactly the incoming ones whose hash is not yet recorded |
| ChangeAnalyzer.MergeKeepsRecorded | config-agent/src/change_analyzer.py:78-90 | merging keeps the recorded commits in front and appends exactly the related commits whose hash was not yet recorded; name, path and old path stay |
| ChangeAnalyzer.MergeInto | config-agent/src/change_analyzer.py:78-90 | one more file of a table is merged into its record |
| ChangeAnalyzer.AnalyzeChanges | config-agent/src/change_analyzer.py:36-105 | the analysis loops build exactly the table records of the spec function |
| ChangeAnalyzer.SortEach | config-agent/src/change_analyzer.py:101-103 | every table keeps its place and gets its commits sorted by time |
| ChangeAnalyzer.TablesDistinct | config-agent/src/change_analyzer.py:59-99 | the dictionary has one record per table name |
| ChangeAnalyzer.TablesEntry | config-agent/src/change_analyzer.py:73-99 | the record held for a table is the one its own files build, in order |
| ChangeAnalyzer.TableForFirst | config-agent/src/change_analyzer.py:91-99 | a table's record exists exactly when it has files, and takes its name, path and old path from the first |
| ChangeAnalyzer.TableForType | config-agent/src/change_analyzer.py:85-90 | a table's change type follows the D > A > M priority over all of its files |
| ChangeAnalyzer.TableForCommits | config-agent/src/change_analyzer.py:80-83 | every commit of a table's record was listed for one of the table's files |
| ChangeAnalyzer.OfEmpty | config-agent/src/change_analyzer.py:73-75 | a table gets a record exactly when some changed file belongs to it |
| ChangeAnalyzer.AnalyzeRecord | config-agent/src/change_analyzer.py:73-105 | each table of the result has a changed file, takes its path and old path from the first, its change type from the priority, and holds its merged commits sorted by time |
| ChangeAnalyzer.AnalyzeNames | config-agent/src/change_analyzer.py:73-105 | one table per name, and a table for exactly the names some changed file has |
| ChangeAnalyzer.AnalyzeCommits | config-agent/src/change_analyzer.py:61-83 | each commit a table lists is a commit of the range that changed one of the table's files under the target directory |
| ChangeAnalyzer.GroupByChangeType | config-agent/src/change_analyzer.py:130-162 | the grouping loop yields exactly the groups of its spec function |
| ChangeAnalyzer.BucketMembers | config-agent/src/change_analyzer.py:150-156 | a bucket holds exactly the records whose change type maps to it, unknown types to M |
| ChangeAnalyzer.BucketSizes | config-agent/src/change_analyzer.py:150-156 | the four buckets together hold every record |
| ChangeAnalyzer.BucketOther | config-agent/src/change_analyzer.py:143-148 | no record goes to a key other than A, M, D and R |
| ChangeAnalyzer.GroupPartition | config-agent/src/change_analyzer.py:143-162 | each record lands in the group of its change type, unknown types in M, and in no other; the groups hold every record once, each sorted by table name |
| ConfigReport.AddHashes | config-agent/src/report_generator.py:71-74 | the hash loop adds exactly the hashes of a table's commits |
| ConfigReport.CommitCount | config-agent/src/report_generator.py:71-75 | the commit count is the number of distinct hashes the tables list |
| ConfigReport.SeenMeaning | config-agent/src/report_generator.py:71-74 | a hash is counted exactly when some table lists a commit with it |
| ConfigReport.CountBound | config-agent/src/report_generator.py:71-75 | the count is at most the number of commit entries and is 0 exactly when no table has a commit |
| ConfigReport.CountedInRange | config-agent/src/report_generator.py:71-75 | for the tables the analyzer builds, every counted hash is the hash of a commit of the range |
| ConfigReport.CommitToTables | config-agent/src/report_generator.py:114-119 | the index loop appends every table under each of its commits' hashes, in order |
| ConfigReport.LookupIndex | config-agent/src/report_generator.py:137 | looking a hash up in the index gives the tables listing it |
| ConfigReport.TablesOfMeaning | config-agent/src/report_generator.py:114-119 | a commit lists exactly the tables that have a commit with its hash |
| ConfigReport.CommitOrder | config-agent/src/report_generator.py:122-127 | the loop builds exactly the sorted commit list of its spec function |
| ConfigReport.UniqueSpec | config-agent/src/report_generator.py:122-126 | the first-seen list holds each commit of every table exactly once |
| ConfigReport.SortedCommitsSpec | config-agent/src/report_generator.py:122-127 | the detailed commit list holds every commit of every table, none twice, ordered by time, equal times in first-seen order |
| ConfigReport.TypeSections | config-agent/src/report_generator.py:91-94 | the section loop yields exactly the sections of its spec function |
| ConfigReport.SectionsSpec | config-agent/src/report_generator.py:84-94 | a section is shown for exactly the change types A, M, D, R whose group is non-empty, in that order |
| ConfigReport.SectionsCover | config-agent/src/report_generator.py:91-101 | with the analyzer's grouping, the sections shown hold every table once |
| ConfigReport.ShowEntry | config-agent/src/report_generator.py:97-101 | a rename with a non-empty old path shows both paths; every other entry shows its name and path |
| ConfigReport.SymbolSpec | config-agent/src/report_generator.py:141-146 | the four change types get four different symbols, none of them ?, and every other type gets ? |
| ConfigReport.ChangesByType | config-agent/src/report_generator.py:305-314 | the JSON groups are the non-empty groups in section order |
| ConfigReport.ChangedFiles | config-agent/src/report_generator.py:336-356 | a commit's changed files are the file paths of the tables listing its hash |
| ConfigReport.CommitEntries | config-agent/src/report_generator.py:343-357 | one entry per distinct commit in time order, each with the files of the tables listing it |
| ConfigReport.GenerateJson | config-agent/src/report_generator.py:266-359 | the totals are the distinct commit count and the table count; the groups, tables and commit entries as above |
| ConfigReport.FilesForMeaning | config-agent/src/report_generator.py:336-341 | a commit's changed files are exactly the paths of the tables that list its hash |
| AiAnalyzer.BasicSummaryShape | git-ai-config-analyzer/src/ai_analyzer.py:294-311 | the basic summary opens with the change's verb, names the table, and carries line counts exactly when the diff was read and some line was added or removed |
| AiAnalyzer.BasicSummaryType | git-ai-config-analyzer/src/ai_analyzer.py:296-302 | two equal summaries name the same change type when either type is one of the four |
| AiAnalyzer.GuessCategorySpec | git-ai-config-analyzer/src/ai_analyzer.py:313-320 | additions are new features, deletions removals, and everything else a parameter change |
| AiAnalyzer.ChangePromptOf | git-ai-config-analyzer/src/ai_analyzer.py:151-166 | the prompt carries the first five related commits (all of them when there are at most five) and the first 50 added and removed lines |
| AiAnalyzer.SplitOn | git-ai-config-analyzer/src/ai_analyzer.py:273-275 | Python's split gives at least one piece, and two or more when the separator occurs |
| AiAnalyzer.SplitFirst | git-ai-config-analyzer/src/ai_analyzer.py:273-275 | the first piece of a split is the text before the first separator, or all of it |
| AiAnalyzer.ExtractUnfenced | git-ai-config-analyzer/src/ai_analyzer.py:271-272 | a reply without any fence is taken whole |
| AiAnalyzer.ExtractJsonBlock | git-ai-config-analyzer/src/ai_analyzer.py:271-273 | a reply with a ```json block yields the block's inside, when no ```json comes before it, the inside holds no ``` and does not end with a backtick, and no ```json starts within the closing fence |
| AiAnalyzer.ExtractPlainBlock | git-ai-config-analyzer/src/ai_analyzer.py:271-275 | a reply with no ```json and a plain fenced block yields the block's inside, when the text before the block and the inside hold no ``` and do not end with a backtick |
| AiAnalyzer.ExtractWithin | git-ai-config-analyzer/src/ai_analyzer.py:271-275 | the text taken for JSON always occurs in the reply |
| AiAnalyzer.ParseFails | git-ai-config-analyzer/src/ai_analyzer.py:260-292 | reading fails (the exception escapes) exactly when the reply decodes to something other than an object; otherwise each field is the object's value or the default |
| AiAnalyzer.ParseInvalid | git-ai-config-analyzer/src/ai_analyzer.py:288-290 | a reply that is not JSON keeps at most its first 200 characters as the summary and every other field at the default |
| AiAnalyzer.ParseEmptyObject | git-ai-config-analyzer/src/ai_analyzer.py:279-286 | the defaults the reading falls back on are the record's own: an empty object changes nothing |
| AiAnalyzer.AnalyzeAll | git-ai-config-analyzer/src/ai_analyzer.py:109-127 | one result per change, in order, each the single analysis of that change |
| AiAnalyzer.AnalyzeSources | git-ai-config-analyzer/src/ai_analyzer.py:72-107 | every result names its change and is either the fallback or what the model's reply reads as; without a client it is the fallback |
| AiAnalyzer.FallbackSpec | git-ai-config-analyzer/src/ai_analyzer.py:83-93 | the fallback has no new-feature or sync flag, the default priority, the basic summary and the guessed category |
| AiAnalyzer.FlagsNeedModel | git-ai-config-analyzer/src/ai_analyzer.py:279-286 | only a model reply decoding to an object that says so marks a change as a new feature, as needing sync, or with a non-default priority |
| AiAnalyzer.TypesPartition | git-ai-config-analyzer/src/ai_analyzer.py:324-326 | the results split into additions, modifications, deletions and the rest |
| AiAnalyzer.OverviewCounts | git-ai-config-analyzer/src/ai_analyzer.py:322-352 | the basic overview's counts add up to at most the total, and to the total when every change is A, M or D; one entry per added and per modified table |
| AiAnalyzer.OverviewAdded | git-ai-config-analyzer/src/ai_analyzer.py:337-341 | the overview lists every added table with its path, and nothing else |
| AiAnalyzer.OverviewModified | git-ai-config-analyzer/src/ai_analyzer.py:344-350 | the overview lists every modified table with its summary, and nothing else |
| AiAnalyzer.OverallFallback | git-ai-config-analyzer/src/ai_analyzer.py:129-149 | the overall summary is the basic one exactly when there is no client or the call raises |
| AiReport.DataDropsRaw | git-ai-config-analyzer/src/report_generator.py:271-283 | two results are written alike exactly when they differ at most in the raw reply |
| AiReport.AddNew | git-ai-config-analyzer/src/report_generator.py:287-288 | the new-feature list holds the written form of each new-feature result so far, in order |
| AiReport.AddPriority | git-ai-config-analyzer/src/report_generator.py:295-296 | a change goes to the list of its priority, when it is 高, 中 or 低 |
| AiReport.AddChange | git-ai-config-analyzer/src/report_generator.py:270-296 | one result is appended to all changes, to new features if it is one, under its category and under its priority |
| AiReport.GenerateJson | git-ai-config-analyzer/src/report_generator.py:234-298 | the summary counts, all changes in order, the new features, the category lists (non-empty, in first-seen category order) and the priority lists of the results |
| AiReport.PriorityHigh | git-ai-config-analyzer/src/report_generator.py:263-296 | the 高 list holds exactly the high-priority changes, in order, as many as the high-priority count |
| AiReport.PriorityPartition | git-ai-config-analyzer/src/report_generator.py:262-296 | every change is in exactly one priority list unless its priority is none of the three |
| AiReport.CategoryOfSpec | git-ai-config-analyzer/src/report_generator.py:290 | an empty category is filed as 未分类, any other as it is; nothing is filed under "" |
| AiReport.CategoryMeaning | git-ai-config-analyzer/src/report_generator.py:290-293 | the list under a category holds exactly the changes filed under it |
| AiReport.Categories | git-ai-config-analyzer/src/report_generator.py:172-177 | the markdown report's category dictionary is filled in result order: non-empty lists, categories in first-seen order |
| AiReport.CategoriesAgree | git-ai-config-analyzer/src/report_generator.py:172-293 | the markdown table of a category and the JSON list of that category show the same changes in the same order |
| AiReport.ShortSummarySpec | git-ai-config-analyzer/src/report_generator.py:185 | a summary of at most 30 characters is shown whole; a longer one shows its first 30 and an ellipsis |
| AiReport.SectionsShown | git-ai-config-analyzer/src/report_generator.py:190-208 | the high-priority and sync sections appear exactly when some change is high-priority or needs syncing |
| AiReport.ChangeTypeNameSpec | git-ai-config-analyzer/src/report_generator.py:306-313 | each of the four types has its own name; any other type is named by itself, so names never collide |

## Left out

- Reading files and workbooks is not modelled, and neither is opening them or checking that they exist. This covers openpyxl and pandas loading, `parse_excel`, `generate_template`, `generate_excel_template` and `save_as_json`. The parsers work on rows given as sequences of cells.
- In the v2 workbook reader, only the rules listed in the model are covered: the meta, behaviour, payment-overview, R-tier, core-reward and gift-package sheets are read only as far as the tier order goes, and the header lookups `_get_rows`/`_get_header_map` are not modelled.
- The shop parser's `parse_json` and `parse_excel` are not modelled; they are input adapters around the same item records.
- Text output is not modelled: the Notion, wiki, markdown and console text, f-string number formatting, `_fmt_revenue`, and exact message wording. Notes, details and suggestions are small datatypes that carry the figures they quote, and a float carries its own `str()` text.
- Chart drawing (matplotlib) is not modelled. From `compute_metrics`, the `np.polyfit` slopes are a parameter `fit`.
- `_log_equal_segment` is the parameter `logEqual`. It must return n groups; its log10 arithmetic is not modelled.
- `statistics.median` is computed exactly over reals. `max(..., key=...)` takes the first largest element.
- Floats are exact reals. Python `float()` on text accepts plain decimals only: exponents, `inf` and `nan` read as unparseable. `round` is half-up, not round-half-even on binary floats.
- Running git is not modelled (`_run_git_command`, `_validate_repo`, `get_current_branch`, the GitHub API of the config agent's `git_manager.py`). Each parser takes the text git printed after the `.strip()` of `_run_git_command` (git-ai-config-analyzer/src/git_repo_manager.py:68); that strip is not applied inside the parsers, so a caller passes `Strings.Strip` of the raw output. `extract_all_diffs` takes the diff of a path and the files of a commit as parameters.
- The language-model client is a parameter that either raises or answers. `json.loads` is the parameter `decode`, which says whether the text is JSON, JSON other than an object, or an object whose eight keys are read with their expected types. The text of the prompts, including `_build_summary_prompt`, is not modelled; the limits on what the analysis prompt carries are.
- AiAnalyzer.ParseFails: each field of the reply object is read with its expected type, so a key whose value is `null` or of another type is not modelled. `data.get` returns such a value as it is rather than the default, and a present `null` is read as the default here.
- ExcelV2.KeptBenchmarks states which benchmarks are kept and with which stages, not their order; ExcelV2.KeptInOrder and ExcelV2.ParseReach state the order.
- Strings.Lower lowers ASCII letters only; Python's `lower()` also lowers other scripts. It is applied to benchmark-tag cells, which are compared against 是, yes, true, 1, 对标 and benchmark; the two differ only on the few non-ASCII letters that Python lowers to ASCII, such as the Kelvin sign. `Strings.Strip` uses the full `str.isspace` class, including U+3000.
- BaseAnalyzer.NewResult: the result record has no `chart_data` field, because chart data only feeds chart drawing, which is not modelled.
- The clock is not modelled: `datetime.now()` timestamps and report check times are inputs.
- The CLI and orchestration are not modelled: the `main.py` files, argparse, `run_analysis`, path repair and `print`. The `config.py` dataclasses are not modelled; their settings are parameters.
- Python exceptions on malformed dicts are not modelled. A `.get` on a value that is not a dict reads as `None` instead of raising `AttributeError`. In the funnel rise check, non-numeric user counts are skipped instead of raising `TypeError`. Where the source does raise in a modelled path (`max` of nothing, an empty status field, a reply that decodes to a non-object), the model returns `None` or a failure value.
- The iteration order of Python sets (the tiers outside the fixed list in the R-tier order) is the parameter `others`.
- Arrays stand for lists the source rewrites in place (`_auto_fix_arpu_arppu`, `_fill_computed_fields`, `auto_categorize`). Other in-place builders return the new list or dict as a value, so aliasing between the caller's dict and the result is not modelled. One example is the validator inserting `behavior_data`.
- Conversion.Analyze uses the corrected decay alarm from Findings, so with exactly two intervals it differs from the source. The as-written rule is modelled beside it.
- ShopAnalyzer.New splits normal and special items at the threshold in force, which is the corrected behaviour from Findings. The as-written split is ShopAnalyzer.NewAsWritten.
- ExcelV1.Enriched leaves an activity without a name unchanged, which is the corrected behaviour from Findings. The as-written matching is ExcelV1.MatchAsWritten.
- ExcelV1.EnrichSpec states the corrected matching: an activity without a name keeps its empty type, unlike excel_handler.py:656-659 (see Findings).
- ExcelV1.EnrichOne gives an activity its type by the corrected matching, so an activity without a name is left without a type.
- ExcelV1.EnrichTypes fills the types of a list of activities in place by the corrected matching.
- ExcelV1.ComputeModule sums the modules of the activities typed by the corrected matching.
- ShopAnalyzer.SplitPartition states the corrected split at the threshold in force, unlike analyzer.py:23-30 (see Findings).
- Conversion.DecayAlarmMeaning states the corrected decay alarm, which needs at least one worsened transition, unlike conversion_analyzer.py:181 (see Findings).
- The web scraper, the one-off comparison scripts, the shop report renderer and the chart modules are outside this model.

## Findings

| source | as written | input that shows it | evidently intended | confidence | as-written member | corrected member |
|---|---|---|---|---|---|---|
| skills/generate_event_review_v2/scripts/analyzers/conversion_analyzer.py:181 | the decay alarm fires when the number of worsened transitions is at least (intervals − 1) // 2 | two intervals and no worsened transition: 0 >= 1 // 2 = 0, so the alarm fires and the severity becomes 异常 | an accelerated-decay alarm needs at least one worsened transition | high (not executed) | Conversion.TwoIntervalsAlwaysAlarm | Conversion.DecayAlarmMeaning |
| skills/shop_exchange_analysis/scripts/analyzer.py:23-30 | normal and special items are split at 50000 before a custom `skin_price_threshold` is read | an item priced 60000 with threshold 100000 is special, although it is priced below the threshold | the split uses the threshold in force | high (not executed) | ShopAnalyzer.SplitIgnoresThresholdExample | ShopAnalyzer.SplitPartition |
| skills/generate_event_review/scripts/excel_handler.py:656-659 | the substring match tests `name in cls_name`, and "" is contained in every name | a sub-activity without a name and without a type takes the module of the first classification entry | an activity without a name is left without a type | medium (not executed; reachable only by callers passing such an activity) | ExcelV1.EmptyNameTakesFirst | ExcelV1.EnrichSpec |

=== FILE: ai_analyzer.dfy ===
/**
 * The AI analysis engine of the git change analyzer: for each changed
 * configuration file it asks a language model for a structured review and
 * reads the reply, and without a model it falls back to a summary and a
 * category built from the change itself.
 *
 * The model client is a parameter: `None` when no API key is configured or
 * the client library is missing, otherwise a function from the prompt to
 * the reply. `json.loads` is the parameter `decode`.
 */
module AiAnalyzer {
  import opened Wrappers
  import opened Strings
  import opened GitRepo
  import opened DiffExtractor

  /** One reviewed change; every field after the first three has a default. */
  datatype AnalysisResult = AnalysisResult(
    filePath: string,
    tableName: string,
    changeType: char,
    category: string,
    isNewFeature: bool,
    summary: string,
    purpose: string,
    impact: string,
    syncRequired: bool,
    priority: string,
    relatedSystems: seq<string>,
    raw: string)

  /** The review priority a result has unless the model gives one. */
  const DefaultPriority := "中"

  /** A fresh result for a change: its identity, every other field at its default. */
  function Base(d: ConfigDiff): AnalysisResult
  {
    AnalysisResult(d.filePath, d.tableName, d.changeType, "", false, "", "", "", false, DefaultPriority, [], "")
  }

  // ---- the model call ----

  /** What the model is asked: about one change, or for the overall summary. */
  datatype Prompt =
    | ChangePrompt(filePath: string, tableName: string, typeLabel: string,
                   commits: seq<CommitInfo>, added: seq<string>, removed: seq<string>)
    | SummaryPrompt(total: nat, newFeatureCount: nat, highCount: nat, lines: seq<(string, string)>)

  /** The model call: it raises, or answers with a content that may be missing. */
  datatype Reply = Raised | Answer(content: Option<string>)

  /** What `json.loads` makes of the extracted text. */
  datatype Decoded = Invalid | NotObject | Object(fields: Fields)

  /** The keys the reply object may carry; None for a key it leaves out. */
  datatype Fields = Fields(
    summary: Option<string>,
    purpose: Option<string>,
    category: Option<string>,
    isNewFeature: Option<bool>,
    impact: Option<string>,
    syncRequired: Option<bool>,
    priority: Option<string>,
    relatedSystems: Option<seq<string>>)

  // ---- the fallback summary and category ----

  /** The verb for each change type. */
  function ActionOf(ty: char): Option<string>
  {
    match ty
    case 'A' => Some("新增")
    case 'M' => Some("修改")
    case 'D' => Some("删除")
    case 'R' => Some("重命名")
    case _ => None
  }

  function Action(d: ConfigDiff): string
  {
    ActionOf(d.changeType).GetOr("变更")
  }

  /** The line counts, when the diff was read and has added or removed lines. */
  function LinesInfo(d: ConfigDiff): string
  {
    match d.diffContent
    case None => ""
    case Some(c) =>
      if |c.added| > 0 || |c.removed| > 0 then
        "（+" + NatToString(|c.added|) + "/-" + NatToString(|c.removed|) + "行）"
      else ""
  }

  /** The one-line summary used without a model. */
  function BasicSummary(d: ConfigDiff): string
  {
    Action(d) + "配置表 " + d.tableName + LinesInfo(d)
  }

  /**
   * The summary opens with the change's verb, names the table, and carries
   * line counts exactly when the diff was read and changed some line.
   */
  lemma BasicSummaryShape(d: ConfigDiff)
    ensures StartsWith(BasicSummary(d), Action(d))
    ensures Contains(BasicSummary(d), d.tableName)
    ensures Contains(BasicSummary(d), Action(d))
    ensures LinesInfo(d) != "" <==>
      d.diffContent.Some? && (|d.diffContent.value.added| > 0 || |d.diffContent.value.removed| > 0)
    ensures |BasicSummary(d)| == |Action(d)| + 4 + |d.tableName| <==> LinesInfo(d) == ""
  {
    var s := BasicSummary(d);
    var k := |Action(d)| + 4;
    assert s[..|Action(d)|] == Action(d);
    assert OccursAt(s, Action(d), 0);
    assert s[k..k + |d.tableName|] == d.tableName;
    assert OccursAt(s, d.tableName, k);
  }

  /** Two summaries that agree name the same change type, when either type is one of the four. */
  lemma BasicSummaryType(d1: ConfigDiff, d2: ConfigDiff)
    requires ActionOf(d1.changeType).Some? || ActionOf(d2.changeType).Some?
    requires BasicSummary(d1) == BasicSummary(d2)
    ensures d1.changeType == d2.changeType
  {
    assert BasicSummary(d1)[0] == Action(d1)[0];
    assert BasicSummary(d2)[0] == Action(d2)[0];
  }

  /** The category guessed without a model. */
  function GuessCategory(d: ConfigDiff): string
  {
    if d.changeType == 'A' then "功能新增"
    else if d.changeType == 'D' then "废弃移除"
    else "参数调整"
  }

  /** Additions are new features, deletions removals, and everything else a parameter change. */
  lemma GuessCategorySpec(d: ConfigDiff)
    ensures GuessCategory(d) == "功能新增" <==> d.changeType == 'A'
    ensures GuessCategory(d) == "废弃移除" <==> d.changeType == 'D'
    ensures GuessCategory(d) == "参数调整" <==> d.changeType != 'A' && d.changeType != 'D'
  {
  }

  // ---- the prompt ----

  /** The change type as the prompt words it; an unknown type is shown as it is. */
  function TypeLabel(ty: char): string
  {
    match ty
    case 'A' => "新增文件"
    case 'M' => "修改文件"
    case 'D' => "删除文件"
    case 'R' => "重命名文件"
    case _ => [ty]
  }

  /** The most commits the prompt lists, and the most added or removed lines it shows. */
  const PromptCommits := 5
  const PromptLines := 50

  /** The prompt about one change: its first commits and first added and removed lines. */
  function ChangePromptOf(d: ConfigDiff): (p: Prompt)
    ensures p.ChangePrompt?
    ensures |p.commits| <= PromptCommits && |p.commits| <= |d.relatedCommits| && p.commits == d.relatedCommits[..|p.commits|]
    ensures |d.relatedCommits| <= PromptCommits ==> p.commits == d.relatedCommits
    ensures |p.added| <= PromptLines && |p.removed| <= PromptLines
    ensures d.diffContent.None? ==> p.added == [] && p.removed == []
    ensures d.diffContent.Some? ==>
      (|p.added| <= |d.diffContent.value.added| && |p.removed| <= |d.diffContent.value.removed|
       && p.added == d.diffContent.value.added[..|p.added|]
       && p.removed == d.diffContent.value.removed[..|p.removed|]
       && (|d.diffContent.value.added| <= PromptLines ==> p.added == d.diffContent.value.added)
       && (|d.diffContent.value.removed| <= PromptLines ==> p.removed == d.diffContent.value.removed))
  {
    var added := if d.diffContent.Some? then Take(d.diffContent.value.added, PromptLines) else [];
    var removed := if d.diffContent.Some? then Take(d.diffContent.value.removed, PromptLines) else [];
    ChangePrompt(d.filePath, d.tableName, TypeLabel(d.changeType),
                 Take(d.relatedCommits, PromptCommits), added, removed)
  }

  // ---- reading the reply ----

  const JsonFence := "```json"
  const Fence := "```"

  /** Python's `s.split(sep)` for a non-empty separator. */
  function SplitOn(s: string, sep: string): (r: seq<string>)
    requires |sep| > 0
    ensures |r| >= 1
    ensures Contains(s, sep) ==> |r| >= 2
    decreases |s|
  {
    match Find(s, sep)
    case None => [s]
    case Some(i) => [s[..i]] + SplitOn(s[i + |sep|..], sep)
  }

  /** The text taken for JSON: the inside of the first fenced block, or the whole reply. */
  function Extract(response: string): string
  {
    if Contains(response, JsonFence) then SplitOn(SplitOn(response, JsonFence)[1], Fence)[0]
    else if Contains(response, Fence) then SplitOn(SplitOn(response, Fence)[1], Fence)[0]
    else response
  }

  /** Where "```json" occurs, "```" occurs too. */
  lemma JsonFenceIsFence(s: string, i: nat)
    requires OccursAt(s, JsonFence, i)
    ensures OccursAt(s, Fence, i)
  {
    assert s[i..i + 3] == s[i..i + 7][..3];
  }

  /** The first occurrence of sub is at i when it occurs there and nowhere before. */
  lemma {:induction false} FindIs(s: string, sub: string, i: nat)
    requires OccursAt(s, sub, i)
    requires forall j: nat :: j < i ==> !OccursAt(s, sub, j)
    ensures Find(s, sub) == Some(i)
  {
    assert Contains(s, sub);
  }

  /** The first piece of a split is the text before the first separator, or all of it. */
  lemma {:induction false} SplitFirst(s: string, sep: string)
    requires |sep| > 0
    ensures Find(s, sep).None? ==> SplitOn(s, sep)[0] == s
    ensures Find(s, sep).Some? ==> SplitOn(s, sep)[0] == s[..Find(s, sep).value]
  {
  }

  /** A split whose first separator is at i: the second piece is the first piece of what follows it. */
  lemma {:induction false} SplitSecond(s: string, sep: string, i: nat)
    requires |sep| > 0 && Find(s, sep) == Some(i)
    ensures |SplitOn(s, sep)| >= 2
    ensures SplitOn(s, sep)[1] == SplitOn(s[i + |sep|..], sep)[0]
  {
    var t := s[i + |sep|..];
    assert SplitOn(s, sep) == [s[..i]] + SplitOn(t, sep);
  }

  /**
   * Text that holds no "```" and does not end with a backtick: a fence
   * written right after it is the first fence of the whole.
   */
  predicate FenceFree(s: string)
  {
    !Contains(s, Fence) && (s == [] || s[|s| - 1] != '`')
  }

  /** After fence-free text, the first fence is the one that follows it. */
  lemma {:induction false} FenceAfter(s: string, q: string)
    requires FenceFree(s)
    requires |s| + 3 <= |q| && q[..|s| + 3] == s + Fence
    ensures Find(q, Fence) == Some(|s|)
  {
    assert q[|s|..|s| + 3] == Fence;
    forall j: nat | j < |s| ensures !OccursAt(q, Fence, j) {
      if j + 3 <= |s| {
        assert q[j..j + 3] == s[j..j + 3];
        assert !OccursAt(s, Fence, j);
      } else if j + 3 <= |q| {
        assert q[j..j + 3][|s| - 1 - j] == q[|s| - 1] == s[|s| - 1];
      }
    }
    FindIs(q, Fence, |s|);
  }

  /** A "```json" cannot begin before another one and run into it. */
  lemma {:induction false} JsonNoOverlap(s: string, p: nat, j: nat)
    requires OccursAt(s, JsonFence, p) && j < p < j + 7
    ensures !OccursAt(s, JsonFence, j)
  {
    var d := p - j;
    var t := if d < 3 then 3 - d else 0;
    assert s[p + t] == '`' by {
      assert s[p + t] == s[p..p + 7][t];
    }
    if j + 7 <= |s| {
      assert s[j..j + 7][d + t] == s[p + t];
      assert JsonFence[d + t] != '`';
    }
  }

  /** With no "```json" in pre, the first one of pre + "```json" + rest follows pre. */
  lemma {:induction false} JsonFenceAfter(pre: string, rest: string)
    requires !Contains(pre, JsonFence)
    ensures Find(pre + JsonFence + rest, JsonFence) == Some(|pre|)
  {
    var s := pre + JsonFence + rest;
    assert s[|pre|..|pre| + 7] == JsonFence;
    forall j: nat | j < |pre| ensures !OccursAt(s, JsonFence, j) {
      if j + 7 <= |pre| {
        assert s[j..j + 7] == pre[j..j + 7];
        assert !OccursAt(pre, JsonFence, j);
      } else {
        JsonNoOverlap(s, |pre|, j);
      }
    }
    FindIs(s, JsonFence, |pre|);
  }

  /** A "```json" after a fence-free inside starts at its closing fence or after it. */
  lemma {:induction false} JsonAfterBody(body: string, post: string, k: nat)
    requires FenceFree(body)
    requires !StartsWith(post, "`json") && !StartsWith(post, "``json")
    requires OccursAt(body + Fence + post, JsonFence, k)
    ensures k == |body| || k >= |body| + 3
  {
    var rest := body + Fence + post;
    assert rest[..|body| + 3] == body + Fence;
    FenceAfter(body, rest);
    JsonFenceIsFence(rest, k);
    assert k >= |body|;
    JsonInClosing(body, post);
    assert k != |body| + 1 && k != |body| + 2;
  }

  /** A "```json" that starts within a closing fence continues into what follows it. */
  lemma {:induction false} JsonInClosing(body: string, post: string)
    ensures OccursAt(body + Fence + post, JsonFence, |body| + 1) ==> StartsWith(post, "`json")
    ensures OccursAt(body + Fence + post, JsonFence, |body| + 2) ==> StartsWith(post, "``json")
  {
    var rest := body + Fence + post;
    assert JsonFence[2..] == "`json" && JsonFence[1..] == "``json";
    if |body| + 8 <= |rest| {
      assert rest[|body| + 1..|body| + 8][2..] == post[..5];
    }
    if |body| + 9 <= |rest| {
      assert rest[|body| + 2..|body| + 9][1..] == post[..6];
    }
  }

  /** The inside of a "```json" block ends at its closing fence. */
  lemma {:induction false} JsonBlockInside(body: string, post: string)
    requires FenceFree(body)
    requires !StartsWith(post, "`json") && !StartsWith(post, "``json")
    ensures SplitOn(SplitOn(body + Fence + post, JsonFence)[0], Fence)[0] == body
  {
    var rest := body + Fence + post;
    var piece := SplitOn(rest, JsonFence)[0];
    SplitFirst(rest, JsonFence);
    if Find(rest, JsonFence).Some? && Find(rest, JsonFence).value == |body| {
      assert piece == body;
      SplitFirst(body, Fence);
    } else {
      if Find(rest, JsonFence).Some? {
        JsonAfterBody(body, post, Find(rest, JsonFence).value);
      }
      assert piece[..|body| + 3] == body + Fence;
      FenceAfter(body, piece);
      SplitFirst(piece, Fence);
    }
  }

  /** A reply without any fence is taken whole. */
  lemma ExtractUnfenced(response: string)
    requires !Contains(response, Fence)
    ensures Extract(response) == response
  {
    forall i: nat | i <= |response| ensures !OccursAt(response, JsonFence, i) {
      if OccursAt(response, JsonFence, i) {
        JsonFenceIsFence(response, i);
      }
    }
  }

  /**
   * A reply with a "```json" block yields the block's inside, provided no
   * "```json" comes before the block, the inside holds no "```" and does not
   * end with a backtick, and no "```json" starts within the closing fence.
   */
  lemma ExtractJsonBlock(pre: string, body: string, post: string)
    requires !Contains(pre, JsonFence)
    requires FenceFree(body)
    requires !StartsWith(post, "`json") && !StartsWith(post, "``json")
    ensures Extract(pre + JsonFence + body + Fence + post) == body
  {
    var rest := body + Fence + post;
    var s := pre + JsonFence + rest;
    assert pre + JsonFence + body + Fence + post == s;
    JsonFenceAfter(pre, rest);
    SplitSecond(s, JsonFence, |pre|);
    assert s[|pre| + 7..] == rest;
    JsonBlockInside(body, post);
  }

  /**
   * A reply with a plain "```" block and no "```json" anywhere yields the
   * block's inside, provided the text before the block and the inside hold no
   * "```" and do not end with a backtick.
   */
  lemma ExtractPlainBlock(pre: string, body: string, post: string)
    requires FenceFree(pre) && FenceFree(body)
    requires !Contains(pre + Fence + body + Fence + post, JsonFence)
    ensures Extract(pre + Fence + body + Fence + post) == body
  {
    var s := pre + Fence + body + Fence + post;
    PlainSecondPiece(pre, body, post);
    assert Extract(s) == SplitOn(body, Fence)[0];
    SplitFirst(body, Fence);
  }

  /** The second piece of a split on "```" is the inside of the first fenced block. */
  lemma {:induction false} PlainSecondPiece(pre: string, body: string, post: string)
    requires FenceFree(pre) && FenceFree(body)
    ensures Contains(pre + Fence + body + Fence + post, Fence)
    ensures SplitOn(pre + Fence + body + Fence + post, Fence)[1] == body
  {
    var rest := body + Fence + post;
    var s := pre + Fence + rest;
    assert pre + Fence + body + Fence + post == s;
    assert s[..|pre| + 3] == pre + Fence;
    FenceAfter(pre, s);
    SplitSecond(s, Fence, |pre|);
    assert s[|pre| + 3..] == rest;
    assert rest[..|body| + 3] == body + Fence;
    FenceAfter(body, rest);
    SplitFirst(rest, Fence);
  }

  /** Occurrence is transitive: a piece of a piece of s is a piece of s. */
  lemma ContainsTrans(a: string, b: string, c: string)
    requires Contains(a, b) && Contains(b, c)
    ensures Contains(a, c)
  {
    var i: nat :| i <= |a| && OccursAt(a, b, i);
    var j: nat :| j <= |b| && OccursAt(b, c, j);
    assert b == a[i..i + |b|] && c == b[j..j + |c|];
    forall m | 0 <= m < |c| ensures c[m] == a[i + j + m] {
      assert c[m] == b[j + m];
    }
    assert c == a[i + j..i + j + |c|];
    assert OccursAt(a, c, i + j);
  }

  /** Every piece of a split occurs in the split text. */
  lemma {:induction false} SplitPieces(s: string, sep: string, n: nat)
    requires |sep| > 0 && n < |SplitOn(s, sep)|
    ensures Contains(s, SplitOn(s, sep)[n])
    decreases |s|
  {
    match Find(s, sep)
    case None =>
      ContainsSelf(s);
    case Some(i) =>
      if n == 0 {
        assert OccursAt(s, s[..i], 0);
      } else {
        var t := s[i + |sep|..];
        SplitPieces(t, sep, n - 1);
        assert OccursAt(s, t, i + |sep|);
        ContainsTrans(s, t, SplitOn(s, sep)[n]);
      }
  }

  /** The text taken for JSON always occurs in the reply. */
  lemma ExtractWithin(response: string)
    ensures Contains(response, Extract(response))
  {
    if Contains(response, JsonFence) {
      var a := SplitOn(response, JsonFence)[1];
      SplitPieces(response, JsonFence, 1);
      SplitPieces(a, Fence, 0);
      ContainsTrans(response, a, Extract(response));
    } else if Contains(response, Fence) {
      var a := SplitOn(response, Fence)[1];
      SplitPieces(response, Fence, 1);
      SplitPieces(a, Fence, 0);
      ContainsTrans(response, a, Extract(response));
    } else {
      ContainsSelf(response);
    }
  }

  /** A reply is read into a result; None when the decoded JSON is not an object (`data.get` raises). */
  function ParseResponse(response: string, d: ConfigDiff, decode: string -> Decoded): Option<AnalysisResult>
  {
    var base := Base(d).(raw := response);
    match decode(Strip(Extract(response)))
    case Invalid => Some(base.(summary := Take(response, 200)))
    case NotObject => None
    case Object(f) =>
      Some(base.(summary := f.summary.GetOr(""),
                 purpose := f.purpose.GetOr(""),
                 category := f.category.GetOr(""),
                 isNewFeature := f.isNewFeature.GetOr(false),
                 impact := f.impact.GetOr(""),
                 syncRequired := f.syncRequired.GetOr(false),
                 priority := f.priority.GetOr(DefaultPriority),
                 relatedSystems := f.relatedSystems.GetOr([])))
  }

  /** The reading fails (the exception escapes) exactly when the reply decodes to something other than an object. */
  lemma ParseFails(response: string, d: ConfigDiff, decode: string -> Decoded)
    ensures ParseResponse(response, d, decode).None? <==> decode(Strip(Extract(response))).NotObject?
    ensures ParseResponse(response, d, decode).Some? ==>
      (var r := ParseResponse(response, d, decode).value;
       r.filePath == d.filePath && r.tableName == d.tableName && r.changeType == d.changeType && r.raw == response)
    ensures decode(Strip(Extract(response))).Object? ==>
      (var f := decode(Strip(Extract(response))).fields;
       var r := ParseResponse(response, d, decode).value;
       && r.summary == f.summary.GetOr("") && r.purpose == f.purpose.GetOr("")
       && r.category == f.category.GetOr("") && r.isNewFeature == f.isNewFeature.GetOr(false)
       && r.impact == f.impact.GetOr("") && r.syncRequired == f.syncRequired.GetOr(false)
       && r.priority == f.priority.GetOr(DefaultPriority) && r.relatedSystems == f.relatedSystems.GetOr([]))
  {
  }

  /**
   * A reply that is not JSON keeps at most its first 200 characters as the
   * summary, and every other field at the record's default.
   */
  lemma ParseInvalid(response: string, d: ConfigDiff, decode: string -> Decoded)
    requires decode(Strip(Extract(response))).Invalid?
    ensures ParseResponse(response, d, decode).Some?
    ensures var r := ParseResponse(response, d, decode).value;
      |r.summary| <= 200 && StartsWith(response, r.summary)
      && (|response| <= 200 ==> r.summary == response)
      && (|response| > 200 ==> |r.summary| == 200)
      && r == Base(d).(raw := response, summary := r.summary)
  {
  }

  /** The defaults the reading falls back on are the record's own: an empty object changes nothing. */
  lemma ParseEmptyObject(response: string, d: ConfigDiff, decode: string -> Decoded)
    requires decode(Strip(Extract(response))) == Object(Fields(None, None, None, None, None, None, None, None))
    ensures ParseResponse(response, d, decode) == Some(Base(d).(raw := response))
  {
  }

  // ---- analyze_single_change / analyze_all_changes ----

  /** The result without a model, or when the model call or the reading of its reply fails. */
  function Fallback(d: ConfigDiff): AnalysisResult
  {
    Base(d).(summary := BasicSummary(d), category := GuessCategory(d))
  }

  function AnalyzeSingle(d: ConfigDiff, client: Option<Prompt -> Reply>, decode: string -> Decoded): AnalysisResult
  {
    match client
    case None => Fallback(d)
    case Some(ask) =>
      match ask(ChangePromptOf(d))
      case Raised => Fallback(d)
      case Answer(None) => Fallback(d)
      case Answer(Some(text)) =>
        match ParseResponse(text, d, decode)
        case None => Fallback(d)
        case Some(r) => r
  }

  /** The results of the first |ds| changes, one after the other. */
  function AnalyzeEach(ds: seq<ConfigDiff>, client: Option<Prompt -> Reply>, decode: string -> Decoded): seq<AnalysisResult>
  {
    if |ds| == 0 then [] else AnalyzeEach(ds[..|ds| - 1], client, decode) + [AnalyzeSingle(ds[|ds| - 1], client, decode)]
  }

  lemma {:induction false} AnalyzeEachAt(ds: seq<ConfigDiff>, client: Option<Prompt -> Reply>, decode: string -> Decoded)
    ensures |AnalyzeEach(ds, client, decode)| == |ds|
    ensures forall i :: 0 <= i < |ds| ==> AnalyzeEach(ds, client, decode)[i] == AnalyzeSingle(ds[i], client, decode)
  {
    if |ds| > 0 {
      var front := ds[..|ds| - 1];
      AnalyzeEachAt(front, client, decode);
      forall i | 0 <= i < |ds|
        ensures AnalyzeEach(ds, client, decode)[i] == AnalyzeSingle(ds[i], client, decode)
      {
        if i < |ds| - 1 {
          assert ds[i] == front[i];
        }
      }
    }
  }

  method AnalyzeAll(diffs: seq<ConfigDiff>, client: Option<Prompt -> Reply>, decode: string -> Decoded)
    returns (results: seq<AnalysisResult>)
    ensures |results| == |diffs|
    ensures forall i :: 0 <= i < |diffs| ==> results[i] == AnalyzeSingle(diffs[i], client, decode)
  {
    results := [];
    for i := 0 to |diffs|
      invariant results == AnalyzeEach(diffs[..i], client, decode)
    {
      assert diffs[..i + 1][..i] == diffs[..i];
      results := results + [AnalyzeSingle(diffs[i], client, decode)];
    }
    assert diffs[..|diffs|] == diffs;
    AnalyzeEachAt(diffs, client, decode);
  }

  /** The text the model answered about a change, when there is a client and the call gave content. */
  function ReplyText(d: ConfigDiff, client: Option<Prompt -> Reply>): Option<string>
  {
    match client
    case None => None
    case Some(ask) =>
      match ask(ChangePromptOf(d))
      case Raised => None
      case Answer(content) => content
  }

  /**
   * Every result names its change, and is either the fallback or what the
   * model's reply reads as; without a client it is the fallback.
   */
  lemma AnalyzeSources(d: ConfigDiff, client: Option<Prompt -> Reply>, decode: string -> Decoded)
    ensures AnalyzeSingle(d, client, decode).filePath == d.filePath
    ensures AnalyzeSingle(d, client, decode).tableName == d.tableName
    ensures AnalyzeSingle(d, client, decode).changeType == d.changeType
    ensures client.None? ==> AnalyzeSingle(d, client, decode) == Fallback(d)
    ensures AnalyzeSingle(d, client, decode) == Fallback(d)
      || (ReplyText(d, client).Some?
          && ParseResponse(ReplyText(d, client).value, d, decode) == Some(AnalyzeSingle(d, client, decode)))
  {
    match client
    case None =>
    case Some(ask) =>
      match ask(ChangePromptOf(d))
      case Raised =>
      case Answer(None) =>
      case Answer(Some(text)) =>
        ParseFails(text, d, decode);
  }

  /** The fallback is a low-key result: no new feature, no sync, the default priority, the basic summary. */
  lemma FallbackSpec(d: ConfigDiff)
    ensures !Fallback(d).isNewFeature && !Fallback(d).syncRequired
    ensures Fallback(d).priority == DefaultPriority
    ensures Fallback(d).summary == BasicSummary(d) && Fallback(d).category == GuessCategory(d)
    ensures Fallback(d).raw == ""
  {
  }

  /**
   * Only a model reply decoding to an object that says so marks a change as
   * a new feature, as needing sync, or with a priority other than the default.
   */
  lemma FlagsNeedModel(d: ConfigDiff, client: Option<Prompt -> Reply>, decode: string -> Decoded)
    requires var r := AnalyzeSingle(d, client, decode);
      r.isNewFeature || r.syncRequired || r.priority != DefaultPriority
    ensures ReplyText(d, client).Some?
    ensures decode(Strip(Extract(ReplyText(d, client).value))).Object?
    ensures var f := decode(Strip(Extract(ReplyText(d, client).value))).fields;
      var r := AnalyzeSingle(d, client, decode);
      (r.isNewFeature ==> f.isNewFeature == Some(true))
      && (r.syncRequired ==> f.syncRequired == Some(true))
      && (r.priority != DefaultPriority ==> f.priority == Some(r.priority))
  {
    AnalyzeSources(d, client, decode);
    FallbackSpec(d);
    var text := ReplyText(d, client).value;
    match decode(Strip(Extract(text)))
    case Invalid =>
      ParseInvalid(text, d, decode);
    case NotObject =>
      ParseFails(text, d, decode);
    case Object(f) =>
  }

  // ---- the overall summary ----

  /** `[r for r in results if p(r)]`. */
  function Where(results: seq<AnalysisResult>, p: AnalysisResult -> bool): seq<AnalysisResult>
  {
    if |results| == 0 then []
    else
      var last := results[|results| - 1];
      Where(results[..|results| - 1], p) + (if p(last) then [last] else [])
  }

  function TypeIs(ty: char): AnalysisResult -> bool
  {
    (r: AnalysisResult) => r.changeType == ty
  }

  predicate IsNew(r: AnalysisResult)
  {
    r.isNewFeature
  }

  predicate IsHigh(r: AnalysisResult)
  {
    r.priority == "高"
  }

  predicate NeedsSync(r: AnalysisResult)
  {
    r.syncRequired
  }

  function NameAndPath(r: AnalysisResult): (string, string)
  {
    (r.tableName, r.filePath)
  }

  function NameAndSummary(r: AnalysisResult): (string, string)
  {
    (r.tableName, r.summary)
  }

  /** The summary built without a model: counts per type and the added and modified tables. */
  datatype Overview = Overview(
    total: nat,
    added: nat,
    modified: nat,
    deleted: nat,
    newTables: seq<(string, string)>,
    modifiedTables: seq<(string, string)>)

  function BasicOverview(results: seq<AnalysisResult>): Overview
  {
    Overview(|results|,
             |Where(results, TypeIs('A'))|,
             |Where(results, TypeIs('M'))|,
             |Where(results, TypeIs('D'))|,
             MapSeq(Where(results, TypeIs('A')), NameAndPath),
             MapSeq(Where(results, TypeIs('M')), NameAndSummary))
  }

  /** The summary prompt: counts of new-feature and high-priority changes and one line per change. */
  function SummaryPromptOf(results: seq<AnalysisResult>): Prompt
  {
    SummaryPrompt(|results|, |Where(results, IsNew)|, |Where(results, IsHigh)|, MapSeq(results, NameAndSummary))
  }

  /** The overall summary: the basic one, or the model's answer (whose content may be missing). */
  datatype Overall = Basic(overview: Overview) | FromModel(text: Option<string>)

  function OverallSummary(results: seq<AnalysisResult>, client: Option<Prompt -> Reply>): Overall
  {
    match client
    case None => Basic(BasicOverview(results))
    case Some(ask) =>
      match ask(SummaryPromptOf(results))
      case Raised => Basic(BasicOverview(results))
      case Answer(text) => FromModel(text)
  }
  /** `Where` keeps exactly the results that pass, and no more of them than there are. */
  lemma {:induction false} WhereSpec(results: seq<AnalysisResult>, p: AnalysisResult -> bool)
    ensures |Where(results, p)| <= |results|
    ensures forall x :: x in Where(results, p) <==> x in results && p(x)
  {
    if |results| > 0 {
      WhereSpec(results[..|results| - 1], p);
      FrontLast(results);
    }
  }

  predicate OtherType(r: AnalysisResult)
  {
    r.changeType != 'A' && r.changeType != 'M' && r.changeType != 'D'
  }

  /** The results split into additions, modifications, deletions and the rest. */
  lemma {:induction false} TypesPartition(results: seq<AnalysisResult>)
    ensures |Where(results, TypeIs('A'))| + |Where(results, TypeIs('M'))| + |Where(results, TypeIs('D'))|
      + |Where(results, OtherType)| == |results|
  {
    if |results| > 0 {
      TypesPartition(results[..|results| - 1]);
    }
  }

  /**
   * The basic overview counts each type once: its counts add up to at most
   * the total, and to exactly the total when every change is an addition,
   * modification or deletion; it lists one entry per added and per modified
   * table.
   */
  lemma OverviewCounts(results: seq<AnalysisResult>)
    ensures var o := BasicOverview(results);
      o.total == |results| && |o.newTables| == o.added && |o.modifiedTables| == o.modified
      && o.added + o.modified + o.deleted <= o.total
      && (o.added + o.modified + o.deleted == o.total <==> forall r :: r in results ==> !OtherType(r))
  {
    TypesPartition(results);
    WhereSpec(results, OtherType);
    var others := Where(results, OtherType);
    if |others| > 0 {
      assert others[0] in others;
    }
  }

  /** The overview lists every added table with its path, and nothing else. */
  lemma OverviewAdded(results: seq<AnalysisResult>)
    ensures forall r :: r in results && r.changeType == 'A' ==> (r.tableName, r.filePath) in BasicOverview(results).newTables
    ensures forall e :: e in BasicOverview(results).newTables ==>
      exists r :: r in results && r.changeType == 'A' && e == (r.tableName, r.filePath)
  {
    var added := Where(results, TypeIs('A'));
    WhereSpec(results, TypeIs('A'));
    MapSeqAt(added, NameAndPath);
    forall r | r in results && r.changeType == 'A' ensures NameAndPath(r) in MapSeq(added, NameAndPath) {
      var i :| 0 <= i < |added| && added[i] == r;
      assert MapSeq(added, NameAndPath)[i] == NameAndPath(r);
    }
    forall e | e in MapSeq(added, NameAndPath)
      ensures exists r :: r in results && r.changeType == 'A' && e == (r.tableName, r.filePath)
    {
      var i :| 0 <= i < |added| && MapSeq(added, NameAndPath)[i] == e;
      assert added[i] in added;
    }
  }

  /** The overview lists every modified table with its summary, and nothing else. */
  lemma OverviewModified(results: seq<AnalysisResult>)
    ensures forall r :: r in results && r.changeType == 'M' ==> (r.tableName, r.summary) in BasicOverview(results).modifiedTables
    ensures forall e :: e in BasicOverview(results).modifiedTables ==>
      exists r :: r in results && r.changeType == 'M' && e == (r.tableName, r.summary)
  {
    var modified := Where(results, TypeIs('M'));
    WhereSpec(results, TypeIs('M'));
    MapSeqAt(modified, NameAndSummary);
    forall r | r in results && r.changeType == 'M' ensures NameAndSummary(r) in MapSeq(modified, NameAndSummary) {
      var i :| 0 <= i < |modified| && modified[i] == r;
      assert MapSeq(modified, NameAndSummary)[i] == NameAndSummary(r);
    }
    forall e | e in MapSeq(modified, NameAndSummary)
      ensures exists r :: r in results && r.changeType == 'M' && e == (r.tableName, r.summary)
    {
      var i :| 0 <= i < |modified| && MapSeq(modified, NameAndSummary)[i] == e;
      assert modified[i] in modified;
    }
  }

  /** The overall summary is the basic one exactly when there is no client or the call raises. */
  lemma OverallFallback(results: seq<AnalysisResult>, client: Option<Prompt -> Reply>)
    ensures OverallSummary(results, client).Basic? <==>
      client.None? || client.value(SummaryPromptOf(results)).Raised?
    ensures OverallSummary(results, client).Basic? ==>
      OverallSummary(results, client).overview == BasicOverview(results)
  {
  }
}

=== FILE: ai_report.dfy ===
/**
 * The report generator of the git change analyzer: it counts the reviewed
 * changes, lists the new-feature ones, groups every change by category and
 * by review priority for the JSON report, and picks the sections the
 * markdown report shows. The text layout of the console and markdown
 * reports is not modelled; what they list is.
 */
module AiReport {
  import opened Wrappers
  import opened Strings
  import Dicts
  import opened AiAnalyzer

  /** The run the report describes; the check time comes from the clock. */
  datatype Meta = Meta(checkTime: string, repoPath: string, targetDir: string,
                       branchName: string, baseBranch: string, commitRange: string)

  /** The counts every report shows. */
  datatype Counts = Counts(total: nat, newFeature: nat, highPriority: nat, syncRequired: nat)

  function CountsOf(results: seq<AnalysisResult>): Counts
  {
    Counts(|results|, |Where(results, IsNew)|, |Where(results, IsHigh)|, |Where(results, NeedsSync)|)
  }

  /** One change as the JSON report writes it: every field of the result but the raw reply. */
  datatype ChangeData = ChangeData(
    filePath: string,
    tableName: string,
    changeType: char,
    category: string,
    isNewFeature: bool,
    summary: string,
    purpose: string,
    impact: string,
    syncRequired: bool,
    priority: string,
    relatedSystems: seq<string>)

  function Data(r: AnalysisResult): ChangeData
  {
    ChangeData(r.filePath, r.tableName, r.changeType, r.category, r.isNewFeature, r.summary,
               r.purpose, r.impact, r.syncRequired, r.priority, r.relatedSystems)
  }

  /** Two results are written alike exactly when they differ at most in the raw reply. */
  lemma DataDropsRaw(r1: AnalysisResult, r2: AnalysisResult)
    ensures Data(r1) == Data(r2) <==> r1.(raw := "") == r2.(raw := "")
  {
  }

  /** The category a change is filed under; an empty category is filed as uncategorised. */
  const Uncategorised := "未分类"

  function CategoryOf(r: AnalysisResult): string
  {
    if r.category == "" then Uncategorised else r.category
  }

  /** The three priorities the JSON report has a list for. */
  predicate IsPriorityKey(p: string)
  {
    p == "高" || p == "中" || p == "低"
  }

  /** Where a change goes in `by_category`. */
  function ByCategory(r: AnalysisResult): Option<(string, ChangeData)>
  {
    Some((CategoryOf(r), Data(r)))
  }

  /** Where a change goes in `by_priority`: nowhere unless its priority is one of the three. */
  function ByPriority(r: AnalysisResult): Option<(string, ChangeData)>
  {
    if IsPriorityKey(r.priority) then Some((r.priority, Data(r))) else None
  }

  // ---- generate_json_report ----

  datatype JsonReport = JsonReport(
    meta: Meta,
    counts: Counts,
    aiSummary: Overall,
    newFeatures: seq<ChangeData>,
    allChanges: seq<ChangeData>,
    byCategory: seq<Dicts.Group<string, ChangeData>>,
    high: seq<ChangeData>,
    medium: seq<ChangeData>,
    low: seq<ChangeData>)

  /** The lists the JSON loop fills. */
  datatype Lists = Lists(
    newFeatures: seq<ChangeData>,
    allChanges: seq<ChangeData>,
    byCategory: seq<Dicts.Group<string, ChangeData>>,
    high: seq<ChangeData>,
    medium: seq<ChangeData>,
    low: seq<ChangeData>)

  /** The lists hold what the given results put in them. */
  ghost predicate Filled(acc: Lists, rows: seq<AnalysisResult>)
  {
    acc.allChanges == MapSeq(rows, Data)
    && acc.newFeatures == MapSeq(Where(rows, IsNew), Data)
    && Dicts.Tracks(acc.byCategory, Dicts.Collected(rows, ByCategory))
    && Dicts.FirstSeenOrder(acc.byCategory, rows, ByCategory)
    && acc.high == Dicts.Collect(rows, ByPriority, "高")
    && acc.medium == Dicts.Collect(rows, ByPriority, "中")
    && acc.low == Dicts.Collect(rows, ByPriority, "低")
  }

  lemma WhereNext(results: seq<AnalysisResult>, p: AnalysisResult -> bool, i: nat)
    requires i < |results|
    ensures Where(results[..i + 1], p) == Where(results[..i], p) + (if p(results[i]) then [results[i]] else [])
  {
    assert results[..i + 1][..i] == results[..i];
  }

  /** The new-feature list of the JSON loop. */
  method AddNew(newFeatures: seq<ChangeData>, results: seq<AnalysisResult>, i: nat) returns (next: seq<ChangeData>)
    requires i < |results| && newFeatures == MapSeq(Where(results[..i], IsNew), Data)
    ensures next == MapSeq(Where(results[..i + 1], IsNew), Data)
  {
    WhereNext(results, IsNew, i);
    next := newFeatures;
    if results[i].isNewFeature {
      assert Where(results[..i + 1], IsNew) == Where(results[..i], IsNew) + [results[i]];
      MapSeqSnoc(Where(results[..i], IsNew), results[i], Data);
      next := next + [Data(results[i])];
    } else {
      assert Where(results[..i + 1], IsNew) == Where(results[..i], IsNew);
    }
  }

  /** The priority lists of the JSON loop: a change goes to the list of its priority, if there is one. */
  method AddPriority(high: seq<ChangeData>, medium: seq<ChangeData>, low: seq<ChangeData>,
                     results: seq<AnalysisResult>, i: nat)
    returns (high': seq<ChangeData>, medium': seq<ChangeData>, low': seq<ChangeData>)
    requires i < |results|
    requires high == Dicts.Collect(results[..i], ByPriority, "高")
    requires medium == Dicts.Collect(results[..i], ByPriority, "中")
    requires low == Dicts.Collect(results[..i], ByPriority, "低")
    ensures high' == Dicts.Collect(results[..i + 1], ByPriority, "高")
    ensures medium' == Dicts.Collect(results[..i + 1], ByPriority, "中")
    ensures low' == Dicts.Collect(results[..i + 1], ByPriority, "低")
  {
    var r := results[i];
    Dicts.CollectNext(results, ByPriority, i, "高");
    Dicts.CollectNext(results, ByPriority, i, "中");
    Dicts.CollectNext(results, ByPriority, i, "低");
    high', medium', low' := high, medium, low;
    if r.priority == "高" {
      high' := high + [Data(r)];
    } else if r.priority == "中" {
      medium' := medium + [Data(r)];
    } else if r.priority == "低" {
      low' := low + [Data(r)];
    }
  }

  /** One result of the JSON loop: appended to all changes, to the new features if it is one, under its category and under its priority. */
  method AddChange(acc: Lists, results: seq<AnalysisResult>, i: nat) returns (next: Lists)
    requires i < |results| && Filled(acc, results[..i])
    ensures Filled(next, results[..i + 1])
  {
    var r := results[i];
    assert results[..i + 1] == results[..i] + [r];
    MapSeqSnoc(results[..i], r, Data);
    var newFeatures := AddNew(acc.newFeatures, results, i);
    var high, medium, low := AddPriority(acc.high, acc.medium, acc.low, results, i);
    Dicts.CollectAppend(acc.byCategory, results, ByCategory, i);
    Dicts.OrderAppend(acc.byCategory, results, ByCategory, i);
    next := Lists(newFeatures, acc.allChanges + [Data(r)], Dicts.Append(acc.byCategory, CategoryOf(r), Data(r)),
                  high, medium, low);
  }

  method GenerateJson(meta: Meta, results: seq<AnalysisResult>, overall: Overall) returns (rep: JsonReport)
    ensures rep.meta == meta && rep.aiSummary == overall
    ensures rep.counts == CountsOf(results)
    ensures rep.allChanges == MapSeq(results, Data)
    ensures rep.newFeatures == MapSeq(Where(results, IsNew), Data)
    ensures Dicts.Tracks(rep.byCategory, Dicts.Collected(results, ByCategory))
    ensures Dicts.FirstSeenOrder(rep.byCategory, results, ByCategory)
    ensures rep.high == Dicts.Collect(results, ByPriority, "高")
    ensures rep.medium == Dicts.Collect(results, ByPriority, "中")
    ensures rep.low == Dicts.Collect(results, ByPriority, "低")
  {
    var acc := Lists([], [], [], [], [], []);
    assert results[..0] == [];
    for i := 0 to |results|
      invariant Filled(acc, results[..i])
    {
      acc := AddChange(acc, results, i);
    }
    assert results[..|results|] == results;
    rep := JsonReport(meta, CountsOf(results), overall, acc.newFeatures, acc.allChanges,
                      acc.byCategory, acc.high, acc.medium, acc.low);
  }

  // ---- what the JSON lists mean ----

  /** The high-priority list holds exactly the high-priority changes, in order, as many as the count says. */
  lemma {:induction false} PriorityHigh(results: seq<AnalysisResult>)
    ensures Dicts.Collect(results, ByPriority, "高") == MapSeq(Where(results, IsHigh), Data)
    ensures |Dicts.Collect(results, ByPriority, "高")| == CountsOf(results).highPriority
  {
    if |results| > 0 {
      var prev, r := results[..|results| - 1], results[|results| - 1];
      PriorityHigh(prev);
      if IsHigh(r) {
        MapSeqSnoc(Where(prev, IsHigh), r, Data);
      } else {
        assert Where(results, IsHigh) == Where(prev, IsHigh);
      }
    }
  }

  predicate NoPriorityKey(r: AnalysisResult)
  {
    !IsPriorityKey(r.priority)
  }

  /** Every change is in exactly one priority list, unless its priority is none of the three. */
  lemma {:induction false} PriorityPartition(results: seq<AnalysisResult>)
    ensures |Dicts.Collect(results, ByPriority, "高")| + |Dicts.Collect(results, ByPriority, "中")|
      + |Dicts.Collect(results, ByPriority, "低")| + |Where(results, NoPriorityKey)| == |results|
  {
    if |results| > 0 {
      PriorityPartition(results[..|results| - 1]);
    }
  }

  /** An empty category is filed as uncategorised; any other is filed as it is; no change is filed under "". */
  lemma CategoryOfSpec(r: AnalysisResult)
    ensures CategoryOf(r) != ""
    ensures CategoryOf(r) == r.category <==> r.category != ""
    ensures r.category == "" <==> CategoryOf(r) == Uncategorised && r.category != Uncategorised
  {
  }

  /** A collected value comes from a row that selected it under that key. */
  lemma {:induction false} CollectSound<R, K, V>(rows: seq<R>, sel: R -> Option<(K, V)>, k: K, x: V)
    requires x in Dicts.Collect(rows, sel, k)
    ensures exists i :: 0 <= i < |rows| && sel(rows[i]) == Some((k, x))
  {
    var prev := rows[..|rows| - 1];
    if x in Dicts.Collect(prev, sel, k) {
      CollectSound(prev, sel, k, x);
      var i :| 0 <= i < |prev| && sel(prev[i]) == Some((k, x));
      assert rows[i] == prev[i];
    } else {
      assert sel(rows[|rows| - 1]) == Some((k, x));
    }
  }

  /** The list under a category holds the changes filed under it, and every change is in its category's list. */
  lemma CategoryMeaning(results: seq<AnalysisResult>, k: string, x: ChangeData)
    ensures x in Dicts.Collect(results, ByCategory, k) <==>
      exists i :: 0 <= i < |results| && CategoryOf(results[i]) == k && Data(results[i]) == x
  {
    if x in Dicts.Collect(results, ByCategory, k) {
      CollectSound(results, ByCategory, k, x);
    }
    forall i | 0 <= i < |results| && CategoryOf(results[i]) == k && Data(results[i]) == x
      ensures x in Dicts.Collect(results, ByCategory, k)
    {
      Dicts.CollectHas(results, ByCategory, i);
    }
  }

  // ---- generate_markdown_report ----

  /** Where a change goes in the markdown report's category tables. */
  function ResultCategory(r: AnalysisResult): Option<(string, AnalysisResult)>
  {
    Some((CategoryOf(r), r))
  }

  /** The markdown report's `categories` dict, filled in result order. */
  method Categories(results: seq<AnalysisResult>) returns (d: seq<Dicts.Group<string, AnalysisResult>>)
    ensures Dicts.Tracks(d, Dicts.Collected(results, ResultCategory))
    ensures Dicts.FirstSeenOrder(d, results, ResultCategory)
  {
    d := [];
    assert results[..0] == [];
    for i := 0 to |results|
      invariant Dicts.Tracks(d, Dicts.Collected(results[..i], ResultCategory))
      invariant Dicts.FirstSeenOrder(d, results[..i], ResultCategory)
    {
      Dicts.CollectAppend(d, results, ResultCategory, i);
      Dicts.OrderAppend(d, results, ResultCategory, i);
      d := Dicts.Append(d, CategoryOf(results[i]), results[i]);
    }
    assert results[..|results|] == results;
  }

  /** The markdown table of a category and the JSON list of that category show the same changes in the same order. */
  lemma {:induction false} CategoriesAgree(results: seq<AnalysisResult>, k: string)
    ensures Dicts.Collect(results, ByCategory, k) == MapSeq(Dicts.Collect(results, ResultCategory, k), Data)
  {
    if |results| > 0 {
      var prev, r := results[..|results| - 1], results[|results| - 1];
      CategoriesAgree(prev, k);
      if CategoryOf(r) == k {
        MapSeqSnoc(Dicts.Collect(prev, ResultCategory, k), r, Data);
      } else {
        assert Dicts.Collect(results, ResultCategory, k) == Dicts.Collect(prev, ResultCategory, k);
      }
    }
  }

  /** The summary as the category table shows it: cut to 30 characters, with "..." when cut. */
  function ShortSummary(s: string): string
  {
    if |s| > 30 then s[..30] + "..." else s
  }

  /** A summary of at most 30 characters is shown whole; a longer one shows its first 30 and an ellipsis. */
  lemma ShortSummarySpec(s: string)
    ensures |ShortSummary(s)| <= 33
    ensures Take(ShortSummary(s), 30) == Take(s, 30)
    ensures |s| <= 30 ==> ShortSummary(s) == s
    ensures |s| > 30 ==> |ShortSummary(s)| == 33 && ShortSummary(s)[30..] == "..."
  {
  }

  /** The high-priority section: each such change with its summary and, when there is one, its impact. */
  function HighLine(r: AnalysisResult): (string, string, Option<string>)
  {
    (r.tableName, r.summary, if r.impact == "" then None else Some(r.impact))
  }

  function HighSection(results: seq<AnalysisResult>): seq<(string, string, Option<string>)>
  {
    MapSeq(Where(results, IsHigh), HighLine)
  }

  /** The sync section: a checkbox per change that needs syncing, with its table and file. */
  function SyncSection(results: seq<AnalysisResult>): seq<(string, string)>
  {
    MapSeq(Where(results, NeedsSync), NameAndPath)
  }

  /** The high-priority and sync sections appear exactly when some change is high-priority or needs syncing. */
  lemma SectionsShown(results: seq<AnalysisResult>)
    ensures HighSection(results) != [] <==> exists r :: r in results && r.priority == "高"
    ensures SyncSection(results) != [] <==> exists r :: r in results && r.syncRequired
    ensures |SyncSection(results)| == CountsOf(results).syncRequired
  {
    WhereSpec(results, IsHigh);
    WhereSpec(results, NeedsSync);
    var high, sync := Where(results, IsHigh), Where(results, NeedsSync);
    if |high| > 0 {
      assert high[0] in high;
    }
    if |sync| > 0 {
      assert sync[0] in sync;
    }
  }

  /** The change type as the markdown report names it; an unknown type is shown as it is. */
  function ChangeTypeName(ty: char): string
  {
    ActionOf(ty).GetOr([ty])
  }

  /** Each of the four types has its own name of two or more characters; any other type is named by itself, so names never collide. */
  lemma ChangeTypeNameSpec(a: char, b: char)
    ensures ActionOf(a).Some? ==> |ChangeTypeName(a)| >= 2
    ensures ActionOf(a).None? ==> ChangeTypeName(a) == [a]
    ensures ChangeTypeName(a) == ChangeTypeName(b) ==> a == b
  {
    if ChangeTypeName(a) == ChangeTypeName(b) && ActionOf(a).Some? && ActionOf(b).Some? {
      assert ChangeTypeName(a)[0] == ChangeTypeName(b)[0];
    }
  }
}

=== FILE: base_analyzer.dfy ===
/**
 * The shared part of every review analyzer: the four-level severity scale,
 * the standard result record, the percentage change between two readings,
 * the mapping from a change to a severity band, and the Z-score outlier
 * detector.
 */
module BaseAnalyzer {
  import opened Wrappers
  import opened Numeric
  import opened Strings

  /** 正常 < 关注 < 异常 < 严重 */
  datatype Severity = Normal | Watch | Abnormal | Critical

  function Rank(s: Severity): nat
  {
    match s
    case Normal => 0
    case Watch => 1
    case Abnormal => 2
    case Critical => 3
  }

  function Label(s: Severity): string
  {
    match s
    case Normal => "正常"
    case Watch => "关注"
    case Abnormal => "异常"
    case Critical => "严重"
  }

  /** The standard analysis result. Detail and suggestion texts are notes of
      an analyzer-specific type N; the computed metrics are of type M. */
  datatype AnalysisResult<N, M> = AnalysisResult(
    moduleName: string,
    conclusion: string,
    severity: Severity,
    details: seq<N>,
    suggestions: seq<N>,
    metrics: M)

  /** A result as the record's defaults leave it. */
  function NewResult<N, M>(moduleName: string, metrics: M): (r: AnalysisResult<N, M>)
    ensures r.moduleName == moduleName && r.metrics == metrics
    ensures r.conclusion == "" && r.severity == Normal && r.details == [] && r.suggestions == []
  {
    AnalysisResult(moduleName, "", Normal, [], [], metrics)
  }

  /** The unrounded percentage change from previous to current. */
  function RawChange(current: real, previous: real): real
    requires previous != 0.0
  {
    (current - previous) / previous * 100.0
  }

  /** Percentage change; a zero baseline gives 0 (no change) or 100. */
  function ChangeRate(current: real, previous: real): (r: real)
    ensures previous == 0.0 ==> (r == 0.0 <==> current == 0.0) && (r != 0.0 ==> r == 100.0)
    ensures previous != 0.0 ==> Abs(r - RawChange(current, previous)) <= 0.005
    ensures current == previous ==> r == 0.0
    ensures previous > 0.0 && current >= previous ==> r >= 0.0
    ensures previous > 0.0 && current <= previous ==> r <= 0.0
  {
    if previous == 0.0 then (if current == 0.0 then 0.0 else 100.0)
    else
      var raw := RawChange(current, previous);
      RawChangeSign(current, previous);
      RoundSign(raw, 2);
      assert Pow10(2) == 100;
      Round(raw, 2)
  }

  /** Before rounding, the change has the sign of current - previous. */
  lemma RawChangeSign(current: real, previous: real)
    requires previous > 0.0 || previous < 0.0
    ensures current == previous ==> RawChange(current, previous) == 0.0
    ensures previous > 0.0 && current > previous ==> RawChange(current, previous) > 0.0
    ensures previous > 0.0 && current < previous ==> RawChange(current, previous) < 0.0
  {
    if previous > 0.0 && current > previous {
      assert (current - previous) / previous > 0.0;
    }
    if previous > 0.0 && current < previous {
      assert (current - previous) / previous < 0.0;
    }
  }

  /** The sign prefix of a formatted change: "+" exactly for positive rates. */
  function ChangeSign(rate: real): (sign: string)
    ensures sign == "+" <==> rate > 0.0
    ensures sign == "" <==> rate <= 0.0
  {
    if rate > 0.0 then "+" else ""
  }

  /** Severity of a change; a drop counts as good when positiveIsGood is false. */
  function SeverityFromChange(changeRate: real, positiveIsGood: bool): (s: Severity)
    ensures var e := if positiveIsGood then changeRate else -changeRate;
      (s == Normal <==> e >= 5.0) && (s == Watch <==> -5.0 <= e < 5.0)
      && (s == Abnormal <==> -20.0 <= e < -5.0) && (s == Critical <==> e < -20.0)
  {
    var effective := if positiveIsGood then changeRate else -changeRate;
    if effective >= 5.0 then Normal
    else if effective >= -5.0 then Watch
    else if effective >= -20.0 then Abnormal
    else Critical
  }

  /** A better effective rate never gives a worse band. */
  lemma SeverityMonotone(a: real, b: real)
    requires a <= b
    ensures Rank(SeverityFromChange(b, true)) <= Rank(SeverityFromChange(a, true))
    ensures Rank(SeverityFromChange(a, false)) <= Rank(SeverityFromChange(b, false))
  {
  }

  /** Negating the rate is the same as swapping which direction is good. */
  lemma SeverityNegate(r: real)
    ensures SeverityFromChange(r, false) == SeverityFromChange(-r, true)
  {
  }

  /** |v - mean| / std > threshold, without the square root: for a
      non-negative threshold both sides are squared; a negative threshold
      is exceeded by every value. */
  predicate Outlier(v: real, mean: real, variance: real, threshold: real)
  {
    threshold < 0.0 || Square(v - mean) > threshold * threshold * variance
  }

  predicate OutlierAt(values: seq<real>, i: nat, mean: real, variance: real, threshold: real)
  {
    i < |values| && Outlier(values[i], mean, variance, threshold)
  }

  /** The Z-score detector: indices of the values that are outliers of a
      series of at least 3 values with non-zero spread. */
  method DetectAnomaly(values: seq<real>, threshold: real) returns (anomalies: seq<nat>)
    ensures |values| < 3 ==> anomalies == []
    ensures |values| >= 3 && Variance(values) == 0.0 ==> anomalies == []
    ensures forall k :: 0 <= k < |anomalies| ==> anomalies[k] < |values|
    ensures forall k, l :: 0 <= k < l < |anomalies| ==> anomalies[k] < anomalies[l]
    ensures |values| >= 3 && Variance(values) > 0.0 ==>
      forall i :: 0 <= i < |values| ==>
        (i in anomalies <==> Outlier(values[i], Mean(values), Variance(values), threshold))
  {
    anomalies := [];
    if |values| < 3 {
      return;
    }
    var mean := Mean(values);
    var variance := Variance(values);
    if variance == 0.0 {
      return;
    }
    var i := 0;
    while i < |values|
      invariant 0 <= i <= |values|
      invariant anomalies == IndicesWhere(i, (j: nat) => OutlierAt(values, j, mean, variance, threshold))
    {
      if Outlier(values[i], mean, variance, threshold) {
        anomalies := anomalies + [i];
      }
      i := i + 1;
    }
    IndicesWhereSpec(|values|, (j: nat) => OutlierAt(values, j, mean, variance, threshold));
  }

  /** On [10, 10, 10, 10, 100] the outlier sits exactly two standard
      deviations out (mean 28, variance 1296), so threshold 2 flags nothing. */
  lemma BoundaryIsNotAnOutlier()
    ensures var s := [10.0, 10.0, 10.0, 10.0, 100.0];
      Mean(s) == 28.0 && Variance(s) == 1296.0 &&
      forall i :: 0 <= i < |s| ==> !Outlier(s[i], Mean(s), Variance(s), 2.0)
  {
    var s := [10.0, 10.0, 10.0, 10.0, 100.0];
    BoundarySum();
    assert Mean(s) == 140.0 / 5.0 == 28.0;
    BoundarySqDev();
    assert Variance(s) == 6480.0 / 5.0 == 1296.0;
    forall i | 0 <= i < |s|
      ensures !Outlier(s[i], 28.0, 1296.0, 2.0)
    {
      assert s[i] == 10.0 || s[i] == 100.0;
      assert Square(10.0 - 28.0) == 324.0 && Square(100.0 - 28.0) == 5184.0;
    }
  }

  lemma BoundarySum()
    ensures Sum([10.0, 10.0, 10.0, 10.0, 100.0]) == 140.0
  {
    var s1, s2, s3, s4 := [10.0], [10.0, 10.0], [10.0, 10.0, 10.0], [10.0, 10.0, 10.0, 10.0];
    assert s1 == [] + [10.0] && s2 == s1 + [10.0] && s3 == s2 + [10.0] && s4 == s3 + [10.0];
    assert s4 + [100.0] == [10.0, 10.0, 10.0, 10.0, 100.0];
    SumSnoc([], 10.0); SumSnoc(s1, 10.0); SumSnoc(s2, 10.0); SumSnoc(s3, 10.0); SumSnoc(s4, 100.0);
  }

  lemma BoundarySqDev()
    ensures SqDev([10.0, 10.0, 10.0, 10.0, 100.0], 28.0) == 6480.0
  {
    var s1, s2, s3, s4 := [10.0], [10.0, 10.0], [10.0, 10.0, 10.0], [10.0, 10.0, 10.0, 10.0];
    assert s1 == [] + [10.0] && s2 == s1 + [10.0] && s3 == s2 + [10.0] && s4 == s3 + [10.0];
    assert s4 + [100.0] == [10.0, 10.0, 10.0, 10.0, 100.0];
    assert Square(10.0 - 28.0) == 324.0 && Square(100.0 - 28.0) == 5184.0;
    SqDevSnoc([], 10.0, 28.0); SqDevSnoc(s1, 10.0, 28.0); SqDevSnoc(s2, 10.0, 28.0);
    SqDevSnoc(s3, 10.0, 28.0); SqDevSnoc(s4, 100.0, 28.0);
  }

  /** The four headline changes (revenue, pay rate, ARPU, ARPPU) against one reference. */
  datatype Changes = Changes(revenue: real, payRate: real, arpu: real, arppu: real)

  // ---- Locating the current event in a time series ----

  /** An event is the current one when either name contains the other. */
  predicate Matches(eventName: string, event: string)
  {
    Contains(event, eventName) || Contains(eventName, event)
  }

  /** An entry without an event name matches every name. */
  lemma EmptyEventMatches(eventName: string)
    ensures Matches(eventName, "")
  {
    ContainsSelf(eventName);
  }

  function FirstMatch(events: seq<string>, eventName: string, n: nat): (r: Option<nat>)
    requires n <= |events|
    ensures r.Some? ==>
      (r.value < n && Matches(eventName, events[r.value])
       && forall j :: 0 <= j < r.value ==> !Matches(eventName, events[j]))
    ensures r.None? ==> forall j :: 0 <= j < n ==> !Matches(eventName, events[j])
  {
    if n == 0 then None
    else
      var f := FirstMatch(events, eventName, n - 1);
      if f.Some? then f else if Matches(eventName, events[n - 1]) then Some(n - 1) else None
  }

  /** The first matching event, or the last one when the name is empty or
      nothing matches. */
  function CurrentIndex(events: seq<string>, eventName: string): (r: nat)
    requires |events| > 0
    ensures r < |events|
    ensures eventName != "" && (exists i :: 0 <= i < |events| && Matches(eventName, events[i])) ==>
      (Matches(eventName, events[r]) && forall j :: 0 <= j < r ==> !Matches(eventName, events[j]))
    ensures (eventName == "" || forall i :: 0 <= i < |events| ==> !Matches(eventName, events[i])) ==>
      r == |events| - 1
  {
    var f := FirstMatch(events, eventName, |events|);
    if eventName != "" && f.Some? then f.value else |events| - 1
  }

  /** The search for the current event, walking the series and stopping at
      the first match. */
  method FindCurrent(events: seq<string>, eventName: string) returns (idx: nat)
    requires |events| > 0
    ensures idx == CurrentIndex(events, eventName)
  {
    var found := false;
    idx := 0;
    if eventName != "" {
      var i := 0;
      while i < |events|
        invariant 0 <= i <= |events|
        invariant FirstMatch(events, eventName, i).None?
      {
        if Contains(events[i], eventName) || Contains(eventName, events[i]) {
          idx := i;
          found := true;
          break;
        }
        i := i + 1;
      }
    }
    if !found {
      idx := |events| - 1;
    }
  }
}

=== FILE: behavior_analyzer.dfy ===
/**
 * Behaviour analysis: metric-by-metric comparison with the benchmark, usage
 * rates over the participating users, high/medium/low usage buckets, and
 * Z-score anomalies in the daily active-user trend.
 */
module BehaviorAnalyzer {
  import opened Wrappers
  import opened Numeric
  import opened Strings
  import opened Sorting
  import opened BaseAnalyzer
  import ReachAnalyzer

  datatype Metric = Metric(name: string, current: real, benchmark: Option<real>, unit: string)

  /** One day of the trend; a day without a date is shown as its ordinal. */
  datatype Day = Day(date: Option<string>, dau: real)

  datatype MetricChange = MetricChange(name: string, change: Option<real>, current: real, benchmark: Option<real>, usage: Option<real>)

  datatype Usage = Usage(name: string, rate: real, current: real)

  datatype DayLabel = Dated(date: string) | NthDay(n: nat)

  datatype BehaviorNote =
    | MetricLine(metric: nat)
    | UsageBaseLine(base: real)
    | HighUsageLine(names: seq<string>)
    | LowUsageLine(names: seq<string>)
    | DayAnomalyLine(day: nat)
    | SharpDropTip(metric: nat, change: real)
    | LowUsageTip
    | DailyTip(days: nat)

  /** How the conclusion sentence was chosen. */
  datatype Verdict = UsageOnly(total: nat, low: nat) | AllGood | MostlyUp | Declining(negative: nat)

  datatype BehaviorMetrics = BehaviorMetrics(
    baseUsers: real, changes: seq<MetricChange>, usage: seq<Usage>,
    high: seq<Usage>, medium: seq<Usage>, low: seq<Usage>,
    anomalyDays: seq<nat>, anomalyDates: seq<DayLabel>, verdict: Verdict)

  const ModuleName := "行为分析"

  /** The first funnel stage whose name contains 参与, if any. */
  function FirstParticipation(stages: seq<ReachAnalyzer.Stage>): (r: Option<nat>)
    ensures r.Some? ==> r.value < |stages| && Contains(stages[r.value].name, "参与")
    ensures r.Some? ==> forall j :: 0 <= j < r.value ==> !Contains(stages[j].name, "参与")
    ensures r.None? ==> forall j :: 0 <= j < |stages| ==> !Contains(stages[j].name, "参与")
  {
    if |stages| == 0 then None
    else
      var r := FirstParticipation(stages[..|stages| - 1]);
      if r.Some? then r
      else if Contains(stages[|stages| - 1].name, "参与") then Some(|stages| - 1)
      else None
  }

  /** The usage-rate base: the users of the first 参与 stage, falling back to
      the first stage when there is none or it has no users. */
  function BaseOf(stages: seq<ReachAnalyzer.Stage>): real
  {
    var p := FirstParticipation(stages);
    if p.Some? && stages[p.value].users != 0.0 then stages[p.value].users
    else if |stages| > 0 then stages[0].users
    else 0.0
  }

  /** The base scan: stops at the first 参与 stage. */
  method BaseUsers(stages: seq<ReachAnalyzer.Stage>) returns (base: real)
    ensures base == BaseOf(stages)
  {
    base := 0.0;
    var i := 0;
    while i < |stages|
      invariant 0 <= i <= |stages|
      invariant forall j :: 0 <= j < i ==> !Contains(stages[j].name, "参与")
      invariant base == 0.0
    {
      if Contains(stages[i].name, "参与") {
        base := stages[i].users;
        break;
      }
      i := i + 1;
    }
    if base == 0.0 && |stages| > 0 {
      base := stages[0].users;
    }
  }

  /** Usage is rated for head-count and times units when the base is positive. */
  predicate Rated(m: Metric, base: real)
  {
    base > 0.0 && (m.unit == "人" || m.unit == "次")
  }

  function UsageRate(m: Metric, base: real): real
    requires base > 0.0
  {
    Round(m.current / base * 100.0, 2)
  }

  /** The change against a positive benchmark, if the metric has one. */
  function Change(m: Metric): Option<real>
  {
    if m.benchmark.Some? && m.benchmark.value > 0.0 then Some(ChangeRate(m.current, m.benchmark.value)) else None
  }

  predicate SharpDrop(m: Metric)
  {
    Change(m).Some? && Change(m).value < -20.0
  }

  predicate MildDrop(m: Metric)
  {
    Change(m).Some? && -20.0 <= Change(m).value < -10.0
  }

  function UsageList(metrics: seq<Metric>, base: real): (r: seq<Usage>)
    ensures |r| <= |metrics|
  {
    if |metrics| == 0 then []
    else
      var m := metrics[|metrics| - 1];
      UsageList(metrics[..|metrics| - 1], base)
        + (if Rated(m, base) then [Usage(m.name, UsageRate(m, base), m.current)] else [])
  }

  function SharpTips(metrics: seq<Metric>): seq<BehaviorNote>
  {
    if |metrics| == 0 then []
    else
      var m := metrics[|metrics| - 1];
      SharpTips(metrics[..|metrics| - 1])
        + (if SharpDrop(m) then [SharpDropTip(|metrics| - 1, Change(m).value)] else [])
  }

  /** The severity after one more metric: a sharp drop makes it 异常, a mild one raises 正常 to 关注. */
  function Escalate(severity: Severity, m: Metric): Severity
  {
    if SharpDrop(m) then Abnormal
    else if MildDrop(m) && severity == Normal then Watch
    else severity
  }

  function MetricSeverity(metrics: seq<Metric>): Severity
  {
    if |metrics| == 0 then Normal
    else Escalate(MetricSeverity(metrics[..|metrics| - 1]), metrics[|metrics| - 1])
  }

  /** 异常 exactly when some metric drops sharply; 关注 exactly when none does and some drops mildly. */
  lemma {:induction false} MetricSeverityMeaning(metrics: seq<Metric>)
    ensures MetricSeverity(metrics) == Abnormal <==> exists i :: 0 <= i < |metrics| && SharpDrop(metrics[i])
    ensures MetricSeverity(metrics) == Watch <==>
              (forall i :: 0 <= i < |metrics| ==> !SharpDrop(metrics[i])) && (exists i :: 0 <= i < |metrics| && MildDrop(metrics[i]))
    ensures MetricSeverity(metrics) in {Normal, Watch, Abnormal}
  {
    if |metrics| > 0 {
      var n := |metrics| - 1;
      var prefix := metrics[..n];
      MetricSeverityMeaning(prefix);
      assert forall i :: 0 <= i < n ==> prefix[i] == metrics[i];
      if SharpDrop(metrics[n]) {
        assert exists i :: 0 <= i < |metrics| && SharpDrop(metrics[i]);
      }
      if MildDrop(metrics[n]) {
        assert exists i :: 0 <= i < |metrics| && MildDrop(metrics[i]);
      }
    }
  }

  /** A change record for metric m: its name, its change against the benchmark and its usage rate. */
  predicate RecordFor(record: MetricChange, m: Metric, base: real)
  {
    record.name == m.name && record.change == Change(m)
    && record.usage == (if Rated(m, base) then Some(UsageRate(m, base)) else None)
  }

  /** One metric of the pass: its change record, its usage entry and tip if any, and the new severity. */
  method MetricStep(m: Metric, i: nat, base: real, severity: Severity)
    returns (record: MetricChange, used: seq<Usage>, tip: seq<BehaviorNote>, severity': Severity)
    ensures RecordFor(record, m, base)
    ensures used == if Rated(m, base) then [Usage(m.name, UsageRate(m, base), m.current)] else []
    ensures tip == if SharpDrop(m) then [SharpDropTip(i, Change(m).value)] else []
    ensures severity' == Escalate(severity, m)
  {
    var usageRate: Option<real> := None;
    used, tip, severity' := [], [], severity;
    if base > 0.0 && (m.unit == "人" || m.unit == "次") {
      usageRate := Some(UsageRate(m, base));
      used := [Usage(m.name, usageRate.value, m.current)];
    }
    if m.benchmark.Some? && m.benchmark.value > 0.0 {
      var change := ChangeRate(m.current, m.benchmark.value);
      record := MetricChange(m.name, Some(change), m.current, m.benchmark, usageRate);
      if change < -20.0 {
        severity' := Abnormal;
        tip := [SharpDropTip(i, change)];
      } else if change < -10.0 {
        if severity == Normal {
          severity' := Watch;
        }
      }
    } else {
      record := MetricChange(m.name, None, m.current, m.benchmark, usageRate);
    }
  }

  /** The per-metric pass: one change record per metric in input order, the
      usage list, one tip per sharp drop, and the severity they imply
      (异常 on a drop beyond 20%, 关注 on a drop beyond 10%). */
  method MetricPass(metrics: seq<Metric>, base: real)
    returns (changes: seq<MetricChange>, usage: seq<Usage>, details: seq<BehaviorNote>, tips: seq<BehaviorNote>, severity: Severity)
    ensures |changes| == |metrics| && forall i :: 0 <= i < |metrics| ==> RecordFor(changes[i], metrics[i], base)
    ensures usage == UsageList(metrics, base)
    ensures tips == SharpTips(metrics)
    ensures details == MetricLines(|metrics|)
    ensures severity == MetricSeverity(metrics)
  {
    changes, usage, details, tips, severity := [], [], [], [], Normal;
    var i := 0;
    while i < |metrics|
      invariant 0 <= i <= |metrics|
      invariant |changes| == i && forall j :: 0 <= j < i ==> RecordFor(changes[j], metrics[j], base)
      invariant usage == UsageList(metrics[..i], base)
      invariant tips == SharpTips(metrics[..i])
      invariant |details| == i && forall j :: 0 <= j < i ==> details[j] == MetricLine(j)
      invariant severity == MetricSeverity(metrics[..i])
    {
      var m := metrics[i];
      assert metrics[..i + 1][..i] == metrics[..i] && metrics[..i + 1][i] == m;
      var change, used, tip, severity' := MetricStep(m, i, base, severity);
      changes := changes + [change];
      usage := usage + used;
      details := details + [MetricLine(i)];
      tips := tips + tip;
      severity := severity';
      i := i + 1;
    }
    assert metrics[..i] == metrics;
    assert details == MetricLines(|metrics|);
  }

  /** One detail line per metric, in input order. */
  function MetricLines(n: nat): (r: seq<BehaviorNote>)
    ensures |r| == n && forall i :: 0 <= i < n ==> r[i] == MetricLine(i)
  {
    seq(n, i requires 0 <= i < n => MetricLine(i))
  }

  function Filter(s: seq<Usage>, p: Usage -> bool): (r: seq<Usage>)
    ensures |r| <= |s|
    ensures forall k :: 0 <= k < |r| ==> p(r[k]) && r[k] in s
  {
    if |s| == 0 then [] else
      (if p(s[0]) then [s[0]] else []) + Filter(s[1..], p)
  }

  /** Each element passes exactly one of three exclusive, exhaustive tests,
      so the three filters together have the size of the input. */
  lemma {:induction false} FilterPartition(s: seq<Usage>, p: Usage -> bool, q: Usage -> bool, r: Usage -> bool)
    requires forall u :: (p(u) && !q(u) && !r(u)) || (!p(u) && q(u) && !r(u)) || (!p(u) && !q(u) && r(u))
    ensures |Filter(s, p)| + |Filter(s, q)| + |Filter(s, r)| == |s|
  {
    if |s| > 0 {
      FilterPartition(s[1..], p, q, r);
    }
  }

  function Names(s: seq<Usage>): seq<string>
  {
    seq(|s|, k requires 0 <= k < |s| => s[k].name)
  }

  function Rate(u: Usage): real { u.rate }
  predicate High(u: Usage) { u.rate > 80.0 }
  predicate Low(u: Usage) { u.rate < 5.0 }
  predicate Medium(u: Usage) { 5.0 <= u.rate <= 80.0 }

  /** More than half of the rated items are below 5%. */
  predicate LowMajority(low: seq<Usage>, usage: seq<Usage>)
  {
    |low| > 0 && |low| > |usage| / 2
  }

  /** The usage buckets: high (>80), low (<5) and medium, taken from the
      rates sorted from highest to lowest; together they hold every rated item. */
  method Buckets(usage: seq<Usage>) returns (high: seq<Usage>, medium: seq<Usage>, low: seq<Usage>)
    ensures high == Filter(Sort(usage, Desc(Rate)), High)
    ensures medium == Filter(Sort(usage, Desc(Rate)), Medium)
    ensures low == Filter(Sort(usage, Desc(Rate)), Low)
    ensures |high| + |medium| + |low| == |usage|
    ensures forall k :: 0 <= k < |high| ==> High(high[k]) && high[k] in usage
    ensures forall k :: 0 <= k < |medium| ==> Medium(medium[k]) && medium[k] in usage
    ensures forall k :: 0 <= k < |low| ==> Low(low[k]) && low[k] in usage
    ensures Sorted(high, Desc(Rate)) && Sorted(medium, Desc(Rate)) && Sorted(low, Desc(Rate))
  {
    var sorted := Sort(usage, Desc(Rate));
    SortDescSorted(usage, Rate);
    SortMembers(usage, Desc(Rate));
    high := Filter(sorted, High);
    low := Filter(sorted, Low);
    medium := Filter(sorted, Medium);
    FilterPartition(sorted, High, Medium, Low);
    FilterSorted(sorted, High);
    FilterSorted(sorted, Medium);
    FilterSorted(sorted, Low);
  }

  lemma {:induction false} FilterSorted(s: seq<Usage>, p: Usage -> bool)
    requires Sorted(s, Desc(Rate))
    ensures Sorted(Filter(s, p), Desc(Rate))
  {
    if |s| > 0 {
      FilterSorted(s[1..], p);
      var rest := Filter(s[1..], p);
      forall k | 0 <= k < |rest| ensures Desc(Rate)(s[0], rest[k]) {
        assert rest[k] in s[1..];
        var j :| 0 <= j < |s[1..]| && s[1..][j] == rest[k];
        assert Desc(Rate)(s[0], s[j + 1]);
      }
      if p(s[0]) {
        SortedCons(s[0], rest, Desc(Rate));
        assert Filter(s, p) == [s[0]] + rest;
      } else {
        assert Filter(s, p) == rest;
      }
    }
  }

  /** The buckets the usage pass fills: each filter of the list sorted by
      descending rate when there is a rated item and a positive base, else empty. */
  predicate Bucketed(usage: seq<Usage>, base: real, high: seq<Usage>, medium: seq<Usage>, low: seq<Usage>)
  {
    if |usage| > 0 && base > 0.0 then
      high == Filter(Sort(usage, Desc(Rate)), High)
      && medium == Filter(Sort(usage, Desc(Rate)), Medium)
      && low == Filter(Sort(usage, Desc(Rate)), Low)
    else high == [] && medium == [] && low == []
  }

  /** Filled buckets partition the rated items, each bucket sorted by
      descending rate; with no rated item or no base they are empty. */
  lemma BucketedPartition(usage: seq<Usage>, base: real, high: seq<Usage>, medium: seq<Usage>, low: seq<Usage>)
    requires Bucketed(usage, base, high, medium, low)
    ensures |high| + |medium| + |low| == if |usage| > 0 && base > 0.0 then |usage| else 0
    ensures forall k :: 0 <= k < |high| ==> High(high[k]) && high[k] in usage
    ensures forall k :: 0 <= k < |medium| ==> Medium(medium[k]) && medium[k] in usage
    ensures forall k :: 0 <= k < |low| ==> Low(low[k]) && low[k] in usage
    ensures Sorted(high, Desc(Rate)) && Sorted(medium, Desc(Rate)) && Sorted(low, Desc(Rate))
  {
    var sorted := Sort(usage, Desc(Rate));
    SortDescSorted(usage, Rate);
    SortMembers(usage, Desc(Rate));
    FilterPartition(sorted, High, Medium, Low);
    FilterSorted(sorted, High);
    FilterSorted(sorted, Medium);
    FilterSorted(sorted, Low);
  }

  /** The usage detail lines: the base, then the top three high-usage names
      and the first five low-usage names when those buckets are not empty. */
  function UsageLines(usage: seq<Usage>, base: real, high: seq<Usage>, low: seq<Usage>): seq<BehaviorNote>
  {
    if |usage| > 0 && base > 0.0 then
      [UsageBaseLine(base)]
      + (if |high| > 0 then [HighUsageLine(Names(Take(high, 3)))] else [])
      + (if |low| > 0 then [LowUsageLine(Names(Take(low, 5)))] else [])
    else []
  }

  /** The usage pass: buckets and their detail lines only when there is a
      rated item and a positive base; the low-usage tip when low usage is the majority. */
  method UsagePass(usage: seq<Usage>, base: real)
    returns (high: seq<Usage>, medium: seq<Usage>, low: seq<Usage>, lines: seq<BehaviorNote>, lowTip: bool)
    ensures Bucketed(usage, base, high, medium, low)
    ensures lines == UsageLines(usage, base, high, low)
    ensures lowTip <==> base > 0.0 && LowMajority(low, usage)
  {
    high, medium, low, lines, lowTip := [], [], [], [], false;
    if |usage| > 0 && base > 0.0 {
      high, medium, low := Buckets(usage);
      lines, lowTip := UsageNotes(usage, base, high, low);
    }
  }

  /** The usage detail lines and the low-usage tip for filled buckets. */
  method UsageNotes(usage: seq<Usage>, base: real, high: seq<Usage>, low: seq<Usage>)
    returns (lines: seq<BehaviorNote>, lowTip: bool)
    requires |usage| > 0 && base > 0.0
    ensures lines == UsageLines(usage, base, high, low)
    ensures lowTip <==> LowMajority(low, usage)
  {
    lines, lowTip := [UsageBaseLine(base)], false;
    if |high| > 0 {
      lines := lines + [HighUsageLine(Names(Take(high, 3)))];
    }
    ghost var withHigh := lines;
    assert withHigh == [UsageBaseLine(base)] + (if |high| > 0 then [HighUsageLine(Names(Take(high, 3)))] else []);
    if |low| > 0 {
      lines := lines + [LowUsageLine(Names(Take(low, 5)))];
      if |low| > |usage| / 2 {
        lowTip := true;
      }
    }
    assert lines == withHigh + (if |low| > 0 then [LowUsageLine(Names(Take(low, 5)))] else []);
  }

  function Label(days: seq<Day>, i: nat): DayLabel
    requires i < |days|
  {
    if days[i].date.Some? then Dated(days[i].date.value) else NthDay(i + 1)
  }

  /** The anomalous days: in increasing order, exactly the days whose DAU is
      an outlier at threshold 2, and none with fewer than three days or a flat series. */
  predicate DauOutliers(days: seq<Day>, indices: seq<nat>)
  {
    (forall k :: 0 <= k < |indices| ==> indices[k] < |days|)
    && StrictlyIncreasing(indices)
    && forall i :: 0 <= i < |days| ==>
         (i in indices <==> |days| >= 3 && Variance(Dau(days)) > 0.0
                            && Outlier(days[i].dau, Mean(Dau(days)), Variance(Dau(days)), 2.0))
  }

  /** The anomalous days are determined by the series alone. */
  lemma DauOutliersUnique(days: seq<Day>, a: seq<nat>, b: seq<nat>)
    requires DauOutliers(days, a) && DauOutliers(days, b)
    ensures a == b
  {
    forall x ensures x in a <==> x in b {
      if x in a {
        var k :| 0 <= k < |a| && a[k] == x;
      }
      if x in b {
        var k :| 0 <= k < |b| && b[k] == x;
      }
    }
    IncreasingUnique(a, b);
  }

  /** The daily pass: detection runs only with three or more days; every
      detector index gives one date label and one detail line. */
  method DailyPass(days: seq<Day>)
    returns (indices: seq<nat>, dates: seq<DayLabel>, lines: seq<BehaviorNote>)
    ensures |days| < 3 ==> indices == []
    ensures DauOutliers(days, indices)
    ensures |dates| == |indices| && forall k :: 0 <= k < |indices| ==> dates[k] == Label(days, indices[k])
    ensures lines == DayLines(indices)
  {
    indices, dates, lines := [], [], [];
    if |days| >= 3 {
      indices := DetectAnomaly(Dau(days), 2.0);
      var k := 0;
      while k < |indices|
        invariant 0 <= k <= |indices|
        invariant |dates| == k && forall j :: 0 <= j < k ==> dates[j] == Label(days, indices[j])
        invariant lines == seq(k, j requires 0 <= j < k => DayAnomalyLine(indices[j]))
      {
        dates := dates + [Label(days, indices[k])];
        lines := lines + [DayAnomalyLine(indices[k])];
        k := k + 1;
      }
    }
  }

  /** One detail line per anomalous day. */
  function DayLines(indices: seq<nat>): (r: seq<BehaviorNote>)
    ensures |r| == |indices| && forall k :: 0 <= k < |indices| ==> r[k] == DayAnomalyLine(indices[k])
  {
    seq(|indices|, k requires 0 <= k < |indices| => DayAnomalyLine(indices[k]))
  }

  function Dau(days: seq<Day>): (r: seq<real>)
    ensures |r| == |days| && forall i :: 0 <= i < |days| ==> r[i] == days[i].dau
  {
    seq(|days|, i requires 0 <= i < |days| => days[i].dau)
  }

  /** The number of changes that exist and pass p. */
  function CountChange(changes: seq<MetricChange>, p: real -> bool): (n: nat)
    ensures n <= |changes|
  {
    if |changes| == 0 then 0
    else
      var last := changes[|changes| - 1];
      CountChange(changes[..|changes| - 1], p) + (if last.change.Some? && p(last.change.value) then 1 else 0)
  }

  lemma {:induction false} CountChangeZero(changes: seq<MetricChange>, p: real -> bool)
    ensures CountChange(changes, p) == 0 <==>
      forall i :: 0 <= i < |changes| && changes[i].change.Some? ==> !p(changes[i].change.value)
  {
    if |changes| > 0 {
      var n := |changes| - 1;
      CountChangeZero(changes[..n], p);
      assert forall i :: 0 <= i < n ==> changes[..n][i] == changes[i];
    }
  }

  predicate Up(c: real) { c > 0.0 }
  predicate Down(c: real) { c < 0.0 }

  /** No metric has a change against a benchmark. */
  predicate NoChanges(changes: seq<MetricChange>)
  {
    forall i :: 0 <= i < |changes| ==> changes[i].change.None?
  }

  /** The conclusion cascade: usage only when no metric has a change; all
      good at 正常/关注 with no falling change; mostly up when rises outnumber falls. */
  function ChooseVerdict(changes: seq<MetricChange>, usage: seq<Usage>, severity: Severity): Verdict
  {
    var positive := CountChange(changes, Up);
    var negative := CountChange(changes, Down);
    if |usage| > 0 && NoChanges(changes) then
      UsageOnly(|usage|, |Filter(usage, Low)|)
    else if (severity == Normal || severity == Watch) && negative == 0 then AllGood
    else if positive > negative then MostlyUp
    else Declining(negative)
  }

  /** Each verdict and exactly when it is chosen. */
  lemma VerdictMeaning(changes: seq<MetricChange>, usage: seq<Usage>, severity: Severity)
    ensures var v := ChooseVerdict(changes, usage, severity);
      var usageOnly := |usage| > 0 && NoChanges(changes);
      var noFall := forall i :: 0 <= i < |changes| && changes[i].change.Some? ==> changes[i].change.value >= 0.0;
      (v.UsageOnly? <==> usageOnly)
      && (v.UsageOnly? ==> v.total == |usage| && v.low == |Filter(usage, Low)| && v.low <= v.total)
      && (v == AllGood <==> !usageOnly && (severity == Normal || severity == Watch) && noFall)
      && (v == MostlyUp <==> !usageOnly && !((severity == Normal || severity == Watch) && noFall)
                             && CountChange(changes, Up) > CountChange(changes, Down))
      && (v.Declining? ==> v.negative == CountChange(changes, Down) >= CountChange(changes, Up))
  {
    CountChangeZero(changes, Down);
  }

  /** A 下滑 conclusion always names at least one falling metric: 异常 comes
      only from a sharp drop, and that drop is a falling change. */
  lemma DecliningHasFall(metrics: seq<Metric>, changes: seq<MetricChange>, usage: seq<Usage>, lowRule: bool, anomalies: bool)
    requires |changes| == |metrics| && forall i :: 0 <= i < |metrics| ==> changes[i].change == Change(metrics[i])
    ensures var v := ChooseVerdict(changes, usage, Escalated(MetricSeverity(metrics), lowRule, anomalies));
      v.Declining? ==> v.negative > 0
  {
    AbnormalHasFall(metrics, changes, lowRule, anomalies);
  }

  lemma AbnormalHasFall(metrics: seq<Metric>, changes: seq<MetricChange>, lowRule: bool, anomalies: bool)
    requires |changes| == |metrics| && forall i :: 0 <= i < |metrics| ==> changes[i].change == Change(metrics[i])
    ensures Escalated(MetricSeverity(metrics), lowRule, anomalies) == Abnormal ==> CountChange(changes, Down) > 0
  {
    AnalysisSeverity(metrics, lowRule, anomalies);
    CountChangeZero(changes, Down);
    forall i | 0 <= i < |metrics| && SharpDrop(metrics[i])
      ensures changes[i].change.Some? && Down(changes[i].change.value)
    {
    }
  }

  function Conclusion(v: Verdict): string
  {
    match v
    case UsageOnly(total, low) =>
      if low > total / 2 then "行为数据: " + NatToString(total) + " 项道具中 " + NatToString(low) + " 项使用率低于5%，部分道具吸引力不足"
      else "行为数据: 共 " + NatToString(total) + " 项道具使用数据，整体使用率分布合理"
    case AllGood => "行为数据表现良好，各项指标均优于对标"
    case MostlyUp => "行为数据整体向好，部分指标需关注"
    case Declining(n) => "行为数据存在 " + NatToString(n) + " 项指标下滑，需重点关注"
  }

  /** The metric severity raised to 关注 by the low-usage rule and by anomalous days; 异常 stays. */
  function Escalated(severity: Severity, lowRule: bool, anomalies: bool): Severity
  {
    var s := if lowRule && severity == Normal then Watch else severity;
    if anomalies && (s == Normal || s == Watch) then Watch else s
  }

  /** 异常 exactly on a sharp drop; 关注 exactly when there is none and a mild drop, the low-usage rule or an anomalous day applies. */
  lemma AnalysisSeverity(metrics: seq<Metric>, lowRule: bool, anomalies: bool)
    ensures var s := Escalated(MetricSeverity(metrics), lowRule, anomalies);
      (s == Abnormal <==> exists i :: 0 <= i < |metrics| && SharpDrop(metrics[i]))
      && (s == Watch <==>
            (forall i :: 0 <= i < |metrics| ==> !SharpDrop(metrics[i]))
            && ((exists i :: 0 <= i < |metrics| && MildDrop(metrics[i])) || lowRule || anomalies))
      && (s == Normal || s == Watch || s == Abnormal)
  {
    MetricSeverityMeaning(metrics);
  }

  /** The whole analysis of the `behavior_data` block, with the funnel stages
      of the `reach_conversion` block as the usage base. */
  method Analyze(metrics: seq<Metric>, days: seq<Day>, stages: seq<ReachAnalyzer.Stage>)
    returns (res: AnalysisResult<BehaviorNote, BehaviorMetrics>)
    ensures var m := res.metrics;
      res.moduleName == ModuleName
      && m.baseUsers == BaseOf(stages)
      && |m.changes| == |metrics|
      && (forall i :: 0 <= i < |metrics| ==> RecordFor(m.changes[i], metrics[i], m.baseUsers))
      && m.usage == UsageList(metrics, m.baseUsers)
      && Bucketed(m.usage, m.baseUsers, m.high, m.medium, m.low)
      && DauOutliers(days, m.anomalyDays)
      && |m.anomalyDates| == |m.anomalyDays|
      && (forall k :: 0 <= k < |m.anomalyDays| ==> m.anomalyDays[k] < |days| && m.anomalyDates[k] == Label(days, m.anomalyDays[k]))
    ensures var m := res.metrics;
      var lowRule := m.baseUsers > 0.0 && LowMajority(m.low, m.usage);
      res.severity == Escalated(MetricSeverity(metrics), lowRule, |m.anomalyDays| > 0)
      && m.verdict == ChooseVerdict(m.changes, m.usage, res.severity)
      && res.conclusion == Conclusion(m.verdict)
      && res.details == MetricLines(|metrics|) + UsageLines(m.usage, m.baseUsers, m.high, m.low) + DayLines(m.anomalyDays)
      && res.suggestions == SharpTips(metrics)
                            + (if lowRule then [LowUsageTip] else [])
                            + (if |m.anomalyDays| > 0 then [DailyTip(|m.anomalyDays|)] else [])
  {
    var base := BaseUsers(stages);
    var changes, usage, details, tips, severity := MetricPass(metrics, base);
    var high, medium, low, usageLines, lowTip := UsagePass(usage, base);
    var indices, dates, lines := DailyPass(days);
    details := details + usageLines + lines;
    tips := tips + (if lowTip then [LowUsageTip] else []) + (if |indices| > 0 then [DailyTip(|indices|)] else []);
    severity := Escalated(severity, lowTip, |indices| > 0);
    var verdict := ChooseVerdict(changes, usage, severity);
    res := AnalysisResult(ModuleName, Conclusion(verdict), severity, details, tips,
                          BehaviorMetrics(base, changes, usage, high, medium, low, indices, dates, verdict));
  }
}

=== FILE: cells.dfy ===
/**
 * Worksheet cell values as the workbook reader hands them over (`None`,
 * text, integers, floats, booleans), their `str()` text and truthiness, and
 * Python's `float()` on a string, restricted to plain decimal notation.
 */
module Cells {
  import opened Wrappers
  import opened Numeric
  import opened Strings

  /** A float carries its own `str()` text, since float formatting is not modelled. */
  datatype Cell =
    | Blank
    | Text(s: string)
    | Int(i: int)
    | Float(f: real, shown: string)
    | Boolean(b: bool)

  function IntToString(i: int): (r: string)
    ensures |r| > 0
  {
    if i < 0 then "-" + NatToString(-i) else NatToString(i)
  }

  /** `str(value)` */
  function Show(c: Cell): string
  {
    match c
    case Blank => "None"
    case Text(s) => s
    case Int(i) => IntToString(i)
    case Float(_, shown) => shown
    case Boolean(b) => if b then "True" else "False"
  }

  /** Python truthiness of a cell value. */
  predicate Truthy(c: Cell)
  {
    match c
    case Blank => false
    case Text(s) => |s| > 0
    case Int(i) => i != 0
    case Float(f, _) => f != 0.0
    case Boolean(b) => b
  }

  /** `str(value).strip()` of a cell. */
  function Trimmed(c: Cell): string
  {
    Strip(Show(c))
  }

  // ---- float() on a string ----

  predicate IsDigit(ch: char)
  {
    '0' <= ch <= '9'
  }

  predicate AllDigits(s: string)
  {
    forall i :: 0 <= i < |s| ==> IsDigit(s[i])
  }

  /** The value of a digit string, most significant digit first. */
  function DigitsValue(s: string): nat
    requires AllDigits(s)
  {
    if |s| == 0 then 0
    else DigitsValue(s[..|s| - 1]) * 10 + (s[|s| - 1] as int - '0' as int)
  }

  /** An unsigned decimal: digits, optionally a point and more digits, at least one digit in all. */
  function ParseUnsigned(s: string): (r: Option<real>)
    ensures r.Some? ==> r.value >= 0.0
  {
    match FindChar(s, '.')
    case None =>
      if |s| > 0 && AllDigits(s) then Some(DigitsValue(s) as real) else None
    case Some(p) =>
      var whole, frac := s[..p], s[p + 1..];
      if |whole| + |frac| > 0 && AllDigits(whole) && AllDigits(frac) then
        FractionNonNegative(DigitsValue(frac), Pow10(|frac|));
        Some(DigitsValue(whole) as real + DigitsValue(frac) as real / Pow10(|frac|) as real)
      else None
  }

  lemma FractionNonNegative(n: nat, d: nat)
    requires d >= 1
    ensures n as real / d as real >= 0.0
  {
    assert n as real / d as real == n as real * (1.0 / d as real);
  }

  /**
   * Python's `float(s)` for decimal notation: surrounding whitespace is
   * ignored and one sign is allowed. None is the ValueError.
   */
  function ParseFloat(s: string): (r: Option<real>)
  {
    var t := Strip(s);
    if |t| > 0 && t[0] == '-' then
      match ParseUnsigned(t[1..])
      case None => None
      case Some(v) => Some(-v)
    else if |t| > 0 && t[0] == '+' then ParseUnsigned(t[1..])
    else ParseUnsigned(t)
  }

  lemma {:induction false} NatDigits(n: nat)
    ensures AllDigits(NatToString(n)) && DigitsValue(NatToString(n)) == n
  {
    var s := NatToString(n);
    if n >= 10 {
      NatDigits(n / 10);
      assert s[..|s| - 1] == NatToString(n / 10);
    }
  }

  lemma DigitNotSpace(ch: char)
    requires IsDigit(ch)
    ensures !IsSpace(ch)
  {
  }

  lemma UnsignedDigits(s: string)
    requires |s| > 0 && AllDigits(s)
    ensures ParseUnsigned(s) == Some(DigitsValue(s) as real)
  {
    assert FindChar(s, '.').None? by {
      assert '.' !in s;
    }
  }

  /** `float(str(n))` gives n back for every natural number. */
  lemma ParseNat(n: nat)
    ensures ParseFloat(NatToString(n)) == Some(n as real)
  {
    var s := NatToString(n);
    NatDigits(n);
    UnsignedDigits(s);
    DigitNotSpace(s[0]);
    DigitNotSpace(s[|s| - 1]);
    StripNoSpace(s);
    assert s[0] != '-' && s[0] != '+';
  }

  /** A minus sign before an unsigned decimal negates it. */
  lemma ParseMinus(s: string, v: real)
    requires |s| > 0 && !IsSpace(s[|s| - 1]) && ParseUnsigned(s) == Some(v)
    ensures ParseFloat("-" + s) == Some(-v)
  {
    var t := "-" + s;
    assert t[|t| - 1] == s[|s| - 1] && t[1..] == s;
    StripNoSpace(t);
  }

  /** `float("-" + str(n))` gives -n back. */
  lemma ParseNegative(n: nat)
    ensures ParseFloat("-" + NatToString(n)) == Some(-(n as real))
  {
    var s := NatToString(n);
    NatDigits(n);
    UnsignedDigits(s);
    DigitNotSpace(s[|s| - 1]);
    ParseMinus(s, n as real);
  }

  /** `float(str(i))` gives i back for every integer. */
  lemma ParseInt(i: int)
    ensures ParseFloat(IntToString(i)) == Some(i as real)
  {
    if i < 0 {
      var n: nat := -i;
      calc {
        ParseFloat(IntToString(i));
        { assert IntToString(i) == "-" + NatToString(n); }
        ParseFloat("-" + NatToString(n));
        { ParseNegative(n); }
        Some(-(n as real));
      }
    } else {
      var n: nat := i;
      calc {
        ParseFloat(IntToString(i));
        { assert IntToString(i) == NatToString(n); }
        ParseFloat(NatToString(n));
        { ParseNat(n); }
        Some(n as real);
      }
    }
  }
}

=== FILE: change_analyzer.dfy ===
/**
 * The config agent's change analyzer. Every changed file of a commit range
 * belongs to the table named by its file stem; the analyzer builds one
 * record per table (a dict keyed by table name, kept here in insertion
 * order), gives it the commits that touched its files, merges a table's
 * later files into the record with the change-type priority D > A > M, sorts
 * each record's commits by time, and groups the records by change type.
 * Git itself is not modelled: the commit list, the changed files and each
 * commit's file list are inputs.
 */
module ChangeAnalyzer {
  import opened Wrappers
  import opened Strings
  import opened Sorting
  import Dicts
  import opened GitRepo
  import opened DiffExtractor

  datatype TableChange = TableChange(tableName: string, filePath: string, changeType: char,
                                     commits: seq<CommitInfo>, oldPath: Option<string>)

  function Name(t: TableChange): string
  {
    t.tableName
  }

  function Time(c: CommitInfo): string
  {
    c.time
  }

  // ---- merging a file into an existing table ----

  /** `{c.hash for c in commits}` */
  function Hashes(cs: seq<CommitInfo>): set<string>
  {
    set c | c in cs :: c.hash
  }

  /** The commits of cs whose hash is not in seen, in order; a commit repeated in cs stays repeated. */
  function Unseen(cs: seq<CommitInfo>, seen: set<string>): seq<CommitInfo>
  {
    if |cs| == 0 then []
    else
      var c := cs[|cs| - 1];
      Unseen(cs[..|cs| - 1], seen) + (if c.hash in seen then [] else [c])
  }

  lemma {:induction false} UnseenMembers(cs: seq<CommitInfo>, seen: set<string>)
    ensures forall c :: c in Unseen(cs, seen) <==> c in cs && c.hash !in seen
  {
    if |cs| > 0 {
      UnseenMembers(cs[..|cs| - 1], seen);
      FrontLast(cs);
    }
  }

  /** The table's change type after one more of its files: D always wins, A replaces M, anything else keeps it. */
  function MergeType(current: char, incoming: char): char
  {
    if incoming == 'D' then 'D'
    else if incoming == 'A' && current == 'M' then 'A'
    else current
  }

  function Merge(t: TableChange, incoming: char, related: seq<CommitInfo>): TableChange
  {
    t.(commits := t.commits + Unseen(related, Hashes(t.commits)), changeType := MergeType(t.changeType, incoming))
  }

  /**
   * Merging keeps the recorded commits in front and appends exactly the
   * related commits whose hash was not yet recorded; name, path and old
   * path stay as they were.
   */
  lemma MergeKeepsRecorded(t: TableChange, incoming: char, related: seq<CommitInfo>)
    ensures var r := Merge(t, incoming, related);
      && r.tableName == t.tableName && r.filePath == t.filePath && r.oldPath == t.oldPath
      && |r.commits| >= |t.commits| && r.commits[..|t.commits|] == t.commits
      && (forall i :: |t.commits| <= i < |r.commits| ==> r.commits[i] in related && r.commits[i].hash !in Hashes(t.commits))
      && (forall c :: c in related && c.hash !in Hashes(t.commits) ==> c in r.commits[|t.commits|..])
  {
    var r := Merge(t, incoming, related);
    UnseenMembers(related, Hashes(t.commits));
    assert r.commits[|t.commits|..] == Unseen(related, Hashes(t.commits));
  }

  /** Merges one more file of a table into its record. */
  method MergeInto(t: TableChange, incoming: char, related: seq<CommitInfo>) returns (r: TableChange)
    ensures r == Merge(t, incoming, related)
  {
    var existing := Hashes(t.commits);
    r := t;
    for j := 0 to |related|
      invariant r == t.(commits := t.commits + Unseen(related[..j], existing))
    {
      assert related[..j + 1][..j] == related[..j];
      if related[j].hash !in existing {
        r := r.(commits := r.commits + [related[j]]);
      }
    }
    assert related[..|related|] == related;
    if incoming == 'D' {
      r := r.(changeType := 'D');
    } else if incoming == 'A' && r.changeType == 'M' {
      r := r.(changeType := 'A');
    }
  }

  // ---- analyze_changes ----

  /** The record made for the first file of a table; its commits are a copy of the file's list. */
  function Fresh(fc: FileChange, related: seq<CommitInfo>): TableChange
  {
    TableChange(TableName(fc.filePath), fc.filePath, fc.changeType, related, fc.oldPath)
  }

  /** The table dict after one more changed file. */
  function Absorb(tables: seq<TableChange>, fc: FileChange, fileToCommits: map<string, seq<CommitInfo>>): seq<TableChange>
  {
    var related := Lookup(fileToCommits, fc.filePath);
    match Dicts.Find(tables, Name, TableName(fc.filePath))
    case Some(k) => tables[k := Merge(tables[k], fc.changeType, related)]
    case None => tables + [Fresh(fc, related)]
  }

  function Tables(changes: seq<FileChange>, fileToCommits: map<string, seq<CommitInfo>>): seq<TableChange>
  {
    if |changes| == 0 then []
    else Absorb(Tables(changes[..|changes| - 1], fileToCommits), changes[|changes| - 1], fileToCommits)
  }

  /** `table_change.commits.sort(key=lambda c: c.time)` */
  function SortCommits(t: TableChange): TableChange
  {
    t.(commits := Sort(t.commits, ByString(Time)))
  }

  /** The tables of a commit range, in the order their first file appears. */
  function Analyze(commits: seq<CommitInfo>, changes: seq<FileChange>, filesOf: string -> seq<FileChange>, dir: string): seq<TableChange>
  {
    MapSeq(Tables(changes, FileMap(commits, filesOf, dir)), SortCommits)
  }

  method AnalyzeChanges(commits: seq<CommitInfo>, changes: seq<FileChange>, filesOf: string -> seq<FileChange>, dir: string)
    returns (tables: seq<TableChange>)
    ensures tables == Analyze(commits, changes, filesOf, dir)
  {
    var fileToCommits := BuildFileCommitMap(commits, filesOf, dir);
    tables := [];
    for i := 0 to |changes|
      invariant tables == Tables(changes[..i], fileToCommits)
    {
      assert changes[..i + 1][..i] == changes[..i];
      var fc := changes[i];
      var related := Lookup(fileToCommits, fc.filePath);
      match Dicts.Find(tables, Name, TableName(fc.filePath)) {
        case Some(k) =>
          var merged := MergeInto(tables[k], fc.changeType, related);
          tables := tables[k := merged];
        case None =>
          tables := tables + [Fresh(fc, related)];
      }
    }
    assert changes[..|changes|] == changes;
    tables := SortEach(tables);
  }

  /** The closing loop of `analyze_changes`: each table's commits are sorted by time. */
  method SortEach(merged: seq<TableChange>) returns (tables: seq<TableChange>)
    ensures tables == MapSeq(merged, SortCommits)
  {
    tables := merged;
    for i := 0 to |tables|
      invariant |tables| == |merged|
      invariant forall j :: 0 <= j < i ==> tables[j] == SortCommits(merged[j])
      invariant forall j :: i <= j < |tables| ==> tables[j] == merged[j]
    {
      tables := tables[i := tables[i].(commits := Sort(tables[i].commits, ByString(Time)))];
    }
    MapSeqAt(merged, SortCommits);
  }

  // ---- what the dict holds for one table ----

  /** The elements of xs with key n, in order. */
  function Pick<T>(xs: seq<T>, key: T -> string, n: string): seq<T>
  {
    if |xs| == 0 then []
    else
      var x := xs[|xs| - 1];
      Pick(xs[..|xs| - 1], key, n) + (if key(x) == n then [x] else [])
  }

  lemma {:induction false} PickSound<T>(xs: seq<T>, key: T -> string, n: string, j: nat)
    requires j < |Pick(xs, key, n)|
    ensures Pick(xs, key, n)[j] in xs && key(Pick(xs, key, n)[j]) == n
  {
    var init := xs[..|xs| - 1];
    if j < |Pick(init, key, n)| {
      PickSound(init, key, n, j);
    }
  }

  lemma {:induction false} PickHas<T>(xs: seq<T>, key: T -> string, n: string, i: nat)
    requires i < |xs| && key(xs[i]) == n
    ensures |Pick(xs, key, n)| > 0
  {
    var init := xs[..|xs| - 1];
    if i < |init| {
      assert init[i] == xs[i];
      PickHas(init, key, n, i);
    }
  }

  function TableOf(fc: FileChange): string
  {
    TableName(fc.filePath)
  }

  /** The changed files of table n, in order. */
  function Of(changes: seq<FileChange>, n: string): seq<FileChange>
  {
    Pick(changes, TableOf, n)
  }

  /** A table's record after one more of its files. */
  function Next(o: Option<TableChange>, fc: FileChange, fileToCommits: map<string, seq<CommitInfo>>): Option<TableChange>
  {
    var related := Lookup(fileToCommits, fc.filePath);
    match o
    case None => Some(Fresh(fc, related))
    case Some(t) => Some(Merge(t, fc.changeType, related))
  }

  /** The record that a table's own files, taken in order, build. */
  function TableFor(cs: seq<FileChange>, fileToCommits: map<string, seq<CommitInfo>>): Option<TableChange>
  {
    if |cs| == 0 then None else Next(TableFor(cs[..|cs| - 1], fileToCommits), cs[|cs| - 1], fileToCommits)
  }

  /** `table_changes.get(n)` */
  function Entry(tables: seq<TableChange>, n: string): Option<TableChange>
  {
    match Dicts.Find(tables, Name, n)
    case Some(k) => Some(tables[k])
    case None => None
  }

  lemma AbsorbEntry(tables: seq<TableChange>, fc: FileChange, fileToCommits: map<string, seq<CommitInfo>>, n: string)
    ensures Entry(Absorb(tables, fc, fileToCommits), n)
         == if TableName(fc.filePath) == n then Next(Entry(tables, n), fc, fileToCommits) else Entry(tables, n)
  {
    var related := Lookup(fileToCommits, fc.filePath);
    var name := TableName(fc.filePath);
    var after := Absorb(tables, fc, fileToCommits);
    match Dicts.Find(tables, Name, name)
    case Some(k) =>
      var t := Merge(tables[k], fc.changeType, related);
      assert after == tables[k := t];
      Dicts.FindUpdate(tables, Name, k, t, n);
      if name == n {
        assert Entry(after, n) == Some(t);
      } else {
        match Dicts.Find(tables, Name, n)
        case Some(k2) =>
          assert k2 != k && after[k2] == tables[k2];
        case None =>
      }
    case None =>
      var t := Fresh(fc, related);
      assert after == tables + [t];
      Dicts.FindAppend(tables, Name, t, n);
      if name != n {
        match Dicts.Find(tables, Name, n)
        case Some(k2) =>
          assert after[k2] == tables[k2];
        case None =>
      }
  }

  lemma AbsorbDistinct(tables: seq<TableChange>, fc: FileChange, fileToCommits: map<string, seq<CommitInfo>>)
    requires Dicts.Distinct(tables, Name)
    ensures Dicts.Distinct(Absorb(tables, fc, fileToCommits), Name)
  {
  }

  /** The dict has one record per table name. */
  lemma {:induction false} TablesDistinct(changes: seq<FileChange>, fileToCommits: map<string, seq<CommitInfo>>)
    ensures Dicts.Distinct(Tables(changes, fileToCommits), Name)
  {
    if |changes| > 0 {
      TablesDistinct(changes[..|changes| - 1], fileToCommits);
      AbsorbDistinct(Tables(changes[..|changes| - 1], fileToCommits), changes[|changes| - 1], fileToCommits);
    }
  }

  /** The record the dict holds for table n is the one n's own files build, in order. */
  lemma {:induction false} TablesEntry(changes: seq<FileChange>, fileToCommits: map<string, seq<CommitInfo>>, n: string)
    ensures Entry(Tables(changes, fileToCommits), n) == TableFor(Of(changes, n), fileToCommits)
  {
    if |changes| > 0 {
      var init, fc := changes[..|changes| - 1], changes[|changes| - 1];
      TablesEntry(init, fileToCommits, n);
      assert Tables(changes, fileToCommits) == Absorb(Tables(init, fileToCommits), fc, fileToCommits);
      AbsorbEntry(Tables(init, fileToCommits), fc, fileToCommits, n);
      if TableName(fc.filePath) == n {
        var cs := Of(changes, n);
        assert cs == Of(init, n) + [fc];
        assert cs[..|cs| - 1] == Of(init, n) && cs[|cs| - 1] == fc;
        assert TableFor(cs, fileToCommits) == Next(TableFor(Of(init, n), fileToCommits), fc, fileToCommits);
      } else {
        assert Of(changes, n) == Of(init, n);
      }
    }
  }

  // ---- properties of one table's record ----

  predicate HasType(cs: seq<FileChange>, ty: char)
  {
    exists i :: 0 <= i < |cs| && cs[i].changeType == ty
  }

  lemma HasTypeLast(cs: seq<FileChange>, ty: char)
    requires |cs| > 0
    ensures HasType(cs, ty) <==> HasType(cs[..|cs| - 1], ty) || cs[|cs| - 1].changeType == ty
  {
    if HasType(cs, ty) && cs[|cs| - 1].changeType != ty {
      var i :| 0 <= i < |cs| && cs[i].changeType == ty;
      assert cs[..|cs| - 1][i].changeType == ty;
    }
    if HasType(cs[..|cs| - 1], ty) {
      var i :| 0 <= i < |cs| - 1 && cs[..|cs| - 1][i].changeType == ty;
      assert cs[i].changeType == ty;
    }
  }

  /** The change type a table ends with: D if any file was deleted, else A if it began as M and some file was added, else its first type. */
  function Priority(cs: seq<FileChange>): char
    requires |cs| > 0
  {
    if HasType(cs, 'D') then 'D'
    else if cs[0].changeType == 'M' && HasType(cs, 'A') then 'A'
    else cs[0].changeType
  }

  /** A table's record exists iff it has files, and takes its name, path and old path from the first. */
  lemma {:induction false} TableForFirst(cs: seq<FileChange>, fileToCommits: map<string, seq<CommitInfo>>)
    ensures TableFor(cs, fileToCommits).Some? <==> |cs| > 0
    ensures |cs| > 0 ==> var t := TableFor(cs, fileToCommits).value;
      && t.tableName == TableName(cs[0].filePath) && t.filePath == cs[0].filePath && t.oldPath == cs[0].oldPath
  {
    if |cs| > 1 {
      var init := cs[..|cs| - 1];
      TableForFirst(init, fileToCommits);
      assert init[0] == cs[0];
    }
  }

  /** A table's change type follows the D > A > M priority over all of its files. */
  lemma {:induction false} TableForType(cs: seq<FileChange>, fileToCommits: map<string, seq<CommitInfo>>)
    requires |cs| > 0
    ensures TableFor(cs, fileToCommits).Some? && TableFor(cs, fileToCommits).value.changeType == Priority(cs)
  {
    var init, fc := cs[..|cs| - 1], cs[|cs| - 1];
    if |cs| == 1 {
      assert cs[0] == fc;
      assert HasType(cs, 'D') <==> fc.changeType == 'D';
      assert HasType(cs, 'A') <==> fc.changeType == 'A';
    } else {
      TableForType(init, fileToCommits);
      var p := TableFor(init, fileToCommits).value.changeType;
      assert TableFor(cs, fileToCommits).value.changeType == MergeType(p, fc.changeType);
      HasTypeLast(cs, 'D');
      HasTypeLast(cs, 'A');
      assert init[0] == cs[0];
    }
  }

  /** Every commit of a table's record was listed for one of the table's files. */
  lemma {:induction false} TableForCommits(cs: seq<FileChange>, fileToCommits: map<string, seq<CommitInfo>>, c: CommitInfo)
    requires TableFor(cs, fileToCommits).Some? && c in TableFor(cs, fileToCommits).value.commits
    ensures exists j :: 0 <= j < |cs| && c in Lookup(fileToCommits, cs[j].filePath)
  {
    var init, fc := cs[..|cs| - 1], cs[|cs| - 1];
    var related := Lookup(fileToCommits, fc.filePath);
    var prev := TableFor(init, fileToCommits);
    if prev.Some? && c in prev.value.commits {
      TableForCommits(init, fileToCommits, c);
      var j :| 0 <= j < |init| && c in Lookup(fileToCommits, init[j].filePath);
      assert cs[j] == init[j];
    } else {
      if prev.Some? {
        UnseenMembers(related, Hashes(prev.value.commits));
      }
      assert c in related;
    }
  }

  /** A table gets a record iff some changed file belongs to it. */
  lemma OfEmpty(changes: seq<FileChange>, n: string)
    ensures |Of(changes, n)| > 0 <==> exists i :: 0 <= i < |changes| && TableName(changes[i].filePath) == n
  {
    if |Of(changes, n)| > 0 {
      PickSound(changes, TableOf, n, 0);
    }
    forall i | 0 <= i < |changes| && TableName(changes[i].filePath) == n ensures |Of(changes, n)| > 0 {
      PickHas(changes, TableOf, n, i);
    }
  }

  // ---- the analyzer's result ----

  /** The k-th record of the dict is the dict's entry for its own name. */
  lemma EntryAt(tables: seq<TableChange>, k: nat)
    requires Dicts.Distinct(tables, Name) && k < |tables|
    ensures Entry(tables, tables[k].tableName) == Some(tables[k])
  {
  }

  /**
   * Each table of the result has at least one changed file, takes its path
   * and old path from the first and its change type from the D > A > M
   * priority, and holds its merged commits sorted by time.
   */
  lemma AnalyzeRecord(commits: seq<CommitInfo>, changes: seq<FileChange>, filesOf: string -> seq<FileChange>, dir: string, k: nat)
    requires k < |Analyze(commits, changes, filesOf, dir)|
    ensures var t := Analyze(commits, changes, filesOf, dir)[k];
      var cs := Of(changes, t.tableName);
      && |cs| > 0 && t.tableName == TableName(t.filePath)
      && t.filePath == cs[0].filePath && t.oldPath == cs[0].oldPath && t.changeType == Priority(cs)
      && Sorted(t.commits, ByString(Time))
      && multiset(t.commits) == multiset(TableFor(cs, FileMap(commits, filesOf, dir)).value.commits)
  {
    var fm := FileMap(commits, filesOf, dir);
    var tables := Tables(changes, fm);
    MapSeqAt(tables, SortCommits);
    TablesDistinct(changes, fm);
    EntryAt(tables, k);
    TablesEntry(changes, fm, tables[k].tableName);
    TableForFirst(Of(changes, tables[k].tableName), fm);
    TableForType(Of(changes, tables[k].tableName), fm);
    ByStringPreorder(Time);
    SortSorted(tables[k].commits, ByString(Time));
  }

  /** The result has one table per name, and a table for exactly the names some changed file has. */
  lemma AnalyzeNames(commits: seq<CommitInfo>, changes: seq<FileChange>, filesOf: string -> seq<FileChange>, dir: string, n: string)
    ensures Dicts.Distinct(Analyze(commits, changes, filesOf, dir), Name)
    ensures (exists k :: 0 <= k < |Analyze(commits, changes, filesOf, dir)| && Analyze(commits, changes, filesOf, dir)[k].tableName == n)
        <==> exists i :: 0 <= i < |changes| && TableName(changes[i].filePath) == n
  {
    var fm := FileMap(commits, filesOf, dir);
    var tables := Tables(changes, fm);
    var out := Analyze(commits, changes, filesOf, dir);
    MapSeqAt(tables, SortCommits);
    assert forall k :: 0 <= k < |out| ==> out[k].tableName == tables[k].tableName;
    TablesDistinct(changes, fm);
    TablesEntry(changes, fm, n);
    TableForFirst(Of(changes, n), fm);
    OfEmpty(changes, n);
    if Dicts.Find(tables, Name, n).Some? {
      assert out[Dicts.Find(tables, Name, n).value].tableName == n;
    }
  }

  /**
   * Each commit a table lists is a commit of the range that changed one of
   * the table's files, and that file lies under the target directory.
   */
  lemma AnalyzeCommits(commits: seq<CommitInfo>, changes: seq<FileChange>, filesOf: string -> seq<FileChange>, dir: string,
                       k: nat, c: CommitInfo)
    requires k < |Analyze(commits, changes, filesOf, dir)| && c in Analyze(commits, changes, filesOf, dir)[k].commits
    ensures c in commits
    ensures exists fc, j :: (fc in changes && TableName(fc.filePath) == Analyze(commits, changes, filesOf, dir)[k].tableName
      && StartsWith(fc.filePath, dir) && 0 <= j < |filesOf(c.hash)| && filesOf(c.hash)[j].filePath == fc.filePath)
  {
    var fm := FileMap(commits, filesOf, dir);
    var tables := Tables(changes, fm);
    var n := tables[k].tableName;
    AnalyzeRecord(commits, changes, filesOf, dir, k);
    MapSeqAt(tables, SortCommits);
    TablesDistinct(changes, fm);
    EntryAt(tables, k);
    TablesEntry(changes, fm, n);
    var cs := Of(changes, n);
    assert c in multiset(TableFor(cs, fm).value.commits);
    TableForCommits(cs, fm, c);
    var j :| 0 <= j < |cs| && c in Lookup(fm, cs[j].filePath);
    PickSound(changes, TableOf, n, j);
    FileMapLookup(commits, filesOf, dir, cs[j].filePath);
    RelatedSound(commits, filesOf, dir, cs[j].filePath, c);
  }

  // ---- group_by_change_type ----

  /** The group a change type goes to: A, M, D and R their own, anything else M. */
  function KeyOf(ty: char): char
  {
    if ty == 'A' || ty == 'D' || ty == 'R' then ty else 'M'
  }

  /** The records of one group, in dict order. */
  function Bucket(tables: seq<TableChange>, k: char): seq<TableChange>
  {
    if |tables| == 0 then []
    else
      var t := tables[|tables| - 1];
      Bucket(tables[..|tables| - 1], k) + (if KeyOf(t.changeType) == k then [t] else [])
  }

  /** The grouped dict, which always has exactly the keys A, M, D and R. */
  datatype Groups = Groups(added: seq<TableChange>, modified: seq<TableChange>,
                           deleted: seq<TableChange>, renamed: seq<TableChange>)

  predicate IsKey(k: char)
  {
    k == 'A' || k == 'M' || k == 'D' || k == 'R'
  }

  /** `grouped.get(k, [])` */
  function Group(g: Groups, k: char): seq<TableChange>
  {
    match k
    case 'A' => g.added
    case 'M' => g.modified
    case 'D' => g.deleted
    case 'R' => g.renamed
    case _ => []
  }

  function ByName(s: seq<TableChange>): seq<TableChange>
  {
    Sort(s, ByString(Name))
  }

  function GroupBy(tables: seq<TableChange>): Groups
  {
    Groups(ByName(Bucket(tables, 'A')), ByName(Bucket(tables, 'M')),
           ByName(Bucket(tables, 'D')), ByName(Bucket(tables, 'R')))
  }

  method GroupByChangeType(tables: seq<TableChange>) returns (g: Groups)
    ensures g == GroupBy(tables)
  {
    var a, m, d, r := [], [], [], [];
    for i := 0 to |tables|
      invariant a == Bucket(tables[..i], 'A') && m == Bucket(tables[..i], 'M')
      invariant d == Bucket(tables[..i], 'D') && r == Bucket(tables[..i], 'R')
    {
      assert tables[..i + 1][..i] == tables[..i];
      var t := tables[i];
      if t.changeType == 'A' {
        a := a + [t];
      } else if t.changeType == 'D' {
        d := d + [t];
      } else if t.changeType == 'R' {
        r := r + [t];
      } else {
        m := m + [t];
      }
    }
    assert tables[..|tables|] == tables;
    g := Groups(Sort(a, ByString(Name)), Sort(m, ByString(Name)), Sort(d, ByString(Name)), Sort(r, ByString(Name)));
  }

  lemma {:induction false} BucketMembers(tables: seq<TableChange>, k: char)
    ensures forall t :: t in Bucket(tables, k) <==> t in tables && KeyOf(t.changeType) == k
  {
    if |tables| > 0 {
      BucketMembers(tables[..|tables| - 1], k);
      FrontLast(tables);
    }
  }

  lemma {:induction false} BucketSizes(tables: seq<TableChange>)
    ensures |Bucket(tables, 'A')| + |Bucket(tables, 'M')| + |Bucket(tables, 'D')| + |Bucket(tables, 'R')| == |tables|
  {
    if |tables| > 0 {
      BucketSizes(tables[..|tables| - 1]);
    }
  }

  /** The four groups together hold as many records as there are. */
  lemma GroupSizes(tables: seq<TableChange>)
    ensures |GroupBy(tables).added| + |GroupBy(tables).modified| + |GroupBy(tables).deleted| + |GroupBy(tables).renamed| == |tables|
  {
    BucketSizes(tables);
  }

  /** No record goes to a key other than A, M, D and R. */
  lemma {:induction false} BucketOther(tables: seq<TableChange>, k: char)
    requires !IsKey(k)
    ensures Bucket(tables, k) == []
  {
    if |tables| > 0 {
      BucketOther(tables[..|tables| - 1], k);
    }
  }

  /**
   * Each record lands in the group of its change type, unknown types in M,
   * and in no other group; the groups hold every record once, each group
   * sorted by table name.
   */
  lemma GroupPartition(tables: seq<TableChange>, k: char)
    ensures forall t :: t in Group(GroupBy(tables), k) <==> t in tables && KeyOf(t.changeType) == k
    ensures Sorted(Group(GroupBy(tables), k), ByString(Name))
    ensures multiset(Group(GroupBy(tables), k)) == multiset(Bucket(tables, k))
    ensures var g := GroupBy(tables); |g.added| + |g.modified| + |g.deleted| + |g.renamed| == |tables|
  {
    BucketMembers(tables, k);
    BucketSizes(tables);
    if !IsKey(k) {
      BucketOther(tables, k);
    }
    SortMembers(Bucket(tables, k), ByString(Name));
    forall t | t in Bucket(tables, k) ensures t in ByName(Bucket(tables, k)) {
      assert t in multiset(Bucket(tables, k));
    }
    ByStringPreorder(Name);
    SortSorted(Bucket(tables, k), ByString(Name));
  }
}

=== FILE: chart_v1.dfy ===
/**
 * The first-generation event review's input check and key figures: which
 * blocks and fields the review data must have, the module alias
 * correction, which events are compared, the year-on-year and
 * period-on-period changes, the revenue trend pattern and the module
 * revenue shares.
 */
module ChartGenerator {
  import opened Wrappers
  import opened Numeric
  import opened Strings
  import opened Json
  import ExcelV1

  // ---- validate_input ----

  datatype CheckError =
    | MissingKey(key: string)
    | EmptyMeta(field: string)
    | TooShort(list: string, need: nat, found: nat)
    | MissingRecordField(list: string, index: nat, field: string)
    | BadStatus(index: nat, status: Value)
    | NoClassification
    | ClassFieldMissing(index: nat, field: string)
    | UnknownModule(index: nat, given: Value)

  const RequiredKeys: seq<string> :=
    ["meta", "metrics_trend", "module_trend", "user_tier_trend", "sub_activity_detail", "module_classification"]
  const MetricFields: seq<string> := ["event", "revenue", "arpu", "pay_rate"]
  const ModuleFields: seq<string> := ["event", "appearance", "minigame", "hybrid"]
  const TierFields: seq<string> := ["event", "super_r", "big_r", "mid_r"]
  const ActivityFields: seq<string> := ["name", "type", "revenue", "status", "reason"]

  /** The rows of a list block; anything else has none. */
  function Items(v: Value): seq<Value>
  {
    if v.Arr? then v.items else []
  }

  /** One error per listed key the data lacks, in list order. */
  function MissingKeys(data: Value, keys: seq<string>): (r: seq<CheckError>)
    ensures forall e :: e in r ==> e.MissingKey? && e.key in keys && !Has(data, e.key)
    ensures forall k :: k in keys && !Has(data, k) ==> MissingKey(k) in r
  {
    if |keys| == 0 then []
    else
      var k := keys[|keys| - 1];
      MissingKeys(data, keys[..|keys| - 1]) + (if !Has(data, k) then [MissingKey(k)] else [])
  }

  /** The event name and the benchmark event must be truthy. */
  function MetaErrors(meta: Value): seq<CheckError>
  {
    (if !Truthy(Get(meta, "event_name")) then [EmptyMeta("event_name")] else [])
    + (if !Truthy(Get(meta, "benchmark_event")) then [EmptyMeta("benchmark_event")] else [])
  }

  function MinLength(data: Value, list: string, need: nat): seq<CheckError>
  {
    var n := |Items(Get(data, list))|;
    if n < need then [TooShort(list, need, n)] else []
  }

  /** Six trend points, six module points and two tier points at least. */
  function LengthErrors(data: Value): seq<CheckError>
  {
    MinLength(data, "metrics_trend", 6) + MinLength(data, "module_trend", 6) + MinLength(data, "user_tier_trend", 2)
  }

  /** The errors of every row in order, row i contributing f(i, items[i]). */
  function Rows(items: seq<Value>, f: (nat, Value) -> seq<CheckError>): seq<CheckError>
  {
    if |items| == 0 then []
    else Rows(items[..|items| - 1], f) + f(|items| - 1, items[|items| - 1])
  }

  /** The rows report nothing exactly when no row reports anything. */
  lemma {:induction false} RowsEmpty(items: seq<Value>, f: (nat, Value) -> seq<CheckError>)
    ensures Rows(items, f) == [] <==> forall i :: 0 <= i < |items| ==> f(i, items[i]) == []
  {
    if |items| > 0 {
      var n := |items| - 1;
      RowsEmpty(items[..n], f);
      assert forall i :: 0 <= i < n ==> items[..n][i] == items[i];
    }
  }

  /** One error per listed field the record lacks (`field not in item`). */
  function AbsentFields(list: string, i: nat, item: Value, fields: seq<string>): (r: seq<CheckError>)
    ensures forall e :: e in r ==> e.MissingRecordField? && e == MissingRecordField(list, i, e.field) && e.field in fields && !Has(item, e.field)
    ensures forall f :: f in fields && !Has(item, f) ==> MissingRecordField(list, i, f) in r
  {
    if |fields| == 0 then []
    else
      var f := fields[|fields| - 1];
      AbsentFields(list, i, item, fields[..|fields| - 1]) + (if !Has(item, f) then [MissingRecordField(list, i, f)] else [])
  }

  function FieldCheck(list: string, fields: seq<string>): (nat, Value) -> seq<CheckError>
  {
    (i: nat, item: Value) => AbsentFields(list, i, item, fields)
  }

  /** A status is Keep, Optimize or absent. */
  predicate StatusOk(v: Value)
  {
    v == Str("Keep") || v == Str("Optimize") || v == Null
  }

  function ActivityRow(i: nat, item: Value): seq<CheckError>
  {
    AbsentFields("sub_activity_detail", i, item, ActivityFields)
    + (if !StatusOk(Get(item, "status")) then [BadStatus(i, Get(item, "status"))] else [])
  }

  /** A classification module that is neither empty nor an alias must be one of the four modules. */
  function ClassRow(i: nat, item: Value): seq<CheckError>
  {
    var m := Get(item, "module");
    (if !Truthy(Get(item, "name")) then [ClassFieldMissing(i, "name")] else [])
    + (if !Truthy(m) then [ClassFieldMissing(i, "module")]
       else if m.Str? && ExcelV1.IsAlias(m.s) then []
       else if m.Str? && ExcelV1.KnownModule(m.s) then []
       else [UnknownModule(i, m)])
  }

  function ClassErrors(mc: Value): seq<CheckError>
  {
    if !Truthy(mc) then [NoClassification] else Rows(Items(mc), ClassRow)
  }

  /** `validate_input`: only missing-key errors when a block is missing, else every check in order. */
  function Validate(data: Value): seq<CheckError>
  {
    var missing := MissingKeys(data, RequiredKeys);
    if missing != [] then missing
    else
      MetaErrors(Get(data, "meta"))
      + LengthErrors(data)
      + Rows(Items(Get(data, "metrics_trend")), FieldCheck("metrics_trend", MetricFields))
      + Rows(Items(Get(data, "module_trend")), FieldCheck("module_trend", ModuleFields))
      + Rows(Items(Get(data, "user_tier_trend")), FieldCheck("user_tier_trend", TierFields))
      + Rows(Items(Get(data, "sub_activity_detail")), ActivityRow)
      + ClassErrors(Get(data, "module_classification"))
  }

  /** A classification row with its alias module replaced by the standard name. */
  function FixItem(item: Value): Value
  {
    var m := Get(item, "module");
    if Truthy(m) && m.Str? && ExcelV1.IsAlias(m.s) then Put(item, "module", Str(ExcelV1.AliasOf(m.s))) else item
  }

  /** The data after the in-place alias correction. */
  function Fixed(data: Value): Value
  {
    var mc := Get(data, "module_classification");
    if MissingKeys(data, RequiredKeys) == [] && Truthy(mc) && mc.Arr? then
      Put(data, "module_classification", Arr(MapSeq(mc.items, FixItem)))
    else data
  }

  /** If any required block is missing, the errors are exactly the missing-key errors. */
  lemma OnlyMissingKeys(data: Value)
    ensures (exists k :: k in RequiredKeys && !Has(data, k)) ==> Validate(data) == MissingKeys(data, RequiredKeys)
    ensures (forall k :: k in RequiredKeys ==> Has(data, k)) <==> MissingKeys(data, RequiredKeys) == []
  {
    MissingKeysEmpty(data, RequiredKeys);
  }

  lemma {:induction false} MissingKeysEmpty(data: Value, keys: seq<string>)
    ensures MissingKeys(data, keys) == [] <==> forall k :: k in keys ==> Has(data, k)
  {
    if |keys| > 0 {
      var n := |keys| - 1;
      MissingKeysEmpty(data, keys[..n]);
      assert keys == keys[..n] + [keys[n]];
    }
  }

  predicate RecordsHave(items: seq<Value>, fields: seq<string>)
  {
    forall i, f :: 0 <= i < |items| && f in fields ==> Has(items[i], f)
  }

  predicate ClassItemOk(item: Value)
  {
    var m := Get(item, "module");
    Truthy(Get(item, "name")) && m.Str? && |m.s| > 0 && (ExcelV1.IsAlias(m.s) || ExcelV1.KnownModule(m.s))
  }

  /** Everything the check demands of the review data. */
  predicate Acceptable(data: Value)
  {
    (forall k :: k in RequiredKeys ==> Has(data, k))
    && Truthy(Get(Get(data, "meta"), "event_name")) && Truthy(Get(Get(data, "meta"), "benchmark_event"))
    && |Items(Get(data, "metrics_trend"))| >= 6
    && |Items(Get(data, "module_trend"))| >= 6
    && |Items(Get(data, "user_tier_trend"))| >= 2
    && RecordsHave(Items(Get(data, "metrics_trend")), MetricFields)
    && RecordsHave(Items(Get(data, "module_trend")), ModuleFields)
    && RecordsHave(Items(Get(data, "user_tier_trend")), TierFields)
    && RecordsHave(Items(Get(data, "sub_activity_detail")), ActivityFields)
    && StatusesOk(Items(Get(data, "sub_activity_detail")))
    && ClassesOk(Get(data, "module_classification"))
  }

  predicate StatusesOk(items: seq<Value>)
  {
    forall i :: 0 <= i < |items| ==> StatusOk(Get(items[i], "status"))
  }

  predicate ClassesOk(mc: Value)
  {
    Truthy(mc) && forall i :: 0 <= i < |Items(mc)| ==> ClassItemOk(Items(mc)[i])
  }

  lemma {:induction false} AbsentFieldsEmpty(list: string, i: nat, item: Value, fields: seq<string>)
    ensures AbsentFields(list, i, item, fields) == [] <==> forall f :: f in fields ==> Has(item, f)
  {
    if |fields| > 0 {
      var n := |fields| - 1;
      AbsentFieldsEmpty(list, i, item, fields[..n]);
      assert fields == fields[..n] + [fields[n]];
    }
  }

  lemma FieldRowsEmpty(list: string, items: seq<Value>, fields: seq<string>)
    ensures Rows(items, FieldCheck(list, fields)) == [] <==> RecordsHave(items, fields)
  {
    RowsEmpty(items, FieldCheck(list, fields));
    forall i | 0 <= i < |items|
      ensures AbsentFields(list, i, items[i], fields) == [] <==> forall f :: f in fields ==> Has(items[i], f)
    {
      AbsentFieldsEmpty(list, i, items[i], fields);
    }
  }

  lemma ActivityRowsEmpty(items: seq<Value>)
    ensures Rows(items, ActivityRow) == [] <==> RecordsHave(items, ActivityFields) && StatusesOk(items)
  {
    RowsEmpty(items, ActivityRow);
    FieldRowsEmpty("sub_activity_detail", items, ActivityFields);
    RowsEmpty(items, FieldCheck("sub_activity_detail", ActivityFields));
  }

  lemma ClassRowsEmpty(mc: Value)
    ensures ClassErrors(mc) == [] <==> ClassesOk(mc)
  {
    RowsEmpty(Items(mc), ClassRow);
  }

  /** The check reports nothing exactly when the data meets every demand. */
  lemma ValidateAccepts(data: Value)
    ensures Validate(data) == [] <==> Acceptable(data)
  {
    OnlyMissingKeys(data);
    if MissingKeys(data, RequiredKeys) == [] {
      FieldRowsEmpty("metrics_trend", Items(Get(data, "metrics_trend")), MetricFields);
      FieldRowsEmpty("module_trend", Items(Get(data, "module_trend")), ModuleFields);
      FieldRowsEmpty("user_tier_trend", Items(Get(data, "user_tier_trend")), TierFields);
      ActivityRowsEmpty(Items(Get(data, "sub_activity_detail")));
      ClassRowsEmpty(Get(data, "module_classification"));
      assert Validate(data) == MetaErrors(Get(data, "meta"))
        + LengthErrors(data)
        + Rows(Items(Get(data, "metrics_trend")), FieldCheck("metrics_trend", MetricFields))
        + Rows(Items(Get(data, "module_trend")), FieldCheck("module_trend", ModuleFields))
        + Rows(Items(Get(data, "user_tier_trend")), FieldCheck("user_tier_trend", TierFields))
        + Rows(Items(Get(data, "sub_activity_detail")), ActivityRow)
        + ClassErrors(Get(data, "module_classification"));
    }
  }

  /** The correction turns an alias module into its standard name and leaves every other field and row alone. */
  lemma FixItemSpec(item: Value, key: string)
    ensures var m := Get(item, "module");
      Get(FixItem(item), "module") == (if Truthy(m) && m.Str? && ExcelV1.IsAlias(m.s) then Str(ExcelV1.AliasOf(m.s)) else m)
    ensures key != "module" ==> Get(FixItem(item), key) == Get(item, key)
    ensures ClassItemOk(item) ==> Get(FixItem(item), "module").Str? && ExcelV1.KnownModule(Get(FixItem(item), "module").s)
  {
    var m := Get(item, "module");
    if Truthy(m) && m.Str? && ExcelV1.IsAlias(m.s) {
      ExcelV1.AliasNormalises(m.s);
      if key != "module" {
        PutOther(item, "module", Str(ExcelV1.AliasOf(m.s)), key);
      }
    }
  }

  /** One classification row: its errors and its corrected form. */
  method CheckClassRow(i: nat, item: Value) returns (errors: seq<CheckError>, fixed: Value)
    ensures errors == ClassRow(i, item) && fixed == FixItem(item)
  {
    errors := [];
    fixed := item;
    if !Truthy(Get(item, "name")) {
      errors := errors + [ClassFieldMissing(i, "name")];
    }
    var m := Get(item, "module");
    if !Truthy(m) {
      errors := errors + [ClassFieldMissing(i, "module")];
    } else if m.Str? && ExcelV1.IsAlias(m.s) {
      fixed := Put(item, "module", Str(ExcelV1.AliasOf(m.s)));
    } else if !(m.Str? && ExcelV1.KnownModule(m.s)) {
      errors := errors + [UnknownModule(i, m)];
    }
  }

  /** The classification loop, correcting aliases as it goes. */
  method CheckClassification(items: seq<Value>) returns (errors: seq<CheckError>, fixed: seq<Value>)
    ensures errors == Rows(items, ClassRow) && fixed == MapSeq(items, FixItem)
  {
    errors := [];
    fixed := [];
    var i := 0;
    while i < |items|
      invariant i <= |items|
      invariant errors == Rows(items[..i], ClassRow) && fixed == MapSeq(items[..i], FixItem)
    {
      assert items[..i + 1][..i] == items[..i];
      var e, f := CheckClassRow(i, items[i]);
      errors := errors + e;
      fixed := fixed + [f];
      i := i + 1;
    }
    assert items[..i] == items;
  }

  /** A per-row loop: appends each row's errors. */
  method AppendRows(items: seq<Value>, f: (nat, Value) -> seq<CheckError>, errors: seq<CheckError>) returns (out: seq<CheckError>)
    ensures out == errors + Rows(items, f)
  {
    out := errors;
    var i := 0;
    while i < |items|
      invariant i <= |items|
      invariant out == errors + Rows(items[..i], f)
    {
      assert items[..i + 1][..i] == items[..i];
      out := out + f(i, items[i]);
      i := i + 1;
    }
    assert items[..i] == items;
  }

  /** The required-key loop. */
  method CheckKeys(data: Value) returns (errors: seq<CheckError>)
    ensures errors == MissingKeys(data, RequiredKeys)
  {
    errors := [];
    var i := 0;
    while i < |RequiredKeys|
      invariant i <= |RequiredKeys|
      invariant errors == MissingKeys(data, RequiredKeys[..i])
    {
      assert RequiredKeys[..i + 1][..i] == RequiredKeys[..i];
      if !Has(data, RequiredKeys[i]) {
        errors := errors + [MissingKey(RequiredKeys[i])];
      }
      i := i + 1;
    }
    assert RequiredKeys[..i] == RequiredKeys;
  }

  /** `validate_input`: the errors, and the data as the alias correction leaves it. */
  method ValidateInput(data: Value) returns (errors: seq<CheckError>, updated: Value)
    ensures errors == Validate(data) && updated == Fixed(data)
  {
    errors := CheckKeys(data);
    updated := data;
    if errors != [] {
      return;
    }
    errors := MetaErrors(Get(data, "meta")) + LengthErrors(data);
    errors := AppendRows(Items(Get(data, "metrics_trend")), FieldCheck("metrics_trend", MetricFields), errors);
    errors := AppendRows(Items(Get(data, "module_trend")), FieldCheck("module_trend", ModuleFields), errors);
    errors := AppendRows(Items(Get(data, "user_tier_trend")), FieldCheck("user_tier_trend", TierFields), errors);
    errors := AppendRows(Items(Get(data, "sub_activity_detail")), ActivityRow, errors);
    var mc := Get(data, "module_classification");
    if !Truthy(mc) {
      errors := errors + [NoClassification];
    } else {
      var errs, fixed := CheckClassification(Items(mc));
      errors := errors + errs;
      if mc.Arr? {
        updated := Put(data, "module_classification", Arr(fixed));
      }
    }
  }

  // ---- compute_metrics: which events are compared ----

  datatype MetricsRow = MetricsRow(event: string, revenue: real, arpu: real, payRate: real)

  /** The last index below n where p holds. */
  function LastWhere(n: nat, p: nat -> bool): (r: Option<nat>)
    ensures r.Some? ==> r.value < n && p(r.value)
  {
    if n == 0 then None else if p(n - 1) then Some(n - 1) else LastWhere(n - 1, p)
  }

  /** Row i becomes the current event: it carries the event name, or it is second-to-last. */
  function CurrentPred(ms: seq<MetricsRow>, name: string): nat -> bool
  {
    (i: nat) => i < |ms| && (ms[i].event == name || i + 2 == |ms|)
  }

  /** Row i becomes the benchmark: it carries the benchmark name, or it is last. */
  function BenchmarkPred(ms: seq<MetricsRow>, bench: string): nat -> bool
  {
    (i: nat) => i < |ms| && (ms[i].event == bench || i + 1 == |ms|)
  }

  /** Indices of the compared rows. */
  datatype Selection = Selection(current: nat, previous: Option<nat>, benchmark: nat)

  /** The current row: the last one when it carries the event name or is alone, else the second-to-last. */
  function CurrentIndex(ms: seq<MetricsRow>, name: string): (c: nat)
    requires |ms| > 0
    ensures c < |ms|
  {
    if |ms| >= 2 && ms[|ms| - 1].event != name then |ms| - 2 else |ms| - 1
  }

  /** The row before the current one, if any. */
  function PreviousIndex(ms: seq<MetricsRow>, name: string): Option<nat>
    requires |ms| > 0
  {
    var c := CurrentIndex(ms, name);
    if c > 0 then Some(c - 1) else None
  }

  lemma CurrentForm(ms: seq<MetricsRow>, name: string)
    requires |ms| > 0
    ensures |ms| >= 2 ==> LastWhere(|ms|, CurrentPred(ms, name)) == Some(CurrentIndex(ms, name))
    ensures |ms| == 1 ==> LastWhere(|ms|, CurrentPred(ms, name)) == (if ms[0].event == name then Some(0) else None)
  {
    var p := CurrentPred(ms, name);
    var n := |ms|;
    if n >= 2 && !p(n - 1) {
      assert p(n - 2);
    }
  }

  lemma BenchmarkForm(ms: seq<MetricsRow>, bench: string)
    requires |ms| > 0
    ensures LastWhere(|ms|, BenchmarkPred(ms, bench)) == Some(|ms| - 1)
  {
    assert BenchmarkPred(ms, bench)(|ms| - 1);
  }

  /**
   * The selection loop of `compute_metrics` with its fallbacks. None is
   * the IndexError of an empty list. The benchmark is always the last row,
   * whatever the benchmark name; the current row is the last when it
   * carries the event name and the second-to-last otherwise; the previous
   * row is the one before the current row.
   */
  method SelectRows(ms: seq<MetricsRow>, name: string, bench: string) returns (r: Option<Selection>)
    ensures r.None? <==> ms == []
    ensures r.Some? ==> r.value == Selection(CurrentIndex(ms, name), PreviousIndex(ms, name), |ms| - 1)
  {
    var current: Option<nat> := None;
    var benchmark: Option<nat> := None;
    var previous: Option<nat> := None;
    var i := 0;
    while i < |ms|
      invariant i <= |ms|
      invariant current == LastWhere(i, CurrentPred(ms, name))
      invariant benchmark == LastWhere(i, BenchmarkPred(ms, bench))
      invariant previous == (if current.Some? && current.value > 0 then Some(current.value - 1) else None)
    {
      if ms[i].event == name || i == |ms| - 2 {
        current := Some(i);
        if i > 0 {
          previous := Some(i - 1);
        }
      }
      if ms[i].event == bench || i == |ms| - 1 {
        benchmark := Some(i);
      }
      i := i + 1;
    }
    if |ms| == 0 {
      return None;
    }
    CurrentForm(ms, name);
    BenchmarkForm(ms, bench);
    var last: nat := |ms| - 1;
    var secondLast: nat := if |ms| >= 2 then |ms| - 2 else last;
    var third: nat := if |ms| >= 3 then |ms| - 3 else 0;
    if current.None? {
      current := Some(secondLast);
    }
    if benchmark.None? {
      benchmark := Some(last);
    }
    if previous.None? && |ms| >= 3 {
      previous := Some(third);
    }
    r := Some(Selection(current.value, previous, benchmark.value));
  }

  // ---- year-on-year and period-on-period changes ----

  datatype Change = Change(revenue: Option<real>, arpu: Option<real>)

  function PctChange(a: real, b: real): real
    requires b != 0.0
  {
    (a - b) / b * 100.0
  }

  /**
   * The changes of the current row against a reference row: none without a
   * reference of positive revenue. None is the ZeroDivisionError of a
   * reference with positive revenue and zero ARPU.
   */
  function ChangeFrom(cur: MetricsRow, ref: Option<MetricsRow>): Option<Change>
  {
    if ref.Some? && ref.value.revenue > 0.0 then
      if ref.value.arpu == 0.0 then None
      else Some(Change(Some(PctChange(cur.revenue, ref.value.revenue)), Some(PctChange(cur.arpu, ref.value.arpu))))
    else Some(Change(None, None))
  }

  /** A percentage change is positive exactly when the value grew over a positive reference. */
  lemma PctChangeSign(a: real, b: real)
    requires b > 0.0
    ensures PctChange(a, b) > 0.0 <==> a > b
    ensures PctChange(a, b) == 0.0 <==> a == b
  {
    QuotientAbove(a - b, b, 0.0);
    var q := (a - b) / b;
    assert q * b == a - b;
  }

  /**
   * Changes are absent exactly when there is no reference or its revenue is
   * at most 0; the revenue change has the sign of the growth; the only
   * failure is a zero reference ARPU.
   */
  lemma ChangeSpec(cur: MetricsRow, ref: Option<MetricsRow>)
    ensures ChangeFrom(cur, ref).None? <==> ref.Some? && ref.value.revenue > 0.0 && ref.value.arpu == 0.0
    ensures ChangeFrom(cur, ref) == Some(Change(None, None)) <==> ref.None? || ref.value.revenue <= 0.0
    ensures ChangeFrom(cur, ref).Some? && ChangeFrom(cur, ref).value.revenue.Some? ==>
      (ChangeFrom(cur, ref).value.revenue.value > 0.0 <==> cur.revenue > ref.value.revenue)
  {
    if ref.Some? && ref.value.revenue > 0.0 {
      PctChangeSign(cur.revenue, ref.value.revenue);
    }
  }

  // ---- trend ----

  /** `np.argmin`: the first position of the smallest value. */
  function ArgMin(rs: seq<real>): (k: nat)
    requires |rs| > 0
    ensures k < |rs| && forall j :: 0 <= j < |rs| ==> rs[k] <= rs[j]
    ensures forall j :: 0 <= j < k ==> rs[j] > rs[k]
  {
    if |rs| == 1 then 0
    else
      var k := ArgMin(rs[..|rs| - 1]);
      if rs[|rs| - 1] < rs[k] then |rs| - 1 else k
  }

  /** The V-shape test: an interior minimum, a drop of more than 30% from the start and a rise of more than 30% to the end. */
  predicate VShape(rs: seq<real>)
    requires |rs| > 0
  {
    var k := ArgMin(rs);
    0 < k < |rs| - 1 && Drop(rs[0], rs[k]) > 0.3 && Rise(rs[k], rs[|rs| - 1]) > 0.3
  }

  /** The relative drop from the start to the minimum; 0 for a start at most 0. */
  function Drop(first: real, low: real): real
  {
    if first > 0.0 then (first - low) / first else 0.0
  }

  /** The relative rise from the minimum to the end; 0 for a minimum at most 0. */
  function Rise(low: real, last: real): real
  {
    if low > 0.0 then (last - low) / low else 0.0
  }

  lemma DropAbove(first: real, low: real)
    ensures Drop(first, low) > 0.3 <==> first > 0.0 && low < 0.7 * first
  {
    if first > 0.0 {
      QuotientAbove(first - low, first, 0.3);
    }
  }

  lemma RiseAbove(low: real, last: real)
    ensures Rise(low, last) > 0.3 <==> low > 0.0 && last > 1.3 * low
  {
    if low > 0.0 {
      QuotientAbove(last - low, low, 0.3);
    }
  }

  /** Without the ratios: the interior minimum is positive, below 70% of the start, and the end is above 130% of it. */
  lemma VShapeMeaning(rs: seq<real>)
    requires |rs| > 0
    ensures var k := ArgMin(rs);
      VShape(rs) <==> 0 < k < |rs| - 1 && rs[k] > 0.0 && rs[k] < 0.7 * rs[0] && rs[|rs| - 1] > 1.3 * rs[k]
  {
    var k := ArgMin(rs);
    DropAbove(rs[0], rs[k]);
    RiseAbove(rs[k], rs[|rs| - 1]);
  }

  datatype Pattern = VReversal | Rising | Recovering | Falling | Peaking | Sideways | TooFewPoints

  datatype Trend = Trend(slope: real, pattern: Pattern)

  /**
   * The trend of the revenue history (the benchmark row excluded). `fit`
   * is the least-squares slope: of the whole history and of its second
   * half from position len // 2.
   */
  function TrendOf(history: seq<real>, fit: seq<real> -> real): Trend
  {
    if |history| < 3 then Trend(0.0, TooFewPoints)
    else
      var slope := fit(history);
      var recent := fit(history[|history| / 2..]);
      if VShape(history) then Trend(slope, VReversal)
      else if recent > 0.0 && slope > 0.0 then Trend(slope, Rising)
      else if recent > 0.0 && slope <= 0.0 then Trend(slope, Recovering)
      else if recent < 0.0 && slope < 0.0 then Trend(slope, Falling)
      else if recent < 0.0 && slope >= 0.0 then Trend(slope, Peaking)
      else Trend(slope, Sideways)
  }

  /**
   * Too few points exactly below three; otherwise the V-shape test comes
   * first, and the direction of the other patterns is the sign of the
   * recent slope: up for rising or recovering, down for falling or
   * peaking, sideways exactly when it is zero, whatever the overall slope.
   */
  lemma TrendPatterns(history: seq<real>, fit: seq<real> -> real)
    ensures TrendOf(history, fit).pattern == TooFewPoints <==> |history| < 3
    ensures |history| < 3 ==> TrendOf(history, fit).slope == 0.0
    ensures |history| >= 3 ==> TrendOf(history, fit).slope == fit(history)
    ensures |history| >= 3 ==> (TrendOf(history, fit).pattern == VReversal <==> VShape(history))
    ensures |history| >= 3 && !VShape(history) ==>
      var p := TrendOf(history, fit).pattern;
      var recent := fit(history[|history| / 2..]);
      ((p == Rising || p == Recovering) <==> recent > 0.0)
      && ((p == Falling || p == Peaking) <==> recent < 0.0)
      && (p == Sideways <==> recent == 0.0)
      && ((p == Rising || p == Peaking) ==> fit(history) > 0.0 || (p == Peaking && fit(history) == 0.0))
  {
  }

  // ---- module shares ----

  datatype ModuleRow = ModuleRow(event: string, appearance: real, minigame: real, hybrid: real)

  /** The first row carrying the event name. */
  function FirstNamed(rows: seq<ModuleRow>, name: string): (r: Option<nat>)
    ensures r.Some? ==> r.value < |rows| && rows[r.value].event == name
    ensures r.Some? ==> forall j :: 0 <= j < r.value ==> rows[j].event != name
    ensures r.None? ==> forall j :: 0 <= j < |rows| ==> rows[j].event != name
  {
    if |rows| == 0 then None
    else if rows[0].event == name then Some(0)
    else
      var t := FirstNamed(rows[1..], name);
      if t.Some? then Some(t.value + 1) else None
  }

  /** The module row of the current event: the first named row, else the second-to-last, else the only one. */
  function ModuleIndex(rows: seq<ModuleRow>, name: string): (k: nat)
    requires |rows| > 0
    ensures k < |rows|
  {
    match FirstNamed(rows, name)
    case Some(k) => k
    case None => if |rows| >= 2 then |rows| - 2 else |rows| - 1
  }

  /** The search loop with its fallbacks; None is the IndexError of an empty list. */
  method FindModuleRow(rows: seq<ModuleRow>, name: string) returns (r: Option<nat>)
    ensures r.None? <==> rows == []
    ensures r.Some? ==> r.value == ModuleIndex(rows, name)
  {
    var found: Option<nat> := None;
    var i := 0;
    while i < |rows|
      invariant i <= |rows|
      invariant forall j :: 0 <= j < i ==> rows[j].event != name
    {
      if rows[i].event == name {
        found := Some(i);
        break;
      }
      i := i + 1;
    }
    if found.None? && |rows| >= 2 {
      found := Some(|rows| - 2);
    }
    if found.None? && |rows| >= 1 {
      found := Some(|rows| - 1);
    }
    return found;
  }

  datatype Shares = Shares(appearance: real, minigame: real, hybrid: real)

  function SharesOf(m: ModuleRow): Shares
  {
    var total := m.appearance + m.minigame + m.hybrid;
    if total > 0.0 then Shares(m.appearance / total * 100.0, m.minigame / total * 100.0, m.hybrid / total * 100.0)
    else Shares(0.0, 0.0, 0.0)
  }

  /** With a positive total the shares add up to 100, and are each at most 100 when no module is negative; otherwise all are 0. */
  lemma SharesSpec(m: ModuleRow)
    ensures var s := SharesOf(m);
      var total := m.appearance + m.minigame + m.hybrid;
      (total > 0.0 ==> s.appearance + s.minigame + s.hybrid == 100.0)
      && (total <= 0.0 ==> s == Shares(0.0, 0.0, 0.0))
      && (total > 0.0 && m.appearance >= 0.0 && m.minigame >= 0.0 && m.hybrid >= 0.0 ==>
            0.0 <= s.appearance <= 100.0 && 0.0 <= s.minigame <= 100.0 && 0.0 <= s.hybrid <= 100.0)
  {
    var total := m.appearance + m.minigame + m.hybrid;
    if total > 0.0 {
      SharesAddUp(m.appearance, m.minigame, m.hybrid);
      if m.appearance >= 0.0 && m.minigame >= 0.0 && m.hybrid >= 0.0 {
        ShareBounds(m.appearance, total);
        ShareBounds(m.minigame, total);
        ShareBounds(m.hybrid, total);
      }
    }
  }

  lemma SharesAddUp(x: real, y: real, z: real)
    requires x + y + z > 0.0
    ensures var t := x + y + z; x / t * 100.0 + y / t * 100.0 + z / t * 100.0 == 100.0
  {
    var t := x + y + z;
    assert x / t + y / t + z / t == t / t;
  }

  lemma ShareBounds(x: real, t: real)
    requires t > 0.0 && 0.0 <= x <= t
    ensures 0.0 <= x / t * 100.0 <= 100.0
  {
    var q := x / t;
    assert q * t == x;
    SignOfProduct(-q, t);
    SignOfProduct(q - 1.0, t);
    assert (q - 1.0) * t == x - t;
  }

  // ---- compute_metrics ----

  datatype Metrics = Metrics(
    current: MetricsRow,
    previous: Option<MetricsRow>,
    benchmark: MetricsRow,
    yoy: Change,
    mom: Change,
    trend: Trend,
    shares: Shares)

  function Revenue(m: MetricsRow): real
  {
    m.revenue
  }

  /** The revenue history the trend is read from: every row but the benchmark. */
  function History(ms: seq<MetricsRow>): seq<real>
    requires |ms| > 0
  {
    MapSeq(ms[..|ms| - 1], Revenue)
  }

  function RowAt(ms: seq<MetricsRow>, k: Option<nat>): Option<MetricsRow>
  {
    if k.Some? && k.value < |ms| then Some(ms[k.value]) else None
  }

  /**
   * `compute_metrics`. None is the exception `compute_metrics` raises: an empty
   * trend or module list, or a zero ARPU in a reference row of positive
   * revenue.
   */
  method ComputeMetrics(ms: seq<MetricsRow>, modules: seq<ModuleRow>, name: string, bench: string, fit: seq<real> -> real)
    returns (r: Option<Metrics>)
    ensures r.None? <==>
      ms == [] || modules == []
      || ChangeFrom(ms[CurrentIndex(ms, name)], Some(ms[|ms| - 1])).None?
      || ChangeFrom(ms[CurrentIndex(ms, name)], RowAt(ms, PreviousIndex(ms, name))).None?
    ensures r.Some? ==>
      var cur := ms[CurrentIndex(ms, name)];
      && r.value.current == cur
      && r.value.benchmark == ms[|ms| - 1]
      && r.value.previous == RowAt(ms, PreviousIndex(ms, name))
      && Some(r.value.yoy) == ChangeFrom(cur, Some(ms[|ms| - 1]))
      && Some(r.value.mom) == ChangeFrom(cur, r.value.previous)
      && r.value.trend == TrendOf(History(ms), fit)
      && r.value.shares == SharesOf(modules[ModuleIndex(modules, name)])
  {
    var sel := SelectRows(ms, name, bench);
    if sel.None? {
      return None;
    }
    var cur := ms[sel.value.current];
    var previous := RowAt(ms, sel.value.previous);
    var yoy := ChangeFrom(cur, Some(ms[sel.value.benchmark]));
    if yoy.None? {
      return None;
    }
    var mom := ChangeFrom(cur, previous);
    if mom.None? {
      return None;
    }
    var trend := TrendOf(History(ms), fit);
    var k := FindModuleRow(modules, name);
    if k.None? {
      return None;
    }
    r := Some(Metrics(cur, previous, ms[sel.value.benchmark], yoy.value, mom.value, trend, SharesOf(modules[k.value])));
  }
}

=== FILE: config_report.dfy ===
/**
 * The config agent's report generator, reduced to what its console,
 * markdown and JSON reports compute from the table records and their
 * grouping: the number of distinct commits, the commit-to-tables index, the
 * time-ordered list of distinct commits, the order of the change-type
 * sections, how one table entry is shown and the change symbols. The
 * report text itself (headings, date formatting, JSON encoding) is not
 * modelled.
 */
module ConfigReport {
  import opened Wrappers
  import opened Strings
  import opened Sorting
  import Dicts
  import opened GitRepo
  import opened ChangeAnalyzer

  // ---- the commit count: len({c.hash for every commit of every table}) ----

  /** The hashes of every table's commits. */
  function Seen(tables: seq<TableChange>): set<string>
  {
    if |tables| == 0 then {} else Seen(tables[..|tables| - 1]) + Hashes(tables[|tables| - 1].commits)
  }

  lemma HashesSnoc(cs: seq<CommitInfo>, c: CommitInfo)
    ensures Hashes(cs + [c]) == Hashes(cs) + {c.hash}
  {
    assert c in cs + [c];
    assert forall x :: x in cs + [c] <==> x in cs || x == c;
  }

  method AddHashes(all: set<string>, cs: seq<CommitInfo>) returns (r: set<string>)
    ensures r == all + Hashes(cs)
  {
    r := all;
    for j := 0 to |cs|
      invariant r == all + Hashes(cs[..j])
    {
      assert cs[..j + 1] == cs[..j] + [cs[j]];
      HashesSnoc(cs[..j], cs[j]);
      r := r + {cs[j].hash};
    }
    assert cs[..|cs|] == cs;
  }

  method CommitCount(tables: seq<TableChange>) returns (n: nat)
    ensures n == |Seen(tables)|
  {
    var all: set<string> := {};
    for i := 0 to |tables|
      invariant all == Seen(tables[..i])
    {
      assert tables[..i + 1][..i] == tables[..i];
      all := AddHashes(all, tables[i].commits);
    }
    assert tables[..|tables|] == tables;
    n := |all|;
  }

  /** A hash is counted iff some table lists a commit with it. */
  lemma {:induction false} SeenMeaning(tables: seq<TableChange>, h: string)
    ensures h in Seen(tables) <==> exists k, c :: 0 <= k < |tables| && c in tables[k].commits && c.hash == h
  {
    if |tables| > 0 {
      var init := tables[..|tables| - 1];
      SeenMeaning(init, h);
      if exists k, c :: 0 <= k < |init| && c in init[k].commits && c.hash == h {
        var k, c :| 0 <= k < |init| && c in init[k].commits && c.hash == h;
        assert tables[k] == init[k];
      }
      if exists k, c :: 0 <= k < |tables| && c in tables[k].commits && c.hash == h {
        var k, c :| 0 <= k < |tables| && c in tables[k].commits && c.hash == h;
        if k < |init| {
          assert init[k] == tables[k];
        }
      }
    }
  }

  /** The number of commit entries over all tables. */
  function Entries(tables: seq<TableChange>): nat
  {
    if |tables| == 0 then 0 else Entries(tables[..|tables| - 1]) + |tables[|tables| - 1].commits|
  }

  lemma {:induction false} HashesSize(cs: seq<CommitInfo>)
    ensures |Hashes(cs)| <= |cs|
  {
    if |cs| > 0 {
      HashesSize(cs[..|cs| - 1]);
      FrontLast(cs);
      HashesSnoc(cs[..|cs| - 1], cs[|cs| - 1]);
    }
  }

  /**
   * The count is at most the number of commit entries (a commit shared by
   * several tables counts once) and is 0 exactly when no table has a commit.
   */
  lemma {:induction false} CountBound(tables: seq<TableChange>)
    ensures |Seen(tables)| <= Entries(tables)
    ensures |Seen(tables)| == 0 <==> Entries(tables) == 0
  {
    if |tables| > 0 {
      var init, t := tables[..|tables| - 1], tables[|tables| - 1];
      CountBound(init);
      HashesSize(t.commits);
      if |t.commits| > 0 {
        assert t.commits[0].hash in Hashes(t.commits);
      }
    }
  }

  /** Every counted hash, for the tables the analyzer builds, is the hash of a commit of the range. */
  lemma CountedInRange(commits: seq<CommitInfo>, changes: seq<FileChange>, filesOf: string -> seq<FileChange>, dir: string, h: string)
    requires h in Seen(Analyze(commits, changes, filesOf, dir))
    ensures exists c :: c in commits && c.hash == h
  {
    var tables := Analyze(commits, changes, filesOf, dir);
    SeenMeaning(tables, h);
    var k, c :| 0 <= k < |tables| && c in tables[k].commits && c.hash == h;
    AnalyzeCommits(commits, changes, filesOf, dir, k, c);
  }

  // ---- commit_to_tables ----

  /** Table t once for each of the commits in cs with hash h. */
  function Each(t: TableChange, cs: seq<CommitInfo>, h: string): seq<TableChange>
  {
    if |cs| == 0 then []
    else Each(t, cs[..|cs| - 1], h) + (if cs[|cs| - 1].hash == h then [t] else [])
  }

  /** The list commit_to_tables holds for hash h: each table, in dict order, once per commit of it with that hash. */
  function TablesOf(tables: seq<TableChange>, h: string): seq<TableChange>
  {
    if |tables| == 0 then []
    else
      var t := tables[|tables| - 1];
      TablesOf(tables[..|tables| - 1], h) + Each(t, t.commits, h)
  }

  function Index(tables: seq<TableChange>): string -> seq<TableChange>
  {
    h => TablesOf(tables, h)
  }

  /** The index after the first j commits of table i. */
  function Upto(tables: seq<TableChange>, i: nat, j: nat): string -> seq<TableChange>
    requires i < |tables| && j <= |tables[i].commits|
  {
    h => TablesOf(tables[..i], h) + Each(tables[i], tables[i].commits[..j], h)
  }

  lemma UptoStart(tables: seq<TableChange>, i: nat, d: seq<Dicts.Group<string, TableChange>>)
    requires i < |tables| && Dicts.Tracks(d, Index(tables[..i]))
    ensures Dicts.Tracks(d, Upto(tables, i, 0))
  {
    Dicts.TracksSame(d, Index(tables[..i]), Upto(tables, i, 0));
  }

  lemma UptoEnd(tables: seq<TableChange>, i: nat, d: seq<Dicts.Group<string, TableChange>>)
    requires i < |tables| && Dicts.Tracks(d, Upto(tables, i, |tables[i].commits|))
    ensures Dicts.Tracks(d, Index(tables[..i + 1]))
  {
    assert tables[..i + 1][..i] == tables[..i];
    assert tables[i].commits[..|tables[i].commits|] == tables[i].commits;
    forall h ensures Index(tables[..i + 1])(h) == Upto(tables, i, |tables[i].commits|)(h) {
      assert TablesOf(tables[..i + 1], h) == TablesOf(tables[..i], h) + Each(tables[i], tables[i].commits, h);
    }
    Dicts.TracksSame(d, Upto(tables, i, |tables[i].commits|), Index(tables[..i + 1]));
  }

  lemma UptoStep(tables: seq<TableChange>, i: nat, j: nat, d: seq<Dicts.Group<string, TableChange>>)
    requires i < |tables| && j < |tables[i].commits| && Dicts.Tracks(d, Upto(tables, i, j))
    ensures Dicts.Tracks(Dicts.Append(d, tables[i].commits[j].hash, tables[i]), Upto(tables, i, j + 1))
  {
    var t, c := tables[i], tables[i].commits[j];
    assert t.commits[..j + 1][..j] == t.commits[..j];
    forall h ensures Upto(tables, i, j + 1)(h) == if h == c.hash then Upto(tables, i, j)(h) + [t] else Upto(tables, i, j)(h) {
      assert Each(t, t.commits[..j + 1], h) == Each(t, t.commits[..j], h) + (if c.hash == h then [t] else []);
    }
    Dicts.AppendTracks(d, Upto(tables, i, j), Upto(tables, i, j + 1), c.hash, t);
  }

  /** `commit_to_tables[commit.hash].append(table_change)` for every commit of every table. */
  method CommitToTables(tables: seq<TableChange>) returns (d: seq<Dicts.Group<string, TableChange>>)
    ensures Dicts.Tracks(d, Index(tables))
  {
    d := [];
    for i := 0 to |tables|
      invariant Dicts.Tracks(d, Index(tables[..i]))
    {
      var t := tables[i];
      UptoStart(tables, i, d);
      for j := 0 to |t.commits|
        invariant Dicts.Tracks(d, Upto(tables, i, j))
      {
        UptoStep(tables, i, j, d);
        d := Dicts.Append(d, t.commits[j].hash, t);
      }
      UptoEnd(tables, i, d);
    }
    assert tables[..|tables|] == tables;
  }

  /** `commit_to_tables.get(h, [])` */
  function TablesFor(d: seq<Dicts.Group<string, TableChange>>, h: string): seq<TableChange>
  {
    match Dicts.Find(d, Dicts.GroupKey, h)
    case Some(k) => d[k].items
    case None => []
  }

  /** Looking a hash up in the built index gives the tables listing it. */
  lemma LookupIndex(d: seq<Dicts.Group<string, TableChange>>, tables: seq<TableChange>, h: string)
    requires Dicts.Tracks(d, Index(tables))
    ensures TablesFor(d, h) == TablesOf(tables, h)
  {
    Dicts.TracksFind(d, Index(tables), h);
  }

  lemma {:induction false} EachMeaning(t: TableChange, cs: seq<CommitInfo>, h: string, x: TableChange)
    ensures x in Each(t, cs, h) <==> x == t && h in Hashes(cs)
  {
    if |cs| > 0 {
      EachMeaning(t, cs[..|cs| - 1], h, x);
      FrontLast(cs);
      HashesSnoc(cs[..|cs| - 1], cs[|cs| - 1]);
    }
  }

  /** A commit lists exactly the tables that have a commit with its hash. */
  lemma {:induction false} TablesOfMeaning(tables: seq<TableChange>, h: string, x: TableChange)
    ensures x in TablesOf(tables, h) <==> x in tables && h in Hashes(x.commits)
  {
    if |tables| > 0 {
      var init, t := tables[..|tables| - 1], tables[|tables| - 1];
      TablesOfMeaning(init, h, x);
      EachMeaning(t, t.commits, h, x);
      FrontLast(tables);
    }
  }

  // ---- sorted_commits: distinct commits (by whole record) ordered by time ----

  predicate NoDup<T(==)>(s: seq<T>)
  {
    forall i, j :: 0 <= i < j < |s| ==> s[i] != s[j]
  }

  /** acc followed by each commit of cs not already listed. */
  function AddNew(acc: seq<CommitInfo>, cs: seq<CommitInfo>): seq<CommitInfo>
  {
    if |cs| == 0 then acc
    else
      var a := AddNew(acc, cs[..|cs| - 1]);
      if cs[|cs| - 1] in a then a else a + [cs[|cs| - 1]]
  }

  function Unique(tables: seq<TableChange>): seq<CommitInfo>
  {
    if |tables| == 0 then [] else AddNew(Unique(tables[..|tables| - 1]), tables[|tables| - 1].commits)
  }

  function SortedCommits(tables: seq<TableChange>): seq<CommitInfo>
  {
    Sort(Unique(tables), ByString(Time))
  }

  method CommitOrder(tables: seq<TableChange>) returns (sorted: seq<CommitInfo>)
    ensures sorted == SortedCommits(tables)
  {
    sorted := [];
    for i := 0 to |tables|
      invariant sorted == Unique(tables[..i])
    {
      var t := tables[i];
      ghost var start := sorted;
      for j := 0 to |t.commits|
        invariant sorted == AddNew(start, t.commits[..j])
      {
        assert t.commits[..j + 1][..j] == t.commits[..j];
        if t.commits[j] !in sorted {
          sorted := sorted + [t.commits[j]];
        }
      }
      assert t.commits[..|t.commits|] == t.commits;
      assert tables[..i + 1][..i] == tables[..i];
    }
    assert tables[..|tables|] == tables;
    sorted := Sort(sorted, ByString(Time));
  }

  lemma {:induction false} AddNewSpec(acc: seq<CommitInfo>, cs: seq<CommitInfo>)
    requires NoDup(acc)
    ensures NoDup(AddNew(acc, cs))
    ensures forall c :: c in AddNew(acc, cs) <==> c in acc || c in cs
  {
    if |cs| > 0 {
      AddNewSpec(acc, cs[..|cs| - 1]);
      FrontLast(cs);
    }
  }

  predicate InSome(tables: seq<TableChange>, c: CommitInfo)
  {
    exists k :: 0 <= k < |tables| && c in tables[k].commits
  }

  lemma InSomeLast(tables: seq<TableChange>, c: CommitInfo)
    requires |tables| > 0
    ensures InSome(tables, c) <==> InSome(tables[..|tables| - 1], c) || c in tables[|tables| - 1].commits
  {
    var init := tables[..|tables| - 1];
    if InSome(init, c) {
      var k :| 0 <= k < |init| && c in init[k].commits;
      assert tables[k] == init[k];
    }
    if InSome(tables, c) {
      var k :| 0 <= k < |tables| && c in tables[k].commits;
      if k < |init| {
        assert init[k] == tables[k];
      }
    }
  }

  lemma {:induction false} UniqueSpec(tables: seq<TableChange>)
    ensures NoDup(Unique(tables))
    ensures forall c :: c in Unique(tables) <==> InSome(tables, c)
  {
    if |tables| > 0 {
      var init := tables[..|tables| - 1];
      UniqueSpec(init);
      AddNewSpec(Unique(init), tables[|tables| - 1].commits);
      forall c ensures c in Unique(tables) <==> InSome(tables, c) {
        InSomeLast(tables, c);
      }
    }
  }

  lemma {:induction false} NoDupCount<T>(s: seq<T>, x: T)
    requires NoDup(s)
    ensures multiset(s)[x] <= 1
  {
    if |s| > 0 {
      var init := s[..|s| - 1];
      assert NoDup(init);
      NoDupCount(init, x);
      FrontLast(s);
      assert multiset(s) == multiset(init) + multiset{s[|s| - 1]};
      if x == s[|s| - 1] {
        assert x !in init;
      }
    }
  }

  lemma DupCount<T>(s: seq<T>, i: nat, j: nat)
    requires i < j < |s| && s[i] == s[j]
    ensures multiset(s)[s[i]] >= 2
  {
    assert s == s[..j] + [s[j]] + s[j + 1..];
    assert s[i] in s[..j];
  }

  /** Reordering a list without duplicates leaves it without duplicates. */
  lemma NoDupPerm<T>(s: seq<T>, r: seq<T>)
    requires NoDup(s) && multiset(r) == multiset(s)
    ensures NoDup(r)
  {
    forall i, j | 0 <= i < j < |r| ensures r[i] != r[j] {
      if r[i] == r[j] {
        DupCount(r, i, j);
        NoDupCount(s, r[i]);
      }
    }
  }

  /**
   * The detailed commit list holds every commit of every table, none twice,
   * ordered by time (commits with equal times in first-seen order).
   */
  lemma SortedCommitsSpec(tables: seq<TableChange>)
    ensures Sorted(SortedCommits(tables), ByString(Time))
    ensures NoDup(SortedCommits(tables))
    ensures forall c :: c in SortedCommits(tables) <==> InSome(tables, c)
  {
    UniqueSpec(tables);
    ByStringPreorder(Time);
    SortSorted(Unique(tables), ByString(Time));
    NoDupPerm(Unique(tables), SortedCommits(tables));
    forall c ensures c in SortedCommits(tables) <==> c in Unique(tables) {
      assert c in SortedCommits(tables) <==> c in multiset(SortedCommits(tables));
      assert c in Unique(tables) <==> c in multiset(Unique(tables));
    }
  }

  // ---- the change-type sections ----

  /** The section order of `change_type_names` (and of the grouped dict). */
  const TypeOrder: seq<char> := ['A', 'M', 'D', 'R']

  /** The keys of ks whose group is non-empty, in order. */
  function Present(g: Groups, ks: seq<char>): seq<char>
  {
    if |ks| == 0 then []
    else Present(g, ks[..|ks| - 1]) + (if Group(g, ks[|ks| - 1]) != [] then [ks[|ks| - 1]] else [])
  }

  function Sections(g: Groups): seq<char>
  {
    Present(g, TypeOrder)
  }

  method TypeSections(g: Groups) returns (keys: seq<char>)
    ensures keys == Sections(g)
  {
    keys := [];
    for i := 0 to |TypeOrder|
      invariant keys == Present(g, TypeOrder[..i])
    {
      assert TypeOrder[..i + 1][..i] == TypeOrder[..i];
      var changes := Group(g, TypeOrder[i]);
      if changes == [] {
        continue;
      }
      keys := keys + [TypeOrder[i]];
    }
    assert TypeOrder[..|TypeOrder|] == TypeOrder;
  }

  /** Position in the section order. */
  function Rank(k: char): nat
  {
    if k == 'A' then 0 else if k == 'M' then 1 else if k == 'D' then 2 else 3
  }

  lemma {:induction false} PresentSpec(g: Groups, ks: seq<char>)
    ensures forall k :: k in Present(g, ks) <==> k in ks && Group(g, k) != []
    ensures forall i :: 0 <= i < |Present(g, ks)| ==> Present(g, ks)[i] in ks
  {
    if |ks| > 0 {
      PresentSpec(g, ks[..|ks| - 1]);
      FrontLast(ks);
    }
  }

  lemma {:induction false} PresentOrdered(g: Groups, ks: seq<char>)
    requires forall i, j :: 0 <= i < j < |ks| ==> Rank(ks[i]) < Rank(ks[j])
    ensures forall i, j :: 0 <= i < j < |Present(g, ks)| ==> Rank(Present(g, ks)[i]) < Rank(Present(g, ks)[j])
  {
    if |ks| > 0 {
      var init, k := ks[..|ks| - 1], ks[|ks| - 1];
      PresentOrdered(g, init);
      PresentSpec(g, init);
      assert forall x :: x in init ==> Rank(x) < Rank(k);
    }
  }

  /**
   * A section is shown for exactly the change types A, M, D, R whose group
   * is non-empty, in that order.
   */
  lemma SectionsSpec(g: Groups)
    ensures forall k :: k in Sections(g) <==> IsKey(k) && Group(g, k) != []
    ensures forall i, j :: 0 <= i < j < |Sections(g)| ==> Rank(Sections(g)[i]) < Rank(Sections(g)[j])
  {
    PresentSpec(g, TypeOrder);
    PresentOrdered(g, TypeOrder);
  }

  /** With the grouping the analyzer makes, the shown sections hold every table once. */
  lemma SectionsCover(tables: seq<TableChange>)
    ensures var g := GroupBy(tables);
      |Group(g, 'A')| + |Group(g, 'M')| + |Group(g, 'D')| + |Group(g, 'R')| == |tables|
  {
    GroupSizes(tables);
  }

  // ---- one table entry and the change symbols ----

  datatype Shown = Plain(name: string, path: string) | Moved(name: string, from: string, path: string)

  /** A table in section k: a rename with a (non-empty) old path shows both paths. */
  function ShowEntry(k: char, t: TableChange): (r: Shown)
    ensures r.name == t.tableName && r.path == t.filePath
    ensures r.Moved? <==> k == 'R' && t.oldPath.Some? && t.oldPath.value != ""
    ensures r.Moved? ==> r.from == t.oldPath.value
  {
    match t.oldPath
    case Some(prev) => if k == 'R' && prev != "" then Moved(t.tableName, prev, t.filePath) else Plain(t.tableName, t.filePath)
    case None => Plain(t.tableName, t.filePath)
  }

  /** The console symbol of a change type. */
  function Symbol(ty: char): char
  {
    match ty
    case 'A' => '+'
    case 'M' => 'M'
    case 'D' => '-'
    case 'R' => 'R'
    case _ => '?'
  }

  /** The four change types get four different symbols, none of them '?', and every other type gets '?'. */
  lemma SymbolSpec(a: char, b: char)
    ensures IsKey(a) ==> Symbol(a) != '?'
    ensures !IsKey(a) ==> Symbol(a) == '?'
    ensures IsKey(a) && IsKey(b) && Symbol(a) == Symbol(b) ==> a == b
  {
  }

  // ---- the JSON report ----

  datatype CommitEntry = CommitEntry(commit: CommitInfo, changedFiles: seq<string>)

  datatype JsonReport = JsonReport(totalCommits: nat, totalTables: nat,
                                   changesByType: seq<(char, seq<TableChange>)>,
                                   tables: seq<TableChange>, commits: seq<CommitEntry>)

  function PathOf(t: TableChange): string
  {
    t.filePath
  }

  /** The JSON `changed_files` of a commit: the paths of the tables listing its hash. */
  function FilesFor(tables: seq<TableChange>, h: string): seq<string>
  {
    MapSeq(TablesOf(tables, h), PathOf)
  }

  /** `changes_by_type`: the non-empty groups, in section order. */
  method ChangesByType(g: Groups) returns (byType: seq<(char, seq<TableChange>)>)
    ensures |byType| == |Sections(g)|
    ensures forall i :: 0 <= i < |byType| ==> byType[i] == (Sections(g)[i], Group(g, Sections(g)[i]))
  {
    var keys := TypeSections(g);
    byType := [];
    for i := 0 to |keys|
      invariant |byType| == i
      invariant forall m :: 0 <= m < i ==> byType[m] == (keys[m], Group(g, keys[m]))
    {
      byType := byType + [(keys[i], Group(g, keys[i]))];
    }
  }

  /** `commit_to_tables.get(commit.hash, [])`, as file paths. */
  method ChangedFiles(index: seq<Dicts.Group<string, TableChange>>, tables: seq<TableChange>, h: string)
    returns (files: seq<string>)
    requires Dicts.Tracks(index, Index(tables))
    ensures files == FilesFor(tables, h)
  {
    LookupIndex(index, tables, h);
    files := MapSeq(TablesFor(index, h), PathOf);
  }

  /** The entries of a list of commits, one after the other. */
  function EntriesOf(tables: seq<TableChange>, cs: seq<CommitInfo>): seq<CommitEntry>
  {
    if |cs| == 0 then [] else EntriesOf(tables, cs[..|cs| - 1]) + [CommitEntry(cs[|cs| - 1], FilesFor(tables, cs[|cs| - 1].hash))]
  }

  lemma {:induction false} EntriesOfAt(tables: seq<TableChange>, cs: seq<CommitInfo>)
    ensures |EntriesOf(tables, cs)| == |cs|
    ensures forall i :: 0 <= i < |cs| ==> EntriesOf(tables, cs)[i] == CommitEntry(cs[i], FilesFor(tables, cs[i].hash))
  {
    if |cs| > 0 {
      var front := cs[..|cs| - 1];
      EntriesOfAt(tables, front);
      forall i | 0 <= i < |cs|
        ensures EntriesOf(tables, cs)[i] == CommitEntry(cs[i], FilesFor(tables, cs[i].hash))
      {
        if i < |cs| - 1 {
          assert cs[i] == front[i];
        }
      }
    }
  }

  /** The `commits` list: each distinct commit in time order with the files of the tables listing it. */
  method CommitEntries(tables: seq<TableChange>) returns (entries: seq<CommitEntry>)
    ensures |entries| == |SortedCommits(tables)|
    ensures forall i :: 0 <= i < |entries| ==>
      entries[i] == CommitEntry(SortedCommits(tables)[i], FilesFor(tables, SortedCommits(tables)[i].hash))
  {
    var index := CommitToTables(tables);
    var sorted := CommitOrder(tables);
    entries := ListEntries(index, tables, sorted);
    EntriesOfAt(tables, sorted);
  }

  /** The loop over the sorted commits. */
  method ListEntries(index: seq<Dicts.Group<string, TableChange>>, tables: seq<TableChange>, sorted: seq<CommitInfo>)
    returns (entries: seq<CommitEntry>)
    requires Dicts.Tracks(index, Index(tables))
    ensures entries == EntriesOf(tables, sorted)
  {
    entries := [];
    for i := 0 to |sorted|
      invariant entries == EntriesOf(tables, sorted[..i])
    {
      assert sorted[..i + 1][..i] == sorted[..i];
      var files := ChangedFiles(index, tables, sorted[i].hash);
      entries := entries + [CommitEntry(sorted[i], files)];
    }
    assert sorted[..|sorted|] == sorted;
  }

  method GenerateJson(tables: seq<TableChange>, g: Groups) returns (r: JsonReport)
    ensures r.totalCommits == |Seen(tables)| && r.totalTables == |tables| && r.tables == tables
    ensures |r.changesByType| == |Sections(g)|
    ensures forall i :: 0 <= i < |r.changesByType| ==> r.changesByType[i] == (Sections(g)[i], Group(g, Sections(g)[i]))
    ensures |r.commits| == |SortedCommits(tables)|
    ensures forall i :: 0 <= i < |r.commits| ==>
      r.commits[i] == CommitEntry(SortedCommits(tables)[i], FilesFor(tables, SortedCommits(tables)[i].hash))
  {
    var total := CommitCount(tables);
    var byType := ChangesByType(g);
    var entries := CommitEntries(tables);
    r := JsonReport(total, |tables|, byType, tables, entries);
  }

  /**
   * A commit's `changed_files` names exactly the files of the tables that
   * list its hash, once per such commit entry.
   */
  lemma FilesForMeaning(tables: seq<TableChange>, h: string, p: string)
    ensures p in FilesFor(tables, h) <==> exists t :: t in tables && h in Hashes(t.commits) && t.filePath == p
  {
    var ts := TablesOf(tables, h);
    MapSeqAt(ts, PathOf);
    if p in FilesFor(tables, h) {
      var i :| 0 <= i < |ts| && FilesFor(tables, h)[i] == p;
      TablesOfMeaning(tables, h, ts[i]);
    }
    if exists t :: t in tables && h in Hashes(t.commits) && t.filePath == p {
      var t :| t in tables && h in Hashes(t.commits) && t.filePath == p;
      TablesOfMeaning(tables, h, t);
      var i :| 0 <= i < |ts| && ts[i] == t;
      assert FilesFor(tables, h)[i] == p;
    }
  }
}

=== FILE: conversion.dfy ===
/**
 * Payment conversion analysis: the price tiers are sorted by price and cut
 * into intervals (at payer-decay cliffs, else by a log-equal split); each
 * interval's share of the payers is compared with every comparison event,
 * and the severity follows from share shifts and accelerated decay.
 */
module Conversion {
  import opened Wrappers
  import opened Numeric
  import opened Sorting
  import opened BaseAnalyzer

  datatype PriceTier = PriceTier(price: real, payers: real, purchases: real)

  datatype Comparison = Comparison(event: Option<string>, tiers: seq<PriceTier>)

  datatype ConversionInput = ConversionInput(current: seq<PriceTier>, comparisons: seq<Comparison>, single: Option<Comparison>)

  /** An interval of prices; `rank` picks the label 低额, 中低额, 中额, 中高额, 高额 or 超高额. */
  datatype Interval = Interval(rank: nat, low: real, high: real)

  /** A comparison event's figures over one interval. */
  datatype CompStat = CompStat(event: string, payers: real, share: real, shift: real, total: real)

  datatype IntervalStat = IntervalStat(
    interval: Interval, payers: real, purchases: real, revenue: real,
    revenueShare: real, payerShare: real, comps: seq<CompStat>)

  datatype ConversionNote =
    | SegmentLine(count: nat)
    | IntervalLine(interval: nat)
    | DecayHeader
    | DecayLine(from: nat, to: nat)
    | ShiftLine(interval: nat, shift: real)
    | ConcentrationTip
    | DepthTip
    | DecayTip

  datatype ConversionMetrics = ConversionMetrics(
    intervals: seq<Interval>, stats: seq<IntervalStat>, totalRevenue: real, worsened: nat)

  const ModuleName := "付费转化分析"
  const ShortConclusion := "价位数据不足，无法分析"
  const StableConclusion := "付费转化比例分布稳定，各价位段结构合理"
  const ShiftConclusion := "付费转化结构有偏移，部分价位段占比变化需关注"
  const DecayConclusion := "付费转化衰减加速，多价位段结构性恶化"

  function Price(t: PriceTier): real { t.price }

  function ByPrice(tiers: seq<PriceTier>): (r: seq<PriceTier>)
    ensures |r| == |tiers| && multiset(r) == multiset(tiers)
    ensures forall i, j :: 0 <= i < j < |r| ==> r[i].price <= r[j].price
  {
    AscPreorder(Price);
    SortSorted(tiers, Asc(Price));
    var r := Sort(tiers, Asc(Price));
    assert forall i, j :: 0 <= i < j < |r| ==> Asc(Price)(r[i], r[j]);
    assert forall i, j :: 0 <= i < j < |r| ==> Price(r[i]) <= Price(r[j]);
    r
  }

  // ---- Segmentation ----

  /** Relative fall in payers from tier i-1 to tier i; 0 after a tier without payers. */
  function Decay(t: seq<PriceTier>, i: nat): real
    requires 0 < i < |t|
  {
    if t[i - 1].payers > 0.0 then (t[i - 1].payers - t[i].payers) / t[i - 1].payers else 0.0
  }

  /** A new interval starts at tier j when more than 40% of the payers fall away. */
  predicate Cut(t: seq<PriceTier>, j: nat)
  {
    0 < j < |t| && Decay(t, j) > 0.4
  }

  /** Interval starts, with the end of the list appended. */
  function Breakpoints(t: seq<PriceTier>): (bp: seq<nat>)
    requires |t| > 0
    ensures ValidBreaks(bp, |t|)
    ensures forall j :: 0 < j < |t| ==> (j in bp <==> Cut(t, j))
  {
    var cuts := IndicesWhere(|t|, (j: nat) => Cut(t, j));
    IndicesWhereSpec(|t|, (j: nat) => Cut(t, j));
    [0] + cuts + [|t|]
  }

  function LabelRank(k: nat): (r: nat)
    ensures r <= 5
  {
    if k < 5 then k else 5
  }

  /** Strictly increasing positions from 0 to n. */
  predicate ValidBreaks(bp: seq<nat>, n: nat)
  {
    |bp| >= 2 && bp[0] == 0 && bp[|bp| - 1] == n
    && (forall k :: 0 <= k < |bp| - 1 ==> bp[k] < bp[k + 1])
    && (forall k :: 0 <= k < |bp| ==> bp[k] <= n)
  }

  /** The k-th run: tiers bp[k] .. bp[k+1]-1. */
  function Run(t: seq<PriceTier>, bp: seq<nat>, k: nat): Interval
    requires ValidBreaks(bp, |t|) && k < |bp| - 1
  {
    assert bp[k] < bp[k + 1] <= |t|;
    Interval(LabelRank(k), t[bp[k]].price, t[bp[k + 1] - 1].price)
  }

  function CliffIntervals(t: seq<PriceTier>, bp: seq<nat>): (r: seq<Interval>)
    requires ValidBreaks(bp, |t|)
    ensures |r| == |bp| - 1
    ensures forall k :: 0 <= k < |r| ==> r[k] == Run(t, bp, k)
  {
    seq(|bp| - 1, k requires 0 <= k < |bp| - 1 => Run(t, bp, k))
  }

  lemma {:induction false} Ascending(bp: seq<nat>, a: nat, b: nat)
    requires a <= b < |bp|
    requires forall k :: 0 <= k < |bp| - 1 ==> bp[k] < bp[k + 1]
    ensures bp[a] <= bp[b] && (a < b ==> bp[a] < bp[b])
  {
    if a < b {
      Ascending(bp, a, b - 1);
    }
  }

  /** The group count of the log-equal fallback. */
  function FallbackGroups(n: nat): (g: nat)
    ensures n <= 3 ==> g == 3
    ensures n > 3 ==> 3 <= g <= 5 && (g == n / 2 || (g == 3 && n / 2 < 3) || (g == 5 && n / 2 > 5))
  {
    if n <= 3 then 3 else Min(5, Max(3, n / 2))
  }

  function Min(a: nat, b: nat): nat { if a <= b then a else b }
  function Max(a: nat, b: nat): nat { if a >= b then a else b }

  /** The cliff split is used when the list has more than 3 tiers and it
      gives 2 to 6 groups; otherwise the log-equal split with
      FallbackGroups(n) groups. The log-equal split itself is the function
      `logEqual` of the group count. */
  function Segments(t: seq<PriceTier>, logEqual: nat -> seq<Interval>): (r: seq<Interval>)
    requires |t| > 0
  {
    if |t| <= 3 then logEqual(FallbackGroups(|t|))
    else
      var bp := Breakpoints(t);
      if |bp| - 1 < 2 || |bp| - 1 > 6 then logEqual(FallbackGroups(|t|))
      else CliffIntervals(t, bp)
  }

  /** Cliff intervals are contiguous runs of the price-sorted tiers that cover
      every tier exactly once, each with low <= high. */
  lemma CliffRuns(t: seq<PriceTier>, j: nat)
    requires |t| > 0 && j < |t|
    ensures var bp := Breakpoints(t);
      exists k :: 0 <= k < |bp| - 1 && bp[k] <= j < bp[k + 1]
  {
    var bp := Breakpoints(t);
    var k := 0;
    while bp[k + 1] <= j
      invariant 0 <= k < |bp| - 1 && bp[k] <= j
      decreases |bp| - k
    {
      k := k + 1;
    }
  }

  lemma CliffRunsUnique(t: seq<PriceTier>, j: nat, k: nat, l: nat)
    requires |t| > 0
    requires var bp := Breakpoints(t);
      k < |bp| - 1 && l < |bp| - 1 && bp[k] <= j < bp[k + 1] && bp[l] <= j < bp[l + 1]
    ensures k == l
  {
    var bp := Breakpoints(t);
    if k < l {
      Ascending(bp, k + 1, l);
    } else if l < k {
      Ascending(bp, l + 1, k);
    }
  }

  lemma CliffLowHigh(t: seq<PriceTier>, bp: seq<nat>, k: nat)
    requires ValidBreaks(bp, |t|) && k < |bp| - 1
    requires forall i, j :: 0 <= i < j < |t| ==> t[i].price <= t[j].price
    ensures Run(t, bp, k).low <= Run(t, bp, k).high
  {
    var a := bp[k];
    var b := bp[k + 1] - 1;
    if a < b {
      assert t[a].price <= t[b].price;
    }
  }

  /** The payer decay between neighbouring tiers, as a list. */
  method DecayList(t: seq<PriceTier>) returns (decays: seq<real>)
    requires |t| > 0
    ensures |decays| == |t| - 1 && forall k :: 0 <= k < |t| - 1 ==> decays[k] == Decay(t, k + 1)
  {
    decays := [];
    var i := 1;
    while i < |t|
      invariant 1 <= i <= |t|
      invariant |decays| == i - 1 && forall k :: 0 <= k < i - 1 ==> decays[k] == Decay(t, k + 1)
    {
      var d := if t[i - 1].payers > 0.0 then (t[i - 1].payers - t[i].payers) / t[i - 1].payers else 0.0;
      decays := decays + [d];
      i := i + 1;
    }
  }

  /** The breakpoints: 0, each position after a cliff, and the length. */
  method BreakpointList(t: seq<PriceTier>, decays: seq<real>) returns (bp: seq<nat>)
    requires |t| > 0
    requires |decays| == |t| - 1 && forall k :: 0 <= k < |t| - 1 ==> decays[k] == Decay(t, k + 1)
    ensures bp == Breakpoints(t)
  {
    bp := [0];
    var k := 0;
    while k < |decays|
      invariant 0 <= k <= |decays|
      invariant bp == [0] + IndicesWhere(k + 1, (j: nat) => Cut(t, j))
    {
      if decays[k] > 0.4 {
        bp := bp + [k + 1];
      }
      k := k + 1;
    }
    bp := bp + [|t|];
  }

  /** The segmentation as `_auto_segment` performs it: the decay list, then the
      breakpoints, then one interval per run. */
  method AutoSegment(t: seq<PriceTier>, logEqual: nat -> seq<Interval>) returns (intervals: seq<Interval>)
    requires |t| > 0
    ensures intervals == Segments(t, logEqual)
  {
    if |t| <= 3 {
      return logEqual(FallbackGroups(|t|));
    }
    var decays := DecayList(t);
    var bp := BreakpointList(t, decays);
    if |bp| - 1 < 2 || |bp| - 1 > 6 {
      return logEqual(FallbackGroups(|t|));
    }
    intervals := RunList(t, bp);
  }

  /** One interval per run, in order. */
  method RunList(t: seq<PriceTier>, bp: seq<nat>) returns (intervals: seq<Interval>)
    requires ValidBreaks(bp, |t|)
    ensures intervals == CliffIntervals(t, bp)
  {
    intervals := [];
    var g := 0;
    while g < |bp| - 1
      invariant 0 <= g <= |bp| - 1
      invariant |intervals| == g && forall k :: 0 <= k < g ==> intervals[k] == Run(t, bp, k)
    {
      intervals := intervals + [Interval(LabelRank(g), t[bp[g]].price, t[bp[g + 1] - 1].price)];
      g := g + 1;
    }
  }

  // ---- Interval statistics ----

  function PayersIn(t: seq<PriceTier>, low: real, high: real): real
  {
    if |t| == 0 then 0.0
    else PayersIn(t[..|t| - 1], low, high) + (if low <= t[|t| - 1].price <= high then t[|t| - 1].payers else 0.0)
  }

  function PurchasesIn(t: seq<PriceTier>, low: real, high: real): real
  {
    if |t| == 0 then 0.0
    else PurchasesIn(t[..|t| - 1], low, high) + (if low <= t[|t| - 1].price <= high then t[|t| - 1].purchases else 0.0)
  }

  function RevenueIn(t: seq<PriceTier>, low: real, high: real): real
  {
    if |t| == 0 then 0.0
    else
      var last := t[|t| - 1];
      RevenueIn(t[..|t| - 1], low, high) + (if low <= last.price <= high then last.price * last.purchases else 0.0)
  }

  function TotalPayers(t: seq<PriceTier>): real
  {
    if |t| == 0 then 0.0 else TotalPayers(t[..|t| - 1]) + t[|t| - 1].payers
  }

  function TotalRevenue(t: seq<PriceTier>): real
  {
    if |t| == 0 then 0.0 else TotalRevenue(t[..|t| - 1]) + t[|t| - 1].price * t[|t| - 1].purchases
  }

  /** An interval spanning every price holds all the payers. */
  lemma {:induction false} PayersInAll(t: seq<PriceTier>, low: real, high: real)
    requires forall i :: 0 <= i < |t| ==> low <= t[i].price <= high
    ensures PayersIn(t, low, high) == TotalPayers(t)
  {
    if |t| > 0 {
      PayersInAll(t[..|t| - 1], low, high);
    }
  }

  /** Part over total as a percentage rounded to k places; 0 without a positive total. */
  function Percent(part: real, total: real, k: nat): (r: real)
    ensures total > 0.0 ==> r == Round(part / total * 100.0, k)
    ensures total <= 0.0 ==> r == 0.0
  {
    if total > 0.0 then Round(part / total * 100.0, k) else 0.0
  }

  /** A part of a positive total is between 0 and 100 percent, all of it exactly 100 and none of it 0. */
  lemma PercentRange(part: real, total: real, k: nat)
    requires 0.0 <= part <= total && total > 0.0
    ensures 0.0 <= Percent(part, total, k) <= 100.0
    ensures part == total ==> Percent(part, total, k) == 100.0
    ensures part == 0.0 ==> Percent(part, total, k) == 0.0
  {
    var q := part / total * 100.0;
    assert 0.0 <= part / total <= 1.0 by {
      DivMonotone(part, total, total);
      DivMonotone(0.0, part, total);
    }
    RoundSign(q, k);
    RoundMonotone(q, 100.0, k);
    RoundWhole(100, k);
    RoundZero(k);
    if part == total {
      assert part / total == 1.0;
      assert q == 100.0;
    }
  }

  function CompStatOf(c: Comparison, iv: Interval, payerShare: real): (r: CompStat)
    ensures r.payers == PayersIn(c.tiers, iv.low, iv.high) && r.total == TotalPayers(c.tiers)
    ensures r.share == Percent(r.payers, r.total, 2)
    ensures Abs(r.shift - (payerShare - r.share)) <= 0.005
  {
    var payers := PayersIn(c.tiers, iv.low, iv.high);
    var total := TotalPayers(c.tiers);
    var share := Percent(payers, total, 2);
    assert Pow10(2) == 100;
    CompStat(c.event.GetOr("对标"), payers, share, Round(payerShare - share, 2), total)
  }

  /** The current event's figures over one interval. */
  function StatOf(t: seq<PriceTier>, comps: seq<Comparison>, iv: Interval): (s: IntervalStat)
    ensures s.interval == iv && s.payers == PayersIn(t, iv.low, iv.high)
    ensures s.payerShare == Percent(s.payers, TotalPayers(t), 2)
    ensures s.revenueShare == Percent(s.revenue, TotalRevenue(t), 1)
    ensures |s.comps| == |comps| && forall j :: 0 <= j < |comps| ==> s.comps[j] == CompStatOf(comps[j], iv, s.payerShare)
  {
    var payers := PayersIn(t, iv.low, iv.high);
    var revenue := RevenueIn(t, iv.low, iv.high);
    var payerShare := Percent(payers, TotalPayers(t), 2);
    IntervalStat(iv, payers, PurchasesIn(t, iv.low, iv.high), revenue, Percent(revenue, TotalRevenue(t), 1), payerShare,
                 seq(|comps|, j requires 0 <= j < |comps| => CompStatOf(comps[j], iv, payerShare)))
  }

  /** The shift against the primary comparison, 0 when there is none. */
  function Shift(s: IntervalStat): real
  {
    if |s.comps| > 0 then s.comps[0].shift else 0.0
  }

  function PrimaryPayers(s: IntervalStat): real
  {
    if |s.comps| > 0 then s.comps[0].payers else 0.0
  }

  /** The statistics loop: one record per interval, each with one entry per
      comparison in order. */
  method BuildStats(t: seq<PriceTier>, comps: seq<Comparison>, intervals: seq<Interval>) returns (stats: seq<IntervalStat>)
    ensures |stats| == |intervals| && forall k :: 0 <= k < |intervals| ==> stats[k] == StatOf(t, comps, intervals[k])
  {
    stats := [];
    var k := 0;
    while k < |intervals|
      invariant 0 <= k <= |intervals|
      invariant |stats| == k && forall j :: 0 <= j < k ==> stats[j] == StatOf(t, comps, intervals[j])
    {
      var iv := intervals[k];
      var payers := PayersIn(t, iv.low, iv.high);
      var revenue := RevenueIn(t, iv.low, iv.high);
      var payerShare := Percent(payers, TotalPayers(t), 2);
      var compData := [];
      var c := 0;
      while c < |comps|
        invariant 0 <= c <= |comps|
        invariant |compData| == c && forall j :: 0 <= j < c ==> compData[j] == CompStatOf(comps[j], iv, payerShare)
      {
        compData := compData + [CompStatOf(comps[c], iv, payerShare)];
        c := c + 1;
      }
      var stat := IntervalStat(iv, payers, PurchasesIn(t, iv.low, iv.high), revenue,
                               Percent(revenue, TotalRevenue(t), 1), payerShare, compData);
      assert stat == StatOf(t, comps, iv);
      stats := stats + [stat];
      k := k + 1;
    }
  }

  // ---- Severity ----

  /** Transition i-1 -> i keeps fewer than 80% of the comparison's ratio. */
  predicate Worsened(stats: seq<IntervalStat>, i: nat)
  {
    0 < i < |stats| && stats[i - 1].payers > 0.0 && PrimaryPayers(stats[i - 1]) > 0.0
    && stats[i].payers / stats[i - 1].payers < PrimaryPayers(stats[i]) / PrimaryPayers(stats[i - 1]) * 0.8
  }

  function WorsenedAt(stats: seq<IntervalStat>): nat -> bool
  {
    (i: nat) => Worsened(stats, i)
  }

  method CountWorsened(stats: seq<IntervalStat>) returns (count: nat)
    ensures count == CountWhere(|stats|, WorsenedAt(stats))
  {
    count := 0;
    var i := 1;
    if |stats| == 0 {
      return;
    }
    while i < |stats|
      invariant 1 <= i <= |stats|
      invariant count == CountWhere(i, WorsenedAt(stats))
    {
      if Worsened(stats, i) {
        count := count + 1;
      }
      i := i + 1;
    }
  }

  /** The decay alarm as written: at least (n-1)//2 worsened transitions. */
  predicate DecayAlarmAsWritten(n: nat, worsened: nat)
  {
    worsened >= (n - 1) / 2
  }

  /** With two intervals the threshold is 0, so the alarm fires even when no
      transition worsened. */
  lemma TwoIntervalsAlwaysAlarm()
    ensures DecayAlarmAsWritten(2, 0)
  {
  }

  /** The decay alarm as intended: several worsened transitions, and at least one. */
  predicate DecayAlarm(n: nat, worsened: nat)
  {
    worsened >= 1 && worsened >= (n - 1) / 2
  }

  /** The corrected alarm fires only on an actual worsened transition, and
      agrees with the written one from three intervals up. */
  lemma DecayAlarmMeaning(n: nat, worsened: nat)
    ensures DecayAlarm(n, worsened) ==> worsened > 0
    ensures n >= 3 ==> (DecayAlarm(n, worsened) <==> DecayAlarmAsWritten(n, worsened))
  {
  }

  predicate HighDrop(stats: seq<IntervalStat>, firstHigh: real)
  {
    exists k :: 0 <= k < |stats| && Shift(stats[k]) < -3.0 && stats[k].interval.low > firstHigh
  }

  predicate LowGain(stats: seq<IntervalStat>, firstHigh: real)
  {
    exists k :: 0 <= k < |stats| && Shift(stats[k]) > 3.0 && stats[k].interval.low <= firstHigh
  }

  function ConclusionOf(s: Severity): string
  {
    if s == Normal then StableConclusion else if s == Watch then ShiftConclusion else DecayConclusion
  }

  /** The conclusion names the severity: distinct severities give distinct texts. */
  lemma ConclusionOneToOne(a: Severity, b: Severity)
    requires a in {Normal, Watch, Abnormal} && b in {Normal, Watch, Abnormal}
    ensures ConclusionOf(a) == ConclusionOf(b) <==> a == b
  {
    assert StableConclusion[4] != ShiftConclusion[4];
    assert StableConclusion[4] != DecayConclusion[4];
    assert ShiftConclusion[4] != DecayConclusion[4];
  }

  /** The comparison list: `comparisons`, or the single `comparison` when
      the list is empty and it has price tiers. */
  function ComparisonList(input: ConversionInput): seq<Comparison>
  {
    if |input.comparisons| > 0 then input.comparisons
    else if input.single.Some? && |input.single.value.tiers| > 0 then [input.single.value]
    else []
  }

  /** The comparisons with price tiers, each sorted by price. */
  function SortedComparisons(comps: seq<Comparison>): (r: seq<Comparison>)
    ensures |r| <= |comps|
    ensures forall k :: 0 <= k < |r| ==> |r[k].tiers| > 0
  {
    if |comps| == 0 then []
    else
      var c := comps[0];
      (if |c.tiers| > 0 then [Comparison(c.event, ByPrice(c.tiers))] else []) + SortedComparisons(comps[1..])
  }

  function ShiftLines(stats: seq<IntervalStat>): seq<ConversionNote>
  {
    if |stats| == 0 then []
    else
      var n := |stats| - 1;
      ShiftLines(stats[..n]) + (if Abs(Shift(stats[n])) > 5.0 then [ShiftLine(n, Shift(stats[n]))] else [])
  }

  /** One per-interval line for each of n intervals, in interval order. */
  function IntervalLines(n: nat): (r: seq<ConversionNote>)
    ensures |r| == n && forall k :: 0 <= k < n ==> r[k] == IntervalLine(k)
  {
    seq(n, k requires 0 <= k => IntervalLine(k))
  }

  function DecayLines(n: nat): seq<ConversionNote>
  {
    if n < 2 then [] else [DecayHeader] + seq(n - 1, i requires 0 <= i => DecayLine(i, i + 1))
  }

  /** The suggestions: a concentration or a depth tip when the first interval
      drops, then a decay tip when the decay alarm rings. */
  function Suggestions(stats: seq<IntervalStat>, firstHigh: real, decay: bool): (r: seq<ConversionNote>)
    ensures DecayTip in r <==> decay
    ensures decay ==> r[|r| - 1] == DecayTip
    ensures (ConcentrationTip in r || DepthTip in r) <==> HighDrop(stats, firstHigh)
    ensures ConcentrationTip in r ==> LowGain(stats, firstHigh)
    ensures |r| <= 2
  {
    (if HighDrop(stats, firstHigh)
     then [if LowGain(stats, firstHigh) then ConcentrationTip else DepthTip] else [])
    + (if decay then [DecayTip] else [])
  }

  /** The detail lines: the segment count, one line per interval, the decay
      comparisons and the notable share shifts. */
  function Details(intervals: seq<Interval>, stats: seq<IntervalStat>): (r: seq<ConversionNote>)
    ensures |r| >= 1 + |stats| && r[0] == SegmentLine(|intervals|)
    ensures forall k :: 0 <= k < |stats| ==> r[1 + k] == IntervalLine(k)
  {
    [SegmentLine(|intervals|)] + IntervalLines(|stats|) + DecayLines(|stats|) + ShiftLines(stats)
  }

  method Analyze(input: ConversionInput, logEqual: nat -> seq<Interval>)
    returns (res: AnalysisResult<ConversionNote, Option<ConversionMetrics>>)
    requires forall g :: g >= 3 ==> |logEqual(g)| == g
    ensures res.moduleName == ModuleName
    ensures |input.current| < 3 <==> res.metrics.None?
    ensures res.metrics.None? ==> res.severity == Watch && res.conclusion == ShortConclusion
    ensures res.metrics.None? ==> res.details == [] && res.suggestions == []
    ensures res.metrics.Some? ==>
      var m := res.metrics.value;
      var sorted := ByPrice(input.current);
      var comps := SortedComparisons(ComparisonList(input));
      && |sorted| > 0
      && m.intervals == Segments(sorted, logEqual)
      && |m.intervals| > 0
      && |m.stats| == |m.intervals|
      && (forall k :: 0 <= k < |m.stats| ==> m.stats[k] == StatOf(sorted, comps, m.intervals[k]))
      && m.worsened == CountWhere(|m.stats|, WorsenedAt(m.stats))
      && (res.severity == Abnormal <==> |m.stats| >= 2 && |comps| > 0 && DecayAlarm(|m.stats|, m.worsened))
      && (res.severity == Watch <==> !(res.severity == Abnormal) && HighDrop(m.stats, m.intervals[0].high))
      && (res.severity == Normal || res.severity == Watch || res.severity == Abnormal)
      && res.conclusion == ConclusionOf(res.severity)
      && m.totalRevenue == TotalRevenue(sorted)
      && res.details == Details(m.intervals, m.stats)
      && res.suggestions == Suggestions(m.stats, m.intervals[0].high, res.severity == Abnormal)
  {
    if |input.current| < 3 {
      res := AnalysisResult(ModuleName, ShortConclusion, Watch, [], [], None);
      return;
    }
    var sorted := ByPrice(input.current);
    var comps := SortedComparisons(ComparisonList(input));
    var intervals := AutoSegment(sorted, logEqual);
    var stats := BuildStats(sorted, comps, intervals);
    var details := Details(intervals, stats);
    var firstHigh := intervals[0].high;
    var worsened := CountWorsened(stats);
    var drop := HighDrop(stats, firstHigh);
    var decay := |stats| >= 2 && |comps| > 0 && DecayAlarm(|stats|, worsened);
    var suggestions := Suggestions(stats, firstHigh, decay);
    var severity := if decay then Abnormal else if drop then Watch else Normal;
    res := AnalysisResult(ModuleName, ConclusionOf(severity), severity, details, suggestions,
                          Some(ConversionMetrics(intervals, stats, TotalRevenue(sorted), worsened)));
  }
}

=== FILE: data_validator.dfy ===
/**
 * The input validator of the seven-dimension review: every required data
 * block is present, each block has enough rows, and the fields the
 * analyzers read are present and in range. `behavior_data` is optional: a
 * missing block is filled in with an empty metric list.
 */
module DataValidator {
  import opened Wrappers
  import opened Json

  /** What a finding is about. */
  datatype Kind =
    | MissingBlock
    | MissingField(field: string)
    | TooFew(list: string, need: nat, found: Option<nat>)
    | EmptyList(list: string)
    | Invalid(field: string)
    | FunnelRise(users: real, previous: real)
    | NegativeRevenue
    | PayRateOutOfRange
    | EmptyTierData
    | TierFieldMissing(tier: string, field: string)
    | MissingCurrent
    | BlockFilled
    | BehaviorSkipped

  /** An error or warning of `block`; `index` is the 1-based row, 0 for the block itself. */
  datatype Issue = Issue(block: string, index: nat, kind: Kind)

  /** `{"valid": …, "errors": …, "warnings": …}`; `errors` only when invalid. */
  datatype Validation = Validation(valid: bool, errors: Option<seq<Issue>>, warnings: seq<Issue>)

  const RequiredBlocks: seq<string> := ["meta", "reach_conversion", "payment_overview", "r_tier_payment",
                                        "payment_conversion", "core_reward", "gift_packages"]
  const Behavior := "behavior_data"

  /** `len(v) if isinstance(v, list) else 0`. */
  function ListLen(v: Value): nat
  {
    if v.Arr? then |v.items| else 0
  }

  function ItemsOf(v: Value): (r: seq<Value>)
    ensures |r| == ListLen(v)
  {
    if v.Arr? then v.items else []
  }

  /** A number (a bool counts) that is at least 0. */
  predicate NonNegative(v: Value)
  {
    IsNumber(v) && NumOf(v) >= 0.0
  }

  // ---- Per-row checks ----

  /** The issues of every row in order, row i contributing f(i, items[i]). */
  function Each(items: seq<Value>, f: (nat, Value) -> seq<Issue>): seq<Issue>
  {
    if |items| == 0 then []
    else Each(items[..|items| - 1], f) + f(|items| - 1, items[|items| - 1])
  }

  /** When every issue of row j carries index j+1, an issue with index
      i+1 is reported exactly when row i reports it. */
  lemma {:induction false} EachExact(items: seq<Value>, f: (nat, Value) -> seq<Issue>, i: nat, x: Issue)
    requires forall j, y :: 0 <= j < |items| && y in f(j, items[j]) ==> y.index == j + 1
    requires i < |items| && x.index == i + 1
    ensures x in Each(items, f) <==> x in f(i, items[i])
  {
    var n := |items| - 1;
    var init := items[..n];
    assert forall j :: 0 <= j < n ==> init[j] == items[j];
    if i < n {
      EachExact(init, f, i, x);
    } else if n > 0 {
      EachNoIndex(init, f, x);
    }
  }

  /** Rows below |items| never report an index beyond |items|. */
  lemma {:induction false} EachNoIndex(items: seq<Value>, f: (nat, Value) -> seq<Issue>, x: Issue)
    requires forall j, y :: 0 <= j < |items| && y in f(j, items[j]) ==> y.index == j + 1
    requires x.index > |items|
    ensures x !in Each(items, f)
  {
    if |items| > 0 {
      var n := |items| - 1;
      var init := items[..n];
      assert forall j :: 0 <= j < n ==> init[j] == items[j];
      EachNoIndex(init, f, x);
    }
  }

  /** The row loop shared by the block validators: appends each row's issues. */
  method AppendEach(items: seq<Value>, f: (nat, Value) -> seq<Issue>, errors: seq<Issue>) returns (out: seq<Issue>)
    ensures out == errors + Each(items, f)
  {
    out := errors;
    var i := 0;
    while i < |items|
      invariant 0 <= i <= |items|
      invariant out == errors + Each(items[..i], f)
    {
      assert items[..i + 1][..i] == items[..i];
      out := out + f(i, items[i]);
      i := i + 1;
    }
    assert items[..i] == items;
  }

  /** One issue per listed field whose value is None or missing. */
  function MissingFields(block: string, index: nat, item: Value, fields: seq<string>): (r: seq<Issue>)
    ensures forall y :: y in r ==> y.index == index && y.block == block
    ensures forall y :: y in r ==> y.kind.MissingField? && y.kind.field in fields && Get(item, y.kind.field) == Null
    ensures forall f :: f in fields ==> (Issue(block, index, MissingField(f)) in r <==> Get(item, f) == Null)
  {
    if |fields| == 0 then []
    else
      (if Get(item, fields[0]) == Null then [Issue(block, index, MissingField(fields[0]))] else [])
      + MissingFields(block, index, item, fields[1..])
  }

  /** One issue per listed field that is not a number at least 0. */
  function InvalidFields(block: string, index: nat, item: Value, fields: seq<string>): (r: seq<Issue>)
    ensures forall y :: y in r ==> y.index == index && y.block == block
    ensures forall y :: y in r ==> y.kind.Invalid? && y.kind.field in fields && !NonNegative(Get(item, y.kind.field))
    ensures forall f :: f in fields ==> (Issue(block, index, Invalid(f)) in r <==> !NonNegative(Get(item, f)))
  {
    if |fields| == 0 then []
    else
      (if !NonNegative(Get(item, fields[0])) then [Issue(block, index, Invalid(fields[0]))] else [])
      + InvalidFields(block, index, item, fields[1..])
  }

  // ---- meta ----

  /** meta needs a non-empty event name and change description. */
  function MetaIssues(meta: Value): seq<Issue>
  {
    (if !Truthy(Get(meta, "event_name")) then [Issue("meta", 0, MissingField("event_name"))] else [])
    + (if !Truthy(Get(meta, "change_description")) then [Issue("meta", 0, MissingField("change_description"))] else [])
  }

  // ---- reach_conversion ----

  const Reach := "reach_conversion"

  function StageIssues(i: nat, stage: Value): (r: seq<Issue>)
    ensures forall y :: y in r ==> y.index == i + 1 && y.block == Reach
  {
    (if !Truthy(Get(stage, "stage")) then [Issue(Reach, i + 1, MissingField("stage"))] else [])
    + (if !NonNegative(Get(stage, "users")) then [Issue(Reach, i + 1, Invalid("users"))] else [])
  }

  /** `stage.get("users", 0)`. */
  function UsersOf(stage: Value): Value
  {
    if Has(stage, "users") then Get(stage, "users") else Num(0.0)
  }

  /** Step i of the funnel has more users than step i-1. */
  predicate Rise(stages: seq<Value>, i: nat)
    requires 1 <= i < |stages|
  {
    var u := UsersOf(stages[i]);
    var p := UsersOf(stages[i - 1]);
    IsNumber(u) && IsNumber(p) && NumOf(u) > NumOf(p)
  }

  function RiseIssue(stages: seq<Value>, i: nat): Issue
    requires 1 <= i < |stages| && Rise(stages, i)
  {
    Issue(Reach, i + 1, FunnelRise(NumOf(UsersOf(stages[i])), NumOf(UsersOf(stages[i - 1]))))
  }

  /** One error (not a warning) per rising step among the first n stages. */
  function RiseIssues(stages: seq<Value>, n: nat): seq<Issue>
    requires n <= |stages|
  {
    if n <= 1 then []
    else RiseIssues(stages, n - 1) + (if Rise(stages, n - 1) then [RiseIssue(stages, n - 1)] else [])
  }

  /** Every rising step is reported, and only those. */
  lemma {:induction false} RiseReported(stages: seq<Value>, n: nat, i: nat)
    requires n <= |stages| && 1 <= i < n
    ensures Rise(stages, i) <==> exists y :: y in RiseIssues(stages, n) && y.index == i + 1
    ensures Rise(stages, i) ==> RiseIssue(stages, i) in RiseIssues(stages, n)
  {
    if i < n - 1 {
      RiseReported(stages, n - 1, i);
    } else {
      RiseBound(stages, n - 1);
      if y :| y in RiseIssues(stages, n) && y.index == i + 1 {
        assert y !in RiseIssues(stages, n - 1);
      }
    }
  }

  lemma {:induction false} RiseBound(stages: seq<Value>, n: nat)
    requires n <= |stages|
    ensures forall y :: y in RiseIssues(stages, n) ==> y.index <= n && y.block == Reach
  {
    if n > 1 {
      RiseBound(stages, n - 1);
    }
  }

  /** Fewer than 3 stages is one error and nothing else is checked. */
  function ReachIssues(rc: Value): seq<Issue>
  {
    var stages := Get(rc, "stages");
    if ListLen(stages) < 3 then [Issue(Reach, 0, TooFew("stages", 3, Some(ListLen(stages))))]
    else Each(stages.items, StageIssues) + RiseIssues(stages.items, |stages.items|)
  }

  method ValidateReach(rc: Value, errors: seq<Issue>) returns (out: seq<Issue>)
    ensures out == errors + ReachIssues(rc)
  {
    var stages := Get(rc, "stages");
    if ListLen(stages) < 3 {
      return errors + [Issue(Reach, 0, TooFew("stages", 3, Some(ListLen(stages))))];
    }
    var s := stages.items;
    var rows := AppendEach(s, StageIssues, []);
    assert rows == Each(s, StageIssues);
    var rises := RisePass(s);
    assert ReachIssues(rc) == rows + rises;
    out := errors + (rows + rises);
  }

  /** The funnel loop: one error per stage with more users than the stage before. */
  method RisePass(s: seq<Value>) returns (rises: seq<Issue>)
    ensures rises == RiseIssues(s, |s|)
  {
    rises := [];
    if |s| == 0 {
      return;
    }
    var i := 1;
    while i < |s|
      invariant 1 <= i <= |s|
      invariant rises == RiseIssues(s, i)
    {
      if Rise(s, i) {
        var u := UsersOf(s[i]);
        var p := UsersOf(s[i - 1]);
        rises := rises + [Issue(Reach, i + 1, FunnelRise(NumOf(u), NumOf(p)))];
      }
      i := i + 1;
    }
  }

  // ---- behavior_data ----

  function MetricIssues(i: nat, m: Value): (r: seq<Issue>)
    ensures forall y :: y in r ==> y.index == i + 1 && y.block == Behavior
  {
    (if !Truthy(Get(m, "metric_name")) then [Issue(Behavior, i + 1, MissingField("metric_name"))] else [])
    + (if Get(m, "current_value") == Null then [Issue(Behavior, i + 1, MissingField("current_value"))] else [])
    + (if !Truthy(Get(m, "unit")) then [Issue(Behavior, i + 1, MissingField("unit"))] else [])
  }

  function BehaviorIssues(bd: Value): seq<Issue>
  {
    var metrics := Get(bd, "metrics");
    if ListLen(metrics) < 1 then [Issue(Behavior, 0, TooFew("metrics", 1, None))]
    else
      Each(metrics.items, MetricIssues)
  }

  /** An issue with index 0 is never a row's issue. */
  lemma {:induction false} EachNoBlockIssue(items: seq<Value>, f: (nat, Value) -> seq<Issue>, x: Issue)
    requires forall j, y :: 0 <= j < |items| && y in f(j, items[j]) ==> y.index == j + 1
    requires x.index == 0
    ensures Each(items, f) != [x]
  {
    if |items| > 0 {
      var n := |items| - 1;
      var init := items[..n];
      assert forall j :: 0 <= j < n ==> init[j] == items[j];
      EachNoBlockIssue(init, f, x);
      if Each(items, f) == [x] {
        assert x in Each(items, f);
        if x !in f(n, items[n]) {
          EachMember(init, f, x);
        }
      }
    }
  }

  /** Every issue of the rows comes from some row. */
  lemma {:induction false} EachMember(items: seq<Value>, f: (nat, Value) -> seq<Issue>, x: Issue)
    requires forall j, y :: 0 <= j < |items| && y in f(j, items[j]) ==> y.index == j + 1
    requires x in Each(items, f)
    ensures 1 <= x.index <= |items|
  {
    var n := |items| - 1;
    var init := items[..n];
    assert forall j :: 0 <= j < n ==> init[j] == items[j];
    if x !in f(n, items[n]) {
      EachMember(init, f, x);
    }
  }

  method ValidateBehavior(bd: Value, errors: seq<Issue>) returns (out: seq<Issue>)
    ensures out == errors + BehaviorIssues(bd)
  {
    var metrics := Get(bd, "metrics");
    if ListLen(metrics) < 1 {
      return errors + [Issue(Behavior, 0, TooFew("metrics", 1, None))];
    }
    out := AppendEach(metrics.items, MetricIssues, errors);
  }

  // ---- payment_overview ----

  const Overview := "payment_overview"
  const OverviewFields: seq<string> := ["event", "revenue", "pay_rate", "arpu", "arppu"]

  predicate NegativeRevenueAt(item: Value)
  {
    IsNumber(Get(item, "revenue")) && NumOf(Get(item, "revenue")) < 0.0
  }

  predicate PayRateOutside(item: Value)
  {
    IsNumber(Get(item, "pay_rate")) && (NumOf(Get(item, "pay_rate")) < 0.0 || NumOf(Get(item, "pay_rate")) > 100.0)
  }

  function OverviewRowIssues(i: nat, item: Value): (r: seq<Issue>)
    ensures forall y :: y in r ==> y.index == i + 1 && y.block == Overview
    ensures Issue(Overview, i + 1, NegativeRevenue) in r <==> NegativeRevenueAt(item)
    ensures Issue(Overview, i + 1, PayRateOutOfRange) in r <==> PayRateOutside(item)
  {
    MissingFields(Overview, i + 1, item, OverviewFields)
    + (if NegativeRevenueAt(item) then [Issue(Overview, i + 1, NegativeRevenue)] else [])
    + (if PayRateOutside(item) then [Issue(Overview, i + 1, PayRateOutOfRange)] else [])
  }

  function OverviewIssues(po: Value): seq<Issue>
  {
    var ts := Get(po, "time_series");
    if ListLen(ts) < 6 then [Issue(Overview, 0, TooFew("time_series", 6, Some(ListLen(ts))))]
    else Each(ts.items, OverviewRowIssues)
  }

  /** With 6 or more rows, row i is reported for a negative revenue or a
      pay rate outside [0, 100] exactly when it has one. */
  lemma OverviewValueChecks(po: Value, i: nat)
    requires ListLen(Get(po, "time_series")) >= 6 && i < ListLen(Get(po, "time_series"))
    ensures var row := Get(po, "time_series").items[i];
      (Issue(Overview, i + 1, NegativeRevenue) in OverviewIssues(po) <==> NegativeRevenueAt(row))
      && (Issue(Overview, i + 1, PayRateOutOfRange) in OverviewIssues(po) <==> PayRateOutside(row))
  {
    var ts := Get(po, "time_series").items;
    EachExact(ts, OverviewRowIssues, i, Issue(Overview, i + 1, NegativeRevenue));
    EachExact(ts, OverviewRowIssues, i, Issue(Overview, i + 1, PayRateOutOfRange));
  }

  method ValidateOverview(po: Value, errors: seq<Issue>) returns (out: seq<Issue>)
    ensures out == errors + OverviewIssues(po)
  {
    var ts := Get(po, "time_series");
    if ListLen(ts) < 6 {
      return errors + [Issue(Overview, 0, TooFew("time_series", 6, Some(ListLen(ts))))];
    }
    out := AppendEach(ts.items, OverviewRowIssues, errors);
  }

  // ---- r_tier_payment ----

  const Tiers := "r_tier_payment"
  const TierFields: seq<string> := ["revenue", "pay_rate", "arpu", "arppu"]

  function TierFieldIssues(index: nat, tier: string, data: Value, fields: seq<string>): (r: seq<Issue>)
    ensures forall y :: y in r ==> y.index == index && y.block == Tiers
  {
    if |fields| == 0 then []
    else
      (if Get(data, fields[0]) == Null then [Issue(Tiers, index, TierFieldMissing(tier, fields[0]))] else [])
      + TierFieldIssues(index, tier, data, fields[1..])
  }

  /** The tiers of one row in dict order, each checked for the four fields. */
  function TierDataIssues(index: nat, data: seq<(string, Value)>): (r: seq<Issue>)
    ensures forall y :: y in r ==> y.index == index && y.block == Tiers
  {
    if |data| == 0 then []
    else TierDataIssues(index, data[..|data| - 1])
         + TierFieldIssues(index, data[|data| - 1].0, data[|data| - 1].1, TierFields)
  }

  function TierRowIssues(i: nat, item: Value): (r: seq<Issue>)
    ensures forall y :: y in r ==> y.index == i + 1 && y.block == Tiers
  {
    var data := Get(item, "data");
    (if !Truthy(Get(item, "event")) then [Issue(Tiers, i + 1, MissingField("event"))] else [])
    + (if !data.Obj? || |data.fields| == 0 then [Issue(Tiers, i + 1, EmptyTierData)]
       else TierDataIssues(i + 1, data.fields))
  }

  /** An empty tier list is an error, and so are fewer than 6 rows, which
      stop the check there. */
  function TierIssues(rtp: Value): seq<Issue>
  {
    var head := if ListLen(Get(rtp, "tiers")) < 1 then [Issue(Tiers, 0, EmptyList("tiers"))] else [];
    var ts := Get(rtp, "time_series");
    if ListLen(ts) < 6 then head + [Issue(Tiers, 0, TooFew("time_series", 6, Some(ListLen(ts))))]
    else head + Each(ts.items, TierRowIssues)
  }

  method ValidateTiers(rtp: Value, errors: seq<Issue>) returns (out: seq<Issue>)
    ensures out == errors + TierIssues(rtp)
  {
    var head: seq<Issue> := [];
    if ListLen(Get(rtp, "tiers")) < 1 {
      head := [Issue(Tiers, 0, EmptyList("tiers"))];
    }
    var ts := Get(rtp, "time_series");
    var rest: seq<Issue>;
    if ListLen(ts) < 6 {
      rest := [Issue(Tiers, 0, TooFew("time_series", 6, Some(ListLen(ts))))];
    } else {
      rest := AppendEach(ts.items, TierRowIssues, []);
      assert rest == Each(ts.items, TierRowIssues);
    }
    assert TierIssues(rtp) == head + rest;
    out := errors + (head + rest);
  }

  // ---- payment_conversion ----

  const Conversion := "payment_conversion"
  const PriceTierFields: seq<string> := ["price", "purchases", "payers"]

  function PriceTierIssues(i: nat, pt: Value): (r: seq<Issue>)
    ensures forall y :: y in r ==> y.index == i + 1 && y.block == Conversion
    ensures forall f :: f in PriceTierFields ==> (Issue(Conversion, i + 1, Invalid(f)) in r <==> !NonNegative(Get(pt, f)))
  {
    InvalidFields(Conversion, i + 1, pt, PriceTierFields)
  }

  function ConversionIssues(pc: Value): seq<Issue>
  {
    var current := Get(pc, "current");
    if !Truthy(current) then [Issue(Conversion, 0, MissingCurrent)]
    else
      var tiers := Get(current, "price_tiers");
      if ListLen(tiers) < 3 then [Issue(Conversion, 0, TooFew("price_tiers", 3, Some(ListLen(tiers))))]
      else Each(tiers.items, PriceTierIssues)
  }

  /** With at least 3 price tiers, tier i's price, purchases or payers is
      reported exactly when it is not a number at least 0. */
  lemma PriceTierChecks(pc: Value, i: nat, f: string)
    requires Truthy(Get(pc, "current"))
    requires ListLen(Get(Get(pc, "current"), "price_tiers")) >= 3
    requires i < ListLen(Get(Get(pc, "current"), "price_tiers")) && f in PriceTierFields
    ensures Issue(Conversion, i + 1, Invalid(f)) in ConversionIssues(pc)
            <==> !NonNegative(Get(Get(Get(pc, "current"), "price_tiers").items[i], f))
  {
    EachExact(Get(Get(pc, "current"), "price_tiers").items, PriceTierIssues, i, Issue(Conversion, i + 1, Invalid(f)));
  }

  method ValidateConversion(pc: Value, errors: seq<Issue>) returns (out: seq<Issue>)
    ensures out == errors + ConversionIssues(pc)
  {
    var current := Get(pc, "current");
    if !Truthy(current) {
      return errors + [Issue(Conversion, 0, MissingCurrent)];
    }
    var tiers := Get(current, "price_tiers");
    if ListLen(tiers) < 3 {
      return errors + [Issue(Conversion, 0, TooFew("price_tiers", 3, Some(ListLen(tiers))))];
    }
    out := AppendEach(tiers.items, PriceTierIssues, errors);
  }

  // ---- core_reward ----

  const Reward := "core_reward"

  function RewardRowIssues(i: nat, item: Value): (r: seq<Issue>)
    ensures forall y :: y in r ==> y.index == i + 1 && y.block == Reward
  {
    (if !Truthy(Get(item, "reward_name")) then [Issue(Reward, i + 1, MissingField("reward_name"))] else [])
    + (if Get(item, "expected_value") == Null then [Issue(Reward, i + 1, MissingField("expected_value"))] else [])
    + (if Get(item, "actual_value") == Null then [Issue(Reward, i + 1, MissingField("actual_value"))] else [])
    + (if !Truthy(Get(item, "unit")) then [Issue(Reward, i + 1, MissingField("unit"))] else [])
  }

  function RewardIssues(cr: Value): seq<Issue>
  {
    var items := Get(cr, "items");
    if ListLen(items) < 1 then [Issue(Reward, 0, TooFew("items", 1, None))]
    else Each(items.items, RewardRowIssues)
  }

  method ValidateReward(cr: Value, errors: seq<Issue>) returns (out: seq<Issue>)
    ensures out == errors + RewardIssues(cr)
  {
    var items := Get(cr, "items");
    if ListLen(items) < 1 {
      return errors + [Issue(Reward, 0, TooFew("items", 1, None))];
    }
    out := AppendEach(items.items, RewardRowIssues, errors);
  }

  // ---- gift_packages ----

  const Packages := "gift_packages"
  const PackageFields: seq<string> := ["price", "revenue", "payers"]

  function PackageRowIssues(i: nat, pkg: Value): (r: seq<Issue>)
    ensures forall y :: y in r ==> y.index == i + 1 && y.block == Packages
    ensures forall f :: f in PackageFields ==> (Issue(Packages, i + 1, Invalid(f)) in r <==> !NonNegative(Get(pkg, f)))
  {
    (if !Truthy(Get(pkg, "package_name")) then [Issue(Packages, i + 1, MissingField("package_name"))] else [])
    + InvalidFields(Packages, i + 1, pkg, PackageFields)
  }

  function PackageIssues(gp: Value): seq<Issue>
  {
    var packages := Get(gp, "packages");
    if ListLen(packages) < 1 then [Issue(Packages, 0, TooFew("packages", 1, None))]
    else Each(packages.items, PackageRowIssues)
  }

  /** Package i's price, revenue or payers is reported exactly when it is
      not a number at least 0. */
  lemma PackageChecks(gp: Value, i: nat, f: string)
    requires i < ListLen(Get(gp, "packages")) && f in PackageFields
    ensures Issue(Packages, i + 1, Invalid(f)) in PackageIssues(gp)
            <==> !NonNegative(Get(Get(gp, "packages").items[i], f))
  {
    EachExact(Get(gp, "packages").items, PackageRowIssues, i, Issue(Packages, i + 1, Invalid(f)));
  }

  method ValidatePackages(gp: Value, errors: seq<Issue>) returns (out: seq<Issue>)
    ensures out == errors + PackageIssues(gp)
  {
    var packages := Get(gp, "packages");
    if ListLen(packages) < 1 {
      return errors + [Issue(Packages, 0, TooFew("packages", 1, None))];
    }
    out := AppendEach(packages.items, PackageRowIssues, errors);
  }

  // ---- validate_input ----

  /** The required blocks absent from data, in the fixed order. */
  function MissingBlocks(data: Value, n: nat): seq<Issue>
    requires n <= |RequiredBlocks|
  {
    if n == 0 then []
    else
      MissingBlocks(data, n - 1)
      + (if !Has(data, RequiredBlocks[n - 1]) then [Issue(RequiredBlocks[n - 1], 0, MissingBlock)] else [])
  }

  /** One missing-block error per absent required block among the first n, and nothing else. */
  lemma {:induction false} MissingBlocksSpec(data: Value, n: nat)
    requires n <= |RequiredBlocks|
    ensures forall y :: y in MissingBlocks(data, n) ==>
      y.kind == MissingBlock && y.block in RequiredBlocks[..n] && !Has(data, y.block)
    ensures forall k :: 0 <= k < n && !Has(data, RequiredBlocks[k]) ==> Issue(RequiredBlocks[k], 0, MissingBlock) in MissingBlocks(data, n)
  {
    if n > 0 {
      MissingBlocksSpec(data, n - 1);
      assert RequiredBlocks[..n] == RequiredBlocks[..n - 1] + [RequiredBlocks[n - 1]];
    }
  }

  /** The input after the optional block has been filled in. */
  function Filled(data: Value): (r: Value)
    requires data.Obj?
    ensures r.Obj? && Has(r, Behavior)
    ensures forall key :: key != Behavior ==> Get(r, key) == Get(data, key) && Has(r, key) == Has(data, key)
    ensures Has(data, Behavior) ==> r == data
  {
    if Has(data, Behavior) then data
    else
      var r := Put(data, Behavior, Obj([("metrics", Arr([]))]));
      forall key | key != Behavior
        ensures Get(r, key) == Get(data, key) && Has(r, key) == Has(data, key)
      {
        PutOther(data, Behavior, Obj([("metrics", Arr([]))]), key);
      }
      r
  }

  /** The behaviour block is checked only when it has metrics. */
  predicate BehaviorPresent(data: Value)
  {
    ListLen(Get(Get(data, Behavior), "metrics")) >= 1
  }

  /** The errors of the per-block checks, in the order they run. */
  function FrontErrors(data: Value): seq<Issue>
  {
    MetaIssues(Get(data, "meta"))
    + ReachIssues(Get(data, Reach))
    + (if BehaviorPresent(data) then BehaviorIssues(Get(data, Behavior)) else [])
  }

  function BlockErrors(data: Value): seq<Issue>
  {
    FrontErrors(data)
    + OverviewIssues(Get(data, Overview))
    + TierIssues(Get(data, Tiers))
    + ConversionIssues(Get(data, Conversion))
    + RewardIssues(Get(data, Reward))
    + PackageIssues(Get(data, Packages))
  }

  /** All errors: the missing blocks alone if any is missing, else the block checks. */
  function AllErrors(data: Value): seq<Issue>
    requires data.Obj?
  {
    var missing := MissingBlocks(data, |RequiredBlocks|);
    if missing != [] then missing else BlockErrors(Filled(data))
  }

  function AllWarnings(data: Value): seq<Issue>
    requires data.Obj?
  {
    (if Has(data, Behavior) then [] else [Issue(Behavior, 0, BlockFilled)])
    + (if MissingBlocks(data, |RequiredBlocks|) == [] && !BehaviorPresent(Filled(data))
       then [Issue(Behavior, 0, BehaviorSkipped)] else [])
  }

  /** The per-block checks, once every required block is present. */
  method CheckBlocks(data: Value) returns (errors: seq<Issue>, warnings: seq<Issue>)
    ensures errors == BlockErrors(data)
    ensures warnings == if BehaviorPresent(data) then [] else [Issue(Behavior, 0, BehaviorSkipped)]
  {
    errors, warnings := CheckFront(data);
    errors := ValidateOverview(Get(data, Overview), errors);
    errors := ValidateTiers(Get(data, Tiers), errors);
    errors := ValidateConversion(Get(data, Conversion), errors);
    errors := ValidateReward(Get(data, Reward), errors);
    errors := ValidatePackages(Get(data, Packages), errors);
  }

  /** meta, the funnel and the optional behaviour block. */
  method CheckFront(data: Value) returns (errors: seq<Issue>, warnings: seq<Issue>)
    ensures errors == FrontErrors(data)
    ensures warnings == if BehaviorPresent(data) then [] else [Issue(Behavior, 0, BehaviorSkipped)]
  {
    errors := MetaIssues(Get(data, "meta"));
    errors := ValidateReach(Get(data, Reach), errors);
    var bd := Get(data, Behavior);
    warnings := [];
    if ListLen(Get(bd, "metrics")) < 1 {
      warnings := warnings + [Issue(Behavior, 0, BehaviorSkipped)];
    } else {
      errors := ValidateBehavior(bd, errors);
    }
  }

  /** The loop over the required blocks. */
  method CheckPresence(data: Value) returns (errors: seq<Issue>)
    ensures errors == MissingBlocks(data, |RequiredBlocks|)
  {
    errors := [];
    var k := 0;
    while k < |RequiredBlocks|
      invariant 0 <= k <= |RequiredBlocks|
      invariant errors == MissingBlocks(data, k)
    {
      if !Has(data, RequiredBlocks[k]) {
        errors := errors + [Issue(RequiredBlocks[k], 0, MissingBlock)];
      }
      k := k + 1;
    }
  }

  /** Validates `data`, filling in a missing behaviour block in place. */
  method ValidateInput(data: Value) returns (res: Validation, updated: Value)
    requires data.Obj?
    ensures updated == Filled(data)
    ensures res.warnings == AllWarnings(data)
    ensures res.valid <==> AllErrors(data) == []
    ensures res.valid ==> res.errors == None
    ensures !res.valid ==> res.errors == Some(AllErrors(data))
  {
    var errors := CheckPresence(data);
    var warnings: seq<Issue> := [];
    updated := data;
    if !Has(data, Behavior) {
      updated := Put(data, Behavior, Obj([("metrics", Arr([]))]));
      warnings := warnings + [Issue(Behavior, 0, BlockFilled)];
    }
    assert updated == Filled(data);
    assert warnings == if Has(data, Behavior) then [] else [Issue(Behavior, 0, BlockFilled)];
    if errors != [] {
      assert AllWarnings(data) == warnings + [];
      return Validation(false, Some(errors), warnings), updated;
    }
    var more;
    errors, more := CheckBlocks(updated);
    warnings := warnings + more;
    assert AllWarnings(data) == warnings;
    if errors != [] {
      return Validation(false, Some(errors), warnings), updated;
    }
    return Validation(true, None, warnings), updated;
  }

  // ---- Properties ----

  /** meta is reported for a missing or empty event name and change
      description, and for nothing else. */
  lemma MetaRequired(meta: Value)
    ensures Issue("meta", 0, MissingField("event_name")) in MetaIssues(meta) <==> !Truthy(Get(meta, "event_name"))
    ensures Issue("meta", 0, MissingField("change_description")) in MetaIssues(meta)
            <==> !Truthy(Get(meta, "change_description"))
    ensures |MetaIssues(meta)| <= 2
  {
  }

  /** A list below its minimum length is one error, and its rows are not
      checked; r_tier_payment also reports an empty tier list first. */
  lemma ShortListsStop(rc: Value, po: Value, rtp: Value, pc: Value, cr: Value, gp: Value)
    ensures ListLen(Get(rc, "stages")) < 3 ==>
      ReachIssues(rc) == [Issue(Reach, 0, TooFew("stages", 3, Some(ListLen(Get(rc, "stages")))))]
    ensures ListLen(Get(po, "time_series")) < 6 ==>
      OverviewIssues(po) == [Issue(Overview, 0, TooFew("time_series", 6, Some(ListLen(Get(po, "time_series")))))]
    ensures ListLen(Get(rtp, "tiers")) < 1 ==> Issue(Tiers, 0, EmptyList("tiers")) in TierIssues(rtp)
    ensures ListLen(Get(rtp, "time_series")) < 6 ==>
      TierIssues(rtp) == (if ListLen(Get(rtp, "tiers")) < 1 then [Issue(Tiers, 0, EmptyList("tiers"))] else [])
                         + [Issue(Tiers, 0, TooFew("time_series", 6, Some(ListLen(Get(rtp, "time_series")))))]
    ensures !Truthy(Get(pc, "current")) ==> ConversionIssues(pc) == [Issue(Conversion, 0, MissingCurrent)]
    ensures Truthy(Get(pc, "current")) && ListLen(Get(Get(pc, "current"), "price_tiers")) < 3 ==>
      ConversionIssues(pc) == [Issue(Conversion, 0, TooFew("price_tiers", 3, Some(ListLen(Get(Get(pc, "current"), "price_tiers")))))]
    ensures ListLen(Get(cr, "items")) < 1 ==> RewardIssues(cr) == [Issue(Reward, 0, TooFew("items", 1, None))]
    ensures ListLen(Get(gp, "packages")) < 1 ==> PackageIssues(gp) == [Issue(Packages, 0, TooFew("packages", 1, None))]
  {
  }

  /** The behaviour check reports its single too-few error exactly when
      there are no metrics: row errors never look like it. */
  lemma BehaviorShort(bd: Value)
    ensures ListLen(Get(bd, "metrics")) < 1 <==> BehaviorIssues(bd) == [Issue(Behavior, 0, TooFew("metrics", 1, None))]
  {
    var metrics := Get(bd, "metrics");
    if ListLen(metrics) >= 1 {
      EachNoBlockIssue(metrics.items, MetricIssues, Issue(Behavior, 0, TooFew("metrics", 1, None)));
    }
  }

  /** A missing required block yields only missing-block errors, one per
      absent block. */
  lemma MissingBlocksOnly(data: Value, b: string)
    requires data.Obj? && b in RequiredBlocks && !Has(data, b)
    ensures Issue(b, 0, MissingBlock) in AllErrors(data)
    ensures forall y :: y in AllErrors(data) ==> y.kind == MissingBlock
  {
    var k :| 0 <= k < |RequiredBlocks| && RequiredBlocks[k] == b;
    MissingBlocksSpec(data, |RequiredBlocks|);
    assert Issue(b, 0, MissingBlock) in MissingBlocks(data, |RequiredBlocks|);
  }

  /** With every required block present, a missing behaviour block alone
      never makes the input invalid: its errors never mention it. */
  lemma BehaviorOptional(data: Value)
    requires data.Obj? && !Has(data, Behavior)
    ensures forall y :: y in AllErrors(data) ==> y.block != Behavior
    ensures Issue(Behavior, 0, BlockFilled) in AllWarnings(data)
  {
    var missing := MissingBlocks(data, |RequiredBlocks|);
    BehaviorNotRequired();
    MissingBlocksSpec(data, |RequiredBlocks|);
    if missing != [] {
      assert RequiredBlocks[..|RequiredBlocks|] == RequiredBlocks;
    } else {
      var f := Filled(data);
      assert Get(f, Behavior) == Obj([("metrics", Arr([]))]);
      assert !BehaviorPresent(f);
      BlockErrorsBlocks(f);
    }
  }

  /** The behaviour block is not one of the required blocks. */
  lemma BehaviorNotRequired()
    ensures Behavior !in RequiredBlocks
  {
    forall i | 0 <= i < |RequiredBlocks| ensures RequiredBlocks[i] != Behavior {
      assert Behavior[0] == 'b';
      assert RequiredBlocks[i][0] != 'b';
    }
  }

  /** Every block-check error names the block it comes from. */
  lemma BlockErrorsBlocks(data: Value)
    requires !BehaviorPresent(data)
    ensures forall y :: y in BlockErrors(data) ==> y.block in RequiredBlocks
  {
    ReachBlock(Get(data, Reach));
    OverviewBlock(Get(data, Overview));
    TierBlock(Get(data, Tiers));
    ConversionBlock(Get(data, Conversion));
    RewardBlock(Get(data, Reward));
    PackageBlock(Get(data, Packages));
  }

  lemma ReachBlock(rc: Value)
    ensures forall y :: y in ReachIssues(rc) ==> y.block == Reach
  {
    var stages := Get(rc, "stages");
    if ListLen(stages) >= 3 {
      EachBlockAll(stages.items, StageIssues, Reach);
      RiseBound(stages.items, |stages.items|);
    }
  }

  lemma OverviewBlock(po: Value)
    ensures forall y :: y in OverviewIssues(po) ==> y.block == Overview
  {
    var ts := Get(po, "time_series");
    if ListLen(ts) >= 6 {
      EachBlockAll(ts.items, OverviewRowIssues, Overview);
    }
  }

  lemma TierBlock(rtp: Value)
    ensures forall y :: y in TierIssues(rtp) ==> y.block == Tiers
  {
    var ts := Get(rtp, "time_series");
    if ListLen(ts) >= 6 {
      EachBlockAll(ts.items, TierRowIssues, Tiers);
    }
  }

  lemma ConversionBlock(pc: Value)
    ensures forall y :: y in ConversionIssues(pc) ==> y.block == Conversion
  {
    var current := Get(pc, "current");
    var pts := Get(current, "price_tiers");
    if Truthy(current) && ListLen(pts) >= 3 {
      EachBlockAll(pts.items, PriceTierIssues, Conversion);
    }
  }

  lemma RewardBlock(cr: Value)
    ensures forall y :: y in RewardIssues(cr) ==> y.block == Reward
  {
    var items := Get(cr, "items");
    if ListLen(items) >= 1 {
      EachBlockAll(items.items, RewardRowIssues, Reward);
    }
  }

  lemma PackageBlock(gp: Value)
    ensures forall y :: y in PackageIssues(gp) ==> y.block == Packages
  {
    var pkgs := Get(gp, "packages");
    if ListLen(pkgs) >= 1 {
      EachBlockAll(pkgs.items, PackageRowIssues, Packages);
    }
  }

  /** Rows that all report `block` give issues of `block` only. */
  lemma {:induction false} EachBlockAll(items: seq<Value>, f: (nat, Value) -> seq<Issue>, block: string)
    requires forall j, y :: 0 <= j < |items| && y in f(j, items[j]) ==> y.block == block
    ensures forall x :: x in Each(items, f) ==> x.block == block
  {
    if |items| > 0 {
      var n := |items| - 1;
      var init := items[..n];
      assert forall j :: 0 <= j < n ==> init[j] == items[j];
      EachBlockAll(init, f, block);
    }
  }
}

=== FILE: dicts.dfy ===
/**
 * A Python dict built from a list of records keyed by one of their fields
 * (`{key(r): r for r in rs}`), kept as the sequence of its values in
 * insertion order: a repeated key keeps the position of its first
 * occurrence and takes the value of its last.
 */
module Dicts {
  import opened Wrappers
  import Numeric

  /** Position of the entry with key k. */
  function Find<T, K(==)>(d: seq<T>, key: T -> K, k: K): (r: Option<nat>)
    ensures r.Some? ==> r.value < |d| && key(d[r.value]) == k
    ensures r.Some? ==> forall i :: 0 <= i < r.value ==> key(d[i]) != k
    ensures r.None? ==> forall i :: 0 <= i < |d| ==> key(d[i]) != k
  {
    if |d| == 0 then None
    else if key(d[0]) == k then Some(0)
    else
      var t := Find(d[1..], key, k);
      if t.Some? then Some(t.value + 1) else None
  }

  /** Every key occurs at most once. */
  predicate Distinct<T, K(==)>(d: seq<T>, key: T -> K)
  {
    forall i, j :: 0 <= i < j < |d| ==> key(d[i]) != key(d[j])
  }

  /** Replacing an entry by one with the same key moves no key. */
  lemma FindUpdate<T, K>(d: seq<T>, key: T -> K, i: nat, x: T, k: K)
    requires i < |d| && key(x) == key(d[i])
    ensures Find(d[i := x], key, k) == Find(d, key, k)
  {
    if key(d[0]) != k {
      if i > 0 {
        assert d[i := x][1..] == d[1..][i - 1 := x];
        FindUpdate(d[1..], key, i - 1, x, k);
      } else {
        assert d[i := x][1..] == d[1..];
      }
    }
  }

  /** The first position holding key k is the one Find returns. */
  lemma FindIs<T, K>(d: seq<T>, key: T -> K, k: K, j: nat)
    requires j < |d| && key(d[j]) == k && forall i :: 0 <= i < j ==> key(d[i]) != k
    ensures Find(d, key, k) == Some(j)
  {
    var r := Find(d, key, k);
    assert r.Some?;
    assert !(r.value < j) && !(j < r.value);
  }

  /** Adding an entry at the end finds it only for a key not already present. */
  lemma FindAppend<T, K>(d: seq<T>, key: T -> K, x: T, k: K)
    ensures Find(d + [x], key, k)
         == if Find(d, key, k).Some? then Find(d, key, k) else if key(x) == k then Some(|d|) else None
  {
    var e := d + [x];
    var b := Find(d, key, k);
    if b.Some? {
      assert forall i :: 0 <= i <= b.value ==> e[i] == d[i];
      FindIs(e, key, k, b.value);
    } else if key(x) == k {
      assert forall i :: 0 <= i < |d| ==> e[i] == d[i];
      FindIs(e, key, k, |d|);
    } else {
      assert forall i :: 0 <= i < |d| ==> e[i] == d[i];
      assert e[|d|] == x;
    }
  }

  /** `d[key(x)] = x`: an existing key keeps its position and takes x; a new key goes last. */
  function Put<T, K(==)>(d: seq<T>, key: T -> K, x: T): seq<T>
  {
    var k := Find(d, key, key(x));
    if k.Some? then d[k.value := x] else d + [x]
  }

  /** `{key(r): r for r in xs}` */
  function FromList<T, K(==)>(xs: seq<T>, key: T -> K): seq<T>
  {
    if |xs| == 0 then [] else Put(FromList(xs[..|xs| - 1], key), key, xs[|xs| - 1])
  }

  lemma PutSpec<T, K>(d: seq<T>, key: T -> K, x: T)
    requires Distinct(d, key)
    ensures Distinct(Put(d, key, x), key)
    ensures |Put(d, key, x)| >= |d|
    ensures forall i :: 0 <= i < |d| ==> key(Put(d, key, x)[i]) == key(d[i])
    ensures forall i :: 0 <= i < |d| && key(d[i]) != key(x) ==> Put(d, key, x)[i] == d[i]
    ensures forall i :: 0 <= i < |Put(d, key, x)| ==> Put(d, key, x)[i] == x || Put(d, key, x)[i] in d
    ensures x in Put(d, key, x)
    ensures (forall i :: 0 <= i < |d| ==> key(d[i]) != key(x)) ==> Put(d, key, x) == d + [x]
    ensures (exists i :: 0 <= i < |d| && key(d[i]) == key(x)) ==> |Put(d, key, x)| == |d|
  {
    var e := Put(d, key, x);
    var k := Find(d, key, key(x));
    var j := if k.Some? then k.value else |d|;
    assert e[j] == x;
  }

  /** Put leaves the entries of other keys where they are. */
  lemma PutKeeps<T, K>(d: seq<T>, key: T -> K, x: T, m: nat)
    requires m < |d| && key(d[m]) != key(x)
    ensures m < |Put(d, key, x)| && Put(d, key, x)[m] == d[m]
  {
  }

  /** Put stores x. */
  lemma PutHas<T, K>(d: seq<T>, key: T -> K, x: T)
    ensures x in Put(d, key, x)
  {
    var k := Find(d, key, key(x));
    var j := if k.Some? then k.value else |d|;
    assert Put(d, key, x)[j] == x;
  }

  /** No later record of xs has the key of xs[i]. */
  predicate LastOf<T, K(==)>(xs: seq<T>, key: T -> K, i: nat)
  {
    forall j :: i < j < |xs| ==> key(xs[j]) != key(xs[i])
  }

  lemma LastOfPrefix<T, K>(xs: seq<T>, key: T -> K, i: nat, n: nat)
    requires i < n <= |xs| && LastOf(xs, key, i)
    ensures LastOf(xs[..n], key, i)
  {
    forall j | i < j < n ensures key(xs[..n][j]) != key(xs[..n][i]) {
      assert key(xs[j]) != key(xs[i]);
    }
  }

  /** The step of FromListSpec: the facts for xs[..n] carry over to xs. */
  lemma FromListStep<T, K>(xs: seq<T>, key: T -> K)
    requires |xs| > 0
    requires var d := FromList(xs[..|xs| - 1], key);
      Distinct(d, key) && (forall e :: e in d ==> e in xs[..|xs| - 1])
    ensures forall e :: e in FromList(xs, key) ==> e in xs
  {
    var n := |xs| - 1;
    var d := FromList(xs[..n], key);
    PutSpec(d, key, xs[n]);
    var e := Put(d, key, xs[n]);
    forall z | z in e ensures z in xs {
      if z != xs[n] {
        var i :| 0 <= i < |e| && e[i] == z;
        assert z in d;
        assert z in xs[..n];
      }
    }
  }

  lemma FromListKeysStep<T, K>(xs: seq<T>, key: T -> K)
    requires |xs| > 0
    requires var d := FromList(xs[..|xs| - 1], key);
      Distinct(d, key) && (forall x :: x in xs[..|xs| - 1] ==> Find(d, key, key(x)).Some?)
    ensures forall x :: x in xs ==> Find(FromList(xs, key), key, key(x)).Some?
  {
    var n := |xs| - 1;
    var d := FromList(xs[..n], key);
    PutSpec(d, key, xs[n]);
    var e := Put(d, key, xs[n]);
    forall y | y in xs ensures Find(e, key, key(y)).Some? {
      if y in xs[..n] {
        var j := Find(d, key, key(y)).value;
        assert key(e[j]) == key(y);
      } else {
        assert y == xs[n];
        assert xs[n] in e;
      }
    }
  }

  lemma FromListLastStep<T, K>(xs: seq<T>, key: T -> K)
    requires |xs| > 0
    requires Distinct(FromList(xs[..|xs| - 1], key), key)
    requires forall i :: 0 <= i < |xs| - 1 && LastOf(xs[..|xs| - 1], key, i) ==> xs[i] in FromList(xs[..|xs| - 1], key)
    ensures forall i :: 0 <= i < |xs| && LastOf(xs, key, i) ==> xs[i] in FromList(xs, key)
  {
    var n := |xs| - 1;
    var d := FromList(xs[..n], key);
    var e := Put(d, key, xs[n]);
    PutHas(d, key, xs[n]);
    forall i | 0 <= i < |xs| && LastOf(xs, key, i) ensures xs[i] in e {
      if i < n {
        LastOfPrefix(xs, key, i, n);
        var m :| 0 <= m < |d| && d[m] == xs[i];
        assert key(xs[n]) != key(xs[i]);
        PutKeeps(d, key, xs[n], m);
        assert e[m] == xs[i];
      } else {
        assert i == n;
      }
    }
  }

  /**
   * The dict has one entry per key of the list, every entry is a record of
   * the list, and the record kept for a key is its last occurrence.
   */
  lemma {:induction false} FromListSpec<T, K>(xs: seq<T>, key: T -> K)
    ensures Distinct(FromList(xs, key), key)
    ensures forall e :: e in FromList(xs, key) ==> e in xs
    ensures forall x :: x in xs ==> Find(FromList(xs, key), key, key(x)).Some?
    ensures forall i :: 0 <= i < |xs| && LastOf(xs, key, i) ==> xs[i] in FromList(xs, key)
  {
    if |xs| > 0 {
      var n := |xs| - 1;
      FromListSpec(xs[..n], key);
      PutSpec(FromList(xs[..n], key), key, xs[n]);
      FromListStep(xs, key);
      FromListKeysStep(xs, key);
      FromListLastStep(xs, key);
    }
  }

  /** The entry the dict holds for a key of the list is that key's last record. */
  lemma LastWins<T, K>(xs: seq<T>, key: T -> K, i: nat)
    requires i < |xs| && LastOf(xs, key, i)
    ensures Find(FromList(xs, key), key, key(xs[i])).Some?
    ensures FromList(xs, key)[Find(FromList(xs, key), key, key(xs[i])).value] == xs[i]
  {
    FromListSpec(xs, key);
    var d := FromList(xs, key);
    var m :| 0 <= m < |d| && d[m] == xs[i];
    var k := Find(d, key, key(xs[i])).value;
    assert k == m;
  }

  // ---- dict of lists: d.setdefault(k, []) and d.setdefault(k, []).append(v) ----

  datatype Group<K, V> = Group(key: K, items: seq<V>)

  function GroupKey<K, V>(g: Group<K, V>): K
  {
    g.key
  }

  /** `d.setdefault(k, [])` */
  function Touch<K(==), V>(d: seq<Group<K, V>>, k: K): seq<Group<K, V>>
  {
    if Find(d, GroupKey, k).Some? then d else d + [Group(k, [])]
  }

  /** `d.setdefault(k, []).append(v)` */
  function Append<K(==), V>(d: seq<Group<K, V>>, k: K, v: V): seq<Group<K, V>>
  {
    match Find(d, GroupKey, k)
    case Some(j) => d[j := Group(k, d[j].items + [v])]
    case None => d + [Group(k, [v])]
  }

  /**
   * The dict of lists holds, for each key, the list f gives it: its keys are
   * distinct, each list is f of its key, and every key whose list f makes
   * non-empty is present.
   */
  ghost predicate Tracks<K(!new), V>(d: seq<Group<K, V>>, f: K -> seq<V>)
  {
    Distinct(d, GroupKey)
    && (forall i :: 0 <= i < |d| ==> d[i].items == f(d[i].key))
    && (forall k :: f(k) != [] ==> Find(d, GroupKey, k).Some?)
  }

  lemma TracksSame<K(!new), V>(d: seq<Group<K, V>>, f: K -> seq<V>, g: K -> seq<V>)
    requires Tracks(d, f)
    requires forall k :: g(k) == f(k)
    ensures Tracks(d, g)
  {
    assert forall k :: g(k) != [] ==> f(k) != [];
  }

  /** setdefault keeps the dict tracking f. */
  lemma TouchTracks<K(!new), V>(d: seq<Group<K, V>>, f: K -> seq<V>, k: K)
    requires Tracks(d, f)
    ensures Tracks(Touch(d, k), f)
  {
    if Find(d, GroupKey, k).None? {
      assert f(k) == [];
      var e := Touch(d, k);
      forall n | f(n) != [] ensures Find(e, GroupKey, n).Some? {
        var j := Find(d, GroupKey, n).value;
        assert GroupKey(e[j]) == n;
      }
    }
  }

  /** Appending v under k makes the dict track f with v added to k's list. */
  lemma AppendTracks<K(!new), V>(d: seq<Group<K, V>>, f: K -> seq<V>, g: K -> seq<V>, k: K, v: V)
    requires Tracks(d, f)
    requires forall n :: g(n) == if n == k then f(n) + [v] else f(n)
    ensures Tracks(Append(d, k, v), g)
  {
    var e := Append(d, k, v);
    var found := Find(d, GroupKey, k);
    var j := if found.Some? then found.value else |d|;
    assert |e| >= |d| && e[j] == Group(k, g(k));
    assert forall i :: 0 <= i < |d| && i != j ==> e[i] == d[i];
    assert forall i :: 0 <= i < |e| && i != j ==> GroupKey(e[i]) != k;
    forall n | g(n) != [] ensures Find(e, GroupKey, n).Some? {
      if n != k {
        var m := Find(d, GroupKey, n).value;
        assert GroupKey(e[m]) == n;
      }
    }
  }

  /** The list under a present key is f of it; a key whose list is non-empty is present. */
  lemma TracksFind<K(!new), V>(d: seq<Group<K, V>>, f: K -> seq<V>, k: K)
    requires Tracks(d, f)
    ensures Find(d, GroupKey, k).Some? ==> d[Find(d, GroupKey, k).value].items == f(k)
    ensures f(k) != [] ==> Find(d, GroupKey, k).Some?
  {
  }

  /** Appending never leaves a list empty. */
  lemma AppendNonEmpty<K, V>(d: seq<Group<K, V>>, k: K, v: V)
    requires forall i :: 0 <= i < |d| ==> |d[i].items| > 0
    ensures forall i :: 0 <= i < |Append(d, k, v)| ==> |Append(d, k, v)[i].items| > 0
  {
  }

  // ---- grouping the rows of a table: d.setdefault(k, []).append(v) for each selected row ----

  /** The values the selected rows give under key k, in row order. */
  function Collect<R, K(==), V>(rows: seq<R>, sel: R -> Option<(K, V)>, k: K): seq<V>
  {
    if |rows| == 0 then []
    else
      var e := sel(rows[|rows| - 1]);
      Collect(rows[..|rows| - 1], sel, k) + (if e.Some? && e.value.0 == k then [e.value.1] else [])
  }

  function Collected<R, K(==), V>(rows: seq<R>, sel: R -> Option<(K, V)>): K -> seq<V>
  {
    k => Collect(rows, sel, k)
  }

  lemma CollectNext<R, K, V>(rows: seq<R>, sel: R -> Option<(K, V)>, i: nat, k: K)
    requires i < |rows|
    ensures Collect(rows[..i + 1], sel, k) == Collect(rows[..i], sel, k)
      + (if sel(rows[i]).Some? && sel(rows[i]).value.0 == k then [sel(rows[i]).value.1] else [])
  {
    assert rows[..i + 1][..i] == rows[..i];
  }

  /** A row that selects nothing leaves the groups as they are. */
  lemma CollectSkip<R, K(!new), V>(d: seq<Group<K, V>>, rows: seq<R>, sel: R -> Option<(K, V)>, i: nat)
    requires i < |rows| && sel(rows[i]).None?
    requires Tracks(d, Collected(rows[..i], sel))
    ensures Tracks(d, Collected(rows[..i + 1], sel))
  {
    forall k ensures Collected(rows[..i + 1], sel)(k) == Collected(rows[..i], sel)(k) {
      CollectNext(rows, sel, i, k);
    }
    TracksSame(d, Collected(rows[..i], sel), Collected(rows[..i + 1], sel));
  }

  /** A selected row's value is appended under its key. */
  lemma CollectAppend<R, K(!new), V>(d: seq<Group<K, V>>, rows: seq<R>, sel: R -> Option<(K, V)>, i: nat)
    requires i < |rows| && sel(rows[i]).Some?
    requires Tracks(d, Collected(rows[..i], sel))
    ensures Tracks(Append(d, sel(rows[i]).value.0, sel(rows[i]).value.1), Collected(rows[..i + 1], sel))
  {
    var (key, v) := sel(rows[i]).value;
    var f, g := Collected(rows[..i], sel), Collected(rows[..i + 1], sel);
    forall k ensures g(k) == if k == key then f(k) + [v] else f(k) {
      CollectNext(rows, sel, i, k);
    }
    AppendTracks(d, f, g, key, v);
  }

  /** Every selected row's value is collected under its key. */
  lemma {:induction false} CollectHas<R, K, V>(rows: seq<R>, sel: R -> Option<(K, V)>, i: nat)
    requires i < |rows| && sel(rows[i]).Some?
    ensures sel(rows[i]).value.1 in Collect(rows, sel, sel(rows[i]).value.0)
  {
    if i < |rows| - 1 {
      assert rows[..|rows| - 1][i] == rows[i];
      CollectHas(rows[..|rows| - 1], sel, i);
    }
  }

  // ---- the order of the groups: a key is created when a row first selects it ----

  /** Row r selects key k. */
  predicate Selects<R, K(==), V>(sel: R -> Option<(K, V)>, r: R, k: K)
  {
    sel(r).Some? && sel(r).value.0 == k
  }

  /** The position of the first row that selects k; |rows| when none does. */
  function FirstSelecting<R, K(==), V>(rows: seq<R>, sel: R -> Option<(K, V)>, k: K): (r: nat)
    ensures r <= |rows|
    ensures r < |rows| ==> Selects(sel, rows[r], k)
    ensures forall i :: 0 <= i < r && i < |rows| ==> !Selects(sel, rows[i], k)
  {
    if |rows| == 0 then 0
    else if Selects(sel, rows[0], k) then 0
    else
      var t := FirstSelecting(rows[1..], sel, k);
      assert forall i :: 1 <= i < t + 1 && i < |rows| ==> rows[i] == rows[1..][i - 1];
      t + 1
  }

  /**
   * The groups come in the order in which the rows first select their keys
   * (`setdefault` creates a key on its first row and never moves it), and
   * no group is empty.
   */
  ghost predicate FirstSeenOrder<R, K, V>(d: seq<Group<K, V>>, rows: seq<R>, sel: R -> Option<(K, V)>)
  {
    (forall i :: 0 <= i < |d| ==> d[i].items != [])
    && (forall a, b :: 0 <= a < b < |d| ==> FirstSelecting(rows, sel, d[a].key) < FirstSelecting(rows, sel, d[b].key))
  }

  /** A key collects nothing exactly when no row selects it. */
  lemma {:induction false} CollectEmpty<R, K, V>(rows: seq<R>, sel: R -> Option<(K, V)>, k: K)
    ensures Collect(rows, sel, k) == [] <==> FirstSelecting(rows, sel, k) == |rows|
  {
    if |rows| > 0 {
      var n := |rows| - 1;
      CollectEmpty(rows[..n], sel, k);
      FirstSelectingNext(rows, sel, k, n);
      assert rows[..n + 1] == rows;
    }
  }

  /** One more row changes the first selecting position only for a key not seen before. */
  lemma FirstSelectingNext<R, K, V>(rows: seq<R>, sel: R -> Option<(K, V)>, k: K, i: nat)
    requires i < |rows|
    ensures FirstSelecting(rows[..i + 1], sel, k)
         == if FirstSelecting(rows[..i], sel, k) < i then FirstSelecting(rows[..i], sel, k)
            else if Selects(sel, rows[i], k) then i else i + 1
  {
    var p, q := rows[..i], rows[..i + 1];
    var a, b := FirstSelecting(p, sel, k), FirstSelecting(q, sel, k);
    assert forall j :: 0 <= j < i ==> q[j] == p[j];
    assert q[i] == rows[i];
    if a < i {
      assert !(b < a) && !(a < b);
    } else {
      assert !(b < i);
    }
  }

  /** A selected row's key keeps the position of its first row. */
  lemma OrderAppend<R, K(!new), V>(d: seq<Group<K, V>>, rows: seq<R>, sel: R -> Option<(K, V)>, i: nat)
    requires i < |rows| && sel(rows[i]).Some?
    requires Tracks(d, Collected(rows[..i], sel)) && FirstSeenOrder(d, rows[..i], sel)
    ensures FirstSeenOrder(Append(d, sel(rows[i]).value.0, sel(rows[i]).value.1), rows[..i + 1], sel)
  {
    var (key, v) := sel(rows[i]).value;
    var e := Append(d, key, v);
    KeysBeforeRow(d, rows, sel, i);
    match Find(d, GroupKey, key)
    case Some(j) =>
      assert e == d[j := Group(key, d[j].items + [v])];
    case None =>
      assert Collect(rows[..i], sel, key) == [];
      CollectEmpty(rows[..i], sel, key);
      FirstSelectingNext(rows, sel, key, i);
      assert e == d + [Group(key, [v])];
      assert FirstSelecting(rows[..i + 1], sel, e[|d|].key) == i;
  }

  /** The keys tracked before row i were all first selected before it, and row i moves none of them. */
  lemma KeysBeforeRow<R, K(!new), V>(d: seq<Group<K, V>>, rows: seq<R>, sel: R -> Option<(K, V)>, i: nat)
    requires i < |rows|
    requires Tracks(d, Collected(rows[..i], sel)) && FirstSeenOrder(d, rows[..i], sel)
    ensures FirstSeenOrder(d, rows[..i + 1], sel)
    ensures forall j :: 0 <= j < |d| ==> FirstSelecting(rows[..i + 1], sel, d[j].key) < i
  {
    forall j | 0 <= j < |d|
      ensures FirstSelecting(rows[..i + 1], sel, d[j].key) == FirstSelecting(rows[..i], sel, d[j].key) < i
    {
      CollectEmpty(rows[..i], sel, d[j].key);
      FirstSelectingNext(rows, sel, d[j].key, i);
    }
  }

  /** A row that selects nothing moves no key. */
  lemma OrderSkip<R, K(!new), V>(d: seq<Group<K, V>>, rows: seq<R>, sel: R -> Option<(K, V)>, i: nat)
    requires i < |rows| && sel(rows[i]).None?
    requires Tracks(d, Collected(rows[..i], sel)) && FirstSeenOrder(d, rows[..i], sel)
    ensures FirstSeenOrder(d, rows[..i + 1], sel)
  {
    forall j | 0 <= j < |d|
      ensures FirstSelecting(rows[..i + 1], sel, d[j].key) == FirstSelecting(rows[..i], sel, d[j].key)
    {
      CollectEmpty(rows[..i], sel, d[j].key);
      FirstSelectingNext(rows, sel, d[j].key, i);
    }
  }

  /**
   * The grouping is determined: two dicts of lists that both track the rows
   * and both keep first-seen order are the same list of groups.
   */
  lemma GroupsUnique<R, K(!new), V>(d: seq<Group<K, V>>, e: seq<Group<K, V>>, rows: seq<R>, sel: R -> Option<(K, V)>)
    requires Tracks(d, Collected(rows, sel)) && FirstSeenOrder(d, rows, sel)
    requires Tracks(e, Collected(rows, sel)) && FirstSeenOrder(e, rows, sel)
    ensures d == e
  {
    var a := Positions(d, rows, sel);
    var b := Positions(e, rows, sel);
    forall x ensures x in a <==> x in b {
      if x in a {
        SamePosition(d, e, rows, sel, x);
      }
      if x in b {
        SamePosition(e, d, rows, sel, x);
      }
    }
    Numeric.IncreasingUnique(a, b);
    forall j | 0 <= j < |d| ensures d[j] == e[j] {
      SameGroupAt(d, e, rows, sel, j);
    }
  }

  /** Groups at the same place whose keys are first selected by the same row are the same group. */
  lemma SameGroupAt<R, K(!new), V>(d: seq<Group<K, V>>, e: seq<Group<K, V>>, rows: seq<R>, sel: R -> Option<(K, V)>, j: nat)
    requires Tracks(d, Collected(rows, sel)) && FirstSeenOrder(d, rows, sel)
    requires Tracks(e, Collected(rows, sel))
    requires j < |d| && j < |e|
    requires FirstSelecting(rows, sel, d[j].key) == FirstSelecting(rows, sel, e[j].key)
    ensures d[j] == e[j]
  {
    CollectEmpty(rows, sel, d[j].key);
    assert d[j].items == Collect(rows, sel, d[j].key) != [];
    var x := FirstSelecting(rows, sel, d[j].key);
    assert Selects(sel, rows[x], d[j].key) && Selects(sel, rows[x], e[j].key);
    assert e[j].items == Collect(rows, sel, e[j].key);
  }

  /** The first selecting row of each group's key, in group order. */
  ghost function Positions<R, K, V>(d: seq<Group<K, V>>, rows: seq<R>, sel: R -> Option<(K, V)>): (p: seq<nat>)
    requires FirstSeenOrder(d, rows, sel)
    ensures |p| == |d| && Numeric.StrictlyIncreasing(p)
    ensures forall j :: 0 <= j < |d| ==> p[j] == FirstSelecting(rows, sel, d[j].key)
  {
    seq(|d|, j requires 0 <= j < |d| => FirstSelecting(rows, sel, d[j].key))
  }

  /** A first selecting position of a group of d is one of a group of e. */
  lemma SamePosition<R, K(!new), V>(d: seq<Group<K, V>>, e: seq<Group<K, V>>, rows: seq<R>, sel: R -> Option<(K, V)>, x: nat)
    requires Tracks(d, Collected(rows, sel)) && FirstSeenOrder(d, rows, sel)
    requires Tracks(e, Collected(rows, sel)) && FirstSeenOrder(e, rows, sel)
    requires x in Positions(d, rows, sel)
    ensures x in Positions(e, rows, sel)
  {
    var p := Positions(d, rows, sel);
    var j :| 0 <= j < |d| && p[j] == x;
    var k := d[j].key;
    assert Collected(rows, sel)(k) != [];
    var m := Find(e, GroupKey, k).value;
    assert e[m].key == k;
    assert Positions(e, rows, sel)[m] == x;
  }

  // ---- the order of the keys when they are registered one by one ----

  /** The position of the first occurrence of k in keys; |keys| when k does not occur. */
  function FirstIndex<K(==)>(keys: seq<K>, k: K): (r: nat)
    ensures r <= |keys|
    ensures r < |keys| ==> keys[r] == k
    ensures forall i :: 0 <= i < r && i < |keys| ==> keys[i] != k
  {
    if |keys| == 0 then 0
    else if keys[0] == k then 0
    else
      var t := FirstIndex(keys[1..], k);
      assert forall i :: 1 <= i < t + 1 && i < |keys| ==> keys[i] == keys[1..][i - 1];
      t + 1
  }

  /**
   * The dict holds exactly the keys of a list of registrations (each a
   * `setdefault` or an append under a key), in the order of their first
   * registration.
   */
  ghost predicate RegisteredInOrder<K, V>(d: seq<Group<K, V>>, keys: seq<K>)
  {
    (forall i :: 0 <= i < |d| ==> FirstIndex(keys, d[i].key) < |keys|)
    && (forall j :: 0 <= j < |keys| ==> Find(d, GroupKey, keys[j]).Some?)
    && (forall a, b :: 0 <= a < b < |d| ==> FirstIndex(keys, d[a].key) < FirstIndex(keys, d[b].key))
  }

  /** One more registration moves the first occurrence only of a key not registered before. */
  lemma {:induction false} FirstIndexSnoc<K>(keys: seq<K>, k: K, x: K)
    ensures FirstIndex(keys + [k], x)
         == if FirstIndex(keys, x) < |keys| then FirstIndex(keys, x) else if x == k then |keys| else |keys| + 1
  {
    var e := keys + [k];
    var a, b := FirstIndex(keys, x), FirstIndex(e, x);
    assert forall j :: 0 <= j < |keys| ==> e[j] == keys[j];
    assert e[|keys|] == k;
    if a < |keys| {
      assert !(b < a) && !(a < b);
    } else {
      assert !(b < |keys|);
      if x == k {
        assert !(b > |keys|);
      } else {
        assert b != |keys|;
      }
    }
  }

  /** A dict that keeps its keys in place and adds k last when k is new registers k last. */
  lemma {:induction false} ExtendInOrder<K, V>(d: seq<Group<K, V>>, e: seq<Group<K, V>>, keys: seq<K>, k: K)
    requires RegisteredInOrder(d, keys)
    requires |e| == (if Find(d, GroupKey, k).Some? then |d| else |d| + 1)
    requires forall i :: 0 <= i < |d| ==> e[i].key == d[i].key
    requires Find(d, GroupKey, k).None? ==> e[|d|].key == k
    ensures RegisteredInOrder(e, keys + [k])
  {
    var ks := keys + [k];
    forall i | 0 <= i < |e| ensures FirstIndex(ks, e[i].key) < |ks| {
      FirstIndexSnoc(keys, k, e[i].key);
    }
    forall j | 0 <= j < |ks| ensures Find(e, GroupKey, ks[j]).Some? {
      var m := if j < |keys| then Find(d, GroupKey, keys[j]) else Find(d, GroupKey, k);
      if m.Some? {
        assert GroupKey(e[m.value]) == ks[j];
      } else {
        assert GroupKey(e[|d|]) == ks[j];
      }
    }
    forall a, b | 0 <= a < b < |e| ensures FirstIndex(ks, e[a].key) < FirstIndex(ks, e[b].key) {
      FirstIndexSnoc(keys, k, e[a].key);
      FirstIndexSnoc(keys, k, e[b].key);
      if b == |d| {
        assert Find(d, GroupKey, k).None?;
        assert FirstIndex(keys, k) == |keys|;
      }
    }
  }

  /** `setdefault(k, [])` registers k. */
  lemma TouchInOrder<K, V>(d: seq<Group<K, V>>, keys: seq<K>, k: K)
    requires RegisteredInOrder(d, keys)
    ensures RegisteredInOrder(Touch(d, k), keys + [k])
  {
    ExtendInOrder(d, Touch(d, k), keys, k);
  }

  /** `setdefault(k, []).append(v)` registers k. */
  lemma AppendInOrder<K, V>(d: seq<Group<K, V>>, keys: seq<K>, k: K, v: V)
    requires RegisteredInOrder(d, keys)
    ensures RegisteredInOrder(Append(d, k, v), keys + [k])
  {
    ExtendInOrder(d, Append(d, k, v), keys, k);
  }
}

=== FILE: diff_extractor.dfy ===
/**
 * The diff extractor of the git change analyzer: it reads the unified diff
 * git prints for one file into added, removed and context lines, names the
 * table a file holds, maps each file to the commits that touched it, and
 * builds one change record per changed file. The git calls are parameters:
 * `diffOf` gives the diff text of a path (None when git fails) and
 * `filesOf` gives the files a commit touched.
 */
module DiffExtractor {
  import opened Wrappers
  import opened Strings
  import opened GitRepo

  datatype DiffContent = DiffContent(
    filePath: string,
    added: seq<string>,
    removed: seq<string>,
    context: seq<string>,
    raw: string)

  datatype ConfigDiff = ConfigDiff(
    filePath: string,
    tableName: string,
    changeType: char,
    diffContent: Option<DiffContent>,
    relatedCommits: seq<CommitInfo>,
    oldPath: Option<string>)

  /** The most characters of diff text kept as `raw_diff`. */
  const RawLimit := 5000

  // ---- parse_diff_output ----

  /** Lines skipped without effect. */
  predicate SkipHeader(line: string)
  {
    StartsWith(line, "diff --git") || StartsWith(line, "index ")
  }

  /** File and hunk headers: they start the diff body. */
  predicate Opens(line: string)
  {
    StartsWith(line, "---") || StartsWith(line, "+++") || StartsWith(line, "@@")
  }

  predicate Header(line: string)
  {
    SkipHeader(line) || Opens(line)
  }

  /** The parser's state: in the body or not, body lines counted, and the three lists. */
  datatype Scan = Scan(inBody: bool, count: int, added: seq<string>, removed: seq<string>, context: seq<string>)

  const Start := Scan(false, 0, [], [], [])

  /** One line; None is the `break` once more than maxLines body lines were seen. */
  function Step(st: Scan, line: string, maxLines: int): Option<Scan>
  {
    if SkipHeader(line) then Some(st)
    else if Opens(line) then Some(st.(inBody := true))
    else if !st.inBody then Some(st)
    else if st.count + 1 > maxLines then None
    else
      var st1 := st.(count := st.count + 1);
      if StartsWith(line, "+") && !StartsWith(line, "+++") then Some(st1.(added := st.added + [line[1..]]))
      else if StartsWith(line, "-") && !StartsWith(line, "---") then Some(st1.(removed := st.removed + [line[1..]]))
      else if StartsWith(line, " ") then Some(st1.(context := st.context + [line[1..]]))
      else Some(st1)
  }

  function Run(lines: seq<string>, st: Scan, maxLines: int): Scan
  {
    if |lines| == 0 then st
    else match Step(st, lines[0], maxLines)
      case None => st
      case Some(next) => Run(lines[1..], next, maxLines)
  }

  /** What `parse_diff_output` returns. */
  function Parse(text: string, path: string, maxLines: int): DiffContent
  {
    if |text| == 0 then DiffContent(path, [], [], [], text)
    else
      var st := Run(Split(text, '\n'), Start, maxLines);
      DiffContent(path, st.added, st.removed, st.context, Take(text, RawLimit))
  }

  method ParseDiff(text: string, path: string, maxLines: int) returns (d: DiffContent)
    ensures d == Parse(text, path, maxLines)
  {
    if |text| == 0 {
      return DiffContent(path, [], [], [], text);
    }
    var lines := Split(text, '\n');
    var added, removed, context := [], [], [];
    var count, inBody := 0, false;
    var i := 0;
    while i < |lines|
      invariant 0 <= i <= |lines|
      invariant Run(lines, Start, maxLines) == Run(lines[i..], Scan(inBody, count, added, removed, context), maxLines)
    {
      var line := lines[i];
      assert lines[i..][0] == line && lines[i..][1..] == lines[i + 1..];
      i := i + 1;
      if StartsWith(line, "diff --git") || StartsWith(line, "index ") {
        continue;
      }
      if StartsWith(line, "---") || StartsWith(line, "+++") {
        inBody := true;
        continue;
      }
      if StartsWith(line, "@@") {
        inBody := true;
        continue;
      }
      if !inBody {
        continue;
      }
      count := count + 1;
      if count > maxLines {
        break;
      }
      if StartsWith(line, "+") && !StartsWith(line, "+++") {
        added := added + [line[1..]];
      } else if StartsWith(line, "-") && !StartsWith(line, "---") {
        removed := removed + [line[1..]];
      } else if StartsWith(line, " ") {
        context := context + [line[1..]];
      }
    }
    var raw := if |text| > RawLimit then text[..RawLimit] else text;
    return DiffContent(path, added, removed, context, raw);
  }

  function Total(st: Scan): nat
  {
    |st.added| + |st.removed| + |st.context|
  }

  function Max0(n: int): nat
  {
    if n < 0 then 0 else n
  }

  lemma {:induction false} RunBound(lines: seq<string>, st: Scan, maxLines: int)
    requires Total(st) <= st.count <= Max0(maxLines)
    ensures Total(Run(lines, st, maxLines)) <= Max0(maxLines)
  {
    if |lines| > 0 {
      match Step(st, lines[0], maxLines)
      case None =>
      case Some(next) =>
        assert Total(next) <= next.count <= Max0(maxLines);
        RunBound(lines[1..], next, maxLines);
    }
  }

  /** At most maxLines body lines are looked at, so no more lines than that are kept (none when it is negative). */
  lemma ParseBound(text: string, path: string, maxLines: int)
    ensures var d := Parse(text, path, maxLines); |d.added| + |d.removed| + |d.context| <= Max0(maxLines)
  {
    if |text| > 0 {
      RunBound(Split(text, '\n'), Start, maxLines);
    }
  }

  /** The raw text kept is the diff cut to its first 5000 characters. */
  lemma ParseRaw(text: string, path: string, maxLines: int)
    ensures |Parse(text, path, maxLines).raw| <= RawLimit
    ensures text == Parse(text, path, maxLines).raw + Drop(text, RawLimit)
  {
  }

  /** A line kept as added, removed or context is a body line with that marker, never a header. */
  lemma StepSound(st: Scan, line: string, maxLines: int)
    requires Step(st, line, maxLines).Some?
    ensures var next := Step(st, line, maxLines).value;
      && (forall x :: x in next.added ==> x in st.added || (line == "+" + x && !Header(line)))
      && (forall x :: x in next.removed ==> x in st.removed || (line == "-" + x && !Header(line)))
      && (forall x :: x in next.context ==> x in st.context || (line == " " + x && !Header(line)))
  {
    if |line| > 0 {
      assert line == [line[0]] + line[1..];
    }
  }

  lemma {:induction false} RunSound(lines: seq<string>, st: Scan, maxLines: int)
    ensures var r := Run(lines, st, maxLines);
      && (forall x :: x in r.added ==> x in st.added || ("+" + x in lines && !Header("+" + x)))
      && (forall x :: x in r.removed ==> x in st.removed || ("-" + x in lines && !Header("-" + x)))
      && (forall x :: x in r.context ==> x in st.context || (" " + x in lines && !Header(" " + x)))
  {
    if |lines| > 0 {
      match Step(st, lines[0], maxLines)
      case None =>
      case Some(next) =>
        StepSound(st, lines[0], maxLines);
        RunSound(lines[1..], next, maxLines);
        assert lines == [lines[0]] + lines[1..];
    }
  }

  /**
   * Every kept line comes from a line of the diff that carries its marker
   * ("+", "-" or " ") and is not a header: header lines are never content.
   */
  lemma ParseSound(text: string, path: string, maxLines: int)
    ensures var d := Parse(text, path, maxLines); var lines := Split(text, '\n');
      && (forall x :: x in d.added ==> "+" + x in lines && !Header("+" + x))
      && (forall x :: x in d.removed ==> "-" + x in lines && !Header("-" + x))
      && (forall x :: x in d.context ==> " " + x in lines && !Header(" " + x))
  {
    if |text| > 0 {
      RunSound(Split(text, '\n'), Start, maxLines);
    }
  }

  /** Outside the body a line that does not open it changes nothing. */
  lemma {:induction false} PreambleIgnored(lines: seq<string>, k: nat, maxLines: int)
    requires k <= |lines|
    requires forall j :: 0 <= j < k ==> !Opens(lines[j])
    ensures Run(lines, Start, maxLines) == Run(lines[k..], Start, maxLines)
  {
    if k > 0 {
      assert Step(Start, lines[0], maxLines) == Some(Start);
      PreambleIgnored(lines[1..], k - 1, maxLines);
      assert lines[1..][k - 1..] == lines[k..];
    }
  }

  /** The text after the marker of each body line that has it, in order. */
  function Marked(body: seq<string>, marker: char): seq<string>
  {
    if |body| == 0 then []
    else (if |body[0]| > 0 && body[0][0] == marker then [body[0][1..]] else []) + Marked(body[1..], marker)
  }

  lemma {:induction false} BodyRun(body: seq<string>, st: Scan, maxLines: int)
    requires st.inBody && st.count + |body| <= maxLines
    requires forall j :: 0 <= j < |body| ==> !Header(body[j])
    ensures Run(body, st, maxLines) == Scan(true, st.count + |body|,
      st.added + Marked(body, '+'), st.removed + Marked(body, '-'), st.context + Marked(body, ' '))
  {
    if |body| > 0 {
      var line := body[0];
      var next := Step(st, line, maxLines).value;
      assert next.added == st.added + (if |line| > 0 && line[0] == '+' then [line[1..]] else []);
      assert next.removed == st.removed + (if |line| > 0 && line[0] == '-' then [line[1..]] else []);
      assert next.context == st.context + (if |line| > 0 && line[0] == ' ' then [line[1..]] else []);
      BodyRun(body[1..], next, maxLines);
      ConcatAssoc3(st.added, if |line| > 0 && line[0] == '+' then [line[1..]] else [], Marked(body[1..], '+'));
      ConcatAssoc3(st.removed, if |line| > 0 && line[0] == '-' then [line[1..]] else [], Marked(body[1..], '-'));
      ConcatAssoc3(st.context, if |line| > 0 && line[0] == ' ' then [line[1..]] else [], Marked(body[1..], ' '));
    }
  }

  lemma ConcatAssoc3<T>(a: seq<T>, b: seq<T>, c: seq<T>)
    ensures (a + b) + c == a + (b + c)
  {
  }

  /**
   * After a header, body lines without header prefixes are sorted by their
   * first character into added, removed and context lines, marker removed,
   * as long as there are no more of them than maxLines.
   */
  lemma HunkParsed(header: string, body: seq<string>, maxLines: int)
    requires Opens(header) && |body| <= maxLines
    requires forall j :: 0 <= j < |body| ==> !Header(body[j])
    ensures Run([header] + body, Start, maxLines) == Scan(true, |body|, Marked(body, '+'), Marked(body, '-'), Marked(body, ' '))
  {
    var lines := [header] + body;
    assert lines[0] == header && lines[1..] == body;
    assert header[0] == '-' || header[0] == '+' || header[0] == '@';
    assert !SkipHeader(header);
    BodyRun(body, Start.(inBody := true), maxLines);
  }

  /**
   * A removed line whose own text starts with "--" shows as "---..." in the
   * diff and is taken for a file header: it is dropped and not counted.
   */
  lemma DoubleDashRemovalDropped(st: Scan, x: string, maxLines: int)
    requires StartsWith(x, "--")
    ensures Step(st, "-" + x, maxLines) == Some(st.(inBody := true))
  {
    assert ("-" + x)[..3] == "-" + x[..2];
    assert ("-" + x)[0] == '-';
    assert !SkipHeader("-" + x);
  }

  // ---- _extract_table_name ----

  /** `Path(p).name`: the text after the last '/'. */
  function BaseName(p: string): (r: string)
    ensures '/' !in r
    ensures |r| <= |p| && r == p[|p| - |r|..]
    ensures '/' !in p ==> r == p
    ensures '/' in p ==> |r| < |p| && p[|p| - |r| - 1] == '/'
    decreases |p|
  {
    match FindChar(p, '/')
    case None => p
    case Some(i) => BaseName(p[i + 1..])
  }

  /** Position of the last '.' in s, if any. */
  function LastDot(s: string): (r: Option<nat>)
    ensures r.Some? ==> r.value < |s| && s[r.value] == '.' && '.' !in s[r.value + 1..]
    ensures r.None? ==> '.' !in s
  {
    if |s| == 0 then None
    else if s[|s| - 1] == '.' then Some(|s| - 1)
    else
      match LastDot(s[..|s| - 1])
      case None => None
      case Some(i) => assert s[i + 1..] == s[..|s| - 1][i + 1..] + [s[|s| - 1]]; Some(i)
  }

  /** `Path(name).stem`: the name without its last suffix, a dot neither first nor last. */
  function Stem(name: string): (r: string)
    ensures |r| <= |name| && r == name[..|r|]
  {
    match LastDot(name)
    case Some(i) => if 0 < i < |name| - 1 then name[..i] else name
    case None => name
  }

  /** The table a file holds: its name without directory or final extension. */
  function TableName(path: string): (r: string)
    ensures '/' !in r
  {
    Stem(BaseName(path))
  }

  lemma {:induction false} BaseNameAfter(dir: string, name: string)
    requires '/' !in name
    ensures BaseName(dir + "/" + name) == name
    decreases |dir|
  {
    var p := dir + "/" + name;
    match FindChar(dir, '/')
    case None =>
      assert p == dir + ['/'] + name;
      FindCharAfter(dir, '/', name);
      assert p[|dir| + 1..] == name;
      assert BaseName(p) == BaseName(name);
      assert FindChar(name, '/').None?;
    case Some(i) =>
      assert p[..i] == dir[..i];
      FindCharFirst(p, '/', i);
      assert BaseName(p) == BaseName(p[i + 1..]);
      DropFirst(dir, "/", name, i + 1);
      BaseNameAfter(dir[i + 1..], name);
  }

  lemma StemOf(stem: string, ext: string)
    requires |stem| > 0 && |ext| > 0 && '.' !in ext
    ensures Stem(stem + "." + ext) == stem
  {
    var name := stem + "." + ext;
    assert name[|stem|] == '.' && name[|stem| + 1..] == ext;
    var i := LastDot(name).value;
    assert name[|stem| + 1..] == ext;
  }

  /**
   * A file `dir/stem.ext`, or `stem.ext` at the top, names the table `stem`
   * ("fo/tables/item_config.csv" names "item_config").
   */
  lemma TableNameOf(dir: string, stem: string, ext: string)
    requires |stem| > 0 && |ext| > 0 && '/' !in stem && '/' !in ext && '.' !in ext
    ensures TableName(dir + "/" + stem + "." + ext) == stem
    ensures TableName(stem + "." + ext) == stem
  {
    var name := stem + "." + ext;
    assert '/' !in name;
    assert dir + "/" + stem + "." + ext == dir + "/" + name;
    BaseNameAfter(dir, name);
    assert FindChar(name, '/').None?;
    StemOf(stem, ext);
  }

  /** A name with no dot, or whose only dot is first or last, is its own table name. */
  lemma NoSuffixKept(name: string)
    requires '/' !in name
    requires forall k :: 0 < k < |name| - 1 ==> name[k] != '.'
    ensures TableName(name) == name
  {
    assert FindChar(name, '/').None?;
  }

  // ---- _build_file_commit_map ----

  /** `d.get(p, [])` */
  function Lookup(m: map<string, seq<CommitInfo>>, p: string): seq<CommitInfo>
  {
    if p in m then m[p] else []
  }

  /** The map after recording commit c against each file under dir that it touched. */
  function AddFiles(m: map<string, seq<CommitInfo>>, c: CommitInfo, files: seq<FileChange>, dir: string): map<string, seq<CommitInfo>>
  {
    if |files| == 0 then m
    else
      var m1 := AddFiles(m, c, files[..|files| - 1], dir);
      var p := files[|files| - 1].filePath;
      if StartsWith(p, dir) then m1[p := Lookup(m1, p) + [c]] else m1
  }

  function FileMap(commits: seq<CommitInfo>, filesOf: string -> seq<FileChange>, dir: string): map<string, seq<CommitInfo>>
  {
    if |commits| == 0 then map[]
    else
      var c := commits[|commits| - 1];
      AddFiles(FileMap(commits[..|commits| - 1], filesOf, dir), c, filesOf(c.hash), dir)
  }

  method BuildFileCommitMap(commits: seq<CommitInfo>, filesOf: string -> seq<FileChange>, dir: string)
    returns (m: map<string, seq<CommitInfo>>)
    ensures m == FileMap(commits, filesOf, dir)
  {
    m := map[];
    for i := 0 to |commits|
      invariant m == FileMap(commits[..i], filesOf, dir)
    {
      var c := commits[i];
      assert commits[..i + 1][..i] == commits[..i] && commits[..i + 1][i] == c;
      var files := filesOf(c.hash);
      ghost var m0 := m;
      for j := 0 to |files|
        invariant m == AddFiles(m0, c, files[..j], dir)
      {
        assert files[..j + 1][..j] == files[..j];
        var p := files[j].filePath;
        if StartsWith(p, dir) {
          if p !in m {
            m := m[p := []];
          }
          m := m[p := m[p] + [c]];
        }
      }
      assert files[..|files|] == files;
    }
    assert commits[..|commits|] == commits;
  }

  /** Commit c once for each of its files that is path, when path lies under dir. */
  function Touches(c: CommitInfo, files: seq<FileChange>, dir: string, path: string): seq<CommitInfo>
  {
    if |files| == 0 then []
    else
      var last := files[|files| - 1];
      Touches(c, files[..|files| - 1], dir, path) + (if last.filePath == path && StartsWith(path, dir) then [c] else [])
  }

  /** The commits that touched path, in commit order, when path lies under dir. */
  function Related(commits: seq<CommitInfo>, filesOf: string -> seq<FileChange>, dir: string, path: string): seq<CommitInfo>
  {
    if |commits| == 0 then []
    else
      var c := commits[|commits| - 1];
      Related(commits[..|commits| - 1], filesOf, dir, path) + Touches(c, filesOf(c.hash), dir, path)
  }

  lemma {:induction false} AddFilesLookup(m: map<string, seq<CommitInfo>>, c: CommitInfo, files: seq<FileChange>, dir: string, path: string)
    ensures Lookup(AddFiles(m, c, files, dir), path) == Lookup(m, path) + Touches(c, files, dir, path)
  {
    if |files| > 0 {
      AddFilesLookup(m, c, files[..|files| - 1], dir, path);
    }
  }

  /** A file's entry lists, in order, the commits that touched it; files outside dir have none. */
  lemma {:induction false} FileMapLookup(commits: seq<CommitInfo>, filesOf: string -> seq<FileChange>, dir: string, path: string)
    ensures Lookup(FileMap(commits, filesOf, dir), path) == Related(commits, filesOf, dir, path)
    ensures !StartsWith(path, dir) ==> path !in FileMap(commits, filesOf, dir)
  {
    if |commits| > 0 {
      var c := commits[|commits| - 1];
      FileMapLookup(commits[..|commits| - 1], filesOf, dir, path);
      AddFilesLookup(FileMap(commits[..|commits| - 1], filesOf, dir), c, filesOf(c.hash), dir, path);
      if !StartsWith(path, dir) {
        AddFilesOutside(FileMap(commits[..|commits| - 1], filesOf, dir), c, filesOf(c.hash), dir, path);
      }
    }
  }

  lemma {:induction false} AddFilesOutside(m: map<string, seq<CommitInfo>>, c: CommitInfo, files: seq<FileChange>, dir: string, path: string)
    requires !StartsWith(path, dir) && path !in m
    ensures path !in AddFiles(m, c, files, dir)
  {
    if |files| > 0 {
      AddFilesOutside(m, c, files[..|files| - 1], dir, path);
    }
  }

  /** Only commit c appears in Touches, and only for a file it changed under dir. */
  lemma {:induction false} TouchesSound(c: CommitInfo, files: seq<FileChange>, dir: string, path: string, x: CommitInfo)
    requires x in Touches(c, files, dir, path)
    ensures x == c && StartsWith(path, dir) && exists j :: 0 <= j < |files| && files[j].filePath == path
  {
    var init, last := files[..|files| - 1], files[|files| - 1];
    if x in Touches(c, init, dir, path) {
      TouchesSound(c, init, dir, path, x);
      var j :| 0 <= j < |init| && init[j].filePath == path;
      assert files[j] == init[j];
    } else {
      assert last.filePath == path;
    }
  }

  /** A file's related commits are commits of the range that changed that file, which lies under dir. */
  lemma {:induction false} RelatedSound(commits: seq<CommitInfo>, filesOf: string -> seq<FileChange>, dir: string, path: string, x: CommitInfo)
    requires x in Related(commits, filesOf, dir, path)
    ensures x in commits && StartsWith(path, dir)
    ensures exists j :: 0 <= j < |filesOf(x.hash)| && filesOf(x.hash)[j].filePath == path
  {
    var init, c := commits[..|commits| - 1], commits[|commits| - 1];
    if x in Related(init, filesOf, dir, path) {
      RelatedSound(init, filesOf, dir, path, x);
    } else {
      TouchesSound(c, filesOf(c.hash), dir, path, x);
    }
  }

  // ---- extract_all_diffs ----

  /** The record built for one changed file. */
  function ConfigDiffOf(fc: FileChange, related: map<string, seq<CommitInfo>>,
                        diffOf: string -> Option<string>, maxLines: int): ConfigDiff
  {
    var content := if fc.changeType == 'D' then None
      else Some(Parse(diffOf(fc.filePath).GetOr(""), fc.filePath, maxLines));
    ConfigDiff(fc.filePath, TableName(fc.filePath), fc.changeType, content, Lookup(related, fc.filePath), fc.oldPath)
  }

  /** The body of the loop of `extract_all_diffs`, for one changed file. */
  method ExtractOne(fc: FileChange, related: map<string, seq<CommitInfo>>,
                    diffOf: string -> Option<string>, maxLines: int) returns (d: ConfigDiff)
    ensures d == ConfigDiffOf(fc, related, diffOf, maxLines)
  {
    var table := TableName(fc.filePath);
    var content := None;
    if fc.changeType != 'D' {
      var parsed := ParseDiff(diffOf(fc.filePath).GetOr(""), fc.filePath, maxLines);
      content := Some(parsed);
    }
    var commitsFor := if fc.filePath in related then related[fc.filePath] else [];
    d := ConfigDiff(fc.filePath, table, fc.changeType, content, commitsFor, fc.oldPath);
  }

  /** Deleted files carry no diff, and a file's related commits are the ones that touched it. */
  lemma ConfigDiffOfMeaning(fc: FileChange, commits: seq<CommitInfo>, filesOf: string -> seq<FileChange>,
                            dir: string, diffOf: string -> Option<string>, maxLines: int)
    ensures var d := ConfigDiffOf(fc, FileMap(commits, filesOf, dir), diffOf, maxLines);
      && (d.diffContent.None? <==> fc.changeType == 'D')
      && d.relatedCommits == Related(commits, filesOf, dir, fc.filePath)
      && d.tableName == TableName(fc.filePath)
  {
    FileMapLookup(commits, filesOf, dir, fc.filePath);
  }

  /**
   * One record per changed file, in order. Deleted files carry no diff; a
   * diff git fails to give is read as empty. Related commits are the ones
   * that touched the file, when it lies under dir.
   */
  method ExtractAllDiffs(changes: seq<FileChange>, commits: seq<CommitInfo>, dir: string,
                         filesOf: string -> seq<FileChange>, diffOf: string -> Option<string>, maxLines: int)
    returns (out: seq<ConfigDiff>)
    ensures |out| == |changes|
    ensures forall i :: 0 <= i < |changes| ==>
      out[i] == ConfigDiffOf(changes[i], FileMap(commits, filesOf, dir), diffOf, maxLines)
  {
    var related := BuildFileCommitMap(commits, filesOf, dir);
    out := [];
    for i := 0 to |changes|
      invariant out == MapSeq(changes[..i], Extractor(related, diffOf, maxLines))
    {
      assert changes[..i + 1][..i] == changes[..i];
      var d := ExtractOne(changes[i], related, diffOf, maxLines);
      out := out + [d];
    }
    assert changes[..|changes|] == changes;
    MapSeqAt(changes, Extractor(related, diffOf, maxLines));
  }

  function Extractor(related: map<string, seq<CommitInfo>>, diffOf: string -> Option<string>, maxLines: int)
    : FileChange -> ConfigDiff
  {
    fc => ConfigDiffOf(fc, related, diffOf, maxLines)
  }
}

=== FILE: excel_v1.dfy ===
/**
 * The first-generation event review workbook: the module names and their
 * aliases, the cell rules of the table sheets, the module classification
 * sheet, filling in missing sub-activity types from the classification
 * table, and adding sub-activity revenue up per module.
 */
module ExcelV1 {
  import opened Wrappers
  import opened Strings
  import opened Cells
  import Dicts

  // ---- module names ----

  /** The revenue field a module adds into. */
  datatype ModuleKey = Appearance | Minigame | Hybrid

  /** The four module names a classification may use. */
  predicate KnownModule(m: string)
  {
    m == "外显" || m == "小游戏" || m == "养成" || m == "混合"
  }

  /** `_MODULE_NAME_TO_KEY.get(m)` */
  function ModuleKeyOf(m: string): Option<ModuleKey>
  {
    if m == "外显" then Some(Appearance)
    else if m == "小游戏" then Some(Minigame)
    else if m == "养成" || m == "混合" then Some(Hybrid)
    else None
  }

  /** A name has a key exactly when it is one of the four modules; 养成 and 混合 share hybrid. */
  lemma ModuleKeys(m: string)
    ensures ModuleKeyOf(m).Some? <==> KnownModule(m)
    ensures ModuleKeyOf(m) == Some(Hybrid) <==> m == "养成" || m == "混合"
  {
  }

  predicate IsAlias(m: string)
  {
    m == "养成线" || m == "外显类" || m == "小游戏类" || m == "混合类" || m == "混合/养成"
  }

  /** The standard name of a module as filled in (`_MODULE_ALIAS`, names that are no alias stay). */
  function AliasOf(m: string): string
  {
    if m == "养成线" then "养成"
    else if m == "外显类" then "外显"
    else if m == "小游戏类" then "小游戏"
    else if m == "混合类" || m == "混合/养成" then "混合"
    else m
  }

  /** Every alias names a known module, every other name stays, and correcting twice changes nothing. */
  lemma AliasNormalises(m: string)
    ensures IsAlias(m) ==> KnownModule(AliasOf(m)) && ModuleKeyOf(AliasOf(m)).Some?
    ensures !IsAlias(m) ==> AliasOf(m) == m
    ensures KnownModule(m) ==> AliasOf(m) == m
    ensures !IsAlias(AliasOf(m)) && AliasOf(AliasOf(m)) == AliasOf(m)
  {
  }

  // ---- table sheets: cell rules ----

  /** A sheet column: the JSON key it fills and whether it holds numbers. */
  datatype Column = Column(key: string, numeric: bool)

  /** A record value: a number from a numeric column, text from any other. */
  datatype Field = Number(v: real) | Words(s: string)

  datatype Problem = EmptyNumber | NotANumber | EmptyText

  /** An error the parse records: a missing sheet, or a cell (worksheet row, column index) and what is wrong with it. */
  datatype SheetError = MissingSheet | BadCell(row: nat, col: nat, problem: Problem)

  /** The value of column j; a row shorter than the header reads as empty there. */
  function CellAt(row: seq<Cell>, j: nat): Cell
  {
    if j < |row| then row[j] else Blank
  }

  /** `value is None or str(value).strip() == ""` */
  predicate BlankCell(c: Cell)
  {
    c.Blank? || Trimmed(c) == ""
  }

  /** `float(value)`; None is the ValueError or TypeError. */
  function FloatOf(c: Cell): Option<real>
  {
    match c
    case Blank => None
    case Text(s) => ParseFloat(s)
    case Int(i) => Some(i as real)
    case Float(f, _) => Some(f)
    case Boolean(b) => Some(if b then 1.0 else 0.0)
  }

  /** What a cell puts in its record, and the problem it records if any. */
  function ReadCell(c: Cell, numeric: bool): (Field, Option<Problem>)
  {
    if numeric then
      if BlankCell(c) then (Number(0.0), Some(EmptyNumber))
      else
        match FloatOf(c)
        case Some(v) => (Number(v), None)
        case None => (Number(0.0), Some(NotANumber))
    else if BlankCell(c) then (Words(""), Some(EmptyText))
    else (Words(Trimmed(c)), None)
  }

  /**
   * A blank numeric cell records an error and 0.0, a blank text cell an
   * error and ""; a number that does not parse records an error and 0.0;
   * other text is kept stripped and non-empty; a column's kind fixes the
   * kind of its value.
   */
  lemma CellRules(c: Cell, numeric: bool)
    ensures BlankCell(c) ==>
      ReadCell(c, numeric) == (if numeric then (Number(0.0), Some(EmptyNumber)) else (Words(""), Some(EmptyText)))
    ensures !BlankCell(c) && !numeric ==> ReadCell(c, numeric) == (Words(Trimmed(c)), None) && |Trimmed(c)| > 0
    ensures !BlankCell(c) && numeric ==> (ReadCell(c, numeric).1.None? <==> FloatOf(c).Some?)
    ensures ReadCell(c, numeric).1.Some? ==> ReadCell(c, numeric).0 == (if numeric then Number(0.0) else Words(""))
    ensures ReadCell(c, numeric).0.Number? <==> numeric
  {
  }

  /** The fields of the first n columns of a row. */
  function RowFields(row: seq<Cell>, cols: seq<Column>, n: nat): (r: seq<(string, Field)>)
    requires n <= |cols|
    ensures |r| == n
  {
    if n == 0 then []
    else RowFields(row, cols, n - 1) + [(cols[n - 1].key, ReadCell(CellAt(row, n - 1), cols[n - 1].numeric).0)]
  }

  /** The errors of column j of a worksheet row. */
  function CellErrors(row: seq<Cell>, cols: seq<Column>, rowNo: nat, j: nat): seq<SheetError>
    requires j < |cols|
  {
    match ReadCell(CellAt(row, j), cols[j].numeric).1
    case None => []
    case Some(p) => [BadCell(rowNo, j, p)]
  }

  /** The errors of the first n columns of a row, in column order. */
  function RowErrors(row: seq<Cell>, cols: seq<Column>, rowNo: nat, n: nat): seq<SheetError>
    requires n <= |cols|
  {
    if n == 0 then [] else RowErrors(row, cols, rowNo, n - 1) + CellErrors(row, cols, rowNo, n - 1)
  }

  /** Every field of the first n columns, in order, comes from its own column's cell. */
  lemma RowFieldsSpec(row: seq<Cell>, cols: seq<Column>, n: nat)
    requires n <= |cols|
    ensures forall j :: 0 <= j < n ==>
      RowFields(row, cols, n)[j] == (cols[j].key, ReadCell(CellAt(row, j), cols[j].numeric).0)
  {
    forall j | 0 <= j < n
      ensures RowFields(row, cols, n)[j] == (cols[j].key, ReadCell(CellAt(row, j), cols[j].numeric).0)
    {
      RowFieldAt(row, cols, n, j);
    }
  }

  lemma {:induction false} RowFieldAt(row: seq<Cell>, cols: seq<Column>, n: nat, j: nat)
    requires j < n <= |cols|
    ensures RowFields(row, cols, n)[j] == (cols[j].key, ReadCell(CellAt(row, j), cols[j].numeric).0)
  {
    var before := RowFields(row, cols, n - 1);
    var last := (cols[n - 1].key, ReadCell(CellAt(row, n - 1), cols[n - 1].numeric).0);
    assert RowFields(row, cols, n) == before + [last];
    if j < n - 1 {
      RowFieldAt(row, cols, n - 1, j);
    }
  }

  /** A row has an error at a column exactly when that column's cell records a problem, and every error names its row. */
  lemma RowErrorsSpec(row: seq<Cell>, cols: seq<Column>, rowNo: nat, n: nat)
    requires n <= |cols|
    ensures forall e :: e in RowErrors(row, cols, rowNo, n) ==>
      e.BadCell? && e.row == rowNo && e.col < n && ReadCell(CellAt(row, e.col), cols[e.col].numeric).1 == Some(e.problem)
    ensures forall j, p :: 0 <= j < n && ReadCell(CellAt(row, j), cols[j].numeric).1 == Some(p) ==>
      BadCell(rowNo, j, p) in RowErrors(row, cols, rowNo, n)
  {
    forall e | e in RowErrors(row, cols, rowNo, n)
      ensures e.BadCell? && e.row == rowNo && e.col < n && ReadCell(CellAt(row, e.col), cols[e.col].numeric).1 == Some(e.problem)
    {
      RowErrorSound(row, cols, rowNo, n, e);
    }
    forall j, p | 0 <= j < n && ReadCell(CellAt(row, j), cols[j].numeric).1 == Some(p)
      ensures BadCell(rowNo, j, p) in RowErrors(row, cols, rowNo, n)
    {
      RowErrorComplete(row, cols, rowNo, n, j);
    }
  }

  lemma {:induction false} RowErrorSound(row: seq<Cell>, cols: seq<Column>, rowNo: nat, n: nat, e: SheetError)
    requires n <= |cols| && e in RowErrors(row, cols, rowNo, n)
    ensures e.BadCell? && e.row == rowNo && e.col < n && ReadCell(CellAt(row, e.col), cols[e.col].numeric).1 == Some(e.problem)
  {
    var before := RowErrors(row, cols, rowNo, n - 1);
    var last := CellErrors(row, cols, rowNo, n - 1);
    assert RowErrors(row, cols, rowNo, n) == before + last;
    if e in before {
      RowErrorSound(row, cols, rowNo, n - 1, e);
    } else {
      var pr := ReadCell(CellAt(row, n - 1), cols[n - 1].numeric).1;
      assert last == if pr.Some? then [BadCell(rowNo, n - 1, pr.value)] else [];
      assert pr.Some? && e == BadCell(rowNo, n - 1, pr.value);
    }
  }

  lemma {:induction false} RowErrorComplete(row: seq<Cell>, cols: seq<Column>, rowNo: nat, n: nat, j: nat)
    requires j < n <= |cols| && ReadCell(CellAt(row, j), cols[j].numeric).1.Some?
    ensures BadCell(rowNo, j, ReadCell(CellAt(row, j), cols[j].numeric).1.value) in RowErrors(row, cols, rowNo, n)
  {
    var before := RowErrors(row, cols, rowNo, n - 1);
    var last := CellErrors(row, cols, rowNo, n - 1);
    assert RowErrors(row, cols, rowNo, n) == before + last;
    if j < n - 1 {
      RowErrorComplete(row, cols, rowNo, n - 1, j);
    } else {
      var pr := ReadCell(CellAt(row, j), cols[j].numeric).1;
      assert last == [BadCell(rowNo, j, pr.value)];
    }
  }

  /** `all(v is None or str(v).strip() == "" for v in row_values)` over the header's columns. */
  predicate BlankRow(row: seq<Cell>, n: nat)
  {
    n == 0 || (BlankRow(row, n - 1) && BlankCell(CellAt(row, n - 1)))
  }

  /** The records of a sheet's data rows: one per row that is not blank, in row order. */
  function Records(rows: seq<seq<Cell>>, cols: seq<Column>): (r: seq<seq<(string, Field)>>)
    ensures |r| <= |rows|
  {
    if |rows| == 0 then []
    else
      var last := rows[|rows| - 1];
      Records(rows[..|rows| - 1], cols) + (if BlankRow(last, |cols|) then [] else [RowFields(last, cols, |cols|)])
  }

  /** The errors of a sheet's data rows; data row i is worksheet row i + 3. */
  function SheetErrors(rows: seq<seq<Cell>>, cols: seq<Column>): seq<SheetError>
  {
    if |rows| == 0 then []
    else
      var last := rows[|rows| - 1];
      SheetErrors(rows[..|rows| - 1], cols) + (if BlankRow(last, |cols|) then [] else RowErrors(last, cols, |rows| + 2, |cols|))
  }

  /** The record is the one a non-blank row of the sheet gives. */
  predicate RecordOfRow(rows: seq<seq<Cell>>, cols: seq<Column>, rec: seq<(string, Field)>)
  {
    exists i :: 0 <= i < |rows| && !BlankRow(rows[i], |cols|) && rec == RowFields(rows[i], cols, |cols|)
  }

  /** Every record has one field per column and comes from a non-blank row of the sheet. */
  lemma {:induction false} RecordsSpec(rows: seq<seq<Cell>>, cols: seq<Column>)
    ensures forall k :: 0 <= k < |Records(rows, cols)| ==>
      |Records(rows, cols)[k]| == |cols| && RecordOfRow(rows, cols, Records(rows, cols)[k])
  {
    if |rows| > 0 {
      var n := |rows| - 1;
      var before := rows[..n];
      RecordsSpec(before, cols);
      var rs := Records(rows, cols);
      var rb := Records(before, cols);
      assert rs == rb + (if BlankRow(rows[n], |cols|) then [] else [RowFields(rows[n], cols, |cols|)]);
      forall k | 0 <= k < |rs|
        ensures RecordOfRow(rows, cols, rs[k])
      {
        if k < |rb| {
          assert rs[k] == rb[k];
          var i :| 0 <= i < |before| && !BlankRow(before[i], |cols|) && rb[k] == RowFields(before[i], cols, |cols|);
          assert rows[i] == before[i];
        } else {
          assert rs[k] == RowFields(rows[n], cols, |cols|);
        }
      }
    }
  }

  /** A sheet whose data rows are all blank gives no record and no error. */
  lemma {:induction false} BlankSheet(rows: seq<seq<Cell>>, cols: seq<Column>)
    requires forall i :: 0 <= i < |rows| ==> BlankRow(rows[i], |cols|)
    ensures Records(rows, cols) == [] && SheetErrors(rows, cols) == []
  {
    if |rows| > 0 {
      var n := |rows| - 1;
      forall i | 0 <= i < n ensures BlankRow(rows[..n][i], |cols|) {
        assert rows[..n][i] == rows[i];
      }
      BlankSheet(rows[..n], cols);
    }
  }

  /** One data row: the loop over the header's columns. */
  method ReadRow(row: seq<Cell>, cols: seq<Column>, rowNo: nat) returns (record: seq<(string, Field)>, errors: seq<SheetError>)
    ensures record == RowFields(row, cols, |cols|)
    ensures errors == RowErrors(row, cols, rowNo, |cols|)
  {
    record := [];
    errors := [];
    var j := 0;
    while j < |cols|
      invariant j <= |cols|
      invariant record == RowFields(row, cols, j)
      invariant errors == RowErrors(row, cols, rowNo, j)
    {
      var field, found := ReadColumn(row, cols, rowNo, j);
      record := record + [field];
      errors := errors + found;
      j := j + 1;
    }
  }

  /** One cell of the row: its field, and the error it records if any. */
  method ReadColumn(row: seq<Cell>, cols: seq<Column>, rowNo: nat, j: nat) returns (field: (string, Field), found: seq<SheetError>)
    requires j < |cols|
    ensures RowFields(row, cols, j + 1) == RowFields(row, cols, j) + [field]
    ensures RowErrors(row, cols, rowNo, j + 1) == RowErrors(row, cols, rowNo, j) + found
  {
    var (value, problem) := ReadCell(CellAt(row, j), cols[j].numeric);
    field := (cols[j].key, value);
    if problem.Some? {
      found := [BadCell(rowNo, j, problem.value)];
    } else {
      found := [];
    }
  }

  /** `_parse_table_sheet`: the data rows of a sheet (None when the workbook lacks it), blank rows skipped. */
  method ParseTableSheet(sheet: Option<seq<seq<Cell>>>, cols: seq<Column>)
    returns (records: seq<seq<(string, Field)>>, errors: seq<SheetError>)
    ensures sheet.None? ==> records == [] && errors == [MissingSheet]
    ensures sheet.Some? ==> records == Records(sheet.value, cols) && errors == SheetErrors(sheet.value, cols)
  {
    if sheet.None? {
      return [], [MissingSheet];
    }
    var rows := sheet.value;
    records := [];
    errors := [];
    var i := 0;
    while i < |rows|
      invariant i <= |rows|
      invariant records == Records(rows[..i], cols)
      invariant errors == SheetErrors(rows[..i], cols)
    {
      assert rows[..i + 1][..i] == rows[..i];
      if !BlankRow(rows[i], |cols|) {
        var rec, errs := ReadRow(rows[i], cols, i + 3);
        records := records + [rec];
        errors := errors + errs;
      }
      i := i + 1;
    }
    assert rows[..i] == rows;
  }

  // ---- the module classification sheet ----

  /** One classification row: a sub-activity name, its module and a note. */
  datatype Entry = Entry(name: string, category: string, note: string)

  datatype ClassifyError =
    | NoClassifySheet
    | MissingModule(row: nat, name: string)
    | UnknownModule(row: nat, name: string, category: string)
    | NoMappings

  /** `str(v).strip() if v else ""` */
  function TextOf(c: Cell): string
  {
    if Truthy(c) then Trimmed(c) else ""
  }

  /** The entry a row gives: none when its name cell is blank; the module is corrected from its alias. */
  function EntryOf(row: seq<Cell>): Option<Entry>
  {
    if BlankCell(CellAt(row, 0)) then None
    else Some(Entry(Trimmed(CellAt(row, 0)), AliasOf(TextOf(CellAt(row, 1))), TextOf(CellAt(row, 2))))
  }

  /** The error an entry records: an empty module, or one outside the four. */
  function EntryError(e: Entry, rowNo: nat): Option<ClassifyError>
  {
    if e.category == "" then Some(MissingModule(rowNo, e.name))
    else if !KnownModule(e.category) then Some(UnknownModule(rowNo, e.name, e.category))
    else None
  }

  function Entries(rows: seq<seq<Cell>>): (r: seq<Entry>)
    ensures |r| <= |rows|
  {
    if |rows| == 0 then []
    else
      var e := EntryOf(rows[|rows| - 1]);
      Entries(rows[..|rows| - 1]) + (if e.Some? then [e.value] else [])
  }

  function EntryErrors(rows: seq<seq<Cell>>): seq<ClassifyError>
  {
    if |rows| == 0 then []
    else
      var e := EntryOf(rows[|rows| - 1]);
      var err := if e.Some? then EntryError(e.value, |rows| + 2) else None;
      EntryErrors(rows[..|rows| - 1]) + (if err.Some? then [err.value] else [])
  }

  /**
   * Every entry has a name and a module that is no alias, and the rows
   * record no error exactly when every entry's module is one of the four.
   */
  lemma EntriesSpec(rows: seq<seq<Cell>>)
    ensures forall e :: e in Entries(rows) ==> e.name != "" && !IsAlias(e.category)
    ensures EntryErrors(rows) == [] <==> forall e :: e in Entries(rows) ==> KnownModule(e.category)
  {
    forall e | e in Entries(rows)
      ensures e.name != "" && !IsAlias(e.category)
    {
      EntryNamed(rows, e);
    }
    EntryErrorsNone(rows);
  }

  lemma {:induction false} EntryNamed(rows: seq<seq<Cell>>, x: Entry)
    requires x in Entries(rows)
    ensures x.name != "" && !IsAlias(x.category)
  {
    var n := |rows| - 1;
    var e := EntryOf(rows[n]);
    assert Entries(rows) == Entries(rows[..n]) + (if e.Some? then [e.value] else []);
    if x in Entries(rows[..n]) {
      EntryNamed(rows[..n], x);
    } else {
      EntryFacts(rows[n], 0);
    }
  }

  lemma {:induction false} EntryErrorsNone(rows: seq<seq<Cell>>)
    ensures EntryErrors(rows) == [] <==> forall e :: e in Entries(rows) ==> KnownModule(e.category)
  {
    if |rows| > 0 {
      var n := |rows| - 1;
      EntryErrorsNone(rows[..n]);
      var e := EntryOf(rows[n]);
      if e.Some? {
        EntryFacts(rows[n], |rows| + 2);
        var err := EntryError(e.value, |rows| + 2);
        assert Entries(rows) == Entries(rows[..n]) + [e.value];
        if err.Some? {
          assert EntryErrors(rows) == EntryErrors(rows[..n]) + [err.value];
          assert e.value in Entries(rows) && !KnownModule(e.value.category);
        } else {
          assert EntryErrors(rows) == EntryErrors(rows[..n]);
        }
      } else {
        assert Entries(rows) == Entries(rows[..n]);
        assert EntryErrors(rows) == EntryErrors(rows[..n]);
      }
    }
  }

  /** One row's entry has a name and a module that is no alias, and records no error exactly when its module is one of the four. */
  lemma EntryFacts(row: seq<Cell>, rowNo: nat)
    requires EntryOf(row).Some?
    ensures EntryOf(row).value.name != "" && !IsAlias(EntryOf(row).value.category)
    ensures EntryError(EntryOf(row).value, rowNo).None? <==> KnownModule(EntryOf(row).value.category)
  {
    AliasNormalises(TextOf(CellAt(row, 1)));
  }

  /** `_parse_module_classify_sheet` */
  method ParseClassifySheet(sheet: Option<seq<seq<Cell>>>) returns (entries: seq<Entry>, errors: seq<ClassifyError>)
    ensures sheet.None? ==> entries == [] && errors == [NoClassifySheet]
    ensures sheet.Some? ==> entries == Entries(sheet.value)
    ensures sheet.Some? ==> errors == EntryErrors(sheet.value) + (if entries == [] then [NoMappings] else [])
  {
    if sheet.None? {
      return [], [NoClassifySheet];
    }
    entries, errors := ClassifyRows(sheet.value);
    if entries == [] {
      errors := errors + [NoMappings];
    }
  }

  /** The loop over the classification rows. */
  method ClassifyRows(rows: seq<seq<Cell>>) returns (entries: seq<Entry>, errors: seq<ClassifyError>)
    ensures entries == Entries(rows) && errors == EntryErrors(rows)
  {
    entries := [];
    errors := [];
    for i := 0 to |rows|
      invariant entries == Entries(rows[..i])
      invariant errors == EntryErrors(rows[..i])
    {
      var found, bad := ClassifyRow(rows, i);
      entries := entries + found;
      errors := errors + bad;
    }
    assert rows[..|rows|] == rows;
  }

  /** One classification row: its entry, if any, and the error that entry records. */
  method ClassifyRow(rows: seq<seq<Cell>>, i: nat) returns (found: seq<Entry>, bad: seq<ClassifyError>)
    requires i < |rows|
    ensures Entries(rows[..i + 1]) == Entries(rows[..i]) + found
    ensures EntryErrors(rows[..i + 1]) == EntryErrors(rows[..i]) + bad
  {
    assert rows[..i + 1][..i] == rows[..i];
    found, bad := [], [];
    var e := EntryOf(rows[i]);
    if e.Some? {
      var err := EntryError(e.value, i + 3);
      if err.Some? {
        bad := [err.value];
      }
      found := [e.value];
    }
  }


  // ---- filling in sub-activity types ----

  /** A sub-activity row; an absent name, type or status (None) is "". */
  datatype SubActivity = SubActivity(name: string, kind: string, revenue: real, status: string, reason: string)

  function EntryName(e: Entry): string
  {
    e.name
  }

  /** Entries with an empty name or module do not enter the map. */
  predicate Usable(e: Entry)
  {
    e.name != "" && e.category != ""
  }

  /** `classify_map`: one entry per name in first-insertion order, holding the last module given for it. */
  function ClassifyMap(entries: seq<Entry>): seq<Entry>
  {
    Dicts.FromList(Filter(entries, Usable), EntryName)
  }

  /** The map holds usable entries of the table, and every usable name of the table. */
  lemma MapUsable(entries: seq<Entry>)
    ensures forall e :: e in ClassifyMap(entries) ==> e in entries && Usable(e)
    ensures (forall e :: e in entries ==> !Usable(e)) ==> ClassifyMap(entries) == []
  {
    var u := Filter(entries, Usable);
    Dicts.FromListSpec(u, EntryName);
    FilterSpec(entries, Usable);
    if forall e :: e in entries ==> !Usable(e) {
      FilterNone(entries, Usable);
    }
  }

  /** No name of the map is empty. */
  lemma NoEmptyName(entries: seq<Entry>)
    ensures Dicts.Find(ClassifyMap(entries), EntryName, "").None?
  {
    var m := ClassifyMap(entries);
    MapUsable(entries);
    forall j | 0 <= j < |m| ensures EntryName(m[j]) != "" {
      assert m[j] in m;
    }
  }

  /** `cls_name in name or name in cls_name` */
  predicate Related(name: string, e: Entry)
  {
    Contains(name, e.name) || Contains(e.name, name)
  }

  /** The first map entry related to a name. */
  function FirstRelated(name: string, m: seq<Entry>): (r: Option<nat>)
    ensures r.Some? ==> r.value < |m| && Related(name, m[r.value])
    ensures r.Some? ==> forall j :: 0 <= j < r.value ==> !Related(name, m[j])
    ensures r.None? ==> forall j :: 0 <= j < |m| ==> !Related(name, m[j])
  {
    if |m| == 0 then None
    else if Related(name, m[0]) then Some(0)
    else
      var t := FirstRelated(name, m[1..]);
      if t.Some? then Some(t.value + 1) else None
  }

  /** The module `excel_handler.py` finds for a name: an exact match, else the first related entry. */
  function MatchAsWritten(name: string, m: seq<Entry>): Option<string>
  {
    match Dicts.Find(m, EntryName, name)
    case Some(k) => Some(m[k].category)
    case None =>
      match FirstRelated(name, m)
      case Some(k) => Some(m[k].category)
      case None => None
  }

  /**
   * As written, an activity without a name matches the first entry of the
   * map, because "" is contained in every name.
   */
  lemma EmptyNameTakesFirst(entries: seq<Entry>)
    requires ClassifyMap(entries) != []
    ensures MatchAsWritten("", ClassifyMap(entries)) == Some(ClassifyMap(entries)[0].category)
  {
    var m := ClassifyMap(entries);
    MapUsable(entries);
    NoEmptyName(entries);
    assert m[0] in m;
    ContainsSelf(m[0].name);
    assert Related("", m[0]);
  }

  /** The module found for a name: an exact match, else (for a non-empty name) the first related entry. */
  function MatchOf(name: string, m: seq<Entry>): Option<string>
  {
    match Dicts.Find(m, EntryName, name)
    case Some(k) => Some(m[k].category)
    case None =>
      if name == "" then None
      else
        match FirstRelated(name, m)
        case Some(k) => Some(m[k].category)
        case None => None
  }

  /** An activity after enrichment: its type, when it has none and the map gives one. */
  function Enriched(a: SubActivity, m: seq<Entry>): SubActivity
  {
    if a.kind != "" then a
    else
      match MatchOf(a.name, m)
      case Some(mod) => a.(kind := mod)
      case None => a
  }

  /**
   * Enrichment changes only the type, never a non-empty one, and only to
   * the module of a usable classification entry; without usable entries,
   * and for an activity without a name, it changes nothing.
   */
  lemma EnrichSpec(a: SubActivity, entries: seq<Entry>)
    ensures var b := Enriched(a, ClassifyMap(entries));
      b.name == a.name && b.revenue == a.revenue && b.status == a.status
    ensures a.kind != "" ==> Enriched(a, ClassifyMap(entries)) == a
    ensures a.name == "" ==> Enriched(a, ClassifyMap(entries)) == a
    ensures (forall e :: e in entries ==> !Usable(e)) ==> Enriched(a, ClassifyMap(entries)) == a
    ensures Enriched(a, ClassifyMap(entries)) != a ==>
      exists e :: e in entries && Usable(e) && Enriched(a, ClassifyMap(entries)).kind == e.category
  {
    var m := ClassifyMap(entries);
    MapUsable(entries);
    NoEmptyName(entries);
    var b := Enriched(a, m);
    if b != a {
      var k :| 0 <= k < |m| && b.kind == m[k].category;
      assert m[k] in m;
    }
  }

  /** An exact name match wins: the type becomes the module of the last usable entry of that name. */
  lemma ExactWins(a: SubActivity, entries: seq<Entry>, i: nat)
    requires a.kind == ""
    requires i < |Filter(entries, Usable)| && Dicts.LastOf(Filter(entries, Usable), EntryName, i)
    requires Filter(entries, Usable)[i].name == a.name
    ensures Enriched(a, ClassifyMap(entries)).kind == Filter(entries, Usable)[i].category
  {
    var u := Filter(entries, Usable);
    Dicts.LastWins(u, EntryName, i);
  }

  /** Without an exact match, a named activity takes the module of the first related entry in map order. */
  lemma RelatedWins(a: SubActivity, entries: seq<Entry>, k: nat)
    requires a.kind == "" && a.name != ""
    requires Dicts.Find(ClassifyMap(entries), EntryName, a.name).None?
    requires k < |ClassifyMap(entries)| && Related(a.name, ClassifyMap(entries)[k])
    requires forall j :: 0 <= j < k ==> !Related(a.name, ClassifyMap(entries)[j])
    ensures Enriched(a, ClassifyMap(entries)).kind == ClassifyMap(entries)[k].category
  {
  }

  /** The `classify_map` loop. */
  method BuildClassifyMap(entries: seq<Entry>) returns (m: seq<Entry>)
    ensures m == ClassifyMap(entries)
  {
    m := [];
    var i := 0;
    while i < |entries|
      invariant i <= |entries|
      invariant m == Dicts.FromList(Filter(entries[..i], Usable), EntryName)
    {
      FilterNext(entries, Usable, i);
      var u := Filter(entries[..i], Usable);
      if Usable(entries[i]) {
        assert Filter(entries[..i + 1], Usable) == u + [entries[i]];
        assert (u + [entries[i]])[..|u|] == u;
        m := Dicts.Put(m, EntryName, entries[i]);
      } else {
        assert Filter(entries[..i + 1], Usable) == u + [];
        assert u + [] == u;
      }
      i := i + 1;
    }
    assert entries[..i] == entries;
  }

  /** The related-name loop, stopping at the first hit. */
  method FindRelated(name: string, m: seq<Entry>) returns (r: Option<nat>)
    ensures r == FirstRelated(name, m)
  {
    var i := 0;
    while i < |m|
      invariant i <= |m|
      invariant forall j :: 0 <= j < i ==> !Related(name, m[j])
    {
      if Related(name, m[i]) {
        return Some(i);
      }
      i := i + 1;
    }
    return None;
  }

  /** The body of the enrichment loop for one activity. */
  method EnrichOne(a: SubActivity, m: seq<Entry>) returns (b: SubActivity)
    ensures b == Enriched(a, m)
  {
    b := a;
    if a.kind == "" {
      var k := Dicts.Find(m, EntryName, a.name);
      if k.Some? {
        b := a.(kind := m[k.value].category);
      } else if a.name != "" {
        var r := FindRelated(a.name, m);
        if r.Some? {
          b := a.(kind := m[r.value].category);
        }
      }
    }
  }

  /** `_enrich_sub_activity_types`, in place. */
  method EnrichTypes(acts: array<SubActivity>, entries: seq<Entry>)
    modifies acts
    ensures forall i :: 0 <= i < acts.Length ==> acts[i] == Enriched(old(acts[i]), ClassifyMap(entries))
  {
    var m := BuildClassifyMap(entries);
    if |m| == 0 {
      return;
    }
    var i := 0;
    while i < acts.Length
      invariant i <= acts.Length
      invariant forall j :: 0 <= j < i ==> acts[j] == Enriched(old(acts[j]), m)
      invariant forall j :: i <= j < acts.Length ==> acts[j] == old(acts[j])
    {
      acts[i] := EnrichOne(acts[i], m);
      i := i + 1;
    }
  }

  // ---- revenue per module ----

  datatype Totals = Totals(appearance: real, minigame: real, hybrid: real)

  function KeyTotal(t: Totals, k: ModuleKey): real
  {
    match k
    case Appearance => t.appearance
    case Minigame => t.minigame
    case Hybrid => t.hybrid
  }

  function Total(t: Totals): real
  {
    t.appearance + t.minigame + t.hybrid
  }

  /** One activity's revenue goes to the key of its type; an unmapped type adds nothing. */
  function AddActivity(t: Totals, a: SubActivity): Totals
  {
    match ModuleKeyOf(a.kind)
    case None => t
    case Some(Appearance) => t.(appearance := t.appearance + a.revenue)
    case Some(Minigame) => t.(minigame := t.minigame + a.revenue)
    case Some(Hybrid) => t.(hybrid := t.hybrid + a.revenue)
  }

  function Aggregate(acts: seq<SubActivity>): Totals
  {
    if |acts| == 0 then Totals(0.0, 0.0, 0.0) else AddActivity(Aggregate(acts[..|acts| - 1]), acts[|acts| - 1])
  }

  function Revenue(acts: seq<SubActivity>): real
  {
    if |acts| == 0 then 0.0 else Revenue(acts[..|acts| - 1]) + acts[|acts| - 1].revenue
  }

  lemma RevenueSnoc(acts: seq<SubActivity>, a: SubActivity)
    ensures Revenue(acts + [a]) == Revenue(acts) + a.revenue
  {
    assert (acts + [a])[..|acts|] == acts;
  }

  function InModule(k: ModuleKey): SubActivity -> bool
  {
    (a: SubActivity) => ModuleKeyOf(a.kind) == Some(k)
  }

  function Mapped(): SubActivity -> bool
  {
    (a: SubActivity) => ModuleKeyOf(a.kind).Some?
  }

  lemma AddActivityKey(t: Totals, a: SubActivity, k: ModuleKey)
    ensures KeyTotal(AddActivity(t, a), k) == KeyTotal(t, k) + (if InModule(k)(a) then a.revenue else 0.0)
    ensures Total(AddActivity(t, a)) == Total(t) + (if Mapped()(a) then a.revenue else 0.0)
  {
  }

  /** Each key holds the revenue of exactly the activities whose type maps to it. */
  lemma {:induction false} AggregateByKey(acts: seq<SubActivity>, k: ModuleKey)
    ensures KeyTotal(Aggregate(acts), k) == Revenue(Filter(acts, InModule(k)))
  {
    if |acts| > 0 {
      var n := |acts| - 1;
      var p := InModule(k);
      AggregateByKey(acts[..n], k);
      AddActivityKey(Aggregate(acts[..n]), acts[n], k);
      assert acts[..n + 1] == acts;
      FilterNext(acts, p, n);
      var f := Filter(acts[..n], p);
      if p(acts[n]) {
        assert Filter(acts, p) == f + [acts[n]];
        RevenueSnoc(f, acts[n]);
      } else {
        assert Filter(acts, p) == f + [];
        assert f + [] == f;
      }
    }
  }

  /** The total is the revenue of the activities whose type maps to a module; the others are left out. */
  lemma {:induction false} AggregateTotal(acts: seq<SubActivity>)
    ensures Total(Aggregate(acts)) == Revenue(Filter(acts, Mapped()))
  {
    if |acts| > 0 {
      var n := |acts| - 1;
      var p := Mapped();
      AggregateTotal(acts[..n]);
      AddActivityKey(Aggregate(acts[..n]), acts[n], Hybrid);
      assert acts[..n + 1] == acts;
      FilterNext(acts, p, n);
      var f := Filter(acts[..n], p);
      if p(acts[n]) {
        assert Filter(acts, p) == f + [acts[n]];
        RevenueSnoc(f, acts[n]);
      } else {
        assert Filter(acts, p) == f + [];
        assert f + [] == f;
      }
    }
  }

  /** `compute_module_from_classification`: enrich in place when a table is given, then add revenue up per key. */
  method ComputeModule(acts: array<SubActivity>, entries: seq<Entry>) returns (t: Totals)
    modifies acts
    ensures forall i :: 0 <= i < acts.Length ==>
      acts[i] == (if entries != [] then Enriched(old(acts[i]), ClassifyMap(entries)) else old(acts[i]))
    ensures t == Aggregate(acts[..])
  {
    if entries != [] {
      EnrichTypes(acts, entries);
    }
    t := Totals(0.0, 0.0, 0.0);
    var i := 0;
    while i < acts.Length
      invariant i <= acts.Length
      invariant t == Aggregate(acts[..i])
    {
      assert acts[..i + 1][..i] == acts[..i];
      t := AddActivity(t, acts[i]);
      i := i + 1;
    }
    assert acts[..i] == acts[..];
  }
}

=== FILE: excel_v2.dfy ===
/**
 * The workbook reader's value rules: the benchmark tag test and the
 * benchmark name it yields, cell-to-number conversion, the ARPU/ARPPU
 * back-fill from the funnel, the funnel and conversion sheet row rules,
 * and the R-tier ordering.
 */
module ExcelV2 {
  import opened Wrappers
  import opened Numeric
  import opened Strings
  import opened Cells
  import Dicts

  // ---- _to_number ----

  /**
   * A cell as a number: None is 0, numbers (and booleans, which Python
   * counts as integers) pass through, text is read after deleting commas
   * and spaces, and text that does not parse is 0.
   */
  function ToNumber(c: Cell): real
  {
    match c
    case Blank => 0.0
    case Int(i) => i as real
    case Float(f, _) => f
    case Boolean(b) => if b then 1.0 else 0.0
    case Text(s) => ParseFloat(Remove(Remove(s, ','), ' ')).GetOr(0.0)
  }

  /** Digit text reads as its value. */
  lemma ToNumberDigits(n: nat)
    ensures ToNumber(Text(NatToString(n))) == n as real
  {
    var s := NatToString(n);
    assert ',' !in s && ' ' !in s;
    RemoveAbsent(s, ',');
    RemoveAbsent(s, ' ');
    ParseNat(n);
  }

  /** Removing c from a + [x] + b removes it piecewise. */
  lemma RemoveMid(a: string, x: char, b: string, c: char)
    ensures Remove(a + [x] + b, c) == Remove(a, c) + Remove([x], c) + Remove(b, c)
  {
    RemoveAppend(a + [x], b, c);
    RemoveAppend(a, [x], c);
  }

  lemma RemoveSame(c: char)
    ensures Remove([c], c) == []
  {
    assert [c][1..] == [];
  }

  lemma RemoveOther(x: char, c: char)
    requires x != c
    ensures Remove([x], c) == [x]
  {
    assert [x][1..] == [];
  }

  /** Deleting c loses the c between a and b. */
  lemma RemoveDrop(a: string, b: string, c: char)
    ensures Remove(a + [c] + b, c) == Remove(a + b, c)
  {
    var ra, rb := Remove(a, c), Remove(b, c);
    calc {
      Remove(a + [c] + b, c);
      { RemoveMid(a, c, b, c); }
      ra + Remove([c], c) + rb;
      { RemoveSame(c); }
      ra + [] + rb;
      { assert ra + [] == ra; }
      ra + rb;
      { RemoveAppend(a, b, c); }
      Remove(a + b, c);
    }
  }

  /** Deleting commas then spaces loses a comma between a and b. */
  lemma CleanComma(a: string, b: string)
    ensures Remove(Remove(a + [','] + b, ','), ' ') == Remove(Remove(a + b, ','), ' ')
  {
    RemoveDrop(a, b, ',');
  }

  /** Deleting commas keeps a space between a and b. */
  lemma CommasKeepSpace(a: string, b: string)
    ensures Remove(a + [' '] + b, ',') == Remove(a, ',') + [' '] + Remove(b, ',')
  {
    RemoveMid(a, ' ', b, ',');
    RemoveOther(' ', ',');
  }

  /** Deleting commas then spaces loses a space between a and b. */
  lemma CleanSpace(a: string, b: string)
    ensures Remove(Remove(a + [' '] + b, ','), ' ') == Remove(Remove(a + b, ','), ' ')
  {
    CommasKeepSpace(a, b);
    RemoveAppend(a, b, ',');
    RemoveDrop(Remove(a, ','), Remove(b, ','), ' ');
  }

  /** Thousands separators and spaces inside the text are ignored. */
  lemma ToNumberSeparator(a: string, x: char, b: string)
    requires x == ',' || x == ' '
    ensures ToNumber(Text(a + [x] + b)) == ToNumber(Text(a + b))
  {
    if x == ',' {
      CleanComma(a, b);
    } else {
      CleanSpace(a, b);
    }
  }

  // ---- _is_benchmark_tag ----

  const BoolTags: seq<string> := ["是", "yes", "true", "1"]

  /** The cell marks a benchmark row. */
  predicate IsBenchmarkTag(c: Cell)
  {
    !c.Blank? &&
    var tag := Lower(Trimmed(c));
    tag in BoolTags || Contains(tag, "对标") || Contains(tag, "benchmark")
  }

  /** The text has no ASCII capitals, so `lower()` keeps it. */
  predicate NoUpper(s: string)
  {
    forall k :: 0 <= k < |s| ==> !('A' <= s[k] <= 'Z')
  }

  /** Any value whose text contains a benchmark word is a benchmark tag. */
  lemma TagByWord(c: Cell, word: string)
    requires |word| > 0 && !IsSpace(word[0]) && !IsSpace(word[|word| - 1]) && NoUpper(word)
    requires word == "对标" || word == "benchmark"
    requires !c.Blank? && Contains(Show(c), word)
    ensures IsBenchmarkTag(c)
  {
    ContainsStrip(Show(c), word);
    ContainsLower(Trimmed(c), word);
  }

  /** A value whose trimmed, lower-cased text is yes-like is a benchmark tag. */
  lemma TagByYes(c: Cell, text: string)
    requires !c.Blank? && Trimmed(c) == text && Lower(text) in BoolTags
    ensures IsBenchmarkTag(c)
  {
  }

  /** A word whose first character is absent does not occur. */
  lemma NoOccurrence(s: string, word: string)
    requires |word| > 0 && word[0] !in s
    ensures !Contains(s, word)
  {
    forall i: nat | i <= |s| ensures !OccursAt(s, word, i) {
      if i + |word| <= |s| {
        assert s[i..i + |word|][0] == s[i];
      }
    }
  }

  /** A tag needs a yes-like text or one of the two words. */
  lemma NotTag(c: Cell, tag: string)
    requires !c.Blank? && Lower(Trimmed(c)) == tag
    requires tag !in BoolTags && '对' !in tag && 'b' !in tag
    ensures !IsBenchmarkTag(c)
  {
    NoOccurrence(tag, "对标");
    NoOccurrence(tag, "benchmark");
  }

  /** None is never a tag. */
  lemma BlankNotTag()
    ensures !IsBenchmarkTag(Blank)
  {
  }

  /** The boolean True is a tag. */
  lemma TrueTag()
    ensures IsBenchmarkTag(Boolean(true))
  {
    StripNoSpace("True");
    assert Lower("True") == "true";
    TagByYes(Boolean(true), "True");
  }

  /** The boolean False is not a tag. */
  lemma FalseNotTag()
    ensures !IsBenchmarkTag(Boolean(false))
  {
    StripNoSpace("False");
    var t := "false";
    assert Lower("False") == t;
    assert |t| == 5 && t[0] == 'f' && t[1] == 'a' && t[2] == 'l' && t[3] == 's' && t[4] == 'e';
    assert t !in BoolTags by {
      assert |BoolTags[0]| == 1 && |BoolTags[1]| == 3 && |BoolTags[2]| == 4 && |BoolTags[3]| == 1;
    }
    assert Trimmed(Boolean(false)) == "False";
    assert Lower(Trimmed(Boolean(false))) == t;
    forall i | 0 <= i < |t| ensures t[i] != '对' && t[i] != 'b' {
      assert i == 0 || i == 1 || i == 2 || i == 3 || i == 4;
    }
    NotTag(Boolean(false), t);
  }

  /** The number 1 is a tag. */
  lemma OneTag()
    ensures IsBenchmarkTag(Int(1))
  {
    assert Show(Int(1)) == "1";
    StripNoSpace("1");
    assert Lower("1") == "1";
    TagByYes(Int(1), "1");
  }

  /** The text "Yes" is a tag. */
  lemma YesTag()
    ensures IsBenchmarkTag(Text("Yes"))
  {
    StripNoSpace("Yes");
    assert Lower("Yes") == "yes";
    TagByYes(Text("Yes"), "Yes");
  }

  // ---- _extract_benchmark_name ----

  /** Python's `a or b` on strings. */
  function OrElse(a: string, b: string): (r: string)
    ensures |r| > 0 <==> |a| > 0 || |b| > 0
  {
    if |a| > 0 then a else b
  }

  const Prefixes: seq<string> := ["对标活动-", "对标活动", "对标-", "对标"]

  predicate SpaceOrHyphen(ch: char)
  {
    ch == ' ' || ch == '-'
  }

  /** The first prefix (in list order) the tag starts with. */
  function FirstPrefix(tag: string, ps: seq<string>): (r: Option<nat>)
    ensures r.Some? ==> r.value < |ps| && StartsWith(tag, ps[r.value])
    ensures r.Some? ==> forall k :: 0 <= k < r.value ==> !StartsWith(tag, ps[k])
    ensures r.None? ==> forall k :: 0 <= k < |ps| ==> !StartsWith(tag, ps[k])
  {
    if |ps| == 0 then None
    else if StartsWith(tag, ps[0]) then Some(0)
    else match FirstPrefix(tag, ps[1..])
      case None => None
      case Some(k) => Some(k + 1)
  }

  /**
   * The benchmark name a tag cell gives: a yes-like tag or a bare prefix
   * gives the fallback (or 对标); a prefixed tag gives what follows the
   * prefix without surrounding spaces and hyphens; any other tag gives the
   * fallback, or the tag itself when there is none.
   */
  function ExtractName(c: Cell, fallback: string): (r: string)
    ensures r == "" ==> fallback == "" && !c.Blank? && Trimmed(c) == ""
  {
    if c.Blank? then OrElse(fallback, "对标") else NameFromTag(Trimmed(c), fallback)
  }

  /** The name a non-empty cell's stripped text gives. */
  function NameFromTag(tag: string, fallback: string): (r: string)
    ensures r == "" ==> fallback == "" && tag == ""
  {
    if Lower(tag) in BoolTags then OrElse(fallback, "对标")
    else AfterPrefix(tag, FirstPrefix(tag, Prefixes), fallback)
  }

  /** What follows the matched prefix, without spaces and hyphens around it. */
  function AfterPrefix(tag: string, k: Option<nat>, fallback: string): (r: string)
    requires k.Some? ==> k.value < |Prefixes| && StartsWith(tag, Prefixes[k.value])
    ensures r == "" ==> fallback == "" && tag == ""
  {
    match k
    case Some(j) =>
      var name := StripBy(tag[|Prefixes[j]|..], SpaceOrHyphen);
      if |name| > 0 then name else OrElse(fallback, "对标")
    case None => OrElse(fallback, tag)
  }

  lemma {:induction false} FirstPrefixIs(tag: string, ps: seq<string>, k: nat)
    requires k < |ps| && StartsWith(tag, ps[k])
    requires forall j :: 0 <= j < k ==> !StartsWith(tag, ps[j])
    ensures FirstPrefix(tag, ps) == Some(k)
  {
    if k > 0 {
      FirstPrefixIs(tag, ps[1..], k - 1);
    }
  }

  lemma {:induction false} FirstPrefixNone(tag: string, ps: seq<string>)
    requires forall j :: 0 <= j < |ps| ==> !StartsWith(tag, ps[j])
    ensures FirstPrefix(tag, ps) == None
  {
    if |ps| > 0 {
      FirstPrefixNone(tag, ps[1..]);
    }
  }

  /** A tag starting with 对 is not yes-like. */
  lemma NotYes(tag: string)
    requires |tag| > 0 && tag[0] == '对'
    ensures Lower(tag) !in BoolTags
  {
    assert Lower(tag)[0] == '对';
  }

  /** A name with no spaces or hyphens around it, as a prefix leaves it. */
  predicate CleanName(n: string)
  {
    |n| > 0 && !SpaceOrHyphen(n[0]) && !SpaceOrHyphen(n[|n| - 1]) && !IsSpace(n[|n| - 1])
  }

  /** A prefixed tag with a clean name after its first matching prefix gives that name. */
  lemma ExtractPrefixed(p: string, k: nat, n: string, fallback: string)
    requires k < |Prefixes| && p == Prefixes[k] && CleanName(n)
    requires forall j :: 0 <= j < k ==> !StartsWith(p + n, Prefixes[j])
    ensures ExtractName(Text(p + n), fallback) == n
  {
    var tag := p + n;
    assert tag[0] == '对';
    StripNoSpace(tag);
    assert Trimmed(Text(tag)) == tag;
    NotYes(tag);
    assert tag[..|p|] == p;
    FirstPrefixIs(tag, Prefixes, k);
    assert tag[|p|..] == n;
    StripByNone(n, SpaceOrHyphen);
    calc {
      ExtractName(Text(tag), fallback);
      NameFromTag(tag, fallback);
      AfterPrefix(tag, Some(k), fallback);
      n;
    }
  }

  /** "对标活动-" followed by a name gives that name. */
  lemma ExtractAfterEventDash(n: string, fallback: string)
    requires CleanName(n)
    ensures ExtractName(Text("对标活动-" + n), fallback) == n
  {
    ExtractPrefixed(Prefixes[0], 0, n, fallback);
  }

  /** "对标活动" followed directly by a name gives that name. */
  lemma ExtractAfterEvent(n: string, fallback: string)
    requires CleanName(n)
    ensures ExtractName(Text("对标活动" + n), fallback) == n
  {
    var tag := Prefixes[1] + n;
    assert !StartsWith(tag, Prefixes[0]) by {
      assert tag[4] == n[0] && Prefixes[0][4] == '-';
    }
    ExtractPrefixed(Prefixes[1], 1, n, fallback);
  }

  /** "对标-" followed by a name gives that name. */
  lemma ExtractAfterDash(n: string, fallback: string)
    requires CleanName(n)
    ensures ExtractName(Text("对标-" + n), fallback) == n
  {
    var tag := Prefixes[2] + n;
    assert tag[2] == '-';
    assert !StartsWith(tag, Prefixes[0]) by {
      assert Prefixes[0][2] == '活';
    }
    assert !StartsWith(tag, Prefixes[1]) by {
      assert Prefixes[1][2] == '活';
    }
    ExtractPrefixed(Prefixes[2], 2, n, fallback);
  }

  /** "对标" followed directly by a name (not starting with 活动 or -) gives that name. */
  lemma ExtractAfterBare(n: string, fallback: string)
    requires CleanName(n) && n[0] != '活'
    ensures ExtractName(Text("对标" + n), fallback) == n
  {
    var tag := Prefixes[3] + n;
    assert tag[2] == n[0];
    assert !StartsWith(tag, Prefixes[0]) by {
      assert Prefixes[0][2] == '活';
    }
    assert !StartsWith(tag, Prefixes[1]) by {
      assert Prefixes[1][2] == '活';
    }
    assert !StartsWith(tag, Prefixes[2]) by {
      assert Prefixes[2][2] == '-';
    }
    ExtractPrefixed(Prefixes[3], 3, n, fallback);
  }

  /** A bare prefix names nothing, so the fallback (or 对标) is used. */
  lemma ExtractBarePrefix(fallback: string)
    ensures ExtractName(Text("对标"), fallback) == OrElse(fallback, "对标")
  {
    var tag := Prefixes[3];
    assert |tag| == 2 && tag[0] == '对' && tag[..2] == tag;
    StripNoSpace(tag);
    NotYes(tag);
    assert |Prefixes[0]| == 5 && |Prefixes[1]| == 4 && |Prefixes[2]| == 3;
    FirstPrefixIs(tag, Prefixes, 3);
    assert StripBy(tag[2..], SpaceOrHyphen) == "";
    NameAtPrefix(Text(tag), tag, 3, fallback);
  }

  /** The name a cell gives once its stripped text and its first prefix are known. */
  lemma NameAtPrefix(c: Cell, tag: string, k: nat, fallback: string)
    requires !c.Blank? && Trimmed(c) == tag && Lower(tag) !in BoolTags
    requires FirstPrefix(tag, Prefixes) == Some(k)
    ensures ExtractName(c, fallback) == AfterPrefix(tag, Some(k), fallback)
  {
  }

  /** Text that does not start with 对 matches no prefix. */
  lemma NoPrefix(tag: string)
    requires |tag| > 0 && tag[0] != '对'
    ensures FirstPrefix(tag, Prefixes) == None
  {
    forall j | 0 <= j < |Prefixes| ensures !StartsWith(tag, Prefixes[j]) {
      var q := Prefixes[j];
      assert |q| > 0 && q[0] == '对';
    }
    FirstPrefixNone(tag, Prefixes);
  }

  /** Untagged text names itself when there is no fallback. */
  lemma ExtractUntagged(c: Cell, fallback: string)
    requires !c.Blank? && |Trimmed(c)| > 0 && Trimmed(c)[0] != '对'
    requires Lower(Trimmed(c)) !in BoolTags
    ensures ExtractName(c, fallback) == OrElse(fallback, Trimmed(c))
  {
    var tag := Trimmed(c);
    NoPrefix(tag);
    assert NameFromTag(tag, fallback) == AfterPrefix(tag, None, fallback);
  }

  // ---- _auto_fix_arpu_arppu ----

  datatype Stage = Stage(name: string, users: real, note: string)

  datatype OverviewEntry = OverviewEntry(event: string, revenue: real, payRate: real, arpu: real, arppu: real)

  /** Users of the last stage whose name contains key; 0 when none does. */
  function LastUsers(stages: seq<Stage>, key: string): real
  {
    if |stages| == 0 then 0.0
    else if Contains(stages[|stages| - 1].name, key) then stages[|stages| - 1].users
    else LastUsers(stages[..|stages| - 1], key)
  }

  lemma {:induction false} LastUsersIsLast(stages: seq<Stage>, key: string, i: nat)
    requires i < |stages| && Contains(stages[i].name, key)
    requires forall j :: i < j < |stages| ==> !Contains(stages[j].name, key)
    ensures LastUsers(stages, key) == stages[i].users
  {
    if i < |stages| - 1 {
      LastUsersIsLast(stages[..|stages| - 1], key, i);
    }
  }

  lemma {:induction false} LastUsersNone(stages: seq<Stage>, key: string)
    requires forall j :: 0 <= j < |stages| ==> !Contains(stages[j].name, key)
    ensures LastUsers(stages, key) == 0.0
  {
    if |stages| > 0 {
      LastUsersNone(stages[..|stages| - 1], key);
    }
  }

  /** An entry with revenue but no ARPU and no ARPPU gets them from the funnel's users. */
  function FixEntry(e: OverviewEntry, participants: real, payers: real): OverviewEntry
  {
    if e.revenue > 0.0 && e.arpu == 0.0 && e.arppu == 0.0 then
      e.(arpu := if participants > 0.0 then Round(e.revenue / participants, 3) else e.arpu,
         arppu := if payers > 0.0 then Round(e.revenue / payers, 3) else e.arppu)
    else e
  }

  /**
   * Only entries with revenue > 0 and ARPU = ARPPU = 0 change, and only in
   * those two fields, each to revenue over the matching user count.
   */
  lemma FixEntrySpec(e: OverviewEntry, participants: real, payers: real)
    ensures var f := FixEntry(e, participants, payers);
      f.event == e.event && f.revenue == e.revenue && f.payRate == e.payRate
    ensures FixEntry(e, participants, payers) != e ==> e.revenue > 0.0 && e.arpu == 0.0 && e.arppu == 0.0
    ensures e.revenue > 0.0 && e.arpu == 0.0 && e.arppu == 0.0 && participants > 0.0 ==>
              FixEntry(e, participants, payers).arpu == Round(e.revenue / participants, 3)
    ensures e.revenue > 0.0 && e.arpu == 0.0 && e.arppu == 0.0 && payers > 0.0 ==>
              FixEntry(e, participants, payers).arppu == Round(e.revenue / payers, 3)
    ensures participants <= 0.0 && payers <= 0.0 ==> FixEntry(e, participants, payers) == e
  {
  }

  /** The back-fill, in place over the overview's time series. */
  method AutoFix(stages: seq<Stage>, ts: array<OverviewEntry>)
    modifies ts
    ensures forall i :: 0 <= i < ts.Length ==>
              ts[i] == FixEntry(old(ts[i]), LastUsers(stages, "参与"), LastUsers(stages, "付费"))
  {
    if |stages| == 0 || ts.Length == 0 {
      return;
    }
    var participants, payers := 0.0, 0.0;
    var k := 0;
    while k < |stages|
      invariant 0 <= k <= |stages|
      invariant participants == LastUsers(stages[..k], "参与") && payers == LastUsers(stages[..k], "付费")
    {
      assert stages[..k + 1][..k] == stages[..k];
      if Contains(stages[k].name, "参与") {
        participants := stages[k].users;
      }
      if Contains(stages[k].name, "付费") {
        payers := stages[k].users;
      }
      k := k + 1;
    }
    assert stages[..k] == stages;
    if participants <= 0.0 && payers <= 0.0 {
      return;
    }
    var i := 0;
    while i < ts.Length
      invariant 0 <= i <= ts.Length
      invariant forall j :: 0 <= j < i ==> ts[j] == FixEntry(old(ts[j]), participants, payers)
      invariant forall j :: i <= j < ts.Length ==> ts[j] == old(ts[j])
    {
      var e := ts[i];
      if e.revenue > 0.0 && e.arpu == 0.0 && e.arppu == 0.0 {
        if participants > 0.0 {
          e := e.(arpu := Round(e.revenue / participants, 3));
        }
        if payers > 0.0 {
          e := e.(arppu := Round(e.revenue / payers, 3));
        }
        ts[i] := e;
      }
      i := i + 1;
    }
  }

  // ---- _parse_reach_conversion ----

  /** Note column: the third cell's text when it is truthy. */
  function NoteOf(row: seq<Cell>): string
  {
    if |row| > 2 && Truthy(row[2]) then Trimmed(row[2]) else ""
  }

  /** The row names a stage and gives its users. */
  predicate HasStage(row: seq<Cell>)
  {
    |row| >= 2 && Truthy(row[0]) && !row[1].Blank?
  }

  /** A row is read at all: it has two cells and does not give a stage a non-positive user count. */
  predicate RowKept(row: seq<Cell>)
  {
    |row| >= 2 && !(HasStage(row) && ToNumber(row[1]) <= 0.0)
  }

  /** The funnel stage a row contributes. */
  function RowStage(row: seq<Cell>): (r: Option<Stage>)
    ensures r.Some? ==> r.value.users > 0.0
  {
    if RowKept(row) && HasStage(row) then Some(Stage(Trimmed(row[0]), ToNumber(row[1]), NoteOf(row))) else None
  }

  /** The funnel: one stage per kept row that names one, in row order, every one with users. */
  function FunnelStages(rows: seq<seq<Cell>>): (r: seq<Stage>)
    ensures |r| <= |rows|
    ensures forall k :: 0 <= k < |r| ==> r[k].users > 0.0
  {
    if |rows| == 0 then []
    else
      var st := RowStage(rows[|rows| - 1]);
      FunnelStages(rows[..|rows| - 1]) + (if st.Some? then [st.value] else [])
  }

  datatype BenchStage = BenchStage(stage: string, users: real)

  /** The benchmark name of column col: the first truthy cell of that column, stripped. */
  function ColumnName(rows: seq<seq<Cell>>, col: nat): Option<string>
  {
    if |rows| == 0 then None
    else if |rows[0]| > col && Truthy(rows[0][col]) then Some(Trimmed(rows[0][col]))
    else ColumnName(rows[1..], col)
  }

  /** Number of (name, users) column pairs from column 3 on. */
  function Pairs(n: nat): nat
  {
    if n < 5 then 0 else (n - 3) / 2
  }

  datatype Added = Added(name: string, stage: BenchStage)

  /** What a column pair adds given its column's benchmark name: a stage, when the row names one and users are positive. */
  function PairStage(name: Option<string>, row: seq<Cell>, col: nat): (r: Option<Added>)
    ensures r.Some? ==> r.value.stage.users > 0.0 && |r.value.name| > 0
  {
    if col + 1 < |row| && name.Some? && |name.value| > 0 && !row[col + 1].Blank? && Truthy(row[0])
       && ToNumber(row[col + 1]) > 0.0
    then Some(Added(name.value, BenchStage(Trimmed(row[0]), ToNumber(row[col + 1]))))
    else None
  }

  /** What column pair k of a row adds. */
  function PairAdds(rows: seq<seq<Cell>>, row: seq<Cell>, k: nat): (r: Option<Added>)
  {
    PairStage(ColumnName(rows, 3 + 2 * k), row, 3 + 2 * k)
  }

  function AddedFor(a: Option<Added>, name: string): seq<BenchStage>
  {
    if a.Some? && a.value.name == name then [a.value.stage] else []
  }

  /** The stages the first k column pairs of a row add under a name. */
  function RowPart(rows: seq<seq<Cell>>, row: seq<Cell>, name: string, k: nat): (r: seq<BenchStage>)
    ensures forall j :: 0 <= j < |r| ==> r[j].users > 0.0
  {
    if k == 0 then [] else RowPart(rows, row, name, k - 1) + AddedFor(PairAdds(rows, row, k - 1), name)
  }

  /** The stages the kept rows of `done` give a benchmark name, in row order. */
  function BenchStages(rows: seq<seq<Cell>>, done: seq<seq<Cell>>, name: string): (r: seq<BenchStage>)
    ensures forall j :: 0 <= j < |r| ==> r[j].users > 0.0
  {
    if |done| == 0 then []
    else
      var row := done[|done| - 1];
      BenchStages(rows, done[..|done| - 1], name) + (if RowKept(row) then RowPart(rows, row, name, Pairs(|row|)) else [])
  }

  /** What the benchmark dict holds once the rows of `done` and the first k pairs of `row` are read. */
  function Upto(rows: seq<seq<Cell>>, done: seq<seq<Cell>>, row: seq<Cell>, k: nat): string -> seq<BenchStage>
  {
    n => BenchStages(rows, done, n) + RowPart(rows, row, n, k)
  }

  /** The name a pair's name cell registers with `setdefault`, when the cell is truthy. */
  function NameKey(row: seq<Cell>, col: nat): seq<string>
  {
    if col < |row| && Truthy(row[col]) then [Trimmed(row[col])] else []
  }

  /** The name a pair appends a stage under, when it adds one. */
  function AddKey(a: Option<Added>): seq<string>
  {
    if a.Some? then [a.value.name] else []
  }

  /** The names the first k column pairs of a row register, in scan order. */
  function RowKeys(rows: seq<seq<Cell>>, row: seq<Cell>, k: nat): seq<string>
  {
    if k == 0 then []
    else RowKeys(rows, row, k - 1) + NameKey(row, 3 + 2 * (k - 1)) + AddKey(PairAdds(rows, row, k - 1))
  }

  /** The names the kept rows of `done` register, in scan order. */
  function SheetKeys(rows: seq<seq<Cell>>, done: seq<seq<Cell>>): seq<string>
  {
    if |done| == 0 then []
    else
      var row := done[|done| - 1];
      SheetKeys(rows, done[..|done| - 1]) + (if RowKept(row) then RowKeys(rows, row, Pairs(|row|)) else [])
  }

  lemma {:induction false} RowKeysNext(rows: seq<seq<Cell>>, done: seq<seq<Cell>>, row: seq<Cell>, k: nat)
    ensures SheetKeys(rows, done) + RowKeys(rows, row, k + 1)
         == SheetKeys(rows, done) + RowKeys(rows, row, k) + NameKey(row, 3 + 2 * k) + AddKey(PairAdds(rows, row, k))
  {
    ConcatAssoc(SheetKeys(rows, done), RowKeys(rows, row, k), NameKey(row, 3 + 2 * k), AddKey(PairAdds(rows, row, k)));
  }

  lemma ConcatAssoc<T>(a: seq<T>, b: seq<T>, c: seq<T>, e: seq<T>)
    ensures a + (b + c + e) == a + b + c + e
  {
  }

  lemma {:induction false} SheetKeysNext(rows: seq<seq<Cell>>, i: nat)
    requires i < |rows|
    ensures SheetKeys(rows, rows[..i + 1])
         == SheetKeys(rows, rows[..i]) + (if RowKept(rows[i]) then RowKeys(rows, rows[i], Pairs(|rows[i]|)) else [])
  {
    assert rows[..i + 1][..i] == rows[..i];
    assert rows[..i + 1][i] == rows[i];
  }

  /** The search for a column's benchmark name. */
  method FindColumnName(rows: seq<seq<Cell>>, col: nat) returns (r: Option<string>)
    ensures r == ColumnName(rows, col)
  {
    var i := 0;
    while i < |rows|
      invariant 0 <= i <= |rows|
      invariant ColumnName(rows[i..], col) == ColumnName(rows, col)
    {
      assert rows[i..][1..] == rows[i + 1..];
      if |rows[i]| > col && Truthy(rows[i][col]) {
        return Some(Trimmed(rows[i][col]));
      }
      i := i + 1;
    }
    return None;
  }

  /** The loop over column pairs stops exactly after the last pair. */
  lemma PairsStep(n: nat, k: nat)
    requires k <= Pairs(n)
    ensures 3 + 2 * k + 1 < n ==> k + 1 <= Pairs(n)
    ensures 3 + 2 * k + 1 >= n ==> k == Pairs(n)
  {
  }

  lemma NextPart(rows: seq<seq<Cell>>, done: seq<seq<Cell>>, row: seq<Cell>, k: nat, n: string)
    ensures BenchStages(rows, done, n) + RowPart(rows, row, n, k + 1)
         == (BenchStages(rows, done, n) + RowPart(rows, row, n, k)) + AddedFor(PairAdds(rows, row, k), n)
  {
    var a, b, c := BenchStages(rows, done, n), RowPart(rows, row, n, k), AddedFor(PairAdds(rows, row, k), n);
    assert RowPart(rows, row, n, k + 1) == b + c;
    assert a + (b + c) == (a + b) + c;
  }

  /** A pair that adds nothing leaves the dict tracking the next prefix. */
  lemma PairAddsNothing(data: seq<Dicts.Group<string, BenchStage>>, rows: seq<seq<Cell>>, done: seq<seq<Cell>>,
                        row: seq<Cell>, k: nat)
    requires PairAdds(rows, row, k).None?
    requires Dicts.Tracks(data, Upto(rows, done, row, k))
    ensures Dicts.Tracks(data, Upto(rows, done, row, k + 1))
  {
    forall n ensures BenchStages(rows, done, n) + RowPart(rows, row, n, k + 1)
                  == BenchStages(rows, done, n) + RowPart(rows, row, n, k) {
      NextPart(rows, done, row, k, n);
    }
    Dicts.TracksSame(data, Upto(rows, done, row, k),
                     Upto(rows, done, row, k + 1));
  }

  /** A pair that adds a stage appends it under its name. */
  lemma PairAddsStage(data: seq<Dicts.Group<string, BenchStage>>, rows: seq<seq<Cell>>, done: seq<seq<Cell>>,
                      row: seq<Cell>, k: nat)
    requires PairAdds(rows, row, k).Some?
    requires Dicts.Tracks(data, Upto(rows, done, row, k))
    ensures Dicts.Tracks(Dicts.Append(data, PairAdds(rows, row, k).value.name, PairAdds(rows, row, k).value.stage),
                         Upto(rows, done, row, k + 1))
  {
    var a := PairAdds(rows, row, k).value;
    ghost var f := Upto(rows, done, row, k);
    ghost var g := Upto(rows, done, row, k + 1);
    forall n ensures g(n) == if n == a.name then f(n) + [a.stage] else f(n) {
      NextPart(rows, done, row, k, n);
    }
    Dicts.AppendTracks(data, f, g, a.name, a.stage);
  }

  /** The name cell of a pair registers its benchmark (with no stages yet). */
  method RegisterPair(row: seq<Cell>, col: nat, data: seq<Dicts.Group<string, BenchStage>>,
                      ghost f: string -> seq<BenchStage>, ghost keys: seq<string>)
    returns (data': seq<Dicts.Group<string, BenchStage>>)
    requires col < |row|
    requires Dicts.Tracks(data, f)
    requires Dicts.RegisteredInOrder(data, keys)
    ensures Dicts.Tracks(data', f)
    ensures Dicts.RegisteredInOrder(data', keys + NameKey(row, col))
  {
    data' := data;
    if Truthy(row[col]) {
      Dicts.TouchTracks(data', f, Trimmed(row[col]));
      Dicts.TouchInOrder(data', keys, Trimmed(row[col]));
      data' := Dicts.Touch(data', Trimmed(row[col]));
    } else {
      assert keys + NameKey(row, col) == keys;
    }
  }

  /** Column pair k of a row: its name cell registers a benchmark, its users cell adds a stage. */
  method ComparisonPair(rows: seq<seq<Cell>>, ghost done: seq<seq<Cell>>, row: seq<Cell>, k: nat,
                        data: seq<Dicts.Group<string, BenchStage>>)
    returns (data': seq<Dicts.Group<string, BenchStage>>)
    requires 3 + 2 * k + 1 < |row|
    requires Dicts.Tracks(data, Upto(rows, done, row, k))
    requires Dicts.RegisteredInOrder(data, SheetKeys(rows, done) + RowKeys(rows, row, k))
    ensures Dicts.Tracks(data', Upto(rows, done, row, k + 1))
    ensures Dicts.RegisteredInOrder(data', SheetKeys(rows, done) + RowKeys(rows, row, k + 1))
  {
    var col := 3 + 2 * k;
    ghost var keys := SheetKeys(rows, done) + RowKeys(rows, row, k) + NameKey(row, col);
    data' := RegisterPair(row, col, data, Upto(rows, done, row, k), SheetKeys(rows, done) + RowKeys(rows, row, k));
    var name := FindColumnName(rows, col);
    assert name == ColumnName(rows, 3 + 2 * k);
    var add := PairStage(name, row, col);
    assert add == PairAdds(rows, row, k);
    RowKeysNext(rows, done, row, k);
    if add.Some? {
      PairAddsStage(data', rows, done, row, k);
      Dicts.AppendInOrder(data', keys, add.value.name, add.value.stage);
      data' := Dicts.Append(data', add.value.name, add.value.stage);
    } else {
      PairAddsNothing(data', rows, done, row, k);
      assert keys + AddKey(add) == keys;
    }
  }

  /** The comparison columns of one row, added to the benchmark dict. */
  method RowComparisons(rows: seq<seq<Cell>>, ghost done: seq<seq<Cell>>, row: seq<Cell>,
                        data: seq<Dicts.Group<string, BenchStage>>)
    returns (data': seq<Dicts.Group<string, BenchStage>>)
    requires Dicts.Tracks(data, Upto(rows, done, [], 0))
    requires Dicts.RegisteredInOrder(data, SheetKeys(rows, done))
    ensures Dicts.Tracks(data', Upto(rows, done, row, Pairs(|row|)))
    ensures Dicts.RegisteredInOrder(data', SheetKeys(rows, done) + RowKeys(rows, row, Pairs(|row|)))
  {
    data' := data;
    Dicts.TracksSame(data', Upto(rows, done, [], 0), Upto(rows, done, row, 0));
    assert SheetKeys(rows, done) + RowKeys(rows, row, 0) == SheetKeys(rows, done);
    var k := 0;
    while 3 + 2 * k + 1 < |row|
      invariant k <= Pairs(|row|)
      invariant Dicts.Tracks(data', Upto(rows, done, row, k))
      invariant Dicts.RegisteredInOrder(data', SheetKeys(rows, done) + RowKeys(rows, row, k))
    {
      PairsStep(|row|, k);
      data' := ComparisonPair(rows, done, row, k, data');
      k := k + 1;
    }
    PairsStep(|row|, k);
  }

  /** The comprehension that keeps benchmarks with at least one stage. */
  function WithStages(data: seq<Dicts.Group<string, BenchStage>>): (r: seq<Dicts.Group<string, BenchStage>>)
    ensures forall c :: c in r <==> c in data && |c.items| > 0
  {
    if |data| == 0 then []
    else (if |data[0].items| > 0 then [data[0]] else []) + WithStages(data[1..])
  }

  lemma {:induction false} WithStagesDistinct(data: seq<Dicts.Group<string, BenchStage>>)
    requires Dicts.Distinct(data, Dicts.GroupKey)
    ensures Dicts.Distinct(WithStages(data), Dicts.GroupKey)
  {
    if |data| > 0 {
      WithStagesDistinct(data[1..]);
      var rest := WithStages(data[1..]);
      forall c | c in rest ensures c.key != data[0].key {
        var j :| 0 <= j < |data[1..]| && data[1..][j] == c;
        assert data[j + 1] == c;
      }
    }
  }

  /** One row of the funnel sheet: its stage, if any, and its comparison columns. */
  method ReachRow(rows: seq<seq<Cell>>, i: nat, stages: seq<Stage>, data: seq<Dicts.Group<string, BenchStage>>)
    returns (stages': seq<Stage>, data': seq<Dicts.Group<string, BenchStage>>)
    requires i < |rows|
    requires stages == FunnelStages(rows[..i])
    requires Dicts.Tracks(data, Upto(rows, rows[..i], [], 0))
    requires Dicts.RegisteredInOrder(data, SheetKeys(rows, rows[..i]))
    ensures stages' == FunnelStages(rows[..i + 1])
    ensures Dicts.Tracks(data', Upto(rows, rows[..i + 1], [], 0))
    ensures Dicts.RegisteredInOrder(data', SheetKeys(rows, rows[..i + 1]))
  {
    var row := rows[i];
    assert rows[..i + 1][..i] == rows[..i];
    assert rows[..i + 1][i] == row;
    SheetKeysNext(rows, i);
    ghost var f := Upto(rows, rows[..i], [], 0);
    ghost var g := Upto(rows, rows[..i + 1], [], 0);
    stages', data' := stages, data;
    if |row| < 2 {
      Dicts.TracksSame(data, f, g);
      assert SheetKeys(rows, rows[..i]) + [] == SheetKeys(rows, rows[..i]);
    } else if Truthy(row[0]) && !row[1].Blank? && ToNumber(row[1]) <= 0.0 {
      Dicts.TracksSame(data, f, g);
      assert !RowKept(row);
      assert SheetKeys(rows, rows[..i]) + [] == SheetKeys(rows, rows[..i]);
    } else {
      if Truthy(row[0]) && !row[1].Blank? {
        stages' := stages + [Stage(Trimmed(row[0]), ToNumber(row[1]), NoteOf(row))];
      }
      data' := RowComparisons(rows, rows[..i], row, data);
      assert RowKept(row);
      Dicts.TracksSame(data', Upto(rows, rows[..i], row, Pairs(|row|)), g);
    }
  }

  /** The benchmarks kept at the end are exactly those with stages, each once. */
  lemma KeptBenchmarks(rows: seq<seq<Cell>>, data: seq<Dicts.Group<string, BenchStage>>)
    requires Dicts.Tracks(data, Upto(rows, rows, [], 0))
    ensures Dicts.Distinct(WithStages(data), Dicts.GroupKey)
    ensures forall c :: c in WithStages(data) ==> |c.items| > 0 && c.items == BenchStages(rows, rows, c.key)
    ensures forall name :: BenchStages(rows, rows, name) != [] ==> Dicts.Find(WithStages(data), Dicts.GroupKey, name).Some?
  {
    var comps := WithStages(data);
    WithStagesDistinct(data);
    forall c | c in comps ensures c.items == BenchStages(rows, rows, c.key) {
      var j :| 0 <= j < |data| && data[j] == c;
      assert BenchStages(rows, rows, c.key) + [] == BenchStages(rows, rows, c.key);
    }
    forall name | BenchStages(rows, rows, name) != [] ensures Dicts.Find(comps, Dicts.GroupKey, name).Some? {
      assert BenchStages(rows, rows, name) + [] == BenchStages(rows, rows, name);
      var j := Dicts.Find(data, Dicts.GroupKey, name).value;
      assert data[j] in comps;
    }
  }

  /**
   * The funnel sheet: the stages are the funnel of the kept rows; each
   * benchmark listed once, with the stages its columns give it in row
   * order, every benchmark that has stages is listed, and the benchmarks
   * come in the order the scan first registers their names, which decides
   * the primary one.
   */
  method ParseReach(rows: seq<seq<Cell>>) returns (stages: seq<Stage>, comps: seq<Dicts.Group<string, BenchStage>>)
    ensures stages == FunnelStages(rows)
    ensures Dicts.Distinct(comps, Dicts.GroupKey)
    ensures forall c :: c in comps ==> |c.items| > 0 && c.items == BenchStages(rows, rows, c.key)
    ensures forall name :: BenchStages(rows, rows, name) != [] ==> Dicts.Find(comps, Dicts.GroupKey, name).Some?
    ensures forall a, b :: 0 <= a < b < |comps| ==>
      Dicts.FirstIndex(SheetKeys(rows, rows), comps[a].key) < Dicts.FirstIndex(SheetKeys(rows, rows), comps[b].key)
  {
    stages := [];
    var data: seq<Dicts.Group<string, BenchStage>> := [];
    var i := 0;
    assert rows[..0] == [];
    while i < |rows|
      invariant 0 <= i <= |rows|
      invariant stages == FunnelStages(rows[..i])
      invariant Dicts.Tracks(data, Upto(rows, rows[..i], [], 0))
      invariant Dicts.RegisteredInOrder(data, SheetKeys(rows, rows[..i]))
    {
      stages, data := ReachRow(rows, i, stages, data);
      i := i + 1;
    }
    assert rows[..i] == rows;
    comps := WithStages(data);
    KeptBenchmarks(rows, data);
    KeptInOrder(data, SheetKeys(rows, rows));
  }

  /**
   * The kept benchmarks stay in the order their names were first registered
   * in, so the first of them is the one `comparisons[0]` takes as the
   * primary benchmark.
   */
  lemma {:induction false} KeptInOrder(data: seq<Dicts.Group<string, BenchStage>>, keys: seq<string>)
    requires InKeyOrder(keys, data)
    ensures InKeyOrder(keys, WithStages(data))
  {
    if |data| > 0 {
      var rest := WithStages(data[1..]);
      KeptInOrder(data[1..], keys);
      forall c | c in rest ensures Dicts.FirstIndex(keys, data[0].key) < Dicts.FirstIndex(keys, c.key) {
        var j :| 0 <= j < |data[1..]| && data[1..][j] == c;
        assert data[j + 1] == c;
      }
      var head: seq<Dicts.Group<string, BenchStage>> := if |data[0].items| > 0 then [data[0]] else [];
      assert WithStages(data) == head + rest;
      ConsInKeyOrder(keys, head, rest, data[0]);
    }
  }

  /** The groups' keys were first registered in list order. */
  predicate InKeyOrder(keys: seq<string>, data: seq<Dicts.Group<string, BenchStage>>)
  {
    forall a, b :: 0 <= a < b < |data| ==> Dicts.FirstIndex(keys, data[a].key) < Dicts.FirstIndex(keys, data[b].key)
  }

  lemma ConsInKeyOrder(keys: seq<string>, head: seq<Dicts.Group<string, BenchStage>>,
                       rest: seq<Dicts.Group<string, BenchStage>>, first: Dicts.Group<string, BenchStage>)
    requires head == [] || head == [first]
    requires InKeyOrder(keys, rest)
    requires forall c :: c in rest ==> Dicts.FirstIndex(keys, first.key) < Dicts.FirstIndex(keys, c.key)
    ensures InKeyOrder(keys, head + rest)
  {
    forall a, b | 0 <= a < b < |head + rest|
      ensures Dicts.FirstIndex(keys, (head + rest)[a].key) < Dicts.FirstIndex(keys, (head + rest)[b].key)
    {
      if a < |head| {
        assert (head + rest)[b] in rest;
      } else {
        assert (head + rest)[a] == rest[a - |head|] && (head + rest)[b] == rest[b - |head|];
      }
    }
  }

  // ---- _parse_payment_conversion ----

  datatype PriceTier = PriceTier(price: real, purchases: real, payers: real)

  /** A row is read when it has three cells and a first cell. */
  predicate ConvRow(row: seq<Cell>)
  {
    |row| >= 3 && !row[0].Blank?
  }

  /** Price, purchases and payers; payers default to purchases when the fourth cell is missing or None. */
  function RowTier(row: seq<Cell>): PriceTier
    requires |row| >= 3
  {
    var purchases := ToNumber(row[2]);
    PriceTier(ToNumber(row[1]), purchases, if |row| > 3 && !row[3].Blank? then ToNumber(row[3]) else purchases)
  }

  /** Three-column rows, and rows whose payers cell is None, count every purchase as a payer. */
  lemma PayersDefault(row: seq<Cell>)
    requires |row| == 3 || (|row| > 3 && row[3].Blank?)
    ensures RowTier(row).payers == RowTier(row).purchases
  {
  }

  predicate IsCurrent(dataType: string)
  {
    Contains(dataType, "当期") || Contains(Lower(dataType), "current")
  }

  predicate IsComparison(dataType: string)
  {
    Contains(dataType, "对标") || Contains(Lower(dataType), "comparison")
  }

  function DataType(row: seq<Cell>): string
    requires |row| >= 1
  {
    Trimmed(row[0])
  }

  /** The benchmark a comparison row belongs to; never empty. */
  function BenchName(dataType: string): (r: string)
    ensures |r| > 0
  {
    ExtractName(Text(dataType), "对标")
  }

  /** Where a row's tier goes: current wins over comparison; other rows are dropped. */
  datatype Kind = CurrentRow | BenchRow(name: string) | OtherRow

  function Classify(dataType: string): Kind
  {
    if IsCurrent(dataType) then CurrentRow
    else if IsComparison(dataType) then BenchRow(BenchName(dataType))
    else OtherRow
  }

  function RowKind(row: seq<Cell>): (r: Kind)
    ensures r != OtherRow ==> ConvRow(row)
  {
    if ConvRow(row) then Classify(DataType(row)) else OtherRow
  }

  /** The current event's tiers, in row order. */
  function CurrentTiers(rows: seq<seq<Cell>>): seq<PriceTier>
  {
    if |rows| == 0 then []
    else
      var row := rows[|rows| - 1];
      CurrentTiers(rows[..|rows| - 1]) + (if RowKind(row) == CurrentRow then [RowTier(row)] else [])
  }

  /** Reading one more row adds its tier when it is a current row. */
  lemma CurrentTiersStep(rows: seq<seq<Cell>>, i: nat)
    requires i < |rows|
    ensures CurrentTiers(rows[..i + 1])
         == CurrentTiers(rows[..i]) + (if RowKind(rows[i]) == CurrentRow then [RowTier(rows[i])] else [])
  {
    assert rows[..i + 1][..i] == rows[..i];
  }

  /** A comparison row's benchmark and tier. */
  function BenchEntry(row: seq<Cell>): Option<(string, PriceTier)>
  {
    match RowKind(row)
    case BenchRow(name) => Some((name, RowTier(row)))
    case _ => None
  }

  /** The tiers of the comparison rows of one benchmark, in row order. */
  function GroupTiers(rows: seq<seq<Cell>>, name: string): seq<PriceTier>
  {
    Dicts.Collect(rows, BenchEntry, name)
  }

  /** Every comparison row's tier is listed under its benchmark. */
  lemma GroupTiersHas(rows: seq<seq<Cell>>, i: nat)
    requires i < |rows| && RowKind(rows[i]).BenchRow?
    ensures RowTier(rows[i]) in GroupTiers(rows, RowKind(rows[i]).name)
  {
    Dicts.CollectHas(rows, BenchEntry, i);
  }

  /** One row of the conversion sheet, filed under current or under its benchmark. */
  method ConversionRow(rows: seq<seq<Cell>>, i: nat, current: seq<PriceTier>,
                       groups: seq<Dicts.Group<string, PriceTier>>)
    returns (current': seq<PriceTier>, groups': seq<Dicts.Group<string, PriceTier>>)
    requires i < |rows|
    requires current == CurrentTiers(rows[..i])
    requires Dicts.Tracks(groups, Dicts.Collected(rows[..i], BenchEntry))
    requires forall k :: 0 <= k < |groups| ==> |groups[k].items| > 0
    requires Dicts.FirstSeenOrder(groups, rows[..i], BenchEntry)
    ensures current' == CurrentTiers(rows[..i + 1])
    ensures Dicts.Tracks(groups', Dicts.Collected(rows[..i + 1], BenchEntry))
    ensures forall k :: 0 <= k < |groups'| ==> |groups'[k].items| > 0
    ensures Dicts.FirstSeenOrder(groups', rows[..i + 1], BenchEntry)
  {
    var row := rows[i];
    CurrentTiersStep(rows, i);
    current', groups' := current, groups;
    if |row| < 3 || row[0].Blank? {
      Dicts.CollectSkip(groups', rows, BenchEntry, i);
      Dicts.OrderSkip(groups', rows, BenchEntry, i);
      return;
    }
    var dataType := Trimmed(row[0]);
    var tier := RowTier(row);
    var kind := Classify(dataType);
    assert kind == RowKind(rows[i]);
    match kind
    case CurrentRow =>
      current' := current + [tier];
      Dicts.CollectSkip(groups', rows, BenchEntry, i);
      Dicts.OrderSkip(groups', rows, BenchEntry, i);
    case BenchRow(name) =>
      assert BenchEntry(rows[i]) == Some((name, tier));
      Dicts.CollectAppend(groups', rows, BenchEntry, i);
      Dicts.OrderAppend(groups', rows, BenchEntry, i);
      Dicts.AppendNonEmpty(groups', name, tier);
      groups' := Dicts.Append(groups', name, tier);
    case OtherRow =>
      Dicts.CollectSkip(groups', rows, BenchEntry, i);
      Dicts.OrderSkip(groups', rows, BenchEntry, i);
  }

  /**
   * The conversion sheet: the current tiers in row order, and one group per
   * benchmark holding its tiers in row order; no benchmark is listed twice
   * or empty, every comparison row's benchmark is listed, and the groups
   * come in the order of their first rows, so the first group is the one
   * `next(iter(...))` takes as the single comparison.
   */
  method ParseConversion(rows: seq<seq<Cell>>)
    returns (current: seq<PriceTier>, groups: seq<Dicts.Group<string, PriceTier>>)
    ensures current == CurrentTiers(rows)
    ensures Dicts.Tracks(groups, Dicts.Collected(rows, BenchEntry))
    ensures forall k :: 0 <= k < |groups| ==> |groups[k].items| > 0
    ensures Dicts.FirstSeenOrder(groups, rows, BenchEntry)
  {
    current, groups := [], [];
    var i := 0;
    while i < |rows|
      invariant 0 <= i <= |rows|
      invariant current == CurrentTiers(rows[..i])
      invariant Dicts.Tracks(groups, Dicts.Collected(rows[..i], BenchEntry))
      invariant forall k :: 0 <= k < |groups| ==> |groups[k].items| > 0
      invariant Dicts.FirstSeenOrder(groups, rows[..i], BenchEntry)
    {
      current, groups := ConversionRow(rows, i, current, groups);
      i := i + 1;
    }
    assert rows[..i] == rows;
  }

  /** Each comparison row's benchmark appears among the groups of a parsed sheet. */
  lemma ComparisonListed(rows: seq<seq<Cell>>, groups: seq<Dicts.Group<string, PriceTier>>, i: nat)
    requires Dicts.Tracks(groups, Dicts.Collected(rows, BenchEntry))
    requires i < |rows| && RowKind(rows[i]).BenchRow?
    ensures Dicts.Find(groups, Dicts.GroupKey, RowKind(rows[i]).name).Some?
  {
    GroupTiersHas(rows, i);
    Dicts.TracksFind(groups, Dicts.Collected(rows, BenchEntry), RowKind(rows[i]).name);
  }

  // ---- R-tier order ----

  const TierOrder: seq<string> := ["超R", "大R", "中R", "小R", "非R"]

  /** The canonical tiers that were seen, in canonical order. */
  function KnownTiers(order: seq<string>, seen: set<string>): (r: seq<string>)
    ensures forall t :: t in r <==> t in order && t in seen
    ensures |r| <= |order|
  {
    if |order| == 0 then []
    else (if order[0] in seen then [order[0]] else []) + KnownTiers(order[1..], seen)
  }

  /** In a list without repeats, a later entry sits one further along than in the tail. */
  lemma PosInTail(order: seq<string>, t: string)
    requires forall i, j :: 0 <= i < j < |order| ==> order[i] != order[j]
    requires |order| > 0 && t in order[1..]
    ensures PosIn(order, t) == 1 + PosIn(order[1..], t)
  {
    var j :| 0 <= j < |order[1..]| && order[1..][j] == t;
    assert order[j + 1] == t;
  }

  /** The entries of r sit at ascending positions of order. */
  predicate Ascending(order: seq<string>, r: seq<string>)
  {
    forall i, j :: 0 <= i < j < |r| ==> PosIn(order, r[i]) < PosIn(order, r[j])
  }

  /** Entries ascending within a list's tail are ascending within the list. */
  lemma AscendingShift(order: seq<string>, rest: seq<string>)
    requires |order| > 0
    requires forall k :: 0 <= k < |rest| ==> PosIn(order, rest[k]) == 1 + PosIn(order[1..], rest[k])
    requires Ascending(order[1..], rest)
    ensures Ascending(order, rest)
  {
  }

  /** The list's head may go before entries that are not at its front. */
  lemma AscendingHead(order: seq<string>, rest: seq<string>)
    requires |order| > 0 && Ascending(order, rest)
    requires forall k :: 0 <= k < |rest| ==> PosIn(order, rest[k]) > 0
    ensures Ascending(order, [order[0]] + rest)
  {
    var r := [order[0]] + rest;
    assert PosIn(order, order[0]) == 0;
    forall i, j | 0 <= i < j < |r| ensures PosIn(order, r[i]) < PosIn(order, r[j]) {
      if i > 0 {
        assert r[i] == rest[i - 1] && r[j] == rest[j - 1];
      } else {
        assert r[i] == order[0] && r[j] == rest[j - 1];
      }
    }
  }

  lemma {:induction false} KnownTiersOrdered(order: seq<string>, seen: set<string>)
    requires forall i, j :: 0 <= i < j < |order| ==> order[i] != order[j]
    ensures Ascending(order, KnownTiers(order, seen))
  {
    if |order| > 0 {
      var tail := order[1..];
      var rest := KnownTiers(tail, seen);
      KnownTiersOrdered(tail, seen);
      forall k | 0 <= k < |rest| ensures PosIn(order, rest[k]) == 1 + PosIn(tail, rest[k]) {
        PosInTail(order, rest[k]);
      }
      AscendingShift(order, rest);
      if order[0] in seen {
        AscendingHead(order, rest);
        assert KnownTiers(order, seen) == [order[0]] + rest;
      } else {
        assert KnownTiers(order, seen) == rest;
      }
    }
  }

  /**
   * The tiers of the R-tier sheet: the canonical ones in canonical order,
   * then the others in set iteration order (given as `others`).
   */
  function OrderTiers(seen: set<string>, others: seq<string>): (r: seq<string>)
    requires forall t :: t in others <==> t in seen && t !in TierOrder
    ensures forall t :: t in r <==> t in seen
  {
    KnownTiers(TierOrder, seen) + others
  }

  /** Canonical tiers come first and in canonical order; every tier is listed once. */
  lemma OrderTiersSpec(seen: set<string>, others: seq<string>)
    requires forall t :: t in others <==> t in seen && t !in TierOrder
    requires forall i, j :: 0 <= i < j < |others| ==> others[i] != others[j]
    ensures var r := OrderTiers(seen, others);
      forall i, j :: 0 <= i < j < |r| && r[j] in TierOrder ==>
        r[i] in TierOrder && PosIn(TierOrder, r[i]) < PosIn(TierOrder, r[j])
    ensures var r := OrderTiers(seen, others);
      forall i, j :: 0 <= i < j < |r| ==> r[i] != r[j]
  {
    var known := KnownTiers(TierOrder, seen);
    var r := OrderTiers(seen, others);
    KnownTiersOrdered(TierOrder, seen);
    forall i, j | 0 <= i < j < |r| && r[j] in TierOrder
      ensures r[i] in TierOrder && PosIn(TierOrder, r[i]) < PosIn(TierOrder, r[j])
    {
      assert r[i] == known[i] && r[j] == known[j];
    }
    forall i, j | 0 <= i < j < |r| ensures r[i] != r[j] {
      if j < |known| {
        assert r[i] == known[i] && r[j] == known[j];
        assert PosIn(TierOrder, known[i]) < PosIn(TierOrder, known[j]);
      } else if i >= |known| {
        assert r[i] == others[i - |known|] && r[j] == others[j - |known|];
      } else {
        assert r[i] == known[i] && r[i] in TierOrder;
        assert r[j] == others[j - |known|];
      }
    }
  }
}

=== FILE: git_repo.dfy ===
/**
 * The git repository manager's reading of git's output: `git log` lines in
 * the format `%H|%ai|%an|%s` become commits, `--name-status` lines (from
 * `git diff` and `git show`) become file changes, and the `git branch -a`
 * listing becomes branch names. Running git is not modelled: each parser
 * takes the text the command printed.
 */
module GitRepo {
  import opened Wrappers
  import opened Strings

  datatype CommitInfo = CommitInfo(hash: string, time: string, author: string, message: string)

  /** A changed file; `oldPath` is set only for a rename line that names both paths. */
  datatype FileChange = FileChange(changeType: char, filePath: string, oldPath: Option<string>)

  /** A line that `line.strip()` empties. */
  predicate Blank(line: string)
  {
    |Strip(line)| == 0
  }

  // ---- git log --format=%H|%ai|%an|%s ----

  /** A log line cut at its first three '|'; None when it has fewer than four fields. */
  function CommitOf(line: string): Option<CommitInfo>
  {
    var parts := SplitN(line, '|', 3);
    if |parts| == 4 then Some(CommitInfo(parts[0], parts[1], parts[2], parts[3])) else None
  }

  /** What one output line adds to the commit list. */
  function CommitLine(line: string): seq<CommitInfo>
  {
    if Blank(line) then []
    else match CommitOf(line)
      case Some(c) => [c]
      case None => []
  }

  function CommitsOf(lines: seq<string>): seq<CommitInfo>
  {
    if |lines| == 0 then [] else CommitsOf(lines[..|lines| - 1]) + CommitLine(lines[|lines| - 1])
  }

  /** The commits `get_commits` returns for a log output. */
  function Commits(output: string): seq<CommitInfo>
  {
    if |output| == 0 then [] else CommitsOf(Split(output, '\n'))
  }

  method GetCommits(output: string) returns (commits: seq<CommitInfo>)
    ensures commits == Commits(output)
  {
    commits := [];
    if |output| == 0 {
      return;
    }
    var lines := Split(output, '\n');
    for i := 0 to |lines|
      invariant commits == CommitsOf(lines[..i])
    {
      assert lines[..i + 1][..i] == lines[..i];
      var line := lines[i];
      if Blank(line) {
        continue;
      }
      var parts := SplitN(line, '|', 3);
      if |parts| == 4 {
        commits := commits + [CommitInfo(parts[0], parts[1], parts[2], parts[3])];
      }
    }
    assert lines[..|lines|] == lines;
  }

  /** The line git prints for a commit under the format `%H|%ai|%an|%s`. */
  function LogLine(c: CommitInfo): string
  {
    c.hash + "|" + c.time + "|" + c.author + "|" + c.message
  }

  /**
   * A line parses to a commit exactly when it is that commit's log line and
   * the hash, time and author hold no '|'; the message may hold any number.
   */
  lemma CommitOfIff(line: string, c: CommitInfo)
    ensures CommitOf(line) == Some(c) <==>
      LogLine(c) == line && '|' !in c.hash && '|' !in c.time && '|' !in c.author
  {
    if CommitOf(line) == Some(c) {
      CommitOfLine(line, c);
    }
    if LogLine(c) == line && '|' !in c.hash && '|' !in c.time && '|' !in c.author {
      LogLineFields(c);
    }
  }

  lemma CommitOfLine(line: string, c: CommitInfo)
    requires CommitOf(line) == Some(c)
    ensures LogLine(c) == line && '|' !in c.hash && '|' !in c.time && '|' !in c.author
  {
    var parts := SplitN(line, '|', 3);
    SplitNJoin(line, '|', 3);
    SplitNPieces(line, '|', 3);
    assert parts == [c.hash, c.time, c.author, c.message];
    JoinFour(c.hash, c.time, c.author, c.message, '|');
  }

  lemma JoinFour(a: string, b: string, d: string, e: string, sep: char)
    ensures Join([a, b, d, e], sep) == a + [sep] + b + [sep] + d + [sep] + e
  {
    var p := [a, b, d, e];
    assert p[1..] == [b, d, e] && [b, d, e][1..] == [d, e] && [d, e][1..] == [e];
    assert Join([e], sep) == e;
    assert Join([d, e], sep) == d + [sep] + e;
    assert Join([b, d, e], sep) == b + [sep] + (d + [sep] + e);
    assert Join(p, sep) == a + [sep] + (b + [sep] + (d + [sep] + e));
  }

  lemma LogLineFields(c: CommitInfo)
    requires '|' !in c.hash && '|' !in c.time && '|' !in c.author
    ensures SplitN(LogLine(c), '|', 3) == [c.hash, c.time, c.author, c.message]
  {
    var rest2 := c.author + "|" + c.message;
    var rest1 := c.time + "|" + rest2;
    assert LogLine(c) == c.hash + ['|'] + rest1;
    SplitNCons(c.author, '|', c.message, 0);
    assert SplitN(c.message, '|', 0) == [c.message];
    var p2 := [c.author, c.message];
    assert SplitN(rest2, '|', 1) == p2;
    SplitNCons(c.time, '|', rest2, 1);
    var p1 := [c.time] + p2;
    assert SplitN(rest1, '|', 2) == p1;
    SplitNCons(c.hash, '|', rest1, 2);
    assert [c.hash] + p1 == [c.hash, c.time, c.author, c.message];
  }

  /** A commit whose fields git can print on one line. */
  predicate Printable(c: CommitInfo)
  {
    '|' !in c.hash && '|' !in c.time && '|' !in c.author
    && '\n' !in c.hash && '\n' !in c.time && '\n' !in c.author && '\n' !in c.message
  }

  function LogLines(cs: seq<CommitInfo>): (r: seq<string>)
    ensures |r| == |cs|
    ensures forall i :: 0 <= i < |cs| ==> r[i] == LogLine(cs[i])
  {
    if |cs| == 0 then [] else LogLines(cs[..|cs| - 1]) + [LogLine(cs[|cs| - 1])]
  }

  lemma {:induction false} CommitsOfLogLines(cs: seq<CommitInfo>)
    requires forall i :: 0 <= i < |cs| ==> Printable(cs[i])
    ensures CommitsOf(LogLines(cs)) == cs
  {
    if |cs| > 0 {
      var c, lines := cs[|cs| - 1], LogLines(cs);
      assert lines[..|lines| - 1] == LogLines(cs[..|cs| - 1]);
      CommitsOfLogLines(cs[..|cs| - 1]);
      LogLineFields(c);
      StripKeeps(LogLine(c), |c.hash|);
      FrontLast(cs);
    }
  }

  /** An empty output needs no special case: the one blank line it splits into yields nothing. */
  lemma CommitsAnyOutput(output: string)
    ensures Commits(output) == CommitsOf(Split(output, '\n'))
  {
    if |output| == 0 {
      assert Split(output, '\n') == [""];
      assert Blank("");
    }
  }

  /** Parsing the log git prints for a list of commits gives the list back, in order. */
  lemma LogRoundTrip(cs: seq<CommitInfo>)
    requires forall i :: 0 <= i < |cs| ==> Printable(cs[i])
    ensures Commits(Join(LogLines(cs), '\n')) == cs
  {
    var lines := LogLines(cs);
    CommitsAnyOutput(Join(lines, '\n'));
    CommitsOfLogLines(cs);
    if |cs| == 0 {
      assert Split("", '\n') == [""];
      assert Blank("");
    } else {
      forall k | 0 <= k < |lines|
        ensures '\n' !in lines[k]
      {
        LogLineOneLine(cs[k]);
      }
      SplitOfJoin(lines, '\n');
    }
  }

  lemma LogLineOneLine(c: CommitInfo)
    requires Printable(c)
    ensures '\n' !in LogLine(c)
  {
  }

  // ---- --name-status lines ----

  /** What one `--name-status` line yields; NoStatus is the IndexError of an empty status field. */
  datatype StatusLine = Skip | Entry(change: FileChange) | NoStatus

  function StatusOf(line: string): StatusLine
  {
    if Blank(line) then Skip
    else
      var parts := SplitN(line, '\t', 2);
      if |parts| < 2 then Skip
      else if |parts[0]| == 0 then NoStatus
      else if parts[0][0] == 'R' && |parts| == 3 then Entry(FileChange('R', parts[2], Some(parts[1])))
      else Entry(FileChange(parts[0][0], parts[1], None))
  }

  /** The changes a sequence of status lines yields; None when the parser raises. */
  function ChangesOf(lines: seq<string>): Option<seq<FileChange>>
  {
    if |lines| == 0 then Some([])
    else match ChangesOf(lines[..|lines| - 1])
      case None => None
      case Some(cs) =>
        match StatusOf(lines[|lines| - 1])
        case Skip => Some(cs)
        case Entry(c) => Some(cs + [c])
        case NoStatus => None
  }

  /** The changes `get_changed_files` and `get_commit_files` return for a status output. */
  function Changes(output: string): Option<seq<FileChange>>
  {
    if |output| == 0 then Some([]) else ChangesOf(Split(output, '\n'))
  }

  /** The body of the loop shared by `get_changed_files` and `get_commit_files`, for one line. */
  method ParseStatusLine(line: string) returns (s: StatusLine)
    ensures s == StatusOf(line)
  {
    if Blank(line) {
      return Skip;
    }
    var parts := SplitN(line, '\t', 2);
    if |parts| < 2 {
      return Skip;
    }
    if |parts[0]| == 0 {
      return NoStatus;
    }
    var changeType := parts[0][0];
    var filePath := parts[1];
    var oldPath := None;
    if changeType == 'R' && |parts| == 3 {
      oldPath := Some(filePath);
      filePath := parts[2];
    }
    return Entry(FileChange(changeType, filePath, oldPath));
  }

  /** The loop shared by `get_changed_files` and `get_commit_files`; None is the IndexError. */
  method ParseNameStatus(output: string) returns (r: Option<seq<FileChange>>)
    ensures r == Changes(output)
  {
    if |output| == 0 {
      return Some([]);
    }
    var lines := Split(output, '\n');
    var changes := [];
    for i := 0 to |lines|
      invariant ChangesOf(lines[..i]) == Some(changes)
    {
      assert lines[..i + 1][..i] == lines[..i];
      var s := ParseStatusLine(lines[i]);
      match s
      case Skip =>
      case Entry(c) =>
        changes := changes + [c];
      case NoStatus =>
        ChangesNoneSticks(lines, i + 1);
        return None;
    }
    assert lines[..|lines|] == lines;
    return Some(changes);
  }

  /** Once a line raises, the whole parse raises. */
  lemma {:induction false} ChangesNoneSticks(lines: seq<string>, i: nat)
    requires i <= |lines| && ChangesOf(lines[..i]) == None
    ensures ChangesOf(lines) == None
    decreases |lines| - i
  {
    if i < |lines| {
      assert lines[..i + 1][..i] == lines[..i];
      assert ChangesOf(lines[..i + 1]) == None;
      ChangesNoneSticks(lines, i + 1);
    } else {
      assert lines[..i] == lines;
    }
  }

  /**
   * The line git prints for a change: the type letter and any similarity
   * score (R100), a tab, the old path of a rename and a tab, then the path.
   */
  function StatusText(c: FileChange, score: string): string
  {
    match c.oldPath
    case Some(o) => [c.changeType] + score + "\t" + o + "\t" + c.filePath
    case None => [c.changeType] + score + "\t" + c.filePath
  }

  /** A change git can print on one status line; only a rename names an old path. */
  predicate Listable(c: FileChange, score: string)
  {
    !IsSpace(c.changeType) && '\t' !in score && '\n' !in score
    && '\t' !in c.filePath && '\n' !in c.filePath
    && (c.oldPath.Some? ==> c.changeType == 'R' && '\t' !in c.oldPath.value && '\n' !in c.oldPath.value)
  }

  /**
   * A status line gives its change back: the type is the first character
   * of the status field whatever score follows it, and a rename with three
   * fields takes the second as its old path and the third as its path.
   */
  lemma StatusRoundTrip(c: FileChange, score: string)
    requires Listable(c, score)
    ensures StatusOf(StatusText(c, score)) == Entry(c)
  {
    var line, head := StatusText(c, score), [c.changeType] + score;
    StripKeeps(line, 0);
    var parts;
    match c.oldPath {
      case Some(o) =>
        parts := RenameParts(head, o, c.filePath);
      case None =>
        parts := PlainParts(head, c.filePath);
    }
    assert SplitN(line, '\t', 2) == parts;
    assert parts[0][0] == c.changeType;
  }

  lemma RenameParts(head: string, o: string, path: string) returns (parts: seq<string>)
    requires '\t' !in head && '\t' !in o
    ensures parts == [head, o, path]
    ensures SplitN(head + "\t" + o + "\t" + path, '\t', 2) == parts
  {
    var tail := o + "\t" + path;
    assert head + "\t" + o + "\t" + path == head + ['\t'] + tail;
    SplitNCons(o, '\t', path, 0);
    assert SplitN(path, '\t', 0) == [path];
    assert SplitN(tail, '\t', 1) == [o, path];
    SplitNCons(head, '\t', tail, 1);
    parts := [head, o, path];
  }

  lemma PlainParts(head: string, path: string) returns (parts: seq<string>)
    requires '\t' !in head && '\t' !in path
    ensures parts == [head, path]
    ensures SplitN(head + "\t" + path, '\t', 2) == parts
  {
    assert head + "\t" + path == head + ['\t'] + path;
    SplitNWhole(path, '\t', 1);
    SplitNCons(head, '\t', path, 1);
    parts := [head, path];
  }

  /** A line with no tab has fewer than two fields and is skipped. */
  lemma NoTabSkipped(line: string)
    requires '\t' !in line
    ensures StatusOf(line) == Skip
  {
    SplitNWhole(line, '\t', 2);
  }

  /** A non-rename line with a third field keeps the second as its path and drops the third. */
  lemma ThirdFieldIgnored(t: char, a: string, b: string)
    requires t != 'R' && !IsSpace(t) && '\t' !in a
    ensures StatusOf([t] + "\t" + a + "\t" + b) == Entry(FileChange(t, a, None))
  {
    StripKeeps([t] + "\t" + a + "\t" + b, 0);
    ThreeFields(t, a, b);
  }

  /** The pieces of a status line with three tab-separated fields. */
  lemma ThreeFields(t: char, a: string, b: string)
    requires t != '\t' && '\t' !in a
    ensures SplitN([t] + "\t" + a + "\t" + b, '\t', 2) == [[t], a, b]
  {
    var line := [t] + "\t" + a + "\t" + b;
    assert line == [t] + ['\t'] + (a + "\t" + b);
    SplitNCons([t], '\t', a + "\t" + b, 1);
    SplitNCons(a, '\t', b, 0);
  }

  /** An empty status field before the tab makes `parts[0][0]` raise. */
  lemma EmptyStatusRaises(path: string)
    requires |path| > 0 && !IsSpace(path[0]) && '\t' !in path
    ensures StatusOf("\t" + path) == NoStatus
  {
    StripKeeps("\t" + path, 1);
    assert "\t" + path == [] + ['\t'] + path;
    SplitNCons([], '\t', path, 1);
    SplitNWhole(path, '\t', 1);
  }

  /** Lines that each yield a change yield all of them, in order. */
  lemma {:induction false} ChangesOfEntries(lines: seq<string>, cs: seq<FileChange>)
    requires |lines| == |cs|
    requires forall i :: 0 <= i < |lines| ==> StatusOf(lines[i]) == Entry(cs[i])
    ensures ChangesOf(lines) == Some(cs)
  {
    if |lines| > 0 {
      var n := |lines| - 1;
      ChangesOfEntries(lines[..n], cs[..n]);
      FrontLast(cs);
    }
  }

  function StatusLines(cs: seq<FileChange>, scores: seq<string>): (r: seq<string>)
    requires |scores| == |cs|
    ensures |r| == |cs|
    ensures forall i :: 0 <= i < |cs| ==> r[i] == StatusText(cs[i], scores[i])
  {
    if |cs| == 0 then [] else [StatusText(cs[0], scores[0])] + StatusLines(cs[1..], scores[1..])
  }

  /** Parsing the status listing git prints for a list of changes gives the list back, in order. */
  lemma NameStatusRoundTrip(cs: seq<FileChange>, scores: seq<string>)
    requires |scores| == |cs|
    requires forall i :: 0 <= i < |cs| ==> Listable(cs[i], scores[i])
    ensures Changes(Join(StatusLines(cs, scores), '\n')) == Some(cs)
  {
    var lines := StatusLines(cs, scores);
    forall i | 0 <= i < |lines|
      ensures StatusOf(lines[i]) == Entry(cs[i])
    {
      StatusRoundTrip(cs[i], scores[i]);
    }
    ChangesOfEntries(lines, cs);
    ChangesAnyOutput(Join(lines, '\n'));
    if |cs| > 0 {
      forall i | 0 <= i < |lines|
        ensures '\n' !in lines[i]
      {
        StatusTextOneLine(cs[i], scores[i]);
      }
      SplitOfJoin(lines, '\n');
    }
  }

  lemma StatusTextOneLine(c: FileChange, score: string)
    requires Listable(c, score)
    ensures '\n' !in StatusText(c, score)
  {
  }

  /** An empty output needs no special case: the one blank line it splits into yields nothing. */
  lemma ChangesAnyOutput(output: string)
    ensures Changes(output) == ChangesOf(Split(output, '\n'))
  {
    if |output| == 0 {
      assert Split(output, '\n') == [""];
      assert Blank("");
      assert [""][..0] == [];
    }
  }

  // ---- git branch -a ----

  /** The current-branch marker `lstrip("* ")` removes. */
  predicate Marker(ch: char)
  {
    ch == '*' || ch == ' '
  }

  /** What one listing line adds: nothing when blank, else the name without its marker. */
  function BranchLine(line: string): seq<string>
  {
    var t := Strip(line);
    if |t| == 0 then [] else [Strip(TrimLeft(t, Marker))]
  }

  function BranchesOf(lines: seq<string>): seq<string>
  {
    if |lines| == 0 then [] else BranchesOf(lines[..|lines| - 1]) + BranchLine(lines[|lines| - 1])
  }

  method GetAllBranches(output: string) returns (branches: seq<string>)
    ensures branches == BranchesOf(Split(output, '\n'))
  {
    var lines := Split(output, '\n');
    branches := ListBranches(lines);
  }

  /** The loop of `get_all_branches` over the lines of the listing. */
  method ListBranches(lines: seq<string>) returns (branches: seq<string>)
    ensures branches == BranchesOf(lines)
  {
    branches := [];
    for i := 0 to |lines|
      invariant branches == BranchesOf(lines[..i])
    {
      assert lines[..i + 1][..i] == lines[..i];
      var line := Strip(lines[i]);
      if |line| > 0 {
        var branch := Strip(TrimLeft(line, Marker));
        branches := branches + [branch];
      }
    }
    assert lines[..|lines|] == lines;
  }

  /** The line `git branch` prints for a branch: "* " before the current one, two spaces before the others. */
  function BranchText(name: string, current: bool): string
  {
    (if current then "* " else "  ") + name
  }

  /** A name `git branch` can list: not starting with a marker, no surrounding space, one line. */
  predicate BranchName(name: string)
  {
    |name| > 0 && !Marker(name[0]) && !IsSpace(name[0]) && !IsSpace(name[|name| - 1]) && '\n' !in name
  }

  lemma BranchLineName(name: string, current: bool)
    requires BranchName(name)
    ensures BranchLine(BranchText(name, current)) == [name]
  {
    var line := BranchText(name, current);
    StripNoSpace(name);
    if current {
      assert line[0] == '*' && line[|line| - 1] == name[|name| - 1];
      StripNoSpace(line);
      TrimLeftPrefix("* ", name, Marker);
    } else {
      StripByPrefix("  ", name, IsSpace);
      TrimLeftPrefix([], name, Marker);
      assert [] + name == name;
    }
  }

  function BranchLines(names: seq<string>, current: nat): (r: seq<string>)
    ensures |r| == |names|
    ensures forall i :: 0 <= i < |names| ==> r[i] == BranchText(names[i], i == current)
  {
    seq(|names|, i requires 0 <= i < |names| => BranchText(names[i], i == current))
  }

  lemma {:induction false} BranchesOfNames(lines: seq<string>, names: seq<string>, current: nat)
    requires |lines| == |names|
    requires forall i :: 0 <= i < |names| ==> BranchName(names[i]) && lines[i] == BranchText(names[i], i == current)
    ensures BranchesOf(lines) == names
  {
    if |lines| > 0 {
      var n := |lines| - 1;
      BranchesOfNames(lines[..n], names[..n], current);
      BranchLineName(names[n], n == current);
      FrontLast(names);
    }
  }

  /** The branch listing gives back the listed names, in order, whichever one is current. */
  lemma BranchesRoundTrip(names: seq<string>, current: nat)
    requires |names| > 0
    requires forall i :: 0 <= i < |names| ==> BranchName(names[i])
    ensures BranchesOf(Split(Join(BranchLines(names, current), '\n'), '\n')) == names
  {
    var lines := BranchLines(names, current);
    SplitOfJoin(lines, '\n');
    BranchesOfNames(lines, names, current);
  }
}

=== FILE: json.dfy ===
/**
 * Decoded JSON values as the analysis scripts receive them: Python's
 * `None`, booleans, numbers, strings, lists and dicts. A dict keeps its
 * keys in insertion order.
 */
module Json {
  import opened Wrappers

  datatype Value =
    | Null
    | Bool(b: bool)
    | Num(n: real)
    | Str(s: string)
    | Arr(items: seq<Value>)
    | Obj(fields: seq<(string, Value)>)

  /** Python truthiness: None, False, 0, "", [] and {} are false. */
  predicate Truthy(v: Value)
  {
    match v
    case Null => false
    case Bool(b) => b
    case Num(n) => n != 0.0
    case Str(s) => |s| > 0
    case Arr(items) => |items| > 0
    case Obj(fields) => |fields| > 0
  }

  /** `isinstance(v, (int, float))`; a bool is an int in Python. */
  predicate IsNumber(v: Value)
  {
    v.Num? || v.Bool?
  }

  function NumOf(v: Value): (r: real)
    requires IsNumber(v)
    ensures v.Num? ==> r == v.n
    ensures v.Bool? ==> (r == 1.0 <==> v.b) && (r == 0.0 <==> !v.b)
  {
    if v.Num? then v.n else if v.b then 1.0 else 0.0
  }

  function KeyIndex(fields: seq<(string, Value)>, key: string): (r: Option<nat>)
    ensures r.Some? ==> (r.value < |fields| && fields[r.value].0 == key
                         && forall i :: 0 <= i < r.value ==> fields[i].0 != key)
    ensures r.None? ==> forall i :: 0 <= i < |fields| ==> fields[i].0 != key
  {
    if |fields| == 0 then None
    else if fields[0].0 == key then Some(0)
    else
      var t := KeyIndex(fields[1..], key);
      if t.Some? then Some(t.value + 1) else None
  }

  /** `key in v` for a dict. */
  predicate Has(v: Value, key: string)
  {
    v.Obj? && KeyIndex(v.fields, key).Some?
  }

  /** `v.get(key)`: None when the key is absent or v is not a dict. */
  function Get(v: Value, key: string): (r: Value)
    ensures !Has(v, key) ==> r == Null
  {
    if v.Obj? then
      var k := KeyIndex(v.fields, key);
      if k.Some? then v.fields[k.value].1 else Null
    else Null
  }

  /** `v[key] = x`: an existing key keeps its place, a new one goes last. */
  function Put(v: Value, key: string, x: Value): (r: Value)
    requires v.Obj?
    ensures r.Obj? && Has(r, key) && Get(r, key) == x
  {
    var k := KeyIndex(v.fields, key);
    if k.Some? then
      var f := v.fields[k.value := (key, x)];
      assert f[k.value].0 == key;
      Obj(f)
    else
      var f := v.fields + [(key, x)];
      assert f[|v.fields|].0 == key;
      Obj(f)
  }

  /** Assigning one key leaves every other key as it was. */
  lemma PutOther(v: Value, key: string, x: Value, other: string)
    requires v.Obj? && other != key
    ensures Has(Put(v, key, x), other) == Has(v, other)
    ensures Get(Put(v, key, x), other) == Get(v, other)
  {
    var f := Put(v, key, x).fields;
    var o := KeyIndex(v.fields, other);
    if o.Some? {
      assert f[o.value] == v.fields[o.value];
    }
  }

  /** The dict's keys in insertion order. */
  function Keys(v: Value): seq<string>
  {
    if v.Obj? then seq(|v.fields|, i requires 0 <= i < |v.fields| => v.fields[i].0) else []
  }
}

=== FILE: notion.dfy ===
/**
 * The first-generation review page: how percentages are shown and
 * coloured, the one-line summary band of the year-on-year revenue change,
 * the user-tier comparison rows, and the action items drawn from the
 * sub-activities to keep and to improve.
 */
module NotionPublisher {
  import opened Wrappers
  import opened Strings
  import opened ExcelV1
  import Numeric
  import ChartGenerator

  // ---- percentages ----

  /** `_fmt_pct`: "N/A", or the value with an optional "+" (its one-decimal text is not modelled). */
  datatype PctText = NotAvailable | Percent(plus: bool, value: real)

  function FmtPct(v: Option<real>, withSign: bool): PctText
  {
    match v
    case None => NotAvailable
    case Some(x) => Percent(x > 0.0 && withSign, x)
  }

  /** `_color_pct`: red for a rise, blue for a fall, plain otherwise. */
  datatype Colored = Plain(text: PctText) | Red(text: PctText) | Blue(text: PctText)

  function ColorPct(v: Option<real>, withSign: bool): Colored
  {
    match v
    case None => Plain(NotAvailable)
    case Some(x) =>
      var text := FmtPct(v, withSign);
      if x > 0.0 then Red(text) else if x < 0.0 then Blue(text) else Plain(text)
  }

  /**
   * The colour follows the sign: red exactly for positive values, blue
   * exactly for negative ones, plain for zero and for None, which shows
   * "N/A"; the text is always the formatted percentage, whose "+" appears
   * only on a positive value with the sign asked for.
   */
  lemma ColorPctSpec(v: Option<real>, withSign: bool)
    ensures ColorPct(v, withSign).text == FmtPct(v, withSign)
    ensures ColorPct(v, withSign).Red? <==> v.Some? && v.value > 0.0
    ensures ColorPct(v, withSign).Blue? <==> v.Some? && v.value < 0.0
    ensures ColorPct(v, withSign).Plain? <==> v.None? || v.value == 0.0
    ensures FmtPct(v, withSign) == NotAvailable <==> v.None?
    ensures FmtPct(v, withSign).Percent? ==>
      FmtPct(v, withSign).value == v.value && (FmtPct(v, withSign).plus <==> v.value > 0.0 && withSign)
  {
  }

  // ---- summary ----

  /** `_summary_text`, by the band its text belongs to. */
  datatype Band = NoData | Weak | Steady | Growing | Strong

  function SummaryBand(yoy: Option<real>): Band
  {
    match yoy
    case None => NoData
    case Some(v) =>
      if v > 20.0 then Strong
      else if v > 0.0 then Growing
      else if v > -20.0 then Steady
      else Weak
  }

  function Rank(b: Band): nat
  {
    match b
    case NoData => 0
    case Weak => 1
    case Steady => 2
    case Growing => 3
    case Strong => 4
  }

  /** The bands cover every change without overlap, as four intervals. */
  lemma SummaryBands(v: real)
    ensures SummaryBand(Some(v)) == Strong <==> v > 20.0
    ensures SummaryBand(Some(v)) == Growing <==> 0.0 < v <= 20.0
    ensures SummaryBand(Some(v)) == Steady <==> -20.0 < v <= 0.0
    ensures SummaryBand(Some(v)) == Weak <==> v <= -20.0
    ensures SummaryBand(Some(v)) != NoData
  {
  }

  /** A larger change never reads worse. */
  lemma SummaryMonotone(v: real, w: real)
    requires v <= w
    ensures Rank(SummaryBand(Some(v))) <= Rank(SummaryBand(Some(w)))
  {
  }

  // ---- module values of the current event ----

  /** The page's own lookup: the first row named after the event, else the last row. */
  function PageModuleIndex(rows: seq<ChartGenerator.ModuleRow>, name: string): (k: nat)
    requires |rows| > 0
    ensures k < |rows|
  {
    match ChartGenerator.FirstNamed(rows, name)
    case Some(k) => k
    case None => |rows| - 1
  }

  /** The search loop; None is the IndexError of an empty module trend. */
  method CurrentModuleRow(rows: seq<ChartGenerator.ModuleRow>, name: string) returns (r: Option<nat>)
    ensures r.None? <==> rows == []
    ensures r.Some? ==> r.value == PageModuleIndex(rows, name)
  {
    r := None;
    var i := 0;
    while i < |rows|
      invariant i <= |rows|
      invariant forall j :: 0 <= j < i ==> rows[j].event != name
    {
      if rows[i].event == name {
        r := Some(i);
        return;
      }
      i := i + 1;
    }
    if |rows| > 0 {
      r := Some(|rows| - 1);
    }
  }

  /**
   * The page and the chart pick the same module row whenever the event is
   * named in the trend; when it is not, and there are at least two rows, the
   * page takes the last row where the chart takes the one before it.
   */
  lemma ModuleRowAgreement(rows: seq<ChartGenerator.ModuleRow>, name: string)
    requires |rows| > 0
    ensures (exists j :: 0 <= j < |rows| && rows[j].event == name) ==>
      PageModuleIndex(rows, name) == ChartGenerator.ModuleIndex(rows, name)
      && rows[PageModuleIndex(rows, name)].event == name
    ensures (forall j :: 0 <= j < |rows| ==> rows[j].event != name) && |rows| >= 2 ==>
      PageModuleIndex(rows, name) == |rows| - 1 && ChartGenerator.ModuleIndex(rows, name) == |rows| - 2
  {
  }

  // ---- user tiers ----

  datatype TierPoint = TierPoint(event: string, superR: real, bigR: real, midR: real)

  datatype TierKey = SuperR | BigR | MidR

  /** `tier.get(key, 0)`; None is the empty dict. */
  function TierValue(t: Option<TierPoint>, k: TierKey): real
  {
    match t
    case None => 0.0
    case Some(p) =>
      match k
      case SuperR => p.superR
      case BigR => p.bigR
      case MidR => p.midR
  }

  /** The compared tier points: current, previous and benchmark; None is the empty dict. */
  datatype TierRefs = TierRefs(current: Option<TierPoint>, previous: Option<TierPoint>, benchmark: Option<TierPoint>)

  function TierRefsOf(tiers: seq<TierPoint>): TierRefs
  {
    var current := if |tiers| > 0 then Some(tiers[0]) else None;
    var benchmark := if |tiers| >= 2 then Some(tiers[|tiers| - 1]) else None;
    var previous := if |tiers| >= 3 then Some(tiers[1]) else if |tiers| >= 2 then Some(tiers[|tiers| - 1]) else None;
    TierRefs(current, previous, benchmark)
  }

  /** The change against a reference value; None unless the reference is positive. */
  function TierChange(cur: real, ref: real): Option<real>
  {
    if ref > 0.0 then Some((cur - ref) / ref * 100.0) else None
  }

  /** One row of the tier table. */
  datatype TierRow = TierRow(key: TierKey, current: real, previous: real, benchmark: real, yoy: Option<real>, mom: Option<real>)

  function TierRowOf(refs: TierRefs, k: TierKey): TierRow
  {
    var cur := TierValue(refs.current, k);
    var prev := TierValue(refs.previous, k);
    var bench := TierValue(refs.benchmark, k);
    TierRow(k, cur, prev, bench, TierChange(cur, bench), TierChange(cur, prev))
  }

  const TierKeys: seq<TierKey> := [SuperR, BigR, MidR]

  /** The loop over the three tiers. */
  method TierRows(tiers: seq<TierPoint>) returns (rows: seq<TierRow>)
    ensures |rows| == 3
    ensures forall j :: 0 <= j < 3 ==> rows[j] == TierRowOf(TierRefsOf(tiers), TierKeys[j])
  {
    var refs := TierRefsOf(tiers);
    rows := [];
    var j := 0;
    while j < |TierKeys|
      invariant j <= |TierKeys| && |rows| == j
      invariant forall i :: 0 <= i < j ==> rows[i] == TierRowOf(refs, TierKeys[i])
    {
      rows := rows + [TierRowOf(refs, TierKeys[j])];
      j := j + 1;
    }
  }

  /**
   * The current point is the first; the benchmark the last of at least two;
   * the previous point the second of at least three, and with exactly two
   * it is the benchmark, so both changes agree. A change is present exactly
   * when its reference value is positive, and it is positive exactly when
   * the current value exceeds that reference.
   */
  lemma TierRowSpec(tiers: seq<TierPoint>, k: TierKey)
    ensures var refs := TierRefsOf(tiers);
      (refs.current.Some? <==> |tiers| > 0)
      && (refs.benchmark.Some? <==> |tiers| >= 2)
      && (|tiers| > 0 ==> refs.current == Some(tiers[0]))
      && (|tiers| >= 2 ==> refs.benchmark == Some(tiers[|tiers| - 1]))
      && (|tiers| >= 3 ==> refs.previous == Some(tiers[1]))
    ensures var row := TierRowOf(TierRefsOf(tiers), k);
      (|tiers| == 2 ==> row.mom == row.yoy)
      && (row.yoy.Some? <==> row.benchmark > 0.0)
      && (row.mom.Some? <==> row.previous > 0.0)
      && (row.yoy.Some? ==> (row.yoy.value > 0.0 <==> row.current > row.benchmark))
      && (row.mom.Some? ==> (row.mom.value > 0.0 <==> row.current > row.previous))
  {
    var row := TierRowOf(TierRefsOf(tiers), k);
    if row.benchmark > 0.0 {
      ChangeSign(row.current, row.benchmark);
    }
    if row.previous > 0.0 {
      ChangeSign(row.current, row.previous);
    }
  }

  lemma ChangeSign(cur: real, ref: real)
    requires ref > 0.0
    ensures (cur - ref) / ref * 100.0 > 0.0 <==> cur > ref
  {
    Numeric.QuotientAbove(cur - ref, ref, 0.0);
  }

  // ---- sub-activity diagnosis and action items ----

  function StatusIs(status: string): SubActivity -> bool
  {
    (a: SubActivity) => a.status == status
  }

  function KeepItems(acts: seq<SubActivity>): seq<SubActivity>
  {
    Filter(acts, StatusIs("Keep"))
  }

  function OptimizeItems(acts: seq<SubActivity>): seq<SubActivity>
  {
    Filter(acts, StatusIs("Optimize"))
  }

  /** A kept name that calls for the mini-game action. */
  predicate MiniGameName(name: string)
  {
    Contains(name, "小游戏") || Contains(name, "挖孔")
  }

  /** `any('小游戏' in n or '挖孔' in n for n in keep_names)` */
  function AnyMiniGame(keep: seq<SubActivity>): bool
  {
    if |keep| == 0 then false else AnyMiniGame(keep[..|keep| - 1]) || MiniGameName(keep[|keep| - 1].name)
  }

  datatype Action =
    | IterateMiniGames
    | ReviseSchedule
    | Improve(name: string, reason: string)
    | Adjust(name: string, reason: string)

  /** The action items by priority. */
  datatype Plan = Plan(p0: seq<Action>, p1: seq<Action>, p2: seq<Action>)

  function ImproveOf(a: SubActivity): Action
  {
    Improve(a.name, a.reason)
  }

  function AdjustOf(a: SubActivity): Action
  {
    Adjust(a.name, a.reason)
  }

  /** The action-item section: P0, then one P1 item per first three items to optimise, one P2 item per later one. */
  method ActionItems(acts: seq<SubActivity>) returns (plan: Plan)
    ensures plan.p0 == (if AnyMiniGame(KeepItems(acts)) then [IterateMiniGames] else []) + [ReviseSchedule]
    ensures plan.p1 == MapSeq(Take(OptimizeItems(acts), 3), ImproveOf)
    ensures plan.p2 == MapSeq(Drop(OptimizeItems(acts), 3), AdjustOf)
  {
    var optimize := OptimizeItems(acts);
    var p0 := if AnyMiniGame(KeepItems(acts)) then [IterateMiniGames] else [];
    p0 := p0 + [ReviseSchedule];
    var p1 := ImproveAll(Take(optimize, 3));
    var p2 := AdjustAll(Drop(optimize, 3));
    plan := Plan(p0, p1, p2);
  }

  /** One P1 item per sub-activity, in order. */
  method ImproveAll(first: seq<SubActivity>) returns (p1: seq<Action>)
    ensures p1 == MapSeq(first, ImproveOf)
  {
    p1 := [];
    for i := 0 to |first|
      invariant p1 == MapSeq(first[..i], ImproveOf)
    {
      assert first[..i + 1][..i] == first[..i];
      p1 := p1 + [ImproveOf(first[i])];
    }
    assert first[..|first|] == first;
  }

  /** One P2 item per sub-activity, in order. */
  method AdjustAll(rest: seq<SubActivity>) returns (p2: seq<Action>)
    ensures p2 == MapSeq(rest, AdjustOf)
  {
    p2 := [];
    for i := 0 to |rest|
      invariant p2 == MapSeq(rest[..i], AdjustOf)
    {
      assert rest[..i + 1][..i] == rest[..i];
      p2 := p2 + [AdjustOf(rest[i])];
    }
    assert rest[..|rest|] == rest;
  }

  /** The mini-game action appears exactly when some kept item's name mentions 小游戏 or 挖孔. */
  lemma {:induction false} MiniGameAction(keep: seq<SubActivity>)
    ensures AnyMiniGame(keep) <==> exists i :: 0 <= i < |keep| && MiniGameName(keep[i].name)
  {
    if |keep| > 0 {
      var n := |keep| - 1;
      MiniGameAction(keep[..n]);
      assert forall i :: 0 <= i < n ==> keep[..n][i] == keep[i];
    }
  }

  /**
   * P1 holds the first three items to optimise and P2 the rest, in order:
   * together they are exactly the items marked Optimize, and every kept or
   * optimised item carries its own status.
   */
  lemma PrioritySplit(acts: seq<SubActivity>)
    ensures var opt := OptimizeItems(acts);
      Take(opt, 3) + Drop(opt, 3) == opt
      && |Take(opt, 3)| == (if |opt| < 3 then |opt| else 3)
      && |MapSeq(Take(opt, 3), ImproveOf)| + |MapSeq(Drop(opt, 3), AdjustOf)| == |opt|
    ensures forall a :: a in OptimizeItems(acts) <==> a in acts && a.status == "Optimize"
    ensures forall a :: a in KeepItems(acts) <==> a in acts && a.status == "Keep"
  {
    FilterSpec(acts, StatusIs("Optimize"));
    FilterSpec(acts, StatusIs("Keep"));
  }
}

=== FILE: numeric.dfy ===
/**
 * Exact arithmetic shared by the analyzers: a decimal rounding that stands
 * in for Python's `round(x, k)`, sums over sequences, and the ordered list
 * of indices that satisfy a test (the shape of every "append i when ..."
 * loop in the analyzers).
 */
module Numeric {

  function Pow10(k: nat): (r: nat)
    ensures r >= 1
  {
    if k == 0 then 1 else 10 * Pow10(k - 1)
  }

  /** Rounding to k decimals, half up. Only its monotonicity, Round(0) = 0
      and its distance to x are relied upon, which Python's round shares. */
  function Round(x: real, k: nat): (r: real)
    ensures x - 0.5 / Pow10(k) as real < r <= x + 0.5 / Pow10(k) as real
  {
    RoundBounds(x, Pow10(k) as real);
    RoundAt(x, Pow10(k) as real)
  }

  function RoundAt(x: real, p: real): real
    requires p >= 1.0
  {
    (x * p + 0.5).Floor as real / p
  }

  lemma RoundBounds(x: real, p: real)
    requires p >= 1.0
    ensures x - 0.5 / p < RoundAt(x, p) <= x + 0.5 / p
  {
    var f := (x * p + 0.5).Floor;
    assert f as real <= x * p + 0.5 < f as real + 1.0;
    DivBounds(f as real, x * p + 0.5, p);
  }

  lemma DivBounds(f: real, y: real, p: real)
    requires p >= 1.0 && f <= y < f + 1.0
    ensures y / p - 1.0 / p < f / p <= y / p
    ensures (y - 0.5) / p == y / p - 0.5 / p
  {
    assert f / p <= y / p by {
      assert f * (1.0 / p) <= y * (1.0 / p);
    }
  }

  lemma MulMonotone(x: real, y: real, p: real)
    requires x <= y && p >= 0.0
    ensures x * p <= y * p
  {
    assert (y - x) * p >= 0.0;
  }

  lemma FloorMonotone(a: real, b: real)
    requires a <= b
    ensures a.Floor <= b.Floor
  {
  }

  lemma RoundMonotone(x: real, y: real, k: nat)
    requires x <= y
    ensures Round(x, k) <= Round(y, k)
  {
    RoundAtMonotone(x, y, Pow10(k) as real);
  }

  lemma RoundAtMonotone(x: real, y: real, p: real)
    requires x <= y && p >= 1.0
    ensures RoundAt(x, p) <= RoundAt(y, p)
  {
    MulMonotone(x, y, p);
    FloorMonotone(x * p + 0.5, y * p + 0.5);
    DivMonotone((x * p + 0.5).Floor as real, (y * p + 0.5).Floor as real, p);
  }

  lemma DivMonotone(a: real, b: real, p: real)
    requires a <= b && p > 0.0
    ensures a / p <= b / p
  {
  }

  /** A whole number is its own rounding. */
  lemma RoundWhole(n: int, k: nat)
    ensures Round(n as real, k) == n as real
  {
    var p := Pow10(k);
    var m := n * p;
    assert (n as real) * (p as real) == m as real;
    assert (m as real + 0.5).Floor == m;
    assert m as real / p as real == n as real;
  }

  lemma RoundZero(k: nat)
    ensures Round(0.0, k) == 0.0
  {
  }

  /** x >= 0 ==> Round(x, k) >= 0 and x <= 0 ==> Round(x, k) <= 0. */
  lemma RoundSign(x: real, k: nat)
    ensures x >= 0.0 ==> Round(x, k) >= 0.0
    ensures x <= 0.0 ==> Round(x, k) <= 0.0
  {
    RoundZero(k);
    if x >= 0.0 { RoundMonotone(0.0, x, k); }
    if x <= 0.0 { RoundMonotone(x, 0.0, k); }
  }

  function Abs(x: real): (r: real)
    ensures r >= 0.0 && (r == x || r == -x)
  {
    if x < 0.0 then -x else x
  }

  /** Multiplying by a positive number keeps the sign. */
  lemma SignOfProduct(u: real, t: real)
    requires t > 0.0
    ensures u > 0.0 <==> u * t > 0.0
  {
  }

  /** A quotient by a positive number exceeds c exactly when the dividend exceeds c times the divisor. */
  lemma QuotientAbove(x: real, y: real, c: real)
    requires y > 0.0
    ensures x / y > c <==> x > c * y
  {
    var q := x / y;
    assert q * y == x;
    SignOfProduct(q - c, y);
    assert (q - c) * y == x - c * y;
  }

  function Sum(s: seq<real>): real
  {
    if |s| == 0 then 0.0 else Sum(s[..|s| - 1]) + s[|s| - 1]
  }

  lemma SumSnoc(s: seq<real>, x: real)
    ensures Sum(s + [x]) == Sum(s) + x
  {
    assert (s + [x])[..|s|] == s;
  }

  /** Python's `sum(f(x) for x in xs)` over integers. */
  function SumBy<T>(xs: seq<T>, f: T -> int): int
  {
    if |xs| == 0 then 0 else SumBy(xs[..|xs| - 1], f) + f(xs[|xs| - 1])
  }

  lemma SumBySnoc<T>(xs: seq<T>, x: T, f: T -> int)
    ensures SumBy(xs + [x], f) == SumBy(xs, f) + f(x)
  {
    assert (xs + [x])[..|xs|] == xs;
  }

  /** Replacing one element changes the sum by the difference. */
  lemma {:induction false} SumByUpdate<T>(xs: seq<T>, f: T -> int, k: nat, v: T)
    requires k < |xs|
    ensures SumBy(xs[k := v], f) == SumBy(xs, f) - f(xs[k]) + f(v)
  {
    var n := |xs| - 1;
    if k < n {
      assert xs[k := v][..n] == xs[..n][k := v];
      SumByUpdate(xs[..n], f, k, v);
    } else {
      assert xs[k := v][..n] == xs[..n];
    }
  }

  function Mean(s: seq<real>): real
    requires |s| > 0
  {
    Sum(s) / |s| as real
  }

  /** Sum of squared deviations from m. */
  function SqDev(s: seq<real>, m: real): (r: real)
    ensures r >= 0.0
  {
    if |s| == 0 then 0.0 else SqDev(s[..|s| - 1], m) + Square(s[|s| - 1] - m)
  }

  function Square(x: real): (r: real)
    ensures r >= 0.0
  {
    if x >= 0.0 then MulMonotone(0.0, x, x); x * x else MulMonotone(0.0, -x, -x); x * x
  }

  lemma SqDevSnoc(s: seq<real>, x: real, m: real)
    ensures SqDev(s + [x], m) == SqDev(s, m) + Square(x - m)
  {
    assert (s + [x])[..|s|] == s;
  }

  /** Population variance, the mean squared deviation, as `statistics.pvariance` and `base_analyzer.py` compute it. */
  function Variance(s: seq<real>): (r: real)
    requires |s| > 0
    ensures r >= 0.0
  {
    SqDev(s, Mean(s)) / |s| as real
  }

  /** Indices below n that pass p, in increasing order. */
  function IndicesWhere(n: nat, p: nat -> bool): seq<nat>
  {
    if n == 0 then [] else IndicesWhere(n - 1, p) + (if p(n - 1) then [n - 1] else [])
  }

  lemma {:induction false} IndicesWhereSpec(n: nat, p: nat -> bool)
    ensures forall k :: 0 <= k < |IndicesWhere(n, p)| ==> IndicesWhere(n, p)[k] < n && p(IndicesWhere(n, p)[k])
    ensures forall k, l :: 0 <= k < l < |IndicesWhere(n, p)| ==> IndicesWhere(n, p)[k] < IndicesWhere(n, p)[l]
    ensures forall i :: 0 <= i < n && p(i) ==> i in IndicesWhere(n, p)
    ensures |IndicesWhere(n, p)| <= n
  {
    if n > 0 {
      IndicesWhereSpec(n - 1, p);
    }
  }

  predicate StrictlyIncreasing(s: seq<nat>)
  {
    forall k, l :: 0 <= k < l < |s| ==> s[k] < s[l]
  }

  /** A strictly increasing list is fixed by its members: two with the same
      members are equal. */
  lemma {:induction false} IncreasingUnique(a: seq<nat>, b: seq<nat>)
    requires StrictlyIncreasing(a) && StrictlyIncreasing(b)
    requires forall x :: x in a <==> x in b
    ensures a == b
  {
    SameEmptiness(a, b);
    if |a| > 0 {
      assert a[0] == b[0] by {
        assert a[0] in b && b[0] in a;
        var i :| 0 <= i < |b| && b[i] == a[0];
        var j :| 0 <= j < |a| && a[j] == b[0];
        assert a[0] <= a[j] && b[0] <= b[i];
      }
      forall x ensures x in a[1..] <==> x in b[1..] {
        if x in a[1..] {
          InTail(a, b, x);
        }
        if x in b[1..] {
          InTail(b, a, x);
        }
      }
      IncreasingUnique(a[1..], b[1..]);
      assert a == [a[0]] + a[1..] && b == [b[0]] + b[1..];
    }
  }

  lemma SameEmptiness<T>(a: seq<T>, b: seq<T>)
    requires forall x :: x in a <==> x in b
    ensures |a| == 0 <==> |b| == 0
  {
    if |a| > 0 {
      assert a[0] in b;
    }
    if |b| > 0 {
      assert b[0] in a;
    }
  }

  lemma InTail(a: seq<nat>, b: seq<nat>, x: nat)
    requires StrictlyIncreasing(b) && |a| > 0 && |b| > 0 && a[0] == b[0]
    requires x in a[1..] && x in b
    requires StrictlyIncreasing(a)
    ensures x in b[1..]
  {
    var k :| 0 <= k < |a[1..]| && a[1..][k] == x;
    assert a[0] < a[k + 1];
    var m :| 0 <= m < |b| && b[m] == x;
    assert b[1..][m - 1] == x;
  }

  /** Number of indices below n that pass p. */
  function CountWhere(n: nat, p: nat -> bool): (c: nat)
    ensures c == |IndicesWhere(n, p)|
  {
    if n == 0 then 0 else CountWhere(n - 1, p) + (if p(n - 1) then 1 else 0)
  }

  lemma {:induction false} CountWhereZero(n: nat, p: nat -> bool)
    ensures CountWhere(n, p) == 0 <==> forall i :: 0 <= i < n ==> !p(i)
  {
    if n > 0 {
      CountWhereZero(n - 1, p);
    }
  }

  /** Splitting every index by a test: the passing and failing counts add up. */
  lemma {:induction false} CountWhereSplit(n: nat, p: nat -> bool, q: nat -> bool)
    requires forall i :: 0 <= i < n ==> (q(i) <==> !p(i))
    ensures CountWhere(n, p) + CountWhere(n, q) == n
  {
    if n > 0 {
      CountWhereSplit(n - 1, p, q);
    }
  }
}

=== FILE: package.dfy ===
/**
 * Gift-package analysis: per-package spend, share and purchase rate, the
 * packages ordered by revenue, price-matched comparison with other events,
 * and the health rules for cheap, expensive and dead-weight packages.
 */
module Package {
  import opened Wrappers
  import opened Numeric
  import opened Sorting
  import opened BaseAnalyzer
  import opened Dicts

  datatype Pkg = Pkg(name: string, price: real, revenue: real, payers: real)

  datatype CompEvent = CompEvent(event: Option<string>, packages: seq<Pkg>)

  datatype PackageInput = PackageInput(packages: seq<Pkg>, comparisons: seq<CompEvent>, legacy: seq<Pkg>)

  datatype BenchChange = BenchChange(event: string, revChange: real, payerChange: real)

  datatype Stat = Stat(name: string, price: real, revenue: real, payers: real,
                       avgSpend: real, share: real, perPayer: real, bench: seq<BenchChange>)

  datatype PackageNote =
    | TotalLine(total: real)
    | TopHeader
    | TopLine(rank: nat, name: string, price: real, revenue: real, share: real, payers: real)
    | VersusLine(name: string, event: string, revChange: real, payerChange: real)
    | LowPriceLine(share: real, ok: bool)
    | HighPriceLine(share: real, ok: bool)
    | DeadWeightLine(names: seq<string>)
    | LowPriceTip
    | HighPriceTip
    | DeadWeightTip(names: seq<string>)

  datatype PackageMetrics = PackageMetrics(stats: seq<Stat>, totalRevenue: real, totalPayers: real)

  const ModuleName := "礼包分析"
  const EmptyConclusion := "无礼包数据"
  const GoodConclusion := "礼包设计合理，高低价格梯度覆盖良好"
  const FairConclusion := "礼包设计基本合理，有小幅优化空间"
  const PoorConclusion := "礼包设计存在多处可优化点"

  /** The comparison list: `comparisons`, or the legacy package list as one 对标 event. */
  function ComparisonList(input: PackageInput): seq<CompEvent>
  {
    if |input.comparisons| > 0 then input.comparisons
    else if |input.legacy| > 0 then [CompEvent(Some("对标"), input.legacy)]
    else []
  }

  function Revenues(s: seq<Pkg>): seq<real>
  {
    seq(|s|, i requires 0 <= i < |s| => s[i].revenue)
  }

  function Payers(s: seq<Pkg>): seq<real>
  {
    seq(|s|, i requires 0 <= i < |s| => s[i].payers)
  }

  /** Revenue per payer; 0 without payers. */
  function AvgSpend(p: Pkg): (r: real)
    ensures p.payers <= 0.0 ==> r == 0.0
    ensures p.payers > 0.0 ==> Abs(r - p.revenue / p.payers) <= 0.05
  {
    if p.payers > 0.0 then (assert Pow10(1) == 10; Round(p.revenue / p.payers, 1)) else 0.0
  }

  /** Purchases per payer, revenue / (price * payers); 0 when either is not positive. */
  function PerPayer(p: Pkg): (r: real)
    ensures !(p.price > 0.0 && p.payers > 0.0) ==> r == 0.0
    ensures p.price > 0.0 && p.payers > 0.0 ==> Abs(r - p.revenue / (p.price * p.payers)) <= 0.05
  {
    if p.price > 0.0 && p.payers > 0.0 then (assert Pow10(1) == 10; Round(p.revenue / (p.price * p.payers), 1)) else 0.0
  }

  function ShareOf(revenue: real, total: real): (r: real)
    ensures total <= 0.0 ==> r == 0.0
    ensures total > 0.0 ==> Abs(r - revenue / total * 100.0) <= 0.05
  {
    if total > 0.0 then (assert Pow10(1) == 10; Round(revenue / total * 100.0, 1)) else 0.0
  }

  function StatOf(p: Pkg, totalRevenue: real): Stat
  {
    Stat(p.name, p.price, p.revenue, p.payers, AvgSpend(p), ShareOf(p.revenue, totalRevenue), PerPayer(p), [])
  }

  /** The per-package loop, in input order. */
  method BuildStats(packages: seq<Pkg>, totalRevenue: real) returns (stats: seq<Stat>)
    ensures |stats| == |packages| && forall i :: 0 <= i < |packages| ==> stats[i] == StatOf(packages[i], totalRevenue)
  {
    stats := [];
    var i := 0;
    while i < |packages|
      invariant 0 <= i <= |packages|
      invariant |stats| == i && forall j :: 0 <= j < i ==> stats[j] == StatOf(packages[j], totalRevenue)
    {
      var p := packages[i];
      stats := stats + [Stat(p.name, p.price, p.revenue, p.payers, AvgSpend(p),
                             ShareOf(p.revenue, totalRevenue), PerPayer(p), [])];
      i := i + 1;
    }
  }

  function Revenue(s: Stat): real { s.revenue }

  /** The stats ordered by revenue, highest first, ties in input order. */
  function ByRevenue(stats: seq<Stat>): (r: seq<Stat>)
    ensures |r| == |stats| && multiset(r) == multiset(stats)
    ensures forall i, j :: 0 <= i < j < |r| ==> r[i].revenue >= r[j].revenue
  {
    DescPreorder(Revenue);
    SortSorted(stats, Desc(Revenue));
    var r := Sort(stats, Desc(Revenue));
    assert forall i, j :: 0 <= i < j < |r| ==> Desc(Revenue)(r[i], r[j]);
    assert forall i, j :: 0 <= i < j < |r| ==> Revenue(r[i]) >= Revenue(r[j]);
    r
  }

  /** The first three by revenue. */
  function Top3(sorted: seq<Stat>): (r: seq<Stat>)
    ensures |r| == (if |sorted| < 3 then |sorted| else 3) && r == sorted[..|r|]
  {
    if |sorted| < 3 then sorted else sorted[..3]
  }

  /** The top three are min(3, n) of the stats, and no stat left out of
      them earns more than any stat in them. */
  lemma Top3Leads(stats: seq<Stat>)
    ensures |Top3(ByRevenue(stats))| == if |stats| < 3 then |stats| else 3
    ensures multiset(Top3(ByRevenue(stats))) <= multiset(stats)
    ensures forall x, y ::
              x in Top3(ByRevenue(stats)) && y in multiset(stats) - multiset(Top3(ByRevenue(stats))) ==>
              x.revenue >= y.revenue
  {
    var s := ByRevenue(stats);
    var t := Top3(s);
    var rest := s[|t|..];
    assert s == t + rest;
    assert multiset(s) == multiset(t) + multiset(rest);
    forall x, y | x in t && y in multiset(stats) - multiset(t)
      ensures x.revenue >= y.revenue
    {
      assert y in multiset(rest);
      var i :| 0 <= i < |t| && t[i] == x;
      var j :| 0 <= j < |rest| && rest[j] == y;
      assert s[i] == x && s[|t| + j] == y;
    }
  }

  // ---- Comparison by price ----

  function PkgName(p: Pkg): string
  {
    p.name
  }

  /** The comparison event's packages as a dictionary keyed by name. */
  function NameDict(pkgs: seq<Pkg>): seq<Pkg>
  {
    FromList(pkgs, PkgName)
  }

  /** The first dictionary entry with the same price; names are never compared. */
  function MatchByPrice(d: seq<Pkg>, price: real): (r: Option<Pkg>)
    ensures r.Some? ==> r.value in d && r.value.price == price
    ensures r.None? <==> forall i :: 0 <= i < |d| ==> d[i].price != price
    ensures r.Some? ==> exists i :: 0 <= i < |d| && d[i] == r.value && forall j :: 0 <= j < i ==> d[j].price != price
  {
    if |d| == 0 then None
    else if d[0].price == price then Some(d[0])
    else MatchByPrice(d[1..], price)
  }

  function CompName(c: CompEvent): string
  {
    c.event.GetOr("对标")
  }

  /** The change record one comparison event adds to a package, if a
      package of that event has the same price. */
  function BenchFor(s: Stat, c: CompEvent): (r: Option<BenchChange>)
    ensures r.Some? ==> |c.packages| > 0
  {
    if |c.packages| == 0 then None
    else
      var m := MatchByPrice(NameDict(c.packages), s.price);
      if m.None? then None
      else Some(BenchChange(CompName(c), ChangeRate(s.revenue, m.value.revenue), ChangeRate(s.payers, m.value.payers)))
  }

  function BenchAll(s: Stat, comps: seq<CompEvent>): seq<BenchChange>
  {
    if |comps| == 0 then []
    else
      var n := |comps| - 1;
      BenchAll(s, comps[..n]) + Opt(BenchFor(s, comps[n]))
  }

  function Opt<T>(o: Option<T>): seq<T>
  {
    if o.Some? then [o.value] else []
  }

  /** One comparison event against every package, in package order. The
      packages' names, prices, revenues and payers are those of `stats`;
      `cur` holds the change records gathered so far. */
  method MatchEvent(stats: seq<Stat>, cur: seq<Stat>, c: CompEvent) returns (out: seq<Stat>, lines: seq<PackageNote>)
    requires |c.packages| > 0
    requires |cur| == |stats| && forall j :: 0 <= j < |stats| ==> cur[j] == stats[j].(bench := cur[j].bench)
    ensures |out| == |stats|
    ensures forall j :: 0 <= j < |stats| ==> out[j] == cur[j].(bench := cur[j].bench + Opt(BenchFor(stats[j], c)))
    ensures lines == VersusOne(stats, c)
  {
    var d := NameDict(c.packages);
    out := cur;
    lines := [];
    var j := 0;
    while j < |stats|
      invariant 0 <= j <= |stats| && |out| == |stats|
      invariant forall i :: 0 <= i < j ==> out[i] == cur[i].(bench := cur[i].bench + Opt(BenchFor(stats[i], c)))
      invariant forall i :: j <= i < |stats| ==> out[i] == cur[i]
      invariant lines == VersusOne(stats[..j], c)
    {
      assert stats[..j + 1][..j] == stats[..j];
      var m := MatchByPrice(d, out[j].price);
      if m.Some? {
        var rev := ChangeRate(out[j].revenue, m.value.revenue);
        var pay := ChangeRate(out[j].payers, m.value.payers);
        out := out[j := out[j].(bench := out[j].bench + [BenchChange(CompName(c), rev, pay)])];
        lines := lines + [VersusLine(stats[j].name, CompName(c), rev, pay)];
      }
      j := j + 1;
    }
    assert stats[..j] == stats;
  }

  /** The comparison loop: every package gains, per comparison event in
      order, one change record when a package of the same price exists. */
  method Compare(stats: seq<Stat>, comps: seq<CompEvent>) returns (out: seq<Stat>, lines: seq<PackageNote>)
    requires forall j :: 0 <= j < |stats| ==> stats[j].bench == []
    ensures |out| == |stats|
    ensures forall j :: 0 <= j < |stats| ==> out[j] == stats[j].(bench := BenchAll(stats[j], comps))
    ensures lines == VersusLines(stats, comps)
  {
    out := stats;
    lines := [];
    var k := 0;
    while k < |comps|
      invariant 0 <= k <= |comps|
      invariant |out| == |stats|
      invariant forall j :: 0 <= j < |stats| ==> out[j] == stats[j].(bench := BenchAll(stats[j], comps[..k]))
      invariant lines == VersusLines(stats, comps[..k])
    {
      out, lines := CompareStep(stats, comps, k, out, lines);
      k := k + 1;
    }
    assert comps[..k] == comps;
  }

  /** The comparison loop's body for event k: events before k are already applied. */
  method CompareStep(stats: seq<Stat>, comps: seq<CompEvent>, k: nat, cur: seq<Stat>, done: seq<PackageNote>)
    returns (out: seq<Stat>, lines: seq<PackageNote>)
    requires k < |comps| && |cur| == |stats|
    requires forall j :: 0 <= j < |stats| ==> cur[j] == stats[j].(bench := BenchAll(stats[j], comps[..k]))
    requires done == VersusLines(stats, comps[..k])
    ensures |out| == |stats|
    ensures forall j :: 0 <= j < |stats| ==> out[j] == stats[j].(bench := BenchAll(stats[j], comps[..k + 1]))
    ensures lines == VersusLines(stats, comps[..k + 1])
  {
    var c := comps[k];
    var pre := comps[..k + 1];
    assert pre[..k] == comps[..k] && pre[k] == c;
    assert forall j :: 0 <= j < |stats| ==> BenchAll(stats[j], pre) == BenchAll(stats[j], comps[..k]) + Opt(BenchFor(stats[j], c));
    assert VersusLines(stats, pre) == done + VersusOne(stats, c);
    if |c.packages| == 0 {
      VersusOneNone(stats, c);
      out, lines := cur, done;
      forall j | 0 <= j < |stats| ensures out[j] == stats[j].(bench := BenchAll(stats[j], pre)) {
        assert BenchFor(stats[j], c).None?;
      }
    } else {
      var more;
      out, more := MatchEvent(stats, cur, c);
      lines := done + more;
    }
  }

  // ---- Health rules ----

  predicate Cheap(s: Stat) { s.price <= 30.0 }
  predicate Expensive(s: Stat) { s.price >= 300.0 }

  /** Little revenue and few buyers: share under 5 and payers under 5% of all payers. */
  predicate DeadWeight(s: Stat, totalPayers: real) { s.share < 5.0 && s.payers < totalPayers * 0.05 }

  function FilterStats(s: seq<Stat>, p: Stat -> bool): (r: seq<Stat>)
    ensures |r| <= |s| && forall k :: 0 <= k < |r| ==> p(r[k]) && r[k] in s
    ensures forall k :: 0 <= k < |s| && p(s[k]) ==> s[k] in r
  {
    if |s| == 0 then [] else (if p(s[0]) then [s[0]] else []) + FilterStats(s[1..], p)
  }

  function CheapOnes(stats: seq<Stat>): seq<Stat> { FilterStats(stats, Cheap) }
  function ExpensiveOnes(stats: seq<Stat>): seq<Stat> { FilterStats(stats, Expensive) }
  function DeadOnes(stats: seq<Stat>, totalPayers: real): seq<Stat>
  {
    FilterStats(stats, s => DeadWeight(s, totalPayers))
  }

  function SumPayers(s: seq<Stat>): real
  {
    if |s| == 0 then 0.0 else s[0].payers + SumPayers(s[1..])
  }

  function SumRevenue(s: seq<Stat>): real
  {
    if |s| == 0 then 0.0 else s[0].revenue + SumRevenue(s[1..])
  }

  function Names(s: seq<Stat>): seq<string>
  {
    seq(|s|, k requires 0 <= k < |s| => s[k].name)
  }

  /** Share of all payers who bought a package of at most 30. */
  function LowShare(stats: seq<Stat>, totalPayers: real): real
  {
    if totalPayers > 0.0 then SumPayers(CheapOnes(stats)) / totalPayers * 100.0 else 0.0
  }

  /** Share of all revenue from packages of at least 300. */
  function HighShare(stats: seq<Stat>, totalRevenue: real): real
  {
    if totalRevenue > 0.0 then SumRevenue(ExpensiveOnes(stats)) / totalRevenue * 100.0 else 0.0
  }

  /** Cheap packages exist but draw at most half of the payers. */
  predicate LowWeak(stats: seq<Stat>, totalPayers: real)
  {
    |CheapOnes(stats)| > 0 && LowShare(stats, totalPayers) <= 50.0
  }

  /** Expensive packages exist but bring at most 30% of revenue. */
  predicate HighWeak(stats: seq<Stat>, totalRevenue: real)
  {
    |ExpensiveOnes(stats)| > 0 && HighShare(stats, totalRevenue) <= 30.0
  }

  /** The three rules' suggestions, in order: weak cheap packages, weak
      expensive packages, dead weight. A rule without packages is skipped. */
  function HealthTips(stats: seq<Stat>, totalRevenue: real, totalPayers: real): (r: seq<PackageNote>)
    ensures LowPriceTip in r <==> LowWeak(stats, totalPayers)
    ensures HighPriceTip in r <==> HighWeak(stats, totalRevenue)
    ensures DeadWeightTip(Names(DeadOnes(stats, totalPayers))) in r <==> |DeadOnes(stats, totalPayers)| > 0
    ensures |r| == (if LowWeak(stats, totalPayers) then 1 else 0) + (if HighWeak(stats, totalRevenue) then 1 else 0)
                   + (if |DeadOnes(stats, totalPayers)| > 0 then 1 else 0)
  {
    var dead := DeadOnes(stats, totalPayers);
    (if LowWeak(stats, totalPayers) then [LowPriceTip] else [])
    + (if HighWeak(stats, totalRevenue) then [HighPriceTip] else [])
    + (if |dead| > 0 then [DeadWeightTip(Names(dead))] else [])
  }

  function HealthLines(stats: seq<Stat>, totalRevenue: real, totalPayers: real): seq<PackageNote>
  {
    var dead := DeadOnes(stats, totalPayers);
    (if |CheapOnes(stats)| > 0 then [LowPriceLine(LowShare(stats, totalPayers), LowShare(stats, totalPayers) > 50.0)] else [])
    + (if |ExpensiveOnes(stats)| > 0 then [HighPriceLine(HighShare(stats, totalRevenue), HighShare(stats, totalRevenue) > 30.0)] else [])
    + (if |dead| > 0 then [DeadWeightLine(Names(dead))] else [])
  }

  function PackageSeverity(dead: nat, tips: nat): (s: Severity)
    ensures s == Watch <==> dead > 0 || tips >= 2
    ensures s == Normal <==> dead == 0 && tips < 2
  {
    if dead > 0 || tips >= 2 then Watch else Normal
  }

  function ConclusionOf(tips: nat): string
  {
    if tips == 0 then GoodConclusion else if tips <= 1 then FairConclusion else PoorConclusion
  }

  /** One comparison event's detail lines: one per package with a price match, in package order. */
  function VersusOne(stats: seq<Stat>, c: CompEvent): seq<PackageNote>
  {
    if |stats| == 0 then []
    else
      var n := |stats| - 1;
      var b := BenchFor(stats[n], c);
      VersusOne(stats[..n], c)
      + (if b.Some? then [VersusLine(stats[n].name, b.value.event, b.value.revChange, b.value.payerChange)] else [])
  }

  lemma {:induction false} VersusOneNone(stats: seq<Stat>, c: CompEvent)
    requires |c.packages| == 0
    ensures VersusOne(stats, c) == []
  {
    if |stats| > 0 {
      VersusOneNone(stats[..|stats| - 1], c);
    }
  }

  function VersusLines(stats: seq<Stat>, comps: seq<CompEvent>): seq<PackageNote>
  {
    if |comps| == 0 then [] else VersusLines(stats, comps[..|comps| - 1]) + VersusOne(stats, comps[|comps| - 1])
  }

  function TopLines(top: seq<Stat>): seq<PackageNote>
  {
    seq(|top|, i requires 0 <= i < |top| => TopLine(i + 1, top[i].name, top[i].price, top[i].revenue, top[i].share, top[i].payers))
  }

  // ---- Properties ----

  /** A comparison event is matched by price alone: the package it is
      matched with belongs to that event and has the same price. */
  lemma BenchForPrice(s: Stat, c: CompEvent)
    ensures BenchFor(s, c).Some? <==> exists q :: q in NameDict(c.packages) && q.price == s.price && |c.packages| > 0
    ensures BenchFor(s, c).Some? ==> exists q :: q in c.packages && q.price == s.price
  {
    FromListSpec(c.packages, PkgName);
    var d := NameDict(c.packages);
    var m := MatchByPrice(d, s.price);
    if |c.packages| > 0 && m.Some? {
      assert m.value in c.packages;
    }
    if exists q :: q in d && q.price == s.price {
      var q :| q in d && q.price == s.price;
      var i :| 0 <= i < |d| && d[i] == q;
    }
  }

  /** A package gets no change record exactly when no comparison event has a
      package of its price; it never gets more than one per event. */
  lemma {:induction false} BenchAllEmpty(s: Stat, comps: seq<CompEvent>)
    ensures BenchAll(s, comps) == [] <==> forall k :: 0 <= k < |comps| ==> BenchFor(s, comps[k]).None?
    ensures |BenchAll(s, comps)| <= |comps|
  {
    if |comps| > 0 {
      var n := |comps| - 1;
      var pre := comps[..n];
      BenchAllEmpty(s, pre);
      var last := Opt(BenchFor(s, comps[n]));
      assert BenchAll(s, comps) == BenchAll(s, pre) + last;
      assert |BenchAll(s, comps)| == |BenchAll(s, pre)| + |last|;
      assert last == [] <==> BenchFor(s, comps[n]).None?;
      if BenchAll(s, comps) == [] {
        forall k | 0 <= k < |comps| ensures BenchFor(s, comps[k]).None? {
          if k < n {
            assert pre[k] == comps[k];
          }
        }
      }
      if forall k :: 0 <= k < |comps| ==> BenchFor(s, comps[k]).None? {
        forall k | 0 <= k < n ensures BenchFor(s, pre[k]).None? {
          assert pre[k] == comps[k];
        }
      }
    }
  }

  lemma {:induction false} SumPayersFilter(s: seq<Stat>, p: Stat -> bool)
    requires forall k :: 0 <= k < |s| ==> s[k].payers >= 0.0
    ensures 0.0 <= SumPayers(FilterStats(s, p)) <= SumPayers(s)
  {
    if |s| > 0 {
      SumPayersFilter(s[1..], p);
      var head := if p(s[0]) then [s[0]] else [];
      var rest := FilterStats(s[1..], p);
      assert FilterStats(s, p) == head + rest;
      if p(s[0]) {
        assert (head + rest)[1..] == rest;
      } else {
        assert head + rest == rest;
      }
    }
  }

  lemma {:induction false} SumRevenueFilter(s: seq<Stat>, p: Stat -> bool)
    requires forall k :: 0 <= k < |s| ==> s[k].revenue >= 0.0
    ensures 0.0 <= SumRevenue(FilterStats(s, p)) <= SumRevenue(s)
  {
    if |s| > 0 {
      SumRevenueFilter(s[1..], p);
      var head := if p(s[0]) then [s[0]] else [];
      var rest := FilterStats(s[1..], p);
      assert FilterStats(s, p) == head + rest;
      if p(s[0]) {
        assert (head + rest)[1..] == rest;
      } else {
        assert head + rest == rest;
      }
    }
  }

  lemma PercentBound(x: real, t: real)
    requires 0.0 <= x <= t && t > 0.0
    ensures 0.0 <= x / t * 100.0 <= 100.0
  {
    var q := x / t;
    assert q * t == x;
  }

  /** With non-negative payers counted in the total, the cheap packages'
      payer share is a percentage. */
  lemma LowShareBound(stats: seq<Stat>, totalPayers: real)
    requires forall k :: 0 <= k < |stats| ==> stats[k].payers >= 0.0
    requires SumPayers(stats) <= totalPayers
    ensures 0.0 <= LowShare(stats, totalPayers) <= 100.0
  {
    SumPayersFilter(stats, Cheap);
    if totalPayers > 0.0 {
      var x := SumPayers(CheapOnes(stats));
      PercentBound(x, totalPayers);
    }
  }

  /** The same for the expensive packages' revenue share. */
  lemma HighShareBound(stats: seq<Stat>, totalRevenue: real)
    requires forall k :: 0 <= k < |stats| ==> stats[k].revenue >= 0.0
    requires SumRevenue(stats) <= totalRevenue
    ensures 0.0 <= HighShare(stats, totalRevenue) <= 100.0
  {
    SumRevenueFilter(stats, Expensive);
    if totalRevenue > 0.0 {
      var x := SumRevenue(ExpensiveOnes(stats));
      PercentBound(x, totalRevenue);
    }
  }

  /** The severity is Watch exactly when dead weight exists or both price
      rules are weak; the conclusion is the poor one only then or with dead weight. */
  lemma SeverityOfRules(stats: seq<Stat>, totalRevenue: real, totalPayers: real)
    ensures var tips := HealthTips(stats, totalRevenue, totalPayers);
      (PackageSeverity(|DeadOnes(stats, totalPayers)|, |tips|) == Watch <==>
        |DeadOnes(stats, totalPayers)| > 0 || (LowWeak(stats, totalPayers) && HighWeak(stats, totalRevenue)))
    ensures var tips := HealthTips(stats, totalRevenue, totalPayers);
      (ConclusionOf(|tips|) == GoodConclusion <==>
        |DeadOnes(stats, totalPayers)| == 0 && !LowWeak(stats, totalPayers) && !HighWeak(stats, totalRevenue))
  {
  }

  // ---- The analysis ----

  function BaseStats(input: PackageInput): seq<Stat>
  {
    var total := Sum(Revenues(input.packages));
    seq(|input.packages|, i requires 0 <= i < |input.packages| => StatOf(input.packages[i], total))
  }

  /** The per-package statistics in revenue order, before comparison. */
  function Ranked(input: PackageInput): seq<Stat>
  {
    ByRevenue(BaseStats(input))
  }

  method Analyze(input: PackageInput) returns (res: AnalysisResult<PackageNote, Option<PackageMetrics>>)
    ensures |input.packages| == 0 ==> res == AnalysisResult(ModuleName, EmptyConclusion, Watch, [], [], None)
    ensures |input.packages| > 0 ==> res.metrics.Some?
    ensures res.metrics.Some? ==>
      var m := res.metrics.value;
      var ranked := Ranked(input);
      m.totalRevenue == Sum(Revenues(input.packages)) && m.totalPayers == Sum(Payers(input.packages))
      && |m.stats| == |ranked|
      && (forall j :: 0 <= j < |ranked| ==> m.stats[j] == ranked[j].(bench := BenchAll(ranked[j], ComparisonList(input))))
      && res.moduleName == ModuleName
      && res.details == [TotalLine(m.totalRevenue), TopHeader] + TopLines(Top3(m.stats))
                        + VersusLines(ranked, ComparisonList(input)) + HealthLines(m.stats, m.totalRevenue, m.totalPayers)
      && res.suggestions == HealthTips(m.stats, m.totalRevenue, m.totalPayers)
      && res.severity == PackageSeverity(|DeadOnes(m.stats, m.totalPayers)|, |res.suggestions|)
      && res.conclusion == ConclusionOf(|res.suggestions|)
  {
    if |input.packages| == 0 {
      return AnalysisResult(ModuleName, EmptyConclusion, Watch, [], [], None);
    }
    var totalRevenue := Sum(Revenues(input.packages));
    var totalPayers := Sum(Payers(input.packages));
    var base := BuildStats(input.packages, totalRevenue);
    assert base == BaseStats(input);
    var ranked := ByRevenue(base);
    forall j | 0 <= j < |ranked| ensures ranked[j].bench == [] {
      assert ranked[j] in multiset(base);
    }
    var comps := ComparisonList(input);
    var stats, versus := Compare(ranked, comps);
    var details := [TotalLine(totalRevenue), TopHeader] + TopLines(Top3(stats)) + versus
                   + HealthLines(stats, totalRevenue, totalPayers);
    var tips := HealthTips(stats, totalRevenue, totalPayers);
    var severity := Normal;
    if |DeadOnes(stats, totalPayers)| > 0 {
      severity := Watch;
    }
    var conclusion := ConclusionOf(|tips|);
    if |tips| > 1 {
      severity := Watch;
    }
    res := AnalysisResult(ModuleName, conclusion, severity, details, tips,
                          Some(PackageMetrics(stats, totalRevenue, totalPayers)));
  }
}

=== FILE: payment_overview.dfy ===
/**
 * Payment overview: the current event against the average of the other
 * events of the series, its pay-rate and ARPPU ranks, the year-on-year
 * changes against each benchmark, and the revenue trend label.
 */
module PaymentOverview {
  import opened Wrappers
  import opened Numeric
  import opened Strings
  import opened Sorting
  import opened BaseAnalyzer

  /** One event of the time series (or a benchmark event). Missing numeric
      keys read as 0. */
  datatype Entry = Entry(event: string, revenue: real, payRate: real, arpu: real, arppu: real)

  /** A year-on-year benchmark; its event name may be missing. */
  datatype Benchmark = Benchmark(event: Option<string>, revenue: real, payRate: real, arpu: real, arppu: real)

  datatype PaymentInput = PaymentInput(eventName: string, series: seq<Entry>, benchmarks: seq<Benchmark>, single: Option<Benchmark>)

  datatype BenchLabel = Named(name: string) | Numbered(n: nat)

  datatype Trend = InsufficientData | VReversal | Sideways | Rising | Falling

  datatype PaymentNote =
    | CurrentLine(current: nat)
    | AverageLine(vsAverage: Changes)
    | PayRateRank(rank: nat, total: nat)
    | ArppuRank(rank: nat, total: nat)
    | VersusLine(bench: BenchLabel, changes: Changes)
    | TrendLine(trend: Trend)
    | YoyWarning(metric: string, change: real)
    | ArppuLowTip
    | SharpRevenueTip
    | MildRevenueTip

  /** The parts of the conclusion sentence, in the order they are listed. */
  datatype Part =
    | RevenueDown(yoy: bool, change: real)
    | RevenueSurge(yoy: bool, change: real)
    | RevenueUp(yoy: bool, change: real)
    | PayRateExcellent(change: real)
    | PayRateAbove(change: real)
    | ArppuLow(change: real)
    | ArppuSlightlyLow(change: real)

  datatype PaymentMetrics = PaymentMetrics(
    current: nat, vsAverage: Changes, payRateRank: nat, arppuRank: nat,
    yoy: Option<Changes>, allYoy: seq<(BenchLabel, Changes)>, trend: Trend, parts: seq<Part>)

  const ModuleName := "付费整体分析"
  const ShortConclusion := "付费数据不足，无法分析"
  const SteadyConclusion := "付费数据整体表现平稳"

  /** The benchmark list: `yoy_benchmarks`, or the single `yoy_benchmark`
      when the list is empty and the single one is given. */
  function BenchmarkList(input: PaymentInput): (r: seq<Benchmark>)
    ensures |input.benchmarks| > 0 ==> r == input.benchmarks
    ensures |input.benchmarks| == 0 ==> r == (if input.single.Some? then [input.single.value] else [])
  {
    if |input.benchmarks| > 0 then input.benchmarks
    else if input.single.Some? then [input.single.value]
    else []
  }

  function Events(s: seq<Entry>): (r: seq<string>)
    ensures |r| == |s| && forall k :: 0 <= k < |s| ==> r[k] == s[k].event
  {
    seq(|s|, k requires 0 <= k < |s| => s[k].event)
  }

  /** Every entry but the one at position skip, in order. */
  function Others(series: seq<Entry>, skip: nat): (r: seq<Entry>)
    requires skip < |series|
    ensures |r| == |series| - 1
    ensures forall j :: 0 <= j < |r| ==> r[j] == series[if j < skip then j else j + 1]
  {
    series[..skip] + series[skip + 1..]
  }

  function Revenues(s: seq<Entry>): (r: seq<real>)
    ensures |r| == |s| && forall k :: 0 <= k < |s| ==> r[k] == s[k].revenue
  {
    seq(|s|, k requires 0 <= k < |s| => s[k].revenue)
  }

  function PayRates(s: seq<Entry>): (r: seq<real>)
    ensures |r| == |s| && forall k :: 0 <= k < |s| ==> r[k] == s[k].payRate
  {
    seq(|s|, k requires 0 <= k < |s| => s[k].payRate)
  }

  function Arpus(s: seq<Entry>): (r: seq<real>)
    ensures |r| == |s| && forall k :: 0 <= k < |s| ==> r[k] == s[k].arpu
  {
    seq(|s|, k requires 0 <= k < |s| => s[k].arpu)
  }

  function Arppus(s: seq<Entry>): (r: seq<real>)
    ensures |r| == |s| && forall k :: 0 <= k < |s| ==> r[k] == s[k].arppu
  {
    seq(|s|, k requires 0 <= k < |s| => s[k].arppu)
  }

  /** Change against a historical average, 0 when the average is not positive. */
  function VsAverage(current: real, average: real): (r: real)
    ensures average <= 0.0 ==> r == 0.0
    ensures average > 0.0 ==> r == ChangeRate(current, average)
    ensures average > 0.0 ==> Abs(r - (current - average) / average * 100.0) <= 0.005
    ensures average > 0.0 && current >= average ==> r >= 0.0
    ensures average > 0.0 && current <= average ==> r <= 0.0
  {
    if average > 0.0 then ChangeRate(current, average) else 0.0
  }

  /** The current entry against the averages of the other entries. */
  function AverageChanges(cur: Entry, others: seq<Entry>): Changes
    requires |others| > 0
  {
    Changes(VsAverage(cur.revenue, Mean(Revenues(others))), VsAverage(cur.payRate, Mean(PayRates(others))),
            VsAverage(cur.arpu, Mean(Arpus(others))), VsAverage(cur.arppu, Mean(Arppus(others))))
  }

  /** (event, value) pairs for ranking. */
  datatype Ranked = Ranked(event: string, value: real)

  function Value(p: Ranked): real { p.value }

  function FirstNamed(s: seq<Ranked>, name: string, n: nat): (r: Option<nat>)
    requires n <= |s|
    ensures r.Some? ==> r.value < n && s[r.value].event == name && forall j :: 0 <= j < r.value ==> s[j].event != name
    ensures r.None? ==> forall j :: 0 <= j < n ==> s[j].event != name
  {
    if n == 0 then None
    else
      var f := FirstNamed(s, name, n - 1);
      if f.Some? then f else if s[n - 1].event == name then Some(n - 1) else None
  }

  /** The rank of the current event: one plus the first position holding its
      name after a stable sort from highest to lowest value. */
  function RankOf(pairs: seq<Ranked>, cur: nat): (r: nat)
    requires cur < |pairs|
    ensures 1 <= r <= |pairs|
    ensures var sorted := Sort(pairs, Desc(Value));
      sorted[r - 1].event == pairs[cur].event && forall j :: 0 <= j < r - 1 ==> sorted[j].event != pairs[cur].event
  {
    var sorted := Sort(pairs, Desc(Value));
    assert pairs[cur] in multiset(sorted);
    var k :| 0 <= k < |sorted| && sorted[k] == pairs[cur];
    var f := FirstNamed(sorted, pairs[cur].event, |sorted|);
    f.value + 1
  }

  /** An event strictly above all others ranks first. */
  lemma RankOfTop(pairs: seq<Ranked>, cur: nat)
    requires cur < |pairs|
    requires forall j :: 0 <= j < |pairs| && j != cur ==> pairs[j].value < pairs[cur].value
    ensures RankOf(pairs, cur) == 1
  {
    var sorted := Sort(pairs, Desc(Value));
    DescPreorder(Value);
    SortSorted(pairs, Desc(Value));
    assert pairs[cur] in multiset(sorted);
    assert sorted[0] in multiset(pairs);
    var b :| 0 <= b < |pairs| && pairs[b] == sorted[0];
    var k :| 0 <= k < |sorted| && sorted[k] == pairs[cur];
    if k > 0 {
      assert Desc(Value)(sorted[0], sorted[k]);
    }
    assert Value(pairs[b]) >= Value(pairs[cur]);
    assert b == cur;
  }

  function PayRatePairs(s: seq<Entry>): (r: seq<Ranked>)
    ensures |r| == |s| && forall k :: 0 <= k < |s| ==> r[k] == Ranked(s[k].event, s[k].payRate)
  {
    seq(|s|, k requires 0 <= k < |s| => Ranked(s[k].event, s[k].payRate))
  }

  function ArppuPairs(s: seq<Entry>): (r: seq<Ranked>)
    ensures |r| == |s| && forall k :: 0 <= k < |s| ==> r[k] == Ranked(s[k].event, s[k].arppu)
  {
    seq(|s|, k requires 0 <= k < |s| => Ranked(s[k].event, s[k].arppu))
  }

  function BenchChanges(cur: Entry, b: Benchmark): Changes
  {
    Changes(ChangeRate(cur.revenue, b.revenue), ChangeRate(cur.payRate, b.payRate),
            ChangeRate(cur.arpu, b.arpu), ChangeRate(cur.arppu, b.arppu))
  }

  function BenchName(b: Benchmark, idx: nat): BenchLabel
  {
    if b.event.Some? then Named(b.event.value) else Numbered(idx + 1)
  }

  /** One comparison line per benchmark, in order. */
  function VersusLines(cur: Entry, benches: seq<Benchmark>): (r: seq<PaymentNote>)
    ensures |r| == |benches|
  {
    seq(|benches|, k requires 0 <= k < |benches| => VersusLine(BenchName(benches[k], k), BenchChanges(cur, benches[k])))
  }

  /** The year-on-year pass: one change record and one detail line per
      benchmark, in order; the first benchmark's record is the primary one. */
  method YearOnYear(cur: Entry, benches: seq<Benchmark>)
    returns (primary: Option<Changes>, all: seq<(BenchLabel, Changes)>, lines: seq<PaymentNote>)
    ensures |all| == |benches| && |lines| == |benches|
    ensures forall k :: 0 <= k < |benches| ==>
      all[k] == (BenchName(benches[k], k), BenchChanges(cur, benches[k]))
      && lines[k] == VersusLine(BenchName(benches[k], k), BenchChanges(cur, benches[k]))
    ensures primary == if |benches| > 0 then Some(BenchChanges(cur, benches[0])) else None
    ensures lines == VersusLines(cur, benches)
  {
    primary, all, lines := None, [], [];
    var k := 0;
    while k < |benches|
      invariant 0 <= k <= |benches|
      invariant |all| == k && |lines| == k
      invariant forall j :: 0 <= j < k ==>
        all[j] == (BenchName(benches[j], j), BenchChanges(cur, benches[j]))
        && lines[j] == VersusLine(BenchName(benches[j], j), BenchChanges(cur, benches[j]))
      invariant primary == if k > 0 then Some(BenchChanges(cur, benches[0])) else None
    {
      var changes := BenchChanges(cur, benches[k]);
      all := all + [(BenchName(benches[k], k), changes)];
      if k == 0 {
        primary := Some(changes);
      }
      lines := lines + [VersusLine(BenchName(benches[k], k), changes)];
      k := k + 1;
    }
  }

  // ---- Trend label ----

  /** The values the trend looks at: the last six, or all when fewer. */
  function Recent(values: seq<real>): (r: seq<real>)
    ensures |r| == if |values| >= 6 then 6 else |values|
  {
    if |values| >= 6 then values[|values| - 6..] else values
  }

  predicate Rise(s: seq<real>, j: nat) { j + 1 < |s| && s[j + 1] > s[j] }
  predicate Fall(s: seq<real>, j: nat) { j + 1 < |s| && s[j + 1] < s[j] }

  /** The steps of s that rise, and those that fall, as tests on the step index. */
  function Rises(s: seq<real>): nat -> bool
  {
    (j: nat) => Rise(s, j)
  }

  function Falls(s: seq<real>): nat -> bool
  {
    (j: nat) => Fall(s, j)
  }

  /** First half falls, second half rises by more than half the fall; each
      half has at least two points. */
  predicate VShape(recent: seq<real>)
  {
    var mid := |recent| / 2;
    mid >= 2 && |recent| - mid >= 2 &&
    var first := recent[mid - 1] - recent[0];
    var second := recent[|recent| - 1] - recent[mid];
    first < 0.0 && second > 0.0 && Abs(second) > Abs(first) * 0.5
  }

  /** Coefficient of variation below 0.05, as sqrt(var)/mean < 0.05 squared. */
  predicate LowVariation(recent: seq<real>)
    requires |recent| > 0
  {
    Mean(recent) > 0.0 && Variance(recent) < 0.0025 * Mean(recent) * Mean(recent)
  }

  function TrendPattern(values: seq<real>): (t: Trend)
    ensures t == InsufficientData <==> |values| < 3
    ensures t == VReversal ==> VShape(Recent(values))
  {
    if |values| < 3 then InsufficientData else RecentTrend(Recent(values))
  }

  /** The pattern of the recent window of at least three values. */
  function RecentTrend(recent: seq<real>): (t: Trend)
    requires |recent| >= 3
    ensures t != InsufficientData
    ensures t == VReversal ==> VShape(recent)
  {
    var n := |recent| - 1;
    var up := CountWhere(n, Rises(recent));
    var down := CountWhere(n, Falls(recent));
    if VShape(recent) then VReversal
    else if LowVariation(recent) then Sideways
    else if up as real >= n as real * 0.7 then Rising
    else if down as real >= n as real * 0.7 then Falling
    else Sideways
  }

  /** Only the last six values matter. */
  lemma TrendLastSix(prefix: seq<real>, values: seq<real>)
    requires |values| >= 6
    ensures TrendPattern(prefix + values) == TrendPattern(values)
  {
    var all := prefix + values;
    assert all[|all| - 6..] == values[|values| - 6..];
    assert Recent(all) == Recent(values);
  }

  lemma CountAll(n: nat, p: nat -> bool)
    requires forall j :: 0 <= j < n ==> p(j)
    ensures CountWhere(n, p) == n
  {
    var q := (j: nat) => !p(j);
    CountWhereSplit(n, p, q);
    CountWhereZero(n, q);
  }

  /** The last six values of a strictly monotone series are strictly monotone. */
  lemma RecentMonotone(values: seq<real>)
    ensures (forall i :: 0 < i < |values| ==> values[i - 1] < values[i]) ==>
      forall i :: 0 < i < |Recent(values)| ==> Recent(values)[i - 1] < Recent(values)[i]
    ensures (forall i :: 0 < i < |values| ==> values[i - 1] > values[i]) ==>
      forall i :: 0 < i < |Recent(values)| ==> Recent(values)[i - 1] > Recent(values)[i]
  {
    var recent := Recent(values);
    var off := |values| - |recent|;
    forall i | 0 <= i < |recent| ensures recent[i] == values[off + i] {
    }
  }

  /** A strictly rising series reads as rising, unless it barely varies. */
  lemma StrictlyRising(values: seq<real>)
    requires |values| >= 3
    requires forall i :: 0 < i < |values| ==> values[i - 1] < values[i]
    ensures TrendPattern(values) == Rising || TrendPattern(values) == Sideways
  {
    RecentMonotone(values);
    var recent := Recent(values);
    CountAll(|recent| - 1, Rises(recent));
    if VShape(recent) {
      Increasing(recent, 0, |recent| / 2 - 1);
    }
  }

  /** A strictly falling series reads as falling, unless it barely varies. */
  lemma StrictlyFalling(values: seq<real>)
    requires |values| >= 3
    requires forall i :: 0 < i < |values| ==> values[i - 1] > values[i]
    ensures TrendPattern(values) == Falling || TrendPattern(values) == Sideways
  {
    RecentMonotone(values);
    FallingRecent(Recent(values));
  }

  lemma FallingRecent(recent: seq<real>)
    requires |recent| >= 3
    requires forall i :: 0 < i < |recent| ==> recent[i - 1] > recent[i]
    ensures RecentTrend(recent) == Falling || RecentTrend(recent) == Sideways
  {
    var n := |recent| - 1;
    CountAll(n, Falls(recent));
    CountWhereZero(n, Rises(recent));
    assert CountWhere(n, Rises(recent)) == 0 && CountWhere(n, Falls(recent)) == n;
    if VShape(recent) {
      Decreasing(recent, |recent| / 2, |recent| - 1);
    }
  }

  lemma {:induction false} Increasing(s: seq<real>, a: nat, b: nat)
    requires a <= b < |s|
    requires forall i :: 0 < i < |s| ==> s[i - 1] < s[i]
    ensures s[a] <= s[b]
  {
    if a < b {
      Increasing(s, a, b - 1);
    }
  }

  lemma {:induction false} Decreasing(s: seq<real>, a: nat, b: nat)
    requires a <= b < |s|
    requires forall i :: 0 < i < |s| ==> s[i - 1] > s[i]
    ensures s[a] >= s[b]
  {
    if a < b {
      Decreasing(s, a, b - 1);
    }
  }

  // ---- Severity and conclusion ----

  /** The reference revenue change: year-on-year against the first benchmark
      when there is one, else against the historical average. */
  function Reference(yoy: Option<Changes>, vsAverage: Changes): real
  {
    if yoy.Some? then yoy.value.revenue else vsAverage.revenue
  }

  function PaymentSeverity(reference: real, arppuVsAverage: real): (s: Severity)
    ensures s == Abnormal <==> reference < -20.0
    ensures s == Watch <==> reference >= -20.0 && (reference < 0.0 || arppuVsAverage < -15.0)
    ensures s == Normal <==> reference >= 0.0 && arppuVsAverage >= -15.0
  {
    if reference < -20.0 then Abnormal
    else if reference < 0.0 || arppuVsAverage < -15.0 then Watch
    else Normal
  }

  function RevenuePart(reference: real, yoy: bool): seq<Part>
  {
    if reference < 0.0 then [RevenueDown(yoy, Abs(reference))]
    else if reference > 20.0 then [RevenueSurge(yoy, reference)]
    else if reference > 0.0 then [RevenueUp(yoy, reference)]
    else []
  }

  function PayRatePart(change: real): seq<Part>
  {
    if change > 10.0 then [PayRateExcellent(change)]
    else if change > 0.0 then [PayRateAbove(change)]
    else []
  }

  function ArppuPart(change: real): seq<Part>
  {
    if change < -15.0 then [ArppuLow(change)]
    else if change < 0.0 then [ArppuSlightlyLow(change)]
    else []
  }

  /** The conclusion parts: the revenue part first, then pay rate, then ARPPU. */
  function Parts(reference: real, yoy: bool, vsAverage: Changes): seq<Part>
  {
    RevenuePart(reference, yoy) + PayRatePart(vsAverage.payRate) + ArppuPart(vsAverage.arppu)
  }

  /** What the conclusion says: a revenue part exactly when the reference
      change is not zero, leading and of the reference's sign; the steady
      sentence exactly when revenue is flat, the pay rate is not above and
      ARPPU not below the historical average. */
  lemma PartsMeaning(reference: real, yoy: bool, vsAverage: Changes)
    ensures var parts := Parts(reference, yoy, vsAverage);
      |parts| <= 3
      && (reference < 0.0 ==> parts[0] == RevenueDown(yoy, -reference))
      && (reference > 20.0 ==> parts[0] == RevenueSurge(yoy, reference))
      && (0.0 < reference <= 20.0 ==> parts[0] == RevenueUp(yoy, reference))
      && (reference == 0.0 ==> parts == PayRatePart(vsAverage.payRate) + ArppuPart(vsAverage.arppu))
      && (vsAverage.arppu < -15.0 ==> parts[|parts| - 1] == ArppuLow(vsAverage.arppu))
      && (ConclusionOf(parts) == SteadyConclusion <==>
            reference == 0.0 && vsAverage.payRate <= 0.0 && vsAverage.arppu >= 0.0)
  {
  }

  function PartText(p: Part): string
  {
    match p
    case RevenueDown(yoy, _) => if yoy then "营收同比下降" else "营收vs历史均值下降"
    case RevenueSurge(yoy, _) => if yoy then "营收同比大幅增长" else "营收vs历史均值大幅增长"
    case RevenueUp(yoy, _) => if yoy then "营收同比增长" else "营收vs历史均值增长"
    case PayRateExcellent(_) => "付费率表现优异"
    case PayRateAbove(_) => "付费率高于历史均值"
    case ArppuLow(_) => "ARPPU偏低"
    case ArppuSlightlyLow(_) => "ARPPU略低"
  }

  function JoinParts(parts: seq<Part>): string
    requires |parts| > 0
  {
    if |parts| == 1 then PartText(parts[0]) else PartText(parts[0]) + "，" + JoinParts(parts[1..])
  }

  function ConclusionOf(parts: seq<Part>): (c: string)
    ensures parts == [] <==> c == SteadyConclusion
  {
    if parts == [] then SteadyConclusion
    else
      var c := JoinParts(parts);
      assert c[2] != SteadyConclusion[2] by { JoinPartsThird(parts); }
      c
  }

  /** No part text has 数 as its third character, unlike the steady sentence. */
  lemma JoinPartsThird(parts: seq<Part>)
    requires |parts| > 0
    ensures |JoinParts(parts)| > 2 && JoinParts(parts)[2] != '数'
  {
    var t := PartText(parts[0]);
    assert |t| > 2 && t[2] != '数';
    assert JoinParts(parts)[..|t|] == t;
  }

  function Tips(reference: real, arppuVsAverage: real): seq<PaymentNote>
  {
    (if arppuVsAverage < -15.0 then [ArppuLowTip] else [])
    + (if reference < -20.0 then [SharpRevenueTip] else if reference < 0.0 then [MildRevenueTip] else [])
  }

  function YoyWarnings(yoy: Option<Changes>): seq<PaymentNote>
  {
    if yoy.None? then []
    else
      var c := yoy.value;
      (if c.payRate < -15.0 then [YoyWarning("付费率", Abs(c.payRate))] else [])
      + (if c.arpu < -15.0 then [YoyWarning("ARPU", Abs(c.arpu))] else [])
      + (if c.arppu < -15.0 then [YoyWarning("ARPPU", Abs(c.arppu))] else [])
  }

  method Analyze(input: PaymentInput) returns (res: AnalysisResult<PaymentNote, Option<PaymentMetrics>>)
    ensures res.moduleName == ModuleName
    ensures |input.series| < 2 ==>
      res.severity == Watch && res.conclusion == ShortConclusion && res.details == [] && res.suggestions == [] && res.metrics.None?
    ensures |input.series| >= 2 ==> res.metrics.Some?
    ensures |input.series| >= 2 && res.metrics.Some? ==>
      var m := res.metrics.value;
      var cur := CurrentIndex(Events(input.series), input.eventName);
      var benches := BenchmarkList(input);
      && m.current == cur
      && m.vsAverage == AverageChanges(input.series[cur], Others(input.series, cur))
      && 1 <= m.payRateRank <= |input.series| && 1 <= m.arppuRank <= |input.series|
      && m.payRateRank == RankOf(PayRatePairs(input.series), cur)
      && m.arppuRank == RankOf(ArppuPairs(input.series), cur)
      && |m.allYoy| == |benches|
      && (forall k :: 0 <= k < |benches| ==>
            m.allYoy[k] == (BenchName(benches[k], k), BenchChanges(input.series[cur], benches[k])))
      && m.yoy == (if |benches| > 0 then Some(BenchChanges(input.series[cur], benches[0])) else None)
      && m.trend == TrendPattern(Revenues(input.series))
      && res.severity == PaymentSeverity(Reference(m.yoy, m.vsAverage), m.vsAverage.arppu)
      && m.parts == Parts(Reference(m.yoy, m.vsAverage), m.yoy.Some?, m.vsAverage)
      && res.conclusion == ConclusionOf(m.parts)
      && res.suggestions == Tips(Reference(m.yoy, m.vsAverage), m.vsAverage.arppu)
      && res.details == [CurrentLine(cur), AverageLine(m.vsAverage),
                         PayRateRank(m.payRateRank, |input.series|), ArppuRank(m.arppuRank, |input.series|)]
                        + VersusLines(input.series[cur], benches) + [TrendLine(m.trend)] + YoyWarnings(m.yoy)
  {
    var benches := BenchmarkList(input);
    var ts := input.series;
    if |ts| < 2 {
      res := AnalysisResult(ModuleName, ShortConclusion, Watch, [], [], None);
      return;
    }
    var cur := FindCurrent(Events(ts), input.eventName);
    var current := ts[cur];
    var others := Others(ts, cur);
    var vsAvg := AverageChanges(current, others);
    var prRank := RankOf(PayRatePairs(ts), cur);
    var arppuRank := RankOf(ArppuPairs(ts), cur);
    var details := [CurrentLine(cur), AverageLine(vsAvg), PayRateRank(prRank, |ts|), ArppuRank(arppuRank, |ts|)];
    var yoy, allYoy, lines := YearOnYear(current, benches);
    details := details + lines;
    var trend := TrendPattern(Revenues(ts));
    details := details + [TrendLine(trend)];
    var reference := Reference(yoy, vsAvg);
    var parts := Parts(reference, yoy.Some?, vsAvg);
    details := details + YoyWarnings(yoy);
    res := AnalysisResult(ModuleName, ConclusionOf(parts), PaymentSeverity(reference, vsAvg.arppu),
                          details, Tips(reference, vsAvg.arppu),
                          Some(PaymentMetrics(cur, vsAvg, prRank, arppuRank, yoy, allYoy, trend, parts)));
  }
}

=== FILE: r_tier.dfy ===
/**
 * R-tier payment analysis: each paying tier's share of the current event's
 * revenue, its changes against the primary comparison and every further
 * benchmark, the positioning of the event, and the cross-over check between
 * the top and the bottom tier.
 */
module RTier {
  import opened Wrappers
  import opened Numeric
  import opened Strings
  import opened BaseAnalyzer

  /** One tier's figures in one event; a missing tier or key reads as 0. */
  datatype TierData = TierData(revenue: real, payRate: real, arpu: real, arppu: real)

  /** One event: its name (possibly missing) and the figures per tier name. */
  datatype Snapshot = Snapshot(event: Option<string>, data: map<string, TierData>)

  datatype RTierInput = RTierInput(eventName: string, tiers: seq<string>, series: seq<Snapshot>, benchmarks: seq<Snapshot>)

  /** The activity's positioning; a high-tier one names the top tier and its revenue share. */
  datatype Positioning = HighTier(tier: string, share: real) | Inclusive | AllRound | Structural

  datatype RTierNote =
    | TierLine(tier: nat)
    | BenchTierLine(bench: nat, tier: nat)
    | PositioningLine(p: Positioning)
    | CrossingLine
    | TierDropTip(tier: nat, drop: real)
    | CrossingTip

  datatype RTierMetrics = RTierMetrics(
    current: Option<nat>, compare: seq<Snapshot>, total: real, shares: seq<real>,
    changes: seq<Changes>, allBench: map<string, seq<Changes>>, positioning: Positioning)

  const ModuleName := "R级付费分析"
  const ShortConclusion := "R级数据不足，无法分析"

  const Zero := TierData(0.0, 0.0, 0.0, 0.0)

  function Lookup(data: map<string, TierData>, tier: string): TierData
  {
    if tier in data then data[tier] else Zero
  }

  function Events(s: seq<Snapshot>): (r: seq<string>)
    ensures |r| == |s| && forall k :: 0 <= k < |s| ==> r[k] == s[k].event.GetOr("")
  {
    seq(|s|, k requires 0 <= k < |s| => s[k].event.GetOr(""))
  }

  /** The comparison list: the benchmarks when given, else the event after
      the current one, else the event before it. */
  function CompareList(input: RTierInput, cur: Option<nat>): (r: seq<Snapshot>)
    requires cur.Some? ==> cur.value < |input.series|
    ensures |input.benchmarks| > 0 ==> r == input.benchmarks
    ensures |input.benchmarks| == 0 && cur.Some? && cur.value + 1 < |input.series| ==> r == [input.series[cur.value + 1]]
    ensures |input.benchmarks| == 0 && cur.Some? && cur.value + 1 == |input.series| && cur.value > 0 ==>
      r == [input.series[cur.value - 1]]
    ensures |r| <= 1 || r == input.benchmarks
    ensures |input.benchmarks| == 0 ==> (r == [] <==> cur.None? || |input.series| == 1)
    ensures |input.benchmarks| == 0 && r != [] ==>
      cur.Some? && exists j :: 0 <= j < |input.series| && (j == cur.value + 1 || j + 1 == cur.value) && r == [input.series[j]]
  {
    if |input.benchmarks| > 0 then input.benchmarks
    else if cur.None? then []
    else if cur.value + 1 < |input.series| then [input.series[cur.value + 1]]
    else if cur.value >= 1 then [input.series[cur.value - 1]]
    else []
  }

  function Revenues(tiers: seq<string>, data: map<string, TierData>): (r: seq<real>)
    ensures |r| == |tiers| && forall i :: 0 <= i < |tiers| ==> r[i] == Lookup(data, tiers[i]).revenue
  {
    seq(|tiers|, i requires 0 <= i < |tiers| => Lookup(data, tiers[i]).revenue)
  }

  function RawShare(revenue: real, total: real): real
    requires total != 0.0
  {
    revenue / total * 100.0
  }

  /** A tier's share of the total, rounded to one decimal; 0 without a positive total. */
  function Share(revenue: real, total: real): (r: real)
    ensures total > 0.0 ==> Abs(r - RawShare(revenue, total)) <= 0.05
    ensures total <= 0.0 ==> r == 0.0
  {
    if total > 0.0 then
      assert Pow10(1) == 10;
      Round(RawShare(revenue, total), 1)
    else 0.0
  }

  /** Every listed tier's share of the total, in tier order. */
  function Shares(tiers: seq<string>, data: map<string, TierData>, total: real): (r: seq<real>)
    ensures |r| == |tiers| && forall i :: 0 <= i < |tiers| ==> r[i] == Share(Lookup(data, tiers[i]).revenue, total)
  {
    seq(|tiers|, i requires 0 <= i < |tiers| => Share(Lookup(data, tiers[i]).revenue, total))
  }

  function RawShares(revs: seq<real>, total: real): (r: seq<real>)
    requires total != 0.0
    ensures |r| == |revs| && forall i :: 0 <= i < |revs| ==> r[i] == RawShare(revs[i], total)
  {
    seq(|revs|, i requires 0 <= i < |revs| => RawShare(revs[i], total))
  }

  lemma {:induction false} SumRawShares(revs: seq<real>, total: real)
    requires total != 0.0
    ensures Sum(RawShares(revs, total)) == Sum(revs) / total * 100.0
  {
    if |revs| > 0 {
      var n := |revs| - 1;
      SumRawShares(revs[..n], total);
      assert RawShares(revs, total)[..n] == RawShares(revs[..n], total);
      assert Sum(revs) == Sum(revs[..n]) + revs[n];
      calc {
        Sum(RawShares(revs, total));
        Sum(revs[..n]) / total * 100.0 + revs[n] / total * 100.0;
        (Sum(revs[..n]) + revs[n]) / total * 100.0;
      }
    }
  }

  /** Before rounding, the shares of all listed tiers add up to 100. */
  lemma SharesSumTo100(revs: seq<real>)
    requires Sum(revs) > 0.0
    ensures Sum(RawShares(revs, Sum(revs))) == 100.0
  {
    var t := Sum(revs);
    SumRawShares(revs, t);
    assert t / t == 1.0;
  }

  function TierChanges(c: TierData, p: TierData): Changes
  {
    Changes(ChangeRate(c.revenue, p.revenue), ChangeRate(c.payRate, p.payRate),
            ChangeRate(c.arpu, p.arpu), ChangeRate(c.arppu, p.arppu))
  }

  /** Every tier's changes from one comparison event to the current one. */
  function ChangesAgainst(tiers: seq<string>, cur: map<string, TierData>, other: map<string, TierData>): (r: seq<Changes>)
    ensures |r| == |tiers| && forall i :: 0 <= i < |tiers| ==> r[i] == TierChanges(Lookup(cur, tiers[i]), Lookup(other, tiers[i]))
  {
    seq(|tiers|, i requires 0 <= i < |tiers| => TierChanges(Lookup(cur, tiers[i]), Lookup(other, tiers[i])))
  }

  /** The per-tier pass: one share, one change record against the primary
      comparison and one detail line per tier, in tier order. */
  method TierPass(tiers: seq<string>, cur: map<string, TierData>, prev: map<string, TierData>, total: real)
    returns (shares: seq<real>, changes: seq<Changes>, lines: seq<RTierNote>)
    ensures shares == Shares(tiers, cur, total)
    ensures changes == ChangesAgainst(tiers, cur, prev)
    ensures lines == TierLines(|tiers|)
  {
    shares, changes, lines := [], [], [];
    var i := 0;
    while i < |tiers|
      invariant 0 <= i <= |tiers|
      invariant |shares| == i && forall j :: 0 <= j < i ==> shares[j] == Share(Lookup(cur, tiers[j]).revenue, total)
      invariant changes == ChangesAgainst(tiers, cur, prev)[..i]
      invariant lines == seq(i, j requires 0 <= j => TierLine(j))
    {
      var c := Lookup(cur, tiers[i]);
      shares := shares + [Share(c.revenue, total)];
      changes := changes + [TierChanges(c, Lookup(prev, tiers[i]))];
      lines := lines + [TierLine(i)];
      i := i + 1;
    }
  }

  /** One detail line per tier. */
  function TierLines(n: nat): (r: seq<RTierNote>)
    ensures |r| == n
  {
    seq(n, i requires 0 <= i => TierLine(i))
  }

  /** The detail lines of one further comparison k: one per tier. */
  function BenchRow(k: nat, t: nat): (r: seq<RTierNote>)
    ensures |r| == t && forall i :: 0 <= i < t ==> r[i] == BenchTierLine(k, i)
  {
    seq(t, i requires 0 <= i < t => BenchTierLine(k, i))
  }

  /** The detail lines of the first n comparisons: none for the first, one
      row per tier for each later one. */
  function BenchLines(n: nat, t: nat): (r: seq<RTierNote>)
    ensures |r| == (if n > 0 then n - 1 else 0) * t
  {
    if n <= 1 then [] else BenchLines(n - 1, t) + BenchRow(n - 1, t)
  }

  /** The key a comparison is filed under: its event name, else 对标<n>. */
  function BenchKey(b: Snapshot, idx: nat): string
  {
    if b.event.Some? then b.event.value else "对标" + NatToString(idx + 1)
  }

  /** The dictionary of changes per comparison, filled in list order, so a
      repeated key keeps the last comparison's changes. */
  function AllBench(tiers: seq<string>, cur: map<string, TierData>, compare: seq<Snapshot>): map<string, seq<Changes>>
  {
    if |compare| == 0 then map[]
    else
      var n := |compare| - 1;
      AllBench(tiers, cur, compare[..n])[BenchKey(compare[n], n) := ChangesAgainst(tiers, cur, compare[n].data)]
  }

  /** x is the key of one of the comparisons. */
  predicate KeyOf(compare: seq<Snapshot>, x: string)
  {
    exists k :: 0 <= k < |compare| && BenchKey(compare[k], k) == x
  }

  lemma {:induction false} AllBenchHas(tiers: seq<string>, cur: map<string, TierData>, compare: seq<Snapshot>, k: nat)
    requires k < |compare|
    ensures BenchKey(compare[k], k) in AllBench(tiers, cur, compare)
  {
    var n := |compare| - 1;
    if k < n {
      var pre := compare[..n];
      assert pre[k] == compare[k];
      AllBenchHas(tiers, cur, pre, k);
    }
  }

  lemma {:induction false} AllBenchOnly(tiers: seq<string>, cur: map<string, TierData>, compare: seq<Snapshot>, x: string)
    requires x in AllBench(tiers, cur, compare)
    ensures KeyOf(compare, x)
  {
    var n := |compare| - 1;
    if x != BenchKey(compare[n], n) {
      var pre := compare[..n];
      AllBenchOnly(tiers, cur, pre, x);
      var k :| 0 <= k < n && BenchKey(pre[k], k) == x;
      assert pre[k] == compare[k];
    }
  }

  /** The dictionary has one key per comparison, and no other. */
  lemma AllBenchKeys(tiers: seq<string>, cur: map<string, TierData>, compare: seq<Snapshot>)
    ensures forall x :: x in AllBench(tiers, cur, compare) <==> KeyOf(compare, x)
  {
    forall x ensures x in AllBench(tiers, cur, compare) <==> KeyOf(compare, x) {
      if x in AllBench(tiers, cur, compare) {
        AllBenchOnly(tiers, cur, compare, x);
      }
      if KeyOf(compare, x) {
        var k :| 0 <= k < |compare| && BenchKey(compare[k], k) == x;
        AllBenchHas(tiers, cur, compare, k);
      }
    }
  }

  /** Each comparison whose key is not reused later is filed with its own
      changes; the first is filed with the primary change records. */
  lemma {:induction false} AllBenchEntry(tiers: seq<string>, cur: map<string, TierData>, compare: seq<Snapshot>, k: nat)
    requires k < |compare|
    requires forall j :: k < j < |compare| ==> BenchKey(compare[j], j) != BenchKey(compare[k], k)
    ensures BenchKey(compare[k], k) in AllBench(tiers, cur, compare)
    ensures AllBench(tiers, cur, compare)[BenchKey(compare[k], k)] == ChangesAgainst(tiers, cur, compare[k].data)
  {
    AllBenchHas(tiers, cur, compare, k);
    var n := |compare| - 1;
    if k < n {
      var pre := compare[..n];
      assert pre[k] == compare[k];
      forall j | k < j < n ensures BenchKey(pre[j], j) != BenchKey(pre[k], k) {
        assert pre[j] == compare[j];
      }
      AllBenchEntry(tiers, cur, pre, k);
    }
  }

  /** The loop over the comparisons: the first reuses the primary change
      records, the others add one detail line per tier. */
  method BenchPass(tiers: seq<string>, cur: map<string, TierData>, compare: seq<Snapshot>, primary: seq<Changes>)
    returns (all: map<string, seq<Changes>>, lines: seq<RTierNote>)
    requires |compare| > 0 ==> primary == ChangesAgainst(tiers, cur, compare[0].data)
    ensures all == AllBench(tiers, cur, compare)
    ensures lines == BenchLines(|compare|, |tiers|)
  {
    all, lines := map[], [];
    var k := 0;
    while k < |compare|
      invariant 0 <= k <= |compare|
      invariant all == AllBench(tiers, cur, compare[..k])
      invariant lines == BenchLines(k, |tiers|)
    {
      assert compare[..k + 1][..k] == compare[..k] && compare[..k + 1][k] == compare[k];
      if k == 0 {
        all := all[BenchKey(compare[0], 0) := primary];
      } else {
        var changes, row := BenchTiers(tiers, cur, compare[k].data, k);
        lines := lines + row;
        all := all[BenchKey(compare[k], k) := changes];
      }
      k := k + 1;
    }
    assert compare[..k] == compare;
  }

  /** The inner loop of the comparison pass: comparison k's changes and detail lines, one per tier. */
  method BenchTiers(tiers: seq<string>, cur: map<string, TierData>, data: map<string, TierData>, k: nat)
    returns (changes: seq<Changes>, row: seq<RTierNote>)
    ensures changes == ChangesAgainst(tiers, cur, data)
    ensures row == BenchRow(k, |tiers|)
  {
    changes, row := [], [];
    var i := 0;
    while i < |tiers|
      invariant 0 <= i <= |tiers|
      invariant changes == ChangesAgainst(tiers, cur, data)[..i]
      invariant row == BenchRow(k, |tiers|)[..i]
    {
      changes := changes + [TierChanges(Lookup(cur, tiers[i]), Lookup(data, tiers[i]))];
      row := row + [BenchTierLine(k, i)];
      i := i + 1;
    }
  }

  /** The positioning cascade. */
  function Position(tiers: seq<string>, shares: seq<real>, changes: seq<Changes>): (p: Positioning)
    requires |shares| == |tiers| && |changes| == |tiers|
    ensures p.HighTier? <==> |tiers| > 0 && shares[0] > 50.0
    ensures p.HighTier? ==> p.tier == tiers[0] && p.share == shares[0]
    ensures p == Inclusive <==> !(|tiers| > 0 && shares[0] > 50.0) && exists i :: 2 <= i < |tiers| && changes[i].payRate > 10.0
    ensures p == AllRound <==> !(|tiers| > 0 && shares[0] > 50.0) && (forall i :: 2 <= i < |tiers| ==> changes[i].payRate <= 10.0)
                               && forall i :: 0 <= i < |tiers| ==> changes[i].revenue > 0.0
  {
    var top := if |tiers| > 0 then shares[0] else 0.0;
    if top > 50.0 then HighTier(tiers[0], top)
    else if exists i :: 2 <= i < |tiers| && changes[i].payRate > 10.0 then Inclusive
    else if forall i :: 0 <= i < |tiers| ==> changes[i].revenue > 0.0 then AllRound
    else Structural
  }

  function PositionText(p: Positioning): string
  {
    match p
    case HighTier(_, _) => "高R向活动。营收占比集中于头部R级，活动对高付费用户吸引力强"
    case Inclusive => "普惠型活动。中小R付费率提升显著，活动覆盖面广"
    case AllRound => "全面提升型活动。各R级均实现增长，活动设计均衡"
    case Structural => "结构性变化活动。部分R级增长、部分下滑，需关注结构变化"
  }

  function DropTips(changes: seq<Changes>): seq<RTierNote>
  {
    if |changes| == 0 then []
    else
      var n := |changes| - 1;
      DropTips(changes[..n]) + (if changes[n].revenue < -20.0 then [TierDropTip(n, Abs(changes[n].revenue))] else [])
  }

  /** The severity loop over the tiers: a revenue drop beyond 20% gives 异常
      and a tip, a drop beyond 10% lifts 正常 to 关注. */
  method SeverityPass(changes: seq<Changes>) returns (severity: Severity, tips: seq<RTierNote>)
    ensures severity == Abnormal <==> exists i :: 0 <= i < |changes| && changes[i].revenue < -20.0
    ensures severity == Watch <==> (forall i :: 0 <= i < |changes| ==> changes[i].revenue >= -20.0)
                                   && exists i :: 0 <= i < |changes| && changes[i].revenue < -10.0
    ensures severity == Normal || severity == Watch || severity == Abnormal
    ensures tips == DropTips(changes)
  {
    severity, tips := Normal, [];
    var i := 0;
    while i < |changes|
      invariant 0 <= i <= |changes|
      invariant severity == Abnormal <==> exists j :: 0 <= j < i && changes[j].revenue < -20.0
      invariant severity == Watch <==> (forall j :: 0 <= j < i ==> changes[j].revenue >= -20.0)
                                       && exists j :: 0 <= j < i && changes[j].revenue < -10.0
      invariant severity == Normal || severity == Watch || severity == Abnormal
      invariant tips == DropTips(changes[..i])
    {
      assert changes[..i + 1][..i] == changes[..i];
      var change := changes[i].revenue;
      if change < -20.0 {
        severity := if severity != Critical then Abnormal else severity;
        tips := tips + [TierDropTip(i, Abs(change))];
      } else if change < -10.0 {
        if severity == Normal {
          severity := Watch;
        }
      }
      i := i + 1;
    }
    assert changes[..i] == changes;
  }

  /** Top tier down by more than 10% while the bottom tier is up by more than 10%. */
  predicate Crossing(changes: seq<Changes>)
  {
    |changes| >= 2 && changes[0].revenue < -10.0 && changes[|changes| - 1].revenue > 10.0
  }

  /** The figures of the current event; none when the series is empty. */
  function CurrentData(series: seq<Snapshot>, cur: Option<nat>): map<string, TierData>
  {
    if cur.Some? && cur.value < |series| then series[cur.value].data else map[]
  }

  function PrimaryData(compare: seq<Snapshot>): map<string, TierData>
  {
    if |compare| > 0 then compare[0].data else map[]
  }

  /** Everything after the current event and the comparison list are fixed. */
  /** 异常 iff some tier's revenue fell more than 20%; 关注 iff none did and some fell more than 10%; never 严重. */
  predicate TierSeverity(changes: seq<Changes>, severity: Severity)
  {
    (severity == Abnormal <==> exists i :: 0 <= i < |changes| && changes[i].revenue < -20.0)
    && (severity == Watch <==> (forall i :: 0 <= i < |changes| ==> changes[i].revenue >= -20.0)
                               && exists i :: 0 <= i < |changes| && changes[i].revenue < -10.0)
    && (severity == Normal || severity == Watch || severity == Abnormal)
  }

  /** What the analysis of the current figures against the comparison list yields. */
  predicate Evaluated(tiers: seq<string>, curData: map<string, TierData>, compare: seq<Snapshot>,
                      total: real, shares: seq<real>, changes: seq<Changes>, all: map<string, seq<Changes>>,
                      positioning: Positioning, severity: Severity, details: seq<RTierNote>, tips: seq<RTierNote>)
  {
    total == Sum(Revenues(tiers, curData))
    && shares == Shares(tiers, curData, total)
    && changes == ChangesAgainst(tiers, curData, PrimaryData(compare))
    && all == AllBench(tiers, curData, compare)
    && positioning == Position(tiers, shares, changes)
    && TierSeverity(changes, severity)
    && tips == DropTips(changes) + (if Crossing(changes) then [CrossingTip] else [])
    && details == TierLines(|tiers|) + BenchLines(|compare|, |tiers|) + [PositioningLine(positioning)]
                  + (if Crossing(changes) then [CrossingLine] else [])
  }

  method Evaluate(tiers: seq<string>, curData: map<string, TierData>, compare: seq<Snapshot>)
    returns (total: real, shares: seq<real>, changes: seq<Changes>, all: map<string, seq<Changes>>,
             positioning: Positioning, severity: Severity, details: seq<RTierNote>, tips: seq<RTierNote>)
    ensures Evaluated(tiers, curData, compare, total, shares, changes, all, positioning, severity, details, tips)
  {
    total := Sum(Revenues(tiers, curData));
    shares, changes, details := TierPass(tiers, curData, PrimaryData(compare), total);
    var benchLines;
    all, benchLines := BenchPass(tiers, curData, compare, changes);
    details := details + benchLines;
    positioning := Position(tiers, shares, changes);
    details := details + [PositioningLine(positioning)];
    severity, tips := SeverityPass(changes);
    if Crossing(changes) {
      details := details + [CrossingLine];
      tips := tips + [CrossingTip];
    }
  }

  method Analyze(input: RTierInput) returns (res: AnalysisResult<RTierNote, Option<RTierMetrics>>)
    ensures res.moduleName == ModuleName
    ensures |input.series| < 2 && |input.benchmarks| == 0 <==> res.metrics.None?
    ensures res.metrics.None? ==>
      res.severity == Watch && res.conclusion == ShortConclusion && res.details == [] && res.suggestions == []
    ensures res.metrics.Some? ==>
      var m := res.metrics.value;
      && (|input.series| > 0 <==> m.current.Some?)
      && (m.current.Some? ==> m.current.value == CurrentIndex(Events(input.series), input.eventName))
      && m.compare == CompareList(input, m.current)
      && res.conclusion == PositionText(m.positioning)
      && Evaluated(input.tiers, CurrentData(input.series, m.current), m.compare, m.total, m.shares, m.changes,
                   m.allBench, m.positioning, res.severity, res.details, res.suggestions)
  {
    if |input.series| < 2 && |input.benchmarks| == 0 {
      res := AnalysisResult(ModuleName, ShortConclusion, Watch, [], [], None);
      return;
    }
    var cur: Option<nat> := None;
    if |input.series| > 0 {
      var idx := FindCurrent(Events(input.series), input.eventName);
      cur := Some(idx);
    }
    var compare := CompareList(input, cur);
    var total, shares, changes, all, positioning, severity, details, tips :=
      Evaluate(input.tiers, CurrentData(input.series, cur), compare);
    res := AnalysisResult(ModuleName, PositionText(positioning), severity, details, tips,
                          Some(RTierMetrics(cur, compare, total, shares, changes, all, positioning)));
  }
}

=== FILE: reach_analyzer.dfy ===
/**
 * Funnel ("reach") analysis: stage-to-stage conversion rates, the bottleneck
 * pair, the first-to-last rate, comparison against benchmark funnels, and
 * the severity verdict driven by low rates and drops against the primary
 * benchmark.
 */
module ReachAnalyzer {
  import opened Wrappers
  import opened Numeric
  import opened Strings
  import opened BaseAnalyzer

  datatype Stage = Stage(name: string, users: real)

  /** One benchmark funnel; `event` is its optional display name. */
  datatype Comparison = Comparison(event: Option<string>, stages: seq<Stage>)

  /** The `reach_conversion` block: the funnel, a list of benchmark funnels
      and the older single-benchmark field. */
  datatype ReachInput = ReachInput(stages: seq<Stage>, comparisons: seq<Comparison>, comparison: Option<Comparison>)

  datatype ConvRate = ConvRate(from: string, to: string, rate: real, usersFrom: real, usersTo: real)

  /** A benchmark's rates, tagged with the benchmark's position in the list. */
  datatype CompRates = CompRates(index: nat, rates: seq<real>)

  datatype ReachNote =
    | BottleneckNote(pair: nat, rate: real)
    | OverallNote(rate: real)
    | VersusNote(comparison: nat, pair: nat, change: real)
    | LowRateNote(pair: nat)
    | DropNote(pair: nat, drop: real)

  datatype ReachMetrics = ReachMetrics(
    convRates: seq<ConvRate>, overallRate: real, comparisons: seq<CompRates>, primaryRates: seq<real>)

  const ModuleName := "触达分析"
  const NormalConclusion := "触达通路正常，各环节转化率在合理范围内"

  /** Conversion from one stage to the next, as a percentage with one
      decimal; a stage with no users converts at 0. */
  function StepRate(prevUsers: real, currUsers: real): real
  {
    if prevUsers > 0.0 then Round(currUsers / prevUsers * 100.0, 1) else 0.0
  }

  /** With non-negative, non-increasing counts every rate is in [0, 100]. */
  lemma StepRateBounds(prevUsers: real, currUsers: real)
    requires 0.0 <= currUsers <= prevUsers
    ensures 0.0 <= StepRate(prevUsers, currUsers) <= 100.0
  {
    if prevUsers > 0.0 {
      var q := currUsers / prevUsers * 100.0;
      assert 0.0 <= currUsers / prevUsers <= 1.0 by {
        DivMonotone(currUsers, prevUsers, prevUsers);
        DivMonotone(0.0, currUsers, prevUsers);
      }
      RoundSign(q, 1);
      RoundMonotone(q, 100.0, 1);
      assert Round(100.0, 1) == 100.0 by {
        assert Pow10(1) == 10;
        assert RoundAt(100.0, 10.0) == 100.0;
      }
    }
  }

  /** The benchmark list the analysis uses: `comparisons` when non-empty,
      else the single `comparison` when it has stages, else none. */
  function Benchmarks(input: ReachInput): (r: seq<Comparison>)
    ensures |input.comparisons| > 0 ==> r == input.comparisons
    ensures |input.comparisons| == 0 && input.comparison.Some? && |input.comparison.value.stages| > 0
      ==> r == [input.comparison.value]
    ensures |input.comparisons| == 0 && (input.comparison.None? || |input.comparison.value.stages| == 0)
      ==> r == []
  {
    if |input.comparisons| > 0 then input.comparisons
    else if input.comparison.Some? && |input.comparison.value.stages| > 0 then [input.comparison.value]
    else []
  }

  /** Stage-to-stage conversion of a funnel: entry i links stage i to i+1. */
  method StageRates(stages: seq<Stage>) returns (rates: seq<ConvRate>)
    ensures |rates| == if |stages| >= 2 then |stages| - 1 else 0
    ensures forall i :: 0 <= i < |rates| ==>
      rates[i] == ConvRate(stages[i].name, stages[i + 1].name,
                           StepRate(stages[i].users, stages[i + 1].users), stages[i].users, stages[i + 1].users)
  {
    rates := [];
    var i := 1;
    while i < |stages|
      invariant 1 <= i <= if |stages| >= 1 then |stages| else 1
      invariant |rates| == i - 1
      invariant forall j :: 0 <= j < |rates| ==>
        rates[j] == ConvRate(stages[j].name, stages[j + 1].name,
                             StepRate(stages[j].users, stages[j + 1].users), stages[j].users, stages[j + 1].users)
    {
      var prev, curr := stages[i - 1].users, stages[i].users;
      rates := rates + [ConvRate(stages[i - 1].name, stages[i].name, StepRate(prev, curr), prev, curr)];
      i := i + 1;
    }
  }

  function RatesOf(conv: seq<ConvRate>): (r: seq<real>)
    ensures |r| == |conv| && forall i :: 0 <= i < |conv| ==> r[i] == conv[i].rate
  {
    seq(|conv|, i requires 0 <= i < |conv| => conv[i].rate)
  }

  /** Python's `min(conv_rates, key=rate)`: the first pair of lowest rate. */
  function Bottleneck(conv: seq<ConvRate>): (b: nat)
    requires |conv| > 0
    ensures b < |conv|
    ensures forall j :: 0 <= j < |conv| ==> conv[b].rate <= conv[j].rate
    ensures forall j :: 0 <= j < b ==> conv[j].rate > conv[b].rate
  {
    if |conv| == 1 then 0
    else
      var b := Bottleneck(conv[..|conv| - 1]);
      if conv[|conv| - 1].rate < conv[b].rate then |conv| - 1 else b
  }

  /** First-to-last conversion; 0 when the first stage has no users. */
  function OverallRate(stages: seq<Stage>): real
    requires |stages| >= 2
  {
    if stages[0].users > 0.0 then Round(stages[|stages| - 1].users / stages[0].users * 100.0, 2) else 0.0
  }

  /** Pay stages (target named with 付费) are judged against 5%, others 30%. */
  function Threshold(to: string): real
  {
    if Contains(to, "付费") then 5.0 else 30.0
  }

  predicate IsLow(conv: seq<ConvRate>, i: nat)
  {
    i < |conv| && conv[i].rate < Threshold(conv[i].to)
  }

  /** The pair converts more than 15 points below the primary benchmark. */
  predicate IsDrop(conv: seq<ConvRate>, primary: seq<real>, i: nat)
  {
    i < |conv| && i < |primary| && primary[i] - conv[i].rate > 15.0
  }

  function LowNotes(conv: seq<ConvRate>, n: nat): (r: seq<ReachNote>)
  {
    var idx := IndicesWhere(n, (i: nat) => IsLow(conv, i));
    seq(|idx|, k requires 0 <= k < |idx| => LowRateNote(idx[k]))
  }

  function DropNotes(conv: seq<ConvRate>, primary: seq<real>, n: nat): (r: seq<ReachNote>)
    requires n <= |conv|
  {
    var idx := IndicesWhere(n, (i: nat) => IsDrop(conv, primary, i));
    IndicesWhereSpec(n, (i: nat) => IsDrop(conv, primary, i));
    seq(|idx|, k requires 0 <= k < |idx| => DropNote(idx[k], primary[idx[k]] - conv[idx[k]].rate))
  }

  lemma LowNotesSnoc(conv: seq<ConvRate>, n: nat)
    ensures LowNotes(conv, n + 1) == LowNotes(conv, n) + (if IsLow(conv, n) then [LowRateNote(n)] else [])
  {
  }

  lemma DropNotesSnoc(conv: seq<ConvRate>, primary: seq<real>, n: nat)
    requires n < |conv|
    ensures DropNotes(conv, primary, n + 1) == DropNotes(conv, primary, n)
      + (if IsDrop(conv, primary, n) then [DropNote(n, primary[n] - conv[n].rate)] else [])
  {
  }

  /** The verdict: 严重 when some pair drops more than 15 points below the
      primary benchmark, else 异常 when some pair is under its threshold,
      else 正常; one suggestion per low pair, then one per drop. */
  method Judge(conv: seq<ConvRate>, primary: seq<real>)
    returns (severity: Severity, hasCritical: bool, suggestions: seq<ReachNote>)
    ensures severity == Critical <==> exists i :: 0 <= i < |conv| && IsDrop(conv, primary, i)
    ensures severity == Abnormal <==>
      (forall i :: 0 <= i < |conv| ==> !IsDrop(conv, primary, i)) && exists i :: 0 <= i < |conv| && IsLow(conv, i)
    ensures severity != Watch
    ensures hasCritical <==> severity != Normal
    ensures suggestions == LowNotes(conv, |conv|) + DropNotes(conv, primary, |conv|)
  {
    severity, hasCritical, suggestions := Normal, false, [];
    var i := 0;
    while i < |conv|
      invariant 0 <= i <= |conv|
      invariant hasCritical <==> exists j :: 0 <= j < i && IsLow(conv, j)
      invariant severity == if hasCritical then Abnormal else Normal
      invariant suggestions == LowNotes(conv, i)
    {
      LowNotesSnoc(conv, i);
      if conv[i].rate < Threshold(conv[i].to) {
        severity, hasCritical := Abnormal, true;
        suggestions := suggestions + [LowRateNote(i)];
      }
      i := i + 1;
    }
    ghost var anyLow := hasCritical;
    i := 0;
    while i < |conv|
      invariant 0 <= i <= |conv|
      invariant (exists j :: 0 <= j < i && IsDrop(conv, primary, j)) ==> severity == Critical
      invariant (forall j :: 0 <= j < i ==> !IsDrop(conv, primary, j)) ==> severity == if anyLow then Abnormal else Normal
      invariant hasCritical <==> anyLow || exists j :: 0 <= j < i && IsDrop(conv, primary, j)
      invariant suggestions == LowNotes(conv, |conv|) + DropNotes(conv, primary, i)
    {
      DropNotesSnoc(conv, primary, i);
      if i < |primary| {
        var drop := primary[i] - conv[i].rate;
        if drop > 15.0 {
          severity := Critical;
          hasCritical := true;
          suggestions := suggestions + [DropNote(i, drop)];
        }
      }
      i := i + 1;
    }
  }

  /** The benchmarks the comparison loop records: every one with at least
      two stages, in order, with its own stage rates. */
  function Recorded(comparisons: seq<Comparison>): seq<CompRates>
  {
    if |comparisons| == 0 then []
    else
      var n := |comparisons| - 1;
      Recorded(comparisons[..n])
        + (if |comparisons[n].stages| >= 2 then [CompRates(n, PrimaryRates(comparisons[n].stages))] else [])
  }

  /** Every recorded benchmark has at least two stages and carries its own
      rates; every benchmark with at least two stages is recorded; and the
      records follow the benchmark order. */
  lemma RecordedMeaning(comparisons: seq<Comparison>)
    ensures var r := Recorded(comparisons);
      (forall k :: 0 <= k < |r| ==>
         r[k].index < |comparisons| && |comparisons[r[k].index].stages| >= 2
         && r[k].rates == PrimaryRates(comparisons[r[k].index].stages))
      && (forall ci :: 0 <= ci < |comparisons| && |comparisons[ci].stages| >= 2 ==>
            exists k :: 0 <= k < |r| && r[k].index == ci)
      && (forall k, l :: 0 <= k < l < |r| ==> r[k].index < r[l].index)
  {
    RecordedSound(comparisons);
    RecordedOrdered(comparisons);
    forall ci | 0 <= ci < |comparisons| && |comparisons[ci].stages| >= 2
      ensures exists k :: 0 <= k < |Recorded(comparisons)| && Recorded(comparisons)[k].index == ci
    {
      RecordedComplete(comparisons, ci);
    }
  }

  lemma RecordedSound(comparisons: seq<Comparison>)
    ensures var r := Recorded(comparisons);
      forall k :: 0 <= k < |r| ==>
        r[k].index < |comparisons| && |comparisons[r[k].index].stages| >= 2
        && r[k].rates == PrimaryRates(comparisons[r[k].index].stages)
  {
    forall k | 0 <= k < |Recorded(comparisons)| {
      RecordedAt(comparisons, k);
    }
  }

  lemma {:induction false} RecordedAt(comparisons: seq<Comparison>, k: nat)
    requires k < |Recorded(comparisons)|
    ensures var e := Recorded(comparisons)[k];
      e.index < |comparisons| && |comparisons[e.index].stages| >= 2 && e.rates == PrimaryRates(comparisons[e.index].stages)
  {
    var n := |comparisons| - 1;
    var pre := comparisons[..n];
    var r, r0 := Recorded(comparisons), Recorded(pre);
    assert r == r0 + (if |comparisons[n].stages| >= 2 then [CompRates(n, PrimaryRates(comparisons[n].stages))] else []);
    if k < |r0| {
      RecordedAt(pre, k);
      assert r[k] == r0[k];
      assert pre[r0[k].index] == comparisons[r0[k].index];
    }
  }

  lemma RecordedOrdered(comparisons: seq<Comparison>)
    ensures var r := Recorded(comparisons);
      forall k, l :: 0 <= k < l < |r| ==> r[k].index < r[l].index
  {
    forall k, l | 0 <= k < l < |Recorded(comparisons)| {
      RecordedIncreasing(comparisons, k, l);
    }
  }

  lemma {:induction false} RecordedIncreasing(comparisons: seq<Comparison>, k: nat, l: nat)
    requires k < l < |Recorded(comparisons)|
    ensures Recorded(comparisons)[k].index < Recorded(comparisons)[l].index
  {
    var n := |comparisons| - 1;
    var pre := comparisons[..n];
    var r, r0 := Recorded(comparisons), Recorded(pre);
    assert r == r0 + (if |comparisons[n].stages| >= 2 then [CompRates(n, PrimaryRates(comparisons[n].stages))] else []);
    assert r[k] == r0[k];
    if l < |r0| {
      RecordedIncreasing(pre, k, l);
      assert r[l] == r0[l];
    } else {
      RecordedAt(pre, k);
      assert r[l].index == n;
    }
  }

  lemma {:induction false} RecordedComplete(comparisons: seq<Comparison>, ci: nat)
    requires ci < |comparisons| && |comparisons[ci].stages| >= 2
    ensures exists k :: 0 <= k < |Recorded(comparisons)| && Recorded(comparisons)[k].index == ci
  {
    var n := |comparisons| - 1;
    var pre := comparisons[..n];
    var r, r0 := Recorded(comparisons), Recorded(pre);
    assert r == r0 + (if |comparisons[n].stages| >= 2 then [CompRates(n, PrimaryRates(comparisons[n].stages))] else []);
    if ci < n {
      assert pre[ci] == comparisons[ci];
      RecordedComplete(pre, ci);
      var k :| 0 <= k < |r0| && r0[k].index == ci;
      assert r[k] == r0[k];
    } else {
      assert r[|r0|].index == ci;
    }
  }

  /** The comparison lines against one benchmark: one per stage pair both
      funnels have, among the first n of the current funnel. */
  function VersusLines(conv: seq<ConvRate>, ci: nat, rates: seq<real>, n: nat): (r: seq<ReachNote>)
    requires n <= |conv|
    ensures |r| == if n < |rates| then n else |rates|
  {
    var m := if n < |rates| then n else |rates|;
    seq(m, j requires 0 <= j < m => VersusNote(ci, j, Round(conv[j].rate - rates[j], 1)))
  }

  /** The comparison lines of the whole loop, benchmark by benchmark. */
  function CompareLines(conv: seq<ConvRate>, comparisons: seq<Comparison>): seq<ReachNote>
  {
    if |comparisons| == 0 then []
    else
      var n := |comparisons| - 1;
      CompareLines(conv, comparisons[..n])
        + (if |comparisons[n].stages| >= 2 then VersusLines(conv, n, PrimaryRates(comparisons[n].stages), |conv|) else [])
  }

  /** The inner loop: the current rates against benchmark ci's, pair by pair. */
  method VersusPass(conv: seq<ConvRate>, ci: nat, rates: seq<real>) returns (lines: seq<ReachNote>)
    ensures lines == VersusLines(conv, ci, rates, |conv|)
  {
    lines := [];
    var i := 0;
    while i < |conv|
      invariant 0 <= i <= |conv|
      invariant lines == VersusLines(conv, ci, rates, i)
    {
      if i < |rates| {
        lines := lines + [VersusNote(ci, i, Round(conv[i].rate - rates[i], 1))];
      }
      i := i + 1;
    }
  }

  /** The benchmark loop: the rates of every benchmark with at least two
      stages, the primary rates (taken only from the first benchmark), and
      one comparison line per pair both funnels have. */
  method CompareAll(conv: seq<ConvRate>, comparisons: seq<Comparison>)
    returns (all: seq<CompRates>, primary: seq<real>, lines: seq<ReachNote>)
    ensures primary == if |comparisons| > 0 && |comparisons[0].stages| >= 2 then PrimaryRates(comparisons[0].stages) else []
    ensures all == Recorded(comparisons)
    ensures lines == CompareLines(conv, comparisons)
  {
    all, primary, lines := [], [], [];
    var ci := 0;
    while ci < |comparisons|
      invariant 0 <= ci <= |comparisons|
      invariant primary == if ci > 0 && |comparisons[0].stages| >= 2 then PrimaryRates(comparisons[0].stages) else []
      invariant all == Recorded(comparisons[..ci])
      invariant lines == CompareLines(conv, comparisons[..ci])
    {
      var cs := comparisons[ci].stages;
      assert comparisons[..ci + 1][..ci] == comparisons[..ci] && comparisons[..ci + 1][ci] == comparisons[ci];
      assert Recorded(comparisons[..ci + 1])
        == Recorded(comparisons[..ci]) + (if |cs| >= 2 then [CompRates(ci, PrimaryRates(cs))] else []);
      assert CompareLines(conv, comparisons[..ci + 1])
        == CompareLines(conv, comparisons[..ci]) + (if |cs| >= 2 then VersusLines(conv, ci, PrimaryRates(cs), |conv|) else []);
      if |cs| >= 2 {
        var cr := StageRates(cs);
        var rates := RatesOf(cr);
        assert rates == PrimaryRates(cs);
        all := all + [CompRates(ci, rates)];
        if ci == 0 {
          primary := rates;
        }
        var versus := VersusPass(conv, ci, rates);
        lines := lines + versus;
      }
      ci := ci + 1;
    }
    assert comparisons[..ci] == comparisons;
  }

  function ProblemConclusion(from: string, to: string): (c: string)
    ensures c != NormalConclusion
  {
    var c := "触达存在问题，" + from + "→" + to + " 环节存在显著流失";
    assert c[2] != NormalConclusion[2];
    c
  }

  /** The whole analysis of one `reach_conversion` block. */
  /** The funnel's own figures: the stage-to-stage rates, the overall rate,
      and the bottleneck and overall detail lines when there are two stages or more. */
  method FunnelPass(stages: seq<Stage>) returns (conv: seq<ConvRate>, overall: real, details: seq<ReachNote>)
    ensures |conv| == (if |stages| >= 2 then |stages| - 1 else 0) &&
      forall i :: 0 <= i < |conv| ==>
        (conv[i].from == stages[i].name && conv[i].to == stages[i + 1].name
         && conv[i].rate == StepRate(stages[i].users, stages[i + 1].users))
    ensures |stages| >= 2 ==>
      overall == OverallRate(stages)
      && details == [BottleneckNote(Bottleneck(conv), conv[Bottleneck(conv)].rate), OverallNote(OverallRate(stages))]
    ensures |stages| < 2 ==> overall == 0.0 && details == []
  {
    details := [];
    conv := StageRates(stages);
    forall i | 0 <= i < |conv|
      ensures conv[i].from == stages[i].name && conv[i].to == stages[i + 1].name
      ensures conv[i].rate == StepRate(stages[i].users, stages[i + 1].users)
    {
      assert conv[i] == ConvRate(stages[i].name, stages[i + 1].name,
                                 StepRate(stages[i].users, stages[i + 1].users), stages[i].users, stages[i + 1].users);
    }
    if |conv| > 0 {
      var b := Bottleneck(conv);
      details := details + [BottleneckNote(b, conv[b].rate)];
    }
    overall := 0.0;
    if |stages| >= 2 {
      overall := OverallRate(stages);
      details := details + [OverallNote(overall)];
    }
  }

  method Analyze(input: ReachInput) returns (res: AnalysisResult<ReachNote, ReachMetrics>)
    ensures res.moduleName == ModuleName
    ensures var conv := res.metrics.convRates; var st := input.stages;
      |conv| == (if |st| >= 2 then |st| - 1 else 0) &&
      forall i :: 0 <= i < |conv| ==>
        (conv[i].from == st[i].name && conv[i].to == st[i + 1].name
         && conv[i].rate == StepRate(st[i].users, st[i + 1].users))
    ensures |input.stages| >= 2 ==>
      |res.details| >= 2 && res.metrics.overallRate == OverallRate(input.stages)
      && res.details[0] == BottleneckNote(Bottleneck(res.metrics.convRates), res.metrics.convRates[Bottleneck(res.metrics.convRates)].rate)
      && res.details[1] == OverallNote(OverallRate(input.stages))
    ensures |input.stages| < 2 ==> res.metrics.overallRate == 0.0 && res.details == CompareLines(res.metrics.convRates, Benchmarks(input))
    ensures |input.stages| >= 2 ==> res.details[2..] == CompareLines(res.metrics.convRates, Benchmarks(input))
    ensures res.metrics.comparisons == Recorded(Benchmarks(input))
    ensures var b := Benchmarks(input);
      res.metrics.primaryRates == if |b| > 0 && |b[0].stages| >= 2 then PrimaryRates(b[0].stages) else []
    ensures var conv, primary := res.metrics.convRates, res.metrics.primaryRates;
      (res.severity == Critical <==> exists i :: 0 <= i < |conv| && IsDrop(conv, primary, i))
      && (res.severity == Abnormal <==>
            ((forall i :: 0 <= i < |conv| ==> !IsDrop(conv, primary, i)) && exists i :: 0 <= i < |conv| && IsLow(conv, i)))
      && res.severity != Watch
    ensures res.conclusion == NormalConclusion <==> res.severity == Normal
    ensures res.suggestions == LowNotes(res.metrics.convRates, |res.metrics.convRates|)
      + DropNotes(res.metrics.convRates, res.metrics.primaryRates, |res.metrics.convRates|)
  {
    var conv, overall, details := FunnelPass(input.stages);
    var all, primary, lines := CompareAll(conv, Benchmarks(input));
    details := details + lines;
    var severity, hasCritical, suggestions := Judge(conv, primary);
    var conclusion := NormalConclusion;
    if hasCritical {
      var b := Bottleneck(conv);
      conclusion := ProblemConclusion(conv[b].from, conv[b].to);
    }
    res := AnalysisResult(ModuleName, conclusion, severity, details, suggestions, ReachMetrics(conv, overall, all, primary));
  }

  /** The rates of a benchmark funnel, one per adjacent stage pair. */
  function PrimaryRates(stages: seq<Stage>): (r: seq<real>)
    ensures |r| == if |stages| >= 2 then |stages| - 1 else 0
    ensures forall i :: 0 <= i < |r| ==> r[i] == StepRate(stages[i].users, stages[i + 1].users)
  {
    if |stages| < 2 then [] else seq(|stages| - 1, i requires 0 <= i < |stages| - 1 => StepRate(stages[i].users, stages[i + 1].users))
  }

  /** A funnel whose user counts never grow has every rate in [0, 100]. */
  lemma PrimaryRatesBounds(stages: seq<Stage>)
    requires forall i :: 0 <= i < |stages| ==> stages[i].users >= 0.0
    requires forall i :: 0 <= i < |stages| - 1 ==> stages[i + 1].users <= stages[i].users
    ensures forall i :: 0 <= i < |PrimaryRates(stages)| ==> 0.0 <= PrimaryRates(stages)[i] <= 100.0
  {
    var r := PrimaryRates(stages);
    forall i | 0 <= i < |r|
      ensures 0.0 <= r[i] <= 100.0
    {
      StepRateBounds(stages[i].users, stages[i + 1].users);
    }
  }
}

=== FILE: report_v2.dfy ===
/**
 * The review report assembler: the results of the seven analyzers keyed by
 * module name, the executive summary (severity counts, overall verdict, the
 * three key findings), the benchmark events named anywhere in the results,
 * the module sections in their fixed order, and the suggestions gathered
 * into the P0/P1/P2 buckets.
 */
module ReportV2 {
  import opened Wrappers
  import opened Strings
  import opened Sorting
  import opened Dicts
  import opened Json
  import opened BaseAnalyzer

  /** What the report reads from one analysis result, its texts already rendered. */
  datatype Entry = Entry(
    moduleName: string,
    severity: Severity,
    conclusion: string,
    details: seq<string>,
    suggestions: seq<string>,
    chartData: Value)

  function ModuleName(e: Entry): string
  {
    e.moduleName
  }

  /** `{r.module_name: r for r in analysis_results}` */
  function Results(list: seq<Entry>): seq<Entry>
  {
    FromList(list, ModuleName)
  }

  /** The results keep one entry per module: the last result the list gives for it. */
  lemma ResultsSpec(list: seq<Entry>)
    ensures Distinct(Results(list), ModuleName)
    ensures forall e :: e in Results(list) ==> e in list
    ensures forall i :: 0 <= i < |list| && LastOf(list, ModuleName, i) ==> list[i] in Results(list)
  {
    FromListSpec(list, ModuleName);
  }

  predicate Present(results: seq<Entry>, m: string)
  {
    Dicts.Find(results, ModuleName, m).Some?
  }

  // ---- Section order ----

  const ModuleOrder: seq<string> := [
    "触达分析", "行为分析", "付费整体分析",
    "R级付费分析", "付费转化分析", "数值设计评估", "礼包分析"]

  lemma ModuleOrderPositions()
    ensures forall k :: 0 <= k < |ModuleOrder| ==> PosIn(ModuleOrder, ModuleOrder[k]) == k
  {
    forall k | 0 <= k < |ModuleOrder| ensures PosIn(ModuleOrder, ModuleOrder[k]) == k {
      PosInFirst(ModuleOrder, ModuleOrder[k]);
      assert forall i :: 0 <= i < k ==> ModuleOrder[i] != ModuleOrder[k];
    }
  }

  /** The modules that get a section: those present, in the fixed module order. */
  method SectionOrder(results: seq<Entry>) returns (mods: seq<string>)
    ensures forall m :: m in mods <==> m in ModuleOrder && Present(results, m)
    ensures forall i, j :: 0 <= i < j < |mods| ==> PosIn(ModuleOrder, mods[i]) < PosIn(ModuleOrder, mods[j])
  {
    ModuleOrderPositions();
    mods := PresentInOrder(ModuleOrder, results);
  }

  /** The loop over an order list without repeats, keeping the modules present. */
  method PresentInOrder(order: seq<string>, results: seq<Entry>) returns (mods: seq<string>)
    requires forall k :: 0 <= k < |order| ==> PosIn(order, order[k]) == k
    ensures forall m :: m in mods <==> m in order && Present(results, m)
    ensures forall i, j :: 0 <= i < j < |mods| ==> PosIn(order, mods[i]) < PosIn(order, mods[j])
  {
    mods := [];
    var k := 0;
    while k < |order|
      invariant 0 <= k <= |order|
      invariant forall m :: m in mods <==> m in order[..k] && Present(results, m)
      invariant forall i :: 0 <= i < |mods| ==> PosIn(order, mods[i]) < k
      invariant forall i, j :: 0 <= i < j < |mods| ==> PosIn(order, mods[i]) < PosIn(order, mods[j])
    {
      assert order[..k + 1] == order[..k] + [order[k]];
      if Present(results, order[k]) {
        mods := mods + [order[k]];
      }
      k := k + 1;
    }
    assert order[..k] == order;
  }

  // ---- Executive summary ----

  /** Number of results of severity s. */
  function CountSev(rs: seq<Entry>, s: Severity): nat
  {
    if |rs| == 0 then 0
    else CountSev(rs[..|rs| - 1], s) + (if rs[|rs| - 1].severity == s then 1 else 0)
  }

  /** `severity_counts.get(s, 0)` */
  function CountIn(counts: map<Severity, nat>, s: Severity): nat
  {
    if s in counts then counts[s] else 0
  }

  /** Every result is counted under exactly one severity. */
  lemma {:induction false} CountsTotal(rs: seq<Entry>)
    ensures CountSev(rs, Normal) + CountSev(rs, Watch) + CountSev(rs, Abnormal) + CountSev(rs, Critical) == |rs|
  {
    if |rs| > 0 {
      CountsTotal(rs[..|rs| - 1]);
    }
  }

  const CriticalVerdict := "存在严重问题，需重点关注"
  const AbnormalVerdict := "部分模块表现异常，建议优化"
  const WatchVerdict := "多个模块需要关注，整体表现中等"
  const GoodVerdict := "整体表现良好"

  /** The severity count loop: one key per severity that occurs, holding its count. */
  method SeverityCounts(rs: seq<Entry>) returns (counts: map<Severity, nat>)
    ensures forall s :: s in counts <==> CountSev(rs, s) > 0
    ensures forall s :: CountIn(counts, s) == CountSev(rs, s)
  {
    counts := map[];
    var i := 0;
    while i < |rs|
      invariant 0 <= i <= |rs|
      invariant forall s :: s in counts <==> CountSev(rs[..i], s) > 0
      invariant forall s :: CountIn(counts, s) == CountSev(rs[..i], s)
    {
      assert rs[..i + 1][..i] == rs[..i];
      var s := rs[i].severity;
      counts := counts[s := CountIn(counts, s) + 1];
      i := i + 1;
    }
    assert rs[..i] == rs;
  }

  /** Sort priority: 严重 0, 异常 1, 关注 2, 正常 3. */
  function Priority(e: Entry): real
  {
    match e.severity
    case Critical => 0.0
    case Abnormal => 1.0
    case Watch => 2.0
    case Normal => 3.0
  }

  /** The results from most to least severe; equal severities keep their order. */
  function Ranked(rs: seq<Entry>): seq<Entry>
  {
    Sort(rs, Asc(Priority))
  }

  /** The conclusions of the first three ranked results. */
  function KeyFindings(rs: seq<Entry>): (r: seq<string>)
    ensures |r| == (if |rs| < 3 then |rs| else 3)
  {
    var ranked := Ranked(rs);
    var top := if |ranked| < 3 then ranked else ranked[..3];
    seq(|top|, i requires 0 <= i < |top| => top[i].conclusion)
  }

  /**
   * The executive summary: the severity counts, the verdict of the first
   * rule that applies (any 严重, any 异常, at least three 关注, otherwise
   * good) and the key findings.
   */
  method ExecutiveSummary(rs: seq<Entry>) returns (overall: string, findings: seq<string>, counts: map<Severity, nat>)
    ensures forall s :: CountIn(counts, s) == CountSev(rs, s)
    ensures overall == CriticalVerdict <==> CountSev(rs, Critical) > 0
    ensures overall == AbnormalVerdict <==> CountSev(rs, Critical) == 0 && CountSev(rs, Abnormal) > 0
    ensures overall == WatchVerdict
            <==> CountSev(rs, Critical) == 0 && CountSev(rs, Abnormal) == 0 && CountSev(rs, Watch) >= 3
    ensures overall == GoodVerdict
            <==> CountSev(rs, Critical) == 0 && CountSev(rs, Abnormal) == 0 && CountSev(rs, Watch) < 3
    ensures findings == KeyFindings(rs)
  {
    counts := SeverityCounts(rs);
    if CountIn(counts, Critical) > 0 {
      overall := CriticalVerdict;
    } else if CountIn(counts, Abnormal) > 0 {
      overall := AbnormalVerdict;
    } else if CountIn(counts, Watch) >= 3 {
      overall := WatchVerdict;
    } else {
      overall := GoodVerdict;
    }
    findings := KeyFindings(rs);
  }

  /**
   * The ranking is a stable sort by priority: ordered, a permutation of the
   * results, and the results of each severity in their original order.
   */
  lemma RankedSpec(rs: seq<Entry>, k: real)
    ensures forall i, j :: 0 <= i < j < |Ranked(rs)| ==> Priority(Ranked(rs)[i]) <= Priority(Ranked(rs)[j])
    ensures multiset(Ranked(rs)) == multiset(rs)
    ensures Level(Ranked(rs), Priority, k) == Level(rs, Priority, k)
  {
    SortAscSorted(rs, Priority);
    SortStable(rs, Priority, k);
    var r := Ranked(rs);
    assert forall i, j :: 0 <= i < j < |r| ==> Asc(Priority)(r[i], r[j]);
  }

  /** The ranking opens with every 严重 result, in input order. */
  lemma CriticalFirst(rs: seq<Entry>)
    ensures |Level(rs, Priority, 0.0)| <= |rs|
    ensures Ranked(rs)[..|Level(rs, Priority, 0.0)|] == Level(rs, Priority, 0.0)
  {
    forall e: Entry ensures Priority(e) >= 0.0 {
    }
    SortLowestFirst(rs, Priority, 0.0);
    assert Ranked(rs) == Sort(rs, Asc(Priority));
  }

  /** The priority-0 level is exactly the 严重 results. */
  lemma CriticalLevel(rs: seq<Entry>)
    ensures forall e :: e in Level(rs, Priority, 0.0) <==> e in rs && e.severity == Critical
  {
    LevelMembers(rs, Priority, 0.0);
  }

  /** So the key findings are the conclusions of the first (up to three) 严重 results whenever there are any. */
  lemma CriticalFindings(rs: seq<Entry>)
    ensures forall i :: 0 <= i < |KeyFindings(rs)| && i < |Level(rs, Priority, 0.0)|
                        ==> KeyFindings(rs)[i] == Level(rs, Priority, 0.0)[i].conclusion
  {
    CriticalFirst(rs);
    var c := Level(rs, Priority, 0.0);
    var r := Ranked(rs);
    forall i | 0 <= i < |KeyFindings(rs)| && i < |c| ensures KeyFindings(rs)[i] == c[i].conclusion {
      assert r[..|c|][i] == r[i];
    }
  }

  lemma {:induction false} LevelMembers(s: seq<Entry>, key: Entry -> real, k: real)
    ensures forall e :: e in Level(s, key, k) <==> e in s && key(e) == k
  {
    if |s| > 0 {
      LevelMembers(s[1..], key, k);
      assert s == [s[0]] + s[1..];
    }
  }

  // ---- Benchmark names ----

  /** `v.get(key, [])` iterated; a missing or non-list value gives nothing. */
  function ItemsAt(v: Value, key: string): seq<Value>
  {
    var x := Get(v, key);
    if x.Arr? then x.items else []
  }

  /** `comp.get("event", comp.get("benchmark_event", ""))` */
  function CompEventName(comp: Value): Value
  {
    if Has(comp, "event") then Get(comp, "event")
    else if Has(comp, "benchmark_event") then Get(comp, "benchmark_event")
    else Str("")
  }

  function EventName(item: Value): Value
  {
    Get(item, "event")
  }

  function MapTruthy(items: seq<Value>, f: Value -> Value): (r: seq<Value>)
    ensures forall i :: 0 <= i < |r| ==> Truthy(r[i])
  {
    if |items| == 0 then []
    else (if Truthy(f(items[0])) then [f(items[0])] else []) + MapTruthy(items[1..], f)
  }

  /** The truthy event names in one result's chart data. */
  function ChartNames(cd: Value): (r: seq<Value>)
    ensures forall i :: 0 <= i < |r| ==> Truthy(r[i])
  {
    MapTruthy(ItemsAt(cd, "comparisons"), CompEventName)
    + MapTruthy(ItemsAt(cd, "benchmarks"), EventName)
    + MapTruthy(ItemsAt(cd, "yoy_benchmarks"), EventName)
    + MapTruthy(ItemsAt(cd, "all_comps"), EventName)
  }

  /** Every name the set receives: the meta benchmark event, then each result's. */
  function Candidates(meta: Value, rs: seq<Entry>): (r: seq<Value>)
    ensures forall i :: 0 <= i < |r| ==> Truthy(r[i])
  {
    if |rs| == 0 then
      var b := Get(meta, "benchmark_event");
      if Truthy(b) then [b] else []
    else Candidates(meta, rs[..|rs| - 1]) + ChartNames(rs[|rs| - 1].chartData)
  }

  predicate AllStrings(vs: seq<Value>)
  {
    forall i :: 0 <= i < |vs| ==> vs[i].Str?
  }

  function Texts(vs: seq<Value>): (r: seq<string>)
    requires AllStrings(vs)
    ensures |r| == |vs| && forall i :: 0 <= i < |vs| ==> r[i] == vs[i].s
  {
    seq(|vs|, i requires 0 <= i < |vs| => vs[i].s)
  }

  /**
   * `"、".join(sorted(names)) if names else meta.get("benchmark_event", "")`.
   * A name that is not a string makes the sort or the join raise; that is None.
   */
  function BenchmarkNames(meta: Value, rs: seq<Entry>): (r: Option<Value>)
    ensures r.None? <==> !AllStrings(Candidates(meta, rs))
    ensures r.Some? && |Candidates(meta, rs)| > 0 ==>
              r.value == Str(Join(SortedSet(Texts(Candidates(meta, rs))), '、'))
    ensures r.Some? && |Candidates(meta, rs)| == 0 ==>
              r.value == (if Has(meta, "benchmark_event") then Get(meta, "benchmark_event") else Str(""))
  {
    var c := Candidates(meta, rs);
    if !AllStrings(c) then None
    else if |c| > 0 then Some(Str(Join(SortedSet(Texts(c)), '、')))
    else if Has(meta, "benchmark_event") then Some(Get(meta, "benchmark_event"))
    else Some(Str(""))
  }

  /** The names joined are exactly the collected names (each once, in order, by SortedSet). */
  lemma BenchmarkNamesSpec(meta: Value, rs: seq<Entry>)
    requires AllStrings(Candidates(meta, rs))
    ensures forall x :: x in SortedSet(Texts(Candidates(meta, rs))) <==> Str(x) in Candidates(meta, rs)
  {
    TextsSet(Candidates(meta, rs));
  }

  /** The fallback is taken only when nothing was collected, and is then a falsy value. */
  lemma FallbackFalsy(meta: Value, rs: seq<Entry>)
    requires |Candidates(meta, rs)| == 0
    ensures BenchmarkNames(meta, rs).Some? && !Truthy(BenchmarkNames(meta, rs).value)
  {
    MetaOnly(meta, rs);
  }

  lemma TextsSet(c: seq<Value>)
    requires AllStrings(c)
    ensures forall x :: x in SortedSet(Texts(c)) <==> Str(x) in c
    ensures |SortedSet(Texts(c))| == 0 <==> |c| == 0
  {
    var t := Texts(c);
    var names := SortedSet(t);
    forall x ensures x in names <==> Str(x) in c {
      if Str(x) in c {
        var i :| 0 <= i < |c| && c[i] == Str(x);
        assert t[i] == x;
      }
      if x in t {
        var i :| 0 <= i < |t| && t[i] == x;
        assert c[i] == Str(x);
      }
    }
    if |c| > 0 {
      assert t[0] in names;
    }
  }

  /** With nothing collected, the meta benchmark event was not truthy. */
  lemma {:induction false} MetaOnly(meta: Value, rs: seq<Entry>)
    requires |Candidates(meta, rs)| == 0
    ensures !Truthy(Get(meta, "benchmark_event"))
  {
    if |rs| > 0 {
      MetaOnly(meta, rs[..|rs| - 1]);
    }
  }

  // ---- Suggestions ----

  datatype Band = P0 | P1 | P2

  /** 严重 → P0, 异常 → P1, anything else → P2. */
  function BandOf(s: Severity): Band
  {
    match s
    case Critical => P0
    case Abnormal => P1
    case _ => P2
  }

  function Tag(moduleName: string, s: string): string
  {
    "[" + moduleName + "] " + s
  }

  function Tagged(e: Entry): (r: seq<string>)
    ensures |r| == |e.suggestions|
  {
    seq(|e.suggestions|, i requires 0 <= i < |e.suggestions| => Tag(e.moduleName, e.suggestions[i]))
  }

  /** Every result's tagged suggestions, in result order. */
  function AllTagged(rs: seq<Entry>): seq<string>
  {
    if |rs| == 0 then [] else AllTagged(rs[..|rs| - 1]) + Tagged(rs[|rs| - 1])
  }

  /** The tagged suggestions of the results in band b, in result order. */
  function Bucket(rs: seq<Entry>, b: Band): seq<string>
  {
    if |rs| == 0 then []
    else Bucket(rs[..|rs| - 1], b) + (if BandOf(rs[|rs| - 1].severity) == b then Tagged(rs[|rs| - 1]) else [])
  }

  /** The P0/P1/P2 aggregation loop. */
  method AggregateSuggestions(rs: seq<Entry>) returns (p0: seq<string>, p1: seq<string>, p2: seq<string>)
    ensures p0 == Bucket(rs, P0) && p1 == Bucket(rs, P1) && p2 == Bucket(rs, P2)
  {
    p0, p1, p2 := [], [], [];
    var i := 0;
    while i < |rs|
      invariant 0 <= i <= |rs|
      invariant p0 == Bucket(rs[..i], P0) && p1 == Bucket(rs[..i], P1) && p2 == Bucket(rs[..i], P2)
    {
      assert rs[..i + 1][..i] == rs[..i];
      p0, p1, p2 := AddSuggestions(rs[i], p0, p1, p2);
      i := i + 1;
    }
    assert rs[..i] == rs;
  }

  /** One result's suggestions appended to its band. */
  method AddSuggestions(r: Entry, q0: seq<string>, q1: seq<string>, q2: seq<string>)
    returns (p0: seq<string>, p1: seq<string>, p2: seq<string>)
    ensures p0 == q0 + (if BandOf(r.severity) == P0 then Tagged(r) else [])
    ensures p1 == q1 + (if BandOf(r.severity) == P1 then Tagged(r) else [])
    ensures p2 == q2 + (if BandOf(r.severity) == P2 then Tagged(r) else [])
  {
    p0, p1, p2 := q0, q1, q2;
    var j := 0;
    while j < |r.suggestions|
      invariant 0 <= j <= |r.suggestions|
      invariant p0 == q0 + (if BandOf(r.severity) == P0 then Tagged(r)[..j] else [])
      invariant p1 == q1 + (if BandOf(r.severity) == P1 then Tagged(r)[..j] else [])
      invariant p2 == q2 + (if BandOf(r.severity) == P2 then Tagged(r)[..j] else [])
    {
      assert Tagged(r)[..j + 1] == Tagged(r)[..j] + [Tag(r.moduleName, r.suggestions[j])];
      var s := r.suggestions[j];
      if r.severity == Critical {
        p0 := p0 + [Tag(r.moduleName, s)];
      } else if r.severity == Abnormal {
        p1 := p1 + [Tag(r.moduleName, s)];
      } else {
        p2 := p2 + [Tag(r.moduleName, s)];
      }
      j := j + 1;
    }
    assert Tagged(r)[..j] == Tagged(r);
  }

  /** Each tagged suggestion lands in exactly one bucket: together the buckets are all of them. */
  lemma {:induction false} BucketsPartition(rs: seq<Entry>)
    ensures multiset(Bucket(rs, P0)) + multiset(Bucket(rs, P1)) + multiset(Bucket(rs, P2)) == multiset(AllTagged(rs))
    ensures |Bucket(rs, P0)| + |Bucket(rs, P1)| + |Bucket(rs, P2)| == |AllTagged(rs)|
  {
    if |rs| > 0 {
      BucketsPartition(rs[..|rs| - 1]);
    }
  }

  /** x is the tagged form of a suggestion of some result in band b. */
  predicate FromBand(rs: seq<Entry>, b: Band, x: string)
  {
    exists i, k :: 0 <= i < |rs| && BandOf(rs[i].severity) == b && 0 <= k < |rs[i].suggestions|
                   && x == Tag(rs[i].moduleName, rs[i].suggestions[k])
  }

  lemma {:induction false} BucketSound(rs: seq<Entry>, b: Band, x: string)
    requires x in Bucket(rs, b)
    ensures FromBand(rs, b, x)
  {
    var n := |rs| - 1;
    if x in Bucket(rs[..n], b) {
      BucketSound(rs[..n], b, x);
      var i, k :| 0 <= i < n && BandOf(rs[..n][i].severity) == b && 0 <= k < |rs[..n][i].suggestions|
                  && x == Tag(rs[..n][i].moduleName, rs[..n][i].suggestions[k]);
      assert rs[..n][i] == rs[i];
    } else {
      var k :| 0 <= k < |Tagged(rs[n])| && Tagged(rs[n])[k] == x;
      assert BandOf(rs[n].severity) == b && x == Tag(rs[n].moduleName, rs[n].suggestions[k]);
    }
  }

  lemma {:induction false} BucketComplete(rs: seq<Entry>, b: Band, i: nat, k: nat)
    requires i < |rs| && BandOf(rs[i].severity) == b && k < |rs[i].suggestions|
    ensures Tag(rs[i].moduleName, rs[i].suggestions[k]) in Bucket(rs, b)
  {
    var n := |rs| - 1;
    if i < n {
      assert rs[..n][i] == rs[i];
      BucketComplete(rs[..n], b, i, k);
    } else {
      assert Tagged(rs[n])[k] == Tag(rs[i].moduleName, rs[i].suggestions[k]);
    }
  }

  /** A bucket holds exactly the tagged suggestions of the results in its band. */
  lemma BucketMembers(rs: seq<Entry>, b: Band)
    ensures forall x :: x in Bucket(rs, b) <==> FromBand(rs, b, x)
  {
    forall x ensures x in Bucket(rs, b) <==> FromBand(rs, b, x) {
      if x in Bucket(rs, b) {
        BucketSound(rs, b, x);
      }
      if FromBand(rs, b, x) {
        var i, k :| 0 <= i < |rs| && BandOf(rs[i].severity) == b && 0 <= k < |rs[i].suggestions|
                    && x == Tag(rs[i].moduleName, rs[i].suggestions[k]);
        BucketComplete(rs, b, i, k);
      }
    }
  }

  // ---- The suggestions section ----

  datatype Style = Notion | Wiki

  const NoSuggestions := "各模块表现良好，暂无需紧急处理的建议。"

  /** One bullet line; Notion colours P0 red and P1 orange. */
  function Item(style: Style, b: Band, s: string): (r: string)
    ensures |r| > 0 && r[0] == '-'
  {
    if style == Notion && b == P0 then "- <span color=\"red\">" + s + "</span>"
    else if style == Notion && b == P1 then "- <span color=\"orange\">" + s + "</span>"
    else "- " + s
  }

  function Items(style: Style, b: Band, xs: seq<string>): (r: seq<string>)
    ensures |r| == |xs| && forall i :: 0 <= i < |xs| ==> r[i] == Item(style, b, xs[i])
  {
    seq(|xs|, i requires 0 <= i < |xs| => Item(style, b, xs[i]))
  }

  function BandHeading(b: Band): string
  {
    match b
    case P0 => "### P0 - 必须立即处理"
    case P1 => "### P1 - 下期重点优化"
    case P2 => "### P2 - 持续观察"
  }

  /** A band's heading and items, when it has any; a blank line follows P0 and P1. */
  function BandBlock(style: Style, b: Band, xs: seq<string>): (r: seq<string>)
    ensures xs == [] ==> r == []
  {
    if xs == [] then []
    else [BandHeading(b)] + Items(style, b, xs) + (if b == P2 then [] else [""])
  }

  /** Each suggestion of a band is one of the band's lines. */
  lemma ItemInBlock(style: Style, b: Band, xs: seq<string>, x: string)
    requires x in xs
    ensures Item(style, b, x) in BandBlock(style, b, xs)
  {
    var i :| 0 <= i < |xs| && xs[i] == x;
    var its := Items(style, b, xs);
    assert its[i] == Item(style, b, x);
    var tail := if b == P2 then [] else [""];
    assert BandBlock(style, b, xs) == [BandHeading(b)] + its + tail;
    InMiddle([BandHeading(b)], its, tail, i);
  }

  lemma InMiddle<T>(a: seq<T>, m: seq<T>, c: seq<T>, i: nat)
    requires i < |m|
    ensures m[i] in a + m + c
  {
    assert (a + m + c)[|a| + i] == m[i];
  }

  /** A band's lines are its heading, bullets and blank lines, never the placeholder. */
  lemma NoPlaceholderInBlock(style: Style, b: Band, xs: seq<string>)
    ensures NoSuggestions !in BandBlock(style, b, xs)
  {
    if xs != [] {
      var its := Items(style, b, xs);
      var tail := if b == P2 then [] else [""];
      assert BandBlock(style, b, xs) == [BandHeading(b)] + its + tail;
      assert NoSuggestions[0] == '各';
      assert BandHeading(b)[0] == '#';
      assert NoSuggestions !in its by {
        forall i | 0 <= i < |its| ensures its[i] != NoSuggestions {
          assert its[i][0] == '-';
        }
      }
    }
  }

  /** The lines of the 综合建议 section. */
  function SuggestionLines(style: Style, p0: seq<string>, p1: seq<string>, p2: seq<string>): seq<string>
  {
    ["## 综合建议", ""] + Bands(style, p0, p1, p2)
      + (if p0 == [] && p1 == [] && p2 == [] then [NoSuggestions] else [])
  }

  function Bands(style: Style, p0: seq<string>, p1: seq<string>, p2: seq<string>): seq<string>
  {
    BandBlock(style, P0, p0) + BandBlock(style, P1, p1) + BandBlock(style, P2, p2)
  }

  lemma NoPlaceholderInBands(style: Style, p0: seq<string>, p1: seq<string>, p2: seq<string>)
    ensures NoSuggestions !in Bands(style, p0, p1, p2)
  {
    NoPlaceholderInBlock(style, P0, p0);
    NoPlaceholderInBlock(style, P1, p1);
    NoPlaceholderInBlock(style, P2, p2);
  }

  /** The placeholder line appears exactly when no band has an item. */
  lemma SuggestionPlaceholder(style: Style, p0: seq<string>, p1: seq<string>, p2: seq<string>)
    ensures NoSuggestions in SuggestionLines(style, p0, p1, p2) <==> p0 == [] && p1 == [] && p2 == []
  {
    var head: seq<string> := ["## 综合建议", ""];
    var body := Bands(style, p0, p1, p2);
    var tail := if p0 == [] && p1 == [] && p2 == [] then [NoSuggestions] else [];
    assert SuggestionLines(style, p0, p1, p2) == head + body + tail;
    NoPlaceholderInBands(style, p0, p1, p2);
    assert NoSuggestions !in head by {
      assert |NoSuggestions| != |head[0]| && |NoSuggestions| != 0;
    }
  }

  /** Every suggestion appears as an item of its band. */
  lemma SuggestionItems(style: Style, p0: seq<string>, p1: seq<string>, p2: seq<string>)
    ensures forall x :: x in p0 ==> Item(style, P0, x) in SuggestionLines(style, p0, p1, p2)
    ensures forall x :: x in p1 ==> Item(style, P1, x) in SuggestionLines(style, p0, p1, p2)
    ensures forall x :: x in p2 ==> Item(style, P2, x) in SuggestionLines(style, p0, p1, p2)
  {
    var head: seq<string> := ["## 综合建议", ""];
    var tail := if p0 == [] && p1 == [] && p2 == [] then [NoSuggestions] else [];
    var a, b, c := BandBlock(style, P0, p0), BandBlock(style, P1, p1), BandBlock(style, P2, p2);
    var r := SuggestionLines(style, p0, p1, p2);
    assert r == head + a + b + c + tail;
    forall x | x in p0 ensures Item(style, P0, x) in r {
      ItemInBlock(style, P0, p0, x);
    }
    forall x | x in p1 ensures Item(style, P1, x) in r {
      ItemInBlock(style, P1, p1, x);
    }
    forall x | x in p2 ensures Item(style, P2, x) in r {
      ItemInBlock(style, P2, p2, x);
    }
  }
}

=== FILE: reward.dfy ===
/**
 * Core-reward analysis: every reward's actual output against its expected
 * output, graded into 符合预期 / 轻微偏差 / 显著偏差, with the cost
 * deviation when both costs are given, a shortened detail list and a
 * severity from the grade counts.
 */
module Reward {
  import opened Wrappers
  import opened Numeric
  import opened BaseAnalyzer

  datatype Item = Item(name: string, expected: real, actual: real, unit: string,
                       expectedCost: Option<real>, actualCost: Option<real>)

  datatype Level = AsExpected | Minor | Significant

  datatype ItemResult = ItemResult(name: string, deviation: real, level: Level, costDeviation: Option<real>)

  datatype RewardNote =
    | ItemLine(item: nat)
    | MoreMinorLine(rest: nat)
    | NormalCountLine(count: nat)
    | DeviationTip(item: nat, higher: bool, amount: real)

  datatype Counts = Counts(asExpected: nat, minor: nat, significant: nat)

  datatype RewardMetrics = RewardMetrics(results: seq<ItemResult>, counts: Counts)

  const ModuleName := "数值设计评估"
  const EmptyConclusion := "无核心奖励数据"
  const MaxMinorShown: nat := 10

  /** Output deviation in percent; with nothing expected it is 0 or 100. */
  function Deviation(expected: real, actual: real): (d: real)
    ensures expected == 0.0 ==> (d == 0.0 <==> actual == 0.0) && (d != 0.0 ==> d == 100.0)
    ensures expected != 0.0 ==> d == ChangeRate(actual, expected)
    ensures expected != 0.0 ==> Abs(d - (actual - expected) / expected * 100.0) <= 0.005
    ensures expected > 0.0 && actual >= expected ==> d >= 0.0
    ensures expected > 0.0 && actual <= expected ==> d <= 0.0
  {
    if expected != 0.0 then ChangeRate(actual, expected) else if actual == 0.0 then 0.0 else 100.0
  }

  function LevelOf(deviation: real): (l: Level)
    ensures l == AsExpected <==> Abs(deviation) <= 10.0
    ensures l == Minor <==> 10.0 < Abs(deviation) <= 30.0
    ensures l == Significant <==> Abs(deviation) > 30.0
  {
    var a := Abs(deviation);
    if a <= 10.0 then AsExpected else if a <= 30.0 then Minor else Significant
  }

  /** A larger deviation never gets a milder grade. */
  lemma LevelMonotone(a: real, b: real)
    requires Abs(a) <= Abs(b)
    ensures LevelOf(a) == Significant ==> LevelOf(b) == Significant
    ensures LevelOf(b) == AsExpected ==> LevelOf(a) == AsExpected
  {
  }

  /** The cost deviation, only when both costs are given and non-zero. */
  function CostDeviation(it: Item): (r: Option<real>)
    ensures r.Some? <==> it.expectedCost.Some? && it.expectedCost.value != 0.0 && it.actualCost.Some? && it.actualCost.value != 0.0
  {
    if it.expectedCost.Some? && it.expectedCost.value != 0.0 && it.actualCost.Some? && it.actualCost.value != 0.0
    then Some(ChangeRate(it.actualCost.value, it.expectedCost.value))
    else None
  }

  function ResultOf(it: Item): ItemResult
  {
    var d := Deviation(it.expected, it.actual);
    ItemResult(it.name, d, LevelOf(d), CostDeviation(it))
  }

  function Results(items: seq<Item>): (r: seq<ItemResult>)
    ensures |r| == |items| && forall i :: 0 <= i < |items| ==> r[i] == ResultOf(items[i])
  {
    seq(|items|, i requires 0 <= i < |items| => ResultOf(items[i]))
  }

  /** Positions of the results with grade l, in order. */
  function WithLevel(rs: seq<ItemResult>, l: Level): seq<nat>
  {
    if |rs| == 0 then []
    else
      var n := |rs| - 1;
      WithLevel(rs[..n], l) + (if rs[n].level == l then [n] else [])
  }

  /** The grade lists hold exactly the positions with that grade, in increasing order. */
  lemma {:induction false} WithLevelSpec(rs: seq<ItemResult>, l: Level)
    ensures forall k :: 0 <= k < |WithLevel(rs, l)| ==> WithLevel(rs, l)[k] < |rs| && rs[WithLevel(rs, l)[k]].level == l
    ensures forall i :: 0 <= i < |rs| && rs[i].level == l ==> i in WithLevel(rs, l)
    ensures forall k, m :: 0 <= k < m < |WithLevel(rs, l)| ==> WithLevel(rs, l)[k] < WithLevel(rs, l)[m]
  {
    if |rs| > 0 {
      var n := |rs| - 1;
      var pre := rs[..n];
      WithLevelSpec(pre, l);
      var r0 := WithLevel(pre, l);
      var r := WithLevel(rs, l);
      assert r == r0 + (if rs[n].level == l then [n] else []);
      forall k | 0 <= k < |r| ensures r[k] < |rs| && rs[r[k]].level == l {
        if k < |r0| {
          assert r[k] == r0[k] && pre[r0[k]] == rs[r0[k]];
        }
      }
      forall i | 0 <= i < |rs| && rs[i].level == l ensures i in r {
        if i < n {
          assert pre[i] == rs[i];
          var k :| 0 <= k < |r0| && r0[k] == i;
          assert r[k] == i;
        } else {
          assert r[|r0|] == n;
        }
      }
      forall k, m | 0 <= k < m < |r| ensures r[k] < r[m] {
        if m >= |r0| {
          assert r[k] == r0[k] && r[m] == n;
        } else {
          assert r[k] == r0[k] && r[m] == r0[m];
        }
      }
    }
  }

  lemma WithLevelSnoc(rs: seq<ItemResult>, r: ItemResult, l: Level)
    ensures WithLevel(rs + [r], l) == WithLevel(rs, l) + (if r.level == l then [|rs|] else [])
  {
    assert (rs + [r])[..|rs|] == rs;
  }

  lemma TipsSnoc(rs: seq<ItemResult>, r: ItemResult)
    ensures Tips(rs + [r]) == Tips(rs) + (if r.level == Significant then [DeviationTip(|rs|, r.deviation > 0.0, Abs(r.deviation))] else [])
  {
    assert (rs + [r])[..|rs|] == rs;
  }

  /** Every item has exactly one grade, so the three counts add up. */
  lemma {:induction false} LevelsPartition(rs: seq<ItemResult>)
    ensures |WithLevel(rs, AsExpected)| + |WithLevel(rs, Minor)| + |WithLevel(rs, Significant)| == |rs|
  {
    if |rs| > 0 {
      LevelsPartition(rs[..|rs| - 1]);
    }
  }

  function Tips(rs: seq<ItemResult>): seq<RewardNote>
  {
    if |rs| == 0 then []
    else
      var n := |rs| - 1;
      Tips(rs[..n]) + (if rs[n].level == Significant then [DeviationTip(n, rs[n].deviation > 0.0, Abs(rs[n].deviation))] else [])
  }

  /** One suggestion per significant item, in order, worded by the sign of its deviation. */
  lemma {:induction false} TipsPerSignificant(rs: seq<ItemResult>)
    ensures |Tips(rs)| == |WithLevel(rs, Significant)|
    ensures forall k :: 0 <= k < |Tips(rs)| ==>
      var i := WithLevel(rs, Significant)[k];
      i < |rs| && Tips(rs)[k] == DeviationTip(i, rs[i].deviation > 0.0, Abs(rs[i].deviation))
  {
    WithLevelSpec(rs, Significant);
    if |rs| > 0 {
      var n := |rs| - 1;
      TipsPerSignificant(rs[..n]);
      WithLevelSpec(rs[..n], Significant);
      forall i | 0 <= i < n ensures rs[..n][i] == rs[i] { }
    }
  }

  function Lines(ix: seq<nat>): (r: seq<RewardNote>)
    ensures |r| == |ix| && forall k :: 0 <= k < |ix| ==> r[k] == ItemLine(ix[k])
  {
    seq(|ix|, k requires 0 <= k < |ix| => ItemLine(ix[k]))
  }

  /** The shortened detail list: every significant item, at most ten minor
      items, a line for the minor items left out, and a count of the rest. */
  function Details(sig: seq<nat>, minor: seq<nat>, normal: nat): seq<RewardNote>
  {
    Lines(sig)
    + Lines(if |minor| > MaxMinorShown then minor[..MaxMinorShown] else minor)
    + (if |minor| > MaxMinorShown then [MoreMinorLine(|minor| - MaxMinorShown)] else [])
    + (if normal > 0 then [NormalCountLine(normal)] else [])
  }

  /** The detail list is bounded: every significant item has its line first,
      then at most ten minor lines and two summary lines. */
  lemma DetailsBound(sig: seq<nat>, minor: seq<nat>, normal: nat)
    ensures |sig| <= |Details(sig, minor, normal)| <= |sig| + MaxMinorShown + 2
    ensures forall k :: 0 <= k < |sig| ==> Details(sig, minor, normal)[k] == ItemLine(sig[k])
    ensures |minor| <= MaxMinorShown && normal == 0 ==> |Details(sig, minor, normal)| == |sig| + |minor|
  {
  }

  function RewardSeverity(c: Counts, n: nat): (s: Severity)
    ensures s == Abnormal <==> c.significant > 0
    ensures s == Watch <==> c.significant == 0 && c.minor > n / 2
    ensures s == Normal <==> c.significant == 0 && c.minor <= n / 2
  {
    if c.significant > 0 then Abnormal else if c.minor > n / 2 then Watch else Normal
  }

  function ConclusionOf(c: Counts, n: nat): string
  {
    if c.significant > 0 then "数值设计存在 " + Strings.NatToString(c.significant) + " 项显著偏差，需排查"
    else if c.minor > n / 2 then "数值设计整体偏差较多，建议复查"
    else "数值设计整体符合预期"
  }

  /** The item loop: one result per item, the three grade lists and counts,
      and one suggestion per significant item. */
  method Grade(items: seq<Item>)
    returns (results: seq<ItemResult>, sig: seq<nat>, minor: seq<nat>, normal: nat, counts: Counts, tips: seq<RewardNote>)
    ensures results == Results(items)
    ensures sig == WithLevel(results, Significant) && minor == WithLevel(results, Minor)
    ensures normal == |WithLevel(results, AsExpected)|
    ensures counts == Counts(normal, |minor|, |sig|)
    ensures tips == Tips(results)
  {
    results, sig, minor, normal, counts, tips := [], [], [], 0, Counts(0, 0, 0), [];
    var i := 0;
    while i < |items|
      invariant 0 <= i <= |items|
      invariant results == Results(items)[..i]
      invariant sig == WithLevel(results, Significant) && minor == WithLevel(results, Minor)
      invariant normal == |WithLevel(results, AsExpected)|
      invariant counts == Counts(normal, |minor|, |sig|)
      invariant tips == Tips(results)
    {
      var r := ResultOf(items[i]);
      WithLevelSnoc(results, r, Significant);
      WithLevelSnoc(results, r, Minor);
      WithLevelSnoc(results, r, AsExpected);
      TipsSnoc(results, r);
      counts := match r.level
        case AsExpected => counts.(asExpected := counts.asExpected + 1)
        case Minor => counts.(minor := counts.minor + 1)
        case Significant => counts.(significant := counts.significant + 1);
      if r.level == Significant {
        sig := sig + [i];
      } else if r.level == Minor {
        minor := minor + [i];
      } else {
        normal := normal + 1;
      }
      if r.level == Significant {
        tips := tips + [DeviationTip(i, r.deviation > 0.0, Abs(r.deviation))];
      }
      results := results + [r];
      i := i + 1;
    }
  }

  /** The detail lines as `RewardAnalyzer.analyze` builds them, minor items only when there are any. */
  method DetailLines(sig: seq<nat>, minor: seq<nat>, normal: nat) returns (details: seq<RewardNote>)
    ensures details == Details(sig, minor, normal)
  {
    var shown := if |minor| > MaxMinorShown then minor[..MaxMinorShown] else minor;
    var more := if |minor| > MaxMinorShown then [MoreMinorLine(|minor| - MaxMinorShown)] else [];
    var rest := if normal > 0 then [NormalCountLine(normal)] else [];
    details := Lines(sig);
    if |minor| > 0 {
      details := details + Lines(shown);
      if |minor| > MaxMinorShown {
        details := details + [MoreMinorLine(|minor| - MaxMinorShown)];
      }
    } else {
      assert Lines(shown) == [] && more == [];
      assert Lines(sig) + Lines(shown) + more == Lines(sig);
    }
    if normal > 0 {
      details := details + [NormalCountLine(normal)];
    }
    assert details == Lines(sig) + Lines(shown) + more + rest;
  }

  method Analyze(items: seq<Item>) returns (res: AnalysisResult<RewardNote, Option<RewardMetrics>>)
    ensures res.moduleName == ModuleName
    ensures |items| == 0 <==> res.metrics.None?
    ensures res.metrics.None? ==> res.severity == Watch && res.conclusion == EmptyConclusion
    ensures res.metrics.Some? ==>
      var m := res.metrics.value;
      && m.results == Results(items)
      && m.counts == Counts(|WithLevel(m.results, AsExpected)|, |WithLevel(m.results, Minor)|, |WithLevel(m.results, Significant)|)
      && m.counts.asExpected + m.counts.minor + m.counts.significant == |items|
      && res.details == Details(WithLevel(m.results, Significant), WithLevel(m.results, Minor), m.counts.asExpected)
      && res.severity == RewardSeverity(m.counts, |items|)
      && res.conclusion == ConclusionOf(m.counts, |items|)
      && res.suggestions == Tips(m.results)
  {
    if |items| == 0 {
      res := AnalysisResult(ModuleName, EmptyConclusion, Watch, [], [], None);
      return;
    }
    var results, sig, minor, normal, counts, tips := Grade(items);
    LevelsPartition(results);
    var details := DetailLines(sig, minor, normal);
    res := AnalysisResult(ModuleName, ConclusionOf(counts, |items|), RewardSeverity(counts, |items|), details, tips,
                          Some(RewardMetrics(results, counts)));
  }
}

=== FILE: shop_analyzer.dfy ===
/**
 * The exchange-shop analyzer: items split into normal and high-price
 * (special) ones, an overview, saturation buckets, the consumption
 * structure per category, two four-quadrant placements around medians, the
 * high-price item review and the operating suggestions.
 *
 * The analyzer's fields are set once, when it is made, so it is a value
 * here; its analyses read them. Free-text notes become small datatypes.
 */
module ShopAnalyzer {
  import opened Wrappers
  import opened Numeric
  import opened Strings
  import opened Sorting
  import Dicts
  import opened ShopParser

  const SkinPrice := 50000
  const DefaultHigh := 10.0
  const DefaultMed := 5.0
  const DefaultLow := 1.0

  /** The optional `thresholds` dict; all None is the same as no dict. */
  datatype Thresholds = Thresholds(high: Option<real>, med: Option<real>, low: Option<real>, skinPrice: Option<int>)

  datatype Analyzer = Analyzer(
    items: seq<Item>,
    normal: seq<Item>,
    special: seq<Item>,
    high: real,
    med: real,
    low: real,
    skinPrice: int)

  // ---- item fields with the defaults the analyzer reads them with ----

  function Price(x: Item): int
  {
    x.price.GetOr(0)
  }

  function Sat(x: Item): real
  {
    x.saturation.GetOr(0.0)
  }

  function Users(x: Item): int
  {
    x.users.GetOr(0)
  }

  function Count(x: Item): int
  {
    x.count.GetOr(0)
  }

  function Token(x: Item): int
  {
    x.total.GetOr(0)
  }

  function Cost(x: Item): real
  {
    x.avgCost.GetOr(0.0)
  }

  function Limit(x: Item): int
  {
    x.limit.GetOr(0)
  }

  function CategoryOf(x: Item): string
  {
    x.category.GetOr(Other)
  }

  function UsersKey(x: Item): real
  {
    Users(x) as real
  }

  function CountKey(x: Item): real
  {
    Count(x) as real
  }

  function TokenKey(x: Item): real
  {
    Token(x) as real
  }

  // ---- the split into normal and special items ----

  function Below(t: int): Item -> bool
  {
    (x: Item) => Price(x) < t
  }

  function AtLeast(t: int): Item -> bool
  {
    (x: Item) => Price(x) >= t
  }

  /** `__init__` as written: the split uses 50000 before a custom threshold is read. */
  function NewAsWritten(items: seq<Item>, th: Thresholds): Analyzer
  {
    Analyzer(items, Filter(items, Below(SkinPrice)), Filter(items, AtLeast(SkinPrice)),
      th.high.GetOr(DefaultHigh), th.med.GetOr(DefaultMed), th.low.GetOr(DefaultLow), th.skinPrice.GetOr(SkinPrice))
  }

  /** As written, the custom threshold never reaches the split. */
  lemma SplitIgnoresThreshold(items: seq<Item>, th: Thresholds, th': Thresholds)
    ensures NewAsWritten(items, th).normal == NewAsWritten(items, th').normal
    ensures NewAsWritten(items, th).special == NewAsWritten(items, th').special
  {
  }

  /** An item priced 60000 under a threshold of 100000 is still special as written. */
  lemma SplitIgnoresThresholdExample(x: Item)
    requires Price(x) == 60000
    ensures var th := Thresholds(None, None, None, Some(100000));
      && NewAsWritten([x], th).special == [x]
      && Price(x) < NewAsWritten([x], th).skinPrice
      && New([x], th).normal == [x]
  {
    assert [x][..0] == [];
  }

  /** `__init__` with the split at the threshold in force (50000 unless overridden). */
  function New(items: seq<Item>, th: Thresholds): Analyzer
  {
    var t := th.skinPrice.GetOr(SkinPrice);
    Analyzer(items, Filter(items, Below(t)), Filter(items, AtLeast(t)),
      th.high.GetOr(DefaultHigh), th.med.GetOr(DefaultMed), th.low.GetOr(DefaultLow), t)
  }

  lemma {:induction false} SplitSizes(items: seq<Item>, t: int)
    ensures |Filter(items, Below(t))| + |Filter(items, AtLeast(t))| == |items|
  {
    if |items| > 0 {
      SplitSizes(items[..|items| - 1], t);
    }
  }

  /** Normal and special items partition the items at the threshold in force. */
  lemma SplitPartition(items: seq<Item>, th: Thresholds)
    ensures var a := New(items, th);
      && (forall x :: x in a.normal <==> x in items && Price(x) < a.skinPrice)
      && (forall x :: x in a.special <==> x in items && Price(x) >= a.skinPrice)
      && |a.normal| + |a.special| == |items|
  {
    var t := th.skinPrice.GetOr(SkinPrice);
    FilterSpec(items, Below(t));
    FilterSpec(items, AtLeast(t));
    SplitSizes(items, t);
  }

  /** The items the saturation, quadrant and cross analyses look at: the normal ones unless there are none. */
  function Pool(a: Analyzer): seq<Item>
  {
    if |a.normal| > 0 then a.normal else a.items
  }

  // ---- overview ----

  /** Index of the first element with the largest key, as Python's `max(xs, key=...)`. */
  function FirstMax(xs: seq<Item>, key: Item -> real): (r: nat)
    requires |xs| > 0
    ensures r < |xs|
  {
    if |xs| == 1 then 0
    else
      var j := FirstMax(xs[..|xs| - 1], key);
      if key(xs[|xs| - 1]) > key(xs[j]) then |xs| - 1 else j
  }

  /** Element i has the largest key and every element before it a smaller one. */
  predicate FirstTop(xs: seq<Item>, key: Item -> real, i: nat)
  {
    i < |xs| && (forall k :: 0 <= k < |xs| ==> key(xs[k]) <= key(xs[i])) && (forall k :: 0 <= k < i ==> key(xs[k]) < key(xs[i]))
  }

  lemma {:induction false} FirstMaxSpec(xs: seq<Item>, key: Item -> real)
    requires |xs| > 0
    ensures FirstTop(xs, key, FirstMax(xs, key))
  {
    if |xs| > 1 {
      var n := |xs| - 1;
      FirstMaxSpec(xs[..n], key);
      var j := FirstMax(xs[..n], key);
      assert forall k :: 0 <= k < n ==> xs[..n][k] == xs[k];
    }
  }

  datatype Overview = Overview(
    totalItems: nat,
    totalToken: int,
    totalTokenWan: real,
    topUsersItem: string,
    topUsersValue: int,
    topCountItem: string,
    topCountValue: int,
    topSaturationItem: string,
    topSaturationValue: real)

  /** `analyze_overview()`; None is the ValueError `max` raises on no items. */
  function OverviewOf(a: Analyzer): Option<Overview>
  {
    if |a.items| == 0 then None
    else
      var total := SumBy(a.items, Token);
      var u := a.items[FirstMax(a.items, UsersKey)];
      var c := a.items[FirstMax(a.items, CountKey)];
      var s := if |a.normal| > 0 then a.normal[FirstMax(a.normal, Sat)] else a.items[FirstMax(a.items, Sat)];
      Some(Overview(|a.items|, total, Round(total as real / 10000.0, 0),
        NameOf(u), Users(u), NameOf(c), Count(c), NameOf(s), Sat(s)))
  }

  /** The first element of xs with the largest key has the given name and key value. */
  ghost predicate TopIs(xs: seq<Item>, key: Item -> real, name: string, value: real)
  {
    exists i: nat :: FirstTop(xs, key, i) && NameOf(xs[i]) == name && key(xs[i]) == value
  }

  lemma TopOf(xs: seq<Item>, key: Item -> real)
    requires |xs| > 0
    ensures TopIs(xs, key, NameOf(xs[FirstMax(xs, key)]), key(xs[FirstMax(xs, key)]))
  {
    FirstMaxSpec(xs, key);
  }

  /**
   * The overview names the first item with the most users, the first with
   * the most exchanges and the first pool item with the highest saturation,
   * with their values.
   */
  lemma OverviewSpec(a: Analyzer)
    ensures OverviewOf(a).None? <==> a.items == []
    ensures OverviewOf(a).Some? ==> var o := OverviewOf(a).value;
      && o.totalItems == |a.items| && o.totalToken == SumBy(a.items, Token)
      && TopIs(a.items, UsersKey, o.topUsersItem, o.topUsersValue as real)
      && TopIs(a.items, CountKey, o.topCountItem, o.topCountValue as real)
      && TopIs(Pool(a), Sat, o.topSaturationItem, o.topSaturationValue)
  {
    if |a.items| > 0 {
      TopOf(a.items, UsersKey);
      TopOf(a.items, CountKey);
      TopOf(Pool(a), Sat);
    }
  }

  // ---- saturation ----

  function SatAtLeast(t: real): Item -> bool
  {
    (x: Item) => Sat(x) >= t
  }

  function SatBetween(lo: real, hi: real): Item -> bool
  {
    (x: Item) => lo <= Sat(x) < hi
  }

  function SatBelow(t: real): Item -> bool
  {
    (x: Item) => Sat(x) < t
  }

  datatype SatNote = HighNote(count: nat, names: seq<string>) | LowNote(count: nat)

  datatype SaturationView = SaturationView(sorted: seq<Item>, high: seq<Item>, medium: seq<Item>, low: seq<Item>, notes: seq<SatNote>)

  /** `analyze_saturation()` */
  function SaturationOf(a: Analyzer): SaturationView
  {
    var sorted := Sort(Pool(a), Desc(Sat));
    var high := Filter(sorted, SatAtLeast(a.high));
    var low := Filter(sorted, SatBelow(a.low));
    SaturationView(sorted, high, Filter(sorted, SatBetween(a.med, a.high)), low, SatNotes(high, low))
  }

  /** The analysis points of the saturation buckets. */
  function SatNotes(high: seq<Item>, low: seq<Item>): seq<SatNote>
  {
    (if |high| > 0 then [HighNote(|high|, MapSeq(Take(high, 3), NameOf))] else [])
    + (if |low| > 0 then [LowNote(|low|)] else [])
  }

  /** A filtered sorted list is sorted. */
  lemma {:induction false} FilterSorted<T>(s: seq<T>, le: (T, T) -> bool, p: T -> bool)
    requires Sorted(s, le)
    ensures Sorted(Filter(s, p), le)
  {
    if |s| > 0 {
      var n := |s| - 1;
      var t := s[..n];
      assert Sorted(t, le);
      FilterSorted(t, le, p);
      var f := Filter(t, p);
      if p(s[n]) {
        var g := f + [s[n]];
        forall i, j | 0 <= i < j < |g| ensures le(g[i], g[j]) {
          if j == |f| {
            assert g[i] == f[i] && f[i] in f;
            var k := FilterIndex(t, p, g[i]);
            assert le(s[k], s[n]);
          } else {
            assert g[i] == f[i] && g[j] == f[j];
          }
        }
      }
    }
  }

  lemma SortedIn(s: seq<Item>, x: Item)
    ensures x in Sort(s, Desc(Sat)) <==> x in s
  {
    assert x in Sort(s, Desc(Sat)) <==> x in multiset(Sort(s, Desc(Sat)));
  }

  /** The pool sorted by saturation, highest first. */
  lemma SaturationSorted(a: Analyzer)
    ensures Sorted(SaturationOf(a).sorted, Desc(Sat)) && multiset(SaturationOf(a).sorted) == multiset(Pool(a))
  {
    SortDescSorted(Pool(a), Sat);
  }

  /** Three buckets drawn from the pool: at least HIGH, from MED up to HIGH, below LOW. */
  lemma SaturationBuckets(a: Analyzer)
    ensures var v := SaturationOf(a);
      && (forall x :: x in v.high <==> x in Pool(a) && Sat(x) >= a.high)
      && (forall x :: x in v.medium <==> x in Pool(a) && a.med <= Sat(x) < a.high)
      && (forall x :: x in v.low <==> x in Pool(a) && Sat(x) < a.low)
  {
    var sorted := SaturationOf(a).sorted;
    FilterSpec(sorted, SatAtLeast(a.high));
    FilterSpec(sorted, SatBetween(a.med, a.high));
    FilterSpec(sorted, SatBelow(a.low));
    forall x ensures x in sorted <==> x in Pool(a) {
      SortedIn(Pool(a), x);
    }
  }

  /** Each bucket keeps the descending order. */
  lemma SaturationBucketsSorted(a: Analyzer)
    ensures var v := SaturationOf(a);
      Sorted(v.high, Desc(Sat)) && Sorted(v.medium, Desc(Sat)) && Sorted(v.low, Desc(Sat))
  {
    var sorted := SaturationOf(a).sorted;
    SortDescSorted(Pool(a), Sat);
    FilterSorted(sorted, Desc(Sat), SatAtLeast(a.high));
    FilterSorted(sorted, Desc(Sat), SatBetween(a.med, a.high));
    FilterSorted(sorted, Desc(Sat), SatBelow(a.low));
  }

  /**
   * A note for the high bucket iff it is non-empty, giving its size and the
   * names of at most its first three items; one for the low bucket, with its
   * size, iff that is non-empty.
   */
  lemma SaturationNotes(high: seq<Item>, low: seq<Item>)
    ensures var notes := SatNotes(high, low);
      && (|high| > 0 <==> exists k :: 0 <= k < |notes| && notes[k].HighNote?)
      && (|low| > 0 <==> exists k :: 0 <= k < |notes| && notes[k].LowNote?)
      && (forall k :: 0 <= k < |notes| && notes[k].HighNote? ==>
            notes[k].count == |high| && |notes[k].names| == (if |high| < 3 then |high| else 3))
      && (forall k :: 0 <= k < |notes| && notes[k].LowNote? ==> notes[k].count == |low|)
  {
    var notes := SatNotes(high, low);
    if |high| > 0 {
      assert notes[0].HighNote?;
    }
    if |low| > 0 {
      assert notes[|notes| - 1].LowNote?;
    }
  }

  // ---- consumption structure ----

  /** One entry of the per-category `defaultdict`. */
  datatype CatTotals = CatTotals(category: string, token: int, users: int, count: int, items: nat)

  function CatName(t: CatTotals): string
  {
    t.category
  }

  function RowToken(t: CatTotals): int
  {
    t.token
  }

  function RowUsers(t: CatTotals): int
  {
    t.users
  }

  function RowTokenKey(t: CatTotals): real
  {
    t.token as real
  }

  /** The loop body: add one item to its category, which goes last when new. */
  function AddTo(d: seq<CatTotals>, x: Item): seq<CatTotals>
  {
    match Dicts.Find(d, CatName, CategoryOf(x))
    case None => d + [CatTotals(CategoryOf(x), Token(x), Users(x), Count(x), 1)]
    case Some(k) =>
      d[k := d[k].(token := d[k].token + Token(x), users := d[k].users + Users(x),
                   count := d[k].count + Count(x), items := d[k].items + 1)]
  }

  /** The per-category totals after the loop over the items. */
  function Accumulate(items: seq<Item>): seq<CatTotals>
  {
    if |items| == 0 then [] else AddTo(Accumulate(items[..|items| - 1]), items[|items| - 1])
  }

  function InCategory(c: string): Item -> bool
  {
    (x: Item) => CategoryOf(x) == c
  }

  /** The totals of category c over the items xs of that category. */
  function TotalsOf(c: string, xs: seq<Item>): CatTotals
  {
    CatTotals(c, SumBy(xs, Token), SumBy(xs, Users), SumBy(xs, Count), |xs|)
  }

  lemma TotalsSnoc(c: string, xs: seq<Item>, x: Item)
    ensures TotalsOf(c, xs + [x]) == TotalsOf(c, xs).(token := TotalsOf(c, xs).token + Token(x),
      users := TotalsOf(c, xs).users + Users(x), count := TotalsOf(c, xs).count + Count(x), items := |xs| + 1)
  {
    SumBySnoc(xs, x, Token);
    SumBySnoc(xs, x, Users);
    SumBySnoc(xs, x, Count);
  }

  lemma FilterCategorySnoc(items: seq<Item>, x: Item, c: string)
    ensures Filter(items + [x], InCategory(c)) == Filter(items, InCategory(c)) + (if CategoryOf(x) == c then [x] else [])
  {
    assert (items + [x])[..|items|] == items;
    if CategoryOf(x) != c {
      assert Filter(items, InCategory(c)) + [] == Filter(items, InCategory(c));
    }
  }

  /** Each category appears at most once. */
  lemma {:induction false} AccumulateDistinct(items: seq<Item>)
    ensures Dicts.Distinct(Accumulate(items), CatName)
  {
    if |items| > 0 {
      AccumulateDistinct(items[..|items| - 1]);
    }
  }

  /** Entry of category c, if any, holds the totals of f. */
  predicate HoldsTotals(d: seq<CatTotals>, c: string, f: seq<Item>)
  {
    match Dicts.Find(d, CatName, c)
    case None => f == []
    case Some(k) => f != [] && d[k] == TotalsOf(c, f)
  }

  /** Adding an item keeps each category's entry equal to the totals of its items. */
  lemma AddToHolds(d: seq<CatTotals>, x: Item, c: string, f: seq<Item>)
    requires HoldsTotals(d, c, f)
    ensures HoldsTotals(AddTo(d, x), c, if CategoryOf(x) == c then f + [x] else f)
  {
    var cx, e := CategoryOf(x), AddTo(d, x);
    match Dicts.Find(d, CatName, cx)
    case Some(k) =>
      Dicts.FindUpdate(d, CatName, k, e[k], c);
      if cx == c {
        TotalsSnoc(c, f, x);
      }
    case None =>
      Dicts.FindAppend(d, CatName, e[|d|], c);
      if cx == c {
        TotalsSnoc(c, [], x);
        assert [] + [x] == [x];
      }
  }

  /**
   * Category c has an entry iff some item is of category c, and that entry
   * holds the sums over exactly those items.
   */
  lemma {:induction false} AccumulateAt(items: seq<Item>, c: string)
    ensures HoldsTotals(Accumulate(items), c, Filter(items, InCategory(c)))
  {
    if |items| > 0 {
      var n := |items| - 1;
      var d, x, f := Accumulate(items[..n]), items[n], Filter(items[..n], InCategory(c));
      assert items[..n] + [x] == items;
      AccumulateAt(items[..n], c);
      AddToHolds(d, x, c, f);
      FilterCategorySnoc(items[..n], x, c);
      assert Accumulate(items) == AddTo(d, x);
      assert Filter(items, InCategory(c)) == if CategoryOf(x) == c then f + [x] else f;
    }
  }

  lemma AddToSums(d: seq<CatTotals>, x: Item)
    ensures SumBy(AddTo(d, x), RowToken) == SumBy(d, RowToken) + Token(x)
    ensures SumBy(AddTo(d, x), RowUsers) == SumBy(d, RowUsers) + Users(x)
  {
    var found := Dicts.Find(d, CatName, CategoryOf(x));
    if found.Some? {
      var k := found.value;
      var r := d[k].(token := d[k].token + Token(x), users := d[k].users + Users(x),
                     count := d[k].count + Count(x), items := d[k].items + 1);
      SumByUpdate(d, RowToken, k, r);
      SumByUpdate(d, RowUsers, k, r);
    } else {
      var r := CatTotals(CategoryOf(x), Token(x), Users(x), Count(x), 1);
      SumBySnoc(d, r, RowToken);
      SumBySnoc(d, r, RowUsers);
    }
  }

  /** The categories' tokens (and users) add up to those of all items. */
  lemma {:induction false} AccumulateSums(items: seq<Item>)
    ensures SumBy(Accumulate(items), RowToken) == SumBy(items, Token)
    ensures SumBy(Accumulate(items), RowUsers) == SumBy(items, Users)
  {
    if |items| > 0 {
      var n := |items| - 1;
      AccumulateSums(items[..n]);
      AddToSums(Accumulate(items[..n]), items[n]);
    }
  }

  datatype CategoryRow = CategoryRow(
    category: string,
    totalToken: int,
    totalTokenWan: real,
    tokenPct: real,
    totalUsers: int,
    usersPct: real,
    totalCount: int,
    itemCount: nat)

  /** `round(part / total * 100, 1) if total > 0 else 0` */
  function Pct(part: int, total: int): real
  {
    if total > 0 then Round(part as real / total as real * 100.0, 1) else 0.0
  }

  function RowOf(t: CatTotals, totalToken: int, totalUsers: int): CategoryRow
  {
    CategoryRow(t.category, t.token, Round(t.token as real / 10000.0, 0), Pct(t.token, totalToken),
      t.users, Pct(t.users, totalUsers), t.count, t.items)
  }

  function Rows(sorted: seq<CatTotals>, totalToken: int, totalUsers: int): (r: seq<CategoryRow>)
    ensures |r| == |sorted|
  {
    if |sorted| == 0 then [] else Rows(sorted[..|sorted| - 1], totalToken, totalUsers) + [RowOf(sorted[|sorted| - 1], totalToken, totalUsers)]
  }

  lemma {:induction false} RowsAt(sorted: seq<CatTotals>, totalToken: int, totalUsers: int)
    ensures forall i :: 0 <= i < |sorted| ==> Rows(sorted, totalToken, totalUsers)[i] == RowOf(sorted[i], totalToken, totalUsers)
  {
    if |sorted| > 0 {
      RowsAt(sorted[..|sorted| - 1], totalToken, totalUsers);
    }
  }

  function RowName(r: CategoryRow): string
  {
    r.category
  }

  function RowPct(r: CategoryRow): real
  {
    r.tokenPct
  }

  datatype Consumption = Consumption(categories: seq<CategoryRow>, totalToken: int, totalUsers: int, top2: seq<string>, top2Pct: real)

  predicate TokenDescending(rows: seq<CategoryRow>)
  {
    forall i, j :: 0 <= i < j < |rows| ==> rows[i].totalToken >= rows[j].totalToken
  }

  predicate ZeroShares(rows: seq<CategoryRow>)
  {
    forall i :: 0 <= i < |rows| ==> rows[i].tokenPct == 0.0
  }

  /** Each row holds the sums over the items of its category. */
  predicate RowsHoldTotals(rows: seq<CategoryRow>, items: seq<Item>)
  {
    forall i :: 0 <= i < |rows| ==>
      var r := rows[i];
      var t := TotalsOf(r.category, Filter(items, InCategory(r.category)));
      r.totalToken == t.token && r.totalUsers == t.users && r.totalCount == t.count && r.itemCount == t.items
  }

  predicate HasRow(rows: seq<CategoryRow>, c: string)
  {
    exists i :: 0 <= i < |rows| && rows[i].category == c
  }

  predicate CoversItems(rows: seq<CategoryRow>, items: seq<Item>)
  {
    forall x :: x in items ==> HasRow(rows, CategoryOf(x))
  }

  /** The rows keep the order of the sorted entries: most tokens first; shares are 0 when the total is 0. */
  lemma RowsOrdered(d: seq<CatTotals>, totalToken: int, totalUsers: int)
    ensures TokenDescending(Rows(Sort(d, Desc(RowTokenKey)), totalToken, totalUsers))
    ensures totalToken == 0 ==> ZeroShares(Rows(Sort(d, Desc(RowTokenKey)), totalToken, totalUsers))
  {
    var sorted := Sort(d, Desc(RowTokenKey));
    var rows := Rows(sorted, totalToken, totalUsers);
    SortDescSorted(d, RowTokenKey);
    RowsAt(sorted, totalToken, totalUsers);
    forall i, j | 0 <= i < j < |rows| ensures rows[i].totalToken >= rows[j].totalToken {
      assert Desc(RowTokenKey)(sorted[i], sorted[j]);
      assert RowTokenKey(sorted[i]) >= RowTokenKey(sorted[j]);
      assert rows[i] == RowOf(sorted[i], totalToken, totalUsers) && rows[j] == RowOf(sorted[j], totalToken, totalUsers);
    }
  }

  /** A row's category totals are those the accumulation kept for it. */
  lemma RowFromEntry(items: seq<Item>, t: CatTotals)
    requires t in Accumulate(items)
    ensures t == TotalsOf(t.category, Filter(items, InCategory(t.category)))
  {
    var d := Accumulate(items);
    var m :| 0 <= m < |d| && d[m] == t;
    AccumulateAt(items, t.category);
    assert Dicts.Find(d, CatName, t.category).Some?;
    AccumulateDistinct(items);
    var k := Dicts.Find(d, CatName, t.category).value;
    assert k == m;
  }

  /** Each row holds the sums over its category's items. */
  lemma RowsTotals(items: seq<Item>, totalToken: int, totalUsers: int)
    ensures RowsHoldTotals(Rows(Sort(Accumulate(items), Desc(RowTokenKey)), totalToken, totalUsers), items)
  {
    var d := Accumulate(items);
    var sorted := Sort(d, Desc(RowTokenKey));
    RowsAt(sorted, totalToken, totalUsers);
    forall i | 0 <= i < |sorted| ensures sorted[i] == TotalsOf(sorted[i].category, Filter(items, InCategory(sorted[i].category))) {
      assert sorted[i] in multiset(sorted);
      RowFromEntry(items, sorted[i]);
    }
  }

  /** An item's category has an entry in the accumulated totals. */
  lemma EntryFor(items: seq<Item>, x: Item) returns (k: nat)
    requires x in items
    ensures k < |Accumulate(items)| && Accumulate(items)[k].category == CategoryOf(x)
  {
    var c := CategoryOf(x);
    FilterSpec(items, InCategory(c));
    assert x in Filter(items, InCategory(c));
    AccumulateAt(items, c);
    k := Dicts.Find(Accumulate(items), CatName, c).value;
  }

  /** An item's category has a row. */
  lemma RowCovers(items: seq<Item>, x: Item, totalToken: int, totalUsers: int)
    requires x in items
    ensures HasRow(Rows(Sort(Accumulate(items), Desc(RowTokenKey)), totalToken, totalUsers), CategoryOf(x))
  {
    var d := Accumulate(items);
    var sorted := Sort(d, Desc(RowTokenKey));
    var k := EntryFor(items, x);
    var i := SortHas(d, Desc(RowTokenKey), d[k]);
    RowsAt(sorted, totalToken, totalUsers);
    assert Rows(sorted, totalToken, totalUsers)[i].category == CategoryOf(x);
  }

  /** Every item's category has a row. */
  lemma RowsCover(items: seq<Item>, totalToken: int, totalUsers: int)
    ensures CoversItems(Rows(Sort(Accumulate(items), Desc(RowTokenKey)), totalToken, totalUsers), items)
  {
    forall x | x in items ensures HasRow(Rows(Sort(Accumulate(items), Desc(RowTokenKey)), totalToken, totalUsers), CategoryOf(x)) {
      RowCovers(items, x, totalToken, totalUsers);
    }
  }

  /** `analyze_consumption_structure()` after its loop. */
  function ConsumptionOf(items: seq<Item>): Consumption
  {
    var d := Accumulate(items);
    var totalToken, totalUsers := SumBy(d, RowToken), SumBy(d, RowUsers);
    var rows := Rows(Sort(d, Desc(RowTokenKey)), totalToken, totalUsers);
    var top := Take(rows, 2);
    Consumption(rows, totalToken, totalUsers, MapSeq(top, RowName), Round(Sum(MapSeq(top, RowPct)), 1))
  }

  /** The totals are those of all items, and the top two are the first two rows. */
  lemma ConsumptionTotals(items: seq<Item>)
    ensures var c := ConsumptionOf(items);
      && c.totalToken == SumBy(items, Token) && c.totalUsers == SumBy(items, Users)
      && c.top2 == MapSeq(Take(c.categories, 2), RowName)
  {
    AccumulateSums(items);
  }

  /** Most tokens first; shares are 0 when the total is 0. */
  lemma ConsumptionOrder(items: seq<Item>)
    ensures TokenDescending(ConsumptionOf(items).categories)
    ensures ConsumptionOf(items).totalToken == 0 ==> ZeroShares(ConsumptionOf(items).categories)
  {
    var d := Accumulate(items);
    var tt, tu := SumBy(d, RowToken), SumBy(d, RowUsers);
    assert ConsumptionOf(items).categories == Rows(Sort(d, Desc(RowTokenKey)), tt, tu);
    assert ConsumptionOf(items).totalToken == tt;
    RowsOrdered(d, tt, tu);
  }

  /** One row per category present, each holding the sums over that category's items. */
  lemma ConsumptionRows(items: seq<Item>)
    ensures RowsHoldTotals(ConsumptionOf(items).categories, items)
    ensures CoversItems(ConsumptionOf(items).categories, items)
  {
    var d := Accumulate(items);
    var tt, tu := SumBy(d, RowToken), SumBy(d, RowUsers);
    assert ConsumptionOf(items).categories == Rows(Sort(d, Desc(RowTokenKey)), tt, tu);
    RowsTotals(items, tt, tu);
    RowsCover(items, tt, tu);
  }

  /** The `defaultdict` loop of `analyze_consumption_structure()`. */
  method ConsumptionStructure(items: seq<Item>) returns (c: Consumption)
    ensures c == ConsumptionOf(items)
  {
    var d: seq<CatTotals> := [];
    for i := 0 to |items|
      invariant d == Accumulate(items[..i])
    {
      assert items[..i + 1][..i] == items[..i];
      d := AddTo(d, items[i]);
    }
    assert items[..|items|] == items;
    var totalToken := SumBy(d, RowToken);
    var totalUsers := SumBy(d, RowUsers);
    var rows := Rows(Sort(d, Desc(RowTokenKey)), totalToken, totalUsers);
    var top := Take(rows, 2);
    c := Consumption(rows, totalToken, totalUsers, MapSeq(top, RowName), Round(Sum(MapSeq(top, RowPct)), 1));
  }

  // ---- the two four-quadrant placements ----

  function RealKey(v: real): real
  {
    v
  }

  /** `statistics.median(vs)`: the middle value, or the mean of the two middle values. */
  function Median(vs: seq<real>): real
    requires |vs| > 0
  {
    var t := Sort(vs, Asc(RealKey));
    var n := |t|;
    if n % 2 == 1 then t[n / 2] else (t[n / 2 - 1] + t[n / 2]) / 2.0
  }

  /** 0: both at or above their medians, 1: x below and y at or above, 2: x at or above and y below, 3: both below. */
  function QuadrantOf(x: real, y: real, mx: real, my: real): nat
  {
    if x >= mx && y >= my then 0
    else if x < mx && y >= my then 1
    else if x >= mx && y < my then 2
    else 3
  }

  function InQuadrant(kx: Item -> real, ky: Item -> real, mx: real, my: real, q: nat): Item -> bool
  {
    (it: Item) => QuadrantOf(kx(it), ky(it), mx, my) == q
  }

  datatype Quadrants = Quadrants(bothHigh: seq<string>, lowXHighY: seq<string>, highXLowY: seq<string>, bothLow: seq<string>)

  /** The names in quadrant q, in item order. */
  function NamesIn(pool: seq<Item>, kx: Item -> real, ky: Item -> real, mx: real, my: real, q: nat): seq<string>
  {
    MapSeq(Filter(pool, InQuadrant(kx, ky, mx, my, q)), NameOf)
  }

  lemma NamesInNext(pool: seq<Item>, kx: Item -> real, ky: Item -> real, mx: real, my: real, q: nat, i: nat)
    requires i < |pool|
    ensures NamesIn(pool[..i + 1], kx, ky, mx, my, q) == NamesIn(pool[..i], kx, ky, mx, my, q)
      + (if QuadrantOf(kx(pool[i]), ky(pool[i]), mx, my) == q then [NameOf(pool[i])] else [])
  {
    var p := InQuadrant(kx, ky, mx, my, q);
    FilterNext(pool, p, i);
    if p(pool[i]) {
      MapSeqSnoc(Filter(pool[..i], p), pool[i], NameOf);
    } else {
      assert Filter(pool[..i + 1], p) == Filter(pool[..i], p);
      assert NamesIn(pool[..i], kx, ky, mx, my, q) + [] == NamesIn(pool[..i], kx, ky, mx, my, q);
    }
  }

  /** The placement loop: each item's name goes to the list of its quadrant. */
  method Place(pool: seq<Item>, kx: Item -> real, ky: Item -> real, mx: real, my: real) returns (r: Quadrants)
    ensures r == Quadrants(NamesIn(pool, kx, ky, mx, my, 0), NamesIn(pool, kx, ky, mx, my, 1),
                           NamesIn(pool, kx, ky, mx, my, 2), NamesIn(pool, kx, ky, mx, my, 3))
  {
    r := Quadrants([], [], [], []);
    for i := 0 to |pool|
      invariant r == Quadrants(NamesIn(pool[..i], kx, ky, mx, my, 0), NamesIn(pool[..i], kx, ky, mx, my, 1),
                               NamesIn(pool[..i], kx, ky, mx, my, 2), NamesIn(pool[..i], kx, ky, mx, my, 3))
    {
      r := PlaceNext(pool, kx, ky, mx, my, i, r);
    }
    assert pool[..|pool|] == pool;
  }

  /** One step of the placement loop: the name of item i joins the list of its quadrant. */
  method PlaceNext(pool: seq<Item>, kx: Item -> real, ky: Item -> real, mx: real, my: real, i: nat, r: Quadrants)
    returns (r': Quadrants)
    requires i < |pool|
    requires r == Quadrants(NamesIn(pool[..i], kx, ky, mx, my, 0), NamesIn(pool[..i], kx, ky, mx, my, 1),
                            NamesIn(pool[..i], kx, ky, mx, my, 2), NamesIn(pool[..i], kx, ky, mx, my, 3))
    ensures r' == Quadrants(NamesIn(pool[..i + 1], kx, ky, mx, my, 0), NamesIn(pool[..i + 1], kx, ky, mx, my, 1),
                            NamesIn(pool[..i + 1], kx, ky, mx, my, 2), NamesIn(pool[..i + 1], kx, ky, mx, my, 3))
  {
    var x, y, name := kx(pool[i]), ky(pool[i]), NameOf(pool[i]);
    NamesInNext(pool, kx, ky, mx, my, 0, i);
    NamesInNext(pool, kx, ky, mx, my, 1, i);
    NamesInNext(pool, kx, ky, mx, my, 2, i);
    NamesInNext(pool, kx, ky, mx, my, 3, i);
    var q := QuadrantOf(x, y, mx, my);
    if x >= mx && y >= my {
      assert q == 0;
      r' := r.(bothHigh := r.bothHigh + [name]);
    } else if x < mx && y >= my {
      assert q == 1;
      r' := r.(lowXHighY := r.lowXHighY + [name]);
    } else if x >= mx && y < my {
      assert q == 2;
      r' := r.(highXLowY := r.highXLowY + [name]);
    } else {
      assert q == 3;
      r' := r.(bothLow := r.bothLow + [name]);
    }
  }

  /** Every item is placed exactly once: the four lists together are as long as the pool. */
  lemma {:induction false} QuadrantSizes(pool: seq<Item>, kx: Item -> real, ky: Item -> real, mx: real, my: real)
    ensures |NamesIn(pool, kx, ky, mx, my, 0)| + |NamesIn(pool, kx, ky, mx, my, 1)|
          + |NamesIn(pool, kx, ky, mx, my, 2)| + |NamesIn(pool, kx, ky, mx, my, 3)| == |pool|
  {
    if |pool| > 0 {
      var n := |pool| - 1;
      QuadrantSizes(pool[..n], kx, ky, mx, my);
      NamesInNext(pool, kx, ky, mx, my, 0, n);
      NamesInNext(pool, kx, ky, mx, my, 1, n);
      NamesInNext(pool, kx, ky, mx, my, 2, n);
      NamesInNext(pool, kx, ky, mx, my, 3, n);
      assert pool[..n + 1] == pool;
    }
  }

  /** An item is listed in quadrant q exactly when its two values fall there. */
  lemma QuadrantMembers(pool: seq<Item>, kx: Item -> real, ky: Item -> real, mx: real, my: real, q: nat)
    ensures forall x :: x in Filter(pool, InQuadrant(kx, ky, mx, my, q)) <==> x in pool && QuadrantOf(kx(x), ky(x), mx, my) == q
    ensures q == 0 ==> forall x :: x in Filter(pool, InQuadrant(kx, ky, mx, my, q)) <==> x in pool && kx(x) >= mx && ky(x) >= my
    ensures q == 3 ==> forall x :: x in Filter(pool, InQuadrant(kx, ky, mx, my, q)) <==> x in pool && kx(x) < mx && ky(x) < my
  {
    FilterSpec(pool, InQuadrant(kx, ky, mx, my, q));
  }

  datatype Placement = NoPlacement | Placement(medianX: real, medianY: real, quadrants: Quadrants)

  /** A placement of the pool by two keys: none for an empty pool, else the
      two medians and the names of each quadrant around them, in item order. */
  predicate PlacedBy(r: Placement, pool: seq<Item>, kx: Item -> real, ky: Item -> real)
  {
    if pool == [] then r == NoPlacement
    else
      var mx, my := Median(MapSeq(pool, kx)), Median(MapSeq(pool, ky));
      r == Placement(mx, my, Quadrants(NamesIn(pool, kx, ky, mx, my, 0), NamesIn(pool, kx, ky, mx, my, 1),
                                       NamesIn(pool, kx, ky, mx, my, 2), NamesIn(pool, kx, ky, mx, my, 3)))
  }

  /** `analyze_cross()`: users against total tokens, around their medians. */
  method AnalyzeCross(a: Analyzer) returns (r: Placement)
    ensures PlacedBy(r, Pool(a), UsersKey, TokenKey)
  {
    var pool := Pool(a);
    if |pool| == 0 {
      return NoPlacement;
    }
    var mu, mt := Median(MapSeq(pool, UsersKey)), Median(MapSeq(pool, TokenKey));
    var q := Place(pool, UsersKey, TokenKey, mu, mt);
    r := Placement(mu, mt, q);
  }

  /** `analyze_quadrant()`: average token cost against saturation, around their medians. */
  method AnalyzeQuadrant(a: Analyzer) returns (r: Placement)
    ensures PlacedBy(r, Pool(a), Cost, Sat)
  {
    var pool := Pool(a);
    if |pool| == 0 {
      return NoPlacement;
    }
    var mc, ms := Median(MapSeq(pool, Cost)), Median(MapSeq(pool, Sat));
    var q := Place(pool, Cost, Sat, mc, ms);
    r := Placement(mc, ms, q);
  }

  // ---- high-price items ----

  const FullSaturation := 99.9

  datatype SpecialNote = AllBought(count: nat) | FewBuyers(users: int) | TotalWan(wan: real)

  datatype SpecialView = NoSpecial | SpecialView(items: seq<Item>, totalToken: int, totalUsers: int, fullSaturationCount: nat, notes: seq<SpecialNote>)

  /** `analyze_special_items()` */
  function SpecialOf(a: Analyzer): SpecialView
  {
    if |a.special| == 0 then NoSpecial
    else
      var token, users := SumBy(a.special, Token), SumBy(a.special, Users);
      var full := Filter(a.special, SatAtLeast(FullSaturation));
      SpecialView(a.special, token, users, |full|,
        (if |full| > 0 then [AllBought(|full|)] else [])
        + (if users < 20 then [FewBuyers(users)] else [])
        + [TotalWan(Round(token as real / 10000.0, 0))])
  }

  /**
   * The full-saturation count is the number of special items at 99.9 or
   * more; its note appears iff that count is positive, the few-buyers note
   * iff fewer than 20 users bought, and the token total always ends the notes.
   */
  lemma SpecialSpec(a: Analyzer)
    ensures SpecialOf(a).NoSpecial? <==> a.special == []
    ensures SpecialOf(a).SpecialView? ==> var v := SpecialOf(a);
      && v.fullSaturationCount <= |a.special|
      && (forall x :: x in Filter(a.special, SatAtLeast(FullSaturation)) <==> x in a.special && Sat(x) >= FullSaturation)
      && v.fullSaturationCount == |Filter(a.special, SatAtLeast(FullSaturation))|
      && (AllBought(v.fullSaturationCount) in v.notes <==> v.fullSaturationCount > 0)
      && (FewBuyers(v.totalUsers) in v.notes <==> v.totalUsers < 20)
      && v.notes[|v.notes| - 1].TotalWan?
  {
    FilterSpec(a.special, SatAtLeast(FullSaturation));
    if |a.special| > 0 {
      var v := SpecialOf(a);
      if v.fullSaturationCount > 0 {
        assert v.notes[0] == AllBought(v.fullSaturationCount);
      }
      if v.totalUsers < 20 {
        assert FewBuyers(v.totalUsers) in v.notes by {
          var k := if v.fullSaturationCount > 0 then 1 else 0;
          assert v.notes[k] == FewBuyers(v.totalUsers);
        }
      }
    }
  }

  // ---- operating suggestions ----

  datatype LimitAction = Increase | Decrease

  datatype LimitSuggestion = LimitSuggestion(item: string, current: int, saturation: real, action: LimitAction, newLimit: int)

  datatype PricingNote = CheapHot | SlowCategory(category: string)

  datatype StructureNote = GrowthHeavy(pct: real) | SinglePriceBand

  datatype Optimization = Optimization(p1: seq<LimitSuggestion>, p2: seq<PricingNote>, p3: seq<StructureNote>)

  function Min(a: int, b: int): int
  {
    if a <= b then a else b
  }

  function Max(a: int, b: int): int
  {
    if a >= b then a else b
  }

  /** The purchase-limit suggestion for one normal item, if any. */
  function LimitAdvice(x: Item): Option<LimitSuggestion>
  {
    var sat, limit := Sat(x), Limit(x);
    if sat >= 15.0 then Some(LimitSuggestion(NameOf(x), limit, sat, Increase, Min(limit * 2, limit + 50)))
    else if sat < 0.5 && limit >= 5000 then Some(LimitSuggestion(NameOf(x), limit, sat, Decrease, Max(limit / 5, 500)))
    else None
  }

  /**
   * An increase is advised at saturation 15 or more and never lowers a
   * non-negative limit (it raises a positive one); a decrease is advised
   * below 0.5 with a limit of 5000 or more, and always lowers it, to no
   * less than 500.
   */
  lemma LimitAdviceSpec(x: Item)
    ensures LimitAdvice(x).Some? <==> Sat(x) >= 15.0 || (Sat(x) < 0.5 && Limit(x) >= 5000)
    ensures LimitAdvice(x).Some? ==> var s := LimitAdvice(x).value;
      && s.current == Limit(x) && s.item == NameOf(x)
      && (s.action == Increase <==> Sat(x) >= 15.0)
      && (s.action == Increase && Limit(x) >= 0 ==> s.newLimit >= Limit(x))
      && (s.action == Increase && Limit(x) > 0 ==> s.newLimit > Limit(x))
      && (s.action == Decrease ==> 500 <= s.newLimit < Limit(x))
  {
  }

  /** The P1 list: the suggestions of the normal items, in item order. */
  function LimitPlan(xs: seq<Item>): seq<LimitSuggestion>
  {
    if |xs| == 0 then []
    else
      var a := LimitAdvice(xs[|xs| - 1]);
      LimitPlan(xs[..|xs| - 1]) + (if a.Some? then [a.value] else [])
  }

  predicate IsCheapHot(x: Item)
  {
    Sat(x) >= 10.0 && Price(x) < 200
  }

  /** The low-saturation selector: `low_sat_cats[category].append(name)` for saturation below 1. */
  function LowSat(x: Item): Option<(string, string)>
  {
    if Sat(x) < 1.0 then Some((CategoryOf(x), NameOf(x))) else None
  }

  /** The growth categories the structure check adds up. */
  predicate IsGrowth(x: Item)
  {
    CategoryOf(x) == "英雄养成" || CategoryOf(x) == "装备养成" || CategoryOf(x) == "军备养成"
  }

  function Prices(xs: seq<Item>): set<int>
  {
    set x | x in xs :: Price(x)
  }

  /** The P1 loop. */
  method PlanLimits(normal: seq<Item>) returns (p1: seq<LimitSuggestion>)
    ensures p1 == LimitPlan(normal)
  {
    p1 := [];
    for i := 0 to |normal|
      invariant p1 == LimitPlan(normal[..i])
    {
      assert normal[..i + 1][..i] == normal[..i];
      var s := LimitAdvice(normal[i]);
      if s.Some? {
        p1 := p1 + [s.value];
      }
    }
    assert normal[..|normal|] == normal;
  }

  /** The `low_sat_cats` loop. */
  method LowSatGroups(normal: seq<Item>) returns (d: seq<Dicts.Group<string, string>>)
    ensures Dicts.Tracks(d, Dicts.Collected(normal, LowSat))
    ensures Dicts.FirstSeenOrder(d, normal, LowSat)
  {
    d := [];
    assert normal[..0] == [];
    for i := 0 to |normal|
      invariant Dicts.Tracks(d, Dicts.Collected(normal[..i], LowSat))
      invariant Dicts.FirstSeenOrder(d, normal[..i], LowSat)
    {
      if LowSat(normal[i]).Some? {
        Dicts.CollectAppend(d, normal, LowSat, i);
        Dicts.OrderAppend(d, normal, LowSat, i);
        d := Dicts.Append(d, CategoryOf(normal[i]), NameOf(normal[i]));
      } else {
        Dicts.CollectSkip(d, normal, LowSat, i);
        Dicts.OrderSkip(d, normal, LowSat, i);
      }
    }
    assert normal[..|normal|] == normal;
  }

  /** The notes for the categories with two or more low-saturation items, in group order. */
  method SlowNotes(d: seq<Dicts.Group<string, string>>) returns (notes: seq<PricingNote>)
    ensures forall k :: 0 <= k < |notes| ==> notes[k].SlowCategory?
    ensures forall c :: SlowCategory(c) in notes <==> exists k :: 0 <= k < |d| && d[k].key == c && |d[k].items| >= 2
    ensures Dicts.Distinct(d, Dicts.GroupKey) ==> forall i, j :: 0 <= i < j < |notes| ==> notes[i] != notes[j]
    ensures forall a, b :: 0 <= a < b < |notes| ==> GroupsBefore(d, notes[a].category, notes[b].category)
  {
    notes := [];
    for j := 0 to |d|
      invariant forall k :: 0 <= k < |notes| ==> notes[k].SlowCategory?
      invariant forall a, b :: 0 <= a < b < |notes| ==> GroupsBefore(d, notes[a].category, notes[b].category)
      invariant Dicts.Distinct(d, Dicts.GroupKey) ==> forall i, k :: 0 <= i < k < |notes| ==> notes[i] != notes[k]
      invariant forall c :: SlowCategory(c) in notes <==> exists k :: 0 <= k < j && d[k].key == c && |d[k].items| >= 2
    {
      if |d[j].items| >= 2 {
        if Dicts.Distinct(d, Dicts.GroupKey) {
          forall k | 0 <= k < j
            ensures d[k].key != d[j].key
          {
            assert Dicts.GroupKey(d[k]) != Dicts.GroupKey(d[j]);
          }
        }
        forall a | 0 <= a < |notes|
          ensures GroupsBefore(d, notes[a].category, d[j].key)
        {
          assert SlowCategory(notes[a].category) in notes;
        }
        notes := notes + [SlowCategory(d[j].key)];
      }
    }
  }

  /** Category c has a group before a group of category c'. */
  ghost predicate GroupsBefore(d: seq<Dicts.Group<string, string>>, c: string, c': string)
  {
    exists ka, kb :: 0 <= ka < kb < |d| && d[ka].key == c && d[kb].key == c'
  }

  /** The P2 list: the cheap-and-hot note, then one note per category with two or more low-saturation items, in the order the categories first show a low-saturation item. */
  method PlanPricing(normal: seq<Item>) returns (p2: seq<PricingNote>)
    ensures CheapHot in p2 <==> exists x :: x in normal && IsCheapHot(x)
    ensures forall c :: SlowCategory(c) in p2 <==> |Dicts.Collect(normal, LowSat, c)| >= 2
    ensures CheapHot in p2 ==> p2[0] == CheapHot
    ensures forall i, j :: 0 <= i < j < |p2| ==> p2[i] != p2[j]
    ensures SlowInOrder(normal, p2)
  {
    var head: seq<PricingNote> := [];
    if exists x :: x in normal && IsCheapHot(x) {
      head := [CheapHot];
    }
    var d := LowSatGroups(normal);
    var notes := SlowNotes(d);
    p2 := head + notes;
    forall c ensures SlowCategory(c) in p2 <==> |Dicts.Collect(normal, LowSat, c)| >= 2 {
      Dicts.TracksFind(d, Dicts.Collected(normal, LowSat), c);
      assert SlowCategory(c) in p2 <==> SlowCategory(c) in notes;
      if |Dicts.Collect(normal, LowSat, c)| >= 2 {
        var k := Dicts.Find(d, Dicts.GroupKey, c).value;
        assert d[k].key == c && |d[k].items| >= 2;
      }
    }
    assert CheapHot !in notes;
    NotesInFirstSeenOrder(normal, d, notes);
    HeadKeepsOrder(normal, head, notes);
  }

  /** The slow-category notes of p name their categories in first-seen order. */
  ghost predicate SlowInOrder(normal: seq<Item>, p: seq<PricingNote>)
  {
    forall i, j :: 0 <= i < j < |p| && p[i].SlowCategory? && p[j].SlowCategory? ==>
      Dicts.FirstSelecting(normal, LowSat, p[i].category) < Dicts.FirstSelecting(normal, LowSat, p[j].category)
  }

  /** Putting the cheap-and-hot note in front keeps the slow-category notes in order. */
  lemma HeadKeepsOrder(normal: seq<Item>, head: seq<PricingNote>, notes: seq<PricingNote>)
    requires head == [] || head == [CheapHot]
    requires SlowInOrder(normal, notes)
    ensures SlowInOrder(normal, head + notes)
  {
    var p := head + notes;
    forall i, j | 0 <= i < j < |p| && p[i].SlowCategory? && p[j].SlowCategory?
      ensures Dicts.FirstSelecting(normal, LowSat, p[i].category) < Dicts.FirstSelecting(normal, LowSat, p[j].category)
    {
      assert p[i] == notes[i - |head|];
      assert p[j] == notes[j - |head|];
    }
  }

  /** Notes in group order name their categories in first-seen order. */
  lemma NotesInFirstSeenOrder(normal: seq<Item>, d: seq<Dicts.Group<string, string>>, notes: seq<PricingNote>)
    requires Dicts.FirstSeenOrder(d, normal, LowSat)
    requires forall k :: 0 <= k < |notes| ==> notes[k].SlowCategory?
    requires forall a, b :: 0 <= a < b < |notes| ==> GroupsBefore(d, notes[a].category, notes[b].category)
    ensures SlowInOrder(normal, notes)
  {
    forall a, b | 0 <= a < b < |notes|
      ensures Dicts.FirstSelecting(normal, LowSat, notes[a].category) < Dicts.FirstSelecting(normal, LowSat, notes[b].category)
    {
      var ka, kb :| 0 <= ka < kb < |d| && d[ka].key == notes[a].category && d[kb].key == notes[b].category;
    }
  }

  /** The growth count of the `cat_counts` loop. */
  method CountGrowth(items: seq<Item>) returns (g: nat)
    ensures g == |Filter(items, IsGrowth)|
  {
    g := 0;
    for i := 0 to |items|
      invariant g == |Filter(items[..i], IsGrowth)|
    {
      FilterNext(items, IsGrowth, i);
      if IsGrowth(items[i]) {
        g := g + 1;
      }
    }
    assert items[..|items|] == items;
  }

  /** The three priorities of the optimization plan for a shop with items:
      P1 the limit plan, P2 the cheap-and-hot note (first) exactly when such an
      item exists and one slow-category note per category with two or more
      low-saturation items, in first-seen category order, P3 the growth note
      exactly when growth items are more than half and the single-price-band
      note exactly when special items have at most two prices. */
  ghost predicate Optimized(a: Analyzer, o: Optimization)
    requires |a.items| > 0
  {
    o.p1 == LimitPlan(a.normal)
    && (CheapHot in o.p2 <==> exists x :: x in a.normal && IsCheapHot(x))
    && (forall c :: SlowCategory(c) in o.p2 <==> |Dicts.Collect(a.normal, LowSat, c)| >= 2)
    && (CheapHot in o.p2 ==> o.p2[0] == CheapHot)
    && (forall i, j :: 0 <= i < j < |o.p2| ==> o.p2[i] != o.p2[j])
    && SlowInOrder(a.normal, o.p2)
    && (forall p :: GrowthHeavy(p) in o.p3 <==>
          2 * |Filter(a.items, IsGrowth)| > |a.items| && p == |Filter(a.items, IsGrowth)| as real / |a.items| as real * 100.0)
    && (SinglePriceBand in o.p3 <==> a.special != [] && |Prices(a.special)| <= 2)
  }

  /**
   * `generate_optimization()`; None is the ZeroDivisionError of the growth
   * share when there are no items.
   */
  method GenerateOptimization(a: Analyzer) returns (r: Option<Optimization>)
    ensures r.None? <==> a.items == []
    ensures r.Some? ==> Optimized(a, r.value)
  {
    if |a.items| == 0 {
      return None;
    }
    var p1 := PlanLimits(a.normal);
    var p2 := PlanPricing(a.normal);
    var p3 := PlanStructure(a.items, a.special);
    r := Some(Optimization(p1, p2, p3));
  }

  /** The structure notes: a growth-heavy shop and a single price band. */
  method PlanStructure(items: seq<Item>, special: seq<Item>) returns (p3: seq<StructureNote>)
    requires |items| > 0
    ensures forall p :: GrowthHeavy(p) in p3 <==>
      2 * |Filter(items, IsGrowth)| > |items| && p == |Filter(items, IsGrowth)| as real / |items| as real * 100.0
    ensures SinglePriceBand in p3 <==> special != [] && |Prices(special)| <= 2
  {
    var growth := CountGrowth(items);
    var pct := growth as real / |items| as real * 100.0;
    GrowthShare(growth, |items|);
    var head: seq<StructureNote> := if pct > 50.0 then [GrowthHeavy(pct)] else [];
    var tail: seq<StructureNote> := if |special| > 0 && |Prices(special)| <= 2 then [SinglePriceBand] else [];
    p3 := head + tail;
    assert SinglePriceBand !in head;
    assert forall p :: GrowthHeavy(p) !in tail;
  }

  lemma GrowthShare(g: nat, total: nat)
    requires total > 0
    ensures g as real / total as real * 100.0 > 50.0 <==> 2 * g > total
  {
    var t := total as real;
    var q := g as real / t;
    assert q * 100.0 > 50.0 <==> q > 0.5;
    QuotientAbove(g as real, t, 0.5);
    assert g as real > 0.5 * t <==> 2 * g > total;
  }

  // ---- run_all ----

  datatype Results = Results(
    overview: Overview,
    saturation: SaturationView,
    consumption: Consumption,
    cross: Placement,
    quadrant: Placement,
    special: SpecialView,
    optimization: Optimization)

  /** `run_all()`; None when there are no items, where the overview's `max` raises first. */
  method RunAll(a: Analyzer) returns (r: Option<Results>)
    ensures r.None? <==> a.items == []
    ensures r.Some? ==> r.value.overview == OverviewOf(a).value && r.value.saturation == SaturationOf(a)
    ensures r.Some? ==> r.value.special == SpecialOf(a) && r.value.consumption == ConsumptionOf(a.items)
    ensures r.Some? ==> PlacedBy(r.value.cross, Pool(a), UsersKey, TokenKey) && PlacedBy(r.value.quadrant, Pool(a), Cost, Sat)
    ensures r.Some? ==> Optimized(a, r.value.optimization)
  {
    var overview := OverviewOf(a);
    if overview.None? {
      return None;
    }
    var consumption := ConsumptionStructure(a.items);
    var cross := AnalyzeCross(a);
    var quadrant := AnalyzeQuadrant(a);
    var optimization := GenerateOptimization(a);
    r := Some(Results(overview.value, SaturationOf(a), consumption, cross, quadrant, SpecialOf(a), optimization.value));
  }
}

=== FILE: shop_parser.dfy ===
/**
 * The exchange-shop data parser: a pasted text table becomes a list of item
 * records (column names mapped to field names, cells typed, repeated item
 * names numbered, derived fields filled in), items without a category are
 * classified by keyword rules, and a list of items is validated.
 *
 * An item is a Python dict; here its known keys are typed fields (`None`
 * when the key is absent) and every other key keeps its text value.
 */
module ShopParser {
  import opened Wrappers
  import opened Numeric
  import opened Strings
  import Cells
  import Dicts

  datatype Item = Item(
    name: Option<string>,
    category: Option<string>,
    users: Option<int>,
    count: Option<int>,
    price: Option<int>,
    limit: Option<int>,
    avgExchanges: Option<real>,
    avgCost: Option<real>,
    saturation: Option<real>,
    total: Option<int>,
    others: seq<(string, string)>)

  const NoFields := Item(None, None, None, None, None, None, None, None, None, None, [])

  /** The `total_token_consumption` key, which only the fill step writes. */
  const TotalKey := "total_token_consumption"

  function NameOf(x: Item): string
  {
    x.name.GetOr("")
  }

  /** `item.get("item_name")` is truthy. */
  predicate HasName(x: Item)
  {
    NameOf(x) != ""
  }

  /** A float field is truthy: present and not zero. */
  predicate Truthy(v: Option<real>)
  {
    v.Some? && v.value != 0.0
  }

  // ---- typing the cells of a row ----

  /** Python's `int(x)` on a float: truncation toward zero. */
  function Trunc(x: real): (r: int)
    ensures x >= 0.0 ==> 0 <= r && r as real <= x < r as real + 1.0
    ensures x < 0.0 ==> r <= 0 && r as real - 1.0 < x <= r as real
  {
    if x >= 0.0 then x.Floor else -((-x).Floor)
  }

  /** A text field: `str(v).strip() if v else ""`. */
  function TextValue(v: string): string
  {
    if v == "" then "" else Strip(v)
  }

  /** An integer field: `int(float(v.replace(",", "")))`, 0 when that raises. */
  function IntValue(v: string): int
  {
    match Cells.ParseFloat(Remove(v, ','))
    case None => 0
    case Some(f) => Trunc(f)
  }

  /** A float field: `round(float(v.replace(",", "")), 2)`, 0.0 when that raises. */
  function RealValue(v: string): real
  {
    match Cells.ParseFloat(Remove(v, ','))
    case None => 0.0
    case Some(f) => Round(f, 2)
  }

  /** `item[k] = <v converted by the type of field k>`. */
  function SetField(x: Item, k: string, v: string): Item
  {
    if k == "item_name" then x.(name := Some(TextValue(v)))
    else if k == "category" then x.(category := Some(TextValue(v)))
    else if k == "exchange_users" then x.(users := Some(IntValue(v)))
    else if k == "exchange_count" then x.(count := Some(IntValue(v)))
    else if k == "token_price" then x.(price := Some(IntValue(v)))
    else if k == "purchase_limit" then x.(limit := Some(IntValue(v)))
    else if k == "avg_exchanges_per_user" then x.(avgExchanges := Some(RealValue(v)))
    else if k == "avg_token_cost" then x.(avgCost := Some(RealValue(v)))
    else if k == "saturation_rate" then x.(saturation := Some(RealValue(v)))
    else x.(others := x.others + [(k, v)])
  }

  /** `_convert_types(row)` over a row whose keys are distinct. */
  function Convert(row: seq<(string, string)>): Item
  {
    if |row| == 0 then NoFields
    else SetField(Convert(row[..|row| - 1]), row[|row| - 1].0, row[|row| - 1].1)
  }

  /** A whole number written in digits reads back as itself, thousands separators or not. */
  lemma IntValueDigits(n: nat, commas: string)
    requires forall i :: 0 <= i < |commas| ==> commas[i] == ','
    ensures IntValue(commas + NatToString(n)) == n
  {
    var s := NatToString(n);
    NatCommas(n, commas);
    Cells.ParseNat(n);
    assert Cells.ParseFloat(Remove(commas + s, ',')) == Some(n as real);
    TruncWhole(n);
  }

  lemma TruncWhole(n: nat)
    ensures Trunc(n as real) == n
  {
  }

  lemma NatCommas(n: nat, commas: string)
    requires forall i :: 0 <= i < |commas| ==> commas[i] == ','
    ensures Remove(commas + NatToString(n), ',') == NatToString(n)
  {
    var s := NatToString(n);
    Cells.NatDigits(n);
    assert forall i :: 0 <= i < |s| ==> Cells.IsDigit(s[i]);
    RemoveCommas(commas, s);
  }

  lemma RemoveCommas(commas: string, s: string)
    requires forall i :: 0 <= i < |commas| ==> commas[i] == ','
    requires forall i :: 0 <= i < |s| ==> '0' <= s[i] <= '9'
    ensures Remove(commas + s, ',') == s
  {
    RemoveAppend(commas, s, ',');
    RemoveAll(commas);
    RemoveAbsent(s, ',');
  }

  lemma {:induction false} RemoveAll(commas: string)
    requires forall i :: 0 <= i < |commas| ==> commas[i] == ','
    ensures Remove(commas, ',') == []
  {
    if |commas| > 0 {
      RemoveAll(commas[1..]);
    }
  }

  /** Text that is no number makes every numeric field zero. */
  lemma NonNumberIsZero(v: string)
    requires Cells.ParseFloat(Remove(v, ',')).None?
    ensures IntValue(v) == 0 && RealValue(v) == 0.0
  {
  }

  /** A converted float field lies within half a hundredth of the number written. */
  lemma RealValueClose(v: string)
    requires Cells.ParseFloat(Remove(v, ',')).Some?
    ensures var f := Cells.ParseFloat(Remove(v, ',')).value;
      f - 0.005 < RealValue(v) <= f + 0.005
  {
    Round2(Cells.ParseFloat(Remove(v, ',')).value);
  }

  // ---- the text table ----

  /** `[l.strip() for l in raw.strip().split("\n") if l.strip()]` */
  function Lines(raw: string): (r: seq<string>)
  {
    NonEmpty(MapSeq(Split(Strip(raw), '\n'), Strip))
  }

  /** `[s for s in xs if s]` */
  function NonEmpty(xs: seq<string>): (r: seq<string>)
    ensures |r| <= |xs|
    ensures forall s :: s in r ==> s != "" && s in xs
  {
    if |xs| == 0 then []
    else
      var front := NonEmpty(xs[..|xs| - 1]);
      if xs[|xs| - 1] == "" then front else front + [xs[|xs| - 1]]
  }

  lemma {:induction false} NonEmptyKeeps(xs: seq<string>, s: string)
    requires s in xs && s != ""
    ensures s in NonEmpty(xs)
  {
    var n := |xs| - 1;
    if xs[n] != s {
      assert s in xs[..n] by {
        var i :| 0 <= i < |xs| && xs[i] == s;
        assert xs[..n][i] == s;
      }
      NonEmptyKeeps(xs[..n], s);
    }
  }

  /** Every line is non-empty and carries no surrounding white space. */
  lemma LinesStripped(raw: string)
    ensures forall l :: l in Lines(raw) ==> l != "" && !IsSpace(l[0]) && !IsSpace(l[|l| - 1])
  {
    StrippedNonEmpty(Split(Strip(raw), '\n'));
  }

  /** A non-empty line without surrounding white space. */
  predicate Stripped(l: string)
  {
    l != "" && !IsSpace(l[0]) && !IsSpace(l[|l| - 1])
  }

  lemma StrippedNonEmpty(pieces: seq<string>)
    ensures forall l :: l in NonEmpty(MapSeq(pieces, Strip)) ==> Stripped(l)
  {
    var m := MapSeq(pieces, Strip);
    forall l | l in NonEmpty(m) ensures Stripped(l) {
      assert l in m;
      var i :| 0 <= i < |m| && m[i] == l;
      MapSeqAt(pieces, Strip);
      assert l == Strip(pieces[i]);
    }
  }

  /** The separator: a tab if the first line has one, else `|` if it has one, else a tab. */
  function SepOf(first: string): (c: char)
    ensures c == '|' <==> '\t' !in first && '|' in first
  {
    if '\t' in first then '\t' else if '|' in first then '|' else '\t'
  }

  predicate IsBar(ch: char)
  {
    ch == '|'
  }

  /** `c.strip().strip("|")` */
  function CellText(c: string): (r: string)
    ensures |r| > 0 ==> r[0] != '|' && r[|r| - 1] != '|'
  {
    StripBy(Strip(c), IsBar)
  }

  /** The non-empty cells of a line. */
  function CellsOf(line: string, sep: char): (r: seq<string>)
  {
    NonEmpty(MapSeq(Split(line, sep), CellText))
  }

  /** Every cell is non-empty and neither starts nor ends with a bar. */
  lemma CellsTrimmed(line: string, sep: char)
    ensures forall c :: c in CellsOf(line, sep) ==> c != "" && c[0] != '|' && c[|c| - 1] != '|'
  {
    var pieces := Split(line, sep);
    var m := MapSeq(pieces, CellText);
    assert CellsOf(line, sep) == NonEmpty(m);
    forall c | c in NonEmpty(m) ensures c != "" && c[0] != '|' && c[|c| - 1] != '|' {
      var p := MappedFrom(pieces, CellText, c);
      assert c == CellText(p);
    }
  }

  /** An element of a mapped sequence is the image of an element. */
  lemma MappedFrom<A, B>(xs: seq<A>, f: A -> B, y: B) returns (x: A)
    requires y in MapSeq(xs, f)
    ensures x in xs && y == f(x)
  {
    MapSeqAt(xs, f);
    var i :| 0 <= i < |xs| && MapSeq(xs, f)[i] == y;
    x := xs[i];
  }

  /** `COLUMN_MAPPING.get(h, h)` */
  function MapColumn(h: string): (r: string)
  {
    if h == "道具名称" then "item_name"
    else if h == "兑换人次" then "exchange_users"
    else if h == "兑换次数" then "exchange_count"
    else if h == "人均兑换次数" then "avg_exchanges_per_user"
    else if h == "平均消耗代币" then "avg_token_cost"
    else if h == "代币价格" then "token_price"
    else if h == "限购数量" then "purchase_limit"
    else if h == "兑换饱和度" then "saturation_rate"
    else if h == "类别" then "category"
    else h
  }

  /** The field names of the header line. */
  function Header(first: string, sep: char): (r: seq<string>)
    ensures |r| == |CellsOf(first, sep)|
  {
    MapSeq(CellsOf(first, sep), MapColumn)
  }

  /** A separator line of dashes, bars, equal signs and white space. */
  predicate IsRuleLine(line: string)
  {
    |line| > 0 && forall i :: 0 <= i < |line| ==> line[i] == '-' || line[i] == '|' || line[i] == '=' || IsSpace(line[i])
  }

  /** The cells, extended with empty strings up to n columns. */
  function Padded(cells: seq<string>, n: nat): (r: seq<string>)
    ensures |r| >= n && |r| >= |cells|
    ensures forall i :: 0 <= i < |r| ==> r[i] == if i < |cells| then cells[i] else ""
  {
    if |cells| < n then cells + seq(n - |cells|, _ => "") else cells
  }

  /** A cell's value: stripped, with `%` removed. */
  function CellValue(c: string): string
  {
    Remove(Strip(c), '%')
  }

  function Key(p: (string, string)): string
  {
    p.0
  }

  /** The header's columns paired with the padded cells, in header order. */
  function Pairs(header: seq<string>, cells: seq<string>): (r: seq<(string, string)>)
    ensures |r| == |header|
  {
    var p := Padded(cells, |header|);
    seq(|header|, i requires 0 <= i < |header| => (header[i], CellValue(p[i])))
  }

  /** `row[col] = value` for every column: a repeated column keeps its last value. */
  function RowOf(header: seq<string>, cells: seq<string>): seq<(string, string)>
  {
    Dicts.FromList(Pairs(header, cells), Key)
  }

  /**
   * Every column is a key of the row; a column that is not repeated later
   * holds its own cell, or the empty string when the line has fewer cells.
   */
  lemma RowColumn(header: seq<string>, cells: seq<string>, i: nat)
    requires i < |header| && Dicts.LastOf(header, (h: string) => h, i)
    ensures Dicts.Find(RowOf(header, cells), Key, header[i]).Some?
    ensures RowOf(header, cells)[Dicts.Find(RowOf(header, cells), Key, header[i]).value]
         == (header[i], if i < |cells| then CellValue(cells[i]) else "")
  {
    var ps := Pairs(header, cells);
    assert Key(ps[i]) == header[i];
    forall j | i < j < |ps| ensures Key(ps[j]) != Key(ps[i]) {
      assert header[j] != header[i];
    }
    Dicts.LastWins(ps, Key, i);
  }

  /** The items of the data lines that have a name, before renaming. */
  function Entries(lines: seq<string>, header: seq<string>, sep: char): (r: seq<Item>)
    ensures forall x :: x in r ==> HasName(x)
  {
    if |lines| == 0 then []
    else
      var front := Entries(lines[..|lines| - 1], header, sep);
      var line := lines[|lines| - 1];
      if IsRuleLine(line) then front
      else
        var x := Convert(RowOf(header, CellsOf(line, sep)));
        if HasName(x) then front + [x] else front
  }

  // ---- numbering repeated names ----

  /** How often n occurs in names. */
  function Occ(names: seq<string>, n: string): (c: nat)
    ensures c <= |names|
  {
    if |names| == 0 then 0
    else Occ(names[..|names| - 1], n) + (if names[|names| - 1] == n then 1 else 0)
  }

  function Names(xs: seq<Item>): (r: seq<string>)
    ensures |r| == |xs|
  {
    MapSeq(xs, NameOf)
  }

  /** The mark of the k-th item with one name, k >= 2. */
  function Suffix(k: nat): (r: string)
  {
    if k == 2 then "②"
    else if k == 3 then "③"
    else if k == 4 then "④"
    else if k == 5 then "⑤"
    else if k == 6 then "⑥"
    else if k == 7 then "⑦"
    else if k == 8 then "⑧"
    else if k == 9 then "⑨"
    else if k == 10 then "⑩"
    else "(" + NatToString(k) + ")"
  }

  /** The k-th item with its name: the first keeps it, later ones get the mark. */
  function Rename(x: Item, k: nat): Item
  {
    if k == 1 then x else x.(name := Some(NameOf(x) + Suffix(k)))
  }

  /** Every item renamed by how often its name has occurred so far. */
  function Named(xs: seq<Item>): (r: seq<Item>)
    ensures |r| == |xs|
  {
    if |xs| == 0 then []
    else Named(xs[..|xs| - 1]) + [Rename(xs[|xs| - 1], Occ(Names(xs), NameOf(xs[|xs| - 1])))]
  }

  lemma NamesSnoc(xs: seq<Item>, x: Item)
    ensures Names(xs + [x]) == Names(xs) + [NameOf(x)]
  {
    assert (xs + [x])[..|xs|] == xs;
  }

  /** The i-th item is renamed by the occurrences of its name up to and including it. */
  lemma {:induction false} NamedAt(xs: seq<Item>, i: nat)
    requires i < |xs|
    ensures Names(xs[..i + 1]) == Names(xs)[..i + 1]
    ensures Named(xs)[i] == Rename(xs[i], Occ(Names(xs)[..i + 1], NameOf(xs[i])))
  {
    var n := |xs| - 1;
    MapSeqAt(xs, NameOf);
    MapSeqAt(xs[..i + 1], NameOf);
    if i < n {
      assert xs[..n][..i + 1] == xs[..i + 1];
      NamedAt(xs[..n], i);
      MapSeqAt(xs[..n], NameOf);
    } else {
      assert xs[..i + 1] == xs;
    }
  }

  /** Occurrences up to a later position of the same name are strictly more. */
  lemma {:induction false} OccGrows(names: seq<string>, i: nat, j: nat)
    requires i < j < |names| && names[i] == names[j]
    ensures Occ(names[..i + 1], names[i]) < Occ(names[..j + 1], names[i])
  {
    var n := names[i];
    assert names[..j + 1][..j] == names[..j];
    if i < j - 1 {
      OccMonotone(names, i + 1, j);
    } else {
      assert names[..j] == names[..i + 1];
    }
  }

  lemma {:induction false} OccMonotone(names: seq<string>, a: nat, b: nat)
    requires a <= b <= |names|
    ensures forall n :: Occ(names[..a], n) <= Occ(names[..b], n)
  {
    if a < b {
      OccMonotone(names, a, b - 1);
      assert names[..b][..b - 1] == names[..b - 1];
    }
  }

  /** The first item with a name keeps it. */
  lemma {:induction false} OccFirst(names: seq<string>, i: nat)
    requires i < |names| && forall j :: 0 <= j < i ==> names[j] != names[i]
    ensures Occ(names[..i + 1], names[i]) == 1
  {
    assert names[..i + 1][..i] == names[..i];
    OccAbsent(names[..i], names[i]);
  }

  lemma {:induction false} OccAbsent(names: seq<string>, n: string)
    requires forall j :: 0 <= j < |names| ==> names[j] != n
    ensures Occ(names, n) == 0
  {
    if |names| > 0 {
      OccAbsent(names[..|names| - 1], n);
    }
  }

  lemma DigitsInjective(a: nat, b: nat)
    requires NatToString(a) == NatToString(b)
    ensures a == b
  {
    Cells.NatDigits(a);
    Cells.NatDigits(b);
  }

  /** Different counts give different marks (the marks of 2..10 are single characters). */
  lemma SuffixInjective(a: nat, b: nat)
    requires 2 <= a < b
    ensures Suffix(a) != Suffix(b)
  {
    if b > 10 {
      if a > 10 {
        var sa, sb := NatToString(a), NatToString(b);
        if Suffix(a) == Suffix(b) {
          assert |sa| == |sb|;
          assert sa == Suffix(a)[1..|sa| + 1] == Suffix(b)[1..|sb| + 1] == sb;
          DigitsInjective(a, b);
        }
      } else {
        assert |Suffix(b)| >= 3;
      }
    }
  }

  /** Renamed by a smaller and a larger count, two items of one name get different names. */
  lemma RenameDistinct(x: Item, y: Item, a: nat, b: nat)
    requires NameOf(x) == NameOf(y) && 1 <= a < b
    ensures Rename(x, a).name != Rename(y, b).name
  {
    var n := NameOf(x);
    if a == 1 {
      assert |n + Suffix(b)| > |n| by {
        assert |Suffix(b)| > 0;
      }
      if x.name.None? {
        assert Rename(y, b).name.Some?;
      }
    } else {
      SuffixInjective(a, b);
      var u, v := n + Suffix(a), n + Suffix(b);
      assert u[|n|..] == Suffix(a) && v[|n|..] == Suffix(b);
    }
  }

  /** How often the name of xs[i] has occurred up to and including position i. */
  function OccAt(xs: seq<Item>, i: nat): nat
    requires i < |xs|
  {
    Occ(Names(xs)[..i + 1], NameOf(xs[i]))
  }

  /** A name counts at least once at its own position, and more at a later one. */
  lemma OccAtGrows(xs: seq<Item>, i: nat, j: nat)
    requires i < j < |xs| && NameOf(xs[i]) == NameOf(xs[j])
    ensures 1 <= OccAt(xs, i) < OccAt(xs, j)
  {
    var ns := Names(xs);
    MapSeqAt(xs, NameOf);
    OccGrows(ns, i, j);
    assert ns[..i + 1][i] == ns[i];
    assert ns[..i + 1][..i + 1][..i] == ns[..i + 1][..i];
  }

  /** Two items with the same original name never end up with the same name. */
  lemma RepeatsDistinct(xs: seq<Item>, i: nat, j: nat)
    requires i < j < |xs| && NameOf(xs[i]) == NameOf(xs[j])
    ensures Named(xs)[i].name != Named(xs)[j].name
  {
    NamedAt(xs, i);
    NamedAt(xs, j);
    OccAtGrows(xs, i, j);
    RenameDistinct(xs[i], xs[j], OccAt(xs, i), OccAt(xs, j));
  }

  // ---- filling derived fields ----

  /** `item.pop(TotalKey)`: the key the fill step writes. */
  function Unset(others: seq<(string, string)>, k: string): (r: seq<(string, string)>)
    ensures forall p :: p in r ==> p in others && p.0 != k
  {
    if |others| == 0 then []
    else
      var front := Unset(others[..|others| - 1], k);
      if others[|others| - 1].0 == k then front else front + [others[|others| - 1]]
  }

  lemma {:induction false} UnsetTwice(others: seq<(string, string)>, k: string)
    ensures Unset(Unset(others, k), k) == Unset(others, k)
  {
    if |others| > 0 {
      var n := |others| - 1;
      UnsetTwice(others[..n], k);
      var front := Unset(others[..n], k);
      if others[n].0 != k {
        assert (front + [others[n]])[..|front|] == front;
      }
    }
  }

  /** The average exchanges per user after filling. */
  function FilledAverage(x: Item): Option<real>
  {
    var users := x.users.GetOr(0);
    if !Truthy(x.avgExchanges) && users > 0 then Some(Round(x.count.GetOr(0) as real / users as real, 2))
    else x.avgExchanges
  }

  /** The average token cost after filling, from the filled average. */
  function FilledCost(x: Item, avg: Option<real>): Option<real>
  {
    Refill(x.avgCost, x.users.GetOr(0) > 0, Round(CostOf(avg, x.price), 2))
  }

  /** Average exchanges times the token price, a missing value counting as 0. */
  function CostOf(avg: Option<real>, price: Option<int>): real
  {
    avg.GetOr(0.0) * price.GetOr(0) as real
  }

  /** A derived field after filling: the computed value when the field is not truthy and the condition holds. */
  function Refill(v: Option<real>, cond: bool, computed: real): Option<real>
  {
    if !Truthy(v) && cond then Some(computed) else v
  }

  /** The saturation after filling, from the filled average; a missing limit counts as 1. */
  function FilledSaturation(x: Item, avg: Option<real>): Option<real>
  {
    var limit := x.limit.GetOr(1);
    if !Truthy(x.saturation) && limit > 0 then Some(Round(avg.GetOr(0.0) / limit as real * 100.0, 2))
    else x.saturation
  }

  /** One item of `_fill_computed_fields`. */
  function Fill(x: Item): Item
  {
    var avg := FilledAverage(x);
    x.(avgExchanges := avg, avgCost := FilledCost(x, avg), saturation := FilledSaturation(x, avg),
       total := Some(x.count.GetOr(0) * x.price.GetOr(0)), others := Unset(x.others, TotalKey))
  }

  /**
   * Filling never overwrites a value the data gave and touches only the
   * derived fields; the total is count times price.
   */
  lemma FillKeeps(x: Item)
    ensures Fill(x).total == Some(x.count.GetOr(0) * x.price.GetOr(0))
    ensures Truthy(x.avgExchanges) ==> Fill(x).avgExchanges == x.avgExchanges
    ensures Truthy(x.avgCost) ==> Fill(x).avgCost == x.avgCost
    ensures Truthy(x.saturation) ==> Fill(x).saturation == x.saturation
    ensures Fill(x).(avgExchanges := x.avgExchanges, avgCost := x.avgCost, saturation := x.saturation, total := x.total, others := x.others) == x
    ensures forall p :: p in Fill(x).others ==> p in x.others && p.0 != TotalKey
  {
  }

  lemma Round2(q: real)
    ensures q - 0.005 < Round(q, 2) <= q + 0.005
  {
    assert Pow10(2) == 100;
  }

  /** A missing average is count over users to two decimals, whenever there are users. */
  lemma FillAverage(x: Item)
    requires !Truthy(x.avgExchanges) && x.users.GetOr(0) > 0
    ensures Fill(x).avgExchanges.Some?
    ensures var q := x.count.GetOr(0) as real / x.users.GetOr(0) as real;
      q - 0.005 < Fill(x).avgExchanges.value <= q + 0.005
  {
    Round2(x.count.GetOr(0) as real / x.users.GetOr(0) as real);
  }

  /** Filling twice fills nothing more. */
  lemma FillIdempotent(x: Item)
    ensures Fill(Fill(x)) == Fill(x)
  {
    var y := Fill(x);
    var avg := FilledAverage(x);
    FillKeepsInputs(x);
    assert FilledAverage(y) == avg;
    FilledCostTwice(x, y, avg);
    FilledSaturationTwice(x, y, avg);
    UnsetTwice(x.others, TotalKey);
  }

  lemma FillKeepsInputs(x: Item)
    ensures Fill(x).users == x.users && Fill(x).price == x.price && Fill(x).limit == x.limit && Fill(x).count == x.count
  {
  }

  lemma FilledCostTwice(x: Item, y: Item, avg: Option<real>)
    requires y.users == x.users && y.price == x.price && y.avgCost == FilledCost(x, avg)
    ensures FilledCost(y, avg) == FilledCost(x, avg)
  {
    RefillTwice(x.avgCost, x.users.GetOr(0) > 0, Round(CostOf(avg, x.price), 2), Round(CostOf(avg, y.price), 2));
  }

  /** Refilling a filled field with the same value changes nothing. */
  lemma RefillTwice(v: Option<real>, cond: bool, a: real, b: real)
    requires a == b
    ensures Refill(Refill(v, cond, a), cond, b) == Refill(v, cond, a)
  {
  }

  lemma FilledSaturationTwice(x: Item, y: Item, avg: Option<real>)
    requires y.limit == x.limit && y.saturation == FilledSaturation(x, avg)
    ensures FilledSaturation(y, avg) == FilledSaturation(x, avg)
  {
  }

  /** `_fill_computed_fields(items)`: every item of the list is filled in place. */
  method FillComputed(items: array<Item>)
    modifies items
    ensures forall i :: 0 <= i < items.Length ==> items[i] == Fill(old(items[i]))
  {
    for i := 0 to items.Length
      invariant forall j :: 0 <= j < i ==> items[j] == Fill(old(items[j]))
      invariant forall j :: i <= j < items.Length ==> items[j] == old(items[j])
    {
      items[i] := Fill(items[i]);
    }
  }

  // ---- parse_text_input ----

  datatype Failure = EmptyText | NoItems

  datatype Parsed = Failed(failure: Failure) | Parsed(items: seq<Item>)

  /** What `parse_text_input(raw)` returns or raises. */
  function TextTable(raw: string): Parsed
  {
    TableOf(Lines(raw))
  }

  /** What the parser makes of the non-blank, stripped lines of the text. */
  function TableOf(lines: seq<string>): Parsed
  {
    if |lines| == 0 then Failed(EmptyText)
    else
      var sep := SepOf(lines[0]);
      var named := Named(Entries(lines[1..], Header(lines[0], sep), sep));
      if |named| == 0 then Failed(NoItems) else Parsed(MapSeq(named, Fill))
  }

  /** Seen holds, for every name met so far, how often it occurred. */
  ghost predicate Counted(seen: map<string, nat>, kept: seq<Item>)
  {
    forall n :: (n in seen ==> seen[n] == Occ(Names(kept), n)) && (n !in seen ==> Occ(Names(kept), n) == 0)
  }

  lemma CountedSnoc(seen: map<string, nat>, kept: seq<Item>, x: Item, k: nat)
    requires Counted(seen, kept)
    requires k == if NameOf(x) in seen then seen[NameOf(x)] + 1 else 1
    ensures Counted(seen[NameOf(x) := k], kept + [x])
    ensures k == Occ(Names(kept + [x]), NameOf(x))
  {
    NamesSnoc(kept, x);
    var ns := Names(kept) + [NameOf(x)];
    assert ns[..|ns| - 1] == Names(kept);
  }

  /** One data line: skipped, dropped for want of a name, or renamed and kept. */
  method ParseLine(line: string, header: seq<string>, sep: char, seen: map<string, nat>, ghost kept: seq<Item>, items: seq<Item>)
    returns (seen': map<string, nat>, ghost kept': seq<Item>, items': seq<Item>)
    requires Counted(seen, kept) && items == Named(kept)
    ensures Counted(seen', kept') && items' == Named(kept')
    ensures kept' == if IsRuleLine(line) then kept else
      var x := Convert(RowOf(header, CellsOf(line, sep)));
      if HasName(x) then kept + [x] else kept
  {
    seen', kept', items' := seen, kept, items;
    if IsRuleLine(line) {
      return;
    }
    var x := Convert(RowOf(header, CellsOf(line, sep)));
    if HasName(x) {
      var name := NameOf(x);
      var k := if name in seen then seen[name] + 1 else 1;
      CountedSnoc(seen, kept, x, k);
      seen' := seen[name := k];
      kept' := kept + [x];
      assert kept'[..|kept|] == kept;
      items' := items + [Rename(x, k)];
    }
  }

  lemma Mapped<A, B>(ys: seq<B>, xs: seq<A>, f: A -> B)
    requires |ys| == |xs| && forall i :: 0 <= i < |xs| ==> ys[i] == f(xs[i])
    ensures ys == MapSeq(xs, f)
  {
    MapSeqAt(xs, f);
  }

  /** The loop over the data lines: the named entries, each renamed by its count. */
  method ParseRows(rest: seq<string>, header: seq<string>, sep: char) returns (items: seq<Item>)
    ensures items == Named(Entries(rest, header, sep))
  {
    var seen: map<string, nat> := map[];
    items := [];
    ghost var kept: seq<Item> := [];
    for i := 0 to |rest|
      invariant kept == Entries(rest[..i], header, sep)
      invariant Counted(seen, kept) && items == Named(kept)
    {
      assert rest[..i + 1][..i] == rest[..i];
      seen, kept, items := ParseLine(rest[i], header, sep, seen, kept, items);
    }
    assert rest[..|rest|] == rest;
  }

  /** `parse_text_input(raw)`; Failed is the ValueError it raises. */
  method ParseText(raw: string) returns (r: Parsed)
    ensures r == TextTable(raw)
  {
    var lines := Lines(raw);
    r := ParseLines(lines);
  }

  /** The parse after the text has been cut into its non-blank, stripped lines. */
  method ParseLines(lines: seq<string>) returns (r: Parsed)
    ensures r == TableOf(lines)
  {
    if |lines| == 0 {
      return Failed(EmptyText);
    }
    var sep := SepOf(lines[0]);
    var items := ParseRows(lines[1..], Header(lines[0], sep), sep);
    if |items| == 0 {
      return Failed(NoItems);
    }
    var filled := FillAll(items);
    r := Parsed(filled);
  }

  /** `_fill_computed_fields` on a fresh list holding the items. */
  method FillAll(items: seq<Item>) returns (filled: seq<Item>)
    ensures filled == MapSeq(items, Fill)
  {
    var a := new Item[|items|](k requires 0 <= k < |items| => items[k]);
    FillComputed(a);
    Mapped(a[..], items, Fill);
    filled := a[..];
  }

  /** The two ValueErrors: no non-blank line at all, or no data line with a name. */
  lemma TextTableFails(raw: string)
    ensures TextTable(raw) == Failed(EmptyText) <==> Lines(raw) == []
    ensures TextTable(raw) == Failed(NoItems)
        <==> Lines(raw) != [] && Entries(Lines(raw)[1..], Header(Lines(raw)[0], SepOf(Lines(raw)[0])), SepOf(Lines(raw)[0])) == []
  {
  }

  /**
   * Every parsed item has a name, its total is count times price, and the
   * i-th entry with a repeated name is marked by how often that name has
   * occurred.
   */
  lemma TextTableItems(raw: string, i: nat)
    requires TextTable(raw).Parsed? && i < |TextTable(raw).items|
    ensures var lines := Lines(raw);
      var sep := SepOf(lines[0]);
      var xs := Entries(lines[1..], Header(lines[0], sep), sep);
      var x := TextTable(raw).items[i];
      && i < |xs| && x == Fill(Rename(xs[i], Occ(Names(xs)[..i + 1], NameOf(xs[i]))))
      && HasName(x)
      && x.total == Some(x.count.GetOr(0) * x.price.GetOr(0))
  {
    var lines := Lines(raw);
    var sep := SepOf(lines[0]);
    var xs := Entries(lines[1..], Header(lines[0], sep), sep);
    MapSeqAt(Named(xs), Fill);
    NamedAt(xs, i);
    assert xs[i] in xs;
  }

  // ---- auto_categorize ----

  datatype Rule = Rule(category: string, keywords: seq<string>)

  function RuleName(r: Rule): string
  {
    r.category
  }

  const Other := "其他"

  const DefaultRules := [
    Rule("主城皮肤", ["皮肤"]),
    Rule("英雄养成", ["英雄", "升星", "碎片"]),
    Rule("军备养成", ["军备", "T6"]),
    Rule("装备养成", ["装备", "纳米", "晶体", "重铸"]),
    Rule("加速道具", ["加速"]),
    Rule("收藏品", ["收藏品"]),
    Rule("核心材料", ["机能核心"]),
    Rule("资源/抽奖", ["资源", "奖池", "宝箱", "抽奖"])
  ]

  /** `{**DEFAULT_CATEGORY_RULES, **custom}`: custom keywords replace a default category's, new categories go last. */
  function RulesWith(custom: seq<Rule>): seq<Rule>
  {
    Dicts.FromList(DefaultRules + custom, RuleName)
  }

  /** A custom rule (the last one for its category) is the rule used for that category. */
  lemma CustomRuleWins(custom: seq<Rule>, i: nat)
    requires i < |custom| && Dicts.LastOf(custom, RuleName, i)
    ensures var d := RulesWith(custom);
      var k := Dicts.Find(d, RuleName, custom[i].category);
      k.Some? && d[k.value] == custom[i]
  {
    var xs := DefaultRules + custom;
    var m := |DefaultRules| + i;
    assert xs[m] == custom[i];
    forall j | m < j < |xs| ensures RuleName(xs[j]) != RuleName(xs[m]) {
      assert xs[j] == custom[j - |DefaultRules|];
    }
    Dicts.LastWins(xs, RuleName, m);
  }

  /** A default category that no custom rule names keeps its keywords. */
  lemma DefaultRuleKept(custom: seq<Rule>, i: nat)
    requires i < |DefaultRules|
    requires forall j :: 0 <= j < |custom| ==> custom[j].category != DefaultRules[i].category
    ensures var d := RulesWith(custom);
      var k := Dicts.Find(d, RuleName, DefaultRules[i].category);
      k.Some? && d[k.value] == DefaultRules[i]
  {
    var xs := DefaultRules + custom;
    assert xs[i] == DefaultRules[i];
    forall j | i < j < |xs| ensures RuleName(xs[j]) != RuleName(xs[i]) {
      if j < |DefaultRules| {
        assert xs[j] == DefaultRules[j];
      } else {
        assert xs[j] == custom[j - |DefaultRules|];
      }
    }
    Dicts.LastWins(xs, RuleName, i);
  }

  /** Some keyword of the rule occurs in the name. */
  predicate Matches(r: Rule, name: string)
  {
    exists k :: 0 <= k < |r.keywords| && Contains(name, r.keywords[k])
  }

  /** Rule j is the first rule that matches. */
  predicate FirstRuleAt(rules: seq<Rule>, name: string, j: nat)
  {
    j < |rules| && Matches(rules[j], name) && forall m :: 0 <= m < j ==> !Matches(rules[m], name)
  }

  /** Index of the first matching rule. */
  function FirstMatch(rules: seq<Rule>, name: string): (r: Option<nat>)
    ensures r.Some? ==> r.value < |rules|
  {
    if |rules| == 0 then None
    else if Matches(rules[0], name) then Some(0)
    else match FirstMatch(rules[1..], name)
      case None => None
      case Some(j) => Some(j + 1)
  }

  lemma {:induction false} FirstMatchSpec(rules: seq<Rule>, name: string)
    ensures FirstMatch(rules, name).Some? ==> FirstRuleAt(rules, name, FirstMatch(rules, name).value)
    ensures FirstMatch(rules, name).None? ==> forall j :: 0 <= j < |rules| ==> !Matches(rules[j], name)
  {
    if |rules| > 0 && !Matches(rules[0], name) {
      FirstMatchSpec(rules[1..], name);
      var r := FirstMatch(rules, name);
      if r.Some? {
        forall m | 0 <= m < r.value ensures !Matches(rules[m], name) {
          if m > 0 {
            assert rules[m] == rules[1..][m - 1];
          }
        }
      } else {
        forall j | 0 <= j < |rules| ensures !Matches(rules[j], name) {
          if j > 0 {
            assert rules[j] == rules[1..][j - 1];
          }
        }
      }
    }
  }

  /** The category of one item: kept when it has one, else the first matching rule's, else "其他". */
  function Categorize(x: Item, rules: seq<Rule>): Item
  {
    if x.category.Some? && x.category.value != "" then x
    else match FirstMatch(rules, NameOf(x))
      case None => x.(category := Some(Other))
      case Some(j) => x.(category := Some(rules[j].category))
  }

  /**
   * An item that has a category keeps it; otherwise it gets the category
   * of the first rule with a keyword in its name, or "其他" when no rule
   * has one. Nothing but the category changes.
   */
  lemma CategorizeSpec(x: Item, rules: seq<Rule>)
    ensures Categorize(x, rules).(category := x.category) == x
    ensures x.category.Some? && x.category.value != "" ==> Categorize(x, rules) == x
    ensures !(x.category.Some? && x.category.value != "") ==>
      && ((forall j :: 0 <= j < |rules| ==> !Matches(rules[j], NameOf(x))) ==> Categorize(x, rules).category == Some(Other))
      && (forall j: nat :: FirstRuleAt(rules, NameOf(x), j) ==> Categorize(x, rules).category == Some(rules[j].category))
  {
    FirstMatchSpec(rules, NameOf(x));
    var f := FirstMatch(rules, NameOf(x));
    forall j: nat | FirstRuleAt(rules, NameOf(x), j) ensures f == Some(j) {
    }
  }

  /** The rule loop of one item: the category of the first rule with a keyword in the name. */
  method MatchRule(rules: seq<Rule>, name: string) returns (c: Option<string>)
    ensures c == match FirstMatch(rules, name)
      case None => None
      case Some(j) => Some(rules[j].category)
  {
    for r := 0 to |rules|
      invariant forall m :: 0 <= m < r ==> !Matches(rules[m], name)
    {
      var kws := rules[r].keywords;
      for k := 0 to |kws|
        invariant forall m :: 0 <= m < k ==> !Contains(name, kws[m])
      {
        if Contains(name, kws[k]) {
          FirstMatchAt(rules, name, r);
          return Some(rules[r].category);
        }
      }
    }
    FirstMatchNone(rules, name);
    return None;
  }

  lemma {:induction false} FirstMatchAt(rules: seq<Rule>, name: string, j: nat)
    requires FirstRuleAt(rules, name, j)
    ensures FirstMatch(rules, name) == Some(j)
  {
    if j > 0 {
      assert !Matches(rules[0], name);
      forall m | 0 <= m < j - 1 ensures !Matches(rules[1..][m], name) {
        assert rules[1..][m] == rules[m + 1];
      }
      FirstMatchAt(rules[1..], name, j - 1);
    }
  }

  lemma {:induction false} FirstMatchNone(rules: seq<Rule>, name: string)
    requires forall m :: 0 <= m < |rules| ==> !Matches(rules[m], name)
    ensures FirstMatch(rules, name) == None
  {
    if |rules| > 0 {
      assert forall m :: 0 <= m < |rules| - 1 ==> rules[1..][m] == rules[m + 1];
      FirstMatchNone(rules[1..], name);
    }
  }

  /** `auto_categorize(items, custom)`: every item of the list is classified in place. */
  method AutoCategorize(items: array<Item>, custom: seq<Rule>)
    modifies items
    ensures forall i :: 0 <= i < items.Length ==> items[i] == Categorize(old(items[i]), RulesWith(custom))
  {
    var rules := RulesWith(custom);
    for i := 0 to items.Length
      invariant forall j :: 0 <= j < i ==> items[j] == Categorize(old(items[j]), rules)
      invariant forall j :: i <= j < items.Length ==> items[j] == old(items[j])
    {
      var x := items[i];
      if !(x.category.Some? && x.category.value != "") {
        var c := MatchRule(rules, NameOf(x));
        items[i] := x.(category := Some(c.GetOr(Other)));
      }
    }
  }

  // ---- validate_items ----

  datatype Problem = NoName | NegativeUsers | NegativeCount | NoPrice | NoLimit

  datatype Issue = EmptyList | Invalid(index: nat, problem: Problem) | HighSaturation(at: nat, rate: real)

  datatype Validation = Validation(valid: bool, errors: seq<Issue>, warnings: seq<Issue>)

  /** The item fails check p (a missing number counts as 0). */
  predicate Fails(x: Item, p: Problem)
  {
    match p
    case NoName => !HasName(x)
    case NegativeUsers => x.users.GetOr(0) < 0
    case NegativeCount => x.count.GetOr(0) < 0
    case NoPrice => x.price.GetOr(0) <= 0
    case NoLimit => x.limit.GetOr(0) <= 0
  }

  /** The position of each check in `validate_items`. */
  function Rank(p: Problem): nat
  {
    match p
    case NoName => 0
    case NegativeUsers => 1
    case NegativeCount => 2
    case NoPrice => 3
    case NoLimit => 4
  }

  /** Error e is reported before error f: an earlier item, or the same item and an earlier check. */
  predicate Before(e: Issue, f: Issue)
    requires e.Invalid? && f.Invalid?
  {
    e.index < f.index || (e.index == f.index && Rank(e.problem) < Rank(f.problem))
  }

  /** Errors listed in reporting order. */
  predicate InOrder(r: seq<Issue>)
  {
    forall a, b :: 0 <= a < b < |r| ==> r[a].Invalid? && r[b].Invalid? && Before(r[a], r[b])
  }

  /** The check that runs in position j. */
  function CheckAt(j: nat): (p: Problem)
    requires j < 5
    ensures Rank(p) == j
  {
    if j == 0 then NoName else if j == 1 then NegativeUsers else if j == 2 then NegativeCount
    else if j == 3 then NoPrice else NoLimit
  }

  /** The errors the first k checks of item i report, in the order they run. */
  function FailedUpTo(x: Item, i: nat, k: nat): (r: seq<Issue>)
    requires k <= 5
    ensures forall e :: e in r <==> e.Invalid? && e.index == i && Rank(e.problem) < k && Fails(x, e.problem)
  {
    if k == 0 then []
    else FailedUpTo(x, i, k - 1) + (if Fails(x, CheckAt(k - 1)) then [Invalid(i, CheckAt(k - 1))] else [])
  }

  /** Running check k - 1 on top of the errors of the checks before it. */
  lemma FailedStep(x: Item, i: nat, k: nat, errors: seq<Issue>, e: seq<Issue>)
    requires 0 < k <= 5 && e == errors + FailedUpTo(x, i, k - 1)
    ensures (if Fails(x, CheckAt(k - 1)) then e + [Invalid(i, CheckAt(k - 1))] else e) == errors + FailedUpTo(x, i, k)
  {
    var c: seq<Issue> := if Fails(x, CheckAt(k - 1)) then [Invalid(i, CheckAt(k - 1))] else [];
    assert FailedUpTo(x, i, k) == FailedUpTo(x, i, k - 1) + c;
    assert errors + FailedUpTo(x, i, k - 1) + c == errors + (FailedUpTo(x, i, k - 1) + c);
  }

  /** The errors of item i: one per failed check, in the order the checks run. */
  function ItemErrors(x: Item, i: nat): (r: seq<Issue>)
    ensures forall e :: e in r <==> e.Invalid? && e.index == i && Fails(x, e.problem)
  {
    FailedUpTo(x, i, 5)
  }

  /** Within one item, the errors follow the order of the checks. */
  lemma {:induction false} FailedOrdered(x: Item, i: nat, k: nat)
    requires k <= 5
    ensures InOrder(FailedUpTo(x, i, k))
  {
    if k > 0 {
      FailedOrdered(x, i, k - 1);
      var p: seq<Issue> := FailedUpTo(x, i, k - 1);
      var q: seq<Issue> := if Fails(x, CheckAt(k - 1)) then [Invalid(i, CheckAt(k - 1))] else [];
      assert FailedUpTo(x, i, k) == p + q;
      forall a, b | 0 <= a < b < |p + q|
        ensures (p + q)[a].Invalid? && (p + q)[b].Invalid? && Before((p + q)[a], (p + q)[b])
      {
        if b < |p| {
          assert (p + q)[a] == p[a] && (p + q)[b] == p[b];
        } else {
          assert |q| == 1 && b == |p| && q[0] == Invalid(i, CheckAt(k - 1));
          assert (p + q)[a] == p[a] && p[a] in p;
          assert (p + q)[b] == q[0];
        }
      }
    }
  }

  /** The warning of item i: one when its saturation exceeds 200%. */
  function ItemWarnings(x: Item, i: nat): (r: seq<Issue>)
    ensures forall w :: w in r <==> w == HighSaturation(i, x.saturation.GetOr(0.0)) && x.saturation.GetOr(0.0) > 200.0
  {
    if x.saturation.GetOr(0.0) > 200.0 then [HighSaturation(i, x.saturation.GetOr(0.0))] else []
  }

  /** The errors of the first n items, item by item. */
  function AllErrors(items: seq<Item>, n: nat): (r: seq<Issue>)
    requires n <= |items|
    ensures forall e :: e in r <==> e.Invalid? && e.index < n && Fails(items[e.index], e.problem)
  {
    if n == 0 then [] else AllErrors(items, n - 1) + ItemErrors(items[n - 1], n - 1)
  }

  /** The warnings of the first n items, item by item. */
  function AllWarnings(items: seq<Item>, n: nat): (r: seq<Issue>)
    requires n <= |items|
    ensures forall w :: w in r <==>
      w.HighSaturation? && w.at < n && w.rate == items[w.at].saturation.GetOr(0.0) && w.rate > 200.0
  {
    if n == 0 then [] else AllWarnings(items, n - 1) + ItemWarnings(items[n - 1], n - 1)
  }

  /** The errors come in item order, and within an item in check order; so no error repeats. */
  lemma {:induction false} AllErrorsOrdered(items: seq<Item>, n: nat)
    requires n <= |items|
    ensures InOrder(AllErrors(items, n))
  {
    if n > 0 {
      AllErrorsOrdered(items, n - 1);
      FailedOrdered(items[n - 1], n - 1, 5);
      var p: seq<Issue>, q: seq<Issue> := AllErrors(items, n - 1), ItemErrors(items[n - 1], n - 1);
      assert AllErrors(items, n) == p + q;
      forall a, b | 0 <= a < b < |p + q|
        ensures (p + q)[a].Invalid? && (p + q)[b].Invalid? && Before((p + q)[a], (p + q)[b])
      {
        if b < |p| {
          assert (p + q)[a] == p[a] && (p + q)[b] == p[b];
        } else if a < |p| {
          assert (p + q)[a] == p[a] && p[a] in p;
          assert (p + q)[b] == q[b - |p|] && q[b - |p|] in q;
        } else {
          assert (p + q)[a] == q[a - |p|] && (p + q)[b] == q[b - |p|];
        }
      }
    }
  }

  /** The checks of one item, in `validate_items`' order. */
  method CheckItem(x: Item, i: nat, errors: seq<Issue>, warnings: seq<Issue>) returns (errors': seq<Issue>, warnings': seq<Issue>)
    ensures errors' == errors + ItemErrors(x, i)
    ensures warnings' == warnings + ItemWarnings(x, i)
  {
    errors', warnings' := errors, warnings;
    FailedStep(x, i, 1, errors, errors');
    if !HasName(x) {
      errors' := errors' + [Invalid(i, NoName)];
    }
    FailedStep(x, i, 2, errors, errors');
    if x.users.GetOr(0) < 0 {
      errors' := errors' + [Invalid(i, NegativeUsers)];
    }
    FailedStep(x, i, 3, errors, errors');
    if x.count.GetOr(0) < 0 {
      errors' := errors' + [Invalid(i, NegativeCount)];
    }
    FailedStep(x, i, 4, errors, errors');
    if x.price.GetOr(0) <= 0 {
      errors' := errors' + [Invalid(i, NoPrice)];
    }
    FailedStep(x, i, 5, errors, errors');
    if x.limit.GetOr(0) <= 0 {
      errors' := errors' + [Invalid(i, NoLimit)];
    }
    if x.saturation.GetOr(0.0) > 200.0 {
      warnings' := warnings' + [HighSaturation(i, x.saturation.GetOr(0.0))];
    }
  }

  /**
   * `validate_items(items)`: an empty list is one error; otherwise each
   * failed check of each item is an error and an excessive saturation only
   * a warning. The list is valid exactly when there is no error.
   */
  method ValidateItems(items: seq<Item>) returns (v: Validation)
    ensures v.valid <==> v.errors == []
    ensures items == [] ==> v == Validation(false, [EmptyList], [])
    ensures items != [] ==> forall e: Issue :: e in v.errors <==> e.Invalid? && e.index < |items| && Fails(items[e.index], e.problem)
    ensures items != [] ==> forall w: Issue :: w in v.warnings <==>
      w.HighSaturation? && w.at < |items| && w.rate == items[w.at].saturation.GetOr(0.0) && w.rate > 200.0
    ensures v.valid <==> items != [] && forall i, p :: 0 <= i < |items| ==> !Fails(items[i], p)
    ensures items != [] ==> v.errors == AllErrors(items, |items|) && v.warnings == AllWarnings(items, |items|)
  {
    if |items| == 0 {
      return Validation(false, [EmptyList], []);
    }
    var errors, warnings := [], [];
    for i := 0 to |items|
      invariant errors == AllErrors(items, i) && warnings == AllWarnings(items, i)
    {
      errors, warnings := CheckItem(items[i], i, errors, warnings);
    }
    v := Validation(|errors| == 0, errors, warnings);
    if |errors| > 0 {
      assert errors[0] in errors;
    } else {
      forall i, p | 0 <= i < |items| ensures !Fails(items[i], p) {
        assert Invalid(i, p) !in errors;
      }
    }
  }
}

=== FILE: sorting.dfy ===
/**
 * Python's stable `sorted(xs, key=...)` as an insertion sort under a total
 * preorder `le`: the result is ordered, is a permutation of the input, and
 * keeps equal elements in their input order.
 */
module Sorting {

  ghost predicate TotalPreorder<T(!new)>(le: (T, T) -> bool)
  {
    (forall a, b :: le(a, b) || le(b, a))
    && (forall a, b, c :: le(a, b) && le(b, c) ==> le(a, c))
  }

  predicate Sorted<T>(s: seq<T>, le: (T, T) -> bool)
  {
    forall i, j :: 0 <= i < j < |s| ==> le(s[i], s[j])
  }

  /** An element ordered before every element of a sorted list can go in front of it. */
  lemma SortedCons<T>(x: T, rest: seq<T>, le: (T, T) -> bool)
    requires Sorted(rest, le)
    requires forall k :: 0 <= k < |rest| ==> le(x, rest[k])
    ensures Sorted([x] + rest, le)
  {
    var r := [x] + rest;
    forall i, j | 0 <= i < j < |r| ensures le(r[i], r[j]) {
      assert r[j] == rest[j - 1];
      if i > 0 {
        assert r[i] == rest[i - 1];
      }
    }
  }

  /** Insert x after every element that is not above it. */
  function Insert<T>(x: T, r: seq<T>, le: (T, T) -> bool): (out: seq<T>)
    ensures |out| == |r| + 1
    ensures multiset(out) == multiset(r) + multiset{x}
  {
    if |r| == 0 then [x]
    else if le(r[0], x) then
      assert r == [r[0]] + r[1..];
      [r[0]] + Insert(x, r[1..], le)
    else [x] + r
  }

  function Sort<T>(s: seq<T>, le: (T, T) -> bool): (r: seq<T>)
    ensures |r| == |s|
    ensures multiset(r) == multiset(s)
  {
    if |s| == 0 then []
    else
      assert s == s[..|s| - 1] + [s[|s| - 1]];
      Insert(s[|s| - 1], Sort(s[..|s| - 1], le), le)
  }

  lemma {:induction false} InsertSorted<T(!new)>(x: T, r: seq<T>, le: (T, T) -> bool)
    requires TotalPreorder(le) && Sorted(r, le)
    ensures Sorted(Insert(x, r, le), le)
  {
    if |r| > 0 && le(r[0], x) {
      InsertSorted(x, r[1..], le);
      var tail := Insert(x, r[1..], le);
      assert forall k :: 0 <= k < |tail| ==> tail[k] in multiset(r[1..]) + multiset{x};
      forall k | 0 <= k < |tail| ensures le(r[0], tail[k]) {
        assert tail[k] in multiset(tail);
        if tail[k] != x {
          assert tail[k] in multiset(r[1..]);
          assert tail[k] in r[1..];
        }
      }
    }
  }

  lemma {:induction false} SortSorted<T(!new)>(s: seq<T>, le: (T, T) -> bool)
    requires TotalPreorder(le)
    ensures Sorted(Sort(s, le), le)
  {
    if |s| > 0 {
      SortSorted(s[..|s| - 1], le);
      InsertSorted(s[|s| - 1], Sort(s[..|s| - 1], le), le);
    }
  }

  /** Elements of s whose key is k, in their order in s. */
  function Level<T>(s: seq<T>, key: T -> real, k: real): (r: seq<T>)
    ensures |r| <= |s|
  {
    if |s| == 0 then []
    else (if key(s[0]) == k then [s[0]] else []) + Level(s[1..], key, k)
  }

  lemma {:induction false} LevelAppend<T>(a: seq<T>, b: seq<T>, key: T -> real, k: real)
    ensures Level(a + b, key, k) == Level(a, key, k) + Level(b, key, k)
  {
    if |a| == 0 {
      assert a + b == b;
    } else {
      var h := if key(a[0]) == k then [a[0]] else [];
      assert a + b == [a[0]] + (a[1..] + b);
      assert a == [a[0]] + a[1..];
      LevelCons(a[0], a[1..] + b, key, k);
      LevelCons(a[0], a[1..], key, k);
      LevelAppend(a[1..], b, key, k);
      ConcatAssoc(h, Level(a[1..], key, k), Level(b, key, k));
    }
  }

  /** A sorted sequence starting above k holds nothing with key k. */
  lemma {:induction false} NoneAtKey<T>(r: seq<T>, key: T -> real, k: real)
    requires Sorted(r, Asc(key)) && |r| > 0 && key(r[0]) > k
    ensures Level(r, key, k) == []
  {
    if |r| > 1 {
      assert key(r[0]) <= key(r[1]);
      NoneAtKey(r[1..], key, k);
    }
  }

  lemma InsertAfterHead<T>(x: T, r: seq<T>, le: (T, T) -> bool)
    requires |r| > 0 && le(r[0], x)
    ensures Insert(x, r, le) == [r[0]] + Insert(x, r[1..], le)
  {
  }

  lemma ConcatAssoc<T>(a: seq<T>, b: seq<T>, c: seq<T>)
    ensures a + (b + c) == (a + b) + c
  {
  }

  lemma LevelCons<T>(y: T, t: seq<T>, key: T -> real, k: real)
    ensures Level([y] + t, key, k) == (if key(y) == k then [y] else []) + Level(t, key, k)
  {
    assert ([y] + t)[1..] == t;
  }

  /** Inserting behind the head keeps the head's level entry in front. */
  lemma InsertBehind<T>(x: T, r: seq<T>, key: T -> real, k: real)
    requires |r| > 0 && key(r[0]) <= key(x)
    requires Level(Insert(x, r[1..], Asc(key)), key, k)
             == Level(r[1..], key, k) + (if key(x) == k then [x] else [])
    ensures Level(Insert(x, r, Asc(key)), key, k)
            == Level(r, key, k) + (if key(x) == k then [x] else [])
  {
    var h := if key(x) == k then [x] else [];
    var tail := Insert(x, r[1..], Asc(key));
    var h0 := if key(r[0]) == k then [r[0]] else [];
    assert Asc(key)(r[0], x);
    InsertAfterHead(x, r, Asc(key));
    LevelCons(r[0], tail, key, k);
    assert r == [r[0]] + r[1..];
    LevelCons(r[0], r[1..], key, k);
    calc {
      Level(Insert(x, r, Asc(key)), key, k);
      h0 + Level(tail, key, k);
      h0 + (Level(r[1..], key, k) + h);
      { ConcatAssoc(h0, Level(r[1..], key, k), h); }
      (h0 + Level(r[1..], key, k)) + h;
      Level(r, key, k) + h;
    }
  }

  lemma {:induction false} InsertStable<T>(x: T, r: seq<T>, key: T -> real, k: real)
    requires Sorted(r, Asc(key))
    ensures Level(Insert(x, r, Asc(key)), key, k)
            == Level(r, key, k) + (if key(x) == k then [x] else [])
  {
    var h := if key(x) == k then [x] else [];
    if |r| == 0 {
      assert Insert(x, r, Asc(key)) == [x] + r;
      LevelCons(x, r, key, k);
    } else if key(r[0]) <= key(x) {
      assert Sorted(r[1..], Asc(key));
      InsertStable(x, r[1..], key, k);
      InsertBehind(x, r, key, k);
    } else {
      assert Insert(x, r, Asc(key)) == [x] + r;
      LevelCons(x, r, key, k);
      if key(x) == k {
        NoneAtKey(r, key, k);
      }
    }
  }

  lemma SortAscSorted<T(!new)>(s: seq<T>, key: T -> real)
    ensures Sorted(Sort(s, Asc(key)), Asc(key))
  {
    AscPreorder(key);
    SortSorted(s, Asc(key));
  }

  lemma SortDescSorted<T(!new)>(s: seq<T>, key: T -> real)
    ensures Sorted(Sort(s, Desc(key)), Desc(key))
  {
    DescPreorder(key);
    SortSorted(s, Desc(key));
  }

  /** Sorting only reorders: every element of the output is one of the input's. */
  /** Where an element of the input went. */
  lemma SortHas<T>(s: seq<T>, le: (T, T) -> bool, x: T) returns (i: nat)
    requires x in s
    ensures i < |Sort(s, le)| && Sort(s, le)[i] == x
  {
    assert x in multiset(Sort(s, le));
    i :| 0 <= i < |Sort(s, le)| && Sort(s, le)[i] == x;
  }

  lemma SortMembers<T>(s: seq<T>, le: (T, T) -> bool)
    ensures forall x :: x in Sort(s, le) ==> x in s
  {
    forall x | x in Sort(s, le) ensures x in s {
      assert x in multiset(Sort(s, le));
    }
  }

  /**
   * Stability: elements with equal keys keep their input order, so the
   * sorted output lists each key's elements exactly as the input does.
   */
  lemma {:induction false} SortStable<T(!new)>(s: seq<T>, key: T -> real, k: real)
    ensures Level(Sort(s, Asc(key)), key, k) == Level(s, key, k)
  {
    if |s| > 0 {
      var init, last := s[..|s| - 1], s[|s| - 1];
      assert s == init + [last];
      SortStable(init, key, k);
      SortAscSorted(init, key);
      InsertStable(last, Sort(init, Asc(key)), key, k);
      LevelAppend(init, [last], key, k);
    }
  }

  /** In a sequence sorted by a key that is never below k, the elements with key k come first. */
  lemma {:induction false} LowestFirst<T>(s: seq<T>, key: T -> real, k: real)
    requires Sorted(s, Asc(key)) && forall i :: 0 <= i < |s| ==> key(s[i]) >= k
    ensures |Level(s, key, k)| <= |s| && s[..|Level(s, key, k)|] == Level(s, key, k)
  {
    if |s| > 0 {
      if key(s[0]) == k {
        assert Sorted(s[1..], Asc(key));
        LowestFirst(s[1..], key, k);
        assert s == [s[0]] + s[1..];
      } else {
        NoneAtKey(s, key, k);
      }
    }
  }

  /** Sorting by a key never below k puts the elements with key k first, in input order. */
  lemma SortLowestFirst<T(!new)>(s: seq<T>, key: T -> real, k: real)
    requires forall x :: key(x) >= k
    ensures |Level(s, key, k)| <= |s|
    ensures Sort(s, Asc(key))[..|Level(s, key, k)|] == Level(s, key, k)
  {
    SortStable(s, key, k);
    SortAscSorted(s, key);
    LowestFirst(Sort(s, Asc(key)), key, k);
  }

  /** Sorting by a real key, largest first (`reverse=True`). */
  function Desc<T>(key: T -> real): (T, T) -> bool
  {
    (a: T, b: T) => key(a) >= key(b)
  }

  /** Sorting by a real key, smallest first. */
  function Asc<T>(key: T -> real): (T, T) -> bool
  {
    (a: T, b: T) => key(a) <= key(b)
  }

  lemma DescPreorder<T(!new)>(key: T -> real)
    ensures TotalPreorder(Desc(key))
  {
  }

  lemma AscPreorder<T(!new)>(key: T -> real)
    ensures TotalPreorder(Asc(key))
  {
  }

  /** Strings in Python's order: code point by code point, a prefix first. */
  predicate StrLe(a: string, b: string)
  {
    if |a| == 0 then true
    else if |b| == 0 then false
    else if a[0] != b[0] then a[0] < b[0]
    else StrLe(a[1..], b[1..])
  }

  lemma {:induction false} StrLeTotal(a: string, b: string)
    ensures StrLe(a, b) || StrLe(b, a)
  {
    if |a| > 0 && |b| > 0 && a[0] == b[0] {
      StrLeTotal(a[1..], b[1..]);
    }
  }

  lemma {:induction false} StrLeTrans(a: string, b: string, c: string)
    requires StrLe(a, b) && StrLe(b, c)
    ensures StrLe(a, c)
  {
    if |a| > 0 && |b| > 0 && |c| > 0 && a[0] == b[0] && b[0] == c[0] {
      StrLeTrans(a[1..], b[1..], c[1..]);
    }
  }

  lemma {:induction false} StrLeAntisym(a: string, b: string)
    requires StrLe(a, b) && StrLe(b, a)
    ensures a == b
  {
    if |a| > 0 && |b| > 0 {
      StrLeAntisym(a[1..], b[1..]);
      assert a == [a[0]] + a[1..] && b == [b[0]] + b[1..];
    }
  }

  /** Sorting by a string key, smallest first. */
  function ByString<T>(key: T -> string): (T, T) -> bool
  {
    (a: T, b: T) => StrLe(key(a), key(b))
  }

  lemma ByStringPreorder<T(!new)>(key: T -> string)
    ensures TotalPreorder(ByString(key))
  {
    forall a: T, b: T ensures ByString(key)(a, b) || ByString(key)(b, a) {
      StrLeTotal(key(a), key(b));
    }
    forall a: T, b: T, c: T | ByString(key)(a, b) && ByString(key)(b, c) ensures ByString(key)(a, c) {
      StrLeTrans(key(a), key(b), key(c));
    }
  }

  function Id(x: string): string
  {
    x
  }

  /** Adjacent repeats dropped. */
  function Dedup(s: seq<string>): (r: seq<string>)
    ensures forall x :: x in r <==> x in s
  {
    if |s| <= 1 then s
    else if s[0] == s[1] then Dedup(s[1..])
    else [s[0]] + Dedup(s[1..])
  }

  /** On a sorted sequence, dropping adjacent repeats leaves every string once, in order. */
  lemma {:induction false} DedupSorted(s: seq<string>)
    requires forall i, j :: 0 <= i < j < |s| ==> StrLe(s[i], s[j])
    ensures forall i, j :: 0 <= i < j < |Dedup(s)| ==> StrLe(Dedup(s)[i], Dedup(s)[j]) && Dedup(s)[i] != Dedup(s)[j]
  {
    if |s| > 1 {
      DedupSorted(s[1..]);
      if s[0] == s[1] {
        assert Dedup(s) == Dedup(s[1..]);
      } else {
        var t := Dedup(s[1..]);
        var r := [s[0]] + t;
        assert Dedup(s) == r;
        forall i, j | 0 <= i < j < |r| ensures StrLe(r[i], r[j]) && r[i] != r[j] {
          assert r[j] == t[j - 1] && r[j] in s[1..];
          if i == 0 {
            var k :| 1 <= k < |s| && s[k] == r[j];
            assert StrLe(s[0], s[k]);
            if s[0] == r[j] {
              assert StrLe(s[1], s[k]);
              StrLeAntisym(s[0], s[1]);
            }
          } else {
            assert r[i] == t[i - 1];
            assert StrLe(t[i - 1], t[j - 1]) && t[i - 1] != t[j - 1];
          }
        }
      }
    }
  }

  /** `sorted(set(names))`: every name once, in code-point order. */
  function SortedSet(names: seq<string>): (r: seq<string>)
    ensures forall x :: x in r <==> x in names
    ensures forall i, j :: 0 <= i < j < |r| ==> StrLe(r[i], r[j]) && r[i] != r[j]
  {
    var s := Sort(names, ByString(Id));
    SortStrings(names);
    DedupSorted(s);
    Dedup(s)
  }

  lemma SortStrings(names: seq<string>)
    ensures forall i, j :: 0 <= i < j < |Sort(names, ByString(Id))|
              ==> StrLe(Sort(names, ByString(Id))[i], Sort(names, ByString(Id))[j])
    ensures forall x :: x in Sort(names, ByString(Id)) <==> x in names
  {
    var s := Sort(names, ByString(Id));
    StringsSorted(names);
    forall i, j | 0 <= i < j < |s| ensures StrLe(s[i], s[j]) {
      assert ByString(Id)(s[i], s[j]);
      assert Id(s[i]) == s[i] && Id(s[j]) == s[j];
    }
    assert forall x :: x in s <==> x in multiset(s);
  }

  lemma StringsSorted(names: seq<string>)
    ensures Sorted(Sort(names, ByString(Id)), ByString(Id))
  {
    ByStringPreorder(Id);
    SortSorted(names, ByString(Id));
  }
}

=== FILE: strings.dfy ===
/**
 * The few Python string operations the analysis scripts rely on, over `seq<char>`:
 * `startswith`, `in`, `find`, `split` on one character (with and without a
 * split limit), `strip`/`lstrip` with a character class, ASCII `lower`, and
 * slicing that tolerates an out-of-range end.
 */
module Strings {
  import opened Wrappers

  predicate StartsWith(s: string, prefix: string)
  {
    |prefix| <= |s| && s[..|prefix|] == prefix
  }

  /** sub occurs in s starting at position i. */
  predicate OccursAt(s: string, sub: string, i: nat)
  {
    i + |sub| <= |s| && s[i..i + |sub|] == sub
  }

  /** Python's `sub in s`. */
  predicate Contains(s: string, sub: string)
  {
    exists i: nat :: i <= |s| && OccursAt(s, sub, i)
  }

  lemma ContainsSelf(s: string)
    ensures Contains(s, s) && Contains(s, "")
  {
    assert OccursAt(s, s, 0);
    assert OccursAt(s, "", 0);
  }

  /** Python's `s.find(sub)`: the first position of sub, if any. */
  function Find(s: string, sub: string): (r: Option<nat>)
    ensures r.Some? ==> OccursAt(s, sub, r.value)
    ensures r.Some? ==> forall j: nat :: j < r.value ==> !OccursAt(s, sub, j)
    ensures r.None? <==> !Contains(s, sub)
  {
    FindFrom(s, sub, 0)
  }

  function FindFrom(s: string, sub: string, from: nat): (r: Option<nat>)
    requires forall j: nat :: j < from ==> !OccursAt(s, sub, j)
    ensures r.Some? ==> from <= r.value && OccursAt(s, sub, r.value)
    ensures r.Some? ==> forall j: nat :: j < r.value ==> !OccursAt(s, sub, j)
    ensures r.None? <==> !Contains(s, sub)
    decreases |s| - from
  {
    if from + |sub| > |s| then None
    else if s[from..from + |sub|] == sub then assert OccursAt(s, sub, from); Some(from)
    else FindFrom(s, sub, from + 1)
  }

  /** First index of c in s. */
  function FindChar(s: string, c: char): (r: Option<nat>)
    ensures r.Some? ==> r.value < |s| && s[r.value] == c && c !in s[..r.value]
    ensures r.None? ==> c !in s
  {
    if |s| == 0 then None
    else if s[0] == c then Some(0)
    else match FindChar(s[1..], c)
      case None => None
      case Some(i) => assert s[..i + 1] == [s[0]] + s[1..][..i]; Some(i + 1)
  }

  /** Python's `s.split(c)` for a one-character separator. */
  function Split(s: string, c: char): (r: seq<string>)
    ensures |r| >= 1
    decreases |s|
  {
    match FindChar(s, c)
    case None => [s]
    case Some(i) => [s[..i]] + Split(s[i + 1..], c)
  }

  /** The inverse of Split: Python's `c.join(parts)`. */
  function Join(parts: seq<string>, c: char): string
  {
    if |parts| == 0 then "" else if |parts| == 1 then parts[0] else parts[0] + [c] + Join(parts[1..], c)
  }

  lemma JoinCons(a: string, rest: seq<string>, c: char)
    requires |rest| >= 1
    ensures Join([a] + rest, c) == a + [c] + Join(rest, c)
  {
    assert ([a] + rest)[1..] == rest;
  }

  lemma {:induction false} SplitJoin(s: string, c: char)
    ensures Join(Split(s, c), c) == s
    ensures forall k :: 0 <= k < |Split(s, c)| ==> c !in Split(s, c)[k]
    decreases |s|
  {
    match FindChar(s, c)
    case None =>
    case Some(i) =>
      var rest := Split(s[i + 1..], c);
      SplitJoin(s[i + 1..], c);
      assert Split(s, c) == [s[..i]] + rest;
      JoinCons(s[..i], rest, c);
      assert s == s[..i] + [c] + s[i + 1..];
  }

  /** Python's `s.split(c, n)`: at most n splits, the rest stays whole. */
  function SplitN(s: string, c: char, n: nat): (r: seq<string>)
    ensures 1 <= |r| <= n + 1
    decreases n
  {
    if n == 0 then [s]
    else match FindChar(s, c)
      case None => [s]
      case Some(i) => [s[..i]] + SplitN(s[i + 1..], c, n - 1)
  }

  lemma {:induction false} SplitNJoin(s: string, c: char, n: nat)
    ensures Join(SplitN(s, c, n), c) == s
    decreases n
  {
    if n > 0 && FindChar(s, c).Some? {
      var i := FindChar(s, c).value;
      SplitNJoin(s[i + 1..], c, n - 1);
      JoinPieces(s, c, i, SplitN(s[i + 1..], c, n - 1));
    }
  }

  lemma JoinPieces(s: string, c: char, i: nat, rest: seq<string>)
    requires i < |s| && s[i] == c && |rest| >= 1 && Join(rest, c) == s[i + 1..]
    ensures Join([s[..i]] + rest, c) == s
  {
    JoinCons(s[..i], rest, c);
    assert s == s[..i] + [c] + s[i + 1..];
  }

  /** Every piece but the last is free of the separator, and so is the last
      when fewer than n splits were made. */
  lemma {:induction false} SplitNPieces(s: string, c: char, n: nat)
    ensures forall k :: 0 <= k < |SplitN(s, c, n)| - 1 ==> c !in SplitN(s, c, n)[k]
    ensures |SplitN(s, c, n)| <= n ==> c !in SplitN(s, c, n)[|SplitN(s, c, n)| - 1]
    decreases n
  {
    if n > 0 {
      match FindChar(s, c)
      case None =>
      case Some(i) =>
        var rest := SplitN(s[i + 1..], c, n - 1);
        SplitNPieces(s[i + 1..], c, n - 1);
        assert SplitN(s, c, n) == [s[..i]] + rest;
    }
  }

  /** FindChar finds the first c. */
  lemma FindCharFirst(s: string, c: char, i: nat)
    requires i < |s| && s[i] == c && c !in s[..i]
    ensures FindChar(s, c) == Some(i)
  {
    var j := FindChar(s, c).value;
    assert s[..j + 1][j] == c && s[..i + 1][i] == c;
  }

  /** Dropping a prefix of the first part of a three-part concatenation. */
  lemma DropFirst<T>(a: seq<T>, b: seq<T>, c: seq<T>, k: nat)
    requires k <= |a|
    ensures (a + b + c)[k..] == a[k..] + b + c
  {
  }

  /** The first c in a + [c] + b is the one after a. */
  lemma FindCharAfter(a: string, c: char, b: string)
    requires c !in a
    ensures FindChar(a + [c] + b, c) == Some(|a|)
  {
    var s := a + [c] + b;
    assert s[|a|] == c && s[..|a|] == a;
  }

  /** A split limit leaves a piece without the separator whole. */
  lemma SplitNWhole(s: string, c: char, n: nat)
    requires c !in s
    ensures SplitN(s, c, n) == [s]
  {
  }

  /** Splitting after a piece without the separator takes that piece off first. */
  lemma SplitNCons(a: string, c: char, b: string, n: nat)
    requires c !in a
    ensures SplitN(a + [c] + b, c, n + 1) == [a] + SplitN(b, c, n)
  {
    var s := a + [c] + b;
    FindCharAfter(a, c, b);
    assert s[..|a|] == a && s[|a| + 1..] == b;
  }

  /** Split undoes Join when no piece holds the separator. */
  lemma {:induction false} SplitOfJoin(parts: seq<string>, c: char)
    requires |parts| >= 1
    requires forall k :: 0 <= k < |parts| ==> c !in parts[k]
    ensures Split(Join(parts, c), c) == parts
    decreases |parts|
  {
    if |parts| > 1 {
      var a, rest := parts[0], Join(parts[1..], c);
      var s := a + [c] + rest;
      assert Join(parts, c) == s;
      FindCharAfter(a, c, rest);
      assert s[..|a|] == a && s[|a| + 1..] == rest;
      SplitOfJoin(parts[1..], c);
      assert parts == [a] + parts[1..];
    }
  }

  /** The characters Python's `str.isspace` accepts. */
  predicate IsSpace(ch: char)
  {
    ch == ' ' || ('\t' <= ch <= '\r') || ('\U{1C}' <= ch <= '\U{1F}') || ch == '\U{85}' || ch == '\U{A0}'
    || ch == '\U{1680}' || ('\U{2000}' <= ch <= '\U{200A}') || ch == '\U{2028}' || ch == '\U{2029}'
    || ch == '\U{202F}' || ch == '\U{205F}' || ch == '\U{3000}'
  }

  /** Number of leading characters that drop accepts. */
  function Leading(s: string, drop: char -> bool): (k: nat)
    ensures k <= |s| && (k < |s| ==> !drop(s[k]))
    ensures forall i :: 0 <= i < k ==> drop(s[i])
  {
    if |s| > 0 && drop(s[0]) then 1 + Leading(s[1..], drop) else 0
  }

  /** Number of trailing characters that drop accepts. */
  function Trailing(s: string, drop: char -> bool): (k: nat)
    ensures k <= |s| && (k < |s| ==> !drop(s[|s| - k - 1]))
    ensures forall i :: |s| - k <= i < |s| ==> drop(s[i])
  {
    if |s| > 0 && drop(s[|s| - 1]) then 1 + Trailing(s[..|s| - 1], drop) else 0
  }

  /** Python's `s.lstrip(chars)`, with chars given as a test. */
  function TrimLeft(s: string, drop: char -> bool): (r: string)
    ensures |r| > 0 ==> !drop(r[0])
    ensures |r| <= |s| && r == s[|s| - |r|..]
    ensures forall i :: 0 <= i < |s| - |r| ==> drop(s[i])
  {
    s[Leading(s, drop)..]
  }

  /** Python's `s.strip(chars)`, with chars given as a test. */
  function StripBy(s: string, drop: char -> bool): (r: string)
    ensures |r| > 0 ==> !drop(r[0]) && !drop(r[|r| - 1])
    ensures |r| <= |s|
  {
    var l := TrimLeft(s, drop);
    l[..|l| - Trailing(l, drop)]
  }

  /** Stripping stops at the first character drop rejects. */
  lemma TrimLeftPrefix(p: string, b: string, drop: char -> bool)
    requires forall i :: 0 <= i < |p| ==> drop(p[i])
    requires |b| > 0 && !drop(b[0])
    ensures TrimLeft(p + b, drop) == b
  {
    assert (p + b)[|p|..] == b;
  }

  /** A string whose last character drop rejects keeps its end. */
  lemma StripByPrefix(p: string, b: string, drop: char -> bool)
    requires forall i :: 0 <= i < |p| ==> drop(p[i])
    requires |b| > 0 && !drop(b[0]) && !drop(b[|b| - 1])
    ensures StripBy(p + b, drop) == b
  {
    TrimLeftPrefix(p, b, drop);
  }

  /** A string with a non-space character does not strip to nothing. */
  lemma StripKeeps(s: string, i: nat)
    requires i < |s| && !IsSpace(s[i])
    ensures |Strip(s)| > 0
  {
    var l, t := StripSlice(s);
    assert !(i < l) && !(|s| - t <= i);
  }

  /** Python's `s.strip()`. */
  function Strip(s: string): (r: string)
    ensures |r| > 0 ==> !IsSpace(r[0]) && !IsSpace(r[|r| - 1])
    ensures |r| <= |s|
  {
    StripBy(s, IsSpace)
  }

  /** Strip of a string with no surrounding space leaves it unchanged. */
  lemma StripNoSpace(s: string)
    requires |s| > 0 ==> !IsSpace(s[0]) && !IsSpace(s[|s| - 1])
    ensures Strip(s) == s
  {
  }

  /** StripBy leaves a string whose ends it would not drop unchanged. */
  lemma StripByNone(s: string, drop: char -> bool)
    requires |s| > 0 ==> !drop(s[0]) && !drop(s[|s| - 1])
    ensures StripBy(s, drop) == s
  {
  }

  /** An occurrence inside a slice is an occurrence in that slice. */
  lemma OccursInSlice(s: string, sub: string, i: nat, a: nat, b: nat, w: string)
    requires a <= i && i + |sub| <= b <= |s| && OccursAt(s, sub, i) && w == s[a..b]
    ensures OccursAt(w, sub, i - a) && Contains(w, sub)
  {
    forall k | 0 <= k < |sub| ensures w[i - a + k] == sub[k] {
      assert w[i - a + k] == s[i + k];
    }
    assert w[i - a..i - a + |sub|] == sub;
    assert OccursAt(w, sub, i - a);
  }

  /** `strip()` keeps the slice between the leading and the trailing spaces. */
  lemma StripSlice(s: string) returns (l: nat, t: nat)
    ensures l + t <= |s| && Strip(s) == s[l..|s| - t]
    ensures forall k :: 0 <= k < l ==> IsSpace(s[k])
    ensures forall k :: |s| - t <= k < |s| ==> IsSpace(s[k])
  {
    l := Leading(s, IsSpace);
    var u := TrimLeft(s, IsSpace);
    assert u == s[l..];
    t := Trailing(u, IsSpace);
    assert Strip(s) == u[..|u| - t];
    var w := s[l..|s| - t];
    forall k | 0 <= k < |w| ensures u[k] == w[k] {
      assert u[k] == s[l + k];
    }
    assert u[..|u| - t] == w;
    forall k | |s| - t <= k < |s| ensures IsSpace(s[k]) {
      assert s[k] == u[k - l];
    }
  }

  /** A substring without surrounding spaces survives `strip()`. */
  lemma ContainsStrip(s: string, sub: string)
    requires |sub| > 0 && !IsSpace(sub[0]) && !IsSpace(sub[|sub| - 1])
    requires Contains(s, sub)
    ensures Contains(Strip(s), sub)
  {
    var i: nat :| i <= |s| && OccursAt(s, sub, i);
    var l, t := StripAround(s, sub, i);
    OccursInSlice(s, sub, i, l, |s| - t, Strip(s));
  }

  lemma OccursChar(s: string, sub: string, i: nat, k: nat)
    requires OccursAt(s, sub, i) && k < |sub|
    ensures s[i + k] == sub[k]
  {
    assert s[i..i + |sub|][k] == s[i + k];
  }

  /** `strip()` keeps an occurrence that neither starts nor ends with a space. */
  lemma StripAround(s: string, sub: string, i: nat) returns (l: nat, t: nat)
    requires |sub| > 0 && !IsSpace(sub[0]) && !IsSpace(sub[|sub| - 1]) && OccursAt(s, sub, i)
    ensures l <= i && i + |sub| <= |s| - t && Strip(s) == s[l..|s| - t]
  {
    OccursChar(s, sub, i, 0);
    OccursChar(s, sub, i, |sub| - 1);
    l, t := StripSlice(s);
  }


  /** A substring that lower() keeps survives `lower()`. */
  lemma ContainsLower(s: string, sub: string)
    requires forall k :: 0 <= k < |sub| ==> LowerChar(sub[k]) == sub[k]
    requires Contains(s, sub)
    ensures Contains(Lower(s), sub)
  {
    var i: nat :| i <= |s| && OccursAt(s, sub, i);
    var r := Lower(s);
    assert r[i..i + |sub|] == sub by {
      forall k | 0 <= k < |sub| ensures r[i + k] == sub[k] {
        assert s[i + k] == sub[k];
      }
    }
    assert OccursAt(r, sub, i);
  }

  /** Python's `s.replace(c, "")`. */
  function Remove(s: string, c: char): (r: string)
    ensures c !in r && |r| <= |s|
    ensures forall x :: x in r ==> x in s
  {
    if |s| == 0 then []
    else (if s[0] == c then [] else [s[0]]) + Remove(s[1..], c)
  }

  lemma {:induction false} RemoveAppend(a: string, b: string, c: char)
    ensures Remove(a + b, c) == Remove(a, c) + Remove(b, c)
  {
    if |a| == 0 {
      assert a + b == b;
    } else {
      var h := if a[0] == c then [] else [a[0]];
      var ra, rb := Remove(a[1..], c), Remove(b, c);
      calc {
        Remove(a + b, c);
        { assert (a + b)[0] == a[0] && (a + b)[1..] == a[1..] + b; }
        h + Remove(a[1..] + b, c);
        { RemoveAppend(a[1..], b, c); }
        h + (ra + rb);
        { assert h + (ra + rb) == (h + ra) + rb; }
        (h + ra) + rb;
      }
    }
  }

  /** Removing a character the string does not hold changes nothing. */
  lemma {:induction false} RemoveAbsent(s: string, c: char)
    requires c !in s
    ensures Remove(s, c) == s
  {
    if |s| > 0 {
      RemoveAbsent(s[1..], c);
      assert s == [s[0]] + s[1..];
    }
  }

  function LowerChar(ch: char): char
  {
    if 'A' <= ch <= 'Z' then (ch as int + 32) as char else ch
  }

  /** Python's `s.lower()` on ASCII letters; other characters are kept. */
  function Lower(s: string): (r: string)
    ensures |r| == |s| && forall i :: 0 <= i < |s| ==> r[i] == LowerChar(s[i])
  {
    seq(|s|, i requires 0 <= i < |s| => LowerChar(s[i]))
  }

  /** Python's `s[:n]`. */
  function Take<T>(s: seq<T>, n: nat): (r: seq<T>)
    ensures |r| == if n < |s| then n else |s|
    ensures r == s[..|r|]
  {
    if n < |s| then s[..n] else s
  }

  /** A non-empty sequence is its front followed by its last element. */
  lemma FrontLast<T>(s: seq<T>)
    requires |s| > 0
    ensures s[..|s| - 1] + [s[|s| - 1]] == s
  {
  }

  /** Python's `[f(x) for x in xs]`. */
  function MapSeq<A, B>(xs: seq<A>, f: A -> B): (r: seq<B>)
    ensures |r| == |xs|
  {
    if |xs| == 0 then [] else MapSeq(xs[..|xs| - 1], f) + [f(xs[|xs| - 1])]
  }

  lemma {:induction false} MapSeqAt<A, B>(xs: seq<A>, f: A -> B)
    ensures forall i :: 0 <= i < |xs| ==> MapSeq(xs, f)[i] == f(xs[i])
  {
    if |xs| > 0 {
      MapSeqAt(xs[..|xs| - 1], f);
    }
  }

  /** Mapping a list with one more element maps one more element. */
  lemma MapSeqSnoc<A, B>(xs: seq<A>, x: A, f: A -> B)
    ensures MapSeq(xs + [x], f) == MapSeq(xs, f) + [f(x)]
  {
    assert (xs + [x])[..|xs|] == xs;
  }

  /** Python's `[x for x in xs if p(x)]`. */
  function Filter<T>(xs: seq<T>, p: T -> bool): (r: seq<T>)
    ensures |r| <= |xs|
  {
    if |xs| == 0 then []
    else Filter(xs[..|xs| - 1], p) + (if p(xs[|xs| - 1]) then [xs[|xs| - 1]] else [])
  }

  /** The step of a loop that appends the elements that pass p. */
  lemma FilterNext<T>(xs: seq<T>, p: T -> bool, i: nat)
    requires i < |xs|
    ensures Filter(xs[..i + 1], p) == Filter(xs[..i], p) + (if p(xs[i]) then [xs[i]] else [])
  {
    assert xs[..i + 1][..i] == xs[..i];
  }

  /** The filtered list holds exactly the elements that pass p. */
  lemma {:induction false} FilterSpec<T>(xs: seq<T>, p: T -> bool)
    ensures forall x :: x in Filter(xs, p) <==> x in xs && p(x)
  {
    if |xs| > 0 {
      var n := |xs| - 1;
      FilterSpec(xs[..n], p);
      assert xs == xs[..n] + [xs[n]];
    }
  }

  /** Nothing passes p, so nothing is kept. */
  lemma {:induction false} FilterNone<T>(xs: seq<T>, p: T -> bool)
    requires forall x :: x in xs ==> !p(x)
    ensures Filter(xs, p) == []
  {
    if |xs| > 0 {
      var n := |xs| - 1;
      assert forall x :: x in xs[..n] ==> x in xs;
      FilterNone(xs[..n], p);
      assert xs[n] in xs;
    }
  }

  /** Where a kept element came from. */
  lemma FilterIndex<T>(xs: seq<T>, p: T -> bool, y: T) returns (k: nat)
    requires y in Filter(xs, p)
    ensures k < |xs| && xs[k] == y && p(y)
  {
    FilterSpec(xs, p);
    k :| 0 <= k < |xs| && xs[k] == y;
  }

  /** Python's `s[n:]`. */
  function Drop<T>(s: seq<T>, n: nat): (r: seq<T>)
    ensures Take(s, n) + r == s
  {
    if n < |s| then s[n..] else []
  }

  /** Decimal text of a natural number, as Python's `str(n)`. */
  function NatToString(n: nat): (r: string)
    ensures |r| >= 1 && forall i :: 0 <= i < |r| ==> '0' <= r[i] <= '9'
  {
    var d := ('0' as int + n % 10) as char;
    if n < 10 then [d] else NatToString(n / 10) + [d]
  }

  /** Position of m in `order`; |order| when it is not there. */
  function PosIn(order: seq<string>, m: string): (r: nat)
    ensures r <= |order|
    ensures r < |order| ==> order[r] == m
  {
    if |order| == 0 then 0
    else if order[0] == m then 0
    else 1 + PosIn(order[1..], m)
  }

  /** No entry before the position of m is m. */
  lemma {:induction false} PosInFirst(order: seq<string>, m: string)
    ensures forall i :: 0 <= i < PosIn(order, m) ==> order[i] != m
  {
    if |order| > 0 && order[0] != m {
      PosInFirst(order[1..], m);
      forall i | 0 < i < PosIn(order, m) ensures order[i] != m {
        assert order[i] == order[1..][i - 1];
      }
    }
  }
}

=== FILE: wrappers.dfy ===
/** Optional values, the model of Python's `None`. */
module Wrappers {
  datatype Option<T> = None | Some(value: T)
  {
    function GetOr(default: T): (r: T)
      ensures this.Some? ==> r == this.value
      ensures this.None? ==> r == default
    {
      match this
      case Some(v) => v
      case None => default
    }
  }
}
